=== FILE: README.md ===
# FCameraPRO and FCam in Dafny

This project models the core of FCameraPRO, the NVIDIA Tegra camera
application, and the FCam computational-photography library it is built on.
Each part is written in the same form as the code it models. Code that
changes state step by step becomes classes and methods with loops. Pure
computations become functions, and each is proved against a specification.

**Gallery (Java).**
- `GalleryImage`: an image record, with its paths and flags and the
  histogram `loadThumbnail` builds from the decoded thumbnail. The histogram
  takes 32768 fixed-point samples, computes a BT.709 integer luma for each,
  and normalises by the fullest bucket.
- `Gallery`: an image stack parsed from the SAX events of its
  `img_NNNN.xml` index file, and the `run` pass that loads thumbnails in
  order. Also the `ImageStackManager` that reconciles the in-memory stack
  list with the directory listing, keeps it in descending file-name order
  and submits incomplete stacks to the pool.
- `StackNames` and `GalleryOrder`: the ordering facts the manager relies on.
- `Utils`: `GetFileName`.
- `FCamInterfaceJava`: the Java listener registry and the message packing
  of `capture` and `enablePreviewParamEvaluator`. It also covers the
  next-stack-id extraction of the activity.

**JNI bridge.**
- `FCamBridge`: the native side of the message protocol. This is parameter
  id decoding, `setParamIntArray`, `getParamInt`, the dispatch of queued
  requests onto the current and previous shot parameters, and the preview
  histogram.
- `ParamSetRequests`: the owned byte buffer of a request.
- `TripleBuffers`: the preview triple buffer.
- `AsyncImageWriting`, `Thumbnails`, `DecimalText`: the asynchronous image
  writer, which covers prefix normalisation, `printf` file names, the 5 × 5
  box-filter thumbnail, id allocation and the XML index entries.

**FCam core.**
- `FCamTime`: `Time` arithmetic and comparisons, including the 32-bit
  difference.
- `CircularBuffers`: the ring buffer.
- `FCamImages`: `Image` geometry, sub-images, `copyFrom`, the shared
  reference counter and assignment.
- `Base`: `bytesPerPixel`.
- `Histograms` and `SharpnessMaps`: the statistics containers.
- `Shots`: the shot with its action set and id counter.
- `Events`: the event queue.
- `TegraDaemon`: the Tegra daemon's drop policy and bubble insertion.
- `TegraSensor`: mode selection, exposure and size bounds, and
  pending-shot counting.
- `TegraStatistics`: integer variance, the sharpness map and the histogram
  of a YUV420p frame.
- `YUV420`: fixed-point YUV420p to RGB24 conversion.
- `FCamAutoFocus` and `TegraAutoFocus`: the two autofocus state machines.

**Processing.**
- `TagValues` and `TagText`: the binary blob and the text form of a
  `TagValue`, with their readers.
- `Dumps`: the raw dump format.
- `TiffFiles`, `TiffHeaders` and `TiffImages`: TIFF IFD entries, the file
  header and strip layout, following the TIFF Revision 6.0 specification,
  Section 2.
- `Dng` and `DngPrivateData`: the DNG subset. This is the version gate, the
  CFA pattern, the black level and its repeat dimension, the white level,
  the illuminants, and the FCam private data. It follows the Adobe DNG
  Specification 1.3.0.0, chapter 4, and TIFF/EP (ISO 12234-2) for the CFA
  tags.

**Shared modules.**
- `Bytes` (little-endian words), `CArith` (C's truncating division and
  shifts), `SeqUtil` and `Wrappers` are shared helpers.

**Gallery behaviour worth noting:**
- The pool's duplicate check looks only at the waiting queue, so a stack
  whose load is running can be submitted again.
- A stack's path joins the known-path map before its file is parsed. An
  `IOException` therefore aborts the whole pass and leaves that path known
  without a stack.
- `loadComplete` records whether the last pass met no failure.

**Behaviour of the source kept as written:**
- `CircularBuffer` holds at most `allocated - 1` items.
- `Time::operator+=` lets the microsecond field reach 10^6.
- `enforceDropPolicy` drops down to `frameLimit - 1`.
- Parsing `[]` is a `TagValue` parse error.

## Model

| member | source | states |
|---|---|---|
| Base.BytesPerPixel | external/FCam/Base.cpp:7-19 | RGB24 and YUV24 take three bytes, RGB16, UYVY and RAW two, YUV420p one and only it, and exactly the unknown format zero |
| CircularBuffers.CircularBuffer.constructor | include/FCam/CircularBuffer.h:15-19 | a new ring of `s` slots retains nothing |
| CircularBuffers.CircularBuffer.Size | include/FCam/CircularBuffer.h:35-38 | the number of retained values is always below `allocated`: one slot stays unused |
| CircularBuffers.CircularBuffer.Items | include/FCam/CircularBuffer.h:27-33 | the retained values newest first; element i is `operator[](i)` |
| CircularBuffers.CircularBuffer.Push | include/FCam/CircularBuffer.h:40-50 | `start` and `end` stay in range; `[0]` is the pushed value and `[i]` the old `[i-1]`; the size grows by one up to `allocated - 1`, after which the oldest value is dropped |
| TripleBuffers.AfterSwapBack | android/packages/fcamerapro/jni/TripleBuffer.h:57-68 | back and spare change places, the flag is set, front stays, and the three buffers are the same three |
| TripleBuffers.AfterSwapFront | android/packages/fcamerapro/jni/TripleBuffer.h:30-45 | with the flag set, front and spare change places and the flag clears; without it nothing changes |
| TripleBuffers.PublishedBufferReachesFront | android/packages/fcamerapro/jni/TripleBuffer.h:30-68 | after `swapBackBuffer` then `swapFrontBuffer` the front is the buffer that was back |
| TripleBuffers.SwapsPermuteBuffers | android/packages/fcamerapro/jni/TripleBuffer.h:30-68 | after any sequence of swaps front, back and spare are a permutation of the starting three |
| TripleBuffers.TripleBuffer.constructor | android/packages/fcamerapro/jni/TripleBuffer.h:8-14 | front, back and spare are the three given buffers in order, flag clear |
| TripleBuffers.TripleBuffer.GetFrontBuffer | android/packages/fcamerapro/jni/TripleBuffer.h:20-28 | returns the front buffer and changes nothing |
| TripleBuffers.TripleBuffer.GetBackBuffer | android/packages/fcamerapro/jni/TripleBuffer.h:47-55 | returns the back buffer and changes nothing |
| TripleBuffers.TripleBuffer.SwapFrontBuffer | android/packages/fcamerapro/jni/TripleBuffer.h:30-45 | the new state is `AfterSwapFront` of the old one, the result is the new front, and the buffers stay a permutation of the constructor's |
| TripleBuffers.TripleBuffer.SwapBackBuffer | android/packages/fcamerapro/jni/TripleBuffer.h:57-68 | the new state is `AfterSwapBack` of the old one, the result is the new back, and the buffers stay a permutation of the constructor's |
| FCamTime.Diff | external/FCam/Time.cpp:14-17 | a 32-bit value congruent modulo 2^32 to the exact microsecond difference, and equal to it whenever that fits in an `int` |
| FCamTime.DiffWrapsPast2147Seconds | external/FCam/Time.cpp:14-17 | a gap of 2148 seconds comes out negative |
| FCamTime.AddAssign | external/FCam/Time.cpp:50-64 | the total microseconds grow by exactly `usecs`; the microsecond field ends in [0, 10^6], 10^6 included; a sum already in range is stored as is |
| FCamTime.Plus | external/FCam/Time.cpp:66-70 | the copy lies `usecs` later, so `(t + n) - t == n` whenever `n` fits in an `int`; the receiver is a value and stays as it was |
| FCamTime.ComparisonsConsistent | external/FCam/Time.cpp:19-47 | `<` is a strict total order on (s, us), `>` its converse, `<=`/`>=` add equality, `==` is field equality and `!=` its negation |
| FCamTime.LessMatchesInstants | external/FCam/Time.cpp:19-22 | on normalised times the lexicographic `<` is the order of the instants, in both directions |
| FCamTime.FullSecondBreaksOrder | external/FCam/Time.cpp:57-60 | a time `+=` leaves with 10^6 microseconds denotes the same instant as the next whole second yet compares below it |
| Utils.LastIndexOf | android/packages/fcamerapro/src/com/nvidia/fcamerapro/Utils.java:49 | `String.lastIndexOf`: the last position holding the character, or -1 when there is none |
| Utils.GetFileNameIsLastComponent | android/packages/fcamerapro/src/com/nvidia/fcamerapro/Utils.java:48-50 | the file name is a suffix of the path without separators, and what precedes it is empty or ends in a separator |
| Utils.GetFileNameOfPlainName | android/packages/fcamerapro/src/com/nvidia/fcamerapro/Utils.java:49 | a name without separators comes back unchanged |
| Utils.GetFileNameIdempotent | android/packages/fcamerapro/src/com/nvidia/fcamerapro/Utils.java:48-50 | taking the file name twice is taking it once |
| Utils.GetFileNameOfJoinedPath | android/packages/fcamerapro/src/com/nvidia/fcamerapro/Utils.java:48-50 | a plain name joined to any directory comes back as that name |
| Events.FirstMatch | external/FCam/Event.cpp:16-94 | the position of the first event the filter matches, or -1 exactly when none matches |
| Events.Truncated | external/FCam/Event.cpp:113-147 | what `vsnprintf` leaves in a 256-byte buffer: a prefix of the message of at most 255 characters, the whole message when it fits |
| Events.EventQueue.constructor | external/FCam/Event.cpp:149 | the queue starts empty |
| Events.EventQueue.Post | external/FCam/Event.cpp:96-101 | the event joins the back of the queue |
| Events.EventQueue.PostNew | external/FCam/Event.cpp:103-111 | an event with the given creator, type, data, time and message joins the back of the queue |
| Events.EventQueue.Error | external/FCam/Event.cpp:131-138 | exactly one Error event carrying the code, the creator and the truncated message is appended; the rest of the queue is kept |
| Events.EventQueue.Warning | external/FCam/Event.cpp:140-147 | exactly one Warning event carrying the code, the creator and the truncated message is appended; the rest of the queue is kept |
| Events.EventQueue.Next | external/FCam/Event.cpp:11-13 | an empty queue gives nothing; otherwise the front event is taken off and returned |
| Events.EventQueue.NextMatching | external/FCam/Event.cpp:16-94 | nothing comes back exactly when no event matches, and then the queue is unchanged; otherwise the first matching event is removed and returned and the others keep their order |
| ParamSetRequests.ParamSetRequest.Default | android/packages/fcamerapro/jni/ParamSetRequest.h:72-76 | a default request has id -1, size 0 and no buffer |
| ParamSetRequests.ParamSetRequest.constructor | android/packages/fcamerapro/jni/ParamSetRequest.h:78-83 | id and size as given and a fresh buffer of that size, holding the first `size` source bytes when a source is given |
| ParamSetRequests.ParamSetRequest.Copy | android/packages/fcamerapro/jni/ParamSetRequest.h:85-91 | the same id, size and bytes in a fresh buffer of its own |
| ParamSetRequests.ParamSetRequest.Assign | android/packages/fcamerapro/jni/ParamSetRequest.h:93-104 | id, size and bytes become the other request's, in a fresh buffer, and the other request is unchanged |
| ParamSetRequests.ParamSetRequest.GetDataAsInt | android/packages/fcamerapro/jni/ParamSetRequest.h:120-122 | the first four bytes read as a signed little-endian 32-bit value |
| ParamSetRequests.CopyInto | android/packages/fcamerapro/jni/ParamSetRequest.h:82 | `memcpy`: the destination holds the first bytes of the source |
| ParamSetRequests.IntRequestRoundTrip | android/packages/fcamerapro/jni/ParamSetRequest.h:78-122 | an `int` sent as a four-byte request reads back through `getDataAsInt` as the same value |
| FCamInterfaceJava.ShotMessageId | android/packages/fcamerapro/src/com/nvidia/fcamerapro/FCamInterface.java:178 | `PARAM_SHOT \| (i << 16)` in Java's 32-bit arithmetic: always an `int`, and `i * 2^16` for indices below 2^15 |
| FCamInterfaceJava.ShotArray | android/packages/fcamerapro/src/com/nvidia/fcamerapro/FCamInterface.java:169-177 | five ints, the last 1 exactly when the flash is on and 0 exactly when it is off |
| FCamInterfaceJava.ShotMessageAt | android/packages/fcamerapro/src/com/nvidia/fcamerapro/FCamInterface.java:171-179 | message k of the shot loop carries shot k under the id packed from k |
| FCamInterfaceJava.CaptureMessageOrder | android/packages/fcamerapro/src/com/nvidia/fcamerapro/FCamInterface.java:168-181 | `capture` sends the burst size, then one shot message per shot in order, then `PARAM_TAKE_PICTURE` with 1, and nothing else |
| FCamInterfaceJava.EvaluatorMessage | android/packages/fcamerapro/src/com/nvidia/fcamerapro/FCamInterface.java:105-121 | a message exactly for the four preview ids, the matching `AUTO_*_ON` id with 1 or 0 |
| FCamInterfaceJava.FCamInterface.constructor | android/packages/fcamerapro/src/com/nvidia/fcamerapro/FCamInterface.java:60-62 | no listeners and nothing sent |
| FCamInterfaceJava.FCamInterface.AddEventListener | android/packages/fcamerapro/src/com/nvidia/fcamerapro/FCamInterface.java:67-71 | throws exactly when the listener is registered already and then changes nothing; otherwise appends it; the registry never holds a listener twice |
| FCamInterfaceJava.FCamInterface.RemoveEventListener | android/packages/fcamerapro/src/com/nvidia/fcamerapro/FCamInterface.java:72-76 | throws exactly when the listener is absent; afterwards it is absent and every other listener is still registered, in order |
| FCamInterfaceJava.FCamInterface.Notify | android/packages/fcamerapro/src/com/nvidia/fcamerapro/FCamInterface.java:77-92 | every registered listener is called once, in registration order |
| FCamInterfaceJava.FCamInterface.EnablePreviewParamEvaluator | android/packages/fcamerapro/src/com/nvidia/fcamerapro/FCamInterface.java:105-121 | sends the message `EvaluatorMessage` gives, or nothing for an unknown id |
| FCamInterfaceJava.FCamInterface.Capture | android/packages/fcamerapro/src/com/nvidia/fcamerapro/FCamInterface.java:168-181 | the messages sent are exactly `CaptureMessages` of the shots, after what was sent before |
| FCamBridge.ParamId | android/packages/fcamerapro/jni/FCamInterface.cpp:92 | the parameter id is the low 16 bits of the message id, always in [0, 2^16) |
| FCamBridge.PictureId | android/packages/fcamerapro/jni/FCamInterface.cpp:93 | the picture index is the arithmetic right shift by 16, a signed 16-bit value |
| FCamBridge.DecodeInvertsPacking | android/packages/fcamerapro/jni/FCamInterface.cpp:457-459 | splitting a message id packed from a parameter id and a picture index gives both parts back |
| FCamBridge.ShotIdDecodes | android/packages/fcamerapro/jni/FCamInterface.cpp:457-464 | the id the Java side builds for shot i of a burst decodes to `PARAM_SHOT` and picture i |
| FCamBridge.DispatchedAll | android/packages/fcamerapro/jni/FCamInterface.cpp:450-580 | applying the queued tasks one after another keeps the state's fixed array sizes |
| FCamBridge.GetParamInt | android/packages/fcamerapro/jni/FCamInterface.cpp:113-154 | -1 for every unsupported id; each preview setting (exposure, focus, gain, white balance) is the evaluated value when its automatic mode is on and the user's value otherwise; burst size and output format of the last completed frame; 1 or 0 for viewer-active and capturing |
| FCamBridge.MaxBin | android/packages/fcamerapro/jni/FCamInterface.cpp:678-683 | at least 1, no smaller than any bin, and either 1 or one of the bins |
| FCamBridge.NormalisedInUnit | android/packages/fcamerapro/jni/FCamInterface.cpp:678-690 | for non-negative counts every published bin lies in [0, 1], the fullest bin shows as exactly 1, and an all-zero histogram shows as all zeros |
| FCamBridge.FillPreviewHistogram | android/packages/fcamerapro/jni/FCamInterface.cpp:677-690 | slot 4i holds bin i over the largest bin and slots 4i+1..4i+3 hold 0, for all 64 bins |
| FCamBridge.CopyBins | android/packages/fcamerapro/jni/FCamInterface.cpp:678-683 | the first loop leaves the running maximum (from 1) and each bin copied into slot 4i |
| FCamBridge.DivideBins | android/packages/fcamerapro/jni/FCamInterface.cpp:684-690 | the second loop turns slot 4i into the normalised bin and zeroes the three slots after it |
| FCamBridge.FrameDone | android/packages/fcamerapro/jni/FCamInterface.cpp:611-706 | the state after a preview frame keeps every array the same size |
| FCamBridge.UserValueReadBack | android/packages/fcamerapro/jni/FCamInterface.cpp:113-125 | an exposure set through `setParamInt` while automatic exposure is off is what `getParamInt` returns after the next frame |
| FCamBridge.SettingReadBack | android/packages/fcamerapro/jni/FCamInterface.cpp:113-144 | a preview setting set with its automatic mode off, or the burst size, is what `getParamInt` reports for that id after the next frame |
| FCamBridge.ShotDelivered | android/packages/fcamerapro/jni/FCamInterface.cpp:462-469 | a burst shot sent by the Java side fills capture slot i with its exposure (raised to at least 1000), focus, gain, white balance and flash flag, and leaves every other slot and the previous frame alone |
| FCamBridge.ShotTaskDecodes | android/packages/fcamerapro/jni/FCamInterface.cpp:462-469 | the request the Java side packs for shot i decodes on the native side as shot i, with the shot's exposure, focus, gain, white balance and flash flag in order |
| FCamBridge.ElementOfInts | android/packages/fcamerapro/jni/FCamInterface.cpp:459 | int k of a request's data is decoded from bytes 4k..4k+3 |
| FCamBridge.AutoExposureToggle | android/packages/fcamerapro/jni/FCamInterface.cpp:482-490 | turning automatic exposure on from off hands the user's exposure to the evaluator and keeps the user values; any other toggle copies the evaluated exposure into the user value and leaves the previous frame as it was |
| FCamBridge.WriterCreatedOnce | android/packages/fcamerapro/jni/FCamInterface.cpp:528-533 | only the first output-directory request creates the writer, with that directory |
| FCamBridge.CaptureNeedsWriter | android/packages/fcamerapro/jni/FCamInterface.cpp:537-549 | a burst is captured, between the start and complete callbacks, exactly when a writer exists and the flag is non-zero; otherwise the request changes nothing |
| FCamBridge.NativeApp.SetParamInt | android/packages/fcamerapro/jni/FCamInterface.cpp:84-86 | the value is queued as a 4-byte little-endian request and the camera state is untouched |
| FCamBridge.NativeApp.SetParamIntArray | android/packages/fcamerapro/jni/FCamInterface.cpp:88-111 | a 5-int `PARAM_SHOT` array is queued as 20 bytes; an array of any other size or for any other id queues nothing |
| FCamBridge.NativeApp.SetParamString | android/packages/fcamerapro/jni/FCamInterface.cpp:245-249 | the characters and their terminating NUL are queued |
| FCamBridge.NativeApp.OnFileSystemChanged | android/packages/fcamerapro/jni/FCamInterface.cpp:366-371 | a private file-system-changed request carrying 1 is queued |
| FCamBridge.NativeApp.Dispatch | android/packages/fcamerapro/jni/FCamInterface.cpp:457-575 | the state after one task is `Dispatched` of the state before it, and the request queue is left alone |
| FCamBridge.NativeApp.ProcessTasks | android/packages/fcamerapro/jni/FCamInterface.cpp:448-580 | the request queue is emptied and its tasks are applied in the order they were queued |
| FCamBridge.NativeApp.RunFrame | android/packages/fcamerapro/jni/FCamInterface.cpp:582-707 | with the viewer off nothing changes; otherwise metering results reach the automatic modes that are on, the 64 normalised bins are published, and the current shot becomes the previous one |
| GalleryImage.Luma | android/packages/fcamerapro/src/com/nvidia/fcamerapro/Image.java:56-58 | the weighted sum of the three colour bytes shifted right by 16 is a bucket index in [0, 256) |
| GalleryImage.Stride | android/packages/fcamerapro/src/com/nvidia/fcamerapro/Image.java:53 | the stride is non-negative and at most an eighth of the pixel count, so 32768 strides stay inside the bitmap |
| GalleryImage.SampleIndexInRange | android/packages/fcamerapro/src/com/nvidia/fcamerapro/Image.java:53-55 | the running position `tx` never reaches 2^31 and every sample `tx >>> 12` is a pixel of the bitmap |
| GalleryImage.Counts | android/packages/fcamerapro/src/com/nvidia/fcamerapro/Image.java:54-62 | the bucket counts after k samples are 256 entries |
| GalleryImage.CountsStep | android/packages/fcamerapro/src/com/nvidia/fcamerapro/Image.java:54-62 | one more sample adds one to exactly the bucket of that pixel's luma |
| GalleryImage.CountsSum | android/packages/fcamerapro/src/com/nvidia/fcamerapro/Image.java:54-62 | every sample lands in exactly one bucket: the 256 counts add up to the number of samples taken |
| GalleryImage.MaxCount | android/packages/fcamerapro/src/com/nvidia/fcamerapro/Image.java:64-65 | the result is non-negative, no smaller than any count, and either 0 or one of the counts |
| GalleryImage.ThumbnailHistogramNormalised | android/packages/fcamerapro/src/com/nvidia/fcamerapro/Image.java:63-68 | the stored histogram has 256 entries in [0, 1] and some entry is exactly 1 |
| GalleryImage.SampleLuma | android/packages/fcamerapro/src/com/nvidia/fcamerapro/Image.java:48-62 | the array holds the bucket counts of the 32768 evenly spaced samples |
| GalleryImage.LargestCount | android/packages/fcamerapro/src/com/nvidia/fcamerapro/Image.java:64-65 | the loop result is the largest count |
| GalleryImage.NormaliseCounts | android/packages/fcamerapro/src/com/nvidia/fcamerapro/Image.java:66-68 | each count is multiplied by `1 / maxv`, or set to 0 when `maxv` is 0 |
| GalleryImage.Image.constructor | android/packages/fcamerapro/src/com/nvidia/fcamerapro/Image.java:26-33 | the image and thumbnail names are the gallery directory, a separator and the attribute; flash is on exactly when its attribute is non-zero; gain, exposure and white balance are the attributes; no thumbnail is loaded |
| GalleryImage.Image.LoadThumbnail | android/packages/fcamerapro/src/com/nvidia/fcamerapro/Image.java:38-70 | an image that already has a thumbnail reports true and keeps it; otherwise the result is whether decoding succeeded and the thumbnail is the decoded bitmap; the histogram is always the one computed from the thumbnail held, or absent with it |
| GalleryImage.Image.GetHistogramData | android/packages/fcamerapro/src/com/nvidia/fcamerapro/Image.java:93-97 | with a histogram, its 256 values are copied to the front of `data` and the rest is kept; without one, `data` is untouched |
| StackNames.IndexOf | android/packages/fcamerapro/src/com/nvidia/fcamerapro/FCameraPROActivity.java:73 | `String.indexOf`: -1, or a position where the searched text occurs |
| StackNames.DigitsStartAtFour | android/packages/fcamerapro/src/com/nvidia/fcamerapro/FCameraPROActivity.java:73 | the activity finds `\d` at index 4 of `img_\d{4}.xml` |
| StackNames.LexLessIrreflexive | android/packages/fcamerapro/src/com/nvidia/fcamerapro/ImageStackManager.java:92 | no name sorts before itself under `String.compareTo` |
| StackNames.LexLessTransitive | android/packages/fcamerapro/src/com/nvidia/fcamerapro/ImageStackManager.java:92 | the `compareTo` order is transitive |
| StackNames.LexLessTotal | android/packages/fcamerapro/src/com/nvidia/fcamerapro/ImageStackManager.java:92 | any two different names are ordered one way or the other |
| StackNames.LexLessAsymmetric | android/packages/fcamerapro/src/com/nvidia/fcamerapro/ImageStackManager.java:92 | two names are never each before the other |
| StackNames.Insert | android/packages/fcamerapro/src/com/nvidia/fcamerapro/ImageStackManager.java:92 | inserting into a sorted list gives a sorted list holding the same names plus the new one |
| StackNames.Sort | android/packages/fcamerapro/src/com/nvidia/fcamerapro/ImageStackManager.java:92 | `Arrays.sort` leaves the names in `compareTo` order and a permutation of the input |
| StackNames.DecimalValue | android/packages/fcamerapro/src/com/nvidia/fcamerapro/FCameraPROActivity.java:74 | `Integer.parseInt` of k decimal digits is below 10^k |
| StackNames.StackId | android/packages/fcamerapro/src/com/nvidia/fcamerapro/FCameraPROActivity.java:74 | the four digits of a stack file name are an id below 10000 |
| StackNames.NextFileId | android/packages/fcamerapro/src/com/nvidia/fcamerapro/FCameraPROActivity.java:68-75 | no id is set for an empty listing, and one is set for any non-empty one |
| StackNames.IdDigits | android/packages/fcamerapro/src/com/nvidia/fcamerapro/FCameraPROActivity.java:74 | characters 4 to 7 of a name matching the pattern are decimal digits |
| StackNames.LexLessPrefix | android/packages/fcamerapro/src/com/nvidia/fcamerapro/FCameraPROActivity.java:69-74 | a `compareTo` order between two names carries over to their first k characters |
| StackNames.OrderedNamesOrderedIds | android/packages/fcamerapro/src/com/nvidia/fcamerapro/FCameraPROActivity.java:69-74 | names in `compareTo` order have ids in numeric order |
| StackNames.SortedLastIsGreatest | android/packages/fcamerapro/src/com/nvidia/fcamerapro/FCameraPROActivity.java:69-74 | every name is at most the last name of the sorted listing |
| StackNames.NextFileIdOfLast | android/packages/fcamerapro/src/com/nvidia/fcamerapro/FCameraPROActivity.java:69-75 | the next id is one more than the id of the last name in sorted order, and that name matches the pattern |
| StackNames.NextFileIdIsFresh | android/packages/fcamerapro/src/com/nvidia/fcamerapro/FCameraPROActivity.java:68-75 | the id handed to the native side exceeds the id of every existing stack file, so a new stack never overwrites one |
| GalleryOrder.Paths | android/packages/fcamerapro/src/com/nvidia/fcamerapro/ImageStackManager.java:97-100 | path i is the gallery directory, a separator and name i |
| GalleryOrder.MatchingNames | android/packages/fcamerapro/src/com/nvidia/fcamerapro/ImageStackManager.java:83-91 | exactly the listed names that match the stack pattern; a null listing counts as empty |
| GalleryOrder.Matching | android/packages/fcamerapro/src/com/nvidia/fcamerapro/ImageStackManager.java:83-87 | the filter keeps exactly the names that match the stack pattern |
| GalleryOrder.MatchingNoDuplicates | android/packages/fcamerapro/src/com/nvidia/fcamerapro/ImageStackManager.java:83-87 | filtering a listing without repeated names gives one without repeated names |
| GalleryOrder.LexLessCommonPrefix | android/packages/fcamerapro/src/com/nvidia/fcamerapro/ImageStackManager.java:97-100 | putting the same directory in front of two names keeps their order |
| GalleryOrder.NoDuplicatesOfPermutation | android/packages/fcamerapro/src/com/nvidia/fcamerapro/ImageStackManager.java:92 | sorting cannot introduce a repeated name |
| GalleryOrder.ListedPathsAscending | android/packages/fcamerapro/src/com/nvidia/fcamerapro/ImageStackManager.java:83-100 | the stack-file paths of a listing are strictly ascending when the directory has no repeated names |
| GalleryOrder.DescendingIsDescIn | android/packages/fcamerapro/src/com/nvidia/fcamerapro/ImageStackManager.java:113-119 | a strictly descending list whose paths all occur in the ascending listing is the descending walk over the listing that picks them |
| Gallery.ImageAttributes | android/packages/fcamerapro/src/com/nvidia/fcamerapro/ImageStack.java:38-42 | the handler keeps at most one attribute record per parser event |
| Gallery.ImageAttributesCount | android/packages/fcamerapro/src/com/nvidia/fcamerapro/ImageStack.java:38-42 | each `image` element adds exactly one image and no other element adds any |
| Gallery.FirstFailure | android/packages/fcamerapro/src/com/nvidia/fcamerapro/ImageStack.java:84-92 | the first image that had no thumbnail and failed to decode, every image before it loaded or loadable; the image count when there is none |
| Gallery.AfterRun | android/packages/fcamerapro/src/com/nvidia/fcamerapro/ImageStack.java:84-92 | a pass leaves exactly as many thumbnail slots as images |
| Gallery.RunCompletesIffAllLoaded | android/packages/fcamerapro/src/com/nvidia/fcamerapro/ImageStack.java:84-93 | a pass reports completion exactly when every image ends with a thumbnail |
| Gallery.RunKeepsLoaded | android/packages/fcamerapro/src/com/nvidia/fcamerapro/ImageStack.java:86 | a pass never replaces or drops a thumbnail that was already loaded |
| Gallery.StageStep | android/packages/fcamerapro/src/com/nvidia/fcamerapro/ImageStack.java:85-91 | one more image through the loop loads its thumbnail if it lacked one, and the loop stops exactly at the first failure |
| Gallery.StageDone | android/packages/fcamerapro/src/com/nvidia/fcamerapro/ImageStack.java:85-92 | when the loop ends, at the end or at the first failure, the thumbnails are those of a whole pass |
| Gallery.Names | android/packages/fcamerapro/src/com/nvidia/fcamerapro/ImageStackManager.java:103 | name i is the file path of stack i |
| Gallery.Survivors | android/packages/fcamerapro/src/com/nvidia/fcamerapro/ImageStackManager.java:102-111 | removal never makes the list longer |
| Gallery.VanishedNamesMembers | android/packages/fcamerapro/src/com/nvidia/fcamerapro/ImageStackManager.java:104-106 | the paths forgotten by the removal loop are exactly the stacks' paths the listing lacks |
| Gallery.SurvivorsSubset | android/packages/fcamerapro/src/com/nvidia/fcamerapro/ImageStackManager.java:102-111 | every remaining stack was in the list and its file is listed |
| Gallery.SurvivorsNames | android/packages/fcamerapro/src/com/nvidia/fcamerapro/ImageStackManager.java:102-111 | removal keeps exactly the listed paths, and a newest-first list stays newest first |
| Gallery.SurvivorsMembers | android/packages/fcamerapro/src/com/nvidia/fcamerapro/ImageStackManager.java:102-111 | a stack stays exactly when its path is listed |
| Gallery.SurvivorsDescending | android/packages/fcamerapro/src/com/nvidia/fcamerapro/ImageStackManager.java:102-111 | removal keeps a newest-first list newest first |
| Gallery.DescendingTail | android/packages/fcamerapro/src/com/nvidia/fcamerapro/ImageStackManager.java:102-111 | the tail of a newest-first list is newest first and older than its head |
| Gallery.DescendingCons | android/packages/fcamerapro/src/com/nvidia/fcamerapro/ImageStackManager.java:113-119 | a path newer than every path of a newest-first list can go in front of it |
| Gallery.RemovalStep | android/packages/fcamerapro/src/com/nvidia/fcamerapro/ImageStackManager.java:102-111 | one step of the loop: a stack whose file is gone is removed along with its path while the index stays put; otherwise the index advances |
| Gallery.RemovalDone | android/packages/fcamerapro/src/com/nvidia/fcamerapro/ImageStackManager.java:102-111 | at the end of the loop the list holds the survivors, the known paths lost exactly the vanished ones, and something was removed exactly when the list got shorter |
| Gallery.RemovalKeepsConsistent | android/packages/fcamerapro/src/com/nvidia/fcamerapro/ImageStackManager.java:102-111 | after removal a consistent list is still newest first, its paths are the remaining known paths, and all are listed |
| Gallery.KeptPathsWereUnknown | android/packages/fcamerapro/src/com/nvidia/fcamerapro/ImageStackManager.java:104-115 | a listed path unknown after removal was unknown before it, so no known stack is created twice |
| Gallery.NamesInsert | android/packages/fcamerapro/src/com/nvidia/fcamerapro/ImageStackManager.java:117 | inserting a stack at an index inserts its path at that index of the names |
| Gallery.InsertStart | android/packages/fcamerapro/src/com/nvidia/fcamerapro/ImageStackManager.java:113 | from a consistent newest-first list inside the listing, the insertion loop's invariant holds before its first step |
| Gallery.InsertStep | android/packages/fcamerapro/src/com/nvidia/fcamerapro/ImageStackManager.java:114-118 | a known path is skipped; an unknown one is registered and its stack placed at `length-1-i`, which keeps the invariant |
| Gallery.InsertDone | android/packages/fcamerapro/src/com/nvidia/fcamerapro/ImageStackManager.java:113-119 | after the whole walk the names are every listed path, newest first, and the known paths are exactly those names |
| Gallery.Pending | android/packages/fcamerapro/src/com/nvidia/fcamerapro/ImageStackManager.java:124-126 | only stacks in the list, not load-complete and not already waiting, are submitted |
| Gallery.PendingStep | android/packages/fcamerapro/src/com/nvidia/fcamerapro/ImageStackManager.java:124-126 | looking at one more stack appends it exactly when it is neither load-complete nor waiting |
| Gallery.PendingComplete | android/packages/fcamerapro/src/com/nvidia/fcamerapro/ImageStackManager.java:124-126 | every stack that is neither load-complete nor waiting is submitted |
| Gallery.ListedPathSet | android/packages/fcamerapro/src/com/nvidia/fcamerapro/ImageStackManager.java:96-100 | `stackFilePaths` holds exactly the full paths of the listed names |
| Gallery.ImageStack.Thumbnails | android/packages/fcamerapro/src/com/nvidia/fcamerapro/ImageStack.java:86 | one thumbnail slot per image, slot k being image k's |
| Gallery.ImageStack.constructor | android/packages/fcamerapro/src/com/nvidia/fcamerapro/ImageStack.java:29-52 | the file name and owner are kept, loading is not complete, and the images are fresh, unloaded, and built in order from the `image` elements delivered |
| Gallery.ImageStack.Run | android/packages/fcamerapro/src/com/nvidia/fcamerapro/ImageStack.java:83-95 | the thumbnails become those of a whole pass, completion is recorded exactly when no image failed, and the owner posts one notification |
| Gallery.ImageStack.LoadAt | android/packages/fcamerapro/src/com/nvidia/fcamerapro/ImageStack.java:86-90 | the step succeeds exactly when the image had a thumbnail or decoding succeeded, and only that image's slot changes |
| Gallery.ImageStack.RemoveFromFileSystem | android/packages/fcamerapro/src/com/nvidia/fcamerapro/ImageStack.java:58-64 | each image's thumbnail and then image file are deleted in order, then the index file; nothing else |
| Gallery.ImageStackManager.constructor | android/packages/fcamerapro/src/com/nvidia/fcamerapro/ImageStackManager.java:35-37 | a new manager knows no paths, stacks or listeners, has posted and submitted nothing, and is consistent |
| Gallery.ImageStackManager.AddContentChangeListener | android/packages/fcamerapro/src/com/nvidia/fcamerapro/ImageStackManager.java:42-46 | a listener already registered raises the exception and changes nothing; otherwise it is appended |
| Gallery.ImageStackManager.RemoveContentChangeListener | android/packages/fcamerapro/src/com/nvidia/fcamerapro/ImageStackManager.java:48-52 | an unregistered listener raises the exception; the listener's entry is removed and every other listener stays |
| Gallery.ImageStackManager.NotifyContentChange | android/packages/fcamerapro/src/com/nvidia/fcamerapro/ImageStackManager.java:54-61 | exactly one runnable is posted to the UI thread |
| Gallery.ImageStackManager.RefreshImageStacks | android/packages/fcamerapro/src/com/nvidia/fcamerapro/ImageStackManager.java:79-130 | from a consistent gallery a completed pass leaves exactly the listed stack files, newest first, with new stacks built from their files; an `IOException` leaves its path known without a stack; one notification exactly when a stack was removed; the pending stacks are submitted |
| Gallery.ImageStackManager.Reconcile | android/packages/fcamerapro/src/com/nvidia/fcamerapro/ImageStackManager.java:96-119 | the removal and registration loops together: the same outcomes as the refresh pass, and `removedAny` exactly when the list lost a stack |
| Gallery.ImageStackManager.CollectPaths | android/packages/fcamerapro/src/com/nvidia/fcamerapro/ImageStackManager.java:96-100 | the set holds exactly the full paths of the names |
| Gallery.ImageStackManager.RemoveVanished | android/packages/fcamerapro/src/com/nvidia/fcamerapro/ImageStackManager.java:101-111 | the list becomes the stacks whose file is listed, in order, the known paths lose exactly the vanished ones, and `removedAny` says whether any went |
| Gallery.ImageStackManager.InsertNew | android/packages/fcamerapro/src/com/nvidia/fcamerapro/ImageStackManager.java:113-119 | from a settled state, a pass without an `IOException` completes with every listed path newest first; new stacks are fresh, built from their documents, and for paths that were unknown |
| Gallery.ImageStackManager.InsertAll | android/packages/fcamerapro/src/com/nvidia/fcamerapro/ImageStackManager.java:113-119 | the loop keeps its invariant down to the first name, or stops at an unreadable file whose path it has already registered |
| Gallery.ImageStackManager.InsertOne | android/packages/fcamerapro/src/com/nvidia/fcamerapro/ImageStackManager.java:114-118 | an unknown path is registered first; an unreadable file then aborts with nothing inserted, and an index past the end aborts only from an unsettled state |
| Gallery.ImageStackManager.AddStack | android/packages/fcamerapro/src/com/nvidia/fcamerapro/ImageStackManager.java:117 | a fresh stack for the path, built from the document and not loaded, is inserted at `idx` and every other stack keeps its place |
| Gallery.ImageStackManager.SubmitPending | android/packages/fcamerapro/src/com/nvidia/fcamerapro/ImageStackManager.java:124-126 | the submitted stacks grow by exactly the pending ones, in list order |
| AsyncImageWriting.FourDigits | android/packages/fcamerapro/jni/AsyncImageWriter.cpp:18 | a set id of 0 to 9999 prints under `%04i` as exactly four digits that read back as the id |
| AsyncImageWriting.XmlNameMatchesGallery | android/packages/fcamerapro/jni/AsyncImageWriter.cpp:18 | every index file the writer names for ids 0 to 9999 is one the gallery's stack-file pattern accepts, and the gallery recovers the same id from it |
| AsyncImageWriting.XmlNameInjective | android/packages/fcamerapro/jni/AsyncImageWriter.cpp:18 | two set ids with the same index file name are the same id |
| AsyncImageWriting.FrameTailInjective | android/packages/fcamerapro/jni/AsyncImageWriter.cpp:19-20 | the `%04i_%02i.%s` tail shared by image and thumbnail names determines set id, frame index and extension |
| AsyncImageWriting.ImageNameInjective | android/packages/fcamerapro/jni/AsyncImageWriter.cpp:19 | an image file name determines its set id, frame index and extension |
| AsyncImageWriting.ThumbnailNameInjective | android/packages/fcamerapro/jni/AsyncImageWriter.cpp:20 | a thumbnail file name determines its set id and frame index |
| AsyncImageWriting.NameKindsDistinct | android/packages/fcamerapro/jni/AsyncImageWriter.cpp:18-20 | index files, images and thumbnails never collide, whatever the ids and indices |
| AsyncImageWriting.NormalizedPrefix | android/packages/fcamerapro/jni/AsyncImageWriter.cpp:233-242 | the copied prefix ends in '/', and it is the original when that already ended in '/', else the original plus '/' |
| AsyncImageWriting.NormalizedPrefixIdempotent | android/packages/fcamerapro/jni/AsyncImageWriter.cpp:233-242 | normalising an already normalised prefix changes nothing |
| AsyncImageWriting.ImageAttributes | android/packages/fcamerapro/jni/AsyncImageWriter.cpp:157-173 | the `<image>` element names the frame's JPEG and thumbnail, flash is 1 exactly when a valid positive flash brightness was recorded (else 0), gain is 100 times the gain truncated |
| AsyncImageWriting.DumpOps | android/packages/fcamerapro/jni/AsyncImageWriter.cpp:135-216 | a dump writes nothing exactly when the set is empty, and otherwise writes the XML index first |
| AsyncImageWriting.IndexNamesWrittenFiles | android/packages/fcamerapro/jni/AsyncImageWriter.cpp:154-215 | every thumbnail the index names is written; the image it names is written exactly when the frame's format is JPEG, and never otherwise |
| AsyncImageWriting.SaveJpegOrigin | android/packages/fcamerapro/jni/AsyncImageWriter.cpp:195-201 | every JPEG a dump writes belongs to a frame saved in JPEG format and carries that frame's image name |
| AsyncImageWriting.ImageSet.constructor | android/packages/fcamerapro/jni/AsyncImageWriter.cpp:27-29 | a new set has the given id and prefix and no frames |
| AsyncImageWriting.ImageSet.Add | android/packages/fcamerapro/jni/AsyncImageWriter.cpp:34-37 | the frame and its format are appended together, after every earlier one |
| AsyncImageWriting.ImageSet.DumpToFileSystem | android/packages/fcamerapro/jni/AsyncImageWriter.cpp:135-216 | the writes performed are exactly the dump specification: nothing for an empty set, else index, callback, then every frame's files in order |
| AsyncImageWriting.ImageSet.PrintIndex | android/packages/fcamerapro/jni/AsyncImageWriter.cpp:151-176 | the printed index is the header with the frame count, one element per frame in order, and the footer |
| AsyncImageWriting.ImageSet.WriteFrames | android/packages/fcamerapro/jni/AsyncImageWriter.cpp:184-215 | the per-frame loop writes, for every frame in order, its JPEG when JPEG-formatted, its thumbnail in the frame's own image type, then the callback |
| AsyncImageWriting.FreeFileId.constructor | android/packages/fcamerapro/jni/AsyncImageWriter.cpp:223 | the shared id counter starts at 0 |
| AsyncImageWriting.SetFreeFileId | android/packages/fcamerapro/jni/AsyncImageWriter.cpp:225-227 | the shared counter becomes the given id |
| AsyncImageWriting.AsyncImageWriter.constructor | android/packages/fcamerapro/jni/AsyncImageWriter.cpp:229-247 | the writer's prefix is the normalised directory, ending in '/', with an empty queue and no callback |
| AsyncImageWriting.AsyncImageWriter.NewImageSet | android/packages/fcamerapro/jni/AsyncImageWriter.cpp:257-276 | the returned id is the first id from the counter whose index file does not exist, every id skipped has one, and the counter ends one past the id returned |
| AsyncImageWriting.AsyncImageWriter.Push | android/packages/fcamerapro/jni/AsyncImageWriter.cpp:278-282 | a non-null set joins the back of the queue; a null one leaves the queue unchanged |
| AsyncImageWriting.AsyncImageWriter.SetOnFileSystemChangedCallback | android/packages/fcamerapro/jni/AsyncImageWriter.cpp:284-286 | the callback setting becomes the one given |
| AsyncImageWriting.AsyncImageWriter.Stop | android/packages/fcamerapro/jni/AsyncImageWriter.cpp:249-252 | the destructor queues a null set behind everything already queued |
| AsyncImageWriting.AsyncImageWriter.ServeOne | android/packages/fcamerapro/jni/AsyncImageWriter.cpp:288-303 | the first queued set is removed; a null one stops the worker with no writes, any other is dumped exactly as its specification says, with the current callback |
| Thumbnails.FitsSource | android/packages/fcamerapro/jni/AsyncImageWriter.cpp:70-77 | a channel whose last pixel lies inside the buffer can be read at every pixel the box filter visits |
| Thumbnails.RowRun | android/packages/fcamerapro/jni/AsyncImageWriter.cpp:73-75 | a run of byte pixels adds up to at most 255 per pixel |
| Thumbnails.BoxRows | android/packages/fcamerapro/jni/AsyncImageWriter.cpp:72-77 | a stack of five-pixel rows adds up to at most 255 × 5 per row |
| Thumbnails.Box | android/packages/fcamerapro/jni/AsyncImageWriter.cpp:70-77 | a 5 × 5 box of byte pixels adds up to at most 25 × 255 |
| Thumbnails.Spacing | android/packages/fcamerapro/jni/AsyncImageWriter.cpp:62-63 | the fixed-point spacing between box origins is such that the requested count of them fits in the extent less the four-pixel margin, with the spacing unbounded (the source's `int` agrees for extents below 32772) |
| Thumbnails.OriginInside | android/packages/fcamerapro/jni/AsyncImageWriter.cpp:62-66 | every box origin leaves room for the whole 5 × 5 box inside the source, so no read leaves the channel, with the spacing unbounded (the source's `int` agrees for extents below 32772) |
| Thumbnails.Out | android/packages/fcamerapro/jni/AsyncImageWriter.cpp:79 | every output pixel, the scaled box sum, fits a byte (at most 254) |
| Thumbnails.ScaledBoxFitsByte | android/packages/fcamerapro/jni/AsyncImageWriter.cpp:16-79 | a box of 25 byte pixels scaled by 2621 / 65536 is at most 254 |
| Thumbnails.FlatBoxDarkensByOne | android/packages/fcamerapro/jni/AsyncImageWriter.cpp:15-79 | because 2621 is 65536 / 25 rounded down, a flat box of value v comes out as v − 1 (0 stays 0) |
| Thumbnails.Thumbnail | android/packages/fcamerapro/jni/AsyncImageWriter.cpp:65-85 | the downsampled channel holds exactly width × height output pixels |
| Thumbnails.ThumbnailPixel | android/packages/fcamerapro/jni/AsyncImageWriter.cpp:65-85 | output pixel (j, i) sits at row-major position i × width + j of the downsampled channel |
| Thumbnails.FlatChannel | android/packages/fcamerapro/jni/AsyncImageWriter.cpp:59-87 | a flat source channel of value v downsamples to a flat thumbnail of value v − 1 (0 stays 0) |
| Thumbnails.RowFilter | android/packages/fcamerapro/jni/AsyncImageWriter.cpp:73-75 | the inner filter loop adds exactly the five pixels of the box row |
| Thumbnails.BoxFilter | android/packages/fcamerapro/jni/AsyncImageWriter.cpp:70-77 | the two filter loops, moving one source row down each time, add exactly the 5 × 5 box |
| Thumbnails.OutPixel | android/packages/fcamerapro/jni/AsyncImageWriter.cpp:70-79 | the value stored for one output pixel is the box sum at its fixed-point origin, scaled |
| Thumbnails.Put | android/packages/fcamerapro/jni/AsyncImageWriter.cpp:79-80 | storing one output pixel extends the channel's contents by that pixel and changes no other byte |
| Thumbnails.DownsampleRow | android/packages/fcamerapro/jni/AsyncImageWriter.cpp:66-82 | one pass of the column loop writes exactly the next output row after the earlier rows and touches no byte outside that row's slots |
| Thumbnails.DownsampleChannel | android/packages/fcamerapro/jni/AsyncImageWriter.cpp:39-87 | the destination channel holds the whole downsampled channel and no byte outside the channel changes |
| Thumbnails.QuarterPlane | android/packages/fcamerapro/jni/AsyncImageWriter.cpp:106-116 | a chroma plane of half the width and half the height fits in a quarter of the luma plane |
| Thumbnails.PlaneFits | android/packages/fcamerapro/jni/AsyncImageWriter.cpp:102-116 | the Y, U and V planes of a YUV420p image each lie inside a buffer the image fits in |
| Thumbnails.PlanarThumbnail | android/packages/fcamerapro/jni/AsyncImageWriter.cpp:102-116 | the Y plane of the thumbnail has the full thumbnail size, the chroma planes a quarter of it |
| Thumbnails.PlanarThumbnailIs | android/packages/fcamerapro/jni/AsyncImageWriter.cpp:106-116 | a chroma plane of the thumbnail is the half-size thumbnail of the half-size source plane |
| Thumbnails.ColourFits | android/packages/fcamerapro/jni/AsyncImageWriter.cpp:118-129 | each of the three interleaved colours of an RGB24 image lies inside its buffer |
| Thumbnails.InterleavedThumbnail | android/packages/fcamerapro/jni/AsyncImageWriter.cpp:118-129 | each colour of an RGB24 thumbnail has width × height pixels |
| Thumbnails.CreateThumbnail | android/packages/fcamerapro/jni/AsyncImageWriter.cpp:89-133 | with matching types, every Y/U/V plane (YUV420p) or every colour (RGB24) of the destination holds its downsampled channel; with different types or another type the destination is unchanged |
| Thumbnails.CreatePlanar | android/packages/fcamerapro/jni/AsyncImageWriter.cpp:102-117 | all three YUV420p planes of the destination hold their thumbnails at the end |
| Thumbnails.DownsampleY | android/packages/fcamerapro/jni/AsyncImageWriter.cpp:103-104 | the Y plane of the destination holds the full-size thumbnail of the source's Y plane |
| Thumbnails.DownsampleU | android/packages/fcamerapro/jni/AsyncImageWriter.cpp:105-112 | the U plane holds its half-size thumbnail and the Y plane written before is kept |
| Thumbnails.DownsampleV | android/packages/fcamerapro/jni/AsyncImageWriter.cpp:113-116 | the V plane holds its half-size thumbnail and the Y and U planes written before are kept |
| Thumbnails.CreateInterleaved | android/packages/fcamerapro/jni/AsyncImageWriter.cpp:118-129 | all three interleaved colours of the destination hold their thumbnails at the end |
| Thumbnails.DownsampleColour | android/packages/fcamerapro/jni/AsyncImageWriter.cpp:121-128 | the next colour holds its thumbnail and the colours written before are kept |
| Thumbnails.InterleavedApart | android/packages/fcamerapro/jni/AsyncImageWriter.cpp:120-128 | two different colours of an interleaved image never share a byte, so writing one keeps the others |
| DecimalText.Digit | android/packages/fcamerapro/jni/AsyncImageWriter.cpp:18-20 | each digit value 0 to 9 prints as a digit character that reads back as that value |
| DecimalText.Decimal | android/packages/fcamerapro/jni/AsyncImageWriter.cpp:18-20 | `%i` of a non-negative value prints at least one character, all digits |
| DecimalText.PrintInt | android/packages/fcamerapro/jni/AsyncImageWriter.cpp:146-172 | `%0Wi` prints only digits and minus signs, at least the field width of them |
| DecimalText.DecimalRoundTrip | android/packages/fcamerapro/jni/AsyncImageWriter.cpp:18-20 | the digits printed for a non-negative value read back as the value |
| DecimalText.LeadingZeros | android/packages/fcamerapro/jni/AsyncImageWriter.cpp:18-20 | the zero padding of `%04i` and `%02i` does not change the value read back |
| DecimalText.DecimalLength | android/packages/fcamerapro/jni/AsyncImageWriter.cpp:18-20 | a value below 10^k prints in at most k digits, so `%0ki` pads it to exactly k |
| DecimalText.PrintIntValue | android/packages/fcamerapro/jni/AsyncImageWriter.cpp:18-20 | what `%0Wi` prints reads back as the value: its digits when non-negative, a minus sign before the digits of the magnitude otherwise |
| DecimalText.PrintIntInjective | android/packages/fcamerapro/jni/AsyncImageWriter.cpp:18-20 | different values never print alike, at any field width |
| FCamImages.DefaultIsInvalid | external/FCam/Image.cpp:17-23 | a default-constructed image is not valid |
| FCamImages.AllocateHeight | external/FCam/Image.cpp:405-412 | the allocated height is never below the image height (YUV420p adds half of it) |
| FCamImages.AllocateHeightHoldsPlanes | external/FCam/Image.cpp:405-412 | a YUV420p allocation of `allocateHeight` rows holds the luma plane and both half-size chroma planes |
| FCamImages.ImageEqualIsEquivalence | external/FCam/Image.cpp:379-386 | image equality is reflexive, symmetric and transitive |
| FCamImages.WithBuffer | external/FCam/Image.cpp:288-328 | after `setBuffer(b, d)` the buffer is none for Discard and AutoAllocate and b otherwise, the data is d or b when d is null, the counter is dropped, and no other field changes |
| FCamImages.ClipSize | external/FCam/Image.cpp:229-238 | the clipped size always ends inside the image; a requested size is kept exactly when its end, compared in `unsigned` arithmetic, lies in [0, width], and is otherwise replaced by the distance to the edge, so a negative size reaching before column 0 is clipped |
| FCamImages.MinusOneWidthClipped | external/FCam/Image.cpp:233-238 | a size of -1 × -1 at the origin wraps in the unsigned test and becomes the whole image |
| FCamImages.SubImageView | external/FCam/Image.cpp:224-252 | an invalid image or an origin outside it gives the default image; otherwise the clipped region at the right offset into the same buffer and counter |
| FCamImages.ExternalRowBytes | external/FCam/Image.cpp:146 | the row pitch of an image over caller data is the one given, or the packed pitch for -1 |
| FCamImages.ExternalView | external/FCam/Image.cpp:136-155 | an image over caller data has the given size, format, data and pitch, no owned buffer, no counter yet and no allocation |
| FCamImages.CopyRowsInside | external/FCam/Image.cpp:268-286 | every row `copyFrom` copies lies inside both the source's and the destination's allocation |
| FCamImages.AssignedView | external/FCam/Image.cpp:199-222 | assignment leaves a target that already shares counter and data with the source as it was, and otherwise makes it the source's handle |
| FCamImages.AssignToOriginSubImageKeepsSize | external/FCam/Image.cpp:201-205 | as written, assigning a full image to its own sub-image at the origin is skipped, so the target keeps its smaller size and does not compare equal to the source |
| FCamImages.AssignedViewFixed | external/FCam/Image.cpp:199-222 | with the early return limited to targets already equal to the source, the target always compares equal to the source afterwards |
| FCamImages.Image.Default | external/FCam/Image.cpp:17-23 | the default image is the invalid, well-formed empty view with no lock held |
| FCamImages.Image.Alloc | external/FCam/Image.cpp:25-61 | a new image owns a fresh buffer of pitch × allocated height bytes with the packed pitch, a fresh counter of 1 and valid data |
| FCamImages.Image.External | external/FCam/Image.cpp:136-176 | an image over caller data has the fields that data implies, and a fresh counter of 2 exactly when the data is valid |
| FCamImages.Image.Copy | external/FCam/Image.cpp:182-197 | the copy has the same fields as the original, compares equal to it, and the shared counter goes up by one |
| FCamImages.Image.SetBuffer | external/FCam/Image.cpp:288-328 | the handle lets go of its counter (one fewer holder), frees the buffer when it was the last one, and takes the new buffer and data |
| FCamImages.Image.Release | external/FCam/Image.cpp:178-180 | the destructor lets go of the counter, frees the buffer when it was the last holder, and leaves an invalid handle |
| FCamImages.Image.Assign | external/FCam/Image.cpp:199-222 | self-assignment changes nothing; otherwise the target becomes `AssignedView` of the two, holding the source's counter once more when it takes it |
| FCamImages.Image.SubImage | external/FCam/Image.cpp:224-252 | the result is a fresh handle with `SubImageView`'s fields, this image is unchanged, and the shared counter goes up by one exactly when the result holds it |
| FCamImages.Image.CopyFrom | external/FCam/Image.cpp:268-286 | an invalid target copies nothing; a valid one copies, row by row, the shorter of the two row lengths for the shorter of the two allocated heights |
| FCamImages.Image.Duplicate | external/FCam/Image.cpp:254-266 | an invalid image gives a new handle on the same Discard or AutoAllocate data; a valid one a fresh allocation of the same size and format filled by `CopyFrom` |
| Histograms.DefaultHistogramConfig | include/FCam/Histogram.h:18 | the default configuration asks for 64 buckets and is disabled |
| Histograms.ConfigEqual | include/FCam/Histogram.h:34-39 | two configurations compare equal exactly when enabled flag, bucket count and region all agree |
| Histograms.ConfigNotEqual | include/FCam/Histogram.h:43-45 | `!=` holds exactly when the configurations differ |
| Histograms.CellInTable | include/FCam/Histogram.h:82-90 | the element of bucket b, channel c lies inside the table of buckets × channels counts |
| Histograms.CellsDistinct | include/FCam/Histogram.h:82-90 | different (bucket, channel) cells never share an element |
| Histograms.Histogram.Default | include/FCam/Histogram.h:62-63 | the default histogram has no buckets, no channels, an empty region, RGB, and is not valid |
| Histograms.Histogram.constructor | include/FCam/Histogram.h:67-70 | a new histogram has the given shape, region and colour space and buckets × channels counts, all zero |
| Histograms.Histogram.IsValid | include/FCam/Histogram.h:114-116 | a histogram is valid exactly when it has at least one bucket and one channel |
| Histograms.Histogram.Index | include/FCam/Histogram.h:82-84 | every (bucket, channel) reads an element inside the data |
| Histograms.Histogram.Count | include/FCam/Histogram.h:82-84 | a count is an unsigned 32-bit value |
| Histograms.Histogram.SetCount | include/FCam/Histogram.h:88-90 | writing a count sets that cell and leaves every other cell, the shape, region and colour space unchanged |
| Histograms.Histogram.Bucket | include/FCam/Histogram.h:94-111 | a bucket's total is the sum over its channels modulo 2^32 for RGB and sRGB, and the first channel's count for YUV and YpUV |
| Histograms.Histogram.ChannelTotal | include/FCam/Histogram.h:100-101 | the channel loop yields the bucket's exact sum reduced modulo 2^32 |
| Histograms.BucketTotalBoundsChannels | include/FCam/Histogram.h:94-111 | when the sum does not wrap, a bucket's total is at least each of its channel counts |
| SharpnessMaps.DefaultSharpnessMapConfig | include/FCam/SharpnessMap.h:18 | the default configuration is disabled with size 0 × 0 |
| SharpnessMaps.ConfigEqual | include/FCam/SharpnessMap.h:30-34 | two configurations compare equal exactly when their enabled flags agree and, when enabled, their sizes too |
| SharpnessMaps.ConfigEqualIsEquivalence | include/FCam/SharpnessMap.h:30-40 | two disabled configurations are equal whatever their sizes, and the comparison is an equivalence |
| SharpnessMaps.CellInGrid | include/FCam/SharpnessMap.h:73-81 | the element of cell (x, y), channel c lies inside the width × height × channels data |
| SharpnessMaps.CellsApart | include/FCam/SharpnessMap.h:73-81 | different (x, y, channel) cells never share an element |
| SharpnessMaps.SharpnessMap.Default | include/FCam/SharpnessMap.h:56-57 | the default map has size 0 × 0, no channels, and is not valid |
| SharpnessMaps.SharpnessMap.constructor | include/FCam/SharpnessMap.h:60-62 | a new map has the given size and channel count and width × height × channels values, all zero |
| SharpnessMaps.SharpnessMap.IsValid | include/FCam/SharpnessMap.h:94 | a map is valid exactly when its width, height and channel count are all positive |
| SharpnessMaps.SharpnessMap.Index | include/FCam/SharpnessMap.h:73-75 | every (x, y, channel) reads an element inside the data |
| SharpnessMaps.SharpnessMap.Value | include/FCam/SharpnessMap.h:73-75 | a sharpness value is an unsigned 32-bit value |
| SharpnessMaps.SharpnessMap.SetValue | include/FCam/SharpnessMap.h:79-81 | writing a value sets that cell and leaves every other cell and the shape unchanged |
| SharpnessMaps.SharpnessMap.CellStart | include/FCam/SharpnessMap.h:73-81 | the channels of one cell are consecutive elements inside the data |
| SharpnessMaps.SharpnessMap.Total | include/FCam/SharpnessMap.h:85-91 | a cell's total is the exact sum of its channels modulo 2^32 |
| SharpnessMaps.CellTotalBoundsChannels | include/FCam/SharpnessMap.h:85-91 | when the sum does not wrap, a cell's total is at least each of its channel values |
| Shots.ShotIds.Next | external/FCam/Shot.cpp:16-18 | each new id is one more than the last id handed out, and becomes the last |
| Shots.WithoutOwner | external/FCam/Shot.cpp:29-40 | removing an owner's actions keeps no action of that owner and every other action with its multiplicity, in order |
| Shots.WithoutOwnerIdempotent | external/FCam/Shot.cpp:29-40 | clearing one owner's actions twice is clearing them once |
| Shots.NoOwnerUnchanged | external/FCam/Shot.cpp:29-40 | clearing an owner who has no actions changes nothing |
| Shots.Shot.constructor | external/FCam/Shot.cpp:15-23 | a new shot has exposure, frame time and gain 0, white balance 5000, is wanted, has default image, histogram and sharpness requests, no colour matrix and no actions, and the next id |
| Shots.Shot.Copy | external/FCam/Shot.cpp:54-76 | a copy has every parameter and every action of the original under a new id |
| Shots.Shot.AddAction | external/FCam/Shot.cpp:50-52 | adding an action puts a copy of it among the actions |
| Shots.Shot.ClearActions | external/FCam/Shot.cpp:29-40 | exactly the actions of the given owner are removed |
| Shots.Shot.ClearAllActions | external/FCam/Shot.cpp:42-48 | no action is left |
| Shots.Shot.SetColorMatrix | external/FCam/Shot.cpp:79-90 | a null matrix clears the colour matrix; otherwise its first twelve entries become it |
| Shots.Shot.Assign | external/FCam/Shot.cpp:92-116 | as written: every parameter is copied under a new id; the source's actions are copied when the two shots differ, but a shot assigned to itself loses all its actions |
| Shots.Shot.AssignKeepingActions | external/FCam/Shot.cpp:92-116 | with the source's actions taken before the target's are cleared, every parameter and every action of the source are copied, also on self-assignment |
| TegraDaemon.AsSize | external/FCam/Tegra/Daemon.cpp:193 | an `int` limit compared with the queue's `size_t` size wraps modulo 2^32, and a limit in range is kept as it is |
| TegraDaemon.PriorityByTime | external/FCam/Tegra/Daemon.h:29-37 | "lower priority" and "higher priority" are converses, irreflexive and transitive, and an earlier action always has the higher priority, so the queue's top is the earliest action |
| TegraDaemon.PendingShots.Dec | external/FCam/Tegra/Sensor.cpp:414-419 | each call takes exactly one from the pending-shot count |
| TegraDaemon.DiscardView | external/FCam/Tegra/Daemon.cpp:535-545 | the bubble's image has the requested size and format but no data and no counter |
| TegraDaemon.Daemon.constructor | external/FCam/Tegra/Daemon.cpp:83-104 | a new daemon has empty queues, a frame limit of 128 and the drop-newest policy |
| TegraDaemon.Daemon.EnforceDropPolicy | external/FCam/Tegra/Daemon.cpp:192-214 | at or under the limit nothing changes; over it a FrameLimitHit warning is posted and frames are dropped, oldest or newest first, until limit − 1 remain, each drop taking one from the pending count; an unknown policy posts an InternalError and drops nothing |
| TegraDaemon.Daemon.SetDropPolicy | external/FCam/Tegra/Daemon.cpp:186-190 | the policy and the (wrapped) limit are stored and enforced at once, with the same drops and pending-count changes |
| TegraDaemon.Daemon.InsertBubble | external/FCam/Tegra/Daemon.cpp:526-555 | a fresh unwanted request with no actions goes in front of every waiting request, its image discarding data at the size and format of the parameters (or of the current request), with the parameters' settings or only the current histogram and sharpness requests |
| TegraSensor.ScanDownProperties | external/FCam/Tegra/Sensor.cpp:119-128 | the downward scan from index k settles on an index in [1, k + 1]: every mode from there up to k fits, and the mode just below it, unless that is mode 0, does not |
| TegraSensor.BestModeProperties | external/FCam/Tegra/Sensor.cpp:113-131 | with two or more modes the choice lies in [1, n − 1], so mode 0 is never chosen; every mode from the choice up to n − 2 fits and the mode just below it (if not mode 0) does not; a single mode is always chosen |
| TegraSensor.BestModeIsSmallestFit | external/FCam/Tegra/Sensor.cpp:113-131 | with modes sorted by resolution the choice is the smallest mode above mode 0 that fits, or the largest when none of modes 1 to n − 2 fits |
| TegraSensor.ReportedExposure | external/FCam/Tegra/Sensor.cpp:139-148 | a reported exposure bound is never below 1000 µs and is the mode's own value when that is larger |
| TegraSensor.RollingShutterTime | external/FCam/Tegra/Sensor.cpp:378-382 | the estimate is 77000 µs exactly when the image is taller than 960 rows, and 33000 µs otherwise |
| TegraSensor.Sensor.constructor | external/FCam/Tegra/Sensor.cpp:63-76 | a new sensor has no daemon, nothing pending and nothing streaming |
| TegraSensor.Sensor.GetBestModeIndex | external/FCam/Tegra/Sensor.cpp:113-131 | the loop returns exactly the mode the scan specification picks |
| TegraSensor.Sensor.MaxExposure | external/FCam/Tegra/Sensor.cpp:133-140 | the bound is the chosen mode's longest exposure, at least 1000 µs |
| TegraSensor.Sensor.MinExposure | external/FCam/Tegra/Sensor.cpp:142-149 | the bound is the chosen mode's shortest exposure, at least 1000 µs |
| TegraSensor.Sensor.MaxFrameTime | external/FCam/Tegra/Sensor.cpp:151-154 | the bound is the chosen mode's longest frame time |
| TegraSensor.Sensor.MinFrameTime | external/FCam/Tegra/Sensor.cpp:156-159 | the bound is the chosen mode's shortest frame time |
| TegraSensor.Sensor.MinImageSize | external/FCam/Tegra/Sensor.cpp:169-173 | the smallest size is the first mode's, no larger than any mode when the modes are sorted |
| TegraSensor.Sensor.MaxImageSize | external/FCam/Tegra/Sensor.cpp:175-179 | the largest size is the last mode's, no smaller than any mode when the modes are sorted |
| TegraSensor.Sensor.FramesPending | external/FCam/Tegra/Sensor.cpp:405-408 | 0 without a daemon, else the number of finished frames waiting |
| TegraSensor.Sensor.Start | external/FCam/Tegra/Sensor.cpp:189-195 | a daemon exists afterwards; an existing one is kept, otherwise a fresh one with empty queues on this sensor's counter |
| TegraSensor.Sensor.NewRequest | external/FCam/Tegra/Sensor.cpp:245-250 | a request is a deep copy of the shot with the same parameters, actions and id |
| TegraSensor.Sensor.Capture | external/FCam/Tegra/Sensor.cpp:242-259 | one request copying the shot joins the back of the daemon's queue, the frames waiting are untouched, and the pending count goes up by exactly one |
| TegraSensor.Sensor.NewRequests | external/FCam/Tegra/Sensor.cpp:276-284 | one request per shot of the burst, in order, each a deep copy with the shot's id |
| TegraSensor.Sensor.CaptureBurst | external/FCam/Tegra/Sensor.cpp:271-294 | every shot of the burst becomes a request, in order, at the back of the queue, and the pending count goes up by the burst length |
| TegraSensor.Sensor.PushRequests | external/FCam/Tegra/Sensor.cpp:286-290 | the requests join the queue in order and each adds one to the pending count |
| TegraSensor.Sensor.Stream | external/FCam/Tegra/Sensor.cpp:301-337 | the streaming burst becomes deep copies of the shots with their ids; when no request is waiting the burst is captured at once (pending count up by its length), otherwise the queue and count are unchanged |
| TegraSensor.Sensor.StopStreaming | external/FCam/Tegra/Sensor.cpp:343-347 | nothing is streamed afterwards |
| TegraSensor.Sensor.GenerateRequest | external/FCam/Tegra/Sensor.cpp:385-398 | one request per streaming shot, in order, joins the queue and the pending count goes up by their number; nothing happens when not streaming |
| TegraSensor.Sensor.GetFrame | external/FCam/Tegra/Sensor.cpp:359-372 | without a daemon a SensorStoppedError is posted and no frame returned; otherwise the oldest finished frame is taken and the pending count drops by one |
| TegraSensor.Sensor.EnforceDropPolicy | external/FCam/Tegra/Sensor.cpp:400-403 | without a daemon nothing happens; otherwise the daemon takes the sensor's policy and limit and drops frames as `SetDropPolicy` says, each drop one fewer pending shot |
| TegraStatistics.HalvingsFit | external/FCam/Tegra/Statistics.cpp:71-78 | after the computed number of halvings the halved sample counts fit the budget, and one halving fewer they did not: the loop stops at the first step that fits |
| TegraStatistics.Subsample | external/FCam/Tegra/Statistics.cpp:68-78 | the budget loop returns the starting step doubled once per halving the counts need to fit the budget |
| TegraStatistics.Clip | external/FCam/Tegra/Statistics.cpp:95-104 | a region reaching the right or bottom edge is cut to end one column or row short of it; a region inside is kept; the clipped origin is the region's |
| TegraStatistics.MomentsBounds | external/FCam/Tegra/Statistics.cpp:115-118 | over byte samples the sum is at most 255 and the sum of squares at most 255² per sample |
| TegraStatistics.AccumulateRow | external/FCam/Tegra/Statistics.cpp:113-119 | the inner loop adds exactly the count, sum and sum of squares of the bytes of one row taken every `subsample` columns |
| TegraStatistics.AccumulateRegion | external/FCam/Tegra/Statistics.cpp:106-120 | the nested loops produce the moments of every sampled byte of the clipped region, row by row in order |
| TegraStatistics.VarianceOf | external/FCam/Tegra/Statistics.cpp:122-124 | the result is the truncated mean square minus the square of the truncated mean |
| TegraStatistics.EvaluateVariance | external/FCam/Tegra/Statistics.cpp:86-125 | 0 when the region's origin lies outside the image; otherwise the integer variance of the bytes sampled on the step grid of the clipped region |
| TegraStatistics.ClippedInside | external/FCam/Tegra/Statistics.cpp:95-104 | a clipped region with an origin inside the image lies strictly inside it and inside every row |
| TegraStatistics.SampledGrid | external/FCam/Tegra/Statistics.cpp:109-120 | the samples read are the step grid of the clipped bounds, and there is at least one, so the division at the end is defined |
| TegraStatistics.VarianceBounds | external/FCam/Tegra/Statistics.cpp:122-124 | the integer variance of byte samples lies in [0, 255²]: truncation never makes the mean square smaller than the squared mean |
| TegraStatistics.StepsIsCeiling | external/FCam/Tegra/Statistics.cpp:109-113 | a loop stepping by `subsample` over n values runs ⌈n / subsample⌉ times |
| TegraStatistics.RowValuesCount | external/FCam/Tegra/Statistics.cpp:113-119 | the inner loop reads ⌈width / subsample⌉ bytes |
| TegraStatistics.GridValuesCount | external/FCam/Tegra/Statistics.cpp:109-120 | the nested loops read one byte per (row step, column step) pair |
| TegraStatistics.UniformVarianceZero | external/FCam/Tegra/Statistics.cpp:122-124 | a region whose samples are all the same byte has variance 0 |
| TegraStatistics.SumsFitInt32 | external/FCam/Tegra/Statistics.cpp:66-67 | at most `MAX_VARIANCE_SAMPLES` byte samples keep both sums within a 32-bit `int`, which is what the budget is for |
| TegraStatistics.MapSubsample | external/FCam/Tegra/Statistics.cpp:68-78 | the whole-image step is a power of two and at least 1 |
| TegraStatistics.ImageVariance | external/FCam/Tegra/Statistics.cpp:60-81 | the stored whole-image variance lies in [0, 255²] |
| TegraStatistics.EvaluateSharpness | external/FCam/Tegra/Statistics.cpp:56-84 | a disabled config gives an invalid map; an enabled one a valid 1 × 1 map of one channel holding the whole image's variance at the budget step |
| TegraStatistics.UniformImage | external/FCam/Tegra/Statistics.cpp:56 | the w × h image of one byte value is a plane with every byte equal to it |
| TegraStatistics.UniformWholeImage | external/FCam/Tegra/Statistics.cpp:95-120 | over a uniform image the whole-image region yields ⌈(h−1)/sub⌉ · ⌈(w−1)/sub⌉ copies of the byte, with sums c and c² times that count |
| TegraStatistics.HalvingsAt727 | external/FCam/Tegra/Statistics.cpp:71-78 | a 727 × 727 image halves twice, so its step is 4 |
| TegraStatistics.BudgetExceeded | external/FCam/Tegra/Statistics.cpp:71-124 | as written, a white 727 × 727 image gets step 4, the loops read 33124 bytes, more than the budget, and the sum of squares exceeds a 32-bit `int` |
| TegraStatistics.WhiteImageOverflows | external/FCam/Tegra/Statistics.cpp:106-120 | the white 727 × 727 image sampled with step 4 yields 33124 bytes whose sum of squares exceeds a 32-bit `int` |
| TegraStatistics.FixedSubsample | external/FCam/Tegra/Statistics.cpp:71-78 | the corrected budget loop: a step at least the start whose count of samples actually read over the clipped width and height is within the budget |
| TegraStatistics.FixedBudgetFits | external/FCam/Tegra/Statistics.cpp:106-124 | with the corrected step the region yields at most `MAX_VARIANCE_SAMPLES` samples and both sums fit a 32-bit `int` |
| TegraStatistics.Log2Bounds | external/FCam/Tegra/Statistics.cpp:137-141 | the halvings loop finds the exponent of the largest power of two not above the requested count |
| TegraStatistics.AsUnsigned | external/FCam/Tegra/Statistics.cpp:132 | the requested count read as `unsigned` lies in [0, 2^32) and is the count itself when that is non-negative |
| TegraStatistics.BucketCount | external/FCam/Tegra/Statistics.cpp:131-141 | the bucket count is the largest power of two not above the request read as unsigned, and 1 when that is 0 or 1 |
| TegraStatistics.ShiftBits | external/FCam/Tegra/Statistics.cpp:143-148 | the shift is log₂ of the bucket width `256 / buckets`, and 0 when there are more buckets than byte values |
| TegraStatistics.BucketsTileBytes | external/FCam/Tegra/Statistics.cpp:131-148 | the bucket count is a power of two with buckets ≤ request < 2 · buckets; up to 256 buckets times the bucket width is exactly 256, beyond that the shift is 0 |
| TegraStatistics.BucketIndexInRange | external/FCam/Tegra/Statistics.cpp:177-179 | every byte shifted right by the shift indexes one of the buckets, so the counting never goes out of the histogram |
| TegraStatistics.HistogramBuckets | external/FCam/Tegra/Statistics.cpp:131-141 | at least one bucket |
| TegraStatistics.ChromaColumn | external/FCam/Tegra/Statistics.cpp:170 | as written the conditional binds looser than the addition, so the chroma column starts at 0 or at half a row, never at the region's x / 2 |
| TegraStatistics.ChromaInside | external/FCam/Tegra/Statistics.cpp:169-173 | the U and V rows and the chroma column the loop reads lie inside the YUV420 frame |
| TegraStatistics.HistogramSubsample | external/FCam/Tegra/Statistics.cpp:154-162 | the histogram step is even and at least 2 |
| TegraStatistics.HistogramStep | external/FCam/Tegra/Statistics.cpp:154-162 | the budget loop starts at step 2 on the halved region and returns the step the histogram samples with |
| TegraStatistics.CountChannel | external/FCam/Tegra/Statistics.cpp:177-179 | one increment adds one sample to the tally of its bucket in one channel, modulo 2^32, and leaves every other count as it was |
| TegraStatistics.CountSample | external/FCam/Tegra/Statistics.cpp:177-179 | one loop body counts the sample in all three channels |
| TegraStatistics.CountRow | external/FCam/Tegra/Statistics.cpp:175-184 | the inner loop counts every sample of one row, in order |
| TegraStatistics.AllBytesInRange | external/FCam/Tegra/Statistics.cpp:177-179 | every byte value, shifted, names a bucket |
| TegraStatistics.CountRegion | external/FCam/Tegra/Statistics.cpp:167-185 | the outer loop counts every sampled row, in order |
| TegraStatistics.EvaluateHistogram | external/FCam/Tegra/Statistics.cpp:128-188 | a fresh three-channel YpUV histogram over the requested region with the power-of-two bucket count, whose count of bucket b in channel c is the number of samples read that fall in b, modulo 2^32 |
| TegraStatistics.HistogramSampleCount | external/FCam/Tegra/Statistics.cpp:167-185 | the histogram reads ⌈height / step⌉ · ⌈width / step⌉ samples of the region |
| TegraStatistics.TallySumTotal | external/FCam/Tegra/Statistics.cpp:177-179 | when every byte has a bucket, each channel's tallies over all buckets add up to the number of samples |
| TegraStatistics.HistogramCountsEverySample | external/FCam/Tegra/Statistics.cpp:128-188 | in every channel the exact counts of the histogram's buckets add up to the number of samples the region yields: each sample is counted once per channel |
| YUV420.ClampTo | external/FCam/Tegra/YUV420.cpp:56-61 | with ordered bounds the result lies between them, and a value already between them is kept |
| YUV420.Clamp | external/FCam/Tegra/YUV420.cpp:56-61 | with the default bounds every result lies in [1, 255]: values in range are kept, smaller ones become 1, larger ones 255 |
| YUV420.Channel | external/FCam/Tegra/YUV420.cpp:100-124 | each of R, G and B computed from the fixed-point formula lies in [1, 255] |
| YUV420.ExtremesClamp | external/FCam/Tegra/YUV420.cpp:89-124 | black (luma 0, neutral chroma) converts to 1 in every channel and white (luma 255) to 255 |
| YUV420.SamplesInside | external/FCam/Tegra/YUV420.cpp:80-98 | for an even-sized image every luma sample read lies in the luma plane and every U and V sample in the chroma rows of the `width × allocateHeight` buffer |
| YUV420.Expected | external/FCam/Tegra/YUV420.cpp:93-124 | the value stored for a channel of a pixel lies in [1, 255] |
| YUV420.BlockSharesChroma | external/FCam/Tegra/YUV420.cpp:93-98 | the four pixels of each 2 × 2 luma block read the same U and the same V sample |
| YUV420.Decompose | external/FCam/Tegra/YUV420.cpp:82-126 | each byte of the packed RGB24 buffer is one channel of one pixel of the image |
| YUV420.PosDecomposes | external/FCam/Tegra/YUV420.cpp:110-126 | the byte holding channel c of pixel (x, y) decomposes back to that pixel and channel |
| YUV420.PixelBytes | external/FCam/Tegra/YUV420.cpp:110-126 | a byte belongs to pixel (x, y) exactly when it is one of the three consecutive bytes of that pixel |
| YUV420.ExpectedAt | external/FCam/Tegra/YUV420.cpp:110-124 | the value stored in each byte of the RGB24 buffer lies in [1, 255] |
| YUV420.ExpectedAtPixel | external/FCam/Tegra/YUV420.cpp:110-124 | every byte of a pixel is computed from that pixel's own luma and its block's chroma samples |
| YUV420.WritePixel | external/FCam/Tegra/YUV420.cpp:110-116 | the three bytes of one pixel receive the given values and every other byte is unchanged |
| YUV420.ConvertPixel | external/FCam/Tegra/YUV420.cpp:100-116 | the bytes of one pixel receive their converted values and every other byte is unchanged |
| YUV420.ConvertPair | external/FCam/Tegra/YUV420.cpp:110-116 | two horizontally adjacent pixels sharing chroma receive their converted values and nothing else changes |
| YUV420.ConvertBlock | external/FCam/Tegra/YUV420.cpp:93-129 | the four pixels of a 2 × 2 block receive their converted values and nothing else changes |
| YUV420.ConvertYUV420ToRGB24 | external/FCam/Tegra/YUV420.cpp:63-134 | true exactly when the sizes match, the source is YUV420p and the destination RGB24; false leaves the destination untouched; true leaves every channel of every pixel holding its converted value |
| YUV420.ChromaRowReused | external/FCam/Tegra/YUV420.cpp:80-85 | as written, luma rows 2 and 3 of every group of four read the same U and V samples as rows 0 and 1, so half the chroma rows are never used |
| YUV420.UIndexFixedIsPlanar | external/FCam/Tegra/YUV420.cpp:80-84 | the corrected U address is the planar layout: chroma row y/2, column x/2 after the luma plane |
| YUV420.UIndexFixedSeparatesRows | external/FCam/Tegra/YUV420.cpp:80-84 | with the corrected address, pixels of different block rows read different U samples |
| YUV420.VPlaneStartsInsideU | external/FCam/Tegra/YUV420.cpp:85 | as written, for a height of 2 modulo 4 the V plane is taken to start half a row early, inside the U plane; for a 2 × 2 image the V sample read is the U sample |
| YUV420.FixedSamplesInPlanes | external/FCam/Tegra/YUV420.cpp:80-85 | with the corrected addresses every pixel reads its U sample inside the U plane and its V sample inside the V plane, both within the buffer |
| FCamAutoFocus.Lens.constructor | include/FCam/Lens.h:44-56 | a lens starts with the given focus range, speeds, latency and readings, and no `setFocus` call made |
| FCamAutoFocus.Lens.SetFocus | include/FCam/Lens.h:44 | a `setFocus(target, speed)` call is appended to the calls made, and nothing else changes |
| FCamAutoFocus.ScaleMonotone | external/FCam/AutoFocus.cpp:43-46 | rounding an image coordinate to a map cell preserves order |
| FCamAutoFocus.ClampIndex | external/FCam/AutoFocus.cpp:47-54 | the clamps keep a coordinate inside the map, keep one already inside, and send one past either edge to that edge |
| FCamAutoFocus.ClampMonotone | external/FCam/AutoFocus.cpp:47-54 | the clamps preserve order |
| FCamAutoFocus.SampleWindow | external/FCam/AutoFocus.cpp:36-55 | the window always lies inside the map and holds at least one cell; an empty target gives the whole map |
| FCamAutoFocus.WholeImageIsWholeMap | external/FCam/AutoFocus.cpp:42-55 | a target covering the whole image covers the whole map |
| FCamAutoFocus.ScaleFullExtent | external/FCam/AutoFocus.cpp:43-46 | the image's left edge rounds to cell 0 and its right edge to the map's width |
| FCamAutoFocus.MeasureRow | external/FCam/AutoFocus.cpp:61-63 | the inner loop yields the sum of the row's cells in the window, each shifted right, as an unbounded integer (the source's 32-bit sum is admitted under Left out) |
| FCamAutoFocus.MeasureWindow | external/FCam/AutoFocus.cpp:57-64 | the two loops yield the sum over every cell of the window, bounds included, each shifted right, as an unbounded integer (the source's 32-bit sum is admitted under Left out) |
| FCamAutoFocus.GenericMeasureBelowPlainSum | external/FCam/AutoFocus.cpp:62 | the generic measure, each cell shifted right by ten bits, is at most the plain sum of the cells divided by 1024 |
| FCamAutoFocus.CheckGettingWorse | external/FCam/AutoFocus.cpp:78-89 | the look-back loop reports "getting worse" exactly when each of the last three steps kept the lens moving forward and lost at least 1% of sharpness, with the product taken unbounded (the source's `int` product agrees up to a sharpness of 21,262,214) |
| FCamAutoFocus.GettingWorseMeansOnePercentDrops | external/FCam/AutoFocus.cpp:83-88 | for non-negative sharpness, "getting worse" is exactly: positions never decrease over the last four samples and each sharpness plus its hundredth is at most the one before; so the last is no sharper than the fourth last, with the product taken unbounded (the source's `int` product agrees up to a sharpness of 21,262,214) |
| FCamAutoFocus.OnePercentMore | external/FCam/AutoFocus.cpp:85 | `s * 101 / 100` for non-negative s is s plus its hundredth, rounded down, in unbounded arithmetic (the source's `int` agrees up to s = 21,262,214) |
| FCamAutoFocus.BestIndex | external/FCam/AutoFocus.cpp:93-96 | the chosen sample is at least as sharp as every sample and strictly sharper than every earlier one |
| FCamAutoFocus.FirstMaximumIsUnique | external/FCam/AutoFocus.cpp:93-96 | the first sharpest sample is unique, so the choice is determined |
| FCamAutoFocus.PickBest | external/FCam/AutoFocus.cpp:93-96 | the loop keeping a sample only when strictly sharper returns the first sharpest sample |
| FCamAutoFocus.AutoFocus.constructor | external/FCam/AutoFocus.cpp:11 | a new helper holds the lens and target, is IDLE and has no samples |
| FCamAutoFocus.AutoFocus.SetTarget | include/FCam/AutoFocus.h:51 | the target becomes the given rectangle |
| FCamAutoFocus.AutoFocus.StartSweep | external/FCam/AutoFocus.cpp:13-19 | without a lens nothing changes; otherwise the lens is sent to far focus, the samples are forgotten and the helper is HOMING |
| FCamAutoFocus.AutoFocus.Update | external/FCam/AutoFocus.cpp:22-110 | idle: nothing changes; SETTING: FOCUSED once the lens stops; homing or sweeping without a map: ignored; otherwise the window's sample is appended, HOMING turns to SWEEPING towards near focus once stopped at far focus, and a sweep of more than four samples that stopped or is getting worse sends the lens to the first sharpest sample and becomes SETTING |
| FCamAutoFocus.AutoFocus.Record | external/FCam/AutoFocus.cpp:65-103 | after a sample is measured it joins the list; homing turns to sweeping at far focus with speed one range per second; a finished sweep sends the lens to the first sharpest sample, forgets the samples and becomes SETTING |
| TegraAutoFocus.SteppingAction | external/FCam/Tegra/AutoFocus.cpp:136-142 | the stepping action belongs to the helper, starts with the exposure at the lens's full speed and takes fifteen steps that together go exactly from far to near focus |
| TegraAutoFocus.AutoFocus.constructor | external/FCam/Tegra/AutoFocus.cpp:62-63 | a new helper holds the lens, its owner tag and the target, is IDLE and has no samples |
| TegraAutoFocus.AutoFocus.StartSweep | external/FCam/Tegra/AutoFocus.cpp:65-71 | without a lens nothing changes; otherwise the lens is sent to far focus, the samples are forgotten and the helper is HOMING |
| TegraAutoFocus.AutoFocus.Update | external/FCam/Tegra/AutoFocus.cpp:74-195 | idle: nothing changes; SETTING with the lens stopped: FOCUSED and the helper's actions removed from the shot exactly when the frame is within 0.01 of the best position; otherwise frames without a map are ignored, the window's plain sum joins the samples, HOMING at far focus becomes SWEEPING or, for a slow lens, STEPPING with the stepping action added; a search of more than four samples that ended picks the first sharpest sample and sends the lens there by `setFocus` or by a focus action that replaces the helper's own |
| TegraAutoFocus.AutoFocus.Measure | external/FCam/Tegra/AutoFocus.cpp:114-121 | the sample is the frame's position and the plain sum of every cell of the window, as an unbounded integer (the source's 32-bit sum is admitted under Left out) |
| TegraAutoFocus.AutoFocus.LeaveHoming | external/FCam/Tegra/AutoFocus.cpp:125-147 | once stopped within 0.01 of far focus the helper sweeps towards near focus when the range exceeds the minimum speed, and otherwise steps, adding the stepping action; else it keeps homing |
| TegraAutoFocus.AutoFocus.EndSearch | external/FCam/Tegra/AutoFocus.cpp:149-194 | with more than four samples and the lens stopped, a sweep, a step that reached near focus or a sharpness getting worse ends the search at the first sharpest sample; otherwise nothing changes |
| TagValues.Code | include/FCam/TagValue.h:21-33 | the kinds are numbered 0 to 10 in the order of the enum |
| TagValues.ReadType | external/FCam/TagValue.cpp:979-1007 | a code outside 0..10 reads as Null with a ParseError posted; a code in range posts none |
| TagValues.ReadTypeInvertsCode | external/FCam/TagValue.cpp:979-1002 | every kind's code reads back as that kind without an error |
| TagValues.CodeInjective | include/FCam/TagValue.h:21-33 | two kinds never share a code |
| TagValues.Dummy | external/FCam/TagValue.cpp:310-691 | the value a wrong cast hands out has the requested kind and is reset: zero, the empty string, time (0, 0) or an empty vector |
| TagValues.CastValue | external/FCam/TagValue.cpp:310-691 | a cast gives the value itself exactly when the kinds match, and otherwise the reset dummy of the requested kind with a BadCast error posted |
| TagValues.IntOf | external/FCam/TagValue.cpp:310-346 | the int held, or 0 for any other kind |
| TagValues.IntsOf | external/FCam/TagValue.cpp:500-536 | the ints of an int vector, or the empty vector for any other kind |
| TagValues.TextOf | external/FCam/TagValue.cpp:424-460 | the chars of a string, or the empty string for any other kind |
| TagValues.DoublesOf | external/FCam/TagValue.cpp:577-613 | the doubles of a double vector, or the empty vector for any other kind |
| TagValues.TagValue.Contents | include/FCam/TagValue.h:21-33 | the value held has the tag's kind and is well formed |
| TagValues.TagValue.constructor | external/FCam/TagValue.cpp:10-12 | a new default tag is Null |
| TagValues.TagValue.Of | external/FCam/TagValue.cpp:57-125 | a tag built from a value holds that value in fresh storage |
| TagValues.TagValue.Nullify | external/FCam/TagValue.cpp:18-55 | the tag becomes Null, whatever it held |
| TagValues.TagValue.Assign | external/FCam/TagValue.cpp:127-255 | after a typed assignment the tag holds the value and a cast to its kind gives it back without error; the storage is reused when the kind was the same and fresh otherwise |
| TagValues.TagValue.AssignFrom | external/FCam/TagValue.cpp:257-304 | the tag ends up holding the source's value (Null for a Null source), reusing its own storage when the kinds already matched |
| TagValues.TagValue.Copy | external/FCam/TagValue.cpp:306-308 | a copy holds the source's value in storage of its own |
| TagValues.TagValue.Cast | external/FCam/TagValue.cpp:310-691 | a cast of the tag gives the held value exactly when the kind matches, otherwise the reset dummy with a BadCast error |
| TagValues.TagValue.IsValid | include/FCam/TagValue.h:140 | `valid()` holds exactly when the tag is not Null |
| TagValues.TagValue.ToBlob | external/FCam/TagValue.cpp:706-841 | the blob `toBlob` builds is the as-written blob of the tag's value |
| TagValues.Nuls | external/FCam/TagValue.cpp:711 | `resize(n)` on an empty string gives n NUL chars |
| TagValues.Header | external/FCam/TagValue.cpp:718-720 | every blob starts with 'b', the kind's code and two zero bytes |
| TagValues.Blob | external/FCam/TagValue.cpp:706-841 | the corrected blob: the four-byte header, then the value's payload, for every kind including Null |
| TagValues.BlobAsWritten | external/FCam/TagValue.cpp:706-841 | the blob as written equals the corrected blob for every non-Null value, and for Null is cut to its first two bytes |
| TagValues.CopyChars | external/FCam/TagValue.cpp:750-752 | the char-by-char copy gives back the string |
| TagValues.EncodeContents | external/FCam/TagValue.cpp:817-823 | the nested copy loops lay the strings of a string vector end to end |
| TagValues.ReadN | external/FCam/TagValue.cpp:1055 | `in.read(p, n)` yields n chars and never more input than there was |
| TagValues.ReadI32s | external/FCam/TagValue.cpp:1064-1066 | reading n ints yields n 32-bit values |
| TagValues.ReadStrings | external/FCam/TagValue.cpp:1100-1102 | one string is read per length field |
| TagValues.ReadBlob | external/FCam/TagValue.cpp:1011-1122 | the blob branch of `operator>>` never consumes more than its input |
| TagValues.ReadPayload | external/FCam/TagValue.cpp:1020-1118 | reading a payload never consumes more than its input |
| TagValues.BlobRoundTrip | external/FCam/TagValue.cpp:1009-1122 | every well-formed value read back from its corrected blob is itself, with no error, whatever the tag held, and the reader stops after the value's items, leaving the four stray NULs of a double vector's blob unread |
| TagValues.PayloadFitsBack | external/FCam/TagValue.cpp:1020-1118 | the reads of a well-formed value's payload stay inside it, whatever follows |
| TagValues.BlobFitsBack | external/FCam/TagValue.cpp:1011-1122 | the reads of a well-formed value's blob stay inside it, so the stream stays good |
| TagValues.BlobFixed | external/FCam/TagValue.cpp:790-800 | the exactly sized blob followed by the four NULs a double vector's blob leaves is the full-header blob; every blob starts with its four-byte header |
| TagValues.BlobFixedRoundTrip | external/FCam/TagValue.cpp:1009-1122 | every well-formed value, Null and double vectors included, reads back from its exactly sized blob with no error, the reader stopping right at its end with its reads inside the input |
| TagValues.HeaderSkipped | external/FCam/TagValue.cpp:1014-1020 | after a kind code and two zero bytes, reading a blob is reading its payload |
| TagValues.PayloadBack | external/FCam/TagValue.cpp:1020-1118 | reading a payload of the value's kind gives back the value it was written from |
| TagValues.NullBlobUnreadable | external/FCam/TagValue.cpp:709-715 | the blob written for a Null tag cannot be read back: the input ends where the reader wants the padding, a ParseError is posted and the tag is left as it was |
| TagText.HexDigit | external/FCam/TagValue.cpp:877-879 | every hex digit the writer prints is read back by the string reader as its value |
| TagText.HexValue | external/FCam/TagValue.cpp:1247-1267 | a hex digit the reader accepts has a value below 16 |
| TagText.IntText | external/FCam/TagValue.cpp:850-853 | a printed int starts with a digit or a minus sign |
| TagText.IntDigits | external/FCam/TagValue.cpp:852 | the digits of a printed int are at least one and all decimal digits |
| TagText.Escape | external/FCam/TagValue.cpp:871-881 | an escaped char is never empty and never starts with a double quote |
| TagText.Quoted | external/FCam/TagValue.cpp:867-885 | a printed string starts with a double quote and is at least two chars long |
| TagText.TimeText | external/FCam/TagValue.cpp:887-890 | a printed time starts with '(' |
| TagText.Tail | external/FCam/TagValue.cpp:896-938 | the items after the first are empty for no items and otherwise start with a comma and a space |
| TagText.SkipWs | external/FCam/TagValue.cpp:1313 | skipping white space never lengthens the input and stops at a char that is not white space |
| TagText.DigitRun | external/FCam/TagValue.cpp:1139 | the run counts exactly the leading decimal digits: all before it are digits and the char after it is not |
| TagText.Clamp32 | external/FCam/TagValue.cpp:1174-1175 | an extracted int out of range becomes the nearest 32-bit limit; one in range is kept |
| TagText.ExtractInt | external/FCam/TagValue.cpp:1174-1175 | `in >> x` gives a 32-bit value and never more input than there was; a failed extraction leaves the stream with nothing more to read |
| TagText.ReadNumber | external/FCam/TagValue.cpp:1123-1179 | the number branch never consumes more than its input |
| TagText.ReadTime | external/FCam/TagValue.cpp:1206-1221 | the time branch never consumes more than its input |
| TagText.StringBody | external/FCam/TagValue.cpp:1222-1306 | the string branch always leaves a string in the tag (the chars read so far on an error) and never consumes more than its input |
| TagText.Parse | external/FCam/TagValue.cpp:1009-1430 | `operator>>` never consumes more than its input |
| TagText.ReadVector | external/FCam/TagValue.cpp:1307-1417 | the vector branch never consumes more than its input |
| TagText.ParsesBlob | external/FCam/TagValue.cpp:1010-1015 | input starting with 'b' is read by the blob branch |
| TagText.ParsesNumber | external/FCam/TagValue.cpp:1123-1126 | input starting with '-' or a digit is read by the number branch |
| TagText.ParsesTime | external/FCam/TagValue.cpp:1206-1208 | input starting with '(' is read by the time branch |
| TagText.ParsesString | external/FCam/TagValue.cpp:1222-1225 | input starting with '"' is read by the string branch |
| TagText.ParsesVector | external/FCam/TagValue.cpp:1307-1313 | input starting with '[' is read by the vector branch after skipping white space |
| TagText.NullBack | external/FCam/TagValue.cpp:1180-1205 | Null prints as `None`, which reads back as Null with no error, whatever the tag held |
| TagText.IntDigitsValue | external/FCam/TagValue.cpp:852 | the digits of a printed int have the int's magnitude as their value |
| TagText.IntTextIsPrintInt | external/FCam/TagValue.cpp:850-853 | `out << int` prints the same text as `%i` |
| TagText.IntDone | external/FCam/TagValue.cpp:1162-1177 | digits with no fraction and no exponent read as that int, clamped to 32 bits |
| TagText.IntBack | external/FCam/TagValue.cpp:1123-1179 | an int prints as text that reads back as the same int with no error, stopping where the number ends |
| TagText.IntTextParses | external/FCam/TagValue.cpp:1123-1179 | the text of an int, followed by anything that does not continue a number, reads back as the same int |
| TagText.ExtractIntBack | external/FCam/TagValue.cpp:1331 | `in >> x` reads a printed int back and leaves what follows its digits |
| TagText.TimeTextReads | external/FCam/TagValue.cpp:1206-1221 | a printed time starts the time branch, which reads the same time back with no error |
| TagText.TimeTextParses | external/FCam/TagValue.cpp:1206-1221 | the text of a time, then anything, reads back as the same time |
| TagText.TimeBack | external/FCam/TagValue.cpp:1206-1221 | a time prints as `(s, us)`, which reads back as the same time with no error |
| TagText.EscapeBack | external/FCam/TagValue.cpp:1227-1301 | reading one escaped char of a string gives that char back and goes on with the rest |
| TagText.EscapedBack | external/FCam/TagValue.cpp:1227-1305 | reading a string's escaped chars up to the closing quote gives the string back with no error |
| TagText.EscapedPrintable | external/FCam/TagValue.cpp:872 | every escaped char is printable and never a double quote, so the closing quote is the first one the reader meets |
| TagText.StringBack | external/FCam/TagValue.cpp:1222-1306 | every string prints in quotes that read back as the same string, whatever chars it holds |
| TagText.QuotedParses | external/FCam/TagValue.cpp:1222-1306 | a quoted string, then anything, reads back as the same string |
| TagText.BlobParses | external/FCam/TagValue.cpp:1010-1122 | `operator>>` on a corrected blob reads the value back with no error, leaving only the double vector's stray NULs |
| TagText.SkipWsTwice | external/FCam/TagValue.cpp:1331 | skipping white space twice skips no more than once |
| TagText.ExtractSkipsWs | external/FCam/TagValue.cpp:1331 | `in >> x` skips the white space before a number itself |
| TagText.IntVectorBack | external/FCam/TagValue.cpp:1319-1336 | a non-empty int vector prints as `[a, b, ...]`, which reads back as the same vector with no error |
| TagText.IntVectorTextParses | external/FCam/TagValue.cpp:1307-1336 | the text of a non-empty int vector, then anything, reads back as the same vector |
| TagText.TimeVectorBack | external/FCam/TagValue.cpp:1373-1390 | a non-empty time vector prints as `[(s, us), ...]`, which reads back as the same vector with no error |
| TagText.TimeVectorTextParses | external/FCam/TagValue.cpp:1373-1390 | the text of a non-empty time vector, then anything, reads back as the same vector |
| TagText.StringVectorBack | external/FCam/TagValue.cpp:1391-1408 | a non-empty string vector prints as `["a", "b", ...]`, which reads back as the same vector with no error |
| TagText.StringVectorTextParses | external/FCam/TagValue.cpp:1391-1408 | the text of a non-empty string vector, then anything, reads back as the same vector |
| TagText.EmptyVectorUnreadable | external/FCam/TagValue.cpp:1409-1410 | every empty vector prints as `[]`, which does not read back: two ParseErrors, the tag unchanged and the ']' left unread |
| TagText.WriteQuoted | external/FCam/TagValue.cpp:867-885 | the writing loop produces the string's quoted text |
| TagText.WriteItemsThenLast | external/FCam/TagValue.cpp:892-931 | the loop for int and double vectors produces their bracketed, comma-separated text |
| TagText.WriteEachItem | external/FCam/TagValue.cpp:933-971 | the loop for string and time vectors produces their bracketed, comma-separated text |
| TagText.WriteFloatVector | external/FCam/TagValue.cpp:905-917 | the float vector loop gives every item but the last its `f` and a separator |
| TagText.Write | external/FCam/TagValue.cpp:843-975 | `operator<<` produces the text of the value |
| TagText.ReadStringBody | external/FCam/TagValue.cpp:1222-1306 | the reading loop of the string branch computes the string branch's result |
| TagText.ReadIntItems | external/FCam/TagValue.cpp:1326-1335 | the int item loop computes the int item reader's result |
| Dumps.DumpCode | external/FCam/processing/Dump.cpp:86-102 | `saveDump` writes a {channels, type} code exactly for UYVY, RAW and RGB24 |
| Dumps.FormatOfCode | external/FCam/processing/Dump.cpp:35-47 | `loadDump` accepts exactly the three {channels, type} codes and maps each to its format |
| Dumps.DumpCodesAgree | external/FCam/processing/Dump.cpp:35-102 | the two tables are inverse: a code is accepted exactly when it is the code of the format it names |
| Dumps.Header | external/FCam/processing/Dump.cpp:79-113 | the header is five ints, each within a 32-bit `int` |
| Dumps.DumpBytes | external/FCam/processing/Dump.cpp:71-132 | an invalid image or a format other than UYVY, RAW and RGB24 writes nothing; otherwise the file is 20 header bytes plus `height` rows of `width × bytesPerPixel` bytes |
| Dumps.ParseHeader | external/FCam/processing/Dump.cpp:18-47 | fewer than 20 bytes is an unexpected end of the header; an accepted header says one frame and carries the code of the format it names, one of the three |
| Dumps.ReadLines | external/FCam/processing/Dump.cpp:53-62 | n full lines are read in order, or the first line cut short is named |
| Dumps.ParseBody | external/FCam/processing/Dump.cpp:49-64 | an accepted body is a valid image of the header's size and format; a failure is an unexpected end at a line below the height |
| Dumps.ReadLinesShort | external/FCam/processing/Dump.cpp:53-61 | the body is cut short exactly when the data holds fewer than `height` full lines |
| Dumps.ParseDump | external/FCam/processing/Dump.cpp:10-65 | an image `loadDump` yields is well formed, valid and UYVY, RAW or RGB24 |
| Dumps.HeaderRoundTrip | external/FCam/processing/Dump.cpp:18-114 | the header `saveDump` writes parses back to the image's size and format |
| Dumps.LinesRoundTrip | external/FCam/processing/Dump.cpp:53-62 | lines laid end to end read back as the same lines, whatever follows them |
| Dumps.BodyRoundTrip | external/FCam/processing/Dump.cpp:53-128 | the rows `saveDump` writes parse back as the same rows, whatever follows them |
| Dumps.SaveThenLoad | external/FCam/processing/Dump.cpp:10-132 | every dump `saveDump` writes loads back as the same image (size, format and bytes), whatever follows it in the file |
| Dumps.SaveDump | external/FCam/processing/Dump.cpp:71-132 | the writing loop produces the header then each row in turn, which is the file `saveDump` writes |
| Dumps.LoadDump | external/FCam/processing/Dump.cpp:10-65 | the reading loop returns what `loadDump` yields on the file's bytes |
| Dumps.ReadRows | external/FCam/processing/Dump.cpp:53-62 | one line per row is read; a short read ends the load at that line |
| TiffFiles.BytesPerElement | external/FCam/processing/TIFF.cpp:199-214 | an element is 1, 2, 4 or 8 bytes wide by type (the byte types 1, the short types 2, the long and IFD types 4), and 0 exactly for a code outside the TIFF type enumeration |
| TiffFiles.Lookup | external/FCam/processing/TIFFTags.h:28-54 | the tag table yields an entry exactly for the tags it lists |
| TiffFiles.TypeForKind | external/FCam/processing/TIFF.cpp:98-128 | for a tag the table does not know, ints become SLONG, floats FLOAT, doubles DOUBLE and strings ASCII, a type that accepts the kind; nulls and times get no type |
| TiffFiles.AcceptedKinds | external/FCam/processing/TIFF.cpp:97-184 | setValue refuses nulls and times for every tag, takes every other kind for an unknown tag, and an accepted value always suits the type the entry ends with |
| TiffFiles.TerminatedLength | external/FCam/processing/TIFF.cpp:246-251 | a NUL-terminated string vector is at least as long as its first string plus its NUL |
| TiffFiles.ElementCount | external/FCam/processing/TIFF.cpp:215-257 | the count given to the entry: 1 for a scalar, the length of a vector, a string's length plus its NUL in ASCII, the terminated total of a string vector; no count for nulls and times, which are refused |
| TiffFiles.Unit | external/FCam/processing/TIFF.cpp:303-375 | an int stored as an element takes exactly the element's width |
| TiffFiles.Terminated | external/FCam/processing/TIFF.cpp:425-431 | the stored string vector is as long as the count ElementCount gives it |
| TiffFiles.Word64Le | external/FCam/processing/TIFF.cpp:508-516 | a double takes 8 bytes in the file |
| TiffFiles.Rational | external/FCam/processing/TIFF.cpp:445-475 | a rational takes 8 bytes: numerator then the fixed denominator 2^20 |
| TiffFiles.Data | external/FCam/processing/TIFF.cpp:263-518 | the data written for a value has exactly bytesPerElement times count bytes, and exists only for values with a count |
| TiffFiles.OneDoubleWrittenAsZero | external/FCam/processing/TIFF.cpp:508-516 | a one-element double vector in a DOUBLE entry is read through the scalar cast and written as 0.0, so any non-zero double is lost |
| TiffFiles.DataFixed | external/FCam/processing/TIFF.cpp:508-516 | the corrected data of a DOUBLE entry, holding one element as its element: exactly bytesPerElement times count bytes, and only for values with a count |
| TiffFiles.DataFixedReadsBack | external/FCam/processing/TIFF.cpp:508-516 | with the corrected data, every value that reads back as written, and also a one-element double vector in a DOUBLE entry, decodes to itself (one element as that element) |
| TiffFiles.Element | external/FCam/processing/TIFF.cpp:663-737 | every integer element read back lies in the signed 32-bit range (a LONG above 2^31 comes back negative) |
| TiffFiles.Decode | external/FCam/processing/TIFF.cpp:640-786 | decoding never yields a Null value; a FLOAT field is undefined behaviour, as convFloat dereferences the value as an address |
| TiffFiles.FitsInField | external/FCam/processing/TIFF.cpp:623 | the data sits in the offset field exactly when count is at most 4 / bytesPerElement, i.e. when it takes at most 4 bytes |
| TiffFiles.Located | external/FCam/processing/TIFF.cpp:604-638 | the data parse reads has count times bytesPerElement bytes; taken from the offset field when it fits there, otherwise from the file at the stored offset, and missing exactly when that runs past the end of the file |
| TiffFiles.Parse | external/FCam/processing/TIFF.cpp:555-787 | a known tag whose declared type does not admit the entry's type fails; otherwise the located data decoded, and a failure when the data is not in the file |
| TiffFiles.Scalarized | external/FCam/processing/TIFF.cpp:664-786 | turning a one-element vector into its element never turns a non-null value into a null one |
| TiffFiles.DataReadsBack | external/FCam/processing/TIFF.cpp:555-787 | the bytes writeDataBlock produces for a value its type can hold decode, through parse, to that value, a one-element vector becoming its element |
| TiffFiles.StoredInline | external/FCam/processing/TIFF.cpp:263-388 | data of at most 4 bytes written over the start of the offset field is where parse looks for it |
| TiffFiles.StoredOutOfLine | external/FCam/processing/TIFF.cpp:388-407 | longer data appended after a pad byte at an even offset, whose offset the field holds, is where parse looks for it |
| TiffFiles.StoredGrows | external/FCam/processing/TIFF.cpp:1326-1345 | appending later entries' data to the file leaves data already stored readable in place |
| TiffFiles.StoredReadsBack | external/FCam/processing/TIFF.cpp:555-787 | an entry written by writeDataBlock reads back through parse as the value it held, whenever the value is one its type holds and a known tag admits the type |
| TiffFiles.StoredDecodes | external/FCam/processing/TIFF.cpp:604-638 | stored data is exactly what parse hands to the decoder |
| TiffFiles.Record | external/FCam/processing/TIFF.cpp:538-541 | a directory entry record is 12 bytes |
| TiffFiles.ReadRecord | external/FCam/processing/TIFF.cpp:1472-1494 | an entry read from 12 bytes has a 16-bit tag and type, a 32-bit count and a 4-byte offset field |
| TiffFiles.RecordBack | external/FCam/processing/TIFF.cpp:1474-1490 | an entry record written by write and read back by readIfd gives back the same tag, type, count and offset field |
| TiffFiles.CompatType | external/FCam/processing/TIFF.cpp:532-536 | the type written is never IFD, and every other type is written unchanged |
| TiffFiles.IfdWrittenAsLong | external/FCam/processing/TIFF.cpp:532-593 | an IFD entry written as LONG passes the reader's type check for an IFD tag and holds exactly the values it held as IFD |
| TiffFiles.SetResult | external/FCam/processing/TIFF.cpp:97-188 | an accepted value is held and the entry becomes WRITTEN with a type that suits it; a refused one makes it INVALID, keeping the old value, except that a time for an unknown tag clears it; a known tag keeps its type; count and field never change |
| TiffFiles.Sink.Append | external/FCam/processing/TIFF.cpp:410-517 | the file grows by exactly the bytes written |
| TiffFiles.Pad | external/FCam/processing/TIFF.cpp:400-406 | at most one pad byte, making the offset even |
| TiffFiles.Entry.FromRaw | external/FCam/processing/TIFF.cpp:55-59 | an entry read from a directory is UNREAD with a Null value, its type, count and field as found, and the table's info for its tag |
| TiffFiles.Entry.constructor | external/FCam/processing/TIFF.cpp:61-70 | an entry made for a value starts INVALID with count and field zero and the table's type for a known tag, then holds what setValue makes of it |
| TiffFiles.Entry.SetValue | external/FCam/processing/TIFF.cpp:97-188 | true exactly when the value is accepted for the tag; the entry changes as SetResult says |
| TiffFiles.Entry.Value | external/FCam/processing/TIFF.cpp:89-95 | an unread entry parses its data once, becoming READ with the value found or INVALID with a Null value on a failure; any other entry returns its value unchanged; type, count and field never change |
| TiffFiles.Entry.WriteDataBlock | external/FCam/processing/TIFF.cpp:190-526 | an invalid entry is refused and nothing changes; otherwise the count becomes ElementCount and the data is stored where parse finds it, in the field when it takes at most 4 bytes (file unchanged) and otherwise appended at an even offset held by the field |
| TiffFiles.Entry.Store | external/FCam/processing/TIFF.cpp:263-407 | the data is stored where parse finds it: in the field when at most 4 bytes, otherwise after a pad byte in the file |
| TiffFiles.Entry.StoreInline | external/FCam/processing/TIFF.cpp:263-388 | the data overwrites the start of the offset field and nothing else changes |
| TiffFiles.Entry.StoreOutOfLine | external/FCam/processing/TIFF.cpp:388-407 | the file grows by a pad byte and the data, and the field holds the data's even offset |
| TiffFiles.Entry.Write | external/FCam/processing/TIFF.cpp:528-549 | the file grows by exactly the entry's 12-byte record, an IFD type written as LONG |
| TiffFiles.Ifd.constructor | external/FCam/processing/TIFF.cpp:793-794 | a new directory has no entries |
| TiffFiles.Ifd.Find | external/FCam/processing/TIFF.cpp:808-813 | the entry for a tag exactly when the directory has one |
| TiffFiles.Ifd.AddRaw | external/FCam/processing/TIFF.cpp:815-820 | an entry read from a file joins the directory unread; an entry already there under the same tag is kept |
| TiffFiles.Ifd.Add | external/FCam/processing/TIFF.cpp:822-831 | false, with nothing changed, exactly when a fresh entry for the tag refuses the value; otherwise a new tag gets the fresh entry and an existing entry is given the value through setValue, and no other entry changes |
| TiffHeaders.Swap16Twice | external/FCam/processing/TIFF.cpp:1551-1555 | swapping the two bytes of a 16-bit value twice gives the value back |
| TiffHeaders.LeBytesRoundTrip | external/FCam/processing/TIFF.cpp:1557-1564 | four bytes read as a little-endian value and written back are the same bytes |
| TiffHeaders.Swap32Twice | external/FCam/processing/TIFF.cpp:1557-1564 | reversing the four bytes of a 32-bit value twice gives the value back |
| TiffHeaders.ConvShort | external/FCam/processing/TIFF.cpp:1551-1555 | a little-endian file's value is kept; in a big-endian file the code as written joins the shifted halves with a logical or and yields 0 or 1, while the byte swap yields a value whose swap is the stored one |
| TiffHeaders.ConvLong | external/FCam/processing/TIFF.cpp:1557-1564 | a little-endian file's value is kept; in a big-endian file the code as written yields 0 or 1, while the byte swap yields a value whose reversal is the stored one |
| TiffHeaders.ReadHeader | external/FCam/processing/TIFF.cpp:1388-1443 | fewer than 8 bytes is a read failure; a header is accepted exactly when the byte-order mark is II or MM, the converted magic number is 42 and the converted offset of directory 0 is at least 8, and then gives that byte order and offset |
| TiffHeaders.WrittenHeader | external/FCam/processing/TIFF.cpp:1312-1348 | writeTo's header is 8 bytes: II, 42 and the offset of directory 0 |
| TiffHeaders.BigEndianHeader | external/FCam/processing/TIFF.cpp:1405-1408 | a big-endian header is 8 bytes: MM, 42 and the offset, most significant byte first |
| TiffHeaders.WrittenHeaderReads | external/FCam/processing/TIFF.cpp:1388-1443 | the header writeTo writes reads back as little-endian with the same directory offset, whichever conversion is used |
| TiffHeaders.LowOffsetRefused | external/FCam/processing/TIFF.cpp:1431-1439 | a header whose first directory would start inside the header is refused with that offset |
| TiffHeaders.BigEndianRefused | external/FCam/processing/TIFF.cpp:1551-1555 | as written, every big-endian file is refused: its magic number converts to 1, not 42 |
| TiffHeaders.BigEndianReads | external/FCam/processing/TIFF.cpp:1405-1443 | with the byte swap intended, a big-endian header is read as big-endian with its directory offset |
| TiffImages.RowsPerStrip | external/FCam/processing/TIFF.cpp:1181-1190 | at least 10 rows per strip; above 10, as many whole rows as fit in 64 KiB and no more; exactly 10 when 10 rows exceed 64 KiB |
| TiffImages.StripCountsAreRows | external/FCam/processing/TIFF.cpp:1197-1202 | one byte count per strip, each the strip's rows times the bytes per row |
| TiffImages.Starts | external/FCam/processing/TIFF.cpp:1201 | one offset per strip |
| TiffImages.StartsContiguous | external/FCam/processing/TIFF.cpp:1197-1212 | strips are written back to back: the first starts at the file position, each next one where the one before ends |
| TiffImages.StripNumber | external/FCam/processing/TIFF.cpp:1191-1197 | the strip loop runs (height - ys) / rps times, plus once for a partial strip, the count stripsPerImage computes |
| TiffImages.OnlyLastStripShorter | external/FCam/processing/TIFF.cpp:1197-1199 | every strip but the last holds exactly rowsPerStrip rows, and the last one between 1 and rowsPerStrip |
| TiffImages.StripsCoverRows | external/FCam/processing/TIFF.cpp:1197-1207 | together the strips hold every row of the image once |
| TiffImages.WriteRows | external/FCam/processing/TIFF.cpp:1205-1207 | the file grows by exactly the rows lo to hi, in order |
| TiffImages.StripStep | external/FCam/processing/TIFF.cpp:1197-1212 | one iteration of the strip loop keeps the loop invariant: the file holds the rows so far, and the offsets and counts pushed are the strips so far |
| TiffImages.StripsBegin | external/FCam/processing/TIFF.cpp:1194-1197 | the invariant holds before the first strip, with nothing pushed or written |
| TiffImages.StripsDone | external/FCam/processing/TIFF.cpp:1197-1212 | once past the last row, the file holds every row, the counts are the strip sizes and the offsets are where the strips start |
| TiffImages.WriteStrips | external/FCam/processing/TIFF.cpp:1194-1212 | the row loop of writeImage appends every row of the picture and returns, per strip, its start in the file and its byte count |
| TiffImages.FormatOf | external/FCam/processing/TIFF.cpp:892-919 | getImage reads RGB images as RGB24 and CFA images as RAW, and refuses every other photometric interpretation |
| TiffImages.IntOr | external/FCam/processing/TIFF.cpp:921-939 | a missing optional tag gives its default, a present int tag its value |
| TiffImages.OffsetsAsWritten | external/FCam/processing/TIFF.cpp:1000-1002 | as written, a strip-offset tag that reads back as a plain int gives no offsets at all |
| TiffImages.OffsetsFixed | external/FCam/processing/TIFF.cpp:1000-1002 | corrected: a plain int is one offset; every other value is read as before |
| TiffImages.StripsPerImage | external/FCam/processing/TIFF.cpp:993-997 | the expected strip count is a 32-bit unsigned number |
| TiffImages.PlanWith | external/FCam/processing/TIFF.cpp:871-1009 | no photometric tag means no image; a planned load has a known format, no compression, the format's samples per pixel, the width and length tags, a strip-offset tag, and as many offsets as stripsPerImage (one when rowsPerStrip is absent) |
| TiffImages.Photometric | external/FCam/processing/TIFF.cpp:1147-1170 | the photometric interpretation writeImage records reads back as the format the image is loaded as |
| TiffImages.ImageTags | external/FCam/processing/TIFF.cpp:1214-1226 | writeImage adds exactly the photometric, samples, bits, width, length, rows-per-strip, offsets, byte-counts and compression tags |
| TiffImages.ReadValues | external/FCam/processing/TIFF.cpp:664-786 | each stored tag reads back as its value, a one-element vector as its element |
| TiffImages.StripsPerImagePositive | external/FCam/processing/TIFF.cpp:996-997 | with positive sizes, getImage's strip count is the rounded-up quotient of length by rows per strip |
| TiffImages.StripsPerImageMatches | external/FCam/processing/TIFF.cpp:1191-1197 | the strip count getImage expects is the number of strips writeImage writes |
| TiffImages.ReadImageTags | external/FCam/processing/TIFF.cpp:664-786 | the tags writeImage adds read back with the values it gave them |
| TiffImages.TagsPlanned | external/FCam/processing/TIFF.cpp:871-1009 | as written, the tags of an RGB24 or RAW image of two strips or more read back into the same format, size, rows per strip and strip offsets |
| TiffImages.TagsPlannedFixed | external/FCam/processing/TIFF.cpp:871-1009 | with a single offset accepted in scalar form, the tags of every RGB24 or RAW image read back into its layout, one strip included |
| TiffImages.SingleStripRejected | external/FCam/processing/TIFF.cpp:1000-1004 | as written, any saved image with one strip fails to load: its single offset reads back as a plain int and the vector conversion leaves zero offsets, not one |
| TiffImages.Rgb16Refused | external/FCam/processing/TIFF.cpp:966-971 | an RGB16 image is saved with bits per sample 5, 6, 5, which getImage refuses, as written and corrected alike |
| TiffImages.ReadByteArray | external/FCam/processing/TIFF.cpp:1583-1594 | a read succeeds exactly when nothing is asked or the bytes lie within the file, and then gives exactly those bytes |
| TiffImages.StripReads | external/FCam/processing/TIFF.cpp:1027-1036 | the strip loop never reads more than the bytes left, and reads nothing for no strips |
| TiffImages.ReadStrips | external/FCam/processing/TIFF.cpp:1027-1036 | the loop reading into the image buffer returns what StripReads describes |
| TiffImages.StripReadsCons | external/FCam/processing/TIFF.cpp:1027-1036 | one iteration: a successful read of the first strip followed by the loop over the rest |
| TiffImages.ContiguousReadsBack | external/FCam/processing/TIFF.cpp:1027-1036 | strips written back to back, all full but the last, read back as the whole run of their bytes |
| TiffImages.StripCountsSum | external/FCam/processing/TIFF.cpp:1197-1202 | the byte counts writeImage records add up to the image's bytes |
| TiffImages.StripCountsFull | external/FCam/processing/TIFF.cpp:1197-1202 | every byte count but the last is a full strip, and none is more |
| TiffImages.StripReadsBack | external/FCam/processing/TIFF.cpp:1027-1036 | the strip loop, given the offsets and counts writeImage records, reads back exactly the rows it wrote |
| TiffImages.LoadedBy | external/FCam/processing/TIFF.cpp:1022-1039 | a loaded picture comes from a successful plan, has its format, width and height, and holds exactly what its strip reads gave |
| TiffImages.Rows | external/FCam/processing/TIFF.cpp:1205-1206 | the buffer cut into height rows of bytesPerRow bytes, which together are the buffer |
| TiffImages.AddsViewOk | external/FCam/processing/TIFF.cpp:1214-1232 | the chain of adds succeeds exactly when every value is of a kind its tag takes |
| TiffImages.AddsViewFresh | external/FCam/processing/TIFF.cpp:822-831 | distinct new tags all taken end as written entries holding their values, and other entries are untouched |
| TiffImages.ImagePairs | external/FCam/processing/TIFF.cpp:1214-1226 | writeImage adds nine tags |
| TiffImages.CountsBounded | external/FCam/processing/TIFF.cpp:1197-1202 | there are no more strips than image bytes, and every strip lies within the image's bytes |
| TiffImages.ImagePairsAreTags | external/FCam/processing/TIFF.cpp:1214-1226 | the nine tags added are distinct and are exactly the tags ImageTags holds, with its values |
| TiffImages.SavedPairsWellFormed | external/FCam/processing/TIFF.cpp:1178-1226 | every value writeImage adds is well formed: its ints fit in 32 bits |
| TiffImages.SizesFit | external/FCam/processing/TIFF.cpp:1178-1190 | the width, height and rows per strip of an image that fits in a file fit in an int |
| TiffImages.StripReadsGrow | external/FCam/processing/TIFF.cpp:1027-1036 | strips read from a file read the same after the file has grown |
| TiffImages.SavedSizes | external/FCam/processing/TIFF.cpp:1008-1009 | getImage's 32-bit byte counts equal the picture's real row and strip sizes |
| TiffImages.SavedImageLoads | external/FCam/processing/TIFF.cpp:871-1052 | save then load, as written: a picture of two strips or more whose strips and tags writeImage wrote loads back as the same picture; a picture of one strip does not load |
| TiffImages.SavedImageLoadsFixed | external/FCam/processing/TIFF.cpp:871-1052 | save then load with single offsets accepted: every picture writeImage saved loads back as itself |
| TiffImages.StripsReadBack | external/FCam/processing/TIFF.cpp:1008-1039 | a plan holding the saved layout reads the saved picture back whatever follows it in the file |
| TiffImages.AddAll | external/FCam/processing/TIFF.cpp:1214-1226 | the tag chain: each pair added in turn while the adds succeed, as AddsView describes |
| TiffImages.WriteCached | external/FCam/processing/TIFF.cpp:1178-1232 | the file grows by exactly the picture's bytes, and the tags are added as AddsView describes |
| TiffImages.IfdImage.constructor | external/FCam/processing/TIFF.cpp:793-794 | a new directory has not yet looked for its image |
| TiffImages.IfdImage.GetImage | external/FCam/processing/TIFF.cpp:871-1052 | the cache once the directory has been looked at; the first time, the picture the as-written checks load (state CACHED), or no image (state NONE) when a check or a read fails |
| TiffImages.IfdImage.SetImage | external/FCam/processing/TIFF.cpp:1054-1063 | accepted exactly for RGB24 and RAW images, which become the cache; otherwise nothing changes |
| TiffImages.IfdImage.WriteImage | external/FCam/processing/TIFF.cpp:1135-1236 | a directory without an image writes nothing and succeeds; otherwise the file grows by the picture's bytes and its tags are added, the result whether all were |
| Dng.Wrap16 | external/FCam/processing/DNG.cpp:700-714 | assignment to a `uint16_t` gives a value below 2^16, unchanged when it already fits |
| Dng.VersionText | external/FCam/processing/DNG.cpp:258-262 | the four-char version string saveDNG writes reads back, byte by byte, as the version it was made from |
| Dng.OlderAt | external/FCam/processing/DNG.cpp:613-616 | one version is older than another exactly when they agree up to some position and the first is smaller there |
| Dng.LexicographicGateIsOrder | external/FCam/processing/DNG.cpp:613-617 | corrected gate: a backward version is refused as too new exactly when the understood version 1.3.0.0 comes before it |
| Dng.AsWrittenRefusesMore | external/FCam/processing/DNG.cpp:613-617 | the gate as written refuses every version the corrected gate refuses |
| Dng.AsWrittenRefusesOlder | external/FCam/processing/DNG.cpp:613-617 | as written, 1.2.0.1 and 0.3.1.0, both older than 1.3.0.0, are refused as too new, while the corrected gate accepts them |
| Dng.VersionGateBounds | external/FCam/processing/DNG.cpp:613-617 | both gates refuse a major version above 1 and accept the versions saveDNG writes |
| Dng.CheckVersion | external/FCam/processing/DNG.cpp:595-618 | no DNGVersion is refused; otherwise the file passes exactly when its backward version is not too new for the gate, and yields that version |
| Dng.CfaPattern | external/FCam/processing/DNG.cpp:377-403 | each Bayer arrangement is four colour codes, each red, green or blue |
| Dng.CfaPatternColours | external/FCam/processing/DNG.cpp:377-403 | every arrangement has its two greens on one diagonal and red and blue on the other |
| Dng.CfaPatternInjective | external/FCam/processing/DNG.cpp:377-403 | no two Bayer arrangements share a pattern |
| Dng.CfaText | external/FCam/processing/DNG.cpp:377-409 | the CFAPattern entry is four chars, the colour codes of the arrangement |
| Dng.BayerOf | external/FCam/processing/DNG.cpp:672-694 | a pattern string that names an arrangement is exactly that arrangement's pattern |
| Dng.DecodeCfa | external/FCam/processing/DNG.cpp:660-696 | no repeat-dimension entry is refused; an accepted raw directory has 2x2 repeat dimensions and a four-char pattern naming a Bayer arrangement |
| Dng.BayerOfText | external/FCam/processing/DNG.cpp:672-691 | the pattern saveDNG writes names the arrangement it was written for |
| Dng.CfaDecodes | external/FCam/processing/DNG.cpp:660-696 | 2x2 dimensions and the pattern of an arrangement decode to that arrangement |
| Dng.BlackLevelPattern | external/FCam/processing/DNG.cpp:375-408 | the BlackLevel entries hold, at each pattern position, the level of that position's colour; as written, GBRG falls through to the error branch and writes none |
| Dng.BlackLevelDims | external/FCam/processing/DNG.cpp:699-706 | 1x1 when the entry is missing; otherwise its first two ints, each truncated to `uint16_t` |
| Dng.Levels | external/FCam/processing/DNG.cpp:731-751 | three levels, each truncated to `uint16_t`, whenever the two greens' sum does not overflow an int |
| Dng.LevelsFromPattern | external/FCam/processing/DNG.cpp:731-754 | a four-entry BlackLevel gives three levels below 2^16 |
| Dng.LoadBlackLevels | external/FCam/processing/DNG.cpp:699-758 | zeros without a BlackLevel entry; repeat dimensions other than 1x1 or 2x2 are refused; a scalar sets every colour and needs 1x1; a vector needs 2x2 and four entries; every level is below 2^16 |
| Dng.LevelsOfPattern | external/FCam/processing/DNG.cpp:731-751 | a pattern that repeats one level per colour loads back as those levels |
| Dng.BlackLevelRoundTrip | external/FCam/processing/DNG.cpp:699-758 | with the missing `break` added, the BlackLevel and repeat-dimension entries saveDNG writes load back as the same three levels, for all four arrangements |
| Dng.GbrgSaveFallsThrough | external/FCam/processing/DNG.cpp:398-407 | as written, saving a GBRG frame writes no black level; with the `break` the same levels round-trip |
| Dng.MinRawValue | external/FCam/processing/DNG.cpp:896 | minRawValue is one of the three black levels and no larger than any of them |
| Dng.WhiteLevel | external/FCam/processing/DNG.cpp:762-766 | 65535 without a WhiteLevel entry; an in-range white level is kept; always below 2^16 |
| Dng.CheckOrientation | external/FCam/processing/DNG.cpp:807-811 | accepted exactly when the orientation is present and top-left; a missing one is its own error |
| Dng.IlluminantIndex | external/FCam/processing/DNG.cpp:814-857 | the index into the temperature table is always in range: an in-range code is itself, any other int (negative ones through `unsigned int`) clamps to the last entry |
| Dng.LoadCalibration | external/FCam/processing/DNG.cpp:813-880 | no first colour matrix is refused; the first temperature comes from the table; two illuminants exactly when the second illuminant tag is present, then with a table temperature, else one and -1 |
| Dng.CameraName | external/FCam/processing/DNG.cpp:882-891 | "Unknown" without the entry, otherwise the string it holds |
| Dng.LoadMetadata | external/FCam/processing/DNG.cpp:595-896 | accepted metadata passed the version, CFA and orientation checks, with the decoded arrangement, its black levels, minRawValue the least of them, maxRawValue the white level and the calibration read |
| Dng.SavedIfd0 | external/FCam/processing/DNG.cpp:258-300 | directory 0 holds the versions, the make and model, standard-A and D65 illuminants with their matrices, and top-left orientation |
| Dng.SavedRaw | external/FCam/processing/DNG.cpp:371-415 | the raw directory exists exactly when the black-level pattern was written; it holds 2x2 CFA dimensions, the pattern, the black levels with 2x2 repeat and the white level |
| Dng.SavedIfd0Loads | external/FCam/processing/DNG.cpp:595-891 | the saved directory 0 passes either gate with the backward version 1.2.0.0, is top-left, calibrates at 2856 K and 6504 K, and gives back the make and model |
| Dng.SavedRawLoads | external/FCam/processing/DNG.cpp:660-766 | the saved raw directory decodes to the same arrangement, black levels and white level |
| Dng.SavedMetadataLoads | external/FCam/processing/DNG.cpp:564-897 | the metadata saveDNG writes, with the GBRG `break` added, loads back under either gate as the same arrangement, black levels and white level |
| DngPrivateData.NulIndex | external/FCam/processing/DNG.cpp:918 | the position of the first NUL, with none before it, or -1 when the string has none |
| DngPrivateData.SplitPreamble | external/FCam/processing/DNG.cpp:918-922 | the preamble holds no NUL; either the string is the preamble, a NUL and the data, or, without a NUL, both parts are the whole string |
| DngPrivateData.NulSplits | external/FCam/processing/DNG.cpp:918-922 | cut at its first NUL, a string is the NUL-free part before it, the NUL and the rest |
| DngPrivateData.SplitsAtNul | external/FCam/processing/DNG.cpp:918-922 | the preamble saveDNG writes, ended by `std::ends`, splits off exactly, leaving the data after it |
| DngPrivateData.Get | external/FCam/TagValue.cpp:1009-1429 | one `>>`: a failed stream or the end of the data gives Null and a failed stream; a text-form character is reported; any other character that does not start a blob leaves the stream and the value as they were; only a blob that fits advances a good stream |
| DngPrivateData.GetBlob | external/FCam/TagValue.cpp:1009-1122 | the blob `toBlob` writes for a well-formed value reads back as that value, the stream stays good and goes on at what the blob leaves after its items |
| DngPrivateData.GetBlobFixed | external/FCam/TagValue.cpp:1009-1122 | the exactly sized blob of every well-formed value reads back as that value and the stream goes on right after it |
| DngPrivateData.Dispatch | external/FCam/processing/DNG.cpp:913-948 | a preamble other than FCam's is ignored; version 1 goes to the version 1 reader; the version 2 reader is chosen only when the version is not 1 and the backward version is 2, and gets the stream after those two |
| DngPrivateData.Flatten | external/FCam/processing/DNG.cpp:156-163 | each entry contributes its key and then its value |
| DngPrivateData.VersionBlobsFirst | external/FCam/processing/DNG.cpp:140-163 | the saved private data is FCam's preamble, then the blobs of version 2 and backward version 2, then the entries' blobs |
| DngPrivateData.VersionTwoAfter | external/FCam/processing/DNG.cpp:913-935 | data with FCam's preamble and two version blobs holding 2 goes to the version 2 reader, starting right after them |
| DngPrivateData.SavedPrivateDataDispatches | external/FCam/processing/DNG.cpp:913-935 | the private data saveDNG writes goes to the version 2 reader, which starts at the entries' blobs |
| DngPrivateData.SavedPrivateDataFixedDispatches | external/FCam/processing/DNG.cpp:913-935 | the same for exactly sized blobs |
| DngPrivateData.ReadLoop | external/FCam/processing/DNG.cpp:498-501 | a finished loop keeps every key it started with |
| DngPrivateData.RoundStep | external/FCam/processing/DNG.cpp:498-501 | one round: a key read that leaves the stream good, then the value read, stored under the key's text, and the loop goes on from there |
| DngPrivateData.LoopAtEnd | external/FCam/processing/DNG.cpp:498 | at the end of the data the key read fails and the loop finishes with the tags it has |
| DngPrivateData.TrailingKeyGetsNull | external/FCam/TagValue.cpp:1418-1421 | a key blob at the very end of the data is still stored, with a Null value, since the value read at end of data gives Null |
| DngPrivateData.OnePair | external/FCam/processing/DNG.cpp:498-501 | a key and a value written as blobs are read in one round, leaving what the value's blob has after its items |
| DngPrivateData.OnePairFixed | external/FCam/processing/DNG.cpp:498-501 | a key and a value written as exactly sized blobs are read in one round, leaving exactly what follows them |
| DngPrivateData.NulStalls | external/FCam/TagValue.cpp:1422-1429 | a NUL where a key is expected makes `>>` fail without reading or failing the stream, so the loop repeats the same round and no fuel is enough |
| DngPrivateData.BlobsCons | external/FCam/processing/DNG.cpp:156-163 | the blobs of entries are the first key's blob, then its value's, then the others' |
| DngPrivateData.StorableTail | external/FCam/processing/DNG.cpp:156-163 | the entries after a storable first entry are storable, and the first value is neither Null nor a double vector |
| DngPrivateData.BlobsRound | external/FCam/processing/DNG.cpp:498-501 | the first round over storable entries' blobs stores the first entry and goes on at the next one |
| DngPrivateData.BlobsFixedRound | external/FCam/processing/DNG.cpp:498-501 | the same over the exactly sized blobs of any well-formed entries |
| DngPrivateData.NoBlobs | external/FCam/processing/DNG.cpp:498 | with no entries the loop finishes at once with the tags it has |
| DngPrivateData.LoopOfBlobs | external/FCam/processing/DNG.cpp:498-501 | storable entries written as blobs are read one round each, and the loop finishes with them inserted in order |
| DngPrivateData.LoopOfBlobsFixed | external/FCam/processing/DNG.cpp:498-501 | the same for every well-formed entry, Null values and double vectors included, with exactly sized blobs |
| DngPrivateData.NoFuelRound | external/FCam/processing/DNG.cpp:498-501 | a round that reads a key and a value other than Null, with no fuel left, runs out of fuel |
| DngPrivateData.TrailerStartsWithNul | external/FCam/TagValue.cpp:790-800 | what a double vector's blob leaves after its items starts with a NUL |
| DngPrivateData.DoubleVectorPairStalls | external/FCam/TagValue.cpp:790-800 | a round over a key and a double vector leaves the loop at the NULs after the vector's items, where it never finishes |
| DngPrivateData.StallAfterPair | external/FCam/processing/DNG.cpp:498-501 | a loop that runs out of fuel on what one pair leaves runs out of fuel from before that pair too |
| DngPrivateData.DoubleVectorStalls | external/FCam/processing/DNG.cpp:498-501 | entries whose first value is a double vector never finish the loop, with any fuel |
| DngPrivateData.DoubleVectorRound | external/FCam/processing/DNG.cpp:498-501 | the same with no fuel left as well |
| DngPrivateData.DoubleVectorHangs | external/FCam/processing/DNG.cpp:498-501 | storable entries followed by a double vector, written as blobs, never finish the loop |
| DngPrivateData.FlattenAppend | external/FCam/processing/DNG.cpp:156-163 | the values of two entry lists in turn are the first list's values followed by the second's |
| DngPrivateData.SavedDoubleVectorHangs | external/FCam/processing/DNG.cpp:495-502 | private data saved with a double vector goes to the version 2 reader, whose loop never finishes |
| DngPrivateData.InsertHolds | external/FCam/processing/DNG.cpp:499-502 | after inserting entries with distinct keys, the map's keys are the old ones plus theirs, each entry holds its value and every other key keeps its own |
| DngPrivateData.Converted | external/FCam/processing/DNG.cpp:508-558 | a field takes its declared kind; a colour matrix is always 12 floats |
| DngPrivateData.GrabKeysCons | external/FCam/processing/DNG.cpp:517-558 | the keys of distinct grab steps are the first one's, not among the others', plus the others', which stay distinct |
| DngPrivateData.ExtractMoves | external/FCam/processing/DNG.cpp:508-558 | the grabField steps move exactly the known keys present in the tags into the fields, converted, and leave every other tag and field as it was |
| DngPrivateData.GrabsDistinct | external/FCam/processing/DNG.cpp:517-558 | the keys grabField looks for are all different |
| DngPrivateData.DngFrame.constructor | external/FCam/processing/DNG.cpp:564-590 | a new frame has no tags and no fields |
| DngPrivateData.DngFrame.ReadTags | external/FCam/processing/DNG.cpp:497-501 | the loop stores each key and value read while the key read leaves the stream good; the tags become what ReadLoop finishes with; the fields are untouched |
| DngPrivateData.DngFrame.GrabField | external/FCam/processing/DNG.cpp:508-515 | one grabField moves the key's value, converted, from the tags into the fields |
| DngPrivateData.DngFrame.GrabFields | external/FCam/processing/DNG.cpp:517-558 | the grabField steps one after another, as Extract describes |
| DngPrivateData.DngFrame.LoadV2 | external/FCam/processing/DNG.cpp:495-561 | the version 2 reader reads every key and value into the tags, moves the known frame fields out, and leaves the frame with two illuminants |
| DngPrivateData.ReadBackHolds | external/FCam/processing/DNG.cpp:499-502 | written entries with distinct keys read back as exactly those keys, each with its value |
| DngPrivateData.ReadableWhenFit | external/FCam/processing/DNG.cpp:508-558 | entries whose known keys hold values of their fields' kinds can be taken by the grab steps |
| DngPrivateData.ConvertedFits | external/FCam/processing/DNG.cpp:508-558 | a value of its field's kind comes through the field's conversion unchanged |
| DngPrivateData.LoadedKeys | external/FCam/processing/DNG.cpp:495-561 | in a loaded frame the known keys become fields and every other key stays a tag |
| DngPrivateData.LoadedTags | external/FCam/processing/DNG.cpp:499-560 | an entry whose key is not grabbed stays a tag with its value |
| DngPrivateData.LoadedFields | external/FCam/processing/DNG.cpp:508-558 | an entry whose key is grabbed becomes that field with its value |
| DngPrivateData.LoadedFrame | external/FCam/processing/DNG.cpp:495-561 | entries with distinct keys and fitting fields load as the known keys for fields and the rest as tags, each with its value |
| DngPrivateData.SavedFrameLoads | external/FCam/processing/DNG.cpp:495-561 | as written, storable frame fields and tags that saveDNG writes come back from the version 2 reader: known keys as fields and the rest as tags, each with its value |
| DngPrivateData.SavedFrameLoadsFixed | external/FCam/processing/DNG.cpp:495-561 | with exactly sized blobs the round trip holds for every well-formed entry, Null values and double vectors included |
| CircularBuffers.CircularBuffer.At | include/FCam/CircularBuffer.h:27-33 | `operator[](i)` reads slot `end - 1 - i`, wrapped around the ring |
| CircularBuffers.RingItems | include/FCam/CircularBuffer.h:27-38 | the ring holds `end - start` values (wrapped), newest first, the i-th read from slot `end - 1 - i` |
| CircularBuffers.RingPush | include/FCam/CircularBuffer.h:40-50 | a push puts the value in front of the retained values and drops the oldest when the ring is full; the ring never holds all its slots |
| FCamBridge.Toggled | android/packages/fcamerapro/jni/FCamInterface.cpp:482-490 | switching an automatic mode on from off hands the user's value to both the user and the evaluated value; any other change copies the evaluated value to both |
| FCamTime.Wrap32 | external/FCam/Time.cpp:14-17 | the stored `int` lies in the 32-bit range, differs from the exact value by a multiple of 2^32, and equals it when it fits |
| TegraDaemon.PendingShots.Inc | external/FCam/Tegra/Sensor.cpp:253-256 | each call adds exactly one to the pending-shot count |
| TegraStatistics.RegionValues | external/FCam/Tegra/Statistics.cpp:95-120 | the clipped, subsampled region evaluateVariance reads holds at least one sample |
| ParamSetRequests.ParamSetRequest.Bytes | android/packages/fcamerapro/jni/ParamSetRequest.h:116-126 | the bytes a request carries are exactly `getDataSize()` many |

## Left out

- Threads, mutexes and semaphores are left out. Only the sequential effect of each operation is modelled:
  - the pool, the UI handler, the daemon's setter and action threads;
  - the writer thread and the application loop.
- Real file I/O, directory listing, decoding and hardware are inputs or sequences of bytes. This covers:
  - `fopen`/`fread`/`fwrite`/`mmap`, BitmapFactory, the SAX parser, libjpeg;
  - the camera HAL, EGL/GL, the lens and flash devices.
- Floating point is modelled with mathematical reals, or with values already scaled to integers:
  - the gallery histogram normalisation (Image.java:63-68);
  - the preview histogram `norm` (FCamInterface.cpp:684-690);
  - the writer's gain and flash fields;
  - the autofocus target mapping and lens positions (AutoFocus.cpp:43-46);
  - the sensor's exposure products (Sensor.cpp:133-149).

  Rounding of `float` and `double` is not modelled. The text and rational forms of FLOAT/DOUBLE tags take their conversions as a parameter.
- FCamTime: `Time(timeval)` and the clock reading are not modelled. `Diff` is modelled with its 32-bit wrap-around.
- TegraStatistics.EvaluateVariance: the sums `sumX` and `sumX2` are unbounded integers. The source accumulates them in a 32-bit `int`. The ensures therefore states the exact variance even where the source's sums overflow. `BudgetExceeded` exhibits such an input at the as-written step; `FixedBudgetFits` shows the sums always fit at the corrected step.
- TegraStatistics.EvaluateSharpness: same unbounded sums as `EvaluateVariance`, for the same reason.
- TegraStatistics.EvaluateSharpness: requires an image at least two pixels wide and high when enabled. For a width or height of 1 the clipped region is empty and the source divides by zero.
- TegraStatistics.EvaluateVariance: requires `Samplable` for the same reason.
- YUV420.ConvertYUV420ToRGB24: assumes packed planes. The destination row stride is `3·width` and the source stride is `width`; the width and height are even. The source indexes through `Image::operator()` with the image's own strides. Padded rows and odd sizes are not modelled.
- FCamBridge.NativeApp.Dispatch: requires a `PARAM_SHOT` picture id below `FCAM_MAX_PICTURES_PER_SHOT` (16). The source indexes `captureSet[pictureId]` unchecked, which is undefined behaviour past the array.
- GalleryImage: the `flash`, `gain`, `exposure` and `wb` attributes are taken as integers. The `NumberFormatException` that `Integer.parseInt` can throw is not modelled.
- GalleryImage: decoded thumbnails have fewer than 2^19 pixels, so that `n·4096` fits in a Java `int`. Larger ones overflow the stride computation in the source.
- Shots.Shot: the actions are a sequence of action values. The source keeps a `std::set<Action*>` ordered by pointer, so pointer identity and set order are not modelled.
- TegraDaemon.Daemon.EnforceDropPolicy: requires a limit of at least 1 when frames are queued and the policy is a dropping one. With limit 0 the source's loop drains the queue and then blocks waiting for a frame that never comes.
- TegraDaemon.Daemon.SetDropPolicy: same requirement and reason as `EnforceDropPolicy`.
- TegraSensor.Sensor.EnforceDropPolicy: the same limit-of-at-least-1 requirement as `TegraDaemon.Daemon.SetDropPolicy`, which it calls, for the same reason.
- The blocking parts of the sensor and daemon are left out: `getFrame`'s wait and the daemon's frame wait. Other sensor parts left out:
  - `stop` (beyond `StopStreaming`), gains and latencies;
  - `attach`, `onFrame`, `handleEvent`, `tagFrame`;
  - devices' action tagging and `SubmitPending` timing.
- ParamSetRequests.ParamSetRequest.Assign: self-assignment is not modelled. The source deletes the buffer and then copies from it, which is undefined behaviour.
- AsyncImageWriting.NormalizedPrefix: requires a non-empty directory. The source reads `outputDirPrefix[slen - 1]`, which lies before the string when it is empty.
- TegraSensor.Sensor.MinImageSize: requires at least one sensor mode, as do the other size and exposure bounds. The source indexes the first and last mode unconditionally.
- FCamAutoFocus.AutoFocus.Update: requires a positive image size when the target is non-empty. The source divides by it in `float`, mapping the target rectangle onto the sharpness map.
- Dng.CheckVersion: requires DNGBackwardVersion whenever DNGVersion is present. `loadDNG` dereferences the missing entry without a check.
- Dng: several parts of `loadDNG` and `saveDNG` are not modelled:
  - the search for the raw and thumbnail IFDs (DNG.cpp:620-650, 769-801);
  - the colour matrices and their interpolation (DNG.cpp:192-248, 820-880);
  - the version-1 private-data reader (DNG.cpp:439-492).
- TiffFiles: several TIFF parts are not modelled:
  - reading IFDs of big-endian files beyond the header;
  - sub-IFDs and the EXIF IFD;
  - `readShortArray` (TIFF.cpp:1596-1613), which has the same logical-or defect as `convShort`;
  - file handling in `writeTo`/`readFrom`.
- TiffFiles.Decode: `convFloat` reads its value as an address, so FLOAT entries decode to an unspecified value.
- TiffImages.IfdImage.GetImage: the `mmap` path of `getImage` is not modelled. Strips are always read through `readByteArray`.
- TiffImages.IfdImage.WriteImage: requires a writable picture. Its rows must be non-empty, ten rows must fit in 32 bits, and every strip offset must fit in a signed 32-bit `int`. Beyond these bounds the source's rows-per-strip division, strip counts and offsets wrap or divide by zero.
- FCamImages: several `Image` parts are not modelled:
  - the `mmap` constructor, `lock`/`unlock` and the mutex;
  - `weak()` and the private-data pointer;
  - wrap-around of 32-bit byte offsets.
- TagValues.ReadBlob: a negative count in a string or vector blob posts a ParseError and reads nothing more. In the source, `resize` throws `std::length_error` there, which the model does not raise.
- TagValues.ReadPayload: the same negative-count case. Also, a scalar read cut short by the end of the data gives zero bytes, where the source leaves the bytes indeterminate. The stream fails in both, as `BlobFits` says.
- DngPrivateData.Dispatch: a version or backward version in the text form ends as `VersionInText`. Reading those two values as text and going on from there is not modelled.
- DngPrivateData.DngFrame.ReadTags: requires the loop to finish within the given fuel without meeting a text form. The source's loop need not end (`NulStalls`, `SavedDoubleVectorHangs`). A text-form value is read by the text reader (`TagText`), which the loop model does not chain into.
- DngPrivateData.DngFrame.LoadV2: requires the known fields to hold values their grab steps can copy: a colour matrix must be a float vector of at least 12 floats. The source copies 12 floats from `asFloatVector()` unchecked (DNG.cpp:544-555). A shorter vector, or the empty dummy of another kind, is read past its end.
- DngPrivateData.SavedFrameLoads: requires storable values, so no Null and no double vector. A Null value's blob as written is cut short (see Findings). A double vector's blob leaves four NULs on which the loop stalls (`SavedDoubleVectorHangs`). `SavedFrameLoadsFixed` proves the round trip for every well-formed value with the corrected blobs.
- TegraStatistics.EvaluateHistogram: requires even image sizes and a region inside the image. The source (Statistics.cpp:128-188) neither clips the region nor checks it, and reads outside the planes otherwise.
- FCamAutoFocus.MeasureRow: the row sum is an unbounded integer. The source adds into a 32-bit `int sharpness` (AutoFocus.cpp:61-62), which overflows once the sum passes 2^31 - 1. Signed overflow is undefined in C++, so no wrapped value is modelled; the contract is exact only while the sum stays below 2^31.
- FCamAutoFocus.MeasureWindow: the same unbounded window sum, exact only while it stays below 2^31.
- TegraAutoFocus.AutoFocus.Measure: the same unbounded sum. The source adds uint32 map cells into an `int` (Tegra/AutoFocus.cpp:118-119), so a single cell of 2^31 or more already gives a different sample there. The application's 1 × 1 variance map holds at most 255², far inside the bound.
- FCamAutoFocus.CheckGettingWorse: `sharpness * 101` is computed on unbounded integers. In the source it is an `int` product (AutoFocus.cpp:85; Tegra/AutoFocus.cpp:157), which overflows for a sharpness above 21,262,214, and the test's answer is then not modelled.
- FCamAutoFocus.GettingWorseMeansOnePercentDrops: the characterisation is of the unbounded product, so it describes the source only for sharpness values up to 21,262,214.
- FCamAutoFocus.OnePercentMore: an identity of mathematical integers. It describes the source's `s * 101 / 100` only for s up to 21,262,214, where the product fits an `int`.
- Thumbnails.Spacing: the 16.16 spacing is an unbounded integer. In the source `(srcWidth - 4) << 16` is an `int` (AsyncImageWriter.cpp:62-63) and overflows for a source extent of 32772 or more.
- Thumbnails.OriginInside: rests on `Spacing`, so it holds for the source only for extents below 32772. Beyond that the overflowed spacing can place origins outside the channel. Camera frames are far smaller (at most 2592 wide).
- Utils: the `Format*` functions are floating-point formatting and are left out.
- UI, SIMD demosaicing, OpenCV, auto-exposure and auto-white-balance are not part of this model.

## Findings

| source | as written | input that shows it | evidently intended | confidence | as-written member | corrected member |
|---|---|---|---|---|---|---|
| external/FCam/processing/DNG.cpp:613-617 | each clause of the "too new" test compares only the one byte before it | backward version 1.2.0.1 (or 0.3.1.0) is refused although older than 1.3.0.0 | refuse exactly the versions after 1.3.0.0 in lexicographic order | not executed | Dng.AsWrittenRefusesOlder | Dng.LexicographicGateIsOrder |
| external/FCam/Tegra/Statistics.cpp:71-78 | the sample budget is checked on `width >> k`, `height >> k`, but the loops read a ceiling of the clipped size | an all-white 727 × 727 image: step 4, 33124 samples, sum of squares above INT32_MAX | no more than 32768 samples, so the 32-bit sums cannot overflow | not executed | TegraStatistics.BudgetExceeded | TegraStatistics.FixedBudgetFits |
| external/FCam/Image.cpp:199-205 | `operator=` returns early when the two images share the counter and the data pointer | assigning a 640 × 480 image to its 10 × 10 sub-image at the origin leaves it 10 × 10 | the target equals the source afterwards | not executed | FCamImages.AssignToOriginSubImageKeepsSize | FCamImages.AssignedViewFixed |
| external/FCam/Tegra/YUV420.cpp:80-81 | the chroma row is `j/4` and the column test binds as `(x/2 + y%4) < 2` | luma rows 2 and 3 read chroma row 0, the same as rows 0 and 1 | the chroma sample of pixel (x, y) is at row y/2, column x/2 of the U plane | not executed | YUV420.ChromaRowReused | YUV420.UIndexFixedIsPlanar |
| external/FCam/Tegra/YUV420.cpp:84-85 | the V plane is taken to start `height/4` full rows after luma | a 2 × 2 image: the V sample read is the U sample | V starts after the whole U plane | not executed | YUV420.VPlaneStartsInsideU | YUV420.FixedSamplesInPlanes |
| external/FCam/processing/TIFF.cpp:1000-1004 | `getImage` casts StripOffsets to a vector, but a single offset is stored inline and reads back as a plain int | any image of one strip (e.g. 100 × 10 RGB24): zero offsets against one strip | a single offset is accepted as a one-element vector | not executed | TiffImages.SingleStripRejected | TiffImages.SavedImageLoadsFixed |
| external/FCam/TagValue.cpp:709-715 | `toBlob` of a Null value writes 2 bytes, while `operator>>` expects two zero padding bytes (TagValue.cpp:1017) | the blob of Null cannot be read back | every blob has the 4-byte header and reads back | not executed | TagValues.NullBlobUnreadable | TagValues.BlobRoundTrip |
| external/FCam/TagValue.cpp:790-800 | `toBlob` of a double vector sizes the blob as `4 + (1 + n)·8` chars, but writes only the 4-byte count and n doubles, leaving four NULs at the end; the version 2 reader's loop (DNG.cpp:498-501) meets a NUL where a key is expected, `>>` fails without reading or failing the stream, and the loop never ends | private data holding any double-vector tag, e.g. one entry whose value is the double vector [1.0] | the blob holds the count and the items only, so the reader goes on at the next key | not executed | DngPrivateData.SavedDoubleVectorHangs | DngPrivateData.SavedFrameLoadsFixed |
| external/FCam/processing/TIFF.cpp:508-511 | a DOUBLE entry of one element reads its value through the scalar `double` cast, which a double vector fails, so the dummy 0.0 is written | a DOUBLE entry holding the one-element vector [1.0] is written and read back as 0.0 | one element is written as that element, like a double | not executed | TiffFiles.OneDoubleWrittenAsZero | TiffFiles.DataFixedReadsBack |
| external/FCam/Shot.cpp:92-99 | `operator=` clears the target's actions before copying the source's | `s = s` on a shot with actions leaves it with none | self-assignment keeps the actions | not executed | Shots.Shot.Assign | Shots.Shot.AssignKeepingActions |
| external/FCam/processing/TIFF.cpp:1551-1564 | `convShort`/`convLong` combine the shifted halves with logical `\|\|` | a big-endian header: magic 42 reads as 1 and the file is refused | the byte swap uses bitwise `\|` | not executed | TiffHeaders.BigEndianRefused | TiffHeaders.BigEndianReads |
| external/FCam/processing/DNG.cpp:398-407 | the GBRG case has no `break` and falls into the error branch | saving any GBRG raw frame stops with a save error | GBRG saved like the other three patterns | not executed | Dng.GbrgSaveFallsThrough | Dng.BlackLevelRoundTrip |

=== FILE: async_image_writer.dfy ===
/**
 * The asynchronous image writer of the camera application
 * (android/packages/fcamerapro/jni/AsyncImageWriter.cpp): captured frames
 * are collected in an image set, which a worker thread later writes out as
 * an XML index `img_NNNN.xml`, one JPEG `img_NNNN_II.jpg` per frame saved in
 * JPEG format and one thumbnail `thumb_NNNN_II.jpg` per frame. Set ids come
 * from a counter shared by all writers, which skips ids whose XML file
 * already exists.
 *
 * The file system is a parameter (the set of paths that exist) and file
 * output is the list of writes a dump performs; the JPEG encoder and the
 * downsampler (module Thumbnails) are not re-run here.
 */
module AsyncImageWriting {
  import opened Base
  import CArith
  import StackNames
  import GalleryImage
  import Thumbnails
  import opened DecimalText

  /** A value of 0 to 9999 prints as exactly four digits under `%04i`. */
  lemma FourDigits(id: int)
    requires 0 <= id < 10000
    ensures |PrintInt(id, 4)| == 4 && AllDigits(PrintInt(id, 4))
    ensures StackNames.DecimalValue(PrintInt(id, 4)) == id
  {
    assert StackNames.Pow10(4) == 10000;
    DecimalLength(id, 4);
    PrintIntValue(id, 4);
  }

  // -------------------------------------------------------------------
  // File names
  // -------------------------------------------------------------------

  const JPEG_EXT: string := "jpg"

  /** `img_%04i.xml`. */
  function XmlName(id: int): string
  {
    "img_" + (PrintInt(id, 4) + ['.'] + "xml")
  }

  /** The part `%04i_%02i.%s` that image and thumbnail names share after their prefix. */
  function FrameTail(id: int, i: int, ext: string): string
  {
    PrintInt(id, 4) + ['_'] + (PrintInt(i, 2) + ['.'] + ext)
  }

  /** `img_%04i_%02i.%s`. */
  function ImageName(id: int, i: int, ext: string): string
  {
    "img_" + FrameTail(id, i, ext)
  }

  /** `thumb_%04i_%02i.jpg`. */
  function ThumbnailName(id: int, i: int): string
  {
    "thumb_" + FrameTail(id, i, JPEG_EXT)
  }

  /**
   * The index file of every set id the gallery can list, 0 to 9999, matches
   * the gallery's stack-file pattern, and the gallery reads the id back.
   */
  lemma XmlNameMatchesGallery(id: int)
    requires 0 <= id < 10000
    ensures StackNames.MatchesStackPattern(XmlName(id))
    ensures StackNames.StackId(XmlName(id)) == id
  {
    FourDigits(id);
    var name := XmlName(id);
    assert name[4..8] == PrintInt(id, 4);
    assert name[9..] == "xml";
  }

  /** A character that `%i` never prints. */
  predicate Separator(c: char)
  {
    !StackNames.IsDigit(c) && c != '-'
  }

  /** Two printed numbers each followed by a separator line up: numbers, separators and the rest agree. */
  lemma SplitAtSeparator(x: string, c: char, r: string, y: string, d: char, t: string)
    requires Plain(x) && Plain(y) && Separator(c) && Separator(d)
    requires x + [c] + r == y + [d] + t
    ensures x == y && c == d && r == t
  {
    var whole := x + [c] + r;
    var m := if |x| < |y| then |x| else |y|;
    AtSeparator(x, c, r, m);
    AtSeparator(y, d, t, m);
    if |x| != |y| {
      assert false;
    } else {
      assert whole[|x|] == c && (y + [d] + t)[|y|] == d;
      assert x == whole[..|x|];
      assert y == (y + [d] + t)[..|y|];
      assert r == whole[|x| + 1..];
      assert t == (y + [d] + t)[|y| + 1..];
    }
  }

  lemma AtSeparator(x: string, c: char, r: string, k: nat)
    ensures k < |x| ==> (x + [c] + r)[k] == x[k]
    ensures (x + [c] + r)[|x|] == c
  {
  }

  /** Different set ids have different index files. */
  lemma XmlNameInjective(a: int, b: int)
    requires XmlName(a) == XmlName(b)
    ensures a == b
  {
    var x, y := PrintInt(a, 4), PrintInt(b, 4);
    PrefixCancels("img_", x + ['.'] + "xml", y + ['.'] + "xml");
    SplitAtSeparator(x, '.', "xml", y, '.', "xml");
    PrintIntInjective(a, b, 4);
  }

  /** The shared tail of image and thumbnail names determines the set id, the frame index and the extension. */
  lemma FrameTailInjective(a: int, i: int, ext1: string, b: int, j: int, ext2: string)
    requires FrameTail(a, i, ext1) == FrameTail(b, j, ext2)
    ensures a == b && i == j && ext1 == ext2
  {
    var x, y := PrintInt(a, 4), PrintInt(b, 4);
    var u, v := PrintInt(i, 2), PrintInt(j, 2);
    SplitAtSeparator(x, '_', u + ['.'] + ext1, y, '_', v + ['.'] + ext2);
    SplitAtSeparator(u, '.', ext1, v, '.', ext2);
    PrintIntInjective(a, b, 4);
    PrintIntInjective(i, j, 2);
  }

  /** An image file name determines its set id, frame index and extension. */
  lemma ImageNameInjective(a: int, i: int, ext1: string, b: int, j: int, ext2: string)
    requires ImageName(a, i, ext1) == ImageName(b, j, ext2)
    ensures a == b && i == j && ext1 == ext2
  {
    PrefixCancels("img_", FrameTail(a, i, ext1), FrameTail(b, j, ext2));
    FrameTailInjective(a, i, ext1, b, j, ext2);
  }

  /** A thumbnail file name determines its set id and frame index. */
  lemma ThumbnailNameInjective(a: int, i: int, b: int, j: int)
    requires ThumbnailName(a, i) == ThumbnailName(b, j)
    ensures a == b && i == j
  {
    PrefixCancels("thumb_", FrameTail(a, i, JPEG_EXT), FrameTail(b, j, JPEG_EXT));
    FrameTailInjective(a, i, JPEG_EXT, b, j, JPEG_EXT);
  }

  /** Index files, images and thumbnails never share a name, whatever the ids and indices. */
  lemma NameKindsDistinct(a: int, b: int, i: int, j: int, ext: string)
    ensures XmlName(a) != ImageName(b, j, ext)
    ensures XmlName(a) != ThumbnailName(b, j)
    ensures ImageName(a, i, ext) != ThumbnailName(b, j)
  {
    assert XmlName(a)[0] == 'i' && ImageName(a, i, ext)[0] == 'i';
    assert ThumbnailName(b, j)[0] == 't';
    if XmlName(a) == ImageName(b, j, ext) {
      var x, y := PrintInt(a, 4), PrintInt(b, 4);
      PrefixCancels("img_", x + ['.'] + "xml", FrameTail(b, j, ext));
      SplitAtSeparator(x, '.', "xml", y, '_', PrintInt(j, 2) + ['.'] + ext);
    }
  }

  /** Paths under one prefix are equal only when the names are. */
  lemma PrefixCancels(prefix: string, a: string, b: string)
    requires prefix + a == prefix + b
    ensures a == b
  {
    assert a == (prefix + a)[|prefix|..];
    assert b == (prefix + b)[|prefix|..];
  }

  // -------------------------------------------------------------------
  // The output directory
  // -------------------------------------------------------------------

  /**
   * The constructor's copy of the directory prefix: a '/' is appended
   * exactly when the last character is not one already. The source reads
   * the last character, so the prefix must not be empty.
   */
  function NormalizedPrefix(dir: string): (r: string)
    requires |dir| >= 1
    ensures |r| >= 1 && r[|r| - 1] == '/'
    ensures dir[|dir| - 1] == '/' ==> r == dir
    ensures dir[|dir| - 1] != '/' ==> r == dir + "/"
  {
    if dir[|dir| - 1] != '/' then dir + "/" else dir
  }

  /** Normalising twice changes nothing. */
  lemma NormalizedPrefixIdempotent(dir: string)
    requires |dir| >= 1
    ensures NormalizedPrefix(NormalizedPrefix(dir)) == NormalizedPrefix(dir)
  {
  }

  // -------------------------------------------------------------------
  // Image sets and their XML index
  // -------------------------------------------------------------------

  /** `FileFormatDescriptor::EFormats`. */
  datatype FileFormat = JpegFormat | TiffFormat | DngFormat | RawFormat

  /** `FileFormatDescriptor`: a format and a quality (80 unless given). */
  datatype FileFormatDescriptor = FileFormatDescriptor(format: FileFormat, quality: int)

  const DEFAULT_QUALITY: int := 80

  /** What a dump reads from a captured frame. */
  datatype Frame = Frame(flashValid: bool, flashBrightness: real, gain: real,
                         exposure: int, whiteBalance: int, imageType: ImageFormat)

  /** A frame of an image set with the format it is to be saved in. */
  datatype Entry = Entry(format: FileFormatDescriptor, frame: Frame)

  const XML_DECLARATION: string := "<?xml version=\"1.0\" encoding=\"utf-8\"?>\n"
  const XML_FOOTER: string := "</imagestack>\n"

  /**
   * The attributes the `<image>` element of frame i records: the JPEG and
   * thumbnail names (the JPEG name whatever the frame's format), 1 when
   * the frame carries a positive flash brightness and 0 otherwise, the gain
   * times 100 truncated, the exposure and the white balance.
   */
  function ImageAttributes(id: int, i: int, f: Frame): (a: GalleryImage.Attributes)
    ensures a.name == ImageName(id, i, JPEG_EXT) && a.thumbnail == ThumbnailName(id, i)
    ensures a.flash == 1 <==> f.flashValid && f.flashBrightness > 0.0
    ensures a.flash == 0 || a.flash == 1
    ensures a.gain as real <= f.gain * 100.0 < a.gain as real + 1.0 || f.gain < 0.0
  {
    GalleryImage.Attributes(ImageName(id, i, JPEG_EXT), ThumbnailName(id, i),
                            if f.flashValid && f.flashBrightness > 0.0 then 1 else 0,
                            CArith.Truncate(f.gain * 100.0), f.exposure, f.whiteBalance)
  }

  /** An attribute `key="value" `. */
  function Attr(key: string, value: string): string
  {
    key + "=\"" + value + "\" "
  }

  /** The `<image .../>` line of one frame. */
  function ImageElement(a: GalleryImage.Attributes): string
  {
    "<image " + Attr("name", a.name) + Attr("thumbnail", a.thumbnail) +
    Attr("flash", PrintInt(a.flash, 0)) + Attr("gain", PrintInt(a.gain, 0)) +
    Attr("exposure", PrintInt(a.exposure, 0)) + Attr("wb", PrintInt(a.wb, 0)) + "/>\n"
  }

  /** The declaration and the opening `imagestack` tag with the image count. */
  function XmlHeader(count: int): string
  {
    XML_DECLARATION + "<imagestack imagecount=\"" + PrintInt(count, 0) + "\">\n"
  }

  /** The `<image>` lines of the first n frames, in order. */
  function ImageElements(id: int, entries: seq<Entry>, n: nat): (s: string)
    requires n <= |entries|
  {
    if n == 0 then "" else ImageElements(id, entries, n - 1) + ImageElement(ImageAttributes(id, n - 1, entries[n - 1].frame))
  }

  /** The whole index file of a set. */
  function XmlText(id: int, entries: seq<Entry>): string
  {
    XmlHeader(|entries|) + ImageElements(id, entries, |entries|) + XML_FOOTER
  }

  /** One effect of a dump on the file system or the application. */
  datatype FsOp =
    | WriteText(path: string, text: string)
    | SaveJpeg(path: string, frame: nat, quality: int)
    | SaveThumbnail(path: string, frame: nat, thumbnailType: ImageFormat, quality: int)
    | NotifyChange

  /** The callback, if one is set. */
  function Notify(notify: bool): seq<FsOp>
  {
    if notify then [NotifyChange] else []
  }

  /**
   * What frame i of a set writes: its JPEG when its format is JPEG (and
   * nothing for any other format), then its thumbnail in an image of the
   * frame's type, then the callback.
   */
  function FrameOps(prefix: string, id: int, entries: seq<Entry>, notify: bool, i: nat): seq<FsOp>
    requires i < |entries|
  {
    var e := entries[i];
    (if e.format.format == JpegFormat then [SaveJpeg(prefix + ImageName(id, i, JPEG_EXT), i, e.format.quality)] else []) +
    [SaveThumbnail(prefix + ThumbnailName(id, i), i, e.frame.imageType, Thumbnails.THUMBNAIL_QUALITY)] +
    Notify(notify)
  }

  /** The data files of the first n frames, in order. */
  function DataOps(prefix: string, id: int, entries: seq<Entry>, notify: bool, n: nat): seq<FsOp>
    requires n <= |entries|
  {
    if n == 0 then [] else DataOps(prefix, id, entries, notify, n - 1) + FrameOps(prefix, id, entries, notify, n - 1)
  }

  /**
   * `dumpToFileSystem`: nothing for an empty set; otherwise the index file,
   * the callback, then every frame's files.
   */
  function DumpOps(prefix: string, id: int, entries: seq<Entry>, notify: bool): (ops: seq<FsOp>)
    ensures ops == [] <==> entries == []
    ensures entries != [] ==> ops[0] == WriteText(prefix + XmlName(id), XmlText(id, entries))
  {
    if entries == [] then []
    else [WriteText(prefix + XmlName(id), XmlText(id, entries))] + Notify(notify) +
         DataOps(prefix, id, entries, notify, |entries|)
  }

  lemma {:induction false} FrameOpsInData(prefix: string, id: int, entries: seq<Entry>, notify: bool, n: nat, i: nat, op: FsOp)
    requires i < n <= |entries| && op in FrameOps(prefix, id, entries, notify, i)
    ensures op in DataOps(prefix, id, entries, notify, n)
    decreases n
  {
    if i < n - 1 {
      FrameOpsInData(prefix, id, entries, notify, n - 1, i, op);
    }
  }

  /**
   * The files the index names are the files the dump writes: the thumbnail
   * of every frame, and its image exactly when the frame is saved as JPEG
   * (a frame in another format is listed under a JPEG name that is never
   * written).
   */
  lemma IndexNamesWrittenFiles(prefix: string, id: int, entries: seq<Entry>, notify: bool, i: nat)
    requires i < |entries|
    ensures var a := ImageAttributes(id, i, entries[i].frame);
            var ops := DumpOps(prefix, id, entries, notify);
            SaveThumbnail(prefix + a.thumbnail, i, entries[i].frame.imageType, Thumbnails.THUMBNAIL_QUALITY) in ops &&
            (entries[i].format.format == JpegFormat ==> SaveJpeg(prefix + a.name, i, entries[i].format.quality) in ops) &&
            (entries[i].format.format != JpegFormat ==> forall q :: SaveJpeg(prefix + a.name, i, q) !in ops)
  {
    var a := ImageAttributes(id, i, entries[i].frame);
    var data := DataOps(prefix, id, entries, notify, |entries|);
    var ops := DumpOps(prefix, id, entries, notify);
    assert ops == [WriteText(prefix + XmlName(id), XmlText(id, entries))] + Notify(notify) + data;
    var t := SaveThumbnail(prefix + a.thumbnail, i, entries[i].frame.imageType, Thumbnails.THUMBNAIL_QUALITY);
    assert t in FrameOps(prefix, id, entries, notify, i);
    FrameOpsInData(prefix, id, entries, notify, |entries|, i, t);
    if entries[i].format.format == JpegFormat {
      var j := SaveJpeg(prefix + a.name, i, entries[i].format.quality);
      assert j in FrameOps(prefix, id, entries, notify, i);
      FrameOpsInData(prefix, id, entries, notify, |entries|, i, j);
    } else {
      forall q | SaveJpeg(prefix + a.name, i, q) in ops
        ensures false
      {
        SaveJpegOrigin(prefix, id, entries, notify, |entries|, SaveJpeg(prefix + a.name, i, q));
      }
    }
  }

  /** Every JPEG a dump writes belongs to a frame saved in JPEG format. */
  lemma {:induction false} SaveJpegOrigin(prefix: string, id: int, entries: seq<Entry>, notify: bool, n: nat, op: FsOp)
    requires n <= |entries| && op.SaveJpeg? && op in DataOps(prefix, id, entries, notify, n)
    ensures op.frame < n && entries[op.frame].format.format == JpegFormat
    ensures op.path == prefix + ImageName(id, op.frame, JPEG_EXT)
    decreases n
  {
    if op in DataOps(prefix, id, entries, notify, n - 1) {
      SaveJpegOrigin(prefix, id, entries, notify, n - 1, op);
    }
  }

  /**
   * `ImageSet`: a set id, the writer's prefix and the frames added so far,
   * each with its file format (the source keeps the two in parallel
   * vectors that `add` extends together).
   */
  class ImageSet {
    const fileId: int
    const prefix: string
    var entries: seq<Entry>

    constructor (id: int, outputDirPrefix: string)
      ensures fileId == id && prefix == outputDirPrefix && entries == []
    {
      fileId := id;
      prefix := outputDirPrefix;
      entries := [];
    }

    /** `add(ff, frame)`: the frame and its format go at the end. */
    method Add(ff: FileFormatDescriptor, frame: Frame)
      modifies this`entries
      ensures entries == old(entries) + [Entry(ff, frame)]
    {
      entries := entries + [Entry(ff, frame)];
    }

    /**
     * `dumpToFileSystem(callback)`: the index text is printed element by
     * element, then each frame's files are written, the thumbnail image
     * being re-created whenever its type differs from the frame's.
     */
    method DumpToFileSystem(notify: bool) returns (ops: seq<FsOp>)
      ensures ops == DumpOps(prefix, fileId, entries, notify)
    {
      var icount := |entries|;
      if icount == 0 {
        return [];
      }
      var xml := PrintIndex();
      ops := [WriteText(prefix + XmlName(fileId), xml)] + Notify(notify);
      var data := WriteFrames(notify);
      ops := ops + data;
    }

    /** The index text: the header, one `<image>` element per frame in order, the footer. */
    method PrintIndex() returns (xml: string)
      ensures xml == XmlText(fileId, entries)
    {
      var icount := |entries|;
      var elements := "";
      for i := 0 to icount
        invariant elements == ImageElements(fileId, entries, i)
      {
        elements := elements + ImageElement(ImageAttributes(fileId, i, entries[i].frame));
      }
      xml := XML_DECLARATION + "<imagestack imagecount=\"" + PrintInt(icount, 0) + "\">\n" + elements + XML_FOOTER;
    }

    /** The loop over the frames that writes the data files, tracking the thumbnail image's type. */
    method WriteFrames(notify: bool) returns (data: seq<FsOp>)
      requires entries != []
      ensures data == DataOps(prefix, fileId, entries, notify, |entries|)
    {
      data := [];
      var thumbnailType := entries[0].frame.imageType;
      for i := 0 to |entries|
        invariant data == DataOps(prefix, fileId, entries, notify, i)
      {
        var e := entries[i];
        if thumbnailType != e.frame.imageType {
          thumbnailType := e.frame.imageType;
        }
        var written := [];
        if e.format.format == JpegFormat {
          written := [SaveJpeg(prefix + ImageName(fileId, i, JPEG_EXT), i, e.format.quality)];
        }
        written := written + [SaveThumbnail(prefix + ThumbnailName(fileId, i), i, thumbnailType, Thumbnails.THUMBNAIL_QUALITY)];
        if notify {
          written := written + [NotifyChange];
        }
        assert written == FrameOps(prefix, fileId, entries, notify, i);
        data := data + written;
      }
    }
  }

  // -------------------------------------------------------------------
  // The writer
  // -------------------------------------------------------------------

  /** `AsyncImageWriter::sFreeId`, the next set id to try, shared by all writers. */
  class FreeFileId {
    var value: int

    constructor ()
      ensures value == 0
    {
      value := 0;
    }
  }

  /** `SetFreeFileId(id)`. */
  method SetFreeFileId(counter: FreeFileId, id: int)
    modifies counter
    ensures counter.value == id
  {
    counter.value := id;
  }

  class AsyncImageWriter {
    const prefix: string
    const freeId: FreeFileId
    /** The work queue; a null entry stops the worker. */
    var queue: seq<ImageSet?>
    /** Whether a file-system-changed callback is set. */
    var hasCallback: bool

    /** The constructor: the prefix normalised to end in '/', no callback; the worker thread is not modelled. */
    constructor (outputDirPrefix: string, counter: FreeFileId)
      requires |outputDirPrefix| >= 1
      ensures prefix == NormalizedPrefix(outputDirPrefix) && prefix[|prefix| - 1] == '/'
      ensures freeId == counter && queue == [] && !hasCallback
    {
      var slen := |outputDirPrefix|;
      if outputDirPrefix[slen - 1] != '/' {
        prefix := outputDirPrefix + "/";
      } else {
        prefix := outputDirPrefix;
      }
      freeId := counter;
      queue := [];
      hasCallback := false;
    }

    /**
     * `newImageSet()`: the first id from the shared counter on whose index
     * file does not exist in `files`; the ids skipped on the way all have
     * one, and the counter is left one past the id returned.
     */
    method NewImageSet(files: set<string>) returns (s: ImageSet)
      modifies freeId
      ensures fresh(s) && s.prefix == prefix && s.entries == []
      ensures s.fileId >= old(freeId.value) && prefix + XmlName(s.fileId) !in files
      ensures forall k :: old(freeId.value) <= k < s.fileId ==> prefix + XmlName(k) in files
      ensures freeId.value == s.fileId + 1
    {
      ghost var start := freeId.value;
      ghost var remaining := files;
      while prefix + XmlName(freeId.value) in files
        invariant start <= freeId.value
        invariant remaining <= files
        invariant forall k :: start <= k < freeId.value ==> prefix + XmlName(k) in files
        invariant forall q :: q in files && q !in remaining ==>
                    exists k :: start <= k < freeId.value && q == prefix + XmlName(k)
        decreases remaining
      {
        var path := prefix + XmlName(freeId.value);
        if path !in remaining {
          var k :| start <= k < freeId.value && path == prefix + XmlName(k);
          PrefixCancels(prefix, XmlName(k), XmlName(freeId.value));
          XmlNameInjective(k, freeId.value);
          assert false;
        }
        remaining := remaining - {path};
        freeId.value := freeId.value + 1;
      }
      s := new ImageSet(freeId.value, prefix);
      freeId.value := freeId.value + 1;
    }

    /** `push(is)`: a set goes to the back of the queue; a null one is ignored. */
    method Push(s: ImageSet?)
      modifies this`queue
      ensures s == null ==> queue == old(queue)
      ensures s != null ==> queue == old(queue) + [s]
    {
      if s != null {
        queue := queue + [s];
      }
    }

    method SetOnFileSystemChangedCallback(set_: bool)
      modifies this`hasCallback
      ensures hasCallback == set_
    {
      hasCallback := set_;
    }

    /** The destructor's first step: a null set that stops the worker. */
    method Stop()
      modifies this`queue
      ensures queue == old(queue) + [null]
    {
      queue := queue + [null];
    }

    /**
     * One turn of the worker loop: the first set in the queue is taken out
     * and dumped, with the callback if one is set; a null one ends the loop.
     * The source blocks on an empty queue, so it must not be empty here.
     */
    method ServeOne() returns (stop: bool, ops: seq<FsOp>)
      requires queue != []
      modifies this`queue
      ensures queue == old(queue[1..])
      ensures stop <==> old(queue[0]) == null
      ensures !stop ==> ops == DumpOps(old(queue[0]).prefix, old(queue[0]).fileId, old(queue[0].entries), hasCallback)
      ensures stop ==> ops == []
    {
      var s := queue[0];
      queue := queue[1..];
      if s == null {
        return true, [];
      }
      stop := false;
      ops := s.DumpToFileSystem(hasCallback);
    }
  }
}

=== FILE: autofocus.dfy ===
/**
 * FCam::AutoFocus (external/FCam/AutoFocus.cpp, include/FCam/AutoFocus.h):
 * the contrast autofocus helper. `startSweep` sends the lens to far
 * focus; every streamed frame fed to `update` is measured over the target
 * rectangle of its sharpness map, and once the sweep towards near focus
 * is over (or the sharpness has been falling for three frames) the lens
 * is sent to the sharpest position seen.
 *
 * The lens is the device behind `FCam::Lens`: its focus range, speeds and
 * whether it is moving are readings the model takes as they are, and the
 * `setFocus` calls the helper makes are recorded in order. The pieces the
 * Tegra helper shares (measuring, the early-stop test, the choice of the
 * best sample) are defined here once.
 */
module FCamAutoFocus {
  import opened Base
  import opened CArith
  import SharpnessMaps

  /** The helper's states, in the order of the source's enum. */
  datatype FocusState = Idle | Homing | Sweeping | Stepping | Setting | Focused

  /** One measured frame (`Stats`): where the lens was and how sharp the target looked. */
  datatype Stats = Stats(position: real, sharpness: int)

  /** `fabs(a - b) < 0.01`: two focus positions, in diopters, count as the same. */
  predicate Near(a: real, b: real)
  {
    -0.01 < a - b < 0.01
  }

  /** One `setFocus(focus, speed)` call on the lens. */
  datatype FocusCommand = FocusCommand(target: real, speed: real)

  /** The default `speed` argument of `setFocus`: the lens picks its own speed. */
  const DEFAULT_SPEED: real := -1.0

  /** The generic helper sums each cell's sharpness shifted right by ten bits. */
  const GENERIC_SHIFT: nat := 10

  /**
   * The lens as the autofocus helper sees it: fixed far and near focus
   * (diopters), focus speeds and latency, the current focus and whether it
   * is still moving as the device reports them, and the `setFocus` calls
   * made so far.
   */
  class Lens {
    const farFocus: real
    const nearFocus: real
    const minFocusSpeed: real
    const maxFocusSpeed: real
    const focusLatency: int
    var changing: bool
    var focus: real
    var commands: seq<FocusCommand>

    constructor (far: real, near: real, minSpeed: real, maxSpeed: real, latency: int, changing: bool, focus: real)
      ensures farFocus == far && nearFocus == near && minFocusSpeed == minSpeed && maxFocusSpeed == maxSpeed
      ensures focusLatency == latency && this.changing == changing && this.focus == focus
      ensures commands == []
    {
      farFocus, nearFocus, minFocusSpeed, maxFocusSpeed := far, near, minSpeed, maxSpeed;
      focusLatency := latency;
      this.changing, this.focus := changing, focus;
      commands := [];
    }

    /** `setFocus(target, speed)`: the command goes to the device; the readings change only when it reports. */
    method SetFocus(target: real, speed: real)
      modifies this`commands
      ensures commands == old(commands) + [FocusCommand(target, speed)]
    {
      commands := commands + [FocusCommand(target, speed)];
    }
  }

  // -------------------------------------------------------------------
  // From the target rectangle to a window of the sharpness map
  // -------------------------------------------------------------------

  /** The cells `minX..maxX` × `minY..maxY` of the sharpness map, bounds included. */
  datatype Window = Window(minX: int, minY: int, maxX: int, maxY: int)

  predicate InsideMap(w: Window, width: int, height: int)
  {
    0 <= w.minX <= w.maxX < width && 0 <= w.minY <= w.maxY < height
  }

  /** `int(p * mapSize / float(imageSize) + 0.5)`: an image coordinate rounded to a map cell. */
  function ScaleToMap(p: int, mapSize: int, imageSize: int): int
    requires imageSize > 0
  {
    Truncate((p * mapSize) as real / imageSize as real + 0.5)
  }

  lemma ScaleMonotone(p: int, q: int, mapSize: int, imageSize: int)
    requires p <= q && mapSize >= 0 && imageSize > 0
    ensures ScaleToMap(p, mapSize, imageSize) <= ScaleToMap(q, mapSize, imageSize)
  {
    assert p * mapSize <= q * mapSize by {
      assert q * mapSize - p * mapSize == (q - p) * mapSize;
    }
    var d := imageSize as real;
    var a := (p * mapSize) as real;
    var b := (q * mapSize) as real;
    assert a / d <= b / d by {
      assert a / d * d == a && b / d * d == b;
    }
    TruncateMonotone(a / d + 0.5, b / d + 0.5);
  }

  /** The four clamps of one coordinate: first down to `n - 1`, then up to 0. */
  function ClampIndex(v: int, n: int): (r: int)
    requires n >= 1
    ensures 0 <= r < n
    ensures 0 <= v < n ==> r == v
    ensures v >= n ==> r == n - 1
    ensures v < 0 ==> r == 0
  {
    var below := if v >= n then n - 1 else v;
    if below < 0 then 0 else below
  }

  lemma ClampMonotone(u: int, v: int, n: int)
    requires u <= v && n >= 1
    ensures ClampIndex(u, n) <= ClampIndex(v, n)
  {
  }

  /**
   * The window of the sharpness map the target covers: with an empty
   * target the whole map; otherwise the target's corners scaled from image
   * to map size, rounded, and clamped into the map. The window always lies
   * inside a non-empty map and holds at least one cell.
   */
  function SampleWindow(rect: Rect, mapWidth: int, mapHeight: int, imageWidth: int, imageHeight: int): (w: Window)
    requires mapWidth >= 1 && mapHeight >= 1
    requires rect.width > 0 && rect.height > 0 ==> imageWidth > 0 && imageHeight > 0
    ensures InsideMap(w, mapWidth, mapHeight)
    ensures !(rect.width > 0 && rect.height > 0) ==> w == Window(0, 0, mapWidth - 1, mapHeight - 1)
  {
    if rect.width > 0 && rect.height > 0 then
      ScaleMonotone(rect.x, rect.x + rect.width, mapWidth, imageWidth);
      ScaleMonotone(rect.y, rect.y + rect.height, mapHeight, imageHeight);
      ClampMonotone(ScaleToMap(rect.x, mapWidth, imageWidth), ScaleToMap(rect.x + rect.width, mapWidth, imageWidth), mapWidth);
      ClampMonotone(ScaleToMap(rect.y, mapHeight, imageHeight), ScaleToMap(rect.y + rect.height, mapHeight, imageHeight), mapHeight);
      Window(ClampIndex(ScaleToMap(rect.x, mapWidth, imageWidth), mapWidth),
             ClampIndex(ScaleToMap(rect.y, mapHeight, imageHeight), mapHeight),
             ClampIndex(ScaleToMap(rect.x + rect.width, mapWidth, imageWidth), mapWidth),
             ClampIndex(ScaleToMap(rect.y + rect.height, mapHeight, imageHeight), mapHeight))
    else
      Window(0, 0, mapWidth - 1, mapHeight - 1)
  }

  /** A target covering the whole image covers the whole map. */
  lemma WholeImageIsWholeMap(mapWidth: int, mapHeight: int, imageWidth: int, imageHeight: int)
    requires mapWidth >= 1 && mapHeight >= 1 && imageWidth > 0 && imageHeight > 0
    ensures SampleWindow(Rect(0, 0, imageWidth, imageHeight), mapWidth, mapHeight, imageWidth, imageHeight)
              == Window(0, 0, mapWidth - 1, mapHeight - 1)
  {
    ScaleFullExtent(mapWidth, imageWidth);
    ScaleFullExtent(mapHeight, imageHeight);
  }

  lemma ScaleFullExtent(mapSize: int, imageSize: int)
    requires mapSize >= 1 && imageSize > 0
    ensures ScaleToMap(0, mapSize, imageSize) == 0
    ensures ScaleToMap(imageSize, mapSize, imageSize) == mapSize
  {
    assert (imageSize * mapSize) as real == imageSize as real * mapSize as real;
    assert (imageSize * mapSize) as real / imageSize as real == mapSize as real;
  }

  // -------------------------------------------------------------------
  // Measuring the sharpness of the window
  // -------------------------------------------------------------------

  /** `sharpness()(x, y)`: the cell summed over its channels as an `unsigned`. */
  ghost function CellTotal(m: SharpnessMaps.SharpnessMap, x: nat, y: nat): nat
    reads m
    requires m.Valid() && x < m.size.width && y < m.size.height
  {
    m.CellSum(x, y) % UINT32_MOD
  }

  /** The cells `x0 .. x1 - 1` of row y, each shifted right by `shift` bits, added up. */
  ghost function RowSharpness(m: SharpnessMaps.SharpnessMap, y: nat, x0: nat, x1: nat, shift: nat): (r: int)
    reads m
    requires m.Valid() && y < m.size.height && x1 <= m.size.width
    ensures r >= 0
    decreases x1
  {
    if x1 <= x0 then 0
    else RowSharpness(m, y, x0, x1 - 1, shift) + Shr(CellTotal(m, x1 - 1, y), shift)
  }

  /** The rows `w.minY .. y1 - 1` of the window. */
  ghost function RowsSharpness(m: SharpnessMaps.SharpnessMap, w: Window, y1: int, shift: nat): (r: int)
    reads m
    requires m.Valid() && InsideMap(w, m.size.width, m.size.height) && y1 <= w.maxY + 1
    ensures r >= 0
    decreases y1
  {
    if y1 <= w.minY then 0
    else RowsSharpness(m, w, y1 - 1, shift) + RowSharpness(m, y1 - 1, w.minX, w.maxX + 1, shift)
  }

  /** The sharpness of the whole window: every cell in it, shifted and added up. */
  ghost function WindowSharpness(m: SharpnessMaps.SharpnessMap, w: Window, shift: nat): int
    reads m
    requires m.Valid() && InsideMap(w, m.size.width, m.size.height)
  {
    RowsSharpness(m, w, w.maxY + 1, shift)
  }

  /** The inner loop over one row of the window. */
  method MeasureRow(m: SharpnessMaps.SharpnessMap, y: nat, x0: nat, x1: nat, shift: nat) returns (sum: int)
    requires m.Valid() && y < m.size.height && x0 <= x1 <= m.size.width
    ensures sum == RowSharpness(m, y, x0, x1, shift)
  {
    sum := 0;
    for x := x0 to x1
      invariant sum == RowSharpness(m, y, x0, x, shift)
    {
      var total := m.Total(x, y);
      sum := sum + Shr(total, shift);
    }
  }

  /** The two loops over the window: the sum of every cell in it, each shifted right by `shift` bits. */
  method MeasureWindow(m: SharpnessMaps.SharpnessMap, w: Window, shift: nat) returns (sharpness: int)
    requires m.Valid() && InsideMap(w, m.size.width, m.size.height)
    ensures sharpness == WindowSharpness(m, w, shift)
  {
    sharpness := 0;
    for y := w.minY to w.maxY + 1
      invariant sharpness == RowsSharpness(m, w, y, shift)
    {
      var row := MeasureRow(m, y, w.minX, w.maxX + 1, shift);
      sharpness := sharpness + row;
    }
  }

  lemma ShiftedTermBelow(a: nat, shift: nat)
    ensures Shr(a, shift) * Pow2(shift) <= a
    ensures Shr(a, 0) == a
  {
    ShrIsDiv(a, shift);
    QuotientTimesDivisorBelow(a, Pow2(shift));
  }

  lemma ScaledSumBelow(a: int, t: int, a0: int, t0: int, p: int)
    requires a * p <= a0 && t * p <= t0
    ensures (a + t) * p <= a0 + t0
  {
    assert (a + t) * p == a * p + t * p;
  }

  lemma {:induction false} ShiftedRowBelow(m: SharpnessMaps.SharpnessMap, y: nat, x0: nat, x1: nat, shift: nat)
    requires m.Valid() && y < m.size.height && x1 <= m.size.width
    ensures RowSharpness(m, y, x0, x1, shift) * Pow2(shift) <= RowSharpness(m, y, x0, x1, 0)
  {
    if x1 > x0 {
      ShiftedRowBelow(m, y, x0, x1 - 1, shift);
      ShiftedTermBelow(CellTotal(m, x1 - 1, y), shift);
      ScaledSumBelow(RowSharpness(m, y, x0, x1 - 1, shift), Shr(CellTotal(m, x1 - 1, y), shift),
                     RowSharpness(m, y, x0, x1 - 1, 0), Shr(CellTotal(m, x1 - 1, y), 0), Pow2(shift));
    }
  }

  lemma {:induction false} ShiftedRowsBelow(m: SharpnessMaps.SharpnessMap, w: Window, y1: int, shift: nat)
    requires m.Valid() && InsideMap(w, m.size.width, m.size.height) && y1 <= w.maxY + 1
    ensures RowsSharpness(m, w, y1, shift) * Pow2(shift) <= RowsSharpness(m, w, y1, 0)
  {
    if y1 > w.minY {
      ShiftedRowsBelow(m, w, y1 - 1, shift);
      ShiftedRowBelow(m, y1 - 1, w.minX, w.maxX + 1, shift);
      ScaledSumBelow(RowsSharpness(m, w, y1 - 1, shift), RowSharpness(m, y1 - 1, w.minX, w.maxX + 1, shift),
                     RowsSharpness(m, w, y1 - 1, 0), RowSharpness(m, y1 - 1, w.minX, w.maxX + 1, 0), Pow2(shift));
    }
  }

  /**
   * The generic measure (cells shifted right by ten bits) is at most the
   * plain sum of the cells, which the Tegra helper uses, divided by 1024.
   */
  lemma GenericMeasureBelowPlainSum(m: SharpnessMaps.SharpnessMap, w: Window)
    requires m.Valid() && InsideMap(w, m.size.width, m.size.height)
    ensures WindowSharpness(m, w, GENERIC_SHIFT) * 1024 <= WindowSharpness(m, w, 0)
  {
    ShiftedRowsBelow(m, w, w.maxY + 1, GENERIC_SHIFT);
    assert Pow2(GENERIC_SHIFT) == 1024;
  }

  // -------------------------------------------------------------------
  // The early stop and the best sample
  // -------------------------------------------------------------------

  /** One step from `prev` to `cur` made things worse: the lens did not move back and the sharpness fell by at least 1%. */
  predicate WorseStep(prev: Stats, cur: Stats)
  {
    prev.position <= cur.position && CDiv(cur.sharpness * 101, 100) <= prev.sharpness
  }

  /** Each of the last three steps made things worse. */
  predicate GettingWorse(stats: seq<Stats>)
    requires |stats| >= 4
  {
    forall i :: |stats| - 3 <= i < |stats| ==> WorseStep(stats[i - 1], stats[i])
  }

  /**
   * The loop that looks back over the last three steps and stops at the
   * first that did not get worse.
   */
  method CheckGettingWorse(stats: seq<Stats>) returns (worse: bool)
    requires |stats| > 4
    ensures worse == GettingWorse(stats)
  {
    worse := true;
    var i := |stats| - 1;
    while i > |stats| - 4
      invariant |stats| - 4 <= i <= |stats| - 1
      invariant worse && forall j :: i < j < |stats| ==> WorseStep(stats[j - 1], stats[j])
    {
      if stats[i].position < stats[i - 1].position || CDiv(stats[i].sharpness * 101, 100) > stats[i - 1].sharpness {
        worse := false;
        break;
      }
      i := i - 1;
    }
  }

  /**
   * With non-negative sharpness, getting worse is exactly: over the last
   * four samples the position never went back and each sharpness plus one
   * hundredth of it (rounded down) is at most the one before.
   */
  lemma GettingWorseMeansOnePercentDrops(stats: seq<Stats>)
    requires |stats| > 4
    requires forall i :: 0 <= i < |stats| ==> stats[i].sharpness >= 0
    ensures GettingWorse(stats) <==>
              forall i :: |stats| - 3 <= i < |stats| ==>
                stats[i - 1].position <= stats[i].position &&
                stats[i].sharpness + stats[i].sharpness / 100 <= stats[i - 1].sharpness
    ensures GettingWorse(stats) ==> stats[|stats| - 1].sharpness <= stats[|stats| - 4].sharpness
  {
    forall i | |stats| - 3 <= i < |stats|
      ensures CDiv(stats[i].sharpness * 101, 100) == stats[i].sharpness + stats[i].sharpness / 100
    {
      OnePercentMore(stats[i].sharpness);
    }
    if GettingWorse(stats) {
      var n := |stats|;
      assert WorseStep(stats[n - 2], stats[n - 1]);
      assert WorseStep(stats[n - 3], stats[n - 2]);
      assert WorseStep(stats[n - 4], stats[n - 3]);
    }
  }

  /** `s * 101 / 100` for a non-negative s is s plus its hundredth, rounded down. */
  lemma OnePercentMore(s: int)
    requires s >= 0
    ensures CDiv(s * 101, 100) == s + s / 100
  {
    assert s * 101 == s * 100 + s;
    assert (s * 100 + s) / 100 == s + s / 100;
  }

  /** The index of the first sample with the greatest sharpness. */
  function BestIndex(stats: seq<Stats>): (k: nat)
    requires |stats| > 0
    ensures k < |stats|
    ensures forall j :: 0 <= j < |stats| ==> stats[j].sharpness <= stats[k].sharpness
    ensures forall j :: 0 <= j < k ==> stats[j].sharpness < stats[k].sharpness
  {
    if |stats| == 1 then 0
    else
      var k := BestIndex(stats[..|stats| - 1]);
      if stats[|stats| - 1].sharpness > stats[k].sharpness then |stats| - 1 else k
  }

  /** Only one index is a first maximum. */
  lemma FirstMaximumIsUnique(stats: seq<Stats>, k: nat)
    requires k < |stats|
    requires forall j :: 0 <= j < |stats| ==> stats[j].sharpness <= stats[k].sharpness
    requires forall j :: 0 <= j < k ==> stats[j].sharpness < stats[k].sharpness
    ensures k == BestIndex(stats)
  {
  }

  /** The loop keeping the first sample seen with strictly greater sharpness. */
  method PickBest(stats: seq<Stats>) returns (best: Stats)
    requires |stats| > 0
    ensures best == stats[BestIndex(stats)]
  {
    best := stats[0];
    ghost var k := 0;
    assert stats[..1] == [stats[0]];
    for i := 1 to |stats|
      invariant k == BestIndex(stats[..i]) && best == stats[k]
    {
      assert stats[..i + 1][..i] == stats[..i];
      if stats[i].sharpness > best.sharpness {
        best := stats[i];
        k := i;
      }
    }
    assert stats[..|stats|] == stats;
  }

  // -------------------------------------------------------------------
  // The helper
  // -------------------------------------------------------------------

  class AutoFocus {
    const lens: Lens?
    var state: FocusState
    /** The target, in image pixels; empty for the whole frame. */
    var rect: Rect
    var stats: seq<Stats>

    /** Without a lens the helper never leaves IDLE; the generic helper never steps. */
    ghost predicate Valid()
      reads this
    {
      (lens == null ==> state == Idle) && state != Stepping
    }

    constructor (l: Lens?, r: Rect)
      ensures Valid() && lens == l && rect == r && state == Idle && stats == []
    {
      lens := l;
      rect := r;
      state := Idle;
      stats := [];
    }

    /** `focused()`. */
    predicate IsFocused()
      reads this
    {
      state == Focused
    }

    /** `idle()`: focused, or ready to begin. */
    predicate IsIdle()
      reads this
    {
      state == Focused || state == Idle
    }

    /** `setTarget(r)`. */
    method SetTarget(r: Rect)
      modifies this`rect
      ensures rect == r
    {
      rect := r;
    }

    /**
     * `startSweep()`: without a lens nothing happens; otherwise the lens is
     * sent to far focus, the samples are forgotten and the helper homes.
     */
    method StartSweep()
      requires Valid()
      modifies this`state, this`stats, lens
      ensures Valid()
      ensures lens == null ==> state == old(state) && stats == old(stats)
      ensures lens != null ==>
                state == Homing && stats == [] &&
                lens.commands == old(lens.commands) + [FocusCommand(lens.farFocus, DEFAULT_SPEED)] &&
                lens.changing == old(lens.changing) && lens.focus == old(lens.focus)
    {
      if lens == null {
        return;
      }
      state := Homing;
      lens.SetFocus(lens.farFocus, DEFAULT_SPEED);
      stats := [];
    }

    /** The sample a frame at `position` with map m contributes. */
    ghost function Sample(position: real, m: SharpnessMaps.SharpnessMap, imageWidth: int, imageHeight: int): Stats
      reads this, m
      requires m.Valid() && m.IsValid()
      requires rect.width > 0 && rect.height > 0 ==> imageWidth > 0 && imageHeight > 0
    {
      Stats(position, WindowSharpness(m, SampleWindow(rect, m.size.width, m.size.height, imageWidth, imageHeight), GENERIC_SHIFT))
    }

    /**
     * `update(f)` for a frame whose lens position tag is `position`, whose
     * sharpness map is m and whose image is `imageWidth × imageHeight`:
     * - when idle, nothing changes;
     * - when SETTING, the helper is FOCUSED as soon as the lens has stopped;
     * - while homing or sweeping, a frame without a sharpness map is
     *   ignored; otherwise its sample joins the list;
     * - HOMING becomes SWEEPING, with the lens sent to near focus at a
     *   speed of one range per second, once the lens has stopped within
     *   0.01 of far focus;
     * - SWEEPING with more than four samples ends once the lens has
     *   stopped or the sharpness has been getting worse: the lens is sent
     *   to the first sharpest sample, the samples are forgotten and the
     *   helper is SETTING.
     * The source's last test, SETTING with the lens stopped, can never be
     * reached, because SETTING has returned at the top.
     */
    method Update(position: real, m: SharpnessMaps.SharpnessMap, imageWidth: int, imageHeight: int)
      requires Valid() && m.Valid()
      requires rect.width > 0 && rect.height > 0 ==> imageWidth > 0 && imageHeight > 0
      modifies this`state, this`stats, lens
      ensures Valid()
      ensures lens != null ==> lens.changing == old(lens.changing) && lens.focus == old(lens.focus)
      ensures old(IsIdle()) ==>
                state == old(state) && stats == old(stats) && (lens != null ==> lens.commands == old(lens.commands))
      ensures old(state) == Setting ==>
                stats == old(stats) && lens.commands == old(lens.commands) &&
                state == (if lens.changing then Setting else Focused)
      ensures (old(state) == Homing || old(state) == Sweeping) && !m.IsValid() ==>
                state == old(state) && stats == old(stats) && lens.commands == old(lens.commands)
      ensures old(state) == Homing && m.IsValid() ==>
                var s := Sample(position, m, imageWidth, imageHeight);
                stats == old(stats) + [s] &&
                if !lens.changing && Near(position, lens.farFocus) then
                  state == Sweeping &&
                  lens.commands == old(lens.commands) + [FocusCommand(lens.nearFocus, lens.nearFocus - lens.farFocus)]
                else
                  state == Homing && lens.commands == old(lens.commands)
      ensures old(state) == Sweeping && m.IsValid() ==>
                var all := old(stats) + [Sample(position, m, imageWidth, imageHeight)];
                if |all| > 4 && (!lens.changing || GettingWorse(all)) then
                  state == Setting && stats == [] &&
                  lens.commands == old(lens.commands) + [FocusCommand(all[BestIndex(all)].position, DEFAULT_SPEED)]
                else
                  state == Sweeping && stats == all && lens.commands == old(lens.commands)
    {
      if state == Setting {
        if !lens.changing {
          state := Focused;
        }
      } else if (state == Homing || state == Sweeping) && m.IsValid() {
        var window := SampleWindow(rect, m.size.width, m.size.height, imageWidth, imageHeight);
        var sharpness := MeasureWindow(m, window, GENERIC_SHIFT);
        Record(Stats(position, sharpness));
      }
    }

    /**
     * The part of `update` after a sharpness map has been measured while
     * homing or sweeping: the sample joins the list, then homing turns to
     * sweeping at far focus, and a long enough sweep ends at its sharpest
     * sample.
     */
    method Record(s: Stats)
      requires Valid() && (state == Homing || state == Sweeping)
      modifies this`state, this`stats, lens
      ensures Valid()
      ensures lens.changing == old(lens.changing) && lens.focus == old(lens.focus)
      ensures old(state) == Homing ==>
                stats == old(stats) + [s] &&
                if !lens.changing && Near(s.position, lens.farFocus) then
                  state == Sweeping &&
                  lens.commands == old(lens.commands) + [FocusCommand(lens.nearFocus, lens.nearFocus - lens.farFocus)]
                else
                  state == Homing && lens.commands == old(lens.commands)
      ensures old(state) == Sweeping ==>
                var all := old(stats) + [s];
                if |all| > 4 && (!lens.changing || GettingWorse(all)) then
                  state == Setting && stats == [] &&
                  lens.commands == old(lens.commands) + [FocusCommand(all[BestIndex(all)].position, DEFAULT_SPEED)]
                else
                  state == Sweeping && stats == all && lens.commands == old(lens.commands)
    {
      stats := stats + [s];
      if state == Homing && !lens.changing {
        if Near(s.position, lens.farFocus) {
          lens.SetFocus(lens.nearFocus, lens.nearFocus - lens.farFocus);
          state := Sweeping;
          return;
        }
      }
      if state == Sweeping && |stats| > 4 {
        var worse := CheckGettingWorse(stats);
        if !lens.changing || worse {
          var best := PickBest(stats);
          lens.SetFocus(best.position, DEFAULT_SPEED);
          state := Setting;
          stats := [];
          return;
        }
      }
    }
  }
}

=== FILE: base.dfy ===
/** Basic FCam enumerations and geometry (external/FCam/Base.cpp, include/FCam/Base.h). */
module Base {

  /** Pixel formats, in declaration order. */
  datatype ImageFormat = RGB24 | RGB16 | UYVY | YUV24 | YUV420p | RAW | UNKNOWN

  /** Colour filter arrangements of a raw sensor. */
  datatype BayerPattern = RGGB | BGGR | GRBG | GBRG | NotBayer

  datatype ColorSpace = RGB | SRGB | YUV | YpUV

  /** Sizes and rectangles compare field by field, as datatype equality does. */
  datatype Size = Size(width: int, height: int)
  datatype Rect = Rect(x: int, y: int, width: int, height: int)

  /**
   * Bytes of one pixel in the first plane. The planar YUV420p format counts
   * one byte (its luma sample); formats without a layout count zero.
   */
  function BytesPerPixel(f: ImageFormat): (r: nat)
    ensures r <= 3
    ensures r == 3 <==> f == RGB24 || f == YUV24
    ensures r == 2 <==> f == RGB16 || f == UYVY || f == RAW
    ensures r == 1 <==> f == YUV420p
    ensures r == 0 <==> f == UNKNOWN
  {
    match f
    case RGB24 => 3
    case YUV24 => 3
    case RGB16 => 2
    case UYVY => 2
    case RAW => 2
    case YUV420p => 1
    case UNKNOWN => 0
  }
}

=== FILE: bytes.dfy ===
/**
 * Bytes and the little-endian layout of 16- and 32-bit integers, as the ARM
 * and x86 targets of the camera software store them in memory and files.
 */
module Bytes {

  type byte = x: int | 0 <= x < 256

  const TWO_16: int := 0x1_0000
  const TWO_32: int := 0x1_0000_0000

  /** The 4 bytes of an unsigned 32-bit value, least significant first. */
  function U32ToLe(v: int): (bs: seq<byte>)
    requires 0 <= v < TWO_32
    ensures |bs| == 4
  {
    [v % 256, (v / 256) % 256, (v / 0x1_0000) % 256, v / 0x100_0000]
  }

  function LeToU32(bs: seq<byte>): (v: int)
    requires |bs| == 4
    ensures 0 <= v < TWO_32
  {
    (bs[0] as int) + 256 * (bs[1] as int) + 0x1_0000 * (bs[2] as int) + 0x100_0000 * (bs[3] as int)
  }

  lemma U32RoundTrip(v: int)
    requires 0 <= v < TWO_32
    ensures LeToU32(U32ToLe(v)) == v
  {
  }

  /** Two's-complement bits of a signed 32-bit value, as an unsigned value. */
  function ToUnsigned32(v: int): (u: int)
    requires -0x8000_0000 <= v < 0x8000_0000
    ensures 0 <= u < TWO_32
  {
    if v < 0 then v + TWO_32 else v
  }

  /** A 32-bit pattern reinterpreted as a signed int (`*reinterpret_cast<int32_t *>`). */
  function ToSigned32(u: int): (v: int)
    requires 0 <= u < TWO_32
    ensures -0x8000_0000 <= v < 0x8000_0000
  {
    if u >= 0x8000_0000 then u - TWO_32 else u
  }

  function I32ToLe(v: int): (bs: seq<byte>)
    requires -0x8000_0000 <= v < 0x8000_0000
    ensures |bs| == 4
  {
    U32ToLe(ToUnsigned32(v))
  }

  /** Reading an `int` from 4 bytes of memory (`((int *) p)[0]`). */
  function LeToI32(bs: seq<byte>): (v: int)
    requires |bs| == 4
    ensures -0x8000_0000 <= v < 0x8000_0000
  {
    ToSigned32(LeToU32(bs))
  }

  lemma I32RoundTrip(v: int)
    requires -0x8000_0000 <= v < 0x8000_0000
    ensures LeToI32(I32ToLe(v)) == v
  {
    U32RoundTrip(ToUnsigned32(v));
  }

  function U16ToLe(v: int): (bs: seq<byte>)
    requires 0 <= v < TWO_16
    ensures |bs| == 2
  {
    [v % 256, v / 256]
  }

  function LeToU16(bs: seq<byte>): (v: int)
    requires |bs| == 2
    ensures 0 <= v < TWO_16
  {
    (bs[0] as int) + 256 * (bs[1] as int)
  }

  lemma U16RoundTrip(v: int)
    requires 0 <= v < TWO_16
    ensures LeToU16(U16ToLe(v)) == v
  {
  }

  /** Concatenated 32-bit little-endian encodings of a sequence of ints. */
  function I32sToLe(vs: seq<int>): (bs: seq<byte>)
    requires forall i :: 0 <= i < |vs| ==> -0x8000_0000 <= vs[i] < 0x8000_0000
    ensures |bs| == 4 * |vs|
  {
    if vs == [] then [] else I32ToLe(vs[0]) + I32sToLe(vs[1..])
  }

  function LeToI32s(bs: seq<byte>, n: nat): (vs: seq<int>)
    requires |bs| >= 4 * n
    ensures |vs| == n
    ensures forall i :: 0 <= i < n ==> -0x8000_0000 <= vs[i] < 0x8000_0000
  {
    if n == 0 then [] else [LeToI32(bs[..4])] + LeToI32s(bs[4..], n - 1)
  }

  lemma {:induction false} I32sRoundTrip(vs: seq<int>, rest: seq<byte>)
    requires forall i :: 0 <= i < |vs| ==> -0x8000_0000 <= vs[i] < 0x8000_0000
    ensures LeToI32s(I32sToLe(vs) + rest, |vs|) == vs
  {
    if vs != [] {
      var bs := I32sToLe(vs) + rest;
      assert bs[..4] == I32ToLe(vs[0]);
      assert bs[4..] == I32sToLe(vs[1..]) + rest;
      I32RoundTrip(vs[0]);
      I32sRoundTrip(vs[1..], rest);
    }
  }
}

=== FILE: c_arith.dfy ===
/**
 * Integer semantics of C, C++ and Java that differ from Dafny's unbounded,
 * Euclidean arithmetic: truncating division, shifts and fixed-width ranges.
 */
module CArith {

  const INT32_MIN: int := -0x8000_0000
  const INT32_MAX: int := 0x7fff_ffff

  predicate IsInt32(x: int) { INT32_MIN <= x <= INT32_MAX }

  /** `int(r)`: conversion of a float to an integer truncates toward zero. */
  function Truncate(r: real): (n: int)
    ensures 0.0 <= r ==> n as real <= r < n as real + 1.0
    ensures r < 0.0 ==> n as real - 1.0 < r <= n as real
  {
    if r < 0.0 then -((-r).Floor) else r.Floor
  }

  lemma TruncateMonotone(a: real, b: real)
    requires a <= b
    ensures Truncate(a) <= Truncate(b)
  {
  }

  function Pow2(k: nat): (r: nat)
    ensures r >= 1
  {
    if k == 0 then 1 else 2 * Pow2(k - 1)
  }

  function Min(a: int, b: int): int { if a < b then a else b }
  function Max(a: int, b: int): int { if a < b then b else a }

  /** C/Java integer division: the quotient is truncated toward zero. */
  function CDiv(a: int, b: int): (q: int)
    requires b != 0
    ensures b > 0 && a >= 0 ==> q == a / b
    ensures b > 0 && a < 0 ==> q == -((-a) / b)
  {
    if (a >= 0) == (b > 0) then Abs(a) / Abs(b) else -(Abs(a) / Abs(b))
  }

  /** C `%`: the remainder takes the sign of the dividend. */
  function CRem(a: int, b: int): (r: int)
    requires b != 0
    ensures a == CDiv(a, b) * b + r
    ensures b > 0 && a >= 0 ==> r == a % b
  {
    a - CDiv(a, b) * b
  }

  function Abs(a: int): nat { if a < 0 then -a else a }

  /** `a >> k` on an unsigned value: k halvings, each dropping the low bit. */
  function Shr(a: nat, k: nat): nat
  {
    if k == 0 then a else Shr(a, k - 1) / 2
  }

  /** Halving a quotient by p is the quotient by 2p. */
  lemma HalveQuotient(a: nat, p: nat)
    requires p >= 1
    ensures (a / p) / 2 == a / (2 * p)
  {
    var q, r := a / p, a % p;
    var q2, r2 := q / 2, q % 2;
    assert a == p * q + r;
    assert q == 2 * q2 + r2;
    assert p * q == (2 * p) * q2 + p * r2;
    assert 0 <= p * r2 + r < 2 * p by {
      assert r2 == 0 || r2 == 1;
    }
    DivModUnique(a, q2, p * r2 + r, 2 * p);
  }

  /** Multiplying a quotient back by its divisor does not exceed the dividend. */
  lemma QuotientTimesDivisorBelow(a: nat, p: nat)
    requires p >= 1
    ensures (a / p) * p <= a
  {
    assert a == (a / p) * p + a % p;
  }

  /** `a >> k` is floor division by 2^k. */
  lemma {:induction false} ShrIsDiv(a: nat, k: nat)
    ensures Shr(a, k) == a / Pow2(k)
  {
    if k > 0 {
      ShrIsDiv(a, k - 1);
      HalveQuotient(a, Pow2(k - 1));
    }
  }

  /** `a << k` without overflow. */
  function Shl(a: int, k: nat): int { a * Pow2(k) }

  /** Reducing a value below twice the modulus subtracts the modulus at most once. */
  lemma ModOnce(p: int, n: int)
    requires n >= 1 && 0 <= p < 2 * n
    ensures p % n == if p < n then p else p - n
  {
    var q := p / n;
    assert p == q * n + p % n;
    assert q == 0 || q == 1;
  }

  /** `unsigned` arithmetic wraps modulo 2^32. */
  const UINT32_MOD: int := 0x1_0000_0000

  /** `s[lo] + s[lo+1] + … + s[lo+n-1]`, unbounded. */
  function SumRange(s: seq<int>, lo: nat, n: nat): int
    requires lo + n <= |s|
  {
    if n == 0 then 0 else SumRange(s, lo, n - 1) + s[lo + n - 1]
  }

  /** A sum of non-negative terms is at least each of its terms. */
  lemma {:induction false} SumRangeBoundsTerms(s: seq<int>, lo: nat, n: nat)
    requires lo + n <= |s|
    requires forall k :: lo <= k < lo + n ==> s[k] >= 0
    ensures SumRange(s, lo, n) >= 0
    ensures forall k :: lo <= k < lo + n ==> s[k] <= SumRange(s, lo, n)
  {
    if n > 0 {
      SumRangeBoundsTerms(s, lo, n - 1);
    }
  }

  /** Reducing a running sum modulo m before each addition reduces the total once. */
  lemma ModAddStep(a: int, x: int, m: int)
    requires m >= 1
    ensures (a % m + x) % m == (a + x) % m
  {
    var q := a / m;
    assert a == q * m + a % m;
    assert a + x == (a % m + x) + q * m;
    ModShift(a % m + x, q, m);
  }

  lemma ModShift(b: int, q: int, m: int)
    requires m >= 1
    ensures (b + q * m) % m == b % m
  {
    var p := b / m;
    assert b == p * m + b % m;
    assert b + q * m == (p + q) * m + b % m;
    ModUnique(b + q * m, p + q, b % m, m);
  }

  /** The remainder is the unique value in [0, m) that differs from x by a multiple of m. */
  lemma ModUnique(x: int, d: int, r: int, m: int)
    requires m >= 1 && 0 <= r < m && x == d * m + r
    ensures x % m == r
  {
    var d2 := x / m;
    var r2 := x % m;
    assert x == d2 * m + r2 && 0 <= r2 < m;
    assert (d - d2) * m == r2 - r;
    NonzeroMultiple(d - d2, m);
  }

  /** A product of two factors whose values are known. */
  lemma MulOfKnown(a: int, b: int, x: int, y: int)
    requires a == x && b == y
    ensures a * b == x * y
  {
  }

  /** One more row of c elements: s = a + 1 rows hold c more than a rows. */
  lemma MulSucc(s: int, a: int, c: int)
    requires s == 1 + a
    ensures s * c == c + a * c
  {
  }

  /** Quotient and remainder are the unique pair with `x == d * m + r` and `0 <= r < m`. */
  lemma DivModUnique(x: int, d: int, r: int, m: int)
    requires m >= 1 && 0 <= r < m && x == d * m + r
    ensures x / m == d && x % m == r
  {
    ModUnique(x, d, r, m);
    var d2 := x / m;
    assert x == d2 * m + r;
    assert (d - d2) * m == 0;
    NonzeroMultiple(d - d2, m);
  }

  /** A value below `h * w` has a quotient by `w` below `h`. */
  lemma DivBelow(p: nat, w: nat, h: nat)
    requires w >= 1 && p < h * w
    ensures p / w < h
  {
    var q := p / w;
    assert q * w <= p;
  }

  lemma NonzeroMultiple(k: int, m: int)
    requires m >= 1
    ensures k >= 1 ==> k * m >= m
    ensures k <= -1 ==> k * m <= -m
  {
  }
}

=== FILE: circular_buffer.dfy ===
/**
 * FCam::CircularBuffer (include/FCam/CircularBuffer.h): a fixed array used as
 * a memory of recent values. `At(0)` is the newest value. One slot always
 * stays unused, so at most `allocated - 1` values are retained.
 */
module CircularBuffers {

  import CArith

  class CircularBuffer<T(0)> {
    var memory: array<T>
    var start: nat
    var end: nat
    const alloc: nat  // `allocated` in the source; that word is reserved in Dafny

    ghost predicate Valid()
      reads this
    {
      alloc >= 1 && memory.Length == alloc && start < alloc && end < alloc
    }

    constructor (s: nat)
      requires s >= 1
      ensures Valid() && alloc == s && fresh(memory)
      ensures Size() == 0
    {
      alloc := s;
      memory := new T[s];
      start, end := 0, 0;
    }

    /** `size()`: the distance from start to end around the ring. */
    function Size(): (n: nat)
      reads this
      requires Valid()
      ensures n < alloc
    {
      if end >= start then end - start else end - start + alloc
    }

    /** `operator[](i)`: the i-th newest value; only the first Size() are meaningful. */
    function At(i: nat): (r: T)
      reads this, memory
      requires Valid() && i < alloc
      ensures r == memory[Slot(end, i, alloc)]
    {
      SlotIsMod(end, i, alloc);
      memory[(end - 1 - i + alloc) % alloc]
    }

    /** The retained values, newest first. */
    ghost function Items(): (s: seq<T>)
      reads this, memory
      requires Valid()
      ensures |s| == Size()
      ensures forall i :: 0 <= i < |s| ==> s[i] == At(i)
    {
      RingItems(memory[..], start, end)
    }

    /**
     * `push(obj)`: stores obj at `end` and advances it; when the ring is full
     * the oldest value is dropped by advancing `start` as well.
     */
    method Push(x: T)
      requires Valid()
      modifies this, memory
      ensures Valid() && memory == old(memory)
      ensures At(0) == x
      ensures forall i :: 1 <= i < alloc ==> At(i) == old(At(i - 1))
      ensures Size() == if old(Size()) < alloc - 1 then old(Size()) + 1 else alloc - 1
      ensures Items() == ([x] + old(Items()))[..Size()]
    {
      ghost var oldMem, oldStart, oldEnd := memory[..], start, end;
      memory[end] := x;
      end := end + 1;
      if end == alloc {
        end := 0;
      }
      if end == start {
        start := start + 1;
        if start == alloc {
          start := 0;
        }
      }
      forall i | 1 <= i < alloc
        ensures At(i) == oldMem[Slot(oldEnd, i - 1, alloc)]
      {
        assert Slot(end, i, alloc) == Slot(oldEnd, i - 1, alloc) != oldEnd;
      }
      assert memory[..] == oldMem[oldEnd := x];
      RingPush(oldMem, oldStart, oldEnd, x);
    }
  }

  /** The slot `(end - 1 - i + n) % n` of the i-th newest value, without the remainder. */
  function Slot(end: int, i: int, n: int): int
  {
    if end - 1 - i >= 0 then end - 1 - i else end - 1 - i + n
  }

  lemma SlotIsMod(end: int, i: int, n: int)
    requires 0 <= end < n && 0 <= i < n
    ensures 0 <= Slot(end, i, n) < n && (end - 1 - i + n) % n == Slot(end, i, n)
  {
    CArith.ModOnce(end - 1 - i + n, n);
  }

  /** The values of a ring over `mem` running from `start` to `end`, newest first. */
  ghost function RingItems<T>(mem: seq<T>, start: nat, end: nat): (s: seq<T>)
    requires start < |mem| && end < |mem|
    ensures |s| == if end >= start then end - start else end - start + |mem|
    ensures forall i :: 0 <= i < |s| ==> s[i] == mem[Slot(end, i, |mem|)]
  {
    var n := |mem|;
    var size := if end >= start then end - start else end - start + n;
    seq(size, i requires 0 <= i < size => mem[Slot(end, i, n)])
  }

  /** Pushing onto a ring prepends the value and drops the oldest one when the ring is full. */
  lemma RingPush<T>(mem: seq<T>, start: nat, end: nat, x: T)
    requires start < |mem| && end < |mem|
    ensures var e := if end + 1 == |mem| then 0 else end + 1;
            var s := if e != start then start else if start + 1 == |mem| then 0 else start + 1;
            var before := RingItems(mem, start, end);
            var after := RingItems(mem[end := x], s, e);
            |before| < |mem| && after == ([x] + before)[..|after|]
  {
    var n := |mem|;
    var e := if end + 1 == n then 0 else end + 1;
    var s := if e != start then start else if start + 1 == n then 0 else start + 1;
    var before := RingItems(mem, start, end);
    var after := RingItems(mem[end := x], s, e);
    assert |after| <= |before| + 1;
    forall i | 0 <= i < |after|
      ensures after[i] == ([x] + before)[i]
    {
      if i > 0 {
        assert Slot(e, i, n) == Slot(end, i - 1, n) != end;
      }
    }
  }
}

=== FILE: daemon.dfy ===
/**
 * The Tegra daemon (external/FCam/Tegra/Daemon.cpp, Daemon.h): the layer
 * between the sensor and the camera stack. The part modelled here is the
 * sequential effect of its queue handling: the drop policy that keeps the
 * queue of finished frames short, the bubble requests it pushes in front
 * of the request queue, and the priority order of its timed actions.
 * Requests and frames are modelled by the shot each one carries.
 */
module TegraDaemon {
  import opened Base
  import opened CArith
  import FCamTime
  import Events
  import Shots
  import FCamImages

  /** `Sensor::DropOldest`, `Sensor::DropNewest`, or any other value. */
  datatype DropPolicy = DropOldest | DropNewest | OtherPolicy(code: int)

  /** The error codes of `Event::InternalError` and `Event::FrameLimitHit`. */
  const INTERNAL_ERROR: int := 1
  const FRAME_LIMIT_HIT: int := 9

  /** `size_t` on the 32-bit Tegra targets: an `int` argument stored into it wraps modulo 2^32. */
  function AsSize(n: int): (r: nat)
    ensures r < UINT32_MOD
    ensures 0 <= n ==> n < UINT32_MOD ==> r == n
  {
    n % UINT32_MOD
  }

  // -------------------------------------------------------------------
  // Timed actions
  // -------------------------------------------------------------------

  /** `Daemon::Action`: a device action together with the time it should run. */
  datatype TimedAction = TimedAction(time: FCamTime.Time, action: Shots.Action)

  /** `a < b` for the action priority queue: a is lower priority when it occurs later. */
  predicate LowerPriority(a: TimedAction, b: TimedAction)
  {
    FCamTime.Greater(a.time, b.time)
  }

  /** `a > b`: a is higher priority when it occurs earlier. */
  predicate HigherPriority(a: TimedAction, b: TimedAction)
  {
    FCamTime.Less(a.time, b.time)
  }

  /**
   * The two orders are converses of each other, irreflexive and
   * transitive, and an earlier action always outranks a later one, so the
   * priority queue's top is the earliest action.
   */
  lemma PriorityByTime(a: TimedAction, b: TimedAction, c: TimedAction)
    ensures LowerPriority(a, b) <==> HigherPriority(b, a)
    ensures 0 <= a.time.us < FCamTime.USEC_PER_SEC && 0 <= b.time.us < FCamTime.USEC_PER_SEC ==>
              (HigherPriority(a, b) <==> FCamTime.Total(a.time) < FCamTime.Total(b.time))
    ensures !HigherPriority(a, a) && !LowerPriority(a, a)
    ensures HigherPriority(a, b) ==> !HigherPriority(b, a)
    ensures HigherPriority(a, b) && HigherPriority(b, c) ==> HigherPriority(a, c)
    ensures LowerPriority(a, b) && LowerPriority(b, c) ==> LowerPriority(a, c)
  {
    FCamTime.ComparisonsConsistent(a.time, b.time, c.time);
    if 0 <= a.time.us < FCamTime.USEC_PER_SEC && 0 <= b.time.us < FCamTime.USEC_PER_SEC {
      FCamTime.LessMatchesInstants(a.time, b.time);
    }
  }

  /** The sensor's count of shots requested but not yet returned (`shotsPending_`). */
  class PendingShots {
    var count: int

    constructor ()
      ensures count == 0
    {
      count := 0;
    }

    /** `shotsPending_++`. */
    method Inc()
      modifies this
      ensures count == old(count) + 1
    {
      count := count + 1;
    }

    /** `decShotsPending()`: `shotsPending_--` under the request mutex. */
    method Dec()
      modifies this
      ensures count == old(count) - 1
    {
      count := count - 1;
    }
  }

  /** `Image(size, type, Image::Discard)`: a view with no data, packed rows, no counter. */
  function DiscardView(w: int, h: int, f: ImageFormat): (v: FCamImages.ImageView)
    ensures v.width == w && v.height == h && v.format == f
    ensures !FCamImages.IsValid(v) && v.refCount == null && FCamImages.WellFormed(v)
  {
    FCamImages.ExternalView(w, h, f, FCamImages.DISCARD, -1)
  }

  class Daemon {
    /** Requests waiting for the setter thread, front first. */
    var requestQueue: seq<Shots.Shot>
    /** Finished frames waiting for `getFrame`, oldest first. */
    var frameQueue: seq<Shots.Shot>
    /** `frameLimit`: how many frames may wait. */
    var frameLimit: nat
    var dropPolicy: DropPolicy
    /** The request the daemon is currently working on (`current`). */
    var current: Shots.Shot
    /** The owning sensor's pending-shot counter, and its id as an event creator. */
    const pending: PendingShots
    const creator: int

    constructor (pending: PendingShots, creator: int, current: Shots.Shot)
      ensures this.pending == pending && this.creator == creator && this.current == current
      ensures requestQueue == [] && frameQueue == []
      ensures frameLimit == 128 && dropPolicy == DropNewest
    {
      this.pending := pending;
      this.creator := creator;
      this.current := current;
      requestQueue := [];
      frameQueue := [];
      frameLimit := 128;
      dropPolicy := DropNewest;
    }

    /**
     * `enforceDropPolicy()`: at or under the limit nothing happens. Over
     * it, a FrameLimitHit warning is posted and frames are dropped, oldest
     * first or newest first, while the queue holds at least `frameLimit`,
     * so that `frameLimit - 1` remain; each drop takes one from the
     * pending-shot count. An unknown policy posts an InternalError and
     * drops nothing. With a limit of 0, a non-empty queue and one of the
     * two drop policies the loop would wait for a frame that never comes,
     * which the precondition rules out.
     */
    method EnforceDropPolicy(events: Events.EventQueue, now: FCamTime.Time)
      requires frameLimit >= 1 || frameQueue == [] || dropPolicy.OtherPolicy?
      modifies this`frameQueue, pending, events
      ensures |old(frameQueue)| <= frameLimit ==>
                frameQueue == old(frameQueue) && pending.count == old(pending.count) && events.events == old(events.events)
      ensures |old(frameQueue)| > frameLimit && dropPolicy == DropOldest ==>
                frameQueue == old(frameQueue)[|old(frameQueue)| - (frameLimit - 1)..]
      ensures |old(frameQueue)| > frameLimit && dropPolicy == DropNewest ==>
                frameQueue == old(frameQueue)[..frameLimit - 1]
      ensures |old(frameQueue)| > frameLimit && dropPolicy.OtherPolicy? ==> frameQueue == old(frameQueue)
      ensures pending.count == old(pending.count) - (|old(frameQueue)| - |frameQueue|)
      ensures |old(frameQueue)| > frameLimit ==>
                |events.events| == |old(events.events)| + (if dropPolicy.OtherPolicy? then 2 else 1) &&
                events.events[..|old(events.events)|] == old(events.events) &&
                events.events[|old(events.events)|].kind == Events.WARNING &&
                events.events[|old(events.events)|].data == FRAME_LIMIT_HIT &&
                events.events[|old(events.events)|].creator == creator &&
                (dropPolicy.OtherPolicy? ==>
                  events.events[|old(events.events)| + 1].kind == Events.ERROR &&
                  events.events[|old(events.events)| + 1].data == INTERNAL_ERROR)
    {
      if |frameQueue| > frameLimit {
        events.Warning(FRAME_LIMIT_HIT, creator, "frame limit hit, silently dropping frames", now);
        ghost var posted := events.events;
        if dropPolicy == DropOldest {
          while |frameQueue| >= frameLimit
            invariant frameLimit - 1 <= |frameQueue| <= |old(frameQueue)|
            invariant frameQueue == old(frameQueue)[|old(frameQueue)| - |frameQueue|..]
            invariant pending.count == old(pending.count) - (|old(frameQueue)| - |frameQueue|)
            invariant events.events == posted
          {
            pending.Dec();
            frameQueue := frameQueue[1..];
          }
        } else if dropPolicy == DropNewest {
          while |frameQueue| >= frameLimit
            invariant frameLimit - 1 <= |frameQueue| <= |old(frameQueue)|
            invariant frameQueue == old(frameQueue)[..|frameQueue|]
            invariant pending.count == old(pending.count) - (|old(frameQueue)| - |frameQueue|)
            invariant events.events == posted
          {
            pending.Dec();
            frameQueue := frameQueue[..|frameQueue| - 1];
          }
        } else {
          events.Error(INTERNAL_ERROR, creator, "Unknown drop policy! Not dropping frames.", now);
        }
      }
    }

    /** `setDropPolicy(p, f)`: the policy and the limit are stored, then enforced at once. */
    method SetDropPolicy(p: DropPolicy, f: int, events: Events.EventQueue, now: FCamTime.Time)
      requires AsSize(f) >= 1 || frameQueue == [] || p.OtherPolicy?
      modifies this`dropPolicy, this`frameLimit, this`frameQueue, pending, events
      ensures dropPolicy == p && frameLimit == AsSize(f)
      ensures |old(frameQueue)| <= frameLimit ==> frameQueue == old(frameQueue) && pending.count == old(pending.count)
      ensures |old(frameQueue)| > frameLimit && p == DropOldest ==>
                frameQueue == old(frameQueue)[|old(frameQueue)| - (frameLimit - 1)..]
      ensures |old(frameQueue)| > frameLimit && p == DropNewest ==> frameQueue == old(frameQueue)[..frameLimit - 1]
      ensures p.OtherPolicy? ==> frameQueue == old(frameQueue)
      ensures pending.count == old(pending.count) - (|old(frameQueue)| - |frameQueue|)
    {
      dropPolicy := p;
      frameLimit := AsSize(f);
      EnforceDropPolicy(events, now);
    }

    /**
     * `insertBubble(params)`: a request that produces no wanted frame and
     * runs no actions, pushed in front of every waiting request. Its image
     * discards the data, at the size and format of `params`, or of the
     * current request when there are no parameters; it copies every other
     * parameter of `params`, or only the histogram and sharpness requests
     * of the current one. Making it draws shot ids from the global counter.
     */
    method InsertBubble(params: Shots.Shot?, ids: Shots.ShotIds) returns (req: Shots.Shot)
      modifies this`requestQueue, ids
      ensures fresh(req)
      ensures requestQueue == [req] + old(requestQueue)
      ensures !req.wanted && req.actions == []
      ensures params == null ==>
                req.image == DiscardView(current.image.width, current.image.height, current.image.format) &&
                req.histogram == current.histogram && req.sharpness == current.sharpness
      ensures params != null ==>
                req.image == DiscardView(params.image.width, params.image.height, params.image.format) &&
                req.exposure == params.exposure && req.frameTime == params.frameTime &&
                req.gain == params.gain && req.whiteBalance == params.whiteBalance &&
                req.histogram == params.histogram && req.sharpness == params.sharpness &&
                req.colorMatrix == params.colorMatrix
    {
      req := new Shots.Shot(ids);
      if params == null {
        var bubble := DiscardView(current.image.width, current.image.height, current.image.format);
        req.image := FCamImages.AssignedView(req.image, bubble);
        req.histogram := current.histogram;
        req.sharpness := current.sharpness;
      } else {
        req.Assign(params, ids);
        var bubble := DiscardView(params.image.width, params.image.height, params.image.format);
        req.image := FCamImages.AssignedView(req.image, bubble);
      }
      req.ClearAllActions();
      req.wanted := false;
      requestQueue := [req] + requestQueue;
    }
  }
}

=== FILE: decimal_text.dfy ===
/**
 * printf's `%i` and `%0Wi` and the C++ stream's `<<` of an int: the
 * decimal digits of a value, zero-padded to a width, with a leading minus
 * sign for negative values; and reading such text back.
 */
module DecimalText {
  import StackNames

  function Digit(d: nat): (c: char)
    requires d < 10
    ensures StackNames.IsDigit(c) && StackNames.DigitValue(c) == d
  {
    ('0' as int + d) as char
  }

  /** The decimal digits of n, without leading zeros ("0" for zero). */
  function Decimal(n: nat): (s: string)
    ensures |s| >= 1 && AllDigits(s)
    decreases n
  {
    if n < 10 then [Digit(n)] else Decimal(n / 10) + [Digit(n % 10)]
  }

  predicate AllDigits(s: string)
  {
    forall k :: 0 <= k < |s| ==> StackNames.IsDigit(s[k])
  }

  function Zeros(k: nat): (z: string)
    ensures |z| == k && forall i :: 0 <= i < k ==> z[i] == '0'
  {
    if k == 0 then [] else ['0'] + Zeros(k - 1)
  }

  /** s with zeros in front up to `width` characters. */
  function Pad(s: string, width: int): (r: string)
    ensures |r| == if width > |s| then width else |s|
  {
    if width > |s| then Zeros(width - |s|) + s else s
  }

  /**
   * `%0Wi` of v (`%i` when `width` is 0): the decimal digits, zero-padded
   * to `width` characters; a negative value has its minus sign first, and
   * the sign counts towards the width.
   */
  function PrintInt(v: int, width: nat): (r: string)
    ensures Plain(r) && |r| >= width
  {
    if v >= 0 then Pad(Decimal(v), width)
    else "-" + Pad(Decimal(-v), width - 1)
  }

  /** Digits and minus signs only: what `%i` prints. */
  predicate Plain(s: string)
  {
    forall k :: 0 <= k < |s| ==> StackNames.IsDigit(s[k]) || s[k] == '-'
  }

  lemma {:induction false} DecimalValueSnoc(s: string, c: char)
    requires AllDigits(s) && StackNames.IsDigit(c)
    ensures AllDigits(s + [c])
    ensures StackNames.DecimalValue(s + [c]) == 10 * StackNames.DecimalValue(s) + StackNames.DigitValue(c)
    decreases |s|
  {
    if s != [] {
      var t := s + [c];
      assert t[0] == s[0] && t[1..] == s[1..] + [c];
      DecimalValueSnoc(s[1..], c);
      var d := StackNames.DigitValue(s[0]);
      var p := StackNames.Pow10(|s| - 1);
      assert StackNames.Pow10(|t| - 1) == 10 * p;
      TenTimes(d, p);
    }
  }

  lemma TenTimes(d: int, p: int)
    ensures d * (10 * p) == 10 * (d * p)
  {
  }

  /** Reading back the digits `%i` prints for a non-negative value gives the value. */
  lemma {:induction false} DecimalRoundTrip(n: nat)
    ensures StackNames.DecimalValue(Decimal(n)) == n
    decreases n
  {
    if n >= 10 {
      DecimalRoundTrip(n / 10);
      DecimalValueSnoc(Decimal(n / 10), Digit(n % 10));
    }
  }

  /** Leading zeros do not change the value of a digit string. */
  lemma {:induction false} LeadingZeros(k: nat, s: string)
    requires AllDigits(s)
    ensures AllDigits(Zeros(k) + s)
    ensures StackNames.DecimalValue(Zeros(k) + s) == StackNames.DecimalValue(s)
  {
    if k > 0 {
      var z := Zeros(k) + s;
      assert z[0] == '0' && z[1..] == Zeros(k - 1) + s;
      LeadingZeros(k - 1, s);
      assert StackNames.DecimalValue(z) == 0 * StackNames.Pow10(|z| - 1) + StackNames.DecimalValue(z[1..]);
    } else {
      assert Zeros(k) + s == s;
    }
  }

  /** A value below `10^k` (k ≥ 1) has at most k digits. */
  lemma {:induction false} DecimalLength(n: nat, k: nat)
    requires k >= 1 && n < StackNames.Pow10(k)
    ensures |Decimal(n)| <= k
    decreases n
  {
    if n >= 10 {
      assert StackNames.Pow10(k) == 10 * StackNames.Pow10(k - 1);
      DecimalLength(n / 10, k - 1);
    }
  }

  /** What `%0Wi` prints reads back as the value: its digits for v ≥ 0, a minus sign and the digits of −v otherwise. */
  lemma PrintIntValue(v: int, width: nat)
    ensures v >= 0 ==> AllDigits(PrintInt(v, width)) && StackNames.DecimalValue(PrintInt(v, width)) == v
    ensures v < 0 ==> PrintInt(v, width)[0] == '-' && AllDigits(PrintInt(v, width)[1..]) &&
                      StackNames.DecimalValue(PrintInt(v, width)[1..]) == -v
  {
    var n := if v >= 0 then v else -v;
    var w := if v >= 0 then width else width - 1;
    DecimalRoundTrip(n);
    if w > |Decimal(n)| {
      LeadingZeros(w - |Decimal(n)|, Decimal(n));
    }
    if v < 0 {
      assert PrintInt(v, width)[1..] == Pad(Decimal(n), w);
    }
  }

  /** Different values never print alike. */
  lemma PrintIntInjective(a: int, b: int, width: nat)
    requires PrintInt(a, width) == PrintInt(b, width)
    ensures a == b
  {
    PrintIntValue(a, width);
    PrintIntValue(b, width);
  }

}

=== FILE: dng.dfy ===
/**
 * The raw metadata of a DNG file (external/FCam/processing/DNG.cpp,
 * `saveDNG` and `loadDNG`), at the level of the parsed TIFF entries: the
 * DNG version gate, the TIFF/EP colour filter array (ISO 12234-2,
 * CFARepeatPatternDim and CFAPattern), the black and white levels, the
 * orientation check, the calibration illuminants and the camera names
 * (Adobe DNG Specification 1.3.0.0, chapter 4). A directory is a map from
 * tag number to the value the TIFF layer parsed for it.
 */
module Dng {
  import opened Wrappers
  import opened Base
  import TV = TagValues
  import CArith

  // Tag numbers (TIFFTags.h).
  const TAG_MAKE := 271
  const TAG_MODEL := 272
  const TAG_ORIENTATION := 274
  const TAG_CFA_REPEAT_PATTERN_DIM := 33421
  const TAG_CFA_PATTERN := 33422
  const TAG_DNG_VERSION := 50706
  const TAG_DNG_BACKWARD_VERSION := 50707
  const TAG_BLACK_LEVEL_REPEAT_DIM := 50713
  const TAG_BLACK_LEVEL := 50714
  const TAG_WHITE_LEVEL := 50717
  const TAG_COLOR_MATRIX_1 := 50721
  const TAG_COLOR_MATRIX_2 := 50722
  const TAG_CALIBRATION_ILLUMINANT_1 := 50778
  const TAG_CALIBRATION_ILLUMINANT_2 := 50779

  const ORIENTATION_TOP_LEFT := 1
  const ILLUMINANT_STD_A := 17
  const ILLUMINANT_D65 := 21

  /** The DNG version written, and the newest backward version loadDNG accepts. */
  const UNDERSTOOD_VERSION: seq<int> := [1, 3, 0, 0]
  /** The backward version written. */
  const OLDEST_SUPPORTED_VERSION: seq<int> := [1, 2, 0, 0]

  /** Colour temperatures in kelvin by calibration illuminant code; the last entry stands for every code from 25 up. */
  const ILLUMINANT_TEMPERATURES: seq<int> :=
    [0, 6500, 5000, 3200, 5600, 0, 0, 0, 0, 6500, 6000, 8000, 6430,
     6350, 4230, 3450, 0, 2856, 4874, 6774, 5503, 6504, 7504, 5003, 3200, 0]

  const UINT16_MOD := 0x1_0000

  /** Why loadDNG stops (its fatal errors), or `Undefined` where it indexes past the end of a vector. */
  datatype LoadError =
    | NoVersion
    | TooNewFile
    | NoCfaDims
    | CfaDimsUnsupported
    | NoCfaPattern
    | CfaPatternIncorrect
    | CfaPatternUnsupported
    | BlackLevelDimsUnsupported
    | BlackLevelCountMismatch
    | BlackLevelTypeUnexpected
    | NoOrientation
    | OrientationUnsupported
    | NoColorMatrix
    | NoSecondColorMatrix
    | Undefined

  /** Assignment to a `uint16_t`: the value modulo 2^16. */
  function Wrap16(x: int): (w: int)
    ensures 0 <= w < UINT16_MOD
    ensures 0 <= x < UINT16_MOD ==> w == x
  {
    x % UINT16_MOD
  }

  // ----- The version gate -----

  /** `ver[0..3]` of a version string: a char past its end reads as 0. */
  function VersionBytes(t: TV.Text): (v: seq<int>)
    ensures |v| == 4
  {
    seq(4, k requires 0 <= k < 4 => if k < |t| then t[k] as int else 0)
  }

  /** The four-char string saveDNG writes for a version. */
  function VersionText(v: seq<int>): (t: TV.Text)
    requires |v| == 4 && forall k :: 0 <= k < 4 ==> 0 <= v[k] < 256
    ensures |t| == 4 && VersionBytes(t) == v
  {
    [v[0] as char, v[1] as char, v[2] as char, v[3] as char]
  }

  /** Lexicographic order on version numbers of one length: `a` comes strictly before `b`. */
  predicate Older(a: seq<int>, b: seq<int>)
    requires |a| == |b|
    decreases |a|
  {
    |a| > 0 && (a[0] < b[0] || (a[0] == b[0] && Older(a[1..], b[1..])))
  }

  /** `a` comes before `b` exactly when they agree up to some position and `a` is smaller there. */
  lemma {:induction false} OlderAt(a: seq<int>, b: seq<int>)
    requires |a| == |b|
    ensures Older(a, b) <==> exists k :: 0 <= k < |a| && a[..k] == b[..k] && a[k] < b[k]
    decreases |a|
  {
    if |a| > 0 {
      OlderAt(a[1..], b[1..]);
      if Older(a, b) {
        if a[0] < b[0] {
          assert a[..0] == b[..0];
        } else {
          var j :| 0 <= j < |a| - 1 && a[1..][..j] == b[1..][..j] && a[1..][j] < b[1..][j];
          assert a[..j + 1] == [a[0]] + a[1..][..j];
          assert b[..j + 1] == [b[0]] + b[1..][..j];
          assert a[j + 1] < b[j + 1];
        }
      }
      if exists k :: 0 <= k < |a| && a[..k] == b[..k] && a[k] < b[k] {
        var k :| 0 <= k < |a| && a[..k] == b[..k] && a[k] < b[k];
        if k > 0 {
          assert a[0] == a[..k][0] == b[..k][0] == b[0];
          assert a[1..][..k - 1] == a[..k][1..] == b[..k][1..] == b[1..][..k - 1];
          assert a[1..][k - 1] < b[1..][k - 1];
        }
      }
    }
  }

  /**
   * The "too new" test loadDNG applies to the backward version. As written,
   * each clause after the first compares only one earlier byte, so the
   * bytes before it are ignored; corrected, each clause needs all earlier
   * bytes equal.
   */
  datatype Gate = GateAsWritten | GateLexicographic

  predicate TooNew(gate: Gate, v: seq<int>)
    requires |v| == 4
  {
    var u := UNDERSTOOD_VERSION;
    match gate
    case GateAsWritten =>
      u[0] < v[0] || (u[0] == v[0] && u[1] < v[1]) || (u[1] == v[1] && u[2] < v[2]) || (u[2] == v[2] && u[3] < v[3])
    case GateLexicographic =>
      u[0] < v[0] || (u[0] == v[0] && (u[1] < v[1] || (u[1] == v[1] && (u[2] < v[2] || (u[2] == v[2] && u[3] < v[3])))))
  }

  /** Corrected, a backward version is too new exactly when the understood version comes before it. */
  lemma LexicographicGateIsOrder(v: seq<int>)
    requires |v| == 4
    ensures TooNew(GateLexicographic, v) <==> Older(UNDERSTOOD_VERSION, v)
    ensures TooNew(GateLexicographic, v) <==>
      exists k :: 0 <= k < 4 && UNDERSTOOD_VERSION[..k] == v[..k] && UNDERSTOOD_VERSION[k] < v[k]
  {
    var u := UNDERSTOOD_VERSION;
    assert Older(u, v) == (u[0] < v[0] || (u[0] == v[0] && Older(u[1..], v[1..])));
    assert Older(u[1..], v[1..]) == (u[1] < v[1] || (u[1] == v[1] && Older(u[2..], v[2..]))) by {
      assert u[1..][1..] == u[2..] && v[1..][1..] == v[2..];
    }
    assert Older(u[2..], v[2..]) == (u[2] < v[2] || (u[2] == v[2] && Older(u[3..], v[3..]))) by {
      assert u[2..][1..] == u[3..] && v[2..][1..] == v[3..];
    }
    assert Older(u[3..], v[3..]) == (u[3] < v[3]) by {
      assert u[3..][1..] == [] && v[3..][1..] == [];
    }
    OlderAt(u, v);
  }

  /** The gate as written refuses every version the corrected one refuses. */
  lemma AsWrittenRefusesMore(v: seq<int>)
    requires |v| == 4
    ensures TooNew(GateLexicographic, v) ==> TooNew(GateAsWritten, v)
  {
  }

  /**
   * As written, backward versions older than the understood 1.3.0.0 are
   * refused: 1.2.0.1 (the last clause sees only the two zero bytes before
   * it) and 0.3.1.0; the corrected gate lets both through.
   */
  lemma AsWrittenRefusesOlder()
    ensures Older([1, 2, 0, 1], UNDERSTOOD_VERSION) && TooNew(GateAsWritten, [1, 2, 0, 1]) && !TooNew(GateLexicographic, [1, 2, 0, 1])
    ensures Older([0, 3, 1, 0], UNDERSTOOD_VERSION) && TooNew(GateAsWritten, [0, 3, 1, 0]) && !TooNew(GateLexicographic, [0, 3, 1, 0])
  {
    var u := UNDERSTOOD_VERSION;
    assert u[1..][1..] == [0, 0] && u[1..][1..][1..] == [0];
    assert [1, 2, 0, 1][1..] == [2, 0, 1];
    assert [0, 3, 1, 0][1..] == [3, 1, 0];
  }

  /** A first byte above 1 is refused by both gates; the versions saveDNG writes pass both. */
  lemma VersionGateBounds(gate: Gate, v: seq<int>)
    requires |v| == 4
    ensures v[0] > 1 ==> TooNew(gate, v)
    ensures !TooNew(gate, OLDEST_SUPPORTED_VERSION) && !TooNew(gate, UNDERSTOOD_VERSION)
  {
  }

  /**
   * The version check of loadDNG on directory 0: a file without
   * DNGVersion is refused; otherwise the backward version is read, and a
   * file whose backward version is too new is refused. A file with a
   * DNGVersion and no DNGBackwardVersion makes loadDNG dereference a null
   * entry, so callers must not pass one.
   */
  function CheckVersion(gate: Gate, ifd0: map<int, TV.Value>): (r: Result<seq<int>, LoadError>)
    requires TAG_DNG_VERSION in ifd0 ==> TAG_DNG_BACKWARD_VERSION in ifd0
    ensures TAG_DNG_VERSION !in ifd0 ==> r == Err(NoVersion)
    ensures TAG_DNG_VERSION in ifd0 ==>
      (r.Ok? <==> !TooNew(gate, VersionBytes(TV.TextOf(ifd0[TAG_DNG_BACKWARD_VERSION]))))
    ensures r.Ok? ==> r.value == VersionBytes(TV.TextOf(ifd0[TAG_DNG_BACKWARD_VERSION]))
    ensures r.Err? ==> r.error in {NoVersion, TooNewFile}
  {
    if TAG_DNG_VERSION !in ifd0 then Err(NoVersion)
    else
      var back := VersionBytes(TV.TextOf(ifd0[TAG_DNG_BACKWARD_VERSION]));
      if TooNew(gate, back) then Err(TooNewFile) else Ok(back)
  }

  // ----- The colour filter array -----

  /** The colour (0 red, 1 green, 2 blue) at each position of the 2x2 pattern, row by row. */
  function CfaPattern(b: BayerPattern): (p: seq<int>)
    requires b != NotBayer
    ensures |p| == 4 && 0 <= p[0] < 3 && 0 <= p[1] < 3 && 0 <= p[2] < 3 && 0 <= p[3] < 3
  {
    match b
    case RGGB => [0, 1, 1, 2]
    case BGGR => [2, 1, 1, 0]
    case GRBG => [1, 0, 2, 1]
    case GBRG => [1, 2, 0, 1]
  }

  /** Every pattern has two greens on one diagonal, and red and blue on the other. */
  lemma CfaPatternColours(b: BayerPattern)
    requires b != NotBayer
    ensures var p := CfaPattern(b);
      || (p[1] == 1 && p[2] == 1 && ((p[0] == 0 && p[3] == 2) || (p[0] == 2 && p[3] == 0)))
      || (p[0] == 1 && p[3] == 1 && ((p[1] == 0 && p[2] == 2) || (p[1] == 2 && p[2] == 0)))
  {
  }

  /** Each Bayer arrangement has its own pattern. */
  lemma CfaPatternInjective(a: BayerPattern, b: BayerPattern)
    requires a != NotBayer && b != NotBayer
    ensures CfaPattern(a) == CfaPattern(b) ==> a == b
  {
  }

  /** The CFAPattern entry as saveDNG writes it: the four colour codes as chars. */
  function CfaText(b: BayerPattern): (t: TV.Text)
    requires b != NotBayer
    ensures |t| == 4 && forall k :: 0 <= k < 4 ==> t[k] as int == CfaPattern(b)[k]
  {
    var p := CfaPattern(b);
    var t: TV.Text := [p[0] as char, p[1] as char, p[2] as char, p[3] as char];
    assert forall k :: 0 <= k < 4 ==> t[k] as int == p[k] by {
      assert t[0] as int == p[0] && t[1] as int == p[1] && t[2] as int == p[2] && t[3] as int == p[3];
    }
    t
  }

  /** The Bayer arrangement a CFA pattern string names, if any. */
  function BayerOf(t: TV.Text): (b: BayerPattern)
    ensures b != NotBayer ==> CfaText(b) == t
  {
    if t == CfaText(RGGB) then RGGB
    else if t == CfaText(BGGR) then BGGR
    else if t == CfaText(GRBG) then GRBG
    else if t == CfaText(GBRG) then GBRG
    else NotBayer
  }

  /**
   * The CFA checks of loadDNG on the raw directory: repeat dimensions of
   * 2x2 (the second is not read when the first is wrong), then a 4-char
   * pattern naming one of the four Bayer arrangements.
   */
  function DecodeCfa(raw: map<int, TV.Value>): (r: Result<BayerPattern, LoadError>)
    ensures TAG_CFA_REPEAT_PATTERN_DIM !in raw ==> r == Err(NoCfaDims)
    ensures r.Ok? ==>
      && r.value != NotBayer
      && TAG_CFA_REPEAT_PATTERN_DIM in raw && |TV.IntsOf(raw[TAG_CFA_REPEAT_PATTERN_DIM])| >= 2
      && TV.IntsOf(raw[TAG_CFA_REPEAT_PATTERN_DIM])[..2] == [2, 2]
      && TAG_CFA_PATTERN in raw && TV.TextOf(raw[TAG_CFA_PATTERN]) == CfaText(r.value)
  {
    if TAG_CFA_REPEAT_PATTERN_DIM !in raw then Err(NoCfaDims)
    else
      var dims := TV.IntsOf(raw[TAG_CFA_REPEAT_PATTERN_DIM]);
      if |dims| < 1 then Err(Undefined)
      else if dims[0] != 2 then Err(CfaDimsUnsupported)
      else if |dims| < 2 then Err(Undefined)
      else if dims[1] != 2 then Err(CfaDimsUnsupported)
      else if TAG_CFA_PATTERN !in raw then Err(NoCfaPattern)
      else
        var pattern := TV.TextOf(raw[TAG_CFA_PATTERN]);
        if |pattern| != 4 then Err(CfaPatternIncorrect)
        else
          var b := BayerOf(pattern);
          if b == NotBayer then Err(CfaPatternUnsupported) else Ok(b)
  }

  /** The pattern string of an arrangement names that arrangement. */
  lemma BayerOfText(b: BayerPattern)
    requires b != NotBayer
    ensures BayerOf(CfaText(b)) == b
  {
    var r, g, gr := CfaText(RGGB), CfaText(BGGR), CfaText(GRBG);
    assert r[0] as int == 0 && g[0] as int == 2 && gr[0] as int == 1;
    assert CfaText(GBRG)[0] as int == 1 && CfaText(GBRG)[1] as int == 2 && gr[1] as int == 0;
  }

  /** Conversely, 2x2 dimensions and the pattern of an arrangement decode to that arrangement. */
  lemma CfaDecodes(raw: map<int, TV.Value>, b: BayerPattern)
    requires b != NotBayer
    requires TAG_CFA_REPEAT_PATTERN_DIM in raw && |TV.IntsOf(raw[TAG_CFA_REPEAT_PATTERN_DIM])| >= 2
    requires TV.IntsOf(raw[TAG_CFA_REPEAT_PATTERN_DIM])[..2] == [2, 2]
    requires TAG_CFA_PATTERN in raw && TV.TextOf(raw[TAG_CFA_PATTERN]) == CfaText(b)
    ensures DecodeCfa(raw) == Ok(b)
  {
    var dims := TV.IntsOf(raw[TAG_CFA_REPEAT_PATTERN_DIM]);
    assert dims[0] == dims[..2][0] && dims[1] == dims[..2][1];
    BayerOfText(b);
  }

  // ----- Black and white levels -----

  /**
   * Whether saveDNG's switch on the Bayer pattern is taken as written (the
   * GBRG case has no `break` and falls into the error branch) or with the
   * missing `break` added.
   */
  datatype SaveBranch = SaveAsWritten | SaveWithBreak

  /**
   * The BlackLevel entries saveDNG writes for the red, green and blue
   * levels: the level of the colour at each position of the 2x2 pattern.
   * No entries at all when the switch ends in its error branch.
   */
  function BlackLevelPattern(save: SaveBranch, bayer: BayerPattern, levels: seq<int>): (r: Option<seq<int>>)
    requires |levels| == 3
    ensures r.Some? <==> bayer != NotBayer && !(save == SaveAsWritten && bayer == GBRG)
    ensures r.Some? ==> |r.value| == 4 && forall k :: 0 <= k < 4 ==> r.value[k] == levels[CfaPattern(bayer)[k]]
  {
    match bayer
    case RGGB => Some([levels[0], levels[1], levels[1], levels[2]])
    case BGGR => Some([levels[2], levels[1], levels[1], levels[0]])
    case GRBG => Some([levels[1], levels[0], levels[2], levels[1]])
    case GBRG => if save == SaveAsWritten then None else Some([levels[1], levels[2], levels[0], levels[1]])
    case NotBayer => None
  }

  /** BlackLevelRepeatDim as loadDNG holds it (two `uint16_t`), 1x1 when the entry is missing. */
  function BlackLevelDims(raw: map<int, TV.Value>): (r: Result<(int, int), LoadError>)
    ensures TAG_BLACK_LEVEL_REPEAT_DIM !in raw ==> r == Ok((1, 1))
    ensures r.Ok? ==> 0 <= r.value.0 < UINT16_MOD && 0 <= r.value.1 < UINT16_MOD
    ensures TAG_BLACK_LEVEL_REPEAT_DIM in raw ==>
      (r.Ok? <==> |TV.IntsOf(raw[TAG_BLACK_LEVEL_REPEAT_DIM])| >= 2)
  {
    if TAG_BLACK_LEVEL_REPEAT_DIM !in raw then Ok((1, 1))
    else
      var dims := TV.IntsOf(raw[TAG_BLACK_LEVEL_REPEAT_DIM]);
      if |dims| < 2 then Err(Undefined) else Ok((Wrap16(dims[0]), Wrap16(dims[1])))
  }

  /** One colour from one sample and green from the average of two, each truncated to `uint16_t`. */
  function Levels(red: int, green1: int, green2: int, blue: int): (r: Result<seq<int>, LoadError>)
    ensures r.Ok? <==> TV.IsInt32(green1 + green2)
    ensures r.Ok? ==> |r.value| == 3 && forall k :: 0 <= k < 3 ==> 0 <= r.value[k] < UINT16_MOD
  {
    if !TV.IsInt32(green1 + green2) then Err(Undefined)
    else Ok([Wrap16(red), Wrap16(CArith.CDiv(green1 + green2, 2)), Wrap16(blue)])
  }

  /** The per-colour black levels of a 4-entry BlackLevel, by the positions of the pattern. */
  function LevelsFromPattern(bayer: BayerPattern, t: seq<int>): (r: Result<seq<int>, LoadError>)
    requires bayer != NotBayer && |t| == 4
    ensures r.Ok? ==> |r.value| == 3 && forall k :: 0 <= k < 3 ==> 0 <= r.value[k] < UINT16_MOD
  {
    match bayer
    case RGGB => Levels(t[0], t[1], t[2], t[3])
    case BGGR => Levels(t[3], t[1], t[2], t[0])
    case GRBG => Levels(t[1], t[0], t[3], t[2])
    case GBRG => Levels(t[2], t[0], t[3], t[1])
  }

  /**
   * The black levels loadDNG derives: zeros without a BlackLevel entry; a
   * scalar is every colour's level and needs 1x1 repeat dimensions; a
   * vector needs 2x2 and four entries; any other kind is refused.
   */
  function LoadBlackLevels(bayer: BayerPattern, raw: map<int, TV.Value>): (r: Result<seq<int>, LoadError>)
    requires bayer != NotBayer
    ensures r.Ok? ==> |r.value| == 3 && forall k :: 0 <= k < 3 ==> 0 <= r.value[k] < UINT16_MOD
    ensures r.Ok? ==> BlackLevelDims(raw).Ok? && BlackLevelDims(raw).value in {(1, 1), (2, 2)}
    ensures BlackLevelDims(raw).Ok? && BlackLevelDims(raw).value !in {(1, 1), (2, 2)} ==>
      r == Err(BlackLevelDimsUnsupported)
    ensures r.Ok? && TAG_BLACK_LEVEL !in raw ==> r.value == [0, 0, 0]
    ensures r.Ok? && TAG_BLACK_LEVEL in raw ==>
      || (raw[TAG_BLACK_LEVEL].IntValue? && BlackLevelDims(raw).value.0 == 1)
      || (raw[TAG_BLACK_LEVEL].IntVectorValue? && BlackLevelDims(raw).value.0 == 2 && |raw[TAG_BLACK_LEVEL].ints| == 4)
    ensures r.Ok? && TAG_BLACK_LEVEL in raw && raw[TAG_BLACK_LEVEL].IntValue? ==>
      r.value == [Wrap16(raw[TAG_BLACK_LEVEL].i), Wrap16(raw[TAG_BLACK_LEVEL].i), Wrap16(raw[TAG_BLACK_LEVEL].i)]
  {
    var dims := BlackLevelDims(raw);
    if dims.Err? then Err(dims.error)
    else if dims.value != (1, 1) && dims.value != (2, 2) then Err(BlackLevelDimsUnsupported)
    else if TAG_BLACK_LEVEL !in raw then Ok([0, 0, 0])
    else
      var v := raw[TAG_BLACK_LEVEL];
      if v.IntValue? then
        if dims.value.0 != 1 then Err(BlackLevelCountMismatch)
        else Ok([Wrap16(v.i), Wrap16(v.i), Wrap16(v.i)])
      else if v.IntVectorValue? then
        if dims.value.0 != 2 || |v.ints| != 4 then Err(BlackLevelCountMismatch)
        else LevelsFromPattern(bayer, v.ints)
      else Err(BlackLevelTypeUnexpected)
  }

  /** The levels loadDNG reads back from a pattern that repeats one level per colour. */
  lemma LevelsOfPattern(bayer: BayerPattern, levels: seq<int>, t: seq<int>)
    requires bayer != NotBayer && |levels| == 3 && |t| == 4
    requires forall k :: 0 <= k < 3 ==> 0 <= levels[k] < UINT16_MOD
    requires forall k :: 0 <= k < 4 ==> t[k] == levels[CfaPattern(bayer)[k]]
    ensures LevelsFromPattern(bayer, t) == Ok(levels)
  {
    var g := levels[1];
    assert CArith.CDiv(g + g, 2) == g;
    assert [levels[0], levels[1], levels[2]] == levels;
    var p := CfaPattern(bayer);
    assert t[0] == levels[p[0]] && t[1] == levels[p[1]] && t[2] == levels[p[2]] && t[3] == levels[p[3]];
    match bayer
    case RGGB => assert LevelsFromPattern(bayer, t) == Levels(levels[0], g, g, levels[2]);
    case BGGR => assert LevelsFromPattern(bayer, t) == Levels(levels[0], g, g, levels[2]);
    case GRBG => assert LevelsFromPattern(bayer, t) == Levels(levels[0], g, g, levels[2]);
    case GBRG => assert LevelsFromPattern(bayer, t) == Levels(levels[0], g, g, levels[2]);
  }

  /**
   * With the missing `break` added, the BlackLevel and BlackLevelRepeatDim
   * entries saveDNG writes load back to the same three levels, for all four
   * Bayer arrangements.
   */
  lemma BlackLevelRoundTrip(bayer: BayerPattern, levels: seq<int>, raw: map<int, TV.Value>)
    requires bayer != NotBayer && |levels| == 3
    requires forall k :: 0 <= k < 3 ==> 0 <= levels[k] < UINT16_MOD
    requires TAG_BLACK_LEVEL_REPEAT_DIM in raw && raw[TAG_BLACK_LEVEL_REPEAT_DIM] == TV.IntVectorValue([2, 2])
    requires TAG_BLACK_LEVEL in raw && raw[TAG_BLACK_LEVEL] == TV.IntVectorValue(BlackLevelPattern(SaveWithBreak, bayer, levels).value)
    ensures LoadBlackLevels(bayer, raw) == Ok(levels)
  {
    LevelsOfPattern(bayer, levels, BlackLevelPattern(SaveWithBreak, bayer, levels).value);
  }

  /**
   * As written, saving a GBRG frame writes no black level at all (the save
   * stops in the error branch), while with the `break` the same levels
   * survive the round trip.
   */
  lemma GbrgSaveFallsThrough(levels: seq<int>, raw: map<int, TV.Value>)
    requires |levels| == 3 && forall k :: 0 <= k < 3 ==> 0 <= levels[k] < UINT16_MOD
    requires TAG_BLACK_LEVEL_REPEAT_DIM in raw && raw[TAG_BLACK_LEVEL_REPEAT_DIM] == TV.IntVectorValue([2, 2])
    requires TAG_BLACK_LEVEL in raw && raw[TAG_BLACK_LEVEL] == TV.IntVectorValue([levels[1], levels[2], levels[0], levels[1]])
    ensures BlackLevelPattern(SaveAsWritten, GBRG, levels) == None
    ensures BlackLevelPattern(SaveWithBreak, GBRG, levels) == Some([levels[1], levels[2], levels[0], levels[1]])
    ensures LoadBlackLevels(GBRG, raw) == Ok(levels)
  {
    BlackLevelRoundTrip(GBRG, levels, raw);
  }

  /** minRawValue: the smallest of the three black levels. */
  function MinRawValue(levels: seq<int>): (m: int)
    requires |levels| == 3
    ensures m in levels && forall k :: 0 <= k < 3 ==> m <= levels[k]
  {
    CArith.Min(levels[0], CArith.Min(levels[1], levels[2]))
  }

  /** The white level: 65535 without a WhiteLevel entry, else its int truncated to `uint16_t`. */
  function WhiteLevel(raw: map<int, TV.Value>): (w: int)
    ensures 0 <= w < UINT16_MOD
    ensures TAG_WHITE_LEVEL !in raw ==> w == UINT16_MOD - 1
    ensures TAG_WHITE_LEVEL in raw && raw[TAG_WHITE_LEVEL].IntValue? && 0 <= raw[TAG_WHITE_LEVEL].i < UINT16_MOD ==>
      w == raw[TAG_WHITE_LEVEL].i
  {
    if TAG_WHITE_LEVEL !in raw then UINT16_MOD - 1 else Wrap16(TV.IntOf(raw[TAG_WHITE_LEVEL]))
  }

  // ----- Directory 0: orientation, calibration, names -----

  /** The orientation must be present and top-left. */
  function CheckOrientation(ifd0: map<int, TV.Value>): (r: Result<(), LoadError>)
    ensures r.Ok? <==> TAG_ORIENTATION in ifd0 && TV.IntOf(ifd0[TAG_ORIENTATION]) == ORIENTATION_TOP_LEFT
    ensures TAG_ORIENTATION !in ifd0 ==> r == Err(NoOrientation)
  {
    if TAG_ORIENTATION !in ifd0 then Err(NoOrientation)
    else if TV.IntOf(ifd0[TAG_ORIENTATION]) != ORIENTATION_TOP_LEFT then Err(OrientationUnsupported)
    else Ok(())
  }

  /**
   * A calibration illuminant code as loadDNG indexes the temperature table:
   * the int read as `unsigned int`, then clamped to the last entry.
   */
  function IlluminantIndex(v: TV.Value): (i: int)
    ensures 0 <= i < |ILLUMINANT_TEMPERATURES|
    ensures 0 <= TV.IntOf(v) < |ILLUMINANT_TEMPERATURES| ==> i == TV.IntOf(v)
    ensures TV.IsInt32(TV.IntOf(v)) && !(0 <= TV.IntOf(v) < |ILLUMINANT_TEMPERATURES|) ==> i == |ILLUMINANT_TEMPERATURES| - 1
  {
    var u := TV.IntOf(v) % 0x1_0000_0000;
    if u >= |ILLUMINANT_TEMPERATURES| then |ILLUMINANT_TEMPERATURES| - 1 else u
  }

  /** How many calibration illuminants there are and their temperatures; -1 for a missing second one. */
  datatype Calibration = Calibration(count: int, temperature1: int, temperature2: int)

  /**
   * The calibration of directory 0: the first illuminant (code 0 when
   * missing) and its colour matrix, which must be present; a second
   * illuminant when its entry is there, which then needs its own matrix.
   * A matrix of fewer than nine numbers is read past its end.
   */
  function LoadCalibration(ifd0: map<int, TV.Value>): (r: Result<Calibration, LoadError>)
    ensures TAG_COLOR_MATRIX_1 !in ifd0 ==> r == Err(NoColorMatrix)
    ensures r.Ok? ==> r.value.temperature1 in ILLUMINANT_TEMPERATURES
    ensures r.Ok? ==> (r.value.count == 2 <==> TAG_CALIBRATION_ILLUMINANT_2 in ifd0)
    ensures r.Ok? && r.value.count != 2 ==> r.value.count == 1 && r.value.temperature2 == -1
    ensures r.Ok? && r.value.count == 2 ==> r.value.temperature2 in ILLUMINANT_TEMPERATURES
    ensures (&& TAG_CALIBRATION_ILLUMINANT_2 in ifd0 && TAG_COLOR_MATRIX_1 in ifd0
             && |TV.DoublesOf(ifd0[TAG_COLOR_MATRIX_1])| >= 9 && TAG_COLOR_MATRIX_2 !in ifd0) ==> r == Err(NoSecondColorMatrix)
  {
    var index1 := if TAG_CALIBRATION_ILLUMINANT_1 in ifd0 then IlluminantIndex(ifd0[TAG_CALIBRATION_ILLUMINANT_1]) else 0;
    if TAG_COLOR_MATRIX_1 !in ifd0 then Err(NoColorMatrix)
    else if |TV.DoublesOf(ifd0[TAG_COLOR_MATRIX_1])| < 9 then Err(Undefined)
    else if TAG_CALIBRATION_ILLUMINANT_2 !in ifd0 then Ok(Calibration(1, ILLUMINANT_TEMPERATURES[index1], -1))
    else
      var index2 := IlluminantIndex(ifd0[TAG_CALIBRATION_ILLUMINANT_2]);
      if TAG_COLOR_MATRIX_2 !in ifd0 then Err(NoSecondColorMatrix)
      else if |TV.DoublesOf(ifd0[TAG_COLOR_MATRIX_2])| < 9 then Err(Undefined)
      else Ok(Calibration(2, ILLUMINANT_TEMPERATURES[index1], ILLUMINANT_TEMPERATURES[index2]))
  }

  /** The camera's make or model: "Unknown" when the entry is missing. */
  function CameraName(ifd0: map<int, TV.Value>, tag: int): (t: TV.Text)
    ensures tag !in ifd0 ==> t == "Unknown"
    ensures tag in ifd0 && ifd0[tag].StringValue? ==> t == ifd0[tag].s
  {
    if tag in ifd0 then TV.TextOf(ifd0[tag]) else "Unknown"
  }

  // ----- The whole load -----

  /** What loadDNG keeps of the metadata before the private data can override it. */
  datatype RawMetadata = RawMetadata(
    bayer: BayerPattern,
    blackLevel: seq<int>,
    minRawValue: int,
    maxRawValue: int,
    calibration: Calibration,
    manufacturer: TV.Text,
    model: TV.Text)

  /**
   * loadDNG's metadata checks in the order they run, given directory 0 and
   * the raw directory: the version gate, the CFA, the black and white
   * levels, the orientation, the calibration and the camera names.
   * Finding the raw directory and reading the image are not part of this.
   */
  function LoadMetadata(gate: Gate, ifd0: map<int, TV.Value>, raw: map<int, TV.Value>): (r: Result<RawMetadata, LoadError>)
    requires TAG_DNG_VERSION in ifd0 ==> TAG_DNG_BACKWARD_VERSION in ifd0
    ensures r.Ok? ==> CheckVersion(gate, ifd0).Ok? && DecodeCfa(raw).Ok? && CheckOrientation(ifd0).Ok?
    ensures r.Ok? ==> r.value.bayer == DecodeCfa(raw).value && LoadBlackLevels(r.value.bayer, raw) == Ok(r.value.blackLevel)
    ensures r.Ok? ==> r.value.minRawValue in r.value.blackLevel && forall k :: 0 <= k < 3 ==> r.value.minRawValue <= r.value.blackLevel[k]
    ensures r.Ok? ==> r.value.maxRawValue == WhiteLevel(raw) && LoadCalibration(ifd0) == Ok(r.value.calibration)
  {
    var version := CheckVersion(gate, ifd0);
    if version.Err? then Err(version.error)
    else
      var bayer := DecodeCfa(raw);
      if bayer.Err? then Err(bayer.error)
      else
        var black := LoadBlackLevels(bayer.value, raw);
        if black.Err? then Err(black.error)
        else
          var white := WhiteLevel(raw);
          var orientation := CheckOrientation(ifd0);
          if orientation.Err? then Err(orientation.error)
          else
            var calibration := LoadCalibration(ifd0);
            if calibration.Err? then Err(calibration.error)
            else
              Ok(RawMetadata(bayer.value, black.value, MinRawValue(black.value), white, calibration.value,
                             CameraName(ifd0, TAG_MAKE), CameraName(ifd0, TAG_MODEL)))
  }

  // ----- What saveDNG writes -----

  /**
   * The directory-0 entries saveDNG writes that loadDNG reads, as the TIFF
   * layer hands them back: the versions, the names, the two calibration
   * illuminants (standard light A and D65) with their matrices, and the
   * top-left orientation.
   */
  function SavedIfd0(make: TV.Text, model: TV.Text, matrix1: seq<TV.Word64>, matrix2: seq<TV.Word64>): (ifd0: map<int, TV.Value>)
    ensures TAG_DNG_VERSION in ifd0 && TAG_DNG_BACKWARD_VERSION in ifd0 && TAG_ORIENTATION in ifd0
    ensures ifd0[TAG_DNG_BACKWARD_VERSION] == TV.StringValue(VersionText(OLDEST_SUPPORTED_VERSION))
    ensures TAG_MAKE in ifd0 && ifd0[TAG_MAKE] == TV.StringValue(make)
    ensures TAG_MODEL in ifd0 && ifd0[TAG_MODEL] == TV.StringValue(model)
    ensures TAG_CALIBRATION_ILLUMINANT_1 in ifd0 && ifd0[TAG_CALIBRATION_ILLUMINANT_1] == TV.IntValue(ILLUMINANT_STD_A)
    ensures TAG_CALIBRATION_ILLUMINANT_2 in ifd0 && ifd0[TAG_CALIBRATION_ILLUMINANT_2] == TV.IntValue(ILLUMINANT_D65)
    ensures TAG_COLOR_MATRIX_1 in ifd0 && ifd0[TAG_COLOR_MATRIX_1] == TV.DoubleVectorValue(matrix1)
    ensures TAG_COLOR_MATRIX_2 in ifd0 && ifd0[TAG_COLOR_MATRIX_2] == TV.DoubleVectorValue(matrix2)
    ensures ifd0[TAG_ORIENTATION] == TV.IntValue(ORIENTATION_TOP_LEFT)
  {
    map[TAG_DNG_VERSION := TV.StringValue(VersionText(UNDERSTOOD_VERSION)),
        TAG_DNG_BACKWARD_VERSION := TV.StringValue(VersionText(OLDEST_SUPPORTED_VERSION)),
        TAG_MAKE := TV.StringValue(make),
        TAG_MODEL := TV.StringValue(model),
        TAG_CALIBRATION_ILLUMINANT_1 := TV.IntValue(ILLUMINANT_STD_A),
        TAG_COLOR_MATRIX_1 := TV.DoubleVectorValue(matrix1),
        TAG_CALIBRATION_ILLUMINANT_2 := TV.IntValue(ILLUMINANT_D65),
        TAG_COLOR_MATRIX_2 := TV.DoubleVectorValue(matrix2),
        TAG_ORIENTATION := TV.IntValue(ORIENTATION_TOP_LEFT)]
  }

  /**
   * The raw-directory entries saveDNG writes: 2x2 CFA dimensions, the CFA
   * pattern, the black-level pattern with 2x2 repeat dimensions and the
   * white level; nothing when the Bayer switch ends in its error branch.
   */
  function SavedRaw(save: SaveBranch, bayer: BayerPattern, levels: seq<int>, maxRawValue: int): (raw: Option<map<int, TV.Value>>)
    requires |levels| == 3
    ensures raw.Some? <==> BlackLevelPattern(save, bayer, levels).Some?
    ensures raw.Some? ==>
      && TAG_CFA_REPEAT_PATTERN_DIM in raw.value && raw.value[TAG_CFA_REPEAT_PATTERN_DIM] == TV.IntVectorValue([2, 2])
      && TAG_CFA_PATTERN in raw.value && raw.value[TAG_CFA_PATTERN] == TV.StringValue(CfaText(bayer))
      && TAG_BLACK_LEVEL in raw.value && raw.value[TAG_BLACK_LEVEL] == TV.IntVectorValue(BlackLevelPattern(save, bayer, levels).value)
      && TAG_BLACK_LEVEL_REPEAT_DIM in raw.value && raw.value[TAG_BLACK_LEVEL_REPEAT_DIM] == TV.IntVectorValue([2, 2])
      && TAG_WHITE_LEVEL in raw.value && raw.value[TAG_WHITE_LEVEL] == TV.IntValue(maxRawValue)
  {
    var pattern := BlackLevelPattern(save, bayer, levels);
    if pattern.None? then None
    else
      Some(map[TAG_CFA_REPEAT_PATTERN_DIM := TV.IntVectorValue([2, 2]),
               TAG_CFA_PATTERN := TV.StringValue(CfaText(bayer)),
               TAG_BLACK_LEVEL := TV.IntVectorValue(pattern.value),
               TAG_BLACK_LEVEL_REPEAT_DIM := TV.IntVectorValue([2, 2]),
               TAG_WHITE_LEVEL := TV.IntValue(maxRawValue)])
  }

  /** What loadDNG reads from the saved directory 0. */
  lemma SavedIfd0Loads(gate: Gate, make: TV.Text, model: TV.Text, matrix1: seq<TV.Word64>, matrix2: seq<TV.Word64>)
    requires |matrix1| >= 9 && |matrix2| >= 9
    ensures CheckVersion(gate, SavedIfd0(make, model, matrix1, matrix2)) == Ok(OLDEST_SUPPORTED_VERSION)
    ensures CheckOrientation(SavedIfd0(make, model, matrix1, matrix2)) == Ok(())
    ensures LoadCalibration(SavedIfd0(make, model, matrix1, matrix2)) == Ok(Calibration(2, 2856, 6504))
    ensures CameraName(SavedIfd0(make, model, matrix1, matrix2), TAG_MAKE) == make
    ensures CameraName(SavedIfd0(make, model, matrix1, matrix2), TAG_MODEL) == model
  {
    var ifd0 := SavedIfd0(make, model, matrix1, matrix2);
    assert !TooNew(gate, VersionBytes(TV.TextOf(ifd0[TAG_DNG_BACKWARD_VERSION]))) by {
      VersionGateBounds(gate, OLDEST_SUPPORTED_VERSION);
    }
    assert IlluminantIndex(ifd0[TAG_CALIBRATION_ILLUMINANT_1]) == 17;
    assert IlluminantIndex(ifd0[TAG_CALIBRATION_ILLUMINANT_2]) == 21;
    assert TV.DoublesOf(ifd0[TAG_COLOR_MATRIX_1]) == matrix1 && TV.DoublesOf(ifd0[TAG_COLOR_MATRIX_2]) == matrix2;
    assert ILLUMINANT_TEMPERATURES[17] == 2856 && ILLUMINANT_TEMPERATURES[21] == 6504;
  }

  /** What loadDNG reads from the saved raw directory. */
  lemma SavedRawLoads(bayer: BayerPattern, levels: seq<int>, maxRawValue: int)
    requires bayer != NotBayer && |levels| == 3 && forall k :: 0 <= k < 3 ==> 0 <= levels[k] < UINT16_MOD
    requires 0 <= maxRawValue < UINT16_MOD
    ensures SavedRaw(SaveWithBreak, bayer, levels, maxRawValue).Some?
    ensures DecodeCfa(SavedRaw(SaveWithBreak, bayer, levels, maxRawValue).value) == Ok(bayer)
    ensures LoadBlackLevels(bayer, SavedRaw(SaveWithBreak, bayer, levels, maxRawValue).value) == Ok(levels)
    ensures WhiteLevel(SavedRaw(SaveWithBreak, bayer, levels, maxRawValue).value) == maxRawValue
  {
    var raw := SavedRaw(SaveWithBreak, bayer, levels, maxRawValue).value;
    assert raw[TAG_CFA_REPEAT_PATTERN_DIM] == TV.IntVectorValue([2, 2]);
    assert [2, 2][..2] == [2, 2];
    CfaDecodes(raw, bayer);
    BlackLevelRoundTrip(bayer, levels, raw);
  }

  /**
   * The metadata saveDNG writes (with the GBRG `break` added) loads back
   * under either gate: the same Bayer arrangement and black levels, the
   * white level as maxRawValue, minRawValue the smallest black level, two
   * illuminants at 2856 K and 6504 K, and the same names.
   */
  lemma SavedMetadataLoads(gate: Gate, bayer: BayerPattern, levels: seq<int>, maxRawValue: int,
                           make: TV.Text, model: TV.Text, matrix1: seq<TV.Word64>, matrix2: seq<TV.Word64>)
    requires bayer != NotBayer && |levels| == 3 && forall k :: 0 <= k < 3 ==> 0 <= levels[k] < UINT16_MOD
    requires 0 <= maxRawValue < UINT16_MOD && |matrix1| >= 9 && |matrix2| >= 9
    ensures SavedRaw(SaveWithBreak, bayer, levels, maxRawValue).Some?
    ensures LoadMetadata(gate, SavedIfd0(make, model, matrix1, matrix2), SavedRaw(SaveWithBreak, bayer, levels, maxRawValue).value)
         == Ok(RawMetadata(bayer, levels, MinRawValue(levels), maxRawValue, Calibration(2, 2856, 6504), make, model))
  {
    SavedIfd0Loads(gate, make, model, matrix1, matrix2);
    SavedRawLoads(bayer, levels, maxRawValue);
  }
}

=== FILE: dng_private_data.dfy ===
/**
 * FCam's private data in a DNG file (external/FCam/processing/DNG.cpp):
 * `saveDNG` writes the preamble "stanford.fcam.privatedata", a NUL, the
 * blob of the private-data version and then, for version 2, the blob of
 * the backward version followed by key and value blobs for the frame
 * fields and the frame's tags. `loadDNG` checks the preamble and the
 * versions; the version 2 reader puts every key and value into the
 * frame's tag map and then moves the known frame fields out of it.
 */
module DngPrivateData {
  import TV = TagValues

  const PREAMBLE: TV.Text := "stanford.fcam.privatedata"
  const PRIVATE_DATA_VERSION := 2
  const BACKWARD_PRIVATE_DATA_VERSION := 2

  // ----- The preamble -----

  /** `find((char)0)`: the position of the first NUL, or -1 (npos as an `int`). */
  function NulIndex(s: TV.Text): (i: int)
    ensures -1 <= i < |s|
    ensures i >= 0 ==> s[i] == '\0' && forall k :: 0 <= k < i ==> s[k] != '\0'
    ensures i == -1 ==> forall k :: 0 <= k < |s| ==> s[k] != '\0'
    decreases |s|
  {
    if |s| == 0 then -1
    else if s[0] == '\0' then 0
    else
      var j := NulIndex(s[1..]);
      if j < 0 then -1 else j + 1
  }

  /**
   * The preamble, up to the first NUL, and the data after it. Without a
   * NUL the preamble is the whole string, and so is the data, since the
   * start `preambleEnd + 1` is then 0.
   */
  function SplitPreamble(s: TV.Text): (r: (TV.Text, TV.Text))
    ensures forall k :: 0 <= k < |r.0| ==> r.0[k] != '\0'
    ensures (r.0 == s && r.1 == s) || s == r.0 + ['\0'] + r.1
  {
    var i := NulIndex(s);
    if i < 0 then (s, s)
    else
      NulSplits(s, i);
      (s[..i], s[i + 1..])
  }

  /** Cut at its first NUL, a string is the NUL-free part before it, the NUL and the rest. */
  lemma NulSplits(s: TV.Text, i: int)
    requires 0 <= i < |s| && s[i] == '\0' && forall k :: 0 <= k < i ==> s[k] != '\0'
    ensures forall k :: 0 <= k < |s[..i]| ==> s[..i][k] != '\0'
    ensures s == s[..i] + ['\0'] + s[i + 1..]
  {
    assert s == s[..i] + ['\0'] + s[i + 1..];
  }

  /** A preamble without NULs followed by a NUL splits off exactly. */
  lemma SplitsAtNul(p: TV.Text, rest: TV.Text)
    requires forall k :: 0 <= k < |p| ==> p[k] != '\0'
    ensures SplitPreamble(p + ['\0'] + rest) == (p, rest)
  {
    var s := p + ['\0'] + rest;
    var i := NulIndex(s);
    assert forall k :: 0 <= k < |p| ==> s[k] == p[k];
    assert s[|p|] == '\0';
    assert i == |p|;
    assert s[..i] == p && s[i + 1..] == rest;
  }

  // ----- The stream -----

  /** The private-data stream: the chars not read yet, and whether it is still good (neither its fail nor its eof bit set). */
  datatype Stream = Stream(rest: TV.Text, good: bool)

  /** What one `>>` into a tag makes of the stream. */
  datatype Got =
    | Got(value: TV.Value, st: Stream)
      /** The next char starts the text form, whose reading from a stream is not part of this model. */
    | TextForm

  /** The chars on which `operator>>` takes its text branches. */
  predicate StartsText(c: char)
  {
    c == '-' || '0' <= c <= '9' || c == 'N' || c == '(' || c == '"' || c == '['
  }

  /**
   * `in >> t` on the private-data stream, for a tag holding `t`. Once the
   * stream has failed, or at its end, `peek` gives EOF and the tag becomes
   * Null, with the stream no longer good. A 'b' starts a blob, which
   * leaves the stream good exactly when its reads stay inside the data. On
   * any other char the reader posts a parse error and returns without
   * reading: the tag and the stream stay as they were, and the stream is
   * still good.
   */
  function Get(st: Stream, t: TV.Value): (g: Got)
    ensures !st.good || st.rest == [] ==> g == Got(TV.NullValue, Stream(st.rest, false))
    ensures g.TextForm? <==> st.good && st.rest != [] && StartsText(st.rest[0])
    ensures g.Got? && g.st.good ==> st.good && |g.st.rest| <= |st.rest|
    ensures g.Got? && g.st.good && |g.st.rest| == |st.rest| ==> g == Got(t, st)
    ensures g.Got? && g.st.good && |g.st.rest| < |st.rest| ==> st.rest[0] == 'b' && TV.BlobFits(st.rest[1..])
  {
    if !st.good || st.rest == [] then Got(TV.NullValue, Stream(st.rest, false))
    else if st.rest[0] == 'b' then
      var o := TV.ReadBlob(st.rest[1..], t);
      Got(o.value, Stream(o.rest, TV.BlobFits(st.rest[1..])))
    else if StartsText(st.rest[0]) then TextForm
    else Got(t, st)
  }

  /** A well-formed value's blob is read back whole, whatever the tag held, and the stream stays good. */
  lemma {:induction false} GetBlob(v: TV.Value, t: TV.Value, rest: TV.Text)
    requires TV.WellFormed(v)
    ensures Get(Stream(TV.Blob(v) + rest, true), t) == Got(v, Stream(TV.Trailer(v) + rest, true))
  {
    var s := TV.Blob(v) + rest;
    assert s[0] == 'b' by { assert TV.Blob(v)[..4][0] == 'b'; }
    assert s[1..] == TV.Blob(v)[1..] + rest;
    TV.BlobRoundTrip(v, t, rest);
    TV.BlobFitsBack(v, rest);
    GetAtBlob(s, t);
  }

  /** The same for the exactly sized blob: every well-formed value comes back, and nothing is left over. */
  lemma {:induction false} GetBlobFixed(v: TV.Value, t: TV.Value, rest: TV.Text)
    requires TV.WellFormed(v)
    ensures Get(Stream(TV.BlobFixed(v) + rest, true), t) == Got(v, Stream(rest, true))
  {
    var s := TV.BlobFixed(v) + rest;
    assert s[0] == 'b' by { assert TV.BlobFixed(v)[..4][0] == 'b'; }
    assert s[1..] == TV.BlobFixed(v)[1..] + rest;
    TV.BlobFixedRoundTrip(v, t, rest);
    GetAtBlob(s, t);
  }

  /** A 'b' starts a blob: the tag takes the value it holds, and the stream stays good when the blob fits. */
  lemma GetAtBlob(s: TV.Text, t: TV.Value)
    requires s != [] && s[0] == 'b' && TV.BlobFits(s[1..])
    ensures Get(Stream(s, true), t) == Got(TV.ReadBlob(s[1..], t).value, Stream(TV.ReadBlob(s[1..], t).rest, true))
  {
  }

  /** What loadDNG does with the private data. */
  datatype PrivateData =
    | PreambleMismatch(preamble: TV.Text)
    | VersionOne(st: Stream)
    | VersionTwo(st: Stream)
    | VersionTooNew(version: int, backward: int)
      /** A version in the text form, whose reading is not part of this model. */
    | VersionInText

  /**
   * The private-data dispatch of loadDNG: a foreign preamble is ignored
   * with a warning; version 1 goes to the version 1 reader; otherwise the
   * backward version must be 2 for the version 2 reader, and anything else
   * is ignored with a warning. Both readers go on from the stream as the
   * version reads left it.
   */
  function Dispatch(s: TV.Text): (r: PrivateData)
    ensures r.PreambleMismatch? <==> SplitPreamble(s).0 != PREAMBLE
    ensures r.VersionOne? <==>
      && SplitPreamble(s).0 == PREAMBLE
      && Get(Stream(SplitPreamble(s).1, true), TV.NullValue).Got?
      && TV.IntOf(Get(Stream(SplitPreamble(s).1, true), TV.NullValue).value) == 1
    ensures r.VersionTwo? ==>
      && SplitPreamble(s).0 == PREAMBLE
      && Get(Stream(SplitPreamble(s).1, true), TV.NullValue).Got?
      && TV.IntOf(Get(Stream(SplitPreamble(s).1, true), TV.NullValue).value) != 1
      && Get(Get(Stream(SplitPreamble(s).1, true), TV.NullValue).st, TV.NullValue) == Got(TV.IntValue(BACKWARD_PRIVATE_DATA_VERSION), r.st)
  {
    var split := SplitPreamble(s);
    if split.0 != PREAMBLE then PreambleMismatch(split.0)
    else
      match Get(Stream(split.1, true), TV.NullValue)
      case TextForm => VersionInText
      case Got(version, st) =>
        if TV.IntOf(version) == 1 then VersionOne(st)
        else
          match Get(st, TV.NullValue)
          case TextForm => VersionInText
          case Got(backward, st2) =>
            if TV.IntOf(backward) == BACKWARD_PRIVATE_DATA_VERSION then
              assert backward == TV.IntValue(BACKWARD_PRIVATE_DATA_VERSION);
              VersionTwo(st2)
            else VersionTooNew(TV.IntOf(version), TV.IntOf(backward))
  }

  // ----- What saveDNG writes -----

  /** The key and value sequence of a list of entries: the key as a string value, then the value. */
  function Flatten(entries: seq<(TV.Text, TV.Value)>): (vs: seq<TV.Value>)
    ensures |vs| == 2 * |entries|
  {
    if entries == [] then [] else [TV.StringValue(entries[0].0), entries[0].1] + Flatten(entries[1..])
  }

  predicate AllWellFormed(vs: seq<TV.Value>)
  {
    forall i :: 0 <= i < |vs| ==> TV.WellFormed(vs[i])
  }

  /** Values whose blobs, as written, read back alone: well-formed, not Null (whose blob is cut short) and not a double vector (whose blob leaves stray NULs). */
  predicate Storable(vs: seq<TV.Value>)
  {
    forall i :: 0 <= i < |vs| ==> TV.WellFormed(vs[i]) && vs[i] != TV.NullValue && !vs[i].DoubleVectorValue?
  }

  /** The blobs `toBlob` writes for the values, one after another. */
  function Blobs(vs: seq<TV.Value>): TV.Text
    requires AllWellFormed(vs)
  {
    if vs == [] then [] else TV.BlobAsWritten(vs[0]) + Blobs(vs[1..])
  }

  /** The exactly sized blobs of the values, one after another. */
  function BlobsFixed(vs: seq<TV.Value>): TV.Text
    requires AllWellFormed(vs)
  {
    if vs == [] then [] else TV.BlobFixed(vs[0]) + BlobsFixed(vs[1..])
  }

  /** The private data version 2 writes for the given entries (frame fields first, then the frame's tags). */
  function SavedPrivateData(entries: seq<(TV.Text, TV.Value)>): TV.Text
    requires AllWellFormed(Flatten(entries))
  {
    var vs := [TV.IntValue(PRIVATE_DATA_VERSION), TV.IntValue(BACKWARD_PRIVATE_DATA_VERSION)] + Flatten(entries);
    assert AllWellFormed(vs);
    PREAMBLE + ['\0'] + Blobs(vs)
  }

  /** The same with the exactly sized blobs. */
  function SavedPrivateDataFixed(entries: seq<(TV.Text, TV.Value)>): TV.Text
    requires AllWellFormed(Flatten(entries))
  {
    var vs := [TV.IntValue(PRIVATE_DATA_VERSION), TV.IntValue(BACKWARD_PRIVATE_DATA_VERSION)] + Flatten(entries);
    assert AllWellFormed(vs);
    PREAMBLE + ['\0'] + BlobsFixed(vs)
  }

  lemma PreambleHasNoNul()
    ensures forall k :: 0 <= k < |PREAMBLE| ==> PREAMBLE[k] != '\0'
  {
  }

  /** The two version blobs come first, and the blobs of the entries after them. */
  lemma {:induction false} VersionBlobsFirst(entries: seq<(TV.Text, TV.Value)>)
    requires AllWellFormed(Flatten(entries))
    ensures SplitPreamble(SavedPrivateData(entries)) == (PREAMBLE, TV.Blob(TV.IntValue(2)) + (TV.Blob(TV.IntValue(2)) + Blobs(Flatten(entries))))
  {
    var two := TV.IntValue(2);
    var vs := [two, two] + Flatten(entries);
    assert AllWellFormed(vs);
    assert vs[1..] == [two] + Flatten(entries) && vs[1..][1..] == Flatten(entries);
    assert Blobs(vs) == TV.Blob(two) + (TV.Blob(two) + Blobs(Flatten(entries)));
    PreambleHasNoNul();
    SplitsAtNul(PREAMBLE, Blobs(vs));
  }

  /** The same for the exactly sized blobs. */
  lemma {:induction false} VersionBlobsFixedFirst(entries: seq<(TV.Text, TV.Value)>)
    requires AllWellFormed(Flatten(entries))
    ensures SplitPreamble(SavedPrivateDataFixed(entries)) == (PREAMBLE, TV.Blob(TV.IntValue(2)) + (TV.Blob(TV.IntValue(2)) + BlobsFixed(Flatten(entries))))
  {
    var two := TV.IntValue(2);
    var vs := [two, two] + Flatten(entries);
    assert AllWellFormed(vs);
    assert vs[1..] == [two] + Flatten(entries) && vs[1..][1..] == Flatten(entries);
    assert TV.BlobFixed(two) == TV.Blob(two);
    assert BlobsFixed(vs) == TV.Blob(two) + (TV.Blob(two) + BlobsFixed(Flatten(entries)));
    PreambleHasNoNul();
    SplitsAtNul(PREAMBLE, BlobsFixed(vs));
  }

  /** Private data whose preamble is FCam's and whose two version blobs both hold 2 goes to the version 2 reader, which starts right after them. */
  lemma {:induction false} VersionTwoAfter(s: TV.Text, rest: TV.Text)
    requires SplitPreamble(s) == (PREAMBLE, TV.Blob(TV.IntValue(2)) + (TV.Blob(TV.IntValue(2)) + rest))
    ensures Dispatch(s) == VersionTwo(Stream(rest, true))
  {
    var two := TV.IntValue(2);
    var after := TV.Blob(two) + rest;
    GetBlob(two, TV.NullValue, after);
    GetBlob(two, TV.NullValue, rest);
    assert TV.Trailer(two) + after == after && TV.Trailer(two) + rest == rest;
    assert Get(Stream(TV.Blob(two) + after, true), TV.NullValue) == Got(two, Stream(after, true));
    assert Get(Stream(after, true), TV.NullValue) == Got(two, Stream(rest, true));
  }

  /** The private data saveDNG writes goes to the version 2 reader, which starts at the blobs of the entries. */
  lemma {:induction false} SavedPrivateDataDispatches(entries: seq<(TV.Text, TV.Value)>)
    requires AllWellFormed(Flatten(entries))
    ensures Dispatch(SavedPrivateData(entries)) == VersionTwo(Stream(Blobs(Flatten(entries)), true))
  {
    VersionBlobsFirst(entries);
    VersionTwoAfter(SavedPrivateData(entries), Blobs(Flatten(entries)));
  }

  /** The same for the exactly sized blobs. */
  lemma {:induction false} SavedPrivateDataFixedDispatches(entries: seq<(TV.Text, TV.Value)>)
    requires AllWellFormed(Flatten(entries))
    ensures Dispatch(SavedPrivateDataFixed(entries)) == VersionTwo(Stream(BlobsFixed(Flatten(entries)), true))
  {
    VersionBlobsFixedFirst(entries);
    VersionTwoAfter(SavedPrivateDataFixed(entries), BlobsFixed(Flatten(entries)));
  }

  // ----- Version 2: the reading loop -----

  /** How the reading loop ends: at the end of good reads, at a text form, or not within the fuel. */
  datatype Loop = Finished(tags: map<TV.Text, TV.Value>) | StoppedAtText | OutOfFuel

  /**
   * `while ((privateData >> key).good()) { privateData >> val;
   * _f->tags[key] = val; }`, with `key` and `val` kept from one round to
   * the next, for at most `fuel` further rounds. The key goes in through
   * its string cast, so a key that is not a string is the empty key; a
   * value read at the end of the stream is Null.
   */
  function ReadLoop(fuel: nat, tags: map<TV.Text, TV.Value>, key: TV.Value, val: TV.Value, st: Stream): (r: Loop)
    ensures r.Finished? ==> tags.Keys <= r.tags.Keys
    decreases fuel
  {
    match Get(st, key)
    case TextForm => StoppedAtText
    case Got(k, st1) =>
      if !st1.good then Finished(tags)
      else
        match Get(st1, val)
        case TextForm => StoppedAtText
        case Got(v, st2) =>
          if fuel == 0 then OutOfFuel
          else ReadLoop(fuel - 1, tags[TV.TextOf(k) := v], k, v, st2)
  }

  /** One round of the loop: a key read that leaves the stream good, then its value, stored under the key's text. */
  lemma RoundStep(fuel: nat, tags: map<TV.Text, TV.Value>, key: TV.Value, val: TV.Value, st: Stream, k: TV.Value, st1: Stream, v: TV.Value, st2: Stream)
    requires fuel > 0 && Get(st, key) == Got(k, st1) && st1.good && Get(st1, val) == Got(v, st2)
    ensures ReadLoop(fuel, tags, key, val, st) == ReadLoop(fuel - 1, tags[TV.TextOf(k) := v], k, v, st2)
  {
  }

  /** The loop depends on its fuel only through its value. */
  lemma SameFuel(fuel: nat, fuel': nat, tags: map<TV.Text, TV.Value>, key: TV.Value, val: TV.Value, st: Stream)
    requires fuel == fuel'
    ensures ReadLoop(fuel, tags, key, val, st) == ReadLoop(fuel', tags, key, val, st)
  {
  }

  /** At the end of the data the key's read fails and the loop finishes with the tags it has. */
  lemma LoopAtEnd(fuel: nat, tags: map<TV.Text, TV.Value>, key: TV.Value, val: TV.Value)
    ensures ReadLoop(fuel, tags, key, val, Stream([], true)) == Finished(tags)
  {
    assert Get(Stream([], true), key) == Got(TV.NullValue, Stream([], false));
  }

  /** A key blob at the end of the data: the key is stored with a Null value. */
  lemma {:induction false} TrailingKeyGetsNull(fuel: nat, tags: map<TV.Text, TV.Value>, key: TV.Value, val: TV.Value, k: TV.Text)
    requires TV.IsCount(|k|)
    ensures ReadLoop(fuel + 1, tags, key, val, Stream(TV.Blob(TV.StringValue(k)), true)) == Finished(tags[k := TV.NullValue])
  {
    GetBlob(TV.StringValue(k), key, []);
    assert TV.Blob(TV.StringValue(k)) + [] == TV.Blob(TV.StringValue(k));
  }

  /** A key and its value, written as blobs, are read in one round. */
  lemma {:induction false} OnePair(fuel: nat, tags: map<TV.Text, TV.Value>, key: TV.Value, val: TV.Value, k: TV.Text, v: TV.Value, rest: TV.Text)
    requires fuel > 0 && TV.IsCount(|k|) && TV.WellFormed(v)
    ensures ReadLoop(fuel, tags, key, val, Stream(TV.Blob(TV.StringValue(k)) + (TV.Blob(v) + rest), true))
         == ReadLoop(fuel - 1, tags[k := v], TV.StringValue(k), v, Stream(TV.Trailer(v) + rest, true))
  {
    var st := Stream(TV.Blob(TV.StringValue(k)) + (TV.Blob(v) + rest), true);
    var st1 := Stream(TV.Blob(v) + rest, true);
    GetBlob(TV.StringValue(k), key, TV.Blob(v) + rest);
    GetBlob(v, val, rest);
    RoundStep(fuel, tags, key, val, st, TV.StringValue(k), st1, v, Stream(TV.Trailer(v) + rest, true));
  }

  /** The same for the exactly sized blobs. */
  lemma {:induction false} OnePairFixed(fuel: nat, tags: map<TV.Text, TV.Value>, key: TV.Value, val: TV.Value, k: TV.Text, v: TV.Value, rest: TV.Text)
    requires fuel > 0 && TV.IsCount(|k|) && TV.WellFormed(v)
    ensures ReadLoop(fuel, tags, key, val, Stream(TV.BlobFixed(TV.StringValue(k)) + (TV.BlobFixed(v) + rest), true))
         == ReadLoop(fuel - 1, tags[k := v], TV.StringValue(k), v, Stream(rest, true))
  {
    var st := Stream(TV.BlobFixed(TV.StringValue(k)) + (TV.BlobFixed(v) + rest), true);
    var st1 := Stream(TV.BlobFixed(v) + rest, true);
    GetBlobFixed(TV.StringValue(k), key, TV.BlobFixed(v) + rest);
    GetBlobFixed(v, val, rest);
    RoundStep(fuel, tags, key, val, st, TV.StringValue(k), st1, v, Stream(rest, true));
  }

  /**
   * A NUL where a key is expected stalls the loop: `>>` takes its error
   * branch without reading, the stream stays good, and the same key and
   * value are stored round after round, so no fuel is enough.
   */
  lemma {:induction false} NulStalls(fuel: nat, tags: map<TV.Text, TV.Value>, key: TV.Value, val: TV.Value, rest: TV.Text)
    requires rest != [] && rest[0] == '\0'
    ensures ReadLoop(fuel, tags, key, val, Stream(rest, true)) == OutOfFuel
    decreases fuel
  {
    var st := Stream(rest, true);
    assert Get(st, key) == Got(key, st);
    assert Get(st, val) == Got(val, st);
    if fuel > 0 {
      NulStalls(fuel - 1, tags[TV.TextOf(key) := val], key, val, rest);
    }
  }

  /** The blobs of a key and value list start with the key's blob and the value's, as written. */
  lemma {:induction false} BlobsCons(entries: seq<(TV.Text, TV.Value)>)
    requires entries != [] && AllWellFormed(Flatten(entries))
    ensures AllWellFormed(Flatten(entries[1..]))
    ensures TV.IsCount(|entries[0].0|) && TV.WellFormed(entries[0].1)
    ensures Flatten(entries) == [TV.StringValue(entries[0].0), entries[0].1] + Flatten(entries[1..])
    ensures entries[0].1 != TV.NullValue ==>
      Blobs(Flatten(entries)) == TV.Blob(TV.StringValue(entries[0].0)) + (TV.Blob(entries[0].1) + Blobs(Flatten(entries[1..])))
    ensures BlobsFixed(Flatten(entries)) == TV.BlobFixed(TV.StringValue(entries[0].0)) + (TV.BlobFixed(entries[0].1) + BlobsFixed(Flatten(entries[1..])))
  {
    var vs := Flatten(entries);
    var tail := Flatten(entries[1..]);
    assert vs == [TV.StringValue(entries[0].0), entries[0].1] + tail;
    assert vs[1..][1..] == tail;
    assert TV.WellFormed(vs[0]) && TV.WellFormed(vs[1]);
    assert forall i :: 0 <= i < |tail| ==> tail[i] == vs[i + 2];
  }

  /** What remains after the first entry of well-formed entries is well-formed too. */
  lemma {:induction false} WellFormedTail(entries: seq<(TV.Text, TV.Value)>)
    requires entries != [] && AllWellFormed(Flatten(entries))
    ensures AllWellFormed(Flatten(entries[1..]))
  {
    BlobsCons(entries);
  }

  /** What remains after the first entry of storable entries is storable too, and the first value is neither Null nor a double vector. */
  lemma {:induction false} StorableTail(entries: seq<(TV.Text, TV.Value)>)
    requires entries != [] && Storable(Flatten(entries))
    ensures Storable(Flatten(entries[1..]))
    ensures entries[0].1 != TV.NullValue && !entries[0].1.DoubleVectorValue?
  {
    var vs := Flatten(entries);
    BlobsCons(entries);
    assert vs[1] == entries[0].1;
    forall i | 0 <= i < |vs| - 2 ensures Flatten(entries[1..])[i] == vs[i + 2] { }
  }

  /** The first round over storable entries' blobs reads the first entry, and the loop goes on at the next one. */
  lemma {:induction false} BlobsRound(fuel: nat, tags: map<TV.Text, TV.Value>, key: TV.Value, val: TV.Value, entries: seq<(TV.Text, TV.Value)>)
    requires fuel > 0 && entries != [] && Storable(Flatten(entries))
    ensures AllWellFormed(Flatten(entries)) && Storable(Flatten(entries[1..]))
    ensures ReadLoop(fuel, tags, key, val, Stream(Blobs(Flatten(entries)), true))
         == ReadLoop(fuel - 1, tags[entries[0].0 := entries[0].1], TV.StringValue(entries[0].0), entries[0].1, Stream(Blobs(Flatten(entries[1..])), true))
  {
    BlobsCons(entries);
    StorableTail(entries);
    var e := entries[0];
    var rest := Blobs(Flatten(entries[1..]));
    OnePair(fuel, tags, key, val, e.0, e.1, rest);
    assert TV.Trailer(e.1) + rest == rest;
  }

  /** The same over the exactly sized blobs of any well-formed entries. */
  lemma {:induction false} BlobsFixedRound(fuel: nat, tags: map<TV.Text, TV.Value>, key: TV.Value, val: TV.Value, entries: seq<(TV.Text, TV.Value)>)
    requires fuel > 0 && entries != [] && AllWellFormed(Flatten(entries))
    ensures AllWellFormed(Flatten(entries[1..]))
    ensures ReadLoop(fuel, tags, key, val, Stream(BlobsFixed(Flatten(entries)), true))
         == ReadLoop(fuel - 1, tags[entries[0].0 := entries[0].1], TV.StringValue(entries[0].0), entries[0].1, Stream(BlobsFixed(Flatten(entries[1..])), true))
  {
    BlobsCons(entries);
    OnePairFixed(fuel, tags, key, val, entries[0].0, entries[0].1, BlobsFixed(Flatten(entries[1..])));
  }

  /** With no entries there is nothing to read: the loop finishes at once. */
  lemma {:induction false} NoBlobs(fuel: nat, tags: map<TV.Text, TV.Value>, key: TV.Value, val: TV.Value, entries: seq<(TV.Text, TV.Value)>)
    requires entries == []
    ensures ReadLoop(fuel, tags, key, val, Stream(Blobs(Flatten(entries)), true)) == Finished(Insert(tags, entries))
    ensures ReadLoop(fuel, tags, key, val, Stream(BlobsFixed(Flatten(entries)), true)) == Finished(Insert(tags, entries))
  {
    assert Blobs(Flatten(entries)) == [] && BlobsFixed(Flatten(entries)) == [];
    LoopAtEnd(fuel, tags, key, val);
  }

  /** Storable entries' blobs, as written, are read in one round each and the loop then finishes. */
  lemma {:induction false} LoopOfBlobs(fuel: nat, tags: map<TV.Text, TV.Value>, key: TV.Value, val: TV.Value, entries: seq<(TV.Text, TV.Value)>)
    requires Storable(Flatten(entries)) && fuel >= |entries|
    ensures AllWellFormed(Flatten(entries))
    ensures ReadLoop(fuel, tags, key, val, Stream(Blobs(Flatten(entries)), true)) == Finished(Insert(tags, entries))
    decreases |entries|
  {
    if entries == [] {
      NoBlobs(fuel, tags, key, val, entries);
    } else {
      StorableTail(entries);
      var fuel', tags', k, v := fuel - 1, tags[entries[0].0 := entries[0].1], entries[0].0, entries[0].1;
      var st := Stream(Blobs(Flatten(entries[1..])), true);
      LoopOfBlobs(fuel', tags', TV.StringValue(k), v, entries[1..]);
      SameFuel(fuel', fuel - 1, tags', TV.StringValue(k), v, st);
      BlobsRound(fuel, tags, key, val, entries);
      assert Insert(tags, entries) == Insert(tags', entries[1..]);
    }
  }

  /** Every well-formed entry's exactly sized blobs are read in one round each and the loop then finishes. */
  lemma {:induction false} LoopOfBlobsFixed(fuel: nat, tags: map<TV.Text, TV.Value>, key: TV.Value, val: TV.Value, entries: seq<(TV.Text, TV.Value)>)
    requires AllWellFormed(Flatten(entries)) && fuel >= |entries|
    ensures ReadLoop(fuel, tags, key, val, Stream(BlobsFixed(Flatten(entries)), true)) == Finished(Insert(tags, entries))
    decreases |entries|
  {
    if entries == [] {
      NoBlobs(fuel, tags, key, val, entries);
    } else {
      WellFormedTail(entries);
      var fuel', tags', k, v := fuel - 1, tags[entries[0].0 := entries[0].1], entries[0].0, entries[0].1;
      var st := Stream(BlobsFixed(Flatten(entries[1..])), true);
      LoopOfBlobsFixed(fuel', tags', TV.StringValue(k), v, entries[1..]);
      SameFuel(fuel', fuel - 1, tags', TV.StringValue(k), v, st);
      BlobsFixedRound(fuel, tags, key, val, entries);
      assert Insert(tags, entries) == Insert(tags', entries[1..]);
    }
  }

  /** With no fuel left, a first round over a key and a value other than Null ends the loop out of fuel. */
  lemma {:induction false} NoFuelRound(tags: map<TV.Text, TV.Value>, key: TV.Value, val: TV.Value, all: seq<(TV.Text, TV.Value)>)
    requires all != [] && AllWellFormed(Flatten(all)) && all[0].1 != TV.NullValue
    ensures ReadLoop(0, tags, key, val, Stream(Blobs(Flatten(all)), true)) == OutOfFuel
  {
    BlobsCons(all);
    var (k, v) := all[0];
    var rest := Blobs(Flatten(all[1..]));
    GetBlob(TV.StringValue(k), key, TV.Blob(v) + rest);
    GetBlob(v, val, rest);
  }

  /** The round over a key and a double vector, as written, leaves the loop at the four NULs after the vector's items, where it stalls. */
  lemma {:induction false} DoubleVectorPairStalls(fuel: nat, tags: map<TV.Text, TV.Value>, key: TV.Value, val: TV.Value, k: TV.Text, v: TV.Value, rest: TV.Text)
    requires fuel > 0 && TV.IsCount(|k|) && TV.WellFormed(v) && v.DoubleVectorValue?
    ensures ReadLoop(fuel, tags, key, val, Stream(TV.Blob(TV.StringValue(k)) + (TV.Blob(v) + rest), true)) == OutOfFuel
  {
    TrailerStartsWithNul(v, rest);
    NulStalls(fuel - 1, tags[k := v], TV.StringValue(k), v, TV.Trailer(v) + rest);
    StallAfterPair(fuel, tags, key, val, k, v, rest);
  }

  /** A loop that runs out of fuel on what one pair leaves runs out of fuel from before that pair too. */
  lemma {:induction false} StallAfterPair(fuel: nat, tags: map<TV.Text, TV.Value>, key: TV.Value, val: TV.Value, k: TV.Text, v: TV.Value, rest: TV.Text)
    requires fuel > 0 && TV.IsCount(|k|) && TV.WellFormed(v)
    requires ReadLoop(fuel - 1, tags[k := v], TV.StringValue(k), v, Stream(TV.Trailer(v) + rest, true)) == OutOfFuel
    ensures ReadLoop(fuel, tags, key, val, Stream(TV.Blob(TV.StringValue(k)) + (TV.Blob(v) + rest), true)) == OutOfFuel
  {
    OnePair(fuel, tags, key, val, k, v, rest);
  }

  /** What a double vector's blob, as written, leaves after its items starts with a NUL. */
  lemma TrailerStartsWithNul(v: TV.Value, rest: TV.Text)
    requires v.DoubleVectorValue?
    ensures TV.Trailer(v) + rest != [] && (TV.Trailer(v) + rest)[0] == '\0'
  {
    assert TV.Trailer(v) == TV.Nuls(4);
  }

  /** The same for entries whose first value is a double vector. */
  lemma {:induction false} DoubleVectorStalls(fuel: nat, tags: map<TV.Text, TV.Value>, key: TV.Value, val: TV.Value, more: seq<(TV.Text, TV.Value)>)
    requires fuel > 0 && more != [] && AllWellFormed(Flatten(more)) && more[0].1.DoubleVectorValue?
    ensures ReadLoop(fuel, tags, key, val, Stream(Blobs(Flatten(more)), true)) == OutOfFuel
  {
    BlobsCons(more);
    DoubleVectorPairStalls(fuel, tags, key, val, more[0].0, more[0].1, Blobs(Flatten(more[1..])));
  }

  /** Entries that start with a key and a double vector, written as blobs, never finish the loop. */
  lemma {:induction false} DoubleVectorRound(fuel: nat, tags: map<TV.Text, TV.Value>, key: TV.Value, val: TV.Value, more: seq<(TV.Text, TV.Value)>)
    requires AllWellFormed(Flatten(more)) && more != [] && more[0].1.DoubleVectorValue?
    ensures ReadLoop(fuel, tags, key, val, Stream(Blobs(Flatten(more)), true)) == OutOfFuel
  {
    if fuel == 0 {
      NoFuelRound(tags, key, val, more);
    } else {
      DoubleVectorStalls(fuel, tags, key, val, more);
    }
  }

  /**
   * Storable entries followed by a double vector: after the double
   * vector's round the loop meets the four NULs `toBlob` leaves after its
   * items, and never finishes.
   */
  lemma {:induction false} DoubleVectorHangs(fuel: nat, tags: map<TV.Text, TV.Value>, key: TV.Value, val: TV.Value,
                                             entries: seq<(TV.Text, TV.Value)>, more: seq<(TV.Text, TV.Value)>)
    requires Storable(Flatten(entries)) && AllWellFormed(Flatten(more))
    requires more != [] && more[0].1.DoubleVectorValue?
    ensures AllWellFormed(Flatten(entries + more))
    ensures ReadLoop(fuel, tags, key, val, Stream(Blobs(Flatten(entries + more)), true)) == OutOfFuel
    decreases |entries|
  {
    FlattenAppend(entries, more);
    assert AllWellFormed(Flatten(entries + more));
    if entries == [] {
      assert entries + more == more;
      DoubleVectorRound(fuel, tags, key, val, more);
    } else {
      StorableTail(entries);
      var all := entries + more;
      var e := entries[0];
      assert all[0] == e && all[1..] == entries[1..] + more;
      if fuel == 0 {
        NoFuelRound(tags, key, val, all);
      } else {
        var fuel', tags' := fuel - 1, tags[e.0 := e.1];
        DoubleVectorHangs(fuel', tags', TV.StringValue(e.0), e.1, entries[1..], more);
        var rest := Blobs(Flatten(entries[1..] + more));
        SameFuel(fuel', fuel - 1, tags', TV.StringValue(e.0), e.1, Stream(rest, true));
        BlobsCons(all);
        OnePair(fuel, tags, key, val, e.0, e.1, rest);
        assert TV.Trailer(e.1) + rest == rest;
      }
    }
  }

  lemma {:induction false} FlattenAppend(a: seq<(TV.Text, TV.Value)>, b: seq<(TV.Text, TV.Value)>)
    ensures Flatten(a + b) == Flatten(a) + Flatten(b)
    decreases |a|
  {
    if a == [] {
      assert a + b == b;
    } else {
      assert (a + b)[0] == a[0] && (a + b)[1..] == a[1..] + b;
      FlattenAppend(a[1..], b);
      var head := [TV.StringValue(a[0].0), a[0].1];
      assert Flatten(a + b) == head + Flatten(a[1..] + b);
      assert Flatten(a) == head + Flatten(a[1..]);
      assert head + (Flatten(a[1..]) + Flatten(b)) == head + Flatten(a[1..]) + Flatten(b);
    }
  }

  /**
   * The private data saveDNG writes for storable entries followed by a
   * double vector goes to the version 2 reader, whose loop never finishes.
   */
  lemma {:induction false} SavedDoubleVectorHangs(entries: seq<(TV.Text, TV.Value)>, more: seq<(TV.Text, TV.Value)>, fuel: nat)
    requires Storable(Flatten(entries)) && AllWellFormed(Flatten(more))
    requires more != [] && more[0].1.DoubleVectorValue?
    ensures AllWellFormed(Flatten(entries + more))
    ensures Dispatch(SavedPrivateData(entries + more)).VersionTwo?
    ensures ReadLoop(fuel, map[], TV.NullValue, TV.NullValue, Dispatch(SavedPrivateData(entries + more)).st) == OutOfFuel
  {
    DoubleVectorHangs(fuel, map[], TV.NullValue, TV.NullValue, entries, more);
    SavedPrivateDataDispatches(entries + more);
  }

  /** Entries put into a map one after another, later ones overwriting earlier ones. */
  function Insert(tags: map<TV.Text, TV.Value>, entries: seq<(TV.Text, TV.Value)>): map<TV.Text, TV.Value>
    decreases |entries|
  {
    if entries == [] then tags else Insert(tags[entries[0].0 := entries[0].1], entries[1..])
  }

  predicate DistinctKeys(entries: seq<(TV.Text, TV.Value)>)
  {
    forall i, j :: 0 <= i < j < |entries| ==> entries[i].0 != entries[j].0
  }

  function KeysOf(entries: seq<(TV.Text, TV.Value)>): set<TV.Text>
  {
    set i | 0 <= i < |entries| :: entries[i].0
  }

  /** Inserting entries with distinct keys: every entry is there with its value, and every other key keeps its own. */
  lemma {:induction false} InsertHolds(tags: map<TV.Text, TV.Value>, entries: seq<(TV.Text, TV.Value)>)
    requires DistinctKeys(entries)
    ensures Insert(tags, entries).Keys == tags.Keys + KeysOf(entries)
    ensures forall i :: 0 <= i < |entries| ==> Insert(tags, entries)[entries[i].0] == entries[i].1
    ensures forall k :: k in tags && k !in KeysOf(entries) ==> Insert(tags, entries)[k] == tags[k]
    decreases |entries|
  {
    if entries != [] {
      var e := entries[0];
      var rest := entries[1..];
      var t := tags[e.0 := e.1];
      InsertHolds(t, rest);
      assert KeysOf(entries) == {e.0} + KeysOf(rest) by {
        forall k | k in KeysOf(entries) ensures k in {e.0} + KeysOf(rest) {
          var i :| 0 <= i < |entries| && entries[i].0 == k;
          if i > 0 { assert rest[i - 1].0 == k; }
        }
        forall k | k in KeysOf(rest) ensures k in KeysOf(entries) {
          var i :| 0 <= i < |rest| && rest[i].0 == k;
          assert entries[i + 1].0 == k;
        }
      }
      assert e.0 !in KeysOf(rest) by {
        forall i | 0 <= i < |rest| ensures rest[i].0 != e.0 {
          assert rest[i] == entries[i + 1];
        }
      }
      forall i | 0 <= i < |entries|
        ensures Insert(tags, entries)[entries[i].0] == entries[i].1
      {
        if i > 0 { assert entries[i] == rest[i - 1]; }
      }
    }
  }

  // ----- Version 2: the frame fields -----

  /** One grabField step: a field read with a cast to its kind, or a colour matrix of which 12 floats are copied. */
  datatype Grab = Field(key: TV.Text, kind: TV.Kind) | Matrix(key: TV.Text)

  // The keys of the frame fields in the private data.
  const EXPOSURE_START_TIME: TV.Text := "frame.exposureStartTime"
  const EXPOSURE_END_TIME: TV.Text := "frame.exposureEndTime"
  const PROCESSING_DONE_TIME: TV.Text := "frame.processingDoneTime"
  const EXPOSURE: TV.Text := "frame.exposure"
  const FRAME_TIME: TV.Text := "frame.frameTime"
  const GAIN: TV.Text := "frame.gain"
  const WHITE_BALANCE: TV.Text := "frame.whiteBalance"
  const SHOT_EXPOSURE: TV.Text := "frame.shot.exposure"
  const SHOT_FRAME_TIME: TV.Text := "frame.shot.frameTime"
  const SHOT_GAIN: TV.Text := "frame.shot.gain"
  const SHOT_WHITE_BALANCE: TV.Text := "frame.shot.whiteBalance"
  const SHOT_COLOR_MATRIX: TV.Text := "frame.shot.colorMatrix"
  const PLATFORM_MIN_RAW_VALUE: TV.Text := "frame.platform.minRawValue"
  const PLATFORM_MAX_RAW_VALUE: TV.Text := "frame.platform.maxRawValue"
  const ILLUMINANT1: TV.Text := "frame.illuminant1"
  const ILLUMINANT2: TV.Text := "frame.illuminant2"
  const COLOR_MATRIX1: TV.Text := "frame.colorMatrix1"
  const COLOR_MATRIX2: TV.Text := "frame.colorMatrix2"

  /** The frame fields in the order the version 2 reader looks for them. */
  const GRABS: seq<Grab> := [
    Field(EXPOSURE_START_TIME, TV.Time),
    Field(EXPOSURE_END_TIME, TV.Time),
    Field(PROCESSING_DONE_TIME, TV.Time),
    Field(EXPOSURE, TV.Int),
    Field(FRAME_TIME, TV.Int),
    Field(GAIN, TV.Float),
    Field(WHITE_BALANCE, TV.Int),
    Field(SHOT_EXPOSURE, TV.Int),
    Field(SHOT_FRAME_TIME, TV.Int),
    Field(SHOT_GAIN, TV.Float),
    Field(SHOT_WHITE_BALANCE, TV.Int),
    Field(SHOT_COLOR_MATRIX, TV.FloatVector),
    Field(PLATFORM_MIN_RAW_VALUE, TV.Int),
    Field(PLATFORM_MAX_RAW_VALUE, TV.Int),
    Field(ILLUMINANT1, TV.Int),
    Field(ILLUMINANT2, TV.Int),
    Matrix(COLOR_MATRIX1),
    Matrix(COLOR_MATRIX2)]

  /** A colour matrix the reader can copy: `asFloatVector()[i]` for i below 12 stays inside the vector. */
  predicate Copyable(g: Grab, v: TV.Value)
  {
    g.Matrix? ==> v.FloatVectorValue? && |v.floats| >= 12
  }

  predicate Readable(tags: map<TV.Text, TV.Value>, grabs: seq<Grab>)
  {
    forall i :: 0 <= i < |grabs| && grabs[i].key in tags ==> Copyable(grabs[i], tags[grabs[i].key])
  }

  /** What a field is set to from its tag. */
  function Converted(g: Grab, v: TV.Value): (r: TV.Value)
    requires Copyable(g, v)
    ensures g.Field? && g.kind != TV.Null ==> r.Kind() == g.kind
    ensures g.Matrix? ==> r.FloatVectorValue? && |r.floats| == 12
  {
    match g
    case Field(_, kind) => if kind == TV.Null then TV.NullValue else TV.CastValue(v, kind).0
    case Matrix(_) => TV.FloatVectorValue(v.floats[..12])
  }

  /** The frame's tag map and the fields the private data sets, by key. */
  datatype FrameMaps = FrameMaps(tags: map<TV.Text, TV.Value>, fields: map<TV.Text, TV.Value>)

  function GrabOne(f: FrameMaps, g: Grab): (r: FrameMaps)
    requires g.key in f.tags ==> Copyable(g, f.tags[g.key])
  {
    if g.key in f.tags then FrameMaps(f.tags - {g.key}, f.fields[g.key := Converted(g, f.tags[g.key])])
    else f
  }

  /** The grabField steps in order. */
  function Extract(f: FrameMaps, grabs: seq<Grab>): FrameMaps
    requires Readable(f.tags, grabs)
    decreases |grabs|
  {
    if grabs == [] then f
    else
      var next := GrabOne(f, grabs[0]);
      assert Readable(next.tags, grabs[1..]) by {
        forall i | 0 <= i < |grabs| - 1 && grabs[1..][i].key in next.tags
          ensures Copyable(grabs[1..][i], next.tags[grabs[1..][i].key])
        {
          assert grabs[1..][i] == grabs[i + 1];
        }
      }
      Extract(next, grabs[1..])
  }

  function GrabKeys(grabs: seq<Grab>): set<TV.Text>
  {
    set i | 0 <= i < |grabs| :: grabs[i].key
  }

  predicate DistinctGrabs(grabs: seq<Grab>)
  {
    forall i, j :: 0 <= i < j < |grabs| ==> grabs[i].key != grabs[j].key
  }

  /** The keys of distinct grabs: the first one, not among the others, and the others', still distinct. */
  lemma GrabKeysCons(grabs: seq<Grab>)
    requires grabs != [] && DistinctGrabs(grabs)
    ensures GrabKeys(grabs) == {grabs[0].key} + GrabKeys(grabs[1..])
    ensures grabs[0].key !in GrabKeys(grabs[1..])
    ensures DistinctGrabs(grabs[1..])
  {
    var g := grabs[0];
    var rest := grabs[1..];
    assert DistinctGrabs(rest) by {
      forall i, j | 0 <= i < j < |rest| ensures rest[i].key != rest[j].key {
        assert rest[i] == grabs[i + 1] && rest[j] == grabs[j + 1];
      }
    }
    assert GrabKeys(grabs) == {g.key} + GrabKeys(rest) by {
      forall k | k in GrabKeys(grabs) ensures k in {g.key} + GrabKeys(rest) {
        var i :| 0 <= i < |grabs| && grabs[i].key == k;
        if i > 0 { assert rest[i - 1].key == k; }
      }
      forall k | k in GrabKeys(rest) ensures k in GrabKeys(grabs) {
        var i :| 0 <= i < |rest| && rest[i].key == k;
        assert grabs[i + 1].key == k;
      }
    }
    forall i | 0 <= i < |rest| ensures rest[i].key != g.key {
      assert rest[i] == grabs[i + 1];
    }
  }

  /**
   * The grabField steps move exactly the known keys present in the tag
   * map into the fields, converted, and leave every other tag where it
   * was; fields the steps do not set keep their values.
   */
  lemma {:induction false} ExtractMoves(f: FrameMaps, grabs: seq<Grab>)
    requires Readable(f.tags, grabs) && DistinctGrabs(grabs)
    ensures Extract(f, grabs).tags == map k | k in f.tags && k !in GrabKeys(grabs) :: f.tags[k]
    ensures Extract(f, grabs).fields.Keys == f.fields.Keys + (f.tags.Keys * GrabKeys(grabs))
    ensures forall i :: 0 <= i < |grabs| && grabs[i].key in f.tags ==>
      Extract(f, grabs).fields[grabs[i].key] == Converted(grabs[i], f.tags[grabs[i].key])
    ensures forall k :: k in f.fields && !(k in f.tags && k in GrabKeys(grabs)) ==>
      Extract(f, grabs).fields[k] == f.fields[k]
    decreases |grabs|
  {
    if grabs != [] {
      var g := grabs[0];
      var rest := grabs[1..];
      var next := GrabOne(f, g);
      assert Readable(next.tags, rest) by {
        forall i | 0 <= i < |rest| && rest[i].key in next.tags
          ensures Copyable(rest[i], next.tags[rest[i].key])
        {
          assert rest[i] == grabs[i + 1];
        }
      }
      GrabKeysCons(grabs);
      ExtractMoves(next, rest);
      var r := Extract(f, grabs);
      assert r == Extract(next, rest);
      forall i | 0 <= i < |grabs| && grabs[i].key in f.tags
        ensures r.fields[grabs[i].key] == Converted(grabs[i], f.tags[grabs[i].key])
      {
        if i > 0 {
          assert grabs[i] == rest[i - 1];
          assert grabs[i].key != g.key;
        }
      }
    }
  }

  /** The known keys are all different. */
  lemma GrabsDistinct()
    ensures DistinctGrabs(GRABS)
  {
    forall i, j | 0 <= i < j < |GRABS| ensures GRABS[i].key != GRABS[j].key {
      assert KeySig(GRABS[i].key) != KeySig(GRABS[j].key);
    }
  }

  /** Enough of a key to tell the known keys apart: its length, its 17th character and its last one. */
  function KeySig(k: TV.Text): (int, char, char)
  {
    (|k|, if |k| > 16 then k[16] else ' ', if |k| > 0 then k[|k| - 1] else ' ')
  }

  // ----- Version 2: the frame -----

  /** The part of a loaded frame the private data fills: its tags, the frame fields by key, and the illuminant count. */
  class DngFrame {
    var tags: map<TV.Text, TV.Value>
    var fields: map<TV.Text, TV.Value>
    var numIlluminants: int

    constructor (numIlluminants: int)
      ensures tags == map[] && fields == map[] && this.numIlluminants == numIlluminants
    {
      tags := map[];
      fields := map[];
      this.numIlluminants := numIlluminants;
    }

    /**
     * The reading loop, `_f->tags[key] = val` for each key and value read
     * while the key's read leaves the stream good. The source's loop need
     * not end (see `NulStalls`); the caller names a bound within which it
     * does, without meeting a text form.
     */
    method ReadTags(st: Stream, ghost fuel: nat)
      requires ReadLoop(fuel, tags, TV.NullValue, TV.NullValue, st).Finished?
      modifies this
      ensures tags == ReadLoop(fuel, old(tags), TV.NullValue, TV.NullValue, st).tags
      ensures fields == old(fields) && numIlluminants == old(numIlluminants)
    {
      var t := tags;
      var key, val := TV.NullValue, TV.NullValue;
      var s := st;
      ghost var f := fuel;
      var g := Get(s, key);
      while g.st.good
        invariant g == Get(s, key) && g.Got?
        invariant ReadLoop(f, t, key, val, s) == ReadLoop(fuel, old(tags), TV.NullValue, TV.NullValue, st)
        invariant fields == old(fields) && numIlluminants == old(numIlluminants)
        decreases f
      {
        key := g.value;
        s := g.st;
        var h := Get(s, val);
        val := h.value;
        s := h.st;
        t := t[TV.TextOf(key) := val];
        f := f - 1;
        g := Get(s, key);
      }
      tags := t;
    }

    /** One grabField: move the key's value, converted, from the tags into the fields. */
    method GrabField(g: Grab)
      requires g.key in tags ==> Copyable(g, tags[g.key])
      modifies this
      ensures FrameMaps(tags, fields) == GrabOne(FrameMaps(old(tags), old(fields)), g)
      ensures numIlluminants == old(numIlluminants)
    {
      if g.key in tags {
        fields := fields[g.key := Converted(g, tags[g.key])];
        tags := tags - {g.key};
      }
    }

    /** The grabField steps, one after another. */
    method GrabFields(grabs: seq<Grab>)
      requires Readable(tags, grabs)
      modifies this
      ensures FrameMaps(tags, fields) == Extract(FrameMaps(old(tags), old(fields)), grabs)
      ensures numIlluminants == old(numIlluminants)
    {
      ghost var start := FrameMaps(tags, fields);
      var i := 0;
      while i < |grabs|
        invariant 0 <= i <= |grabs|
        invariant Readable(tags, grabs[i..])
        invariant Extract(FrameMaps(tags, fields), grabs[i..]) == Extract(start, grabs)
        invariant numIlluminants == old(numIlluminants)
        decreases |grabs| - i
      {
        assert grabs[i..][0] == grabs[i] && grabs[i..][1..] == grabs[i + 1..];
        GrabField(grabs[i]);
        i := i + 1;
      }
    }

    /**
     * The version 2 reader: read every key and value into the tags, then
     * move the known frame fields out; the frame has two illuminants
     * afterwards.
     */
    method LoadV2(st: Stream, ghost fuel: nat)
      requires ReadLoop(fuel, tags, TV.NullValue, TV.NullValue, st).Finished?
      requires Readable(ReadLoop(fuel, tags, TV.NullValue, TV.NullValue, st).tags, GRABS)
      modifies this
      ensures FrameMaps(tags, fields) == Extract(FrameMaps(ReadLoop(fuel, old(tags), TV.NullValue, TV.NullValue, st).tags, old(fields)), GRABS)
      ensures numIlluminants == 2
    {
      ReadTags(st, fuel);
      GrabFields(GRABS);
      numIlluminants := 2;
    }
  }

  // ----- The round trip -----

  /** A value of the kind its field is read as; a colour matrix of exactly 12 floats. */
  predicate Fits(g: Grab, v: TV.Value)
  {
    match g
    case Field(_, kind) => v.Kind() == kind
    case Matrix(_) => v.FloatVectorValue? && |v.floats| == 12
  }

  /** Entries whose known keys hold values of the right kinds. */
  predicate FieldsFit(entries: seq<(TV.Text, TV.Value)>, grabs: seq<Grab>)
  {
    forall i, j :: 0 <= i < |entries| && 0 <= j < |grabs| && entries[i].0 == grabs[j].key ==> Fits(grabs[j], entries[i].1)
  }

  /** The tag map the reading loop makes of written entries, starting empty. */
  function ReadBack(entries: seq<(TV.Text, TV.Value)>): map<TV.Text, TV.Value>
  {
    Insert(map[], entries)
  }

  /** Written entries with distinct keys are read back as exactly those keys, each with its value. */
  lemma ReadBackHolds(entries: seq<(TV.Text, TV.Value)>)
    requires DistinctKeys(entries)
    ensures ReadBack(entries).Keys == KeysOf(entries)
    ensures forall i :: 0 <= i < |entries| ==> ReadBack(entries)[entries[i].0] == entries[i].1
  {
    InsertHolds(map[], entries);
  }

  /** Written entries whose known keys fit can be read by the grab steps. */
  lemma ReadableWhenFit(entries: seq<(TV.Text, TV.Value)>, grabs: seq<Grab>)
    requires DistinctKeys(entries) && FieldsFit(entries, grabs)
    ensures Readable(ReadBack(entries), grabs)
  {
    ReadBackHolds(entries);
    var tags := ReadBack(entries);
    forall j | 0 <= j < |grabs| && grabs[j].key in tags ensures Copyable(grabs[j], tags[grabs[j].key]) {
      var i :| 0 <= i < |entries| && entries[i].0 == grabs[j].key;
      assert Fits(grabs[j], entries[i].1);
    }
  }

  /** What the version 2 reader's steps make of written entries in an empty frame. */
  function Loaded(entries: seq<(TV.Text, TV.Value)>, grabs: seq<Grab>): FrameMaps
    requires DistinctKeys(entries) && FieldsFit(entries, grabs)
  {
    ReadableWhenFit(entries, grabs);
    Extract(FrameMaps(ReadBack(entries), map[]), grabs)
  }

  /** A value that fits its field comes through the field's conversion unchanged. */
  lemma ConvertedFits(g: Grab, v: TV.Value)
    requires Fits(g, v)
    ensures Copyable(g, v) && Converted(g, v) == v
  {
    if g.Matrix? {
      assert v.floats[..12] == v.floats;
    }
  }

  /** The keys of a loaded frame: the grabbed ones become fields, the others stay tags. */
  lemma LoadedKeys(entries: seq<(TV.Text, TV.Value)>, grabs: seq<Grab>)
    requires DistinctKeys(entries) && FieldsFit(entries, grabs) && DistinctGrabs(grabs)
    ensures Loaded(entries, grabs).tags.Keys == KeysOf(entries) - GrabKeys(grabs)
    ensures Loaded(entries, grabs).fields.Keys == KeysOf(entries) * GrabKeys(grabs)
  {
    ReadBackHolds(entries);
    ReadableWhenFit(entries, grabs);
    ExtractMoves(FrameMaps(ReadBack(entries), map[]), grabs);
  }

  /** An entry whose key is not grabbed stays a tag with its value. */
  lemma LoadedTags(entries: seq<(TV.Text, TV.Value)>, grabs: seq<Grab>)
    requires DistinctKeys(entries) && FieldsFit(entries, grabs) && DistinctGrabs(grabs)
    ensures forall i :: 0 <= i < |entries| && entries[i].0 !in GrabKeys(grabs) ==>
      entries[i].0 in Loaded(entries, grabs).tags && Loaded(entries, grabs).tags[entries[i].0] == entries[i].1
  {
    ReadBackHolds(entries);
    ReadableWhenFit(entries, grabs);
    ExtractMoves(FrameMaps(ReadBack(entries), map[]), grabs);
  }

  /** An entry whose key is grabbed becomes that field with its value. */
  lemma LoadedFields(entries: seq<(TV.Text, TV.Value)>, grabs: seq<Grab>)
    requires DistinctKeys(entries) && FieldsFit(entries, grabs) && DistinctGrabs(grabs)
    ensures forall i :: 0 <= i < |entries| && entries[i].0 in GrabKeys(grabs) ==>
      entries[i].0 in Loaded(entries, grabs).fields && Loaded(entries, grabs).fields[entries[i].0] == entries[i].1
  {
    ReadBackHolds(entries);
    ReadableWhenFit(entries, grabs);
    var tags := ReadBack(entries);
    ExtractMoves(FrameMaps(tags, map[]), grabs);
    var r := Loaded(entries, grabs);
    forall i | 0 <= i < |entries| && entries[i].0 in GrabKeys(grabs)
      ensures r.fields[entries[i].0] == entries[i].1
    {
      var j :| 0 <= j < |grabs| && grabs[j].key == entries[i].0;
      assert tags[grabs[j].key] == entries[i].1;
      ConvertedFits(grabs[j], entries[i].1);
    }
  }

  /** The frame a version 2 reader makes of entries with distinct keys and fitting fields: known keys as fields, the others as tags. */
  lemma {:induction false} LoadedFrame(entries: seq<(TV.Text, TV.Value)>)
    requires DistinctKeys(entries) && FieldsFit(entries, GRABS)
    ensures Loaded(entries, GRABS).tags.Keys == KeysOf(entries) - GrabKeys(GRABS)
    ensures Loaded(entries, GRABS).fields.Keys == KeysOf(entries) * GrabKeys(GRABS)
    ensures forall i :: 0 <= i < |entries| && entries[i].0 !in GrabKeys(GRABS) ==> Loaded(entries, GRABS).tags[entries[i].0] == entries[i].1
    ensures forall i :: 0 <= i < |entries| && entries[i].0 in GrabKeys(GRABS) ==> Loaded(entries, GRABS).fields[entries[i].0] == entries[i].1
  {
    GrabsDistinct();
    LoadedKeys(entries, GRABS);
    LoadedTags(entries, GRABS);
    LoadedFields(entries, GRABS);
  }

  /**
   * The frame fields and tags saveDNG writes, storable, with distinct
   * keys and fields of their kinds, come back from loadDNG: the data goes
   * to the version 2 reader, its loop finishes with exactly the entries as
   * tags, and the grab steps then give the known keys as frame fields and
   * keep the others as tags, each with its value.
   */
  lemma {:induction false} SavedFrameLoads(entries: seq<(TV.Text, TV.Value)>, fuel: nat)
    requires Storable(Flatten(entries)) && DistinctKeys(entries) && FieldsFit(entries, GRABS) && fuel >= |entries|
    ensures AllWellFormed(Flatten(entries))
    ensures Dispatch(SavedPrivateData(entries)) == VersionTwo(Stream(Blobs(Flatten(entries)), true))
    ensures ReadLoop(fuel, map[], TV.NullValue, TV.NullValue, Stream(Blobs(Flatten(entries)), true)) == Finished(ReadBack(entries))
    ensures Readable(ReadBack(entries), GRABS)
    ensures Loaded(entries, GRABS).tags.Keys == KeysOf(entries) - GrabKeys(GRABS)
    ensures Loaded(entries, GRABS).fields.Keys == KeysOf(entries) * GrabKeys(GRABS)
    ensures forall i :: 0 <= i < |entries| && entries[i].0 !in GrabKeys(GRABS) ==> Loaded(entries, GRABS).tags[entries[i].0] == entries[i].1
    ensures forall i :: 0 <= i < |entries| && entries[i].0 in GrabKeys(GRABS) ==> Loaded(entries, GRABS).fields[entries[i].0] == entries[i].1
  {
    LoopOfBlobs(fuel, map[], TV.NullValue, TV.NullValue, entries);
    SavedPrivateDataDispatches(entries);
    ReadableWhenFit(entries, GRABS);
    LoadedFrame(entries);
  }

  /**
   * With the exactly sized blobs the same holds for every well-formed
   * entry, Null values and double vectors included.
   */
  lemma {:induction false} SavedFrameLoadsFixed(entries: seq<(TV.Text, TV.Value)>, fuel: nat)
    requires AllWellFormed(Flatten(entries)) && DistinctKeys(entries) && FieldsFit(entries, GRABS) && fuel >= |entries|
    ensures Dispatch(SavedPrivateDataFixed(entries)) == VersionTwo(Stream(BlobsFixed(Flatten(entries)), true))
    ensures ReadLoop(fuel, map[], TV.NullValue, TV.NullValue, Stream(BlobsFixed(Flatten(entries)), true)) == Finished(ReadBack(entries))
    ensures Readable(ReadBack(entries), GRABS)
    ensures Loaded(entries, GRABS).tags.Keys == KeysOf(entries) - GrabKeys(GRABS)
    ensures Loaded(entries, GRABS).fields.Keys == KeysOf(entries) * GrabKeys(GRABS)
    ensures forall i :: 0 <= i < |entries| && entries[i].0 !in GrabKeys(GRABS) ==> Loaded(entries, GRABS).tags[entries[i].0] == entries[i].1
    ensures forall i :: 0 <= i < |entries| && entries[i].0 in GrabKeys(GRABS) ==> Loaded(entries, GRABS).fields[entries[i].0] == entries[i].1
  {
    LoopOfBlobsFixed(fuel, map[], TV.NullValue, TV.NullValue, entries);
    SavedPrivateDataFixedDispatches(entries);
    ReadableWhenFit(entries, GRABS);
    LoadedFrame(entries);
  }
}

=== FILE: dump.dfy ===
/**
 * The raw dump format (external/FCam/processing/Dump.cpp): a header of five
 * 32-bit ints {frames, width, height, channels, type} followed by `height`
 * packed rows of `width × bytesPerPixel` bytes. Files are byte sequences;
 * the ints are written in the device's little-endian order.
 */
module Dumps {
  import opened Wrappers
  import opened Base
  import opened Bytes

  const HEADER_INTS: nat := 5
  const HEADER_BYTES: nat := 20
  const INT32_MAX: int := 0x7fff_ffff

  /**
   * The content of an image as far as a dump sees it: its size, format,
   * whether it is valid, and the visible bytes of each row.
   */
  datatype Raster = Raster(width: int, height: int, format: ImageFormat, valid: bool, rows: seq<seq<byte>>)

  function RowBytes(r: Raster): int
  {
    r.width * BytesPerPixel(r.format)
  }

  /** Sizes fit in an `int`, and there is one row of `width × bytesPerPixel` bytes per line. */
  predicate WellFormed(r: Raster)
  {
    0 <= r.width <= INT32_MAX && 0 <= r.height <= INT32_MAX && |r.rows| == r.height &&
    forall y :: 0 <= y < |r.rows| ==> |r.rows[y]| == RowBytes(r)
  }

  /** Why a dump was not saved or not loaded (the event `error` posts). */
  datatype DumpError =
    | ImageNotValid
    | UnknownImageType
    | UnexpectedEofInHeader
    | MalformedHeader
    | UnexpectedEofInData(line: int)

  /** The {channels, type} header fields `saveDump` writes for a format, if it writes it at all. */
  function DumpCode(f: ImageFormat): (code: Option<(int, int)>)
    ensures code.Some? <==> f in {UYVY, RAW, RGB24}
  {
    match f
    case UYVY => Some((2, 2))
    case RAW => Some((1, 4))
    case RGB24 => Some((3, 2))
    case _ => None
  }

  /** The format `loadDump` reads from the {channels, type} fields, if it accepts them. */
  function FormatOfCode(channels: int, kind: int): (f: Option<ImageFormat>)
    ensures f.Some? ==> f.value in {UYVY, RAW, RGB24}
  {
    if kind == 2 && channels == 2 then Some(UYVY)
    else if kind == 4 && channels == 1 then Some(RAW)
    else if kind == 2 && channels == 3 then Some(RGB24)
    else None
  }

  /** The two tables are inverse: a code is accepted exactly when it is the code of its format. */
  lemma DumpCodesAgree(f: ImageFormat, channels: int, kind: int)
    ensures FormatOfCode(channels, kind) == Some(f) <==> DumpCode(f) == Some((channels, kind))
  {
  }

  /** The rows laid end to end. */
  function Concat(rows: seq<seq<byte>>): seq<byte>
  {
    if rows == [] then [] else rows[0] + Concat(rows[1..])
  }

  lemma MulLe(a: nat, b: nat, n: nat)
    requires a <= b
    ensures a * n <= b * n
  {
  }

  lemma {:induction false} ConcatLength(rows: seq<seq<byte>>, wb: nat)
    requires forall y :: 0 <= y < |rows| ==> |rows[y]| == wb
    ensures |Concat(rows)| == |rows| * wb
  {
    if rows != [] {
      ConcatLength(rows[1..], wb);
    }
  }

  /** Appending a row at the end, as the writing loop does. */
  lemma {:induction false} ConcatSnoc(rows: seq<seq<byte>>, row: seq<byte>)
    ensures Concat(rows + [row]) == Concat(rows) + row
  {
    if rows != [] {
      assert (rows + [row])[1..] == rows[1..] + [row];
      ConcatSnoc(rows[1..], row);
    } else {
      assert [row][1..] == [];
    }
  }

  /** The five header ints of a savable image. */
  function Header(r: Raster): (h: seq<int>)
    requires WellFormed(r) && DumpCode(r.format).Some?
    ensures |h| == HEADER_INTS
    ensures forall i :: 0 <= i < |h| ==> -0x8000_0000 <= h[i] < 0x8000_0000
  {
    var code := DumpCode(r.format).value;
    [1, r.width, r.height, code.0, code.1]
  }

  /**
   * `saveDump(im)`: the file written for an image, or why nothing is
   * written: an invalid image, or a format other than UYVY, RAW and RGB24.
   */
  function DumpBytes(r: Raster): (out: Result<seq<byte>, DumpError>)
    requires WellFormed(r)
    ensures !r.valid ==> out == Err(ImageNotValid)
    ensures r.valid && DumpCode(r.format).None? ==> out == Err(UnknownImageType)
    ensures out.Ok? ==> |out.value| == HEADER_BYTES + r.height * RowBytes(r)
  {
    if !r.valid then Err(ImageNotValid)
    else if DumpCode(r.format).None? then Err(UnknownImageType)
    else
      ConcatLength(r.rows, RowBytes(r));
      Ok(I32sToLe(Header(r)) + Concat(r.rows))
  }

  /** The size and format a dump header announces. */
  datatype DumpHeader = DumpHeader(width: nat, height: nat, format: ImageFormat)

  /**
   * The header checks of `loadDump`: five ints must be there, saying one
   * frame, a non-negative size and one of the three known
   * {channels, type} pairs.
   */
  function ParseHeader(bs: seq<byte>): (out: Result<DumpHeader, DumpError>)
    ensures |bs| < HEADER_BYTES ==> out == Err(UnexpectedEofInHeader)
    ensures out.Ok? ==>
              |bs| >= HEADER_BYTES && out.value.width <= INT32_MAX && out.value.height <= INT32_MAX &&
              out.value.format in {UYVY, RAW, RGB24} &&
              LeToI32s(bs, HEADER_INTS)[0] == 1 &&
              DumpCode(out.value.format) == Some((LeToI32s(bs, HEADER_INTS)[3], LeToI32s(bs, HEADER_INTS)[4]))
  {
    if |bs| < HEADER_BYTES then Err(UnexpectedEofInHeader)
    else
      var h := LeToI32s(bs, HEADER_INTS);
      if h[0] != 1 || h[1] < 0 || h[2] < 0 then Err(MalformedHeader)
      else
        match FormatOfCode(h[3], h[4])
        case None => Err(MalformedHeader)
        case Some(f) =>
          DumpCodesAgree(f, h[3], h[4]);
          Ok(DumpHeader(h[1], h[2], f))
  }

  /**
   * `n` lines of `wb` bytes from the front of `data`, or the index of the
   * first line that is cut short.
   */
  function ReadLines(data: seq<byte>, wb: nat, n: nat): (out: Result<seq<seq<byte>>, int>)
    ensures out.Ok? ==> |out.value| == n && forall y :: 0 <= y < n ==> |out.value[y]| == wb
    ensures out.Err? ==> 0 <= out.error < n
  {
    if n == 0 then Ok([])
    else if |data| < wb then Err(0)
    else
      match ReadLines(data[wb..], wb, n - 1)
      case Ok(rest) => Ok([data[..wb]] + rest)
      case Err(k) => Err(k + 1)
  }

  /** Lines already read in front of what the remaining bytes give. */
  function Prepend(rows: seq<seq<byte>>, r: Result<seq<seq<byte>>, int>): Result<seq<seq<byte>>, int>
  {
    match r
    case Ok(rest) => Ok(rows + rest)
    case Err(k) => Err(|rows| + k)
  }

  lemma PrependStep(rows: seq<seq<byte>>, rest: seq<byte>, wb: nat, m: nat)
    requires m >= 1 && |rest| >= wb
    ensures Prepend(rows, ReadLines(rest, wb, m)) == Prepend(rows + [rest[..wb]], ReadLines(rest[wb..], wb, m - 1))
  {
    match ReadLines(rest[wb..], wb, m - 1)
    case Ok(t) =>
      assert rows + ([rest[..wb]] + t) == (rows + [rest[..wb]]) + t;
    case Err(k) =>
  }

  lemma PrependNothing(r: Result<seq<seq<byte>>, int>)
    ensures Prepend([], r) == r
  {
    match r
    case Ok(t) =>
      assert [] + t == t;
    case Err(k) =>
  }

  /**
   * The body: `height` rows of `width × bytesPerPixel` bytes, trailing bytes
   * ignored; a short row fails at its line.
   */
  function ParseBody(data: seq<byte>, hd: DumpHeader): (out: Result<Raster, DumpError>)
    requires hd.width <= INT32_MAX && hd.height <= INT32_MAX
    ensures out.Ok? ==> WellFormed(out.value) && out.value.valid &&
                        out.value.width == hd.width && out.value.height == hd.height && out.value.format == hd.format
    ensures out.Err? ==> out.error.UnexpectedEofInData? && 0 <= out.error.line < hd.height
  {
    match ReadLines(data, hd.width * BytesPerPixel(hd.format), hd.height)
    case Ok(rows) => Ok(Raster(hd.width, hd.height, hd.format, true, rows))
    case Err(y) => Err(UnexpectedEofInData(y))
  }

  /** A body is cut short exactly when the data holds fewer than `height` full lines. */
  lemma {:induction false} ReadLinesShort(data: seq<byte>, wb: nat, n: nat)
    ensures ReadLines(data, wb, n).Err? <==> |data| < n * wb
  {
    if n > 0 && |data| >= wb {
      ReadLinesShort(data[wb..], wb, n - 1);
    }
  }

  /** `loadDump` on the bytes of a file. */
  function ParseDump(bs: seq<byte>): (out: Result<Raster, DumpError>)
    ensures out.Ok? ==> WellFormed(out.value) && out.value.valid && out.value.format in {UYVY, RAW, RGB24}
  {
    match ParseHeader(bs)
    case Err(e) => Err(e)
    case Ok(hd) => ParseBody(bs[HEADER_BYTES..], hd)
  }

  /** The header `saveDump` writes parses back to the image's size and format. */
  lemma HeaderRoundTrip(r: Raster, rest: seq<byte>)
    requires WellFormed(r) && DumpCode(r.format).Some?
    ensures ParseHeader(I32sToLe(Header(r)) + rest) == Ok(DumpHeader(r.width, r.height, r.format))
  {
    var hdr := Header(r);
    var bs := I32sToLe(hdr) + rest;
    I32sRoundTrip(hdr, rest);
    var code := DumpCode(r.format).value;
    DumpCodesAgree(r.format, code.0, code.1);
  }

  /** Lines of `wb` bytes laid end to end read back as the same lines, whatever follows them. */
  lemma {:induction false} LinesRoundTrip(rows: seq<seq<byte>>, wb: nat, trailing: seq<byte>)
    requires forall y :: 0 <= y < |rows| ==> |rows[y]| == wb
    ensures ReadLines(Concat(rows) + trailing, wb, |rows|) == Ok(rows)
  {
    if rows != [] {
      var data := Concat(rows) + trailing;
      assert data == rows[0] + (Concat(rows[1..]) + trailing);
      assert data[..wb] == rows[0];
      assert data[wb..] == Concat(rows[1..]) + trailing;
      LinesRoundTrip(rows[1..], wb, trailing);
      assert [rows[0]] + rows[1..] == rows;
    }
  }

  /** The rows `saveDump` writes parse back to the same rows, whatever follows them. */
  lemma BodyRoundTrip(r: Raster, trailing: seq<byte>)
    requires WellFormed(r) && r.valid
    ensures ParseBody(Concat(r.rows) + trailing, DumpHeader(r.width, r.height, r.format)) == Ok(r)
  {
    LinesRoundTrip(r.rows, RowBytes(r), trailing);
  }

  /** Every dump `saveDump` writes loads back to the same image, whatever follows it in the file. */
  lemma SaveThenLoad(r: Raster, trailing: seq<byte>)
    requires WellFormed(r) && r.valid && DumpCode(r.format).Some?
    ensures DumpBytes(r).Ok? && ParseDump(DumpBytes(r).value + trailing) == Ok(r)
  {
    var bs := DumpBytes(r).value + trailing;
    var body := Concat(r.rows) + trailing;
    assert bs == I32sToLe(Header(r)) + body;
    HeaderRoundTrip(r, body);
    assert bs[HEADER_BYTES..] == body;
    BodyRoundTrip(r, trailing);
  }

  /** The writing loop of `saveDump`: the header, then each row in turn. */
  method SaveDump(r: Raster) returns (out: Result<seq<byte>, DumpError>)
    requires WellFormed(r)
    ensures out == DumpBytes(r)
  {
    if !r.valid {
      return Err(ImageNotValid);
    }
    var code := DumpCode(r.format);
    if code.None? {
      return Err(UnknownImageType);
    }
    var file := I32sToLe([1, r.width, r.height, code.value.0, code.value.1]);
    var header := file;
    for y := 0 to r.height
      invariant file == header + Concat(r.rows[..y])
    {
      assert r.rows[..y + 1] == r.rows[..y] + [r.rows[y]];
      ConcatSnoc(r.rows[..y], r.rows[y]);
      file := file + r.rows[y];
    }
    assert r.rows[..r.height] == r.rows;
    out := Ok(file);
  }

  /** The reading loop of `loadDump`: the header checks, then one row per line. */
  method LoadDump(bs: seq<byte>) returns (out: Result<Raster, DumpError>)
    ensures out == ParseDump(bs)
  {
    if |bs| < HEADER_BYTES {
      return Err(UnexpectedEofInHeader);
    }
    var h := LeToI32s(bs, HEADER_INTS);
    if h[0] != 1 || h[1] < 0 || h[2] < 0 {
      return Err(MalformedHeader);
    }
    var f := FormatOfCode(h[3], h[4]);
    if f.None? {
      return Err(MalformedHeader);
    }
    var hd := DumpHeader(h[1], h[2], f.value);
    assert ParseHeader(bs) == Ok(hd);
    out := ReadRows(bs[HEADER_BYTES..], hd);
  }

  /** One `fread` of `width` pixels per line; a short read ends the load at that line. */
  method ReadRows(data: seq<byte>, hd: DumpHeader) returns (out: Result<Raster, DumpError>)
    requires hd.width <= INT32_MAX && hd.height <= INT32_MAX
    ensures out == ParseBody(data, hd)
  {
    var wb := hd.width * BytesPerPixel(hd.format);
    var rows := [];
    var rest := data;
    PrependNothing(ReadLines(rest, wb, hd.height));
    for y := 0 to hd.height
      invariant |rows| == y
      invariant ReadLines(data, wb, hd.height) == Prepend(rows, ReadLines(rest, wb, hd.height - y))
    {
      if |rest| < wb {
        return Err(UnexpectedEofInData(y));
      }
      PrependStep(rows, rest, wb, hd.height - y);
      rows := rows + [rest[..wb]];
      rest := rest[wb..];
    }
    assert rows + [] == rows;
    out := Ok(Raster(hd.width, hd.height, hd.format, true, rows));
  }
}

=== FILE: event.dfy ===
/**
 * FCam events (external/FCam/Event.cpp): a global first-in first-out queue
 * that the library posts errors, warnings and device notices to, and that
 * the application drains, optionally only events matching a filter.
 */
module Events {
  import opened Wrappers
  import FCamTime

  /** `Event::Error` and `Event::Warning`. */
  const ERROR: int := 0
  const WARNING: int := 1

  /** The longest message `error`/`warning` keep: `vsnprintf` into 256 bytes. */
  const MESSAGE_CAPACITY: nat := 255

  /** An event; `creator` identifies the generator, 0 for none. */
  datatype Event = Event(creator: int, kind: int, data: int, time: FCamTime.Time, description: string)

  /**
   * What a filtered `getNextEvent` matches on: the type, type and data,
   * type and creator, all three, or the creator alone.
   */
  datatype EventFilter =
    | ByType(kind: int)
    | ByTypeData(kind: int, data: int)
    | ByTypeCreator(kind: int, creator: int)
    | ByTypeDataCreator(kind: int, data: int, creator: int)
    | ByCreator(creator: int)

  predicate Matches(e: Event, f: EventFilter)
  {
    match f
    case ByType(t) => e.kind == t
    case ByTypeData(t, d) => e.kind == t && e.data == d
    case ByTypeCreator(t, c) => e.kind == t && e.creator == c
    case ByTypeDataCreator(t, d, c) => e.kind == t && e.data == d && e.creator == c
    case ByCreator(c) => e.creator == c
  }

  /** The position of the first event matching `f`, or -1. */
  function FirstMatch(s: seq<Event>, f: EventFilter): (k: int)
    ensures -1 <= k < |s|
    ensures k >= 0 ==> Matches(s[k], f)
    ensures forall j :: 0 <= j < |s| && (k < 0 || j < k) ==> !Matches(s[j], f)
  {
    if s == [] then -1
    else if Matches(s[0], f) then 0
    else
      var k := FirstMatch(s[1..], f);
      if k < 0 then -1 else k + 1
  }

  /** The text `vsnprintf` leaves in a 256-byte buffer. */
  function Truncated(msg: string): (r: string)
    ensures |r| <= MESSAGE_CAPACITY && r <= msg
    ensures |msg| <= MESSAGE_CAPACITY ==> r == msg
  {
    if |msg| <= MESSAGE_CAPACITY then msg else msg[..MESSAGE_CAPACITY]
  }

  /** `_eventQueue`. */
  class EventQueue {
    var events: seq<Event>

    constructor ()
      ensures events == []
    {
      events := [];
    }

    /** `postEvent(e)`: the event joins the back of the queue. */
    method Post(e: Event)
      modifies this
      ensures events == old(events) + [e]
    {
      events := events + [e];
    }

    /** `postEvent(type, data, msg, creator)`, stamped with the clock reading `now`. */
    method PostNew(kind: int, data: int, msg: string, creator: int, now: FCamTime.Time)
      modifies this
      ensures events == old(events) + [Event(creator, kind, data, now, msg)]
    {
      Post(Event(creator, kind, data, now, msg));
    }

    /** `error(code, creator, fmt, ...)`: an Error event carrying the code; creator 0 for the short form. */
    method Error(code: int, creator: int, msg: string, now: FCamTime.Time)
      modifies this
      ensures |events| == |old(events)| + 1 && events[..|old(events)|] == old(events)
      ensures var e := events[|events| - 1];
              e.kind == ERROR && e.data == code && e.creator == creator && e.description == Truncated(msg)
    {
      PostNew(ERROR, code, Truncated(msg), creator, now);
    }

    /** `warning(code, creator, fmt, ...)`: a Warning event carrying the code. */
    method Warning(code: int, creator: int, msg: string, now: FCamTime.Time)
      modifies this
      ensures |events| == |old(events)| + 1 && events[..|old(events)|] == old(events)
      ensures var e := events[|events| - 1];
              e.kind == WARNING && e.data == code && e.creator == creator && e.description == Truncated(msg)
    {
      PostNew(WARNING, code, Truncated(msg), creator, now);
    }

    /** `getNextEvent(e)`: the front event, or nothing when the queue is empty. */
    method Next() returns (r: Option<Event>)
      modifies this
      ensures old(events) == [] ==> r.None? && events == []
      ensures old(events) != [] ==> r == Some(old(events)[0]) && events == old(events)[1..]
    {
      if events == [] {
        return None;
      }
      r := Some(events[0]);
      events := events[1..];
    }

    /**
     * The filtered `getNextEvent` variants: the first matching event leaves
     * the queue and the others keep their order; with no match nothing
     * changes.
     */
    method NextMatching(f: EventFilter) returns (r: Option<Event>)
      modifies this
      ensures r.None? <==> forall j :: 0 <= j < |old(events)| ==> !Matches(old(events)[j], f)
      ensures r.None? ==> events == old(events)
      ensures r.Some? ==> Matches(r.value, f)
      ensures r.Some? ==>
                var k := FirstMatch(old(events), f);
                r.value == old(events)[k] && events == old(events)[..k] + old(events)[k + 1..] &&
                multiset(events) + multiset{r.value} == multiset(old(events))
    {
      var i := 0;
      while i < |events|
        invariant 0 <= i <= |events|
        invariant forall j :: 0 <= j < i ==> !Matches(events[j], f)
      {
        if Matches(events[i], f) {
          r := Some(events[i]);
          assert FirstMatch(events, f) == i by {
            var k := FirstMatch(events, f);
            assert k >= 0 ==> k == i;
          }
          assert events == events[..i] + [events[i]] + events[i + 1..];
          events := events[..i] + events[i + 1..];
          return;
        }
        i := i + 1;
      }
      r := None;
    }
  }
}

=== FILE: fcam_bridge.dfy ===
/**
 * The native half of the camera bridge: decoding message ids, queueing
 * parameter requests, the camera thread's task dispatch, `getParamInt`, and
 * the preview histogram it publishes after each frame.
 */
module FCamBridge {
  import opened Wrappers
  import opened Bytes
  import opened ParamSetRequests
  import J = FCamInterfaceJava

  const FCAM_MAX_PICTURES_PER_SHOT: int := 16
  const PREVIEW_HISTOGRAM_BINS: int := 64
  /** Capture exposures are bounded below at 1/1000 s. */
  const MIN_CAPTURE_EXPOSURE: int := 1000

  /** `param & 0xffff` on a two's-complement `int`. */
  function ParamId(param: int): (id: int)
    requires J.IsJavaInt(param)
    ensures 0 <= id < 0x1_0000
  {
    param % 0x1_0000
  }

  /** `param >> 16`, an arithmetic shift (floor division by 2^16). */
  function PictureId(param: int): (p: int)
    requires J.IsJavaInt(param)
    ensures -0x8000 <= p < 0x8000
  {
    param / 0x1_0000
  }

  /** Decoding inverts `paramId | (pictureId << 16)` for small non-negative parts. */
  lemma DecodeInvertsPacking(paramId: int, pictureId: int)
    requires 0 <= paramId < 0x1_0000 && 0 <= pictureId < 0x8000
    ensures J.IsJavaInt(paramId + pictureId * 0x1_0000)
    ensures ParamId(paramId + pictureId * 0x1_0000) == paramId
    ensures PictureId(paramId + pictureId * 0x1_0000) == pictureId
  {
    var p := paramId + pictureId * 0x1_0000;
    assert p / 0x1_0000 == pictureId && p % 0x1_0000 == paramId by {
      assert p == pictureId * 0x1_0000 + paramId;
    }
  }

  /** The id the Java side gives shot i of a burst decodes to `PARAM_SHOT` and i. */
  lemma ShotIdDecodes(i: int)
    requires 0 <= i < 0x8000
    ensures ParamId(J.ShotMessageId(i)) == PARAM_SHOT
    ensures PictureId(J.ShotMessageId(i)) == i
  {
    DecodeInvertsPacking(PARAM_SHOT, i);
  }

  // ---------------------------------------------------------------------
  // Shot parameters shared between the UI and the camera thread
  // ---------------------------------------------------------------------

  datatype CaptureParams = CaptureParams(exposure: int, focus: int, gain: int, wb: int, flashOn: int)

  datatype Preview = Preview(
    evaluated: CaptureParams, user: CaptureParams,
    autoExposure: bool, autoFocus: bool, autoGain: bool, autoWB: bool)

  datatype ShotParams = ShotParams(
    preview: Preview, captureSet: seq<CaptureParams>,
    outputFormat: int, burstSize: int, histogramData: seq<real>)

  /** Calls made back into the Java object. */
  datatype Callback = CaptureStart | CaptureComplete | FileSystemChange

  /** A queued request, held by value as the work queue copies it. */
  datatype Task = Task(id: int, data: seq<byte>)

  /**
   * The camera thread's view of the shared state. `writer` is the output
   * directory of the image writer once one exists; `captures` counts the
   * bursts handed to the capture routine.
   */
  datatype AppState = AppState(
    current: ShotParams, previous: ShotParams,
    isViewerActive: bool, isCapturing: bool,
    writer: Option<seq<byte>>, freeFileId: int,
    captures: nat, callbacks: seq<Callback>)

  predicate ShotShape(p: ShotParams)
  {
    |p.captureSet| == FCAM_MAX_PICTURES_PER_SHOT && |p.histogramData| == HISTOGRAM_SIZE
  }

  predicate StateShape(s: AppState)
  {
    ShotShape(s.current) && ShotShape(s.previous)
  }

  /** Ids whose handler reads `taskData[0]`. */
  predicate ReadsOneInt(id: int)
  {
    id in {PARAM_BURST_SIZE, PARAM_VIEWER_ACTIVE, PARAM_OUTPUT_FILE_ID,
           PARAM_PREVIEW_EXPOSURE, PARAM_PREVIEW_FOCUS, PARAM_PREVIEW_GAIN, PARAM_PREVIEW_WB,
           PARAM_PREVIEW_AUTO_EXPOSURE_ON, PARAM_PREVIEW_AUTO_FOCUS_ON,
           PARAM_PREVIEW_AUTO_GAIN_ON, PARAM_PREVIEW_AUTO_WB_ON,
           PARAM_TAKE_PICTURE, PARAM_PRIV_FS_CHANGED}
  }

  /**
   * What the dispatch reads of a task must exist: five ints and a picture
   * slot for a shot, one int for the scalar settings.
   */
  predicate WellFormed(t: Task)
  {
    J.IsJavaInt(t.id) &&
    (ParamId(t.id) == PARAM_SHOT ==>
       |t.data| >= 20 && 0 <= PictureId(t.id) < FCAM_MAX_PICTURES_PER_SHOT) &&
    (ReadsOneInt(ParamId(t.id)) ==> |t.data| >= 4)
  }

  function TaskInt(t: Task, k: nat): int
    requires |t.data| >= 4 * (k + 1)
  {
    LeToI32(t.data[4 * k .. 4 * k + 4])
  }

  /** The user and evaluated values after toggling an automatic mode. */
  function Toggled(wasOn: bool, nowOn: bool, user: int, evaluated: int): (r: (int, int))
    ensures !wasOn && nowOn ==> r == (user, user)
    ensures !(!wasOn && nowOn) ==> r == (evaluated, evaluated)
  {
    if !wasOn && nowOn then (user, user) else (evaluated, evaluated)
  }

  function WithExposure(c: CaptureParams, v: int): CaptureParams { c.(exposure := v) }
  function WithFocus(c: CaptureParams, v: int): CaptureParams { c.(focus := v) }
  function WithGain(c: CaptureParams, v: int): CaptureParams { c.(gain := v) }
  function WithWb(c: CaptureParams, v: int): CaptureParams { c.(wb := v) }

  /** The effect of one task on the state (the dispatch `switch`). */
  function Dispatched(s: AppState, t: Task): AppState
    requires StateShape(s) && WellFormed(t)
  {
    var id := ParamId(t.id);
    var cur := s.current;
    var pv := cur.preview;
    var ev := s.previous.preview.evaluated;
    if id == PARAM_SHOT then
      var e := TaskInt(t, SHOT_PARAM_EXPOSURE);
      var entry := CaptureParams(if e < MIN_CAPTURE_EXPOSURE then MIN_CAPTURE_EXPOSURE else e,
                                 TaskInt(t, SHOT_PARAM_FOCUS), TaskInt(t, SHOT_PARAM_GAIN),
                                 TaskInt(t, SHOT_PARAM_WB), TaskInt(t, SHOT_PARAM_FLASH));
      s.(current := cur.(captureSet := cur.captureSet[PictureId(t.id) := entry]))
    else if id == PARAM_PREVIEW_EXPOSURE then
      s.(current := cur.(preview := pv.(user := WithExposure(pv.user, TaskInt(t, 0)))))
    else if id == PARAM_PREVIEW_FOCUS then
      s.(current := cur.(preview := pv.(user := WithFocus(pv.user, TaskInt(t, 0)))))
    else if id == PARAM_PREVIEW_GAIN then
      s.(current := cur.(preview := pv.(user := WithGain(pv.user, TaskInt(t, 0)))))
    else if id == PARAM_PREVIEW_WB then
      s.(current := cur.(preview := pv.(user := WithWb(pv.user, TaskInt(t, 0)))))
    else if id == PARAM_PREVIEW_AUTO_EXPOSURE_ON then
      var on := TaskInt(t, 0) != 0;
      var r := Toggled(pv.autoExposure, on, pv.user.exposure, ev.exposure);
      s.(current := cur.(preview := pv.(autoExposure := on, user := WithExposure(pv.user, r.1))),
         previous := s.previous.(preview := s.previous.preview.(evaluated := WithExposure(ev, r.0))))
    else if id == PARAM_PREVIEW_AUTO_FOCUS_ON then
      var on := TaskInt(t, 0) != 0;
      var r := Toggled(pv.autoFocus, on, pv.user.focus, ev.focus);
      s.(current := cur.(preview := pv.(autoFocus := on, user := WithFocus(pv.user, r.1))),
         previous := s.previous.(preview := s.previous.preview.(evaluated := WithFocus(ev, r.0))))
    else if id == PARAM_PREVIEW_AUTO_GAIN_ON then
      var on := TaskInt(t, 0) != 0;
      var r := Toggled(pv.autoGain, on, pv.user.gain, ev.gain);
      s.(current := cur.(preview := pv.(autoGain := on, user := WithGain(pv.user, r.1))),
         previous := s.previous.(preview := s.previous.preview.(evaluated := WithGain(ev, r.0))))
    else if id == PARAM_PREVIEW_AUTO_WB_ON then
      var on := TaskInt(t, 0) != 0;
      var r := Toggled(pv.autoWB, on, pv.user.wb, ev.wb);
      s.(current := cur.(preview := pv.(autoWB := on, user := WithWb(pv.user, r.1))),
         previous := s.previous.(preview := s.previous.preview.(evaluated := WithWb(ev, r.0))))
    else if id == PARAM_BURST_SIZE then
      s.(current := cur.(burstSize := TaskInt(t, 0)))
    else if id == PARAM_VIEWER_ACTIVE then
      s.(isViewerActive := TaskInt(t, 0) != 0)
    else if id == PARAM_OUTPUT_DIRECTORY then
      if s.writer.None? then s.(writer := Some(t.data)) else s
    else if id == PARAM_OUTPUT_FILE_ID then
      s.(freeFileId := TaskInt(t, 0))
    else if id == PARAM_TAKE_PICTURE then
      if s.writer.Some? && TaskInt(t, 0) != 0 then
        s.(isCapturing := false, captures := s.captures + 1,
           callbacks := s.callbacks + [CaptureStart, CaptureComplete])
      else s
    else if id == PARAM_PRIV_FS_CHANGED then
      if TaskInt(t, 0) != 0 then s.(callbacks := s.callbacks + [FileSystemChange]) else s
    else
      s
  }

  lemma DispatchKeepsShape(s: AppState, t: Task)
    requires StateShape(s) && WellFormed(t)
    ensures StateShape(Dispatched(s, t))
  {
  }

  /** Every task in `ts` applied in order. */
  function DispatchedAll(s: AppState, ts: seq<Task>): (r: AppState)
    requires StateShape(s) && forall i :: 0 <= i < |ts| ==> WellFormed(ts[i])
    ensures StateShape(r)
    decreases |ts|
  {
    if ts == [] then s
    else
      DispatchKeepsShape(s, ts[0]);
      DispatchedAll(Dispatched(s, ts[0]), ts[1..])
  }

  /** `getParamInt`: the value shown to the UI, read from the last completed frame. */
  function GetParamInt(s: AppState, param: int): (r: int)
    requires J.IsJavaInt(param)
    ensures (ParamId(param) !in {PARAM_PREVIEW_EXPOSURE, PARAM_PREVIEW_FOCUS, PARAM_PREVIEW_GAIN,
                                 PARAM_PREVIEW_WB, PARAM_BURST_SIZE, PARAM_OUTPUT_FORMAT,
                                 PARAM_VIEWER_ACTIVE, PARAM_TAKE_PICTURE}) ==> r == -1
    ensures ParamId(param) == PARAM_PREVIEW_EXPOSURE && !s.previous.preview.autoExposure ==>
              r == s.previous.preview.user.exposure
    ensures ParamId(param) == PARAM_PREVIEW_EXPOSURE && s.previous.preview.autoExposure ==>
              r == s.previous.preview.evaluated.exposure
    ensures ParamId(param) == PARAM_PREVIEW_FOCUS ==>
              r == (if s.previous.preview.autoFocus then s.previous.preview.evaluated
                    else s.previous.preview.user).focus
    ensures ParamId(param) == PARAM_PREVIEW_GAIN ==>
              r == (if s.previous.preview.autoGain then s.previous.preview.evaluated
                    else s.previous.preview.user).gain
    ensures ParamId(param) == PARAM_PREVIEW_WB ==>
              r == (if s.previous.preview.autoWB then s.previous.preview.evaluated
                    else s.previous.preview.user).wb
    ensures ParamId(param) == PARAM_BURST_SIZE ==> r == s.previous.burstSize
    ensures ParamId(param) == PARAM_OUTPUT_FORMAT ==> r == s.previous.outputFormat
    ensures ParamId(param) == PARAM_VIEWER_ACTIVE ==> (r == 1 <==> s.isViewerActive) && (r == 0 <==> !s.isViewerActive)
    ensures ParamId(param) == PARAM_TAKE_PICTURE ==> (r == 1 <==> s.isCapturing) && (r == 0 <==> !s.isCapturing)
  {
    var p := s.previous;
    var id := ParamId(param);
    if id == PARAM_PREVIEW_EXPOSURE then
      (if p.preview.autoExposure then p.preview.evaluated.exposure else p.preview.user.exposure)
    else if id == PARAM_PREVIEW_FOCUS then
      (if p.preview.autoFocus then p.preview.evaluated.focus else p.preview.user.focus)
    else if id == PARAM_PREVIEW_GAIN then
      (if p.preview.autoGain then p.preview.evaluated.gain else p.preview.user.gain)
    else if id == PARAM_PREVIEW_WB then
      (if p.preview.autoWB then p.preview.evaluated.wb else p.preview.user.wb)
    else if id == PARAM_BURST_SIZE then p.burstSize
    else if id == PARAM_OUTPUT_FORMAT then p.outputFormat
    else if id == PARAM_VIEWER_ACTIVE then (if s.isViewerActive then 1 else 0)
    else if id == PARAM_TAKE_PICTURE then (if s.isCapturing then 1 else 0)
    else -1
  }

  // ---------------------------------------------------------------------
  // Preview histogram
  // ---------------------------------------------------------------------

  /** The running maximum of the bins, starting from 1. */
  function MaxBin(bins: seq<int>): (m: int)
    ensures m >= 1
    ensures forall i :: 0 <= i < |bins| ==> bins[i] <= m
    ensures m == 1 || m in bins
  {
    if bins == [] then 1
    else
      var rest := MaxBin(bins[..|bins| - 1]);
      assert forall i :: 0 <= i < |bins| - 1 ==> bins[..|bins| - 1][i] == bins[i];
      if bins[|bins| - 1] > rest then bins[|bins| - 1] else rest
  }

  /** Each bin over the largest bin (the value stored in slot 4i). */
  function Normalised(bins: seq<int>): (h: seq<real>)
    ensures |h| == |bins|
  {
    var m := MaxBin(bins) as real;
    seq(|bins|, i requires 0 <= i < |bins| => (bins[i] as real) / m)
  }

  lemma RatioInUnit(x: int, m: int)
    requires 0 <= x <= m && m >= 1
    ensures 0.0 <= (x as real) / (m as real) <= 1.0
  {
    assert (x as real) / (m as real) * (m as real) == x as real;
  }

  lemma RatioOne(m: int)
    requires m >= 1
    ensures (m as real) / (m as real) == 1.0
  {
  }

  /** For counts, every normalised bin is in [0, 1] and the fullest bin shows as 1. */
  lemma NormalisedInUnit(bins: seq<int>)
    requires forall i :: 0 <= i < |bins| ==> bins[i] >= 0
    ensures forall i :: 0 <= i < |bins| ==> 0.0 <= Normalised(bins)[i] <= 1.0
    ensures forall i :: 0 <= i < |bins| && bins[i] == MaxBin(bins) ==> Normalised(bins)[i] == 1.0
    ensures (forall i :: 0 <= i < |bins| ==> bins[i] == 0) ==>
              forall i :: 0 <= i < |bins| ==> Normalised(bins)[i] == 0.0
  {
    var m := MaxBin(bins);
    forall i | 0 <= i < |bins|
      ensures 0.0 <= Normalised(bins)[i] <= 1.0
    {
      RatioInUnit(bins[i], m);
    }
    forall i | 0 <= i < |bins| && bins[i] == m
      ensures Normalised(bins)[i] == 1.0
    {
      RatioInUnit(m, m);
      RatioOne(m);
    }
    if forall i :: 0 <= i < |bins| ==> bins[i] == 0 {
      forall i | 0 <= i < |bins|
        ensures Normalised(bins)[i] == 0.0
      {
        RatioInUnit(0, m);
      }
    }
  }

  /**
   * The two loops that fill the shared histogram array: slot 4i gets the
   * normalised bin i and slots 4i+1..4i+3 get 0.
   */
  method FillPreviewHistogram(bins: seq<int>, data: array<real>)
    requires |bins| == PREVIEW_HISTOGRAM_BINS && data.Length == HISTOGRAM_SIZE
    modifies data
    ensures forall i :: 0 <= i < PREVIEW_HISTOGRAM_BINS ==>
              data[4 * i] == Normalised(bins)[i] &&
              data[4 * i + 1] == 0.0 && data[4 * i + 2] == 0.0 && data[4 * i + 3] == 0.0
  {
    var maxBinValue := CopyBins(bins, data);
    DivideBins(bins, data, maxBinValue as real);
  }

  /** The first loop: each bin into slot 4i, while the largest bin is tracked from 1. */
  method CopyBins(bins: seq<int>, data: array<real>) returns (maxBinValue: int)
    requires |bins| == PREVIEW_HISTOGRAM_BINS && data.Length == HISTOGRAM_SIZE
    modifies data
    ensures maxBinValue == MaxBin(bins)
    ensures forall j :: 0 <= j < PREVIEW_HISTOGRAM_BINS ==> data[4 * j] == bins[j] as real
  {
    maxBinValue := 1;
    for i := 0 to PREVIEW_HISTOGRAM_BINS
      invariant maxBinValue == MaxBin(bins[..i])
      invariant forall j :: 0 <= j < i ==> data[4 * j] == bins[j] as real
    {
      assert bins[..i + 1][..i] == bins[..i];
      var currBinValue := bins[i];
      maxBinValue := if currBinValue > maxBinValue then currBinValue else maxBinValue;
      data[i * 4] := currBinValue as real;
    }
    assert bins[..PREVIEW_HISTOGRAM_BINS] == bins;
  }

  /** The second loop: slot 4i divided by the largest bin, the three slots after it zeroed. */
  method DivideBins(bins: seq<int>, data: array<real>, norm: real)
    requires |bins| == PREVIEW_HISTOGRAM_BINS && data.Length == HISTOGRAM_SIZE
    requires norm == MaxBin(bins) as real
    requires forall j :: 0 <= j < PREVIEW_HISTOGRAM_BINS ==> data[4 * j] == bins[j] as real
    modifies data
    ensures forall i :: 0 <= i < PREVIEW_HISTOGRAM_BINS ==>
              data[4 * i] == Normalised(bins)[i] &&
              data[4 * i + 1] == 0.0 && data[4 * i + 2] == 0.0 && data[4 * i + 3] == 0.0
  {
    for i := 0 to PREVIEW_HISTOGRAM_BINS
      invariant forall j :: 0 <= j < i ==>
                  data[4 * j] == Normalised(bins)[j] &&
                  data[4 * j + 1] == 0.0 && data[4 * j + 2] == 0.0 && data[4 * j + 3] == 0.0
      invariant forall j :: i <= j < PREVIEW_HISTOGRAM_BINS ==> data[4 * j] == bins[j] as real
    {
      data[i * 4] := data[i * 4] / norm;
      data[i * 4 + 1] := 0.0;
      data[i * 4 + 2] := 0.0;
      data[i * 4 + 3] := 0.0;
    }
  }

  // ---------------------------------------------------------------------
  // End of a preview frame
  // ---------------------------------------------------------------------

  /**
   * The state after a preview frame: the metering results are taken for the
   * automatic modes that are on, the histogram is published, and the current
   * shot is copied over the previous one.
   */
  function FrameDone(s: AppState, metered: CaptureParams, histogram: seq<real>): (r: AppState)
    requires StateShape(s) && |histogram| == HISTOGRAM_SIZE
    ensures StateShape(r)
  {
    var pv := s.current.preview;
    var ev := pv.evaluated;
    var ev1 := if pv.autoExposure || pv.autoGain then ev.(exposure := metered.exposure, gain := metered.gain) else ev;
    var ev2 := if pv.autoWB then ev1.(wb := metered.wb) else ev1;
    var ev3 := if pv.autoFocus then ev2.(focus := metered.focus) else ev2;
    var cur := s.current.(preview := pv.(evaluated := ev3), histogramData := histogram);
    s.(current := cur, previous := cur)
  }

  /**
   * A preview value set by the user while its automatic mode is off is what
   * `getParamInt` reports once the next frame has completed.
   */
  lemma UserValueReadBack(s: AppState, value: int, metered: CaptureParams, histogram: seq<real>)
    requires StateShape(s) && J.IsJavaInt(value) && |histogram| == HISTOGRAM_SIZE
    requires !s.current.preview.autoExposure
    ensures WellFormed(Task(PARAM_PREVIEW_EXPOSURE, I32ToLe(value)))
    ensures GetParamInt(FrameDone(Dispatched(s, Task(PARAM_PREVIEW_EXPOSURE, I32ToLe(value))), metered, histogram),
                        PARAM_PREVIEW_EXPOSURE) == value
  {
    var t := Task(PARAM_PREVIEW_EXPOSURE, I32ToLe(value));
    assert t.data[0 .. 4] == I32ToLe(value);
    I32RoundTrip(value);
    assert TaskInt(t, 0) == value;
  }

  /** The automatic mode that governs a preview setting, as `getParamInt` consults it. */
  function AutoFor(pv: Preview, id: int): bool
  {
    if id == PARAM_PREVIEW_EXPOSURE then pv.autoExposure
    else if id == PARAM_PREVIEW_FOCUS then pv.autoFocus
    else if id == PARAM_PREVIEW_GAIN then pv.autoGain
    else pv.autoWB
  }

  /**
   * Any of the four preview settings, or the burst size, set through
   * `setParamInt` (with the automatic mode off for a preview setting) is what
   * `getParamInt` reports for the same id once the next frame has completed.
   */
  lemma SettingReadBack(s: AppState, id: int, value: int, metered: CaptureParams, histogram: seq<real>)
    requires StateShape(s) && J.IsJavaInt(value) && |histogram| == HISTOGRAM_SIZE
    requires id in {PARAM_PREVIEW_EXPOSURE, PARAM_PREVIEW_FOCUS, PARAM_PREVIEW_GAIN, PARAM_PREVIEW_WB,
                    PARAM_BURST_SIZE}
    requires id != PARAM_BURST_SIZE ==> !AutoFor(s.current.preview, id)
    ensures WellFormed(Task(id, I32ToLe(value)))
    ensures GetParamInt(FrameDone(Dispatched(s, Task(id, I32ToLe(value))), metered, histogram), id) == value
  {
    var t := Task(id, I32ToLe(value));
    assert t.data[0 .. 4] == I32ToLe(value);
    I32RoundTrip(value);
    assert ParamId(id) == id;
    assert TaskInt(t, 0) == value;
  }

  /**
   * The request the Java side sends for shot i of a burst, once dispatched,
   * fills capture slot i with that shot (exposure raised to at least 1000)
   * and leaves the other slots as they were.
   */
  lemma ShotDelivered(s: AppState, i: int, shot: J.FCamShot)
    requires StateShape(s) && 0 <= i < FCAM_MAX_PICTURES_PER_SHOT && J.ShotFits(shot)
    ensures WellFormed(Task(J.ShotMessageId(i), I32sToLe(J.ShotArray(shot))))
    ensures var r := Dispatched(s, Task(J.ShotMessageId(i), I32sToLe(J.ShotArray(shot))));
            r.current.captureSet[i] ==
              CaptureParams(if shot.exposure < MIN_CAPTURE_EXPOSURE then MIN_CAPTURE_EXPOSURE else shot.exposure,
                            shot.focus, shot.gain, shot.wb, if shot.flashOn then 1 else 0) &&
            (forall k :: 0 <= k < FCAM_MAX_PICTURES_PER_SHOT && k != i ==>
               r.current.captureSet[k] == s.current.captureSet[k]) &&
            r.previous == s.previous
  {
    ShotTaskDecodes(i, shot);
    ShotEntryStored(s, Task(J.ShotMessageId(i), I32sToLe(J.ShotArray(shot))));
  }

  /** The request for shot i is well formed, names shot i, and carries the shot's five values in order. */
  lemma ShotTaskDecodes(i: int, shot: J.FCamShot)
    requires 0 <= i < FCAM_MAX_PICTURES_PER_SHOT && J.ShotFits(shot)
    ensures var t := Task(J.ShotMessageId(i), I32sToLe(J.ShotArray(shot)));
            && WellFormed(t) && ParamId(t.id) == PARAM_SHOT && PictureId(t.id) == i
            && TaskInt(t, SHOT_PARAM_EXPOSURE) == shot.exposure && TaskInt(t, SHOT_PARAM_FOCUS) == shot.focus
            && TaskInt(t, SHOT_PARAM_GAIN) == shot.gain && TaskInt(t, SHOT_PARAM_WB) == shot.wb
            && TaskInt(t, SHOT_PARAM_FLASH) == (if shot.flashOn then 1 else 0)
  {
    var a := J.ShotArray(shot);
    var t := Task(J.ShotMessageId(i), I32sToLe(a));
    ShotIdDecodes(i);
    I32sRoundTrip(a, []);
    assert I32sToLe(a) + [] == I32sToLe(a);
    var vs := LeToI32s(t.data, 5);
    assert vs == a;
    forall k | 0 <= k < 5
      ensures TaskInt(t, k) == a[k]
    {
      ElementOfInts(t.data, 5, k);
    }
  }

  /** A shot request stores its entry in the capture slot it names and changes nothing else. */
  lemma ShotEntryStored(s: AppState, t: Task)
    requires StateShape(s) && WellFormed(t) && ParamId(t.id) == PARAM_SHOT
    ensures var e := TaskInt(t, SHOT_PARAM_EXPOSURE);
            Dispatched(s, t) ==
              s.(current := s.current.(captureSet := s.current.captureSet[PictureId(t.id) :=
                CaptureParams(if e < MIN_CAPTURE_EXPOSURE then MIN_CAPTURE_EXPOSURE else e,
                              TaskInt(t, SHOT_PARAM_FOCUS), TaskInt(t, SHOT_PARAM_GAIN),
                              TaskInt(t, SHOT_PARAM_WB), TaskInt(t, SHOT_PARAM_FLASH))]))
  {
  }

  /** Element k of the decoded ints comes from bytes 4k..4k+4. */
  lemma {:induction false} ElementOfInts(bs: seq<byte>, n: nat, k: nat)
    requires |bs| >= 4 * n && k < n
    ensures LeToI32s(bs, n)[k] == LeToI32(bs[4 * k .. 4 * k + 4])
  {
    if k > 0 {
      ElementOfInts(bs[4..], n - 1, k - 1);
      assert bs[4..][4 * (k - 1) .. 4 * (k - 1) + 4] == bs[4 * k .. 4 * k + 4];
    }
  }

  /**
   * Switching an automatic mode on from off hands the user value to the
   * evaluator; any other toggle copies the evaluated value into the user value.
   */
  lemma AutoExposureToggle(s: AppState, t: Task)
    requires StateShape(s) && WellFormed(t) && ParamId(t.id) == PARAM_PREVIEW_AUTO_EXPOSURE_ON
    ensures var r := Dispatched(s, t);
            r.current.preview.autoExposure == (TaskInt(t, 0) != 0) &&
            (!s.current.preview.autoExposure && TaskInt(t, 0) != 0 ==>
               r.previous.preview.evaluated.exposure == s.current.preview.user.exposure &&
               r.current.preview.user == s.current.preview.user) &&
            (s.current.preview.autoExposure || TaskInt(t, 0) == 0 ==>
               r.current.preview.user.exposure == s.previous.preview.evaluated.exposure &&
               r.previous == s.previous)
  {
  }

  /** The writer is created by the first output-directory request only. */
  lemma WriterCreatedOnce(s: AppState, t: Task)
    requires StateShape(s) && WellFormed(t) && ParamId(t.id) == PARAM_OUTPUT_DIRECTORY
    ensures Dispatched(s, t).writer == if s.writer.None? then Some(t.data) else s.writer
  {
  }

  /** A capture runs, bracketed by the two callbacks, only with a writer and a non-zero flag. */
  lemma CaptureNeedsWriter(s: AppState, t: Task)
    requires StateShape(s) && WellFormed(t) && ParamId(t.id) == PARAM_TAKE_PICTURE
    ensures var r := Dispatched(s, t);
            (r.captures == s.captures + 1 <==> s.writer.Some? && TaskInt(t, 0) != 0) &&
            (r.captures == s.captures + 1 ==> r.callbacks == s.callbacks + [CaptureStart, CaptureComplete]) &&
            (r.captures == s.captures ==> r == s)
  {
  }

  // ---------------------------------------------------------------------
  // The shared native state
  // ---------------------------------------------------------------------

  class NativeApp {
    var current: ShotParams
    var previous: ShotParams
    var isViewerActive: bool
    var isCapturing: bool
    var writer: Option<seq<byte>>
    var freeFileId: int
    var captures: nat
    var callbacks: seq<Callback>
    /** Requests produced by the UI thread and not yet consumed. */
    var requestQueue: seq<Task>

    function State(): AppState
      reads this
    {
      AppState(current, previous, isViewerActive, isCapturing, writer, freeFileId, captures, callbacks)
    }

    /** `setParamInt`: queue the value as a 4-byte request. */
    method SetParamInt(param: int, value: int)
      requires J.IsJavaInt(value)
      modifies this
      ensures State() == old(State())
      ensures requestQueue == old(requestQueue) + [Task(param, I32ToLe(value))]
    {
      var request := new ParamSetRequest(param, Some(I32ToLe(value)), 4);
      assert I32ToLe(value)[..4] == I32ToLe(value);
      requestQueue := requestQueue + [Task(request.id, request.Bytes())];
    }

    /** `setParamIntArray`: only a 5-int `PARAM_SHOT` array is queued. */
    method SetParamIntArray(param: int, values: seq<int>)
      requires J.IsJavaInt(param)
      requires forall i :: 0 <= i < |values| ==> -0x8000_0000 <= values[i] < 0x8000_0000
      modifies this
      ensures State() == old(State())
      ensures requestQueue == if ParamId(param) == PARAM_SHOT && |values| == 5
                              then old(requestQueue) + [Task(param, I32sToLe(values))]
                              else old(requestQueue)
    {
      var paramId := ParamId(param);
      if paramId == PARAM_SHOT {
        if |values| != 5 {
          return;
        }
        var bytes := I32sToLe(values);
        var request := new ParamSetRequest(param, Some(bytes), |bytes|);
        assert bytes[..|bytes|] == bytes;
        requestQueue := requestQueue + [Task(request.id, request.Bytes())];
      }
    }

    /** `setParamString`: the characters and the terminating NUL. */
    method SetParamString(param: int, value: seq<byte>)
      modifies this
      ensures State() == old(State())
      ensures requestQueue == old(requestQueue) + [Task(param, value + [0])]
    {
      var bytes := value + [0];
      var request := new ParamSetRequest(param, Some(bytes), |bytes|);
      assert bytes[..|bytes|] == bytes;
      requestQueue := requestQueue + [Task(request.id, request.Bytes())];
    }

    /** The writer's file-system callback queues a private request with 1. */
    method OnFileSystemChanged()
      modifies this
      ensures State() == old(State())
      ensures requestQueue == old(requestQueue) + [Task(PARAM_PRIV_FS_CHANGED, I32ToLe(1))]
    {
      SetParamInt(PARAM_PRIV_FS_CHANGED, 1);
    }

    /** One case of the dispatch `switch`. */
    method Dispatch(task: Task)
      requires StateShape(State()) && WellFormed(task)
      modifies this
      ensures State() == Dispatched(old(State()), task)
      ensures requestQueue == old(requestQueue)
    {
      var taskId := ParamId(task.id);
      if taskId == PARAM_SHOT {
        var pictureId := PictureId(task.id);
        var e := TaskInt(task, SHOT_PARAM_EXPOSURE);
        var entry := CaptureParams(if e < MIN_CAPTURE_EXPOSURE then MIN_CAPTURE_EXPOSURE else e,
                                   TaskInt(task, SHOT_PARAM_FOCUS), TaskInt(task, SHOT_PARAM_GAIN),
                                   TaskInt(task, SHOT_PARAM_WB), TaskInt(task, SHOT_PARAM_FLASH));
        current := current.(captureSet := current.captureSet[pictureId := entry]);
      } else if taskId == PARAM_PREVIEW_EXPOSURE {
        current := current.(preview := current.preview.(user := WithExposure(current.preview.user, TaskInt(task, 0))));
      } else if taskId == PARAM_PREVIEW_FOCUS {
        current := current.(preview := current.preview.(user := WithFocus(current.preview.user, TaskInt(task, 0))));
      } else if taskId == PARAM_PREVIEW_GAIN {
        current := current.(preview := current.preview.(user := WithGain(current.preview.user, TaskInt(task, 0))));
      } else if taskId == PARAM_PREVIEW_WB {
        current := current.(preview := current.preview.(user := WithWb(current.preview.user, TaskInt(task, 0))));
      } else if taskId == PARAM_PREVIEW_AUTO_EXPOSURE_ON {
        var prevValue := current.preview.autoExposure;
        current := current.(preview := current.preview.(autoExposure := TaskInt(task, 0) != 0));
        if !prevValue && current.preview.autoExposure {
          previous := previous.(preview := previous.preview.(evaluated := WithExposure(previous.preview.evaluated, current.preview.user.exposure)));
        } else {
          current := current.(preview := current.preview.(user := WithExposure(current.preview.user, previous.preview.evaluated.exposure)));
        }
      } else if taskId == PARAM_PREVIEW_AUTO_FOCUS_ON {
        var prevValue := current.preview.autoFocus;
        current := current.(preview := current.preview.(autoFocus := TaskInt(task, 0) != 0));
        if !prevValue && current.preview.autoFocus {
          previous := previous.(preview := previous.preview.(evaluated := WithFocus(previous.preview.evaluated, current.preview.user.focus)));
        } else {
          current := current.(preview := current.preview.(user := WithFocus(current.preview.user, previous.preview.evaluated.focus)));
        }
      } else if taskId == PARAM_PREVIEW_AUTO_GAIN_ON {
        var prevValue := current.preview.autoGain;
        current := current.(preview := current.preview.(autoGain := TaskInt(task, 0) != 0));
        if !prevValue && current.preview.autoGain {
          previous := previous.(preview := previous.preview.(evaluated := WithGain(previous.preview.evaluated, current.preview.user.gain)));
        } else {
          current := current.(preview := current.preview.(user := WithGain(current.preview.user, previous.preview.evaluated.gain)));
        }
      } else if taskId == PARAM_PREVIEW_AUTO_WB_ON {
        var prevValue := current.preview.autoWB;
        current := current.(preview := current.preview.(autoWB := TaskInt(task, 0) != 0));
        if !prevValue && current.preview.autoWB {
          previous := previous.(preview := previous.preview.(evaluated := WithWb(previous.preview.evaluated, current.preview.user.wb)));
        } else {
          current := current.(preview := current.preview.(user := WithWb(current.preview.user, previous.preview.evaluated.wb)));
        }
      } else if taskId == PARAM_BURST_SIZE {
        current := current.(burstSize := TaskInt(task, 0));
      } else if taskId == PARAM_VIEWER_ACTIVE {
        isViewerActive := TaskInt(task, 0) != 0;
      } else if taskId == PARAM_OUTPUT_DIRECTORY {
        if writer.None? {
          writer := Some(task.data);
        }
      } else if taskId == PARAM_OUTPUT_FILE_ID {
        freeFileId := TaskInt(task, 0);
      } else if taskId == PARAM_TAKE_PICTURE {
        if writer.Some? && TaskInt(task, 0) != 0 {
          isCapturing := true;
          callbacks := callbacks + [CaptureStart];
          captures := captures + 1;
          isCapturing := false;
          callbacks := callbacks + [CaptureComplete];
        }
      } else if taskId == PARAM_PRIV_FS_CHANGED {
        if TaskInt(task, 0) != 0 {
          callbacks := callbacks + [FileSystemChange];
        }
      }
    }

    /** Takes every queued request and dispatches them in order. */
    method ProcessTasks()
      requires StateShape(State())
      requires forall i :: 0 <= i < |requestQueue| ==> WellFormed(requestQueue[i])
      modifies this
      ensures requestQueue == []
      ensures State() == DispatchedAll(old(State()), old(requestQueue))
    {
      var taskQueue := requestQueue;
      requestQueue := [];
      while taskQueue != []
        invariant StateShape(State())
        invariant forall i :: 0 <= i < |taskQueue| ==> WellFormed(taskQueue[i])
        invariant requestQueue == []
        invariant DispatchedAll(State(), taskQueue) == DispatchedAll(old(State()), old(requestQueue))
        decreases |taskQueue|
      {
        var task := taskQueue[0];
        taskQueue := taskQueue[1..];
        DispatchKeepsShape(State(), task);
        Dispatch(task);
      }
    }

    /**
     * The rest of one loop iteration: nothing more while the viewer is off;
     * otherwise the metering results, the histogram and the copy of the
     * current shot into the previous one.
     */
    method RunFrame(metered: CaptureParams, bins: seq<int>)
      requires StateShape(State()) && |bins| == PREVIEW_HISTOGRAM_BINS
      modifies this
      ensures requestQueue == old(requestQueue)
      ensures StateShape(State())
      ensures !old(isViewerActive) ==> State() == old(State())
      ensures old(isViewerActive) ==> State() == FrameDone(old(State()), metered, current.histogramData)
      ensures old(isViewerActive) ==>
                forall i :: 0 <= i < PREVIEW_HISTOGRAM_BINS ==>
                  current.histogramData[4 * i] == Normalised(bins)[i] &&
                  current.histogramData[4 * i + 1] == 0.0 && current.histogramData[4 * i + 2] == 0.0 &&
                  current.histogramData[4 * i + 3] == 0.0
    {
      if !isViewerActive {
        return;
      }
      var ev := current.preview.evaluated;
      if current.preview.autoExposure || current.preview.autoGain {
        ev := ev.(exposure := metered.exposure, gain := metered.gain);
      }
      if current.preview.autoWB {
        ev := ev.(wb := metered.wb);
      }
      if current.preview.autoFocus {
        ev := ev.(focus := metered.focus);
      }
      current := current.(preview := current.preview.(evaluated := ev));
      var data := new real[HISTOGRAM_SIZE];
      FillPreviewHistogram(bins, data);
      current := current.(histogramData := data[..]);
      previous := current;
    }
  }
}

=== FILE: fcam_image.dfy ===
/**
 * FCam::Image (external/FCam/Image.cpp): a handle onto image memory. Several
 * handles can share one buffer; they share a reference counter with it, and
 * the buffer is released when the counter drops to zero. Pointers are
 * modelled as a block plus a byte offset; a null block stands for a raw
 * address, so `Discard` is address 0 and `AutoAllocate` address -1.
 */
module FCamImages {
  import opened Base
  import opened CArith

  /** One allocation (`new unsigned char[]` or an `mmap`ed region). */
  class Block {
    var released: bool

    constructor ()
      ensures !released
    {
      released := false;
    }
  }

  /** The shared `unsigned *refCount`. */
  class Counter {
    var count: int

    constructor (n: int)
      ensures count == n
    {
      count := n;
    }
  }

  datatype Ptr = Ptr(block: Block?, offset: int)

  const DISCARD: Ptr := Ptr(null, 0)
  const AUTO_ALLOCATE: Ptr := Ptr(null, -1)

  function Advance(p: Ptr, k: int): (q: Ptr)
    ensures q.block == p.block && q.offset - p.offset == k
  {
    Ptr(p.block, p.offset + k)
  }

  /** The fields of one handle. The mutex and the private data are left out. */
  datatype ImageView = ImageView(
    width: int, height: int, format: ImageFormat,
    bytesPerPixel: int, bytesPerRow: int,
    data: Ptr, buffer: Ptr, bytesAllocated: int,
    refCount: Counter?, memMapped: bool)

  /** The default image: no size, unknown format, Discard data, no counter. */
  const DEFAULT_VIEW: ImageView :=
    ImageView(0, 0, UNKNOWN, 0, 0, DISCARD, DISCARD, 0, null, false)

  /** `valid()`: the data pointer is neither Discard nor AutoAllocate. */
  predicate IsValid(v: ImageView)
  {
    v.data != DISCARD && v.data != AUTO_ALLOCATE
  }

  lemma DefaultIsInvalid()
    ensures !IsValid(DEFAULT_VIEW)
  {
  }

  /** `allocateHeight()`: YUV420p stores its half-height chroma planes below the luma rows. */
  function AllocateHeight(format: ImageFormat, height: int): (h: int)
    requires height >= 0
    ensures h >= height
  {
    match format
    case YUV420p => height + height / 2
    case _ => height
  }

  /**
   * A YUV420p buffer of `AllocateHeight` rows of `width` bytes holds the luma
   * plane and two chroma planes of half width and half height.
   */
  lemma AllocateHeightHoldsPlanes(width: nat, height: nat)
    ensures AllocateHeight(YUV420p, height) * width >= width * height + 2 * ((width / 2) * (height / 2))
  {
    var hw := width / 2;
    var hh := height / 2;
    assert 2 * hw <= width;
    assert (height + hh) * width == width * height + hh * width;
    assert hh * width >= hh * (2 * hw) by {
      MulLe(hh, 2 * hw, width);
    }
    assert hh * (2 * hw) == 2 * (hw * hh);
  }

  lemma MulLe(a: nat, b: nat, c: nat)
    requires b <= c
    ensures a * b <= a * c
  {
  }

  /** `operator==`: same data pointer, width, height and format. */
  predicate ImageEqual(a: ImageView, b: ImageView)
  {
    a.data == b.data && a.width == b.width && a.height == b.height && a.format == b.format
  }

  lemma ImageEqualIsEquivalence(a: ImageView, b: ImageView, c: ImageView)
    ensures ImageEqual(a, a)
    ensures ImageEqual(a, b) ==> ImageEqual(b, a)
    ensures ImageEqual(a, b) && ImageEqual(b, c) ==> ImageEqual(a, c)
  {
  }

  /** `setBuffer(b, d)` on the pointer fields: Discard and AutoAllocate leave no buffer; a null `d` means `b`. */
  function WithBuffer(v: ImageView, b: Ptr, d: Ptr): (r: ImageView)
    ensures r.buffer == (if b == DISCARD || b == AUTO_ALLOCATE then DISCARD else b)
    ensures r.data == (if d == DISCARD then b else d)
    ensures r.refCount == null && WellFormed(r)
    ensures r.(buffer := v.buffer, data := v.data, refCount := v.refCount) == v
  {
    v.(buffer := if b == DISCARD || b == AUTO_ALLOCATE then DISCARD else b,
       data := if d == DISCARD then b else d,
       refCount := null)
  }

  /**
   * The clipped size of a sub-image whose origin lies inside the image. The
   * origin and `width()` are `unsigned`, so `x + s.width > width()` is an
   * unsigned comparison: a negative size that reaches before column 0 wraps
   * to a huge sum and is clipped to the edge, while a negative size that
   * stays at or after column 0 is kept.
   */
  function ClipSize(width: int, height: int, x: nat, y: nat, s: Size): (c: Size)
    requires x < width <= INT32_MAX && y < height <= INT32_MAX
    requires IsInt32(s.width) && IsInt32(s.height)
    ensures x + c.width <= width && y + c.height <= height
    ensures c.width == s.width <==> 0 <= x + s.width <= width
    ensures c.height == s.height <==> 0 <= y + s.height <= height
    ensures c.width != s.width ==> c.width == width - x
    ensures c.height != s.height ==> c.height == height - y
    ensures s.width >= 0 && s.height >= 0 ==> c.width >= 0 && c.height >= 0
  {
    Size(if (x + s.width) % 0x1_0000_0000 > width then width - x else s.width,
         if (y + s.height) % 0x1_0000_0000 > height then height - y else s.height)
  }

  /** A width of -1 at the left edge wraps in the unsigned test and is clipped to the whole row. */
  lemma MinusOneWidthClipped(width: int, height: int)
    requires 0 < width <= INT32_MAX && 0 < height <= INT32_MAX
    ensures ClipSize(width, height, 0, 0, Size(-1, -1)) == Size(width, height)
  {
  }

  /**
   * The view `subImage(x, y, s)` returns: an invalid default view when the
   * source is invalid or the origin is outside it; otherwise the clipped
   * region, sharing the source's buffer and counter, starting `x` pixels and
   * `y` rows into the source's data.
   */
  function SubImageView(v: ImageView, x: nat, y: nat, s: Size): (r: ImageView)
    requires 0 <= v.width <= INT32_MAX && 0 <= v.height <= INT32_MAX
    requires IsInt32(s.width) && IsInt32(s.height)
    ensures !IsValid(v) || x >= v.width || y >= v.height ==> r == DEFAULT_VIEW
    ensures IsValid(v) && x < v.width && y < v.height ==>
              x + r.width <= v.width && y + r.height <= v.height &&
              r.format == v.format && r.bytesPerRow == ExternalRowBytes(v.format, r.width, v.bytesPerRow) &&
              r.refCount == v.refCount && r.bytesAllocated == v.bytesAllocated && r.memMapped == v.memMapped &&
              (Advance(v.data, x * v.bytesPerPixel + y * v.bytesPerRow) != DISCARD ==>
                 r.data == Advance(v.data, x * v.bytesPerPixel + y * v.bytesPerRow))
  {
    if !IsValid(v) || x >= v.width || y >= v.height then DEFAULT_VIEW
    else
      var c := ClipSize(v.width, v.height, x, y, s);
      var shell := ExternalView(c.width, c.height, v.format, DISCARD, v.bytesPerRow);
      var offset := x * v.bytesPerPixel + y * v.bytesPerRow;
      WithBuffer(shell, v.buffer, Advance(v.data, offset)).(
        bytesAllocated := v.bytesAllocated, refCount := v.refCount, memMapped := v.memMapped)
  }

  /** Row pitch of an image over caller-supplied data: -1 asks for the packed pitch. */
  function ExternalRowBytes(format: ImageFormat, width: int, srcBytesPerRow: int): (bpr: int)
    ensures srcBytesPerRow != -1 ==> bpr == srcBytesPerRow
    ensures srcBytesPerRow == -1 ==> bpr == BytesPerPixel(format) * width
  {
    if srcBytesPerRow == -1 then BytesPerPixel(format) * width else srcBytesPerRow
  }

  /** The fields `Image(size, f, d, srcBytesPerRow)` sets before its counter. */
  function ExternalView(w: int, h: int, f: ImageFormat, d: Ptr, srcBytesPerRow: int): (v: ImageView)
    ensures v.buffer == DISCARD && v.data == d && v.refCount == null && v.bytesAllocated == 0
    ensures v.width == w && v.height == h && v.format == f
    ensures v.bytesPerPixel == BytesPerPixel(f) && v.bytesPerRow == ExternalRowBytes(f, w, srcBytesPerRow)
  {
    WithBuffer(ImageView(w, h, f, BytesPerPixel(f), ExternalRowBytes(f, w, srcBytesPerRow), DISCARD, DISCARD, 0, null, false),
               DISCARD, d)
  }

  /** One `memcpy(dst, src, n)`. */
  datatype MemCopy = MemCopy(dst: Ptr, src: Ptr, n: int)

  /** An image that owns a freshly allocated buffer of `bytesPerRow × allocateHeight` bytes. */
  predicate Allocated(v: ImageView)
  {
    v.width >= 0 && v.height >= 0 &&
    v.bytesPerPixel == BytesPerPixel(v.format) &&
    v.bytesPerRow == v.bytesPerPixel * v.width &&
    v.bytesAllocated == v.bytesPerRow * AllocateHeight(v.format, v.height) &&
    v.data == v.buffer && v.data.offset == 0
  }

  /**
   * The rows `copyFrom` copies between two allocated images stay inside both
   * buffers: the row count is below both allocated heights and the row
   * length below both row pitches.
   */
  lemma CopyRowsInside(dst: ImageView, src: ImageView, y: int)
    requires Allocated(dst) && Allocated(src)
    requires 0 <= y < Min(AllocateHeight(src.format, src.height), AllocateHeight(dst.format, dst.height))
    ensures var n := Min(src.width * src.bytesPerPixel, dst.width * dst.bytesPerPixel);
            0 <= y * dst.bytesPerRow && y * dst.bytesPerRow + n <= dst.bytesAllocated &&
            0 <= y * src.bytesPerRow && y * src.bytesPerRow + n <= src.bytesAllocated
  {
    RowInside(y, dst.bytesPerRow, AllocateHeight(dst.format, dst.height));
    RowInside(y, src.bytesPerRow, AllocateHeight(src.format, src.height));
  }

  lemma RowInside(y: nat, pitch: nat, rows: nat)
    requires y < rows
    ensures y * pitch + pitch <= pitch * rows
  {
    assert (y + 1) * pitch <= rows * pitch by {
      MulLe(pitch, y + 1, rows);
    }
  }

  /**
   * The early return of `operator=`: the target already holds a counter and
   * shares both that counter and the data pointer with the source.
   */
  predicate SharesHandle(dst: ImageView, src: ImageView)
  {
    dst.refCount != null && dst.refCount == src.refCount && dst.data == src.data
  }

  /**
   * The buffer is never AutoAllocate, and Discard data goes with no buffer:
   * what every constructor and `setBuffer` leave behind.
   */
  predicate WellFormed(v: ImageView)
  {
    v.buffer != AUTO_ALLOCATE && (v.data == DISCARD ==> v.buffer == DISCARD)
  }

  /** The fields `operator=` leaves in a target distinct from its source, as written. */
  function AssignedView(dst: ImageView, src: ImageView): (r: ImageView)
    ensures SharesHandle(dst, src) ==> r == dst
    ensures !SharesHandle(dst, src) && WellFormed(src) ==> r == src
  {
    if SharesHandle(dst, src) then dst
    else WithBuffer(src, src.buffer, src.data).(refCount := src.refCount)
  }

  /**
   * As written, assigning an image to a sub-image that starts at its origin
   * is skipped: the sub-image shares the counter and the data pointer, so it
   * keeps its smaller size and the two do not compare equal afterwards.
   */
  lemma AssignToOriginSubImageKeepsSize(blk: Block, c: Counter)
    ensures var parent := ImageView(640, 480, RGB24, 3, 1920, Ptr(blk, 0), Ptr(blk, 0), 1920 * 480, c, false);
            var sub := SubImageView(parent, 0, 0, Size(10, 10));
            IsValid(sub) && sub.width == 10 &&
            AssignedView(sub, parent).width == 10 && !ImageEqual(AssignedView(sub, parent), parent)
  {
    var parent := ImageView(640, 480, RGB24, 3, 1920, Ptr(blk, 0), Ptr(blk, 0), 1920 * 480, c, false);
    assert Advance(parent.data, 0) != DISCARD;
    var sub := SubImageView(parent, 0, 0, Size(10, 10));
    assert SharesHandle(sub, parent);
  }

  /**
   * `operator=` with the early return restricted to targets that already
   * equal the source: afterwards the target always compares equal to it.
   */
  function AssignedViewFixed(dst: ImageView, src: ImageView): (r: ImageView)
    requires WellFormed(src)
    ensures ImageEqual(r, src)
    ensures !(SharesHandle(dst, src) && ImageEqual(dst, src)) ==> r == src
    ensures SharesHandle(dst, src) && ImageEqual(dst, src) ==> r == dst
  {
    if SharesHandle(dst, src) && ImageEqual(dst, src) then dst
    else WithBuffer(src, src.buffer, src.data).(refCount := src.refCount)
  }

  class Image {
    var width: int
    var height: int
    var format: ImageFormat
    var bytesPerPixel: int
    var bytesPerRow: int
    var data: Ptr
    var buffer: Ptr
    var bytesAllocated: int
    var refCount: Counter?
    var memMapped: bool
    var holdingLock: bool

    function View(): ImageView
      reads this
    {
      ImageView(width, height, format, bytesPerPixel, bytesPerRow, data, buffer, bytesAllocated, refCount, memMapped)
    }

    method SetView(v: ImageView)
      modifies this
      ensures View() == v && holdingLock == old(holdingLock)
    {
      width, height, format := v.width, v.height, v.format;
      bytesPerPixel, bytesPerRow := v.bytesPerPixel, v.bytesPerRow;
      data, buffer, bytesAllocated := v.data, v.buffer, v.bytesAllocated;
      refCount, memMapped := v.refCount, v.memMapped;
    }

    /** `Image()`: an invalid image. */
    constructor Default()
      ensures View() == DEFAULT_VIEW && !IsValid(View()) && WellFormed(View()) && !holdingLock
    {
      width, height, format := 0, 0, UNKNOWN;
      bytesPerPixel, bytesPerRow := 0, 0;
      data, buffer, bytesAllocated := DISCARD, DISCARD, 0;
      refCount, memMapped := null, false;
      holdingLock := false;
    }

    /**
     * `Image(w, h, f)` and `Image(Size, f)`: a new buffer of
     * `bytesPerRow × allocateHeight` bytes with a counter of 1.
     */
    constructor Alloc(w: nat, h: nat, f: ImageFormat)
      ensures Allocated(View()) && width == w && height == h && format == f
      ensures bytesPerRow == BytesPerPixel(f) * w
      ensures bytesAllocated == bytesPerRow * AllocateHeight(f, h)
      ensures data.block != null && fresh(data.block) && !data.block.released
      ensures refCount != null && fresh(refCount) && refCount.count == 1
      ensures IsValid(View()) && WellFormed(View()) && !memMapped && !holdingLock
    {
      width, height, format := w, h, f;
      bytesPerPixel := BytesPerPixel(f);
      var bpr := BytesPerPixel(f) * w;
      bytesPerRow := bpr;
      bytesAllocated := bpr * AllocateHeight(f, h);
      var block := new Block();
      buffer := Ptr(block, 0);
      data := Ptr(block, 0);
      refCount := new Counter(1);
      memMapped := false;
      holdingLock := false;
    }

    /**
     * `Image(size, f, d, srcBytesPerRow)`: a view of memory the caller owns.
     * A valid one gets a counter of 2, for itself and the owner.
     */
    constructor External(w: int, h: int, f: ImageFormat, d: Ptr, srcBytesPerRow: int)
      ensures View().(refCount := null) == ExternalView(w, h, f, d, srcBytesPerRow)
      ensures IsValid(View()) ==> refCount != null && fresh(refCount) && refCount.count == 2
      ensures !IsValid(View()) ==> refCount == null
      ensures !holdingLock
    {
      width, height, format := w, h, f;
      bytesPerPixel := BytesPerPixel(f);
      bytesPerRow := ExternalRowBytes(f, w, srcBytesPerRow);
      data, buffer, bytesAllocated := d, DISCARD, 0;
      memMapped := false;
      holdingLock := false;
      if d != DISCARD && d != AUTO_ALLOCATE {
        refCount := new Counter(2);
      } else {
        refCount := null;
      }
    }

    /** The copy constructor: the same view, one more holder of the counter. */
    constructor Copy(other: Image)
      modifies other.refCount
      ensures View() == old(other.View()) && ImageEqual(View(), other.View())
      ensures refCount != null ==> refCount.count == old(other.refCount.count) + 1
      ensures !holdingLock
    {
      width, height, format := other.width, other.height, other.format;
      bytesPerPixel, bytesPerRow := other.bytesPerPixel, other.bytesPerRow;
      data, buffer, bytesAllocated := other.data, other.buffer, other.bytesAllocated;
      refCount, memMapped := other.refCount, other.memMapped;
      holdingLock := false;
      new;
      if refCount != null {
        refCount.count := refCount.count + 1;
      }
    }

    /**
     * `setBuffer(b, d)`: lets go of the current counter (releasing the buffer
     * when it reaches zero) and points the handle at `b`/`d`.
     */
    method SetBuffer(b: Ptr, d: Ptr)
      modifies this, refCount, buffer.block
      ensures View() == WithBuffer(old(View()), b, d) && !holdingLock
      ensures old(refCount) != null ==> old(refCount).count == old(refCount.count) - 1
      ensures old(buffer.block) != null ==>
                old(buffer.block).released ==
                  (old(buffer.block.released) || (old(refCount) != null && old(refCount.count) == 1))
    {
      holdingLock := false;
      if refCount != null {
        refCount.count := refCount.count - 1;
        if refCount.count == 0 && buffer.block != null {
          buffer.block.released := true;
        }
        refCount := null;
      }
      if b == DISCARD || b == AUTO_ALLOCATE {
        buffer := DISCARD;
      } else {
        buffer := b;
      }
      data := if d == DISCARD then b else d;
    }

    /** The destructor: `setBuffer(NULL)`. */
    method Release()
      modifies this, refCount, buffer.block
      ensures View() == WithBuffer(old(View()), DISCARD, DISCARD) && !IsValid(View())
      ensures old(refCount) != null ==> old(refCount).count == old(refCount.count) - 1
      ensures old(buffer.block) != null ==>
                old(buffer.block).released ==
                  (old(buffer.block.released) || (old(refCount) != null && old(refCount.count) == 1))
    {
      SetBuffer(DISCARD, DISCARD);
    }

    /**
     * `operator=`, as written: nothing for self-assignment or when the two
     * already share counter and data; otherwise let go of the current buffer
     * and take every field of `other`, holding its counter once more.
     */
    method Assign(other: Image)
      modifies this, refCount, buffer.block, other.refCount
      ensures this == other ==> View() == old(View())
      ensures this != other ==> View() == AssignedView(old(View()), old(other.View()))
      ensures this != other && !SharesHandle(old(View()), old(other.View())) ==>
                !holdingLock &&
                (old(refCount) != null && old(refCount) != old(other.refCount) ==>
                   old(refCount).count == old(refCount.count) - 1) &&
                (old(other.refCount) != null && old(refCount) != old(other.refCount) ==>
                   old(other.refCount).count == old(other.refCount.count) + 1) &&
                (old(refCount) != null && old(refCount) == old(other.refCount) ==>
                   old(refCount).count == old(refCount.count))
    {
      if this == other {
        return;
      }
      if refCount != null && refCount == other.refCount && data == other.data {
        return;
      }
      ghost var oldCount := if refCount != null then refCount.count else 0;
      ghost var otherCount := if other.refCount != null then other.refCount.count else 0;
      var w, h, f, bpp, bpr := other.width, other.height, other.format, other.bytesPerPixel, other.bytesPerRow;
      var b, d, n, rc, mm := other.buffer, other.data, other.bytesAllocated, other.refCount, other.memMapped;
      SetBuffer(b, d);
      width, height, format, bytesPerPixel, bytesPerRow := w, h, f, bpp, bpr;
      // `holdingLock = false` repeats what SetBuffer has already done.
      bytesAllocated, refCount, memMapped := n, rc, mm;
      if rc != null {
        rc.count := rc.count + 1;
      }
    }

    /** `subImage(x, y, s)`: a new handle onto a clipped region of this one. */
    method SubImage(x: nat, y: nat, s: Size) returns (sub: Image)
      requires 0 <= width <= INT32_MAX && 0 <= height <= INT32_MAX
      requires IsInt32(s.width) && IsInt32(s.height)
      modifies refCount
      ensures fresh(sub) && sub.View() == SubImageView(View(), x, y, s)
      ensures View() == old(View())
      ensures refCount != null && sub.refCount != null ==> refCount.count == old(refCount.count) + 1
      ensures sub.refCount == null ==> refCount == null || refCount.count == old(refCount.count)
    {
      sub := new Image.Default();
      if !IsValid(View()) || x >= width || y >= height {
        return;
      }
      var c := ClipSize(width, height, x, y, s);
      sub.SetView(ExternalView(c.width, c.height, format, DISCARD, bytesPerRow));
      var offset := x * bytesPerPixel + y * bytesPerRow;
      sub.SetBuffer(buffer, Advance(data, offset));
      sub.bytesAllocated := bytesAllocated;
      sub.refCount := refCount;
      sub.memMapped := memMapped;
      if refCount != null {
        refCount.count := refCount.count + 1;
      }
    }

    /**
     * `copyFrom(src)`: the row copies it performs. Nothing when this image is
     * invalid; otherwise one copy per row of the shorter allocation, each of
     * the shorter row length.
     */
    method CopyFrom(src: Image) returns (copies: seq<MemCopy>)
      requires height >= 0 && src.height >= 0
      ensures !IsValid(View()) ==> copies == []
      ensures IsValid(View()) ==>
                var h := Min(AllocateHeight(src.format, src.height), AllocateHeight(format, height));
                var n := Min(src.width * src.bytesPerPixel, width * bytesPerPixel);
                |copies| == h &&
                forall y :: 0 <= y < h ==>
                  copies[y] == MemCopy(Advance(data, y * bytesPerRow), Advance(src.data, y * src.bytesPerRow), n)
    {
      copies := [];
      if !IsValid(View()) {
        return;
      }
      var h := Min(AllocateHeight(src.format, src.height), AllocateHeight(format, height));
      var widthBytes := Min(src.width * src.bytesPerPixel, width * bytesPerPixel);
      var dst := data;
      var from := src.data;
      for y := 0 to h
        invariant |copies| == y
        invariant dst == Advance(data, y * bytesPerRow) && from == Advance(src.data, y * src.bytesPerRow)
        invariant forall j :: 0 <= j < y ==>
                    copies[j] == MemCopy(Advance(data, j * bytesPerRow), Advance(src.data, j * src.bytesPerRow), widthBytes)
      {
        copies := copies + [MemCopy(dst, from, widthBytes)];
        dst := Advance(dst, bytesPerRow);
        from := Advance(from, src.bytesPerRow);
      }
    }
    /**
     * `copy()`: an invalid image yields a new handle on the same Discard or
     * AutoAllocate pointer; a valid one a freshly allocated image of the same
     * size and format, filled by `copyFrom`.
     */
    method Duplicate() returns (dup: Image, copies: seq<MemCopy>)
      requires width >= 0 && height >= 0
      ensures fresh(dup)
      ensures !IsValid(View()) ==>
                dup.View() == ExternalView(width, height, format, data, -1) && copies == []
      ensures IsValid(View()) ==>
                Allocated(dup.View()) && dup.width == width && dup.height == height && dup.format == format &&
                dup.data.block != null && fresh(dup.data.block) && dup.refCount != null && dup.refCount.count == 1 &&
                var n := Min(width * bytesPerPixel, dup.width * dup.bytesPerPixel);
                |copies| == AllocateHeight(format, height) &&
                forall y :: 0 <= y < |copies| ==>
                  copies[y] == MemCopy(Advance(dup.data, y * dup.bytesPerRow), Advance(data, y * bytesPerRow), n)
    {
      if !IsValid(View()) {
        dup := new Image.External(width, height, format, data, -1);
        copies := [];
      } else {
        dup := new Image.Alloc(width, height, format);
        copies := dup.CopyFrom(this);
      }
    }
  }
}

=== FILE: fcam_interface_java.dfy ===
/**
 * The Java half of the camera bridge: the listener registry and the messages
 * the UI sends to the native camera thread.
 */
module FCamInterfaceJava {
  import opened Wrappers
  import opened SeqUtil
  import opened ParamSetRequests

  /** Preview parameter selectors used by the UI. */
  const PREVIEW_EXPOSURE: int := 0
  const PREVIEW_GAIN: int := 1
  const PREVIEW_WB: int := 2
  const PREVIEW_FOCUS: int := 3

  /** A native call made by the Java side (`setParamInt`, `setParamIntArray`). */
  datatype Message =
    | SetInt(param: int, value: int)
    | SetIntArray(param: int, values: seq<int>)

  /** A shot as the UI describes it; the fields are already truncated to `int`. */
  datatype FCamShot = FCamShot(exposure: int, focus: int, gain: int, wb: int, flashOn: bool)

  predicate IsJavaInt(v: int) { -0x8000_0000 <= v < 0x8000_0000 }

  predicate ShotFits(s: FCamShot)
  {
    IsJavaInt(s.exposure) && IsJavaInt(s.focus) && IsJavaInt(s.gain) && IsJavaInt(s.wb)
  }

  /**
   * `PARAM_SHOT | (i << 16)` with Java's 32-bit `<<`; `PARAM_SHOT` is 0, so
   * the `|` leaves the shifted index as it is.
   */
  function ShotMessageId(i: int): (id: int)
    requires 0 <= i < 0x8000_0000
    ensures IsJavaInt(id)
    ensures i < 0x8000 ==> id == i * 0x1_0000
  {
    var bits := (i * 0x1_0000) % 0x1_0000_0000;
    if bits >= 0x8000_0000 then bits - 0x1_0000_0000 else bits
  }

  /** The 5-int array sent for one shot of a burst. */
  function ShotArray(s: FCamShot): (a: seq<int>)
    ensures |a| == 5
    ensures a[SHOT_PARAM_FLASH] == 1 <==> s.flashOn
    ensures a[SHOT_PARAM_FLASH] == 0 <==> !s.flashOn
  {
    [s.exposure, s.focus, s.gain, s.wb, if s.flashOn then 1 else 0]
  }

  /** The per-shot messages of a burst, the first of them for shot `from`. */
  function ShotMessages(shots: seq<FCamShot>, from: nat): (ms: seq<Message>)
    requires from + |shots| <= 0x8000_0000
    ensures |ms| == |shots|
  {
    if shots == [] then []
    else [SetIntArray(ShotMessageId(from), ShotArray(shots[0]))] + ShotMessages(shots[1..], from + 1)
  }

  /** Message k of a run of shot messages describes shot k, under id `from + k`. */
  lemma {:induction false} ShotMessageAt(shots: seq<FCamShot>, from: nat, k: nat)
    requires from + |shots| <= 0x8000_0000 && k < |shots|
    ensures ShotMessages(shots, from)[k] == SetIntArray(ShotMessageId(from + k), ShotArray(shots[k]))
  {
    if k > 0 {
      ShotMessageAt(shots[1..], from + 1, k - 1);
    }
  }

  /** Everything `capture` sends, in order. */
  function CaptureMessages(shots: seq<FCamShot>): (ms: seq<Message>)
    requires |shots| < 0x8000_0000
  {
    [SetInt(PARAM_BURST_SIZE, |shots|)] + ShotMessages(shots, 0) + [SetInt(PARAM_TAKE_PICTURE, 1)]
  }

  /**
   * `capture` sends the burst size first, then shot i as message
   * `PARAM_SHOT | (i << 16)`, then `PARAM_TAKE_PICTURE` with 1.
   */
  lemma CaptureMessageOrder(shots: seq<FCamShot>)
    requires |shots| < 0x8000_0000
    ensures |CaptureMessages(shots)| == |shots| + 2
    ensures CaptureMessages(shots)[0] == SetInt(PARAM_BURST_SIZE, |shots|)
    ensures CaptureMessages(shots)[|shots| + 1] == SetInt(PARAM_TAKE_PICTURE, 1)
    ensures forall i :: 1 <= i <= |shots| ==>
              CaptureMessages(shots)[i] == SetIntArray(ShotMessageId(i - 1), ShotArray(shots[i - 1]))
  {
    var ms := CaptureMessages(shots);
    forall i | 1 <= i <= |shots|
      ensures ms[i] == SetIntArray(ShotMessageId(i - 1), ShotArray(shots[i - 1]))
    {
      assert ms[i] == ShotMessages(shots, 0)[i - 1];
      ShotMessageAt(shots, 0, i - 1);
    }
  }

  /** The message `enablePreviewParamEvaluator(id, value)` sends, if any. */
  function EvaluatorMessage(shotParamId: int, value: bool): (m: Option<Message>)
    ensures m.Some? <==> shotParamId in {PREVIEW_EXPOSURE, PREVIEW_GAIN, PREVIEW_WB, PREVIEW_FOCUS}
    ensures m.Some? ==> m.value.SetInt? && m.value.value == (if value then 1 else 0)
    ensures shotParamId == PREVIEW_FOCUS ==> m == Some(SetInt(PARAM_PREVIEW_AUTO_FOCUS_ON, if value then 1 else 0))
  {
    var pvalue := if value then 1 else 0;
    if shotParamId == PREVIEW_EXPOSURE then Some(SetInt(PARAM_PREVIEW_AUTO_EXPOSURE_ON, pvalue))
    else if shotParamId == PREVIEW_GAIN then Some(SetInt(PARAM_PREVIEW_AUTO_GAIN_ON, pvalue))
    else if shotParamId == PREVIEW_WB then Some(SetInt(PARAM_PREVIEW_AUTO_WB_ON, pvalue))
    else if shotParamId == PREVIEW_FOCUS then Some(SetInt(PARAM_PREVIEW_AUTO_FOCUS_ON, pvalue))
    else None
  }

  /**
   * The singleton interface object. `listeners` is the registration Vector
   * and `sent` the native calls made so far, oldest first.
   */
  class FCamInterface<L(==)> {
    var listeners: seq<L>
    var sent: seq<Message>

    ghost predicate Valid()
      reads this
    {
      NoDuplicates(listeners)
    }

    constructor ()
      ensures Valid() && listeners == [] && sent == []
    {
      listeners := [];
      sent := [];
    }

    /** Registers `listener`; `thrown` stands for the IllegalArgumentException. */
    method AddEventListener(listener: L) returns (thrown: bool)
      requires Valid()
      modifies this
      ensures Valid()
      ensures thrown <==> listener in old(listeners)
      ensures listeners == if thrown then old(listeners) else old(listeners) + [listener]
      ensures sent == old(sent)
    {
      if listener in listeners {
        thrown := true;
      } else {
        listeners := listeners + [listener];
        thrown := false;
      }
    }

    method RemoveEventListener(listener: L) returns (thrown: bool)
      requires Valid()
      modifies this
      ensures Valid()
      ensures thrown <==> listener !in old(listeners)
      ensures listeners == RemoveFirst(old(listeners), listener)
      ensures listener !in listeners
      ensures forall l :: l in old(listeners) && l != listener ==> l in listeners
      ensures sent == old(sent)
    {
      thrown := listener !in listeners;
      RemoveFirstKeepsOthers(listeners, listener);
      listeners := RemoveFirst(listeners, listener);
    }

    /**
     * Any of the `notify*` methods: the listeners it calls, one call each, in
     * registration order.
     */
    method Notify() returns (called: seq<L>)
      ensures called == listeners
    {
      called := [];
      for k := 0 to |listeners|
        invariant called == listeners[..k]
      {
        called := called + [listeners[k]];
      }
    }

    method EnablePreviewParamEvaluator(shotParamId: int, value: bool)
      modifies this
      ensures listeners == old(listeners)
      ensures sent == old(sent) + (match EvaluatorMessage(shotParamId, value)
                                   case Some(m) => [m]
                                   case None => [])
    {
      var m := EvaluatorMessage(shotParamId, value);
      if m.Some? {
        sent := sent + [m.value];
      }
    }

    method Capture(shots: seq<FCamShot>)
      requires |shots| < 0x8000_0000
      modifies this
      ensures listeners == old(listeners)
      ensures sent == old(sent) + CaptureMessages(shots)
    {
      sent := sent + [SetInt(PARAM_BURST_SIZE, |shots|)];
      ghost var prefix := sent;
      var i := 0;
      while i < |shots|
        invariant 0 <= i <= |shots|
        invariant listeners == old(listeners)
        invariant sent == prefix + ShotMessages(shots[..i], 0)
      {
        ShotMessagesSnoc(shots, i);
        sent := sent + [SetIntArray(ShotMessageId(i), ShotArray(shots[i]))];
        i := i + 1;
      }
      assert shots[..i] == shots;
      sent := sent + [SetInt(PARAM_TAKE_PICTURE, 1)];
      assert sent == old(sent) + ([SetInt(PARAM_BURST_SIZE, |shots|)] + ShotMessages(shots, 0) + [SetInt(PARAM_TAKE_PICTURE, 1)]);
    }
  }

  lemma ShotMessagesSnoc(shots: seq<FCamShot>, i: nat)
    requires i < |shots| < 0x8000_0000
    ensures ShotMessages(shots[..i + 1], 0)
         == ShotMessages(shots[..i], 0) + [SetIntArray(ShotMessageId(i), ShotArray(shots[i]))]
  {
    var a := ShotMessages(shots[..i + 1], 0);
    var b := ShotMessages(shots[..i], 0) + [SetIntArray(ShotMessageId(i), ShotArray(shots[i]))];
    assert |a| == |b|;
    forall k | 0 <= k < |a| ensures a[k] == b[k] {
      ShotMessageAt(shots[..i + 1], 0, k);
      if k < i {
        assert b[k] == ShotMessages(shots[..i], 0)[k];
        ShotMessageAt(shots[..i], 0, k);
      }
    }
  }
}

=== FILE: gallery.dfy ===
/**
 * The photo gallery: image stacks read from `img_NNNN.xml` index files, and
 * the manager that keeps the in-memory list of stacks in step with the
 * files on disk. The directory listing, the XML parser's events, bitmap
 * decoding and the thread pool's waiting queue are inputs; posting to the
 * UI thread and submitting to the pool are recorded as counters and
 * sequences.
 */
module Gallery {
  import opened Wrappers
  import opened SeqUtil
  import opened StackNames
  import opened GalleryOrder
  import GalleryImage

  /** One `startElement` event of the SAX parser. */
  datatype Element = Element(qname: string, attributes: GalleryImage.Attributes)

  /** The attributes of the `image` elements, in document order. */
  function ImageAttributes(elements: seq<Element>): (attrs: seq<GalleryImage.Attributes>)
    ensures |attrs| <= |elements|
  {
    if elements == [] then []
    else
      var last := elements[|elements| - 1];
      ImageAttributes(elements[..|elements| - 1]) + (if last.qname == "image" then [last.attributes] else [])
  }

  /** Every `image` element yields one attribute record and nothing else does. */
  lemma {:induction false} ImageAttributesCount(elements: seq<Element>)
    ensures |ImageAttributes(elements)| == |set k | 0 <= k < |elements| && elements[k].qname == "image"|
  {
    if elements != [] {
      var n := |elements| - 1;
      var init := elements[..n];
      ImageAttributesCount(init);
      var before := set k | 0 <= k < n && init[k].qname == "image";
      var after := set k | 0 <= k < |elements| && elements[k].qname == "image";
      if elements[n].qname == "image" {
        assert after == before + {n};
      } else {
        assert after == before;
      }
    }
  }

  /** How a refresh pass ended. */
  datatype RefreshOutcome =
    | Completed
      /** An `IOException` while opening the stack file at `path`. */
    | IoAborted(path: string)
      /** `ArrayList.add` at an index past the end while inserting `path`. */
    | IndexAborted(path: string)

  // -------------------------------------------------------------------
  // The load pass of ImageStack.run
  // -------------------------------------------------------------------

  /**
   * The first image that had no thumbnail and failed to decode, or the
   * number of images when there is none.
   */
  function FirstFailure(th: seq<Option<GalleryImage.Bitmap>>, decodes: seq<Option<GalleryImage.Bitmap>>): (k: nat)
    requires |th| == |decodes|
    ensures k <= |th|
    ensures k < |th| ==> th[k].None? && decodes[k].None?
    ensures forall j :: 0 <= j < k ==> th[j].Some? || decodes[j].Some?
  {
    if th == [] then 0
    else if th[0].None? && decodes[0].None? then 0
    else 1 + FirstFailure(th[1..], decodes[1..])
  }

  /** The thumbnails after a pass: loaded up to the first failure, untouched from there on. */
  function AfterRun(th: seq<Option<GalleryImage.Bitmap>>, decodes: seq<Option<GalleryImage.Bitmap>>): (r: seq<Option<GalleryImage.Bitmap>>)
    requires |th| == |decodes|
    ensures |r| == |th|
  {
    var f := FirstFailure(th, decodes);
    seq(|th|, j requires 0 <= j < |th| => if j < f && th[j].None? then decodes[j] else th[j])
  }

  /** A pass completes exactly when every image ends up with a thumbnail. */
  lemma RunCompletesIffAllLoaded(th: seq<Option<GalleryImage.Bitmap>>, decodes: seq<Option<GalleryImage.Bitmap>>)
    requires |th| == |decodes|
    ensures FirstFailure(th, decodes) == |th| <==> forall j :: 0 <= j < |th| ==> AfterRun(th, decodes)[j].Some?
  {
    var f := FirstFailure(th, decodes);
    if f < |th| {
      assert AfterRun(th, decodes)[f].None?;
    }
  }

  /** A pass never unloads a thumbnail that was already there. */
  lemma RunKeepsLoaded(th: seq<Option<GalleryImage.Bitmap>>, decodes: seq<Option<GalleryImage.Bitmap>>)
    requires |th| == |decodes|
    ensures forall j :: 0 <= j < |th| && th[j].Some? ==> AfterRun(th, decodes)[j] == th[j]
  {
  }

  /** The thumbnails once the first `k` images have been through the pass. */
  function Stage(th: seq<Option<GalleryImage.Bitmap>>, decodes: seq<Option<GalleryImage.Bitmap>>, k: nat): (r: seq<Option<GalleryImage.Bitmap>>)
    requires |th| == |decodes|
    ensures |r| == |th|
  {
    seq(|th|, j requires 0 <= j < |th| => if j < k && th[j].None? then decodes[j] else th[j])
  }

  lemma StageStep(th: seq<Option<GalleryImage.Bitmap>>, decodes: seq<Option<GalleryImage.Bitmap>>, k: nat)
    requires |th| == |decodes| && k < |th| && k <= FirstFailure(th, decodes)
    ensures Stage(th, decodes, k)[k := if th[k].None? then decodes[k] else th[k]] == Stage(th, decodes, k + 1)
    ensures th[k].Some? || decodes[k].Some? ==> k + 1 <= FirstFailure(th, decodes)
    ensures th[k].None? && decodes[k].None? ==> k == FirstFailure(th, decodes)
  {
  }

  lemma StageDone(th: seq<Option<GalleryImage.Bitmap>>, decodes: seq<Option<GalleryImage.Bitmap>>, k: nat)
    requires |th| == |decodes| && k <= |th|
    requires k == |th| || k == FirstFailure(th, decodes)
    requires k <= FirstFailure(th, decodes)
    ensures Stage(th, decodes, k) == AfterRun(th, decodes)
  {
  }

  // -------------------------------------------------------------------
  // Stack lists
  // -------------------------------------------------------------------

  /** The index-file paths of a list of stacks. */
  function Names(stacks: seq<ImageStack>): (ns: seq<string>)
    ensures |ns| == |stacks|
    ensures forall i :: 0 <= i < |stacks| ==> ns[i] == stacks[i].fileName
  {
    seq(|stacks|, i requires 0 <= i < |stacks| => stacks[i].fileName)
  }

  /** The stacks whose file is still listed, in their original order. */
  function Survivors(stacks: seq<ImageStack>, keep: set<string>): (r: seq<ImageStack>)
    ensures |r| <= |stacks|
  {
    if stacks == [] then []
    else (if stacks[0].fileName in keep then [stacks[0]] else []) + Survivors(stacks[1..], keep)
  }

  /** The paths of the stacks whose file is gone. */
  function VanishedNames(stacks: seq<ImageStack>, keep: set<string>): set<string>
  {
    if stacks == [] then {}
    else (if stacks[0].fileName !in keep then {stacks[0].fileName} else {}) + VanishedNames(stacks[1..], keep)
  }

  /** A removed path is one that some stack had and the listing lacks. */
  lemma {:induction false} VanishedNamesMembers(stacks: seq<ImageStack>, keep: set<string>)
    ensures forall x :: x in VanishedNames(stacks, keep) <==> x in Names(stacks) && x !in keep
  {
    if stacks != [] {
      VanishedNamesMembers(stacks[1..], keep);
      assert Names(stacks) == [stacks[0].fileName] + Names(stacks[1..]);
    }
  }

  /** The survivors are stacks of the original list whose path is listed. */
  lemma {:induction false} SurvivorsSubset(stacks: seq<ImageStack>, keep: set<string>)
    ensures forall s :: s in Survivors(stacks, keep) ==> s in stacks && s.fileName in keep
  {
    if stacks != [] {
      SurvivorsSubset(stacks[1..], keep);
      assert stacks == [stacks[0]] + stacks[1..];
    }
  }

  /** Removal keeps exactly the listed names, and keeps a descending list descending. */
  lemma SurvivorsNames(stacks: seq<ImageStack>, keep: set<string>)
    ensures forall x :: x in Names(Survivors(stacks, keep)) <==> x in Names(stacks) && x in keep
    ensures StrictlyDescending(Names(stacks)) ==> StrictlyDescending(Names(Survivors(stacks, keep)))
  {
    SurvivorsMembers(stacks, keep);
    if StrictlyDescending(Names(stacks)) {
      SurvivorsDescending(stacks, keep);
    }
  }

  /** A stack survives exactly when its path is listed. */
  lemma {:induction false} SurvivorsMembers(stacks: seq<ImageStack>, keep: set<string>)
    ensures forall x :: x in Names(Survivors(stacks, keep)) <==> x in Names(stacks) && x in keep
  {
    if stacks != [] {
      var tl := stacks[1..];
      SurvivorsMembers(tl, keep);
      assert Names(stacks) == [stacks[0].fileName] + Names(tl);
      var rest := Survivors(tl, keep);
      var hd := if stacks[0].fileName in keep then [stacks[0]] else [];
      assert Names(Survivors(stacks, keep)) == Names(hd) + Names(rest);
      assert Names(hd) == if stacks[0].fileName in keep then [stacks[0].fileName] else [];
      forall x ensures x in Names(Survivors(stacks, keep)) <==> x in Names(stacks) && x in keep {
        assert x in Names(stacks) <==> x == stacks[0].fileName || x in Names(tl);
      }
    }
  }

  /** Removal keeps a descending list descending. */
  lemma {:induction false} SurvivorsDescending(stacks: seq<ImageStack>, keep: set<string>)
    requires StrictlyDescending(Names(stacks))
    ensures StrictlyDescending(Names(Survivors(stacks, keep)))
  {
    if stacks != [] {
      var tl := stacks[1..];
      var ns := Names(stacks);
      assert Names(tl) == ns[1..];
      DescendingTail(ns);
      SurvivorsDescending(tl, keep);
      SurvivorsMembers(tl, keep);
      var rest := Survivors(tl, keep);
      if stacks[0].fileName in keep {
        assert Names(Survivors(stacks, keep)) == [ns[0]] + Names(rest);
        DescendingCons(ns[0], Names(rest));
      } else {
        assert Names(Survivors(stacks, keep)) == Names(rest);
      }
    }
  }

  /** The tail of a descending list is descending and below its head. */
  lemma DescendingTail(ns: seq<string>)
    requires StrictlyDescending(ns) && ns != []
    ensures StrictlyDescending(ns[1..])
    ensures forall x :: x in ns[1..] ==> LexLess(x, ns[0])
  {
    forall i, j | 0 <= i < j < |ns[1..]|
      ensures LexLess(ns[1..][j], ns[1..][i])
    {
      assert ns[1..][i] == ns[i + 1] && ns[1..][j] == ns[j + 1];
    }
    forall x | x in ns[1..]
      ensures LexLess(x, ns[0])
    {
      var k :| 0 <= k < |ns[1..]| && ns[1..][k] == x;
      assert ns[k + 1] == x;
    }
  }

  /** A head above every element of a descending list keeps it descending. */
  lemma DescendingCons(h: string, r: seq<string>)
    requires StrictlyDescending(r)
    requires forall x :: x in r ==> LexLess(x, h)
    ensures StrictlyDescending([h] + r)
  {
    var s := [h] + r;
    forall i, j | 0 <= i < j < |s|
      ensures LexLess(s[j], s[i])
    {
      assert s[j] == r[j - 1];
      if i > 0 {
        assert s[i] == r[i - 1];
      }
    }
  }


  /**
   * The removal loop's invariant: `i` scans `stacks`, `j` the original list;
   * the stacks before `i` are the survivors of the original ones before `j`.
   */
  ghost predicate RemovalInvariant(orig: seq<ImageStack>, keep: set<string>, stacks: seq<ImageStack>, i: int, j: int,
                                   known0: set<string>, known: set<string>, removed: set<string>)
  {
    0 <= i <= j <= |orig| && i <= |stacks| &&
    stacks[i..] == orig[j..] &&
    Survivors(orig, keep) == stacks[..i] + Survivors(orig[j..], keep) &&
    known == known0 - removed &&
    VanishedNames(orig, keep) == removed + VanishedNames(orig[j..], keep)
  }

  lemma RemovalStep(orig: seq<ImageStack>, keep: set<string>, stacks: seq<ImageStack>, i: int, j: int,
                    known0: set<string>, known: set<string>, removed: set<string>)
    requires RemovalInvariant(orig, keep, stacks, i, j, known0, known, removed) && i < |stacks|
    ensures stacks[i] == orig[j]
    ensures stacks[i].fileName !in keep ==>
              RemovalInvariant(orig, keep, stacks[..i] + stacks[i + 1..], i, j + 1, known0,
                               known - {stacks[i].fileName}, removed + {stacks[i].fileName})
    ensures stacks[i].fileName in keep ==>
              RemovalInvariant(orig, keep, stacks, i + 1, j + 1, known0, known, removed)
  {
    assert orig[j..][1..] == orig[j + 1..];
    assert stacks[i..] == [stacks[i]] + stacks[i + 1..];
    if stacks[i].fileName in keep {
      assert stacks[..i + 1] == stacks[..i] + [stacks[i]];
    } else {
      assert (stacks[..i] + stacks[i + 1..])[i..] == stacks[i + 1..];
      assert (stacks[..i] + stacks[i + 1..])[..i] == stacks[..i];
    }
  }

  lemma RemovalDone(orig: seq<ImageStack>, keep: set<string>, stacks: seq<ImageStack>, i: int, j: int,
                    known0: set<string>, known: set<string>, removed: set<string>)
    requires RemovalInvariant(orig, keep, stacks, i, j, known0, known, removed) && i >= |stacks|
    ensures stacks == Survivors(orig, keep)
    ensures known == known0 - VanishedNames(orig, keep)
    ensures i < j <==> |stacks| < |orig|
  {
    assert |orig[j..]| == 0;
    assert stacks[..i] == stacks;
  }

  /** Removing the vanished stacks of a consistent list leaves it consistent and inside `keep`. */
  lemma RemovalKeepsConsistent(orig: seq<ImageStack>, keep: set<string>, known0: set<string>)
    requires StrictlyDescending(Names(orig)) && forall p :: p in known0 <==> p in Names(orig)
    ensures StrictlyDescending(Names(Survivors(orig, keep)))
    ensures forall p :: p in known0 - VanishedNames(orig, keep) <==> p in Names(Survivors(orig, keep))
    ensures forall p :: p in Names(Survivors(orig, keep)) ==> p in keep
  {
    SurvivorsNames(orig, keep);
    VanishedNamesMembers(orig, keep);
  }

  /** A listed path that is unknown after the removal was unknown before it. */
  lemma KeptPathsWereUnknown(orig: seq<ImageStack>, keep: set<string>, known0: set<string>)
    ensures forall p :: p in keep && p !in known0 - VanishedNames(orig, keep) ==> p !in known0
  {
    VanishedNamesMembers(orig, keep);
  }

  lemma NamesInsert(stacks: seq<ImageStack>, idx: nat, s: ImageStack)
    requires idx <= |stacks|
    ensures Names(stacks[..idx] + [s] + stacks[idx..]) == Names(stacks)[..idx] + [s.fileName] + Names(stacks)[idx..]
  {
  }

  /**
   * The insertion loop's invariant from a settled start: with `i` the next
   * index of `P` to visit, the names are the visited paths largest first,
   * followed by the unvisited ones that were already known.
   */
  ghost predicate InsertInvariant(P: seq<string>, S0: set<string>, i: int, N: seq<string>, K: set<string>)
  {
    -1 <= i < |P| &&
    N == DescRange(P, i + 1, |P|) + DescIn(P, i + 1, S0) &&
    forall p :: p in K <==> p in S0 || p in P[i + 1..]
  }

  lemma InsertStart(P: seq<string>, S0: set<string>, N: seq<string>)
    requires StrictlyAscending(P) && StrictlyDescending(N)
    requires forall p :: p in N ==> p in P
    requires forall p :: p in S0 <==> p in N
    ensures InsertInvariant(P, S0, |P| - 1, N, S0)
  {
    assert P[..|P|] == P;
    DescendingIsDescIn(P, |P|, N, S0);
    assert DescRange(P, |P|, |P|) + DescIn(P, |P|, S0) == DescIn(P, |P|, S0);
  }

  lemma InsertStep(P: seq<string>, S0: set<string>, i: int, N: seq<string>, K: set<string>)
    requires StrictlyAscending(P) && InsertInvariant(P, S0, i, N, K) && i >= 0
    ensures P[i] in K ==> InsertInvariant(P, S0, i - 1, N, K)
    ensures P[i] !in K ==>
              P[i] !in N && |P| - 1 - i <= |N| &&
              InsertInvariant(P, S0, i - 1, N[..|P| - 1 - i] + [P[i]] + N[|P| - 1 - i..], K + {P[i]})
  {
    var n := |P|;
    AscendingTail(P, i);
    DescRangeExtend(P, i + 1, n);
    assert P[i..] == [P[i]] + P[i + 1..];
    var R := DescRange(P, i + 1, n);
    assert P[..i + 1] == P[..i] + [P[i]];
    if P[i] in K {
      assert P[i] in S0;
      assert DescIn(P, i + 1, S0) == [P[i]] + DescIn(P, i, S0);
      assert N == R + [P[i]] + DescIn(P, i, S0);
    } else {
      assert P[i] !in S0;
      assert DescIn(P, i + 1, S0) == DescIn(P, i, S0);
      assert P[i] !in R by {
        forall k | 0 <= k < |R| ensures R[k] != P[i] {
          assert R[k] == P[n - 1 - k];
          assert R[k] in P[i + 1..];
        }
      }
      assert N[..n - 1 - i] == R;
      assert N[n - 1 - i..] == DescIn(P, i, S0);
    }
  }

  lemma InsertDone(P: seq<string>, S0: set<string>, N: seq<string>, K: set<string>)
    requires StrictlyAscending(P) && InsertInvariant(P, S0, -1, N, K)
    requires forall p :: p in S0 ==> p in P
    ensures N == DescRange(P, 0, |P|)
    ensures StrictlyDescending(N)
    ensures forall p :: p in K <==> p in N
  {
    assert P[0..] == P;
    assert N == DescRange(P, 0, |P|) + [];
    DescRangeDescending(P);
    DescRangeElements(P);
  }

  /** The stacks a refresh pass hands to the pool: not load-complete and not waiting already. */
  ghost function Pending(stacks: seq<ImageStack>, queued: set<ImageStack>): (r: seq<ImageStack>)
    reads stacks
    ensures forall s :: s in r ==> s in stacks && !s.loadComplete && s !in queued
  {
    if stacks == [] then []
    else
      var last := stacks[|stacks| - 1];
      assert stacks == stacks[..|stacks| - 1] + [last];
      Pending(stacks[..|stacks| - 1], queued) + (if !last.loadComplete && last !in queued then [last] else [])
  }

  /** One more stack looked at: it is appended when it is neither load-complete nor waiting. */
  lemma PendingStep(stacks: seq<ImageStack>, k: nat, queued: set<ImageStack>)
    requires k < |stacks|
    ensures Pending(stacks[..k + 1], queued) ==
              Pending(stacks[..k], queued) + (if !stacks[k].loadComplete && stacks[k] !in queued then [stacks[k]] else [])
  {
    assert stacks[..k + 1][..k] == stacks[..k];
  }

  /** Every stack that is not load-complete and not waiting is submitted. */
  lemma {:induction false} PendingComplete(stacks: seq<ImageStack>, queued: set<ImageStack>)
    ensures forall s :: s in stacks && !s.loadComplete && s !in queued ==> s in Pending(stacks, queued)
  {
    if stacks != [] {
      var n := |stacks| - 1;
      PendingComplete(stacks[..n], queued);
      assert stacks == stacks[..n] + [stacks[n]];
    }
  }

  // -------------------------------------------------------------------
  // ImageStack
  // -------------------------------------------------------------------

  /** The images described by one index file; `images` is filled only while parsing. */
  class ImageStack {
    const owner: ImageStackManager
    const fileName: string
    const images: seq<GalleryImage.Image>
    var loadComplete: bool

    ghost predicate Valid()
      reads this, images
    {
      (forall k :: 0 <= k < |images| ==> images[k].Valid()) && NoDuplicates(images)
    }

    /** The images were built, in order, from the `image` elements of `elements`. */
    predicate BuiltFrom(elements: seq<Element>)
    {
      var attrs := ImageAttributes(elements);
      |images| == |attrs| &&
      forall k :: 0 <= k < |images| ==> images[k].BuiltFrom(owner.galleryDir, attrs[k])
    }

    ghost function Thumbnails(): (t: seq<Option<GalleryImage.Bitmap>>)
      reads this, images
      ensures |t| == |images|
      ensures forall k :: 0 <= k < |images| ==> t[k] == images[k].thumbnail
    {
      seq(|images|, k requires 0 <= k < |images| reads images => images[k].thumbnail)
    }

    /**
     * Parses the index file: `elements` are the start-element events the
     * parser delivered (all of them, or those before a `SAXException`).
     */
    constructor (fileName: string, owner: ImageStackManager, elements: seq<Element>)
      ensures this.fileName == fileName && this.owner == owner && !loadComplete
      ensures Valid() && BuiltFrom(elements)
      ensures forall k :: 0 <= k < |images| ==> fresh(images[k]) && images[k].thumbnail.None?
    {
      var imgs: seq<GalleryImage.Image> := [];
      for e := 0 to |elements|
        invariant |imgs| == |ImageAttributes(elements[..e])|
        invariant forall k :: 0 <= k < |imgs| ==>
                    fresh(imgs[k]) && imgs[k].Valid() && imgs[k].thumbnail.None? &&
                    imgs[k].BuiltFrom(owner.galleryDir, ImageAttributes(elements[..e])[k])
        invariant NoDuplicates(imgs)
      {
        assert elements[..e + 1][..e] == elements[..e];
        if elements[e].qname == "image" {
          var image := new GalleryImage.Image(owner.galleryDir, elements[e].attributes);
          imgs := imgs + [image];
        }
      }
      assert elements[..|elements|] == elements;
      this.owner := owner;
      this.fileName := fileName;
      images := imgs;
      loadComplete := false;
    }

    /**
     * `run`: loads the missing thumbnails in order, stopping at the first
     * failure, records whether the pass completed, and notifies the owner.
     * `decodes[k]` is what decoding image k's thumbnail file would give.
     */
    method Run(decodes: seq<Option<GalleryImage.Bitmap>>)
      requires Valid() && |decodes| == |images|
      requires forall k :: 0 <= k < |decodes| && decodes[k].Some? ==> GalleryImage.ValidBitmap(decodes[k].value)
      modifies this`loadComplete, owner`posted, images
      ensures Valid()
      ensures Thumbnails() == AfterRun(old(Thumbnails()), decodes)
      ensures loadComplete <==> FirstFailure(old(Thumbnails()), decodes) == |images|
      ensures owner.posted == old(owner.posted) + 1
    {
      ghost var th0 := Thumbnails();
      var complete := true;
      var k := 0;
      while k < |images| && complete
        invariant 0 <= k <= |images|
        invariant Valid()
        invariant complete ==> k <= FirstFailure(th0, decodes)
        invariant !complete ==> k == FirstFailure(th0, decodes) < |images|
        invariant owner.posted == old(owner.posted)
        invariant Thumbnails() == Stage(th0, decodes, k)
        decreases |images| - k, complete
      {
        var ok := LoadAt(k, decodes[k]);
        StageStep(th0, decodes, k);
        if ok {
          k := k + 1;
        } else {
          complete := false;
        }
      }
      StageDone(th0, decodes, k);
      loadComplete := complete;
      owner.NotifyContentChange();
    }

    /** One step of the load pass: image `k` loads its thumbnail unless it has one. */
    method LoadAt(k: nat, decoded: Option<GalleryImage.Bitmap>) returns (ok: bool)
      requires Valid() && k < |images|
      requires decoded.Some? ==> GalleryImage.ValidBitmap(decoded.value)
      modifies images[k]
      ensures Valid()
      ensures ok <==> old(images[k].thumbnail).Some? || decoded.Some?
      ensures Thumbnails() == old(Thumbnails())[k := if old(images[k].thumbnail).None? then decoded else old(images[k].thumbnail)]
    {
      ok := images[k].LoadThumbnail(decoded);
      assert forall j :: 0 <= j < |images| && j != k ==> images[j] != images[k];
    }

    /**
     * `removeFromFileSystem`: the files it deletes, in order; the in-memory
     * list is left as it is.
     */
    method RemoveFromFileSystem() returns (deleted: seq<string>)
      ensures |deleted| == 2 * |images| + 1
      ensures forall k :: 0 <= k < |images| ==>
                deleted[2 * k] == images[k].thumbnailName && deleted[2 * k + 1] == images[k].imageName
      ensures deleted[2 * |images|] == fileName
    {
      deleted := [];
      for k := 0 to |images|
        invariant |deleted| == 2 * k
        invariant forall j :: 0 <= j < k ==>
                    deleted[2 * j] == images[j].thumbnailName && deleted[2 * j + 1] == images[j].imageName
      {
        deleted := deleted + [images[k].thumbnailName, images[k].imageName];
      }
      deleted := deleted + [fileName];
    }
  }

  // -------------------------------------------------------------------
  // ImageStackManager
  // -------------------------------------------------------------------

  class ImageStackManager {
    const galleryDir: string
    /** The keys of `mImageStackFilePaths`. */
    var knownPaths: set<string>
    var stacks: seq<ImageStack>
    var listeners: seq<object>
    /** Runnables posted to the UI-thread handler by `notifyContentChange`. */
    var posted: nat
    /** Stacks handed to the thread pool, in order. */
    var submitted: seq<ImageStack>

    ghost predicate Valid()
      reads this
    {
      NoDuplicates(listeners) && forall s :: s in stacks ==> s.owner == this
    }

    /**
     * The list is newest first and the known paths are exactly the paths of
     * the listed stacks.
     */
    ghost predicate Consistent()
      reads this
    {
      StrictlyDescending(Names(stacks)) && forall p :: p in knownPaths <==> p in Names(stacks)
    }

    constructor (galleryDir: string)
      ensures Valid() && Consistent()
      ensures this.galleryDir == galleryDir
      ensures knownPaths == {} && stacks == [] && listeners == [] && posted == 0 && submitted == []
    {
      this.galleryDir := galleryDir;
      knownPaths := {};
      stacks := [];
      listeners := [];
      posted := 0;
      submitted := [];
    }

    /** `addContentChangeListener`; `thrown` stands for the IllegalArgumentException. */
    method AddContentChangeListener(listener: object) returns (thrown: bool)
      requires Valid()
      modifies this`listeners
      ensures Valid()
      ensures thrown <==> listener in old(listeners)
      ensures listeners == if thrown then old(listeners) else old(listeners) + [listener]
    {
      if listener in listeners {
        thrown := true;
      } else {
        listeners := listeners + [listener];
        thrown := false;
      }
    }

    /** `removeContentChangeListener`; `thrown` stands for the IllegalArgumentException. */
    method RemoveContentChangeListener(listener: object) returns (thrown: bool)
      requires Valid()
      modifies this`listeners
      ensures Valid()
      ensures thrown <==> listener !in old(listeners)
      ensures listeners == RemoveFirst(old(listeners), listener)
      ensures listener !in listeners
      ensures forall l :: l in old(listeners) && l != listener ==> l in listeners
    {
      thrown := listener !in listeners;
      RemoveFirstKeepsOthers(listeners, listener);
      listeners := RemoveFirst(listeners, listener);
    }

    /** `notifyContentChange`: posts one runnable to the UI thread. */
    method NotifyContentChange()
      modifies this`posted
      ensures posted == old(posted) + 1
    {
      posted := posted + 1;
    }

    /**
     * `refreshImageStacks`. `listing` is the directory listing (None when
     * `File.list` returns null), `documents` maps each readable index file
     * to its parser events (a missing path raises `IOException`), and
     * `queued` is the pool's waiting queue.
     */
    method RefreshImageStacks(listing: Option<seq<string>>, documents: map<string, seq<Element>>, queued: set<ImageStack>)
      returns (outcome: RefreshOutcome)
      requires Valid()
      requires listing.Some? ==> NoDuplicates(listing.value)
      modifies this`knownPaths, this`stacks, this`posted, this`submitted
      ensures Valid()
      // a consistent gallery ends consistent, newest first, holding exactly the listed files
      ensures old(Consistent()) && outcome.Completed? ==>
                Consistent() && Names(stacks) == DescRange(ListedPaths(galleryDir, listing), 0, |ListedPaths(galleryDir, listing)|)
      ensures old(Consistent()) ==> !outcome.IndexAborted?
      // an IOException leaves a known path without a stack
      ensures outcome.IoAborted? ==> outcome.path !in documents && outcome.path in knownPaths
      ensures old(Consistent()) && outcome.IoAborted? ==> outcome.path !in Names(stacks) && !Consistent()
      // a known path is never parsed again; new stacks come from their documents
      ensures forall s :: s in stacks ==> (s in old(stacks) ||
                (fresh(s) && s.fileName !in old(knownPaths) && s.fileName in documents &&
                 s.BuiltFrom(documents[s.fileName]) && !s.loadComplete && s.Valid()))
      // one notification iff a stack was removed and the pass completed
      ensures posted == old(posted) +
                (if outcome.Completed? && |Survivors(old(stacks), ListedPathSet(galleryDir, listing))| < |old(stacks)| then 1 else 0)
      ensures submitted == old(submitted) + (if outcome.Completed? then Pending(stacks, queued) else [])
    {
      var removedAny;
      removedAny, outcome := Reconcile(listing, documents);
      if !outcome.Completed? {
        return;
      }
      if removedAny {
        NotifyContentChange();
      }
      SubmitPending(queued);
    }

    /** The removal and registration loops of `refreshImageStacks`. */
    method Reconcile(listing: Option<seq<string>>, documents: map<string, seq<Element>>)
      returns (removedAny: bool, outcome: RefreshOutcome)
      requires Valid()
      requires listing.Some? ==> NoDuplicates(listing.value)
      modifies this`knownPaths, this`stacks
      ensures Valid()
      ensures old(Consistent()) && outcome.Completed? ==>
                Consistent() && Names(stacks) == DescRange(ListedPaths(galleryDir, listing), 0, |ListedPaths(galleryDir, listing)|)
      ensures old(Consistent()) ==> !outcome.IndexAborted?
      ensures outcome.IoAborted? ==> outcome.path !in documents && outcome.path in knownPaths
      ensures old(Consistent()) && outcome.IoAborted? ==> outcome.path !in Names(stacks) && !Consistent()
      ensures forall s :: s in stacks ==> (s in old(stacks) ||
                (fresh(s) && s.fileName !in old(knownPaths) && s.fileName in documents &&
                 s.BuiltFrom(documents[s.fileName]) && !s.loadComplete && s.Valid()))
      ensures removedAny <==> |Survivors(old(stacks), ListedPathSet(galleryDir, listing))| < |old(stacks)|
    {
      var names := MatchingNames(listing);
      var sorted := Sort(names);
      ghost var P := Paths(galleryDir, sorted);
      var keep := CollectPaths(sorted);
      assert keep == ListedPathSet(galleryDir, listing);
      ghost var consistent := Consistent();
      ghost var known0 := knownPaths;
      ghost var stacks0 := stacks;
      removedAny := RemoveVanished(keep);
      ListedPathsAscending(galleryDir, listing);
      SurvivorsSubset(stacks0, keep);
      KeptPathsWereUnknown(stacks0, keep, known0);
      if consistent {
        RemovalKeepsConsistent(stacks0, keep, known0);
      }
      assert P == ListedPaths(galleryDir, listing);
      assert consistent ==> Settled(P);
      ghost var afterRemoval := stacks;
      outcome := InsertNew(sorted, documents);
      assert forall s :: s in stacks && s !in afterRemoval ==> s.fileName !in known0;
    }

    /** The `stackFilePaths` loop: the full path of every listed name. */
    method CollectPaths(names: seq<string>) returns (keep: set<string>)
      ensures forall p :: p in keep <==> p in Paths(galleryDir, names)
    {
      keep := {};
      for i := 0 to |names|
        invariant forall p :: p in keep <==> p in Paths(galleryDir, names[..i])
      {
        assert Paths(galleryDir, names[..i + 1]) == Paths(galleryDir, names[..i]) + [PathOf(galleryDir, names[i])];
        keep := keep + {galleryDir + [Utils.SEPARATOR] + names[i]};
      }
      assert names[..|names|] == names;
    }

    /** The removal loop: drops the stacks whose file is not in `keep`, and their known paths. */
    method RemoveVanished(keep: set<string>) returns (removedAny: bool)
      requires Valid()
      modifies this`stacks, this`knownPaths
      ensures Valid()
      ensures stacks == Survivors(old(stacks), keep)
      ensures knownPaths == old(knownPaths) - VanishedNames(old(stacks), keep)
      ensures removedAny <==> |stacks| < |old(stacks)|
    {
      ghost var orig := stacks;
      ghost var j := 0;
      ghost var removed: set<string> := {};
      removedAny := false;
      var i := 0;
      while i < |stacks|
        invariant RemovalInvariant(orig, keep, stacks, i, j, old(knownPaths), knownPaths, removed)
        invariant removedAny <==> i < j
        decreases |stacks| - i
      {
        RemovalStep(orig, keep, stacks, i, j, old(knownPaths), knownPaths, removed);
        var path := stacks[i].fileName;
        if path !in keep {
          knownPaths := knownPaths - {path};
          removed := removed + {path};
          stacks := stacks[..i] + stacks[i + 1..];
          removedAny := true;
          i := i - 1;
        }
        i := i + 1;
        j := j + 1;
      }
      RemovalDone(orig, keep, stacks, i, j, old(knownPaths), knownPaths, removed);
      SurvivorsSubset(orig, keep);
    }

    /**
     * The insertion loop: walks the sorted names from the largest down and
     * inserts each unknown one at index `len-1-i`, registering its path
     * first. From a settled state (`Names(stacks)` descending, inside the
     * listing, and equal to the known paths) a completed pass leaves the
     * listing newest first.
     */
    method InsertNew(names: seq<string>, documents: map<string, seq<Element>>) returns (outcome: RefreshOutcome)
      requires Valid()
      modifies this`stacks, this`knownPaths
      ensures Valid()
      ensures old(Settled(Paths(galleryDir, names))) && !outcome.IoAborted? ==>
                outcome.Completed? && Consistent() &&
                Names(stacks) == DescRange(Paths(galleryDir, names), 0, |names|)
      ensures outcome.IoAborted? ==> outcome.path !in documents && outcome.path in knownPaths
      ensures old(Settled(Paths(galleryDir, names))) && outcome.IoAborted? ==> outcome.path !in Names(stacks)
      ensures forall s :: s in stacks ==> (s in old(stacks) ||
                (fresh(s) && s.fileName !in old(knownPaths) && s.fileName in Paths(galleryDir, names) &&
                 s.fileName in documents && s.BuiltFrom(documents[s.fileName]) && !s.loadComplete && s.Valid()))
    {
      ghost var P := Paths(galleryDir, names);
      ghost var S0 := knownPaths;
      ghost var settled := Settled(P);
      if settled {
        InsertStart(P, S0, Names(stacks));
      }
      outcome := InsertAll(names, documents, P, S0, settled);
      if settled && outcome.Completed? {
        InsertDone(P, S0, Names(stacks), knownPaths);
      }
    }

    /** The loop of `InsertNew` itself, walking the names from the last down to the first. */
    method InsertAll(names: seq<string>, documents: map<string, seq<Element>>,
                     ghost P: seq<string>, ghost S0: set<string>, ghost settled: bool)
      returns (outcome: RefreshOutcome)
      requires Valid() && P == Paths(galleryDir, names)
      requires settled ==> StrictlyAscending(P) && InsertInvariant(P, S0, |P| - 1, Names(stacks), knownPaths)
      modifies this`stacks, this`knownPaths
      ensures Valid()
      ensures forall s :: s in stacks ==> s in old(stacks) || (fresh(s) && Registered(s, P, documents, old(knownPaths)))
      ensures settled && outcome.Completed? ==> InsertInvariant(P, S0, -1, Names(stacks), knownPaths)
      ensures settled ==> outcome.Completed? || outcome.IoAborted?
      ensures outcome.IoAborted? ==> outcome.path !in documents && outcome.path in knownPaths
      ensures settled && outcome.IoAborted? ==> outcome.path !in Names(stacks)
    {
      var n := |names|;
      var i := n - 1;
      while i >= 0
        invariant -1 <= i < n
        invariant Valid()
        invariant forall s :: s in stacks ==> s in old(stacks) || (fresh(s) && Registered(s, P, documents, old(knownPaths)))
        invariant old(knownPaths) <= knownPaths
        invariant settled ==> InsertInvariant(P, S0, i, Names(stacks), knownPaths)
      {
        var path := galleryDir + [Utils.SEPARATOR] + names[i];
        assert path == P[i];
        var abort := InsertOne(path, documents, n - 1 - i, P, S0, i, settled);
        if abort.Some? {
          return abort.value;
        }
        i := i - 1;
      }
      return Completed;
    }

    /**
     * One step of the insertion loop for the path of name i: when unknown,
     * it is registered, then (unless its file cannot be read or the index
     * `len-1-i` is past the end) a stack built from its document is
     * inserted at that index.
     */
    method InsertOne(path: string, documents: map<string, seq<Element>>, idx: nat,
                     ghost P: seq<string>, ghost S0: set<string>, ghost i: int, ghost settled: bool)
      returns (abort: Option<RefreshOutcome>)
      requires Valid() && 0 <= i < |P| && path == P[i] && idx == |P| - 1 - i
      requires settled ==> StrictlyAscending(P) && InsertInvariant(P, S0, i, Names(stacks), knownPaths)
      modifies this`stacks, this`knownPaths
      ensures Valid()
      ensures old(knownPaths) <= knownPaths
      ensures forall s :: s in stacks ==> s in old(stacks) || (fresh(s) && Registered(s, P, documents, old(knownPaths)))
      ensures abort.None? && settled ==> InsertInvariant(P, S0, i - 1, Names(stacks), knownPaths)
      ensures abort.Some? ==> abort.value == IoAborted(path) || abort.value == IndexAborted(path)
      ensures abort == Some(IoAborted(path)) ==> path !in documents && path in knownPaths && stacks == old(stacks)
      ensures settled && abort.Some? ==> abort == Some(IoAborted(path)) && path !in Names(stacks)
    {
      if settled {
        InsertStep(P, S0, i, Names(stacks), knownPaths);
      }
      abort := None;
      if path !in knownPaths {
        knownPaths := knownPaths + {path};
        if path !in documents {
          return Some(IoAborted(path));
        }
        if idx > |stacks| {
          return Some(IndexAborted(path));
        }
        AddStack(path, documents[path], idx);
      }
    }

    /** A stack a refresh pass created: for a listed path that was unknown, built from its document, not yet loaded. */
    ghost predicate Registered(s: ImageStack, P: seq<string>, documents: map<string, seq<Element>>, known0: set<string>)
      reads s, s.images
    {
      s.fileName !in known0 && s.fileName in P && s.fileName in documents &&
      s.BuiltFrom(documents[s.fileName]) && !s.loadComplete && s.Valid()
    }

    /** `imageStacks.add(idx, new ImageStack(path, ...))`: a new stack built from the document, inserted at `idx`. */
    method AddStack(path: string, elements: seq<Element>, idx: nat)
      requires Valid() && idx <= |stacks|
      modifies this`stacks
      ensures Valid()
      ensures |stacks| == |old(stacks)| + 1 && stacks == old(stacks)[..idx] + [stacks[idx]] + old(stacks)[idx..]
      ensures forall s :: s in stacks ==> s in old(stacks) || s == stacks[idx]
      ensures Names(stacks) == Names(old(stacks))[..idx] + [path] + Names(old(stacks))[idx..]
      ensures fresh(stacks[idx]) && stacks[idx].fileName == path && stacks[idx].BuiltFrom(elements) &&
              !stacks[idx].loadComplete && stacks[idx].Valid()
    {
      var stack := new ImageStack(path, this, elements);
      NamesInsert(stacks, idx, stack);
      stacks := stacks[..idx] + [stack] + stacks[idx..];
    }

    /** `Settled(P)`: descending, inside `P`, and the known paths are the names. */
    ghost predicate Settled(P: seq<string>)
      reads this
    {
      StrictlyAscending(P) && StrictlyDescending(Names(stacks)) &&
      (forall p :: p in Names(stacks) ==> p in P) &&
      (forall p :: p in knownPaths <==> p in Names(stacks))
    }

    /** The submission loop: every stack not load-complete and not waiting in the pool. */
    method SubmitPending(queued: set<ImageStack>)
      modifies this`submitted
      ensures submitted == old(submitted) + Pending(stacks, queued)
    {
      var batch: seq<ImageStack> := [];
      for k := 0 to |stacks|
        invariant batch == Pending(stacks[..k], queued) && submitted == old(submitted)
      {
        PendingStep(stacks, k, queued);
        if !stacks[k].loadComplete && stacks[k] !in queued {
          batch := batch + [stacks[k]];
        }
      }
      assert stacks[..|stacks|] == stacks;
      submitted := submitted + batch;
    }
  }

  /** The set of listed stack-file paths (`stackFilePaths`). */
  function ListedPathSet(dir: string, listing: Option<seq<string>>): (r: set<string>)
    ensures forall p :: p in r <==> p in ListedPaths(dir, listing)
  {
    set p | p in ListedPaths(dir, listing)
  }
}

=== FILE: gallery_image.dfy ===
/**
 * A captured photograph in the gallery: its file names and shot settings,
 * its thumbnail once decoded, and the subsampled luma histogram computed
 * from that thumbnail.
 */
module GalleryImage {
  import opened Wrappers
  import Utils

  const HISTOGRAM_SAMPLES: int := 32768
  const LUMA_LEVELS: int := 256
  /** Bitmaps must have fewer pixels than this for `n << 12` to fit an `int`. */
  const MAX_THUMBNAIL_PIXELS: int := 0x8_0000

  /**
   * A decoded bitmap; each pixel is the 32-bit ARGB pattern `getPixels`
   * returns, read as an unsigned number.
   */
  datatype Bitmap = Bitmap(width: nat, height: nat, pixels: seq<int>)

  predicate ValidBitmap(b: Bitmap)
  {
    b.width >= 1 && b.height >= 1 && |b.pixels| == b.width * b.height &&
    |b.pixels| < MAX_THUMBNAIL_PIXELS &&
    forall i :: 0 <= i < |b.pixels| ==> 0 <= b.pixels[i] < 0x1_0000_0000
  }

  /** The attributes of an `image` element of a stack's XML file. */
  datatype Attributes = Attributes(name: string, thumbnail: string, flash: int, gain: int, exposure: int, wb: int)

  /** `(pixel >> 16) & 0xff`, `(pixel >> 8) & 0xff` and `pixel & 0xff`. */
  function Red(p: int): int requires p >= 0 { (p / 0x1_0000) % 256 }
  function Green(p: int): int requires p >= 0 { (p / 0x100) % 256 }
  function Blue(p: int): int requires p >= 0 { p % 256 }

  /** Fixed-point luma with weights close to 0.2126, 0.7152 and 0.0722. */
  function Luma(p: int): (y: int)
    requires p >= 0
    ensures 0 <= y < LUMA_LEVELS
  {
    var s := 13932 * Red(p) + 46971 * Green(p) + 4733 * Blue(p);
    assert s <= 65636 * 255;
    s / 0x1_0000
  }

  /** The sampling stride `(n << 12) / HISTOGRAM_SAMPLES`, in 1/4096 pixel units. */
  function Stride(n: int): (ax: int)
    requires 1 <= n < MAX_THUMBNAIL_PIXELS
    ensures 0 <= ax && ax * 8 <= n
  {
    (n * 4096) / HISTOGRAM_SAMPLES
  }

  /** The pixel read by sample i: `(i * ax) >>> 12`. */
  function SampleIndex(n: int, i: int): int
    requires 1 <= n < MAX_THUMBNAIL_PIXELS && 0 <= i < HISTOGRAM_SAMPLES
  {
    (i * Stride(n)) / 4096
  }

  /** The running position `tx` stays below 2^31, and every sample is a pixel of the bitmap. */
  lemma SampleIndexInRange(n: int, i: int)
    requires 1 <= n < MAX_THUMBNAIL_PIXELS && 0 <= i < HISTOGRAM_SAMPLES
    ensures 0 <= i * Stride(n) < 0x8000_0000
    ensures 0 <= SampleIndex(n, i) < n
  {
    var ax := Stride(n);
    assert i * ax <= HISTOGRAM_SAMPLES * ax by {
      MulLe(i, HISTOGRAM_SAMPLES, ax);
    }
    assert HISTOGRAM_SAMPLES * ax <= 4096 * n;
    assert 0 <= i * ax by {
      MulLe(0, i, ax);
    }
    if i * ax == HISTOGRAM_SAMPLES * ax {
      assert ax == 0 || i == HISTOGRAM_SAMPLES by {
        MulCancel(i, HISTOGRAM_SAMPLES, ax);
      }
    }
    assert i * ax < 4096 * n;
  }

  lemma MulLe(a: int, b: int, c: nat)
    requires a <= b
    ensures a * c <= b * c
  {
  }

  lemma MulCancel(a: int, b: int, c: int)
    requires a * c == b * c
    ensures c == 0 || a == b
  {
  }

  /** Bucket counts after the first k samples. */
  function Counts(pixels: seq<int>, k: nat): (c: seq<int>)
    requires 1 <= |pixels| < MAX_THUMBNAIL_PIXELS && k <= HISTOGRAM_SAMPLES
    requires forall i :: 0 <= i < |pixels| ==> pixels[i] >= 0
    ensures |c| == LUMA_LEVELS
  {
    if k == 0 then seq(LUMA_LEVELS, _ => 0)
    else
      var prev := Counts(pixels, k - 1);
      SampleIndexInRange(|pixels|, k - 1);
      var y := Luma(pixels[SampleIndex(|pixels|, k - 1)]);
      prev[y := prev[y] + 1]
  }

  lemma CountsStep(pixels: seq<int>, k: nat)
    requires 1 <= |pixels| < MAX_THUMBNAIL_PIXELS && k < HISTOGRAM_SAMPLES
    requires forall i :: 0 <= i < |pixels| ==> pixels[i] >= 0
    ensures SampleIndex(|pixels|, k) < |pixels|
    ensures var y := Luma(pixels[SampleIndex(|pixels|, k)]);
      Counts(pixels, k + 1) == Counts(pixels, k)[y := Counts(pixels, k)[y] + 1]
  {
    SampleIndexInRange(|pixels|, k);
  }

  lemma NextMultiple(i: int, ax: int)
    ensures i * ax + ax == (i + 1) * ax
  {
  }

  function Sum(s: seq<int>): int
  {
    if s == [] then 0 else s[0] + Sum(s[1..])
  }

  lemma {:induction false} SumIncrement(s: seq<int>, y: int)
    requires 0 <= y < |s|
    ensures Sum(s[y := s[y] + 1]) == Sum(s) + 1
  {
    if y > 0 {
      SumIncrement(s[1..], y - 1);
      assert s[y := s[y] + 1][1..] == s[1..][y - 1 := s[1..][y - 1] + 1];
    }
  }

  lemma {:induction false} SumOfZeros(n: nat)
    ensures Sum(seq(n, _ => 0)) == 0
  {
    if n > 0 {
      assert seq(n, _ => 0)[1..] == seq(n - 1, _ => 0);
      SumOfZeros(n - 1);
    }
  }

  /** Every sample lands in exactly one bucket: the counts add up to the samples taken. */
  lemma {:induction false} CountsSum(pixels: seq<int>, k: nat)
    requires 1 <= |pixels| < MAX_THUMBNAIL_PIXELS && k <= HISTOGRAM_SAMPLES
    requires forall i :: 0 <= i < |pixels| ==> pixels[i] >= 0
    ensures Sum(Counts(pixels, k)) == k
    ensures forall y :: 0 <= y < LUMA_LEVELS ==> Counts(pixels, k)[y] >= 0
  {
    if k == 0 {
      SumOfZeros(LUMA_LEVELS);
    } else {
      CountsSum(pixels, k - 1);
      SampleIndexInRange(|pixels|, k - 1);
      SumIncrement(Counts(pixels, k - 1), Luma(pixels[SampleIndex(|pixels|, k - 1)]));
    }
  }

  /** The largest count, starting from 0 as `maxv` does. */
  function MaxCount(c: seq<int>): (m: int)
    ensures m >= 0
    ensures forall i :: 0 <= i < |c| ==> c[i] <= m
    ensures m == 0 || m in c
  {
    if c == [] then 0
    else
      var rest := MaxCount(c[..|c| - 1]);
      assert forall i :: 0 <= i < |c| - 1 ==> c[..|c| - 1][i] == c[i];
      if c[|c| - 1] > rest then c[|c| - 1] else rest
  }

  /** Each count over the largest count, or all zero when every count is 0. */
  function Normalise(c: seq<int>): (h: seq<real>)
    ensures |h| == |c|
  {
    var m := MaxCount(c);
    seq(|c|, i requires 0 <= i < |c| => if m > 0 then (c[i] as real) / (m as real) else 0.0)
  }

  /** The histogram `loadThumbnail` stores for a decoded thumbnail. */
  function ThumbnailHistogram(b: Bitmap): (h: seq<real>)
    requires ValidBitmap(b)
    ensures |h| == LUMA_LEVELS
  {
    Normalise(Counts(b.pixels, HISTOGRAM_SAMPLES))
  }

  lemma RatioInUnit(x: int, m: int)
    requires 0 <= x <= m && m >= 1
    ensures 0.0 <= (x as real) / (m as real) <= 1.0
  {
    assert (x as real) / (m as real) * (m as real) == x as real;
  }

  lemma RatioOne(m: int)
    requires m >= 1
    ensures (m as real) / (m as real) == 1.0
  {
  }

  /**
   * The stored histogram has 256 entries in [0, 1], and its fullest bucket
   * is exactly 1 (the 32768 samples make some count positive).
   */
  lemma ThumbnailHistogramNormalised(b: Bitmap)
    requires ValidBitmap(b)
    ensures forall y :: 0 <= y < LUMA_LEVELS ==> 0.0 <= ThumbnailHistogram(b)[y] <= 1.0
    ensures exists y :: 0 <= y < LUMA_LEVELS && ThumbnailHistogram(b)[y] == 1.0
  {
    var c := Counts(b.pixels, HISTOGRAM_SAMPLES);
    CountsSum(b.pixels, HISTOGRAM_SAMPLES);
    var m := MaxCount(c);
    if m == 0 {
      AllZeroSum(c);
      assert false;
    }
    forall y | 0 <= y < LUMA_LEVELS
      ensures 0.0 <= ThumbnailHistogram(b)[y] <= 1.0
    {
      RatioInUnit(c[y], m);
    }
    var y :| 0 <= y < LUMA_LEVELS && c[y] == m;
    RatioOne(m);
    assert ThumbnailHistogram(b)[y] == 1.0;
  }

  lemma {:induction false} AllZeroSum(c: seq<int>)
    requires forall i :: 0 <= i < |c| ==> 0 <= c[i] <= 0
    ensures Sum(c) == 0
  {
    if c != [] {
      AllZeroSum(c[1..]);
    }
  }

  /** The sampling loop of `loadThumbnail`: 32768 evenly spaced pixels counted by luma. */
  method SampleLuma(buffer: seq<int>) returns (accum: array<int>)
    requires 1 <= |buffer| < MAX_THUMBNAIL_PIXELS
    requires forall i :: 0 <= i < |buffer| ==> buffer[i] >= 0
    ensures fresh(accum) && accum[..] == Counts(buffer, HISTOGRAM_SAMPLES)
  {
    var n := |buffer|;
    accum := new int[LUMA_LEVELS](_ => 0);
    assert accum[..] == Counts(buffer, 0);
    var tx := 0;
    var ax := (n * 4096) / HISTOGRAM_SAMPLES;
    assert ax == Stride(n);
    var i := 0;
    while i < HISTOGRAM_SAMPLES
      invariant 0 <= i <= HISTOGRAM_SAMPLES
      invariant tx == i * ax
      invariant accum[..] == Counts(buffer, i)
    {
      SampleIndexInRange(n, i);
      assert tx / 4096 == SampleIndex(n, i);
      var y := Luma(buffer[tx / 4096]);
      CountsStep(buffer, i);
      accum[y] := accum[y] + 1;
      NextMultiple(i, ax);
      i, tx := i + 1, tx + ax;
    }
  }

  /** The `maxv` loop. */
  method LargestCount(accum: array<int>) returns (maxv: int)
    ensures maxv == MaxCount(accum[..])
  {
    maxv := 0;
    for k := 0 to accum.Length
      invariant maxv == MaxCount(accum[..k])
    {
      assert accum[..k + 1][..k] == accum[..k];
      maxv := if maxv > accum[k] then maxv else accum[k];
    }
    assert accum[..accum.Length] == accum[..];
  }

  /** The normalising loop: each count times `1 / maxv`, or 0 when `maxv` is 0. */
  method NormaliseCounts(accum: array<int>, maxv: int) returns (data: seq<real>)
    requires maxv == MaxCount(accum[..])
    ensures data == Normalise(accum[..])
  {
    var out := new real[accum.Length];
    for k := 0 to accum.Length
      invariant out[..k] == Normalise(accum[..])[..k]
    {
      out[k] := if maxv > 0 then (accum[k] as real) / (maxv as real) else 0.0;
    }
    data := out[..];
  }

  /** A gallery image; the names and settings are fixed at construction. */
  class Image {
    const thumbnailName: string
    const imageName: string
    const flashOn: bool
    const gain: int
    const exposure: int
    const wb: int
    var thumbnail: Option<Bitmap>
    var histogramData: Option<seq<real>>

    /** The names and settings this image was constructed with. */
    predicate BuiltFrom(galleryDir: string, attributes: Attributes)
    {
      imageName == galleryDir + [Utils.SEPARATOR] + attributes.name &&
      thumbnailName == galleryDir + [Utils.SEPARATOR] + attributes.thumbnail &&
      (flashOn <==> attributes.flash != 0) &&
      gain == attributes.gain && exposure == attributes.exposure && wb == attributes.wb
    }

    /** The histogram exists exactly when the thumbnail does, and matches it. */
    ghost predicate Valid()
      reads this
    {
      match thumbnail
      case None => histogramData.None?
      case Some(b) => ValidBitmap(b) && histogramData == Some(ThumbnailHistogram(b))
    }

    constructor (galleryDir: string, attributes: Attributes)
      ensures Valid() && thumbnail.None?
      ensures imageName == galleryDir + [Utils.SEPARATOR] + attributes.name
      ensures thumbnailName == galleryDir + [Utils.SEPARATOR] + attributes.thumbnail
      ensures flashOn <==> attributes.flash != 0
      ensures gain == attributes.gain && exposure == attributes.exposure && wb == attributes.wb
      ensures BuiltFrom(galleryDir, attributes)
    {
      imageName := galleryDir + [Utils.SEPARATOR] + attributes.name;
      thumbnailName := galleryDir + [Utils.SEPARATOR] + attributes.thumbnail;
      flashOn := attributes.flash != 0;
      gain := attributes.gain;
      exposure := attributes.exposure;
      wb := attributes.wb;
      thumbnail := None;
      histogramData := None;
    }

    /**
     * `loadThumbnail`, with `decoded` the outcome of decoding the thumbnail
     * file (None when `BitmapFactory` fails).
     */
    method LoadThumbnail(decoded: Option<Bitmap>) returns (ok: bool)
      requires Valid()
      requires decoded.Some? ==> ValidBitmap(decoded.value)
      modifies this
      ensures Valid()
      ensures old(thumbnail).Some? ==> ok && thumbnail == old(thumbnail)
      ensures old(thumbnail).None? ==> (ok <==> decoded.Some?) && thumbnail == decoded
      ensures histogramData == (if thumbnail.Some? then Some(ThumbnailHistogram(thumbnail.value)) else None)
    {
      if thumbnail.Some? {
        return true;
      }
      if decoded.None? {
        return false;
      }
      var accum := SampleLuma(decoded.value.pixels);
      var maxv := LargestCount(accum);
      var data := NormaliseCounts(accum, maxv);
      thumbnail := decoded;
      histogramData := Some(data);
      return true;
    }

    /** Copies the 256 histogram values into `data` when there is a histogram. */
    method GetHistogramData(data: array<real>)
      requires Valid() && (histogramData.Some? ==> data.Length >= LUMA_LEVELS)
      modifies data
      ensures histogramData.Some? ==>
                data[..LUMA_LEVELS] == histogramData.value &&
                data[LUMA_LEVELS..] == old(data[LUMA_LEVELS..])
      ensures histogramData.None? ==> data[..] == old(data[..])
    {
      if histogramData.Some? {
        var h := histogramData.value;
        for k := 0 to LUMA_LEVELS
          invariant data[..k] == h[..k]
          invariant data[LUMA_LEVELS..] == old(data[LUMA_LEVELS..])
        {
          data[k] := h[k];
        }
      }
    }
  }
}

=== FILE: gallery_order.dfy ===
/**
 * The order the gallery keeps its stacks in: file paths of matching stack
 * files, newest (largest name) first, and the facts about strictly ordered
 * sequences of names that the refresh pass relies on.
 */
module GalleryOrder {
  import opened Wrappers
  import opened StackNames
  import opened SeqUtil
  import Utils

  predicate StrictlyAscending(s: seq<string>)
  {
    forall i, j {:trigger LexLess(s[i], s[j])} :: 0 <= i < j < |s| ==> LexLess(s[i], s[j])
  }

  predicate StrictlyDescending(s: seq<string>)
  {
    forall i, j {:trigger LexLess(s[j], s[i])} :: 0 <= i < j < |s| ==> LexLess(s[j], s[i])
  }

  /** `dir + File.separatorChar + name`. */
  function PathOf(dir: string, name: string): string
  {
    dir + [Utils.SEPARATOR] + name
  }

  function Paths(dir: string, names: seq<string>): (ps: seq<string>)
    ensures |ps| == |names|
    ensures forall i :: 0 <= i < |names| ==> ps[i] == PathOf(dir, names[i])
  {
    seq(|names|, i requires 0 <= i < |names| => PathOf(dir, names[i]))
  }

  /** The names a filtered `File.list` returns; a null listing counts as empty. */
  function MatchingNames(listing: Option<seq<string>>): (names: seq<string>)
    ensures forall i :: 0 <= i < |names| ==> MatchesStackPattern(names[i])
    ensures listing.Some? ==> forall x :: x in names <==> x in listing.value && MatchesStackPattern(x)
    ensures listing.None? ==> names == []
  {
    match listing
    case None => []
    case Some(all) => Matching(all)
  }

  function Matching(all: seq<string>): (names: seq<string>)
    ensures forall i :: 0 <= i < |names| ==> MatchesStackPattern(names[i])
    ensures forall x :: x in names <==> x in all && MatchesStackPattern(x)
  {
    if all == [] then []
    else
      assert all == [all[0]] + all[1..];
      (if MatchesStackPattern(all[0]) then [all[0]] else []) + Matching(all[1..])
  }

  lemma {:induction false} MatchingNoDuplicates(all: seq<string>)
    requires NoDuplicates(all)
    ensures NoDuplicates(Matching(all))
  {
    if all != [] {
      assert NoDuplicates(all[1..]) by {
        forall i, j | 0 <= i < j < |all[1..]| ensures all[1..][i] != all[1..][j] {
          assert all[1..][i] == all[i + 1] && all[1..][j] == all[j + 1];
        }
      }
      MatchingNoDuplicates(all[1..]);
      var rest := Matching(all[1..]);
      assert all[0] !in all[1..] by {
        forall k | 0 <= k < |all[1..]| ensures all[1..][k] != all[0] {
          assert all[1..][k] == all[k + 1];
        }
      }
      assert all[0] !in rest;
    }
  }

  /** The stack-file paths of a listing in ascending name order. */
  function ListedPaths(dir: string, listing: Option<seq<string>>): seq<string>
  {
    Paths(dir, Sort(MatchingNames(listing)))
  }

  lemma {:induction false} LexLessCommonPrefix(p: string, x: string, y: string)
    requires LexLess(x, y)
    ensures LexLess(p + x, p + y)
  {
    if p == [] {
      assert p + x == x && p + y == y;
    } else {
      LexLessCommonPrefix(p[1..], x, y);
      assert (p + x)[1..] == p[1..] + x;
      assert (p + y)[1..] == p[1..] + y;
    }
  }

  lemma {:induction false} NoDuplicatesCount<T>(s: seq<T>, x: T)
    requires NoDuplicates(s)
    ensures multiset(s)[x] <= 1
  {
    if s != [] {
      assert s == [s[0]] + s[1..];
      assert NoDuplicates(s[1..]) by {
        forall i, j | 0 <= i < j < |s[1..]| ensures s[1..][i] != s[1..][j] {
          assert s[1..][i] == s[i + 1] && s[1..][j] == s[j + 1];
        }
      }
      NoDuplicatesCount(s[1..], x);
      if s[0] == x {
        assert x !in s[1..] by {
          forall k | 0 <= k < |s[1..]| ensures s[1..][k] != x {
            assert s[1..][k] == s[k + 1];
          }
        }
      }
    }
  }

  /** Having no duplicates is a property of the multiset. */
  lemma NoDuplicatesOfPermutation<T>(a: seq<T>, b: seq<T>)
    requires NoDuplicates(a) && multiset(a) == multiset(b)
    ensures NoDuplicates(b)
  {
    forall i, j | 0 <= i < j < |b| ensures b[i] != b[j] {
      if b[i] == b[j] {
        var x := b[i];
        assert b == b[..j] + b[j..];
        assert x in b[..j] && x in b[j..];
        assert multiset(b)[x] >= 2;
        NoDuplicatesCount(a, x);
        assert false;
      }
    }
  }

  /** The listed paths are strictly ascending when the directory has no repeated names. */
  lemma ListedPathsAscending(dir: string, listing: Option<seq<string>>)
    requires listing.Some? ==> NoDuplicates(listing.value)
    ensures StrictlyAscending(ListedPaths(dir, listing))
  {
    var names := MatchingNames(listing);
    if listing.Some? {
      MatchingNoDuplicates(listing.value);
    }
    var sorted := Sort(names);
    NoDuplicatesOfPermutation(names, sorted);
    var ps := ListedPaths(dir, listing);
    forall i, j | 0 <= i < j < |ps| ensures LexLess(ps[i], ps[j]) {
      assert LexLeq(sorted[i], sorted[j]);
      LexLessCommonPrefix(dir + [Utils.SEPARATOR], sorted[i], sorted[j]);
    }
  }

  // -------------------------------------------------------------------
  // Descending views of an ascending sequence
  // -------------------------------------------------------------------

  /** `P[hi-1], P[hi-2], …, P[lo]`. */
  function DescRange(P: seq<string>, lo: nat, hi: nat): (d: seq<string>)
    requires lo <= hi <= |P|
    ensures |d| == hi - lo
    ensures forall k :: 0 <= k < hi - lo ==> d[k] == P[hi - 1 - k]
  {
    seq(hi - lo, k requires 0 <= k < hi - lo => P[hi - 1 - k])
  }

  /** The elements of `P[..k]` that lie in `S`, largest index first. */
  function DescIn(P: seq<string>, k: nat, S: set<string>): (d: seq<string>)
    requires k <= |P|
    ensures forall x :: x in d <==> x in P[..k] && x in S
  {
    if k == 0 then []
    else
      assert P[..k] == P[..k - 1] + [P[k - 1]];
      (if P[k - 1] in S then [P[k - 1]] else []) + DescIn(P, k - 1, S)
  }

  lemma DescRangeExtend(P: seq<string>, lo: nat, hi: nat)
    requires 1 <= lo <= hi <= |P|
    ensures DescRange(P, lo - 1, hi) == DescRange(P, lo, hi) + [P[lo - 1]]
  {
  }

  lemma DescRangeDescending(P: seq<string>)
    requires StrictlyAscending(P)
    ensures StrictlyDescending(DescRange(P, 0, |P|))
  {
  }

  lemma DescRangeElements(P: seq<string>)
    ensures forall x :: x in DescRange(P, 0, |P|) <==> x in P
  {
    var d := DescRange(P, 0, |P|);
    forall x | x in P ensures x in d {
      var i :| 0 <= i < |P| && P[i] == x;
      assert d[|P| - 1 - i] == x;
    }
  }

  lemma AscendingTail(P: seq<string>, i: nat)
    requires StrictlyAscending(P) && i < |P|
    ensures P[i] !in P[i + 1..] && P[i] !in P[..i]
  {
    var T := P[i + 1..];
    forall k | 0 <= k < |T| ensures T[k] != P[i] {
      assert T[k] == P[i + 1 + k];
      LexLessIrreflexive(P[i]);
    }
    forall k | 0 <= k < i ensures P[..i][k] != P[i] {
      LexLessIrreflexive(P[i]);
    }
  }

  lemma HeadIsMember(Q: seq<string>)
    ensures Q != [] ==> Q[0] in Q
  {
  }

  /**
   * A strictly descending sequence whose elements all occur in the ascending
   * `P[..k]` is exactly the descending walk over `P[..k]` picking its elements.
   */
  lemma {:induction false} DescendingIsDescIn(P: seq<string>, k: nat, Q: seq<string>, S: set<string>)
    requires StrictlyAscending(P) && k <= |P|
    requires StrictlyDescending(Q)
    requires forall x :: x in Q <==> x in P[..k] && x in S
    ensures Q == DescIn(P, k, S)
  {
    if k == 0 {
      HeadIsMember(Q);
      if Q != [] {
        assert false;
      }
    } else {
      var top := P[k - 1];
      assert P[..k] == P[..k - 1] + [top];
      AscendingTail(P, k - 1);
      assert top !in P[..k - 1];
      if top in S {
        assert top in Q;
        var m :| 0 <= m < |Q| && Q[m] == top;
        assert m == 0 by {
          if m > 0 {
            assert Q[0] in Q;
            assert LexLess(Q[m], Q[0]);
            LexLessIrreflexive(top);
            assert Q[0] != top && Q[0] in P[..k];
            assert Q[0] in P[..k - 1];
            var j :| 0 <= j < k - 1 && P[j] == Q[0];
            assert LexLess(Q[m], Q[0]);
            assert LexLess(P[j], P[k - 1]);
            LexLessAsymmetric(P[j], P[k - 1]);
          }
        }
        var rest := Q[1..];
        assert StrictlyDescending(rest) by {
          forall i, j | 0 <= i < j < |rest| ensures LexLess(rest[j], rest[i]) {
            assert rest[i] == Q[i + 1] && rest[j] == Q[j + 1];
          }
        }
        forall x ensures x in rest <==> x in P[..k - 1] && x in S {
          if x in rest {
            var j :| 0 <= j < |rest| && rest[j] == x;
            assert Q[j + 1] == x;
            assert LexLess(x, top);
            LexLessIrreflexive(top);
            assert x in P[..k];
          }
          if x in P[..k - 1] && x in S {
            assert x in Q;
            var j :| 0 <= j < |Q| && Q[j] == x;
            assert j != 0;
            assert rest[j - 1] == x;
          }
        }
        DescendingIsDescIn(P, k - 1, rest, S);
        assert Q == [Q[0]] + rest;
      } else {
        forall x ensures x in Q <==> x in P[..k - 1] && x in S {
          if x in Q {
            assert x in P[..k];
            assert x != top;
          }
        }
        DescendingIsDescIn(P, k - 1, Q, S);
      }
    }
  }
}

=== FILE: histogram.dfy ===
/**
 * FCam::HistogramConfig and FCam::Histogram (include/FCam/Histogram.h): the
 * request for a histogram, and the bucket-major table of `unsigned` counts
 * the statistics unit returns.
 */
module Histograms {
  import opened Base
  import opened CArith

  /** The requested region, bucket count and on/off switch. */
  datatype HistogramConfig = HistogramConfig(region: Rect, buckets: nat, enabled: bool)

  /** The default configuration: 64 buckets, disabled, an empty region. */
  function DefaultHistogramConfig(): (c: HistogramConfig)
    ensures c.buckets == 64 && !c.enabled
  {
    HistogramConfig(Rect(0, 0, 0, 0), 64, false)
  }

  /** `operator==`: enabled flags, bucket counts and regions all agree. */
  function ConfigEqual(a: HistogramConfig, b: HistogramConfig): (r: bool)
    ensures r <==> a == b
  {
    if a.enabled != b.enabled then false
    else if a.buckets != b.buckets then false
    else if a.region != b.region then false
    else true
  }

  /** `operator!=` is the negation of `operator==`. */
  function ConfigNotEqual(a: HistogramConfig, b: HistogramConfig): (r: bool)
    ensures r <==> a != b
  {
    !ConfigEqual(a, b)
  }

  /** Cell (b, c) of a table with `n` columns lies inside a table of `rows` rows. */
  lemma CellInTable(b: nat, c: nat, rows: nat, n: nat)
    requires b < rows && c < n
    ensures b * n + c < rows * n
  {
    assert (b + 1) * n <= rows * n by {
      MulMono(b + 1, rows, n);
    }
  }

  lemma MulMono(x: nat, y: nat, n: nat)
    requires x <= y
    ensures x * n <= y * n
  {
  }

  /** Different cells of the table occupy different elements. */
  lemma CellsDistinct(b1: nat, c1: nat, b2: nat, c2: nat, n: nat)
    requires c1 < n && c2 < n
    requires b1 * n + c1 == b2 * n + c2
    ensures b1 == b2 && c1 == c2
  {
    if b1 < b2 {
      MulMono(b1 + 1, b2, n);
    } else if b2 < b1 {
      MulMono(b2 + 1, b1, n);
    }
  }

  class Histogram {
    var buckets: nat
    var channels: nat
    var region: Rect
    var colorspace: ColorSpace
    /** `_data`: the counts, one row of `channels` per bucket. */
    var data: seq<int>

    ghost predicate Valid()
      reads this
    {
      |data| == buckets * channels &&
      forall k :: 0 <= k < |data| ==> 0 <= data[k] < UINT32_MOD
    }

    /** The default histogram: no buckets, no channels, RGB, and no data. */
    constructor Default()
      ensures Valid() && !IsValid()
      ensures buckets == 0 && channels == 0 && region == Rect(0, 0, 0, 0) && colorspace == RGB
    {
      buckets, channels := 0, 0;
      region := Rect(0, 0, 0, 0);
      colorspace := RGB;
      data := [];
    }

    /** An all-zero histogram of `buckets` × `channels` counts. */
    constructor (buckets: nat, channels: nat, region: Rect, colorspace: ColorSpace)
      ensures Valid()
      ensures this.buckets == buckets && this.channels == channels
      ensures this.region == region && this.colorspace == colorspace
      ensures |data| == buckets * channels && forall k :: 0 <= k < |data| ==> data[k] == 0
    {
      this.buckets := buckets;
      this.channels := channels;
      this.region := region;
      this.colorspace := colorspace;
      data := seq(buckets * channels, _ => 0);
    }

    /** `valid()`: there is data to read. */
    function IsValid(): (r: bool)
      reads this
      requires Valid()
      ensures r <==> buckets > 0 && channels > 0
    {
      assert buckets > 0 && channels > 0 ==> buckets * channels > 0 by {
        if buckets > 0 && channels > 0 { MulMono(1, buckets, channels); }
      }
      |data| != 0
    }

    /** Where `(b, c)` lives in `_data`. */
    function Index(b: nat, c: nat): (i: nat)
      reads this
      requires Valid() && b < buckets && c < channels
      ensures i < |data|
    {
      CellInTable(b, c, buckets, channels);
      b * channels + c
    }

    /** `operator()(b, c)`: the count of bucket b in channel c. */
    function Count(b: nat, c: nat): (v: int)
      reads this
      requires Valid() && b < buckets && c < channels
      ensures 0 <= v < UINT32_MOD
    {
      data[Index(b, c)]
    }

    /** Writing through the reference `operator()(b, c)` returns. */
    method SetCount(b: nat, c: nat, v: int)
      requires Valid() && b < buckets && c < channels && 0 <= v < UINT32_MOD
      modifies this
      ensures Valid()
      ensures buckets == old(buckets) && channels == old(channels)
      ensures region == old(region) && colorspace == old(colorspace)
      ensures Count(b, c) == v
      ensures forall b2, c2 :: 0 <= b2 < buckets && 0 <= c2 < channels && (b2 != b || c2 != c) ==>
                Count(b2, c2) == old(Count(b2, c2))
    {
      var i := Index(b, c);
      data := data[i := v];
      forall b2, c2 | 0 <= b2 < buckets && 0 <= c2 < channels && (b2 != b || c2 != c)
        ensures Index(b2, c2) != i
      {
        if Index(b2, c2) == i {
          CellsDistinct(b2, c2, b, c, channels);
        }
      }
    }

    /** The exact total of bucket b over its channels. */
    ghost function BucketSum(b: nat): int
      reads this
      requires Valid() && b < buckets
    {
      assert b * channels + channels <= |data| by {
        MulMono(b + 1, buckets, channels);
      }
      SumRange(data, b * channels, channels)
    }

    /**
     * `operator()(b)`: the bucket summed over all channels (wrapping like an
     * `unsigned`) for RGB and sRGB, channel 0 for YUV and YpUV.
     */
    method Bucket(b: nat) returns (result: int)
      requires Valid() && b < buckets
      requires colorspace in {YUV, YpUV} ==> channels >= 1
      ensures colorspace in {RGB, SRGB} ==> result == BucketSum(b) % UINT32_MOD
      ensures colorspace in {YUV, YpUV} ==> result == Count(b, 0)
    {
      result := 0;
      match colorspace {
        case RGB =>
          result := ChannelTotal(b);
        case SRGB =>
          result := ChannelTotal(b);
        case YUV =>
          result := Count(b, 0);
        case YpUV =>
          result := Count(b, 0);
      }
    }

    /** The summing loop of `operator()(b)`. */
    method ChannelTotal(b: nat) returns (result: int)
      requires Valid() && b < buckets
      ensures result == BucketSum(b) % UINT32_MOD
      ensures 0 <= result < UINT32_MOD
    {
      var lo := b * channels;
      assert lo + channels <= |data| by {
        MulMono(b + 1, buckets, channels);
      }
      result := 0;
      for c := 0 to channels
        invariant result == SumRange(data, lo, c) % UINT32_MOD
      {
        ModAddStep(SumRange(data, lo, c), data[lo + c], UINT32_MOD);
        result := (result + data[lo + c]) % UINT32_MOD;
      }
    }
  }

  /** Without wrap-around, the bucket total bounds each of its channel counts. */
  lemma BucketTotalBoundsChannels(h: Histogram, b: nat, c: nat)
    requires h.Valid() && b < h.buckets && c < h.channels
    requires h.BucketSum(b) < UINT32_MOD
    ensures h.Count(b, c) <= h.BucketSum(b) % UINT32_MOD
  {
    var lo := b * h.channels;
    assert lo + h.channels <= |h.data| by {
      MulMono(b + 1, h.buckets, h.channels);
    }
    SumRangeBoundsTerms(h.data, lo, h.channels);
    assert h.data[lo + c] == h.Count(b, c);
  }
}

=== FILE: param_set_request.dfy ===
/**
 * The JNI bridge's parameter-change message: an id and an owned, copied
 * byte buffer holding the serialised parameter value.
 */
module ParamSetRequests {
  import opened Wrappers
  import opened Bytes

  /** Message ids shared by the Java and the native side. */
  const HISTOGRAM_SIZE: int := 256
  const PARAM_SHOT: int := 0
  const PARAM_RESOLUTION: int := 1
  const PARAM_BURST_SIZE: int := 2
  const PARAM_OUTPUT_FORMAT: int := 3
  const PARAM_VIEWER_ACTIVE: int := 4
  const PARAM_OUTPUT_DIRECTORY: int := 5
  const PARAM_OUTPUT_FILE_ID: int := 6
  const PARAM_LUMINANCE_HISTOGRAM: int := 7
  const PARAM_PREVIEW_EXPOSURE: int := 8
  const PARAM_PREVIEW_FOCUS: int := 9
  const PARAM_PREVIEW_GAIN: int := 10
  const PARAM_PREVIEW_WB: int := 11
  const PARAM_PREVIEW_AUTO_EXPOSURE_ON: int := 12
  const PARAM_PREVIEW_AUTO_FOCUS_ON: int := 13
  const PARAM_PREVIEW_AUTO_GAIN_ON: int := 14
  const PARAM_PREVIEW_AUTO_WB_ON: int := 15
  const PARAM_CAPTURE_FPS: int := 16
  const PARAM_TAKE_PICTURE: int := 17

  /** Private id posted when the face-sharpness region changes. */
  const PARAM_PRIV_FS_CHANGED: int := 100

  /** Field positions of a shot description sent as an int array. */
  const SHOT_PARAM_EXPOSURE: int := 0
  const SHOT_PARAM_FOCUS: int := 1
  const SHOT_PARAM_GAIN: int := 2
  const SHOT_PARAM_WB: int := 3
  const SHOT_PARAM_FLASH: int := 4

  class ParamSetRequest {
    var id: int
    /** `null` only for a default-constructed request. */
    var data: array?<byte>
    var dataSize: int

    ghost predicate Valid()
      reads this
    {
      dataSize >= 0 &&
      (data == null ==> dataSize == 0) &&
      (data != null ==> data.Length == dataSize)
    }

    /** The bytes the request carries (none for a default request). */
    function Bytes(): (bs: seq<byte>)
      requires Valid()
      reads this, data
      ensures |bs| == dataSize
    {
      if data == null then [] else data[..]
    }

    constructor Default()
      ensures Valid()
      ensures id == -1 && dataSize == 0 && data == null
    {
      id := -1;
      dataSize := 0;
      data := null;
    }

    /**
     * A request for `param` with a fresh buffer of `size` bytes; the bytes are
     * copied from `src` when it is present and left unspecified otherwise.
     */
    constructor (param: int, src: Option<seq<byte>>, size: nat)
      requires src.Some? ==> |src.value| >= size
      ensures Valid()
      ensures id == param && dataSize == size
      ensures data != null && fresh(data)
      ensures src.Some? ==> Bytes() == src.value[..size]
    {
      id := param;
      dataSize := size;
      var buffer := new byte[size];
      if src.Some? {
        CopyInto(buffer, src.value);
      }
      data := buffer;
    }

    /** Copy construction: same id, size and bytes, in a buffer of its own. */
    constructor Copy(instance: ParamSetRequest)
      requires instance.Valid()
      ensures Valid()
      ensures id == instance.id && dataSize == instance.dataSize
      ensures data != null && fresh(data)
      ensures Bytes() == instance.Bytes()
    {
      id := instance.id;
      dataSize := instance.dataSize;
      var buffer := new byte[instance.dataSize];
      CopyInto(buffer, instance.Bytes());
      data := buffer;
    }

    /**
     * Assignment from another request. The old buffer is replaced by a fresh
     * copy of `instance`'s bytes; `instance` itself is left as it was.
     */
    method Assign(instance: ParamSetRequest)
      requires instance != this && Valid() && instance.Valid()
      modifies this
      ensures Valid()
      ensures id == instance.id && dataSize == instance.dataSize
      ensures data != null && fresh(data)
      ensures Bytes() == instance.Bytes()
      ensures instance.Bytes() == old(instance.Bytes())
    {
      id := instance.id;
      dataSize := instance.dataSize;
      var buffer := new byte[instance.dataSize];
      CopyInto(buffer, instance.Bytes());
      data := buffer;
    }

    /** The first four bytes read as a native (little-endian) `int`. */
    function GetDataAsInt(): (r: int)
      requires Valid() && dataSize >= 4
      reads this, data
      ensures -0x8000_0000 <= r < 0x8000_0000
    {
      LeToI32(Bytes()[..4])
    }
  }

  /** `memcpy(dst, src, dst.Length)`. */
  method CopyInto(dst: array<byte>, src: seq<byte>)
    requires |src| >= dst.Length
    modifies dst
    ensures dst[..] == src[..dst.Length]
  {
    var i := 0;
    while i < dst.Length
      invariant 0 <= i <= dst.Length
      invariant dst[..i] == src[..i]
    {
      dst[i] := src[i];
      i := i + 1;
    }
  }

  /**
   * An `int` sent as a request (`ParamSetRequest(param, &value, sizeof(int))`)
   * reads back as the same value through `getDataAsInt`.
   */
  method IntRequestRoundTrip(param: int, value: int) returns (r: int)
    requires -0x8000_0000 <= value < 0x8000_0000
    ensures r == value
  {
    var request := new ParamSetRequest(param, Some(I32ToLe(value)), 4);
    assert request.Bytes()[..4] == I32ToLe(value);
    I32RoundTrip(value);
    r := request.GetDataAsInt();
  }
}

=== FILE: sensor.dfy ===
/**
 * The Tegra sensor (external/FCam/Tegra/Sensor.cpp): how it picks a
 * sensor mode for a requested image size, the exposure and size bounds it
 * reports from the mode table, its rolling-shutter estimate, and how it
 * counts the shots that have been requested but not yet returned.
 */
module TegraSensor {
  import opened Wrappers
  import opened Base
  import FCamTime
  import Events
  import Shots
  import TegraDaemon

  /** The error code of `Event::SensorStoppedError`. */
  const SENSOR_STOPPED_ERROR: int := 19

  /** The floor `min/maxExposure` put on the exposure, in microseconds. */
  const MIN_REPORTED_EXPOSURE: int := 1000

  /**
   * One sensor mode (`SensorConfig::ModeDesc`). The exposure and frame
   * limits are held already scaled to whole microseconds, as
   * `(int)(1000000.0f * f)` leaves them.
   */
  datatype Mode = Mode(width: int, height: int, minExposure: int, maxExposure: int,
                       minFrameTime: int, maxFrameTime: int)

  /** The mode is at least as wide and as tall as `s`. */
  predicate Fits(m: Mode, s: Size)
  {
    m.width >= s.width && m.height >= s.height
  }

  /**
   * The index `getBestModeIndex` settles on when its loop reaches index
   * `k` with the best so far `k + 1`: it walks down while the mode fits,
   * and never looks at mode 0.
   */
  function ScanDown(modes: seq<Mode>, s: Size, k: int): int
    requires k < |modes|
    decreases k
  {
    if k <= 0 then k + 1
    else if !Fits(modes[k], s) then k + 1
    else ScanDown(modes, s, k - 1)
  }

  /** The mode `getBestModeIndex(s)` picks: the scan starts below the largest mode. */
  function BestModeIndex(modes: seq<Mode>, s: Size): int
  {
    ScanDown(modes, s, |modes| - 2)
  }

  lemma {:induction false} ScanDownProperties(modes: seq<Mode>, s: Size, k: int)
    requires 0 <= k < |modes|
    ensures var r := ScanDown(modes, s, k);
            1 <= r <= k + 1 &&
            (forall j :: r <= j <= k ==> Fits(modes[j], s)) &&
            (r >= 2 ==> !Fits(modes[r - 1], s))
    decreases k
  {
    if k > 0 && Fits(modes[k], s) {
      ScanDownProperties(modes, s, k - 1);
    }
  }

  /**
   * With at least two modes the choice lies in [1, n-1], so mode 0 is never
   * chosen; every mode from the choice up to n-2 fits the size, and the
   * mode just below the choice (if it is not mode 0) does not. A single
   * mode is always chosen.
   */
  lemma BestModeProperties(modes: seq<Mode>, s: Size)
    ensures |modes| == 1 ==> BestModeIndex(modes, s) == 0
    ensures |modes| >= 2 ==>
              var r := BestModeIndex(modes, s);
              1 <= r <= |modes| - 1 &&
              (forall j :: r <= j <= |modes| - 2 ==> Fits(modes[j], s)) &&
              (r >= 2 ==> !Fits(modes[r - 1], s))
  {
    if |modes| >= 2 {
      ScanDownProperties(modes, s, |modes| - 2);
    }
  }

  /** Modes sorted by resolution, smallest first, as the sensor lists them. */
  predicate SortedByResolution(modes: seq<Mode>)
  {
    forall i, j :: 0 <= i < j < |modes| ==> modes[i].width <= modes[j].width && modes[i].height <= modes[j].height
  }

  /**
   * With sorted modes, the choice is the smallest mode above mode 0 that
   * fits the size, or the largest mode when none of modes 1 to n-2 fits.
   */
  lemma BestModeIsSmallestFit(modes: seq<Mode>, s: Size)
    requires |modes| >= 2 && SortedByResolution(modes)
    ensures var r := BestModeIndex(modes, s);
            1 <= r < |modes| &&
            (r <= |modes| - 2 ==> Fits(modes[r], s)) &&
            (forall j :: 1 <= j < r ==> !Fits(modes[j], s))
  {
    BestModeProperties(modes, s);
    var r := BestModeIndex(modes, s);
    forall j | 1 <= j < r
      ensures !Fits(modes[j], s)
    {
      assert !Fits(modes[r - 1], s);
      if j < r - 1 {
        assert modes[j].width <= modes[r - 1].width && modes[j].height <= modes[r - 1].height;
      }
    }
  }

  /** The bound `min/maxExposure` report: the mode's value, but never below 1000 µs. */
  function ReportedExposure(exposure: int): (r: int)
    ensures r >= MIN_REPORTED_EXPOSURE
    ensures exposure > MIN_REPORTED_EXPOSURE ==> r == exposure
    ensures exposure <= MIN_REPORTED_EXPOSURE ==> r == MIN_REPORTED_EXPOSURE
  {
    if exposure > MIN_REPORTED_EXPOSURE then exposure else MIN_REPORTED_EXPOSURE
  }

  /**
   * `rollingShutterTime(shot)`: 77 ms for images taller than 960 rows,
   * 33 ms otherwise.
   */
  function RollingShutterTime(imageHeight: int): (t: int)
    ensures t == 77000 || t == 33000
    ensures t == 77000 <==> imageHeight > 960
  {
    if imageHeight > 960 then 77000 else 33000
  }

  class Sensor {
    /** `sensorConfig.modes[0 .. numberOfModes)`. */
    const modes: seq<Mode>
    /** `shotsPending_`, shared with the daemon that drops frames. */
    const pending: TegraDaemon.PendingShots
    /** The sensor's id as an event creator. */
    const creator: int
    var daemon: TegraDaemon.Daemon?
    var streamingShot: seq<Shots.Shot>
    /** The drop policy and frame limit of the generic sensor. */
    var dropPolicy: TegraDaemon.DropPolicy
    var frameLimit: nat

    /** The daemon, once there is one, counts drops on this sensor's counter. */
    predicate Valid()
      reads this, daemon
    {
      daemon != null ==> daemon.pending == pending && daemon.creator == creator
    }

    /** `Sensor(index)`: no daemon yet, nothing pending, nothing streaming. */
    constructor (modes: seq<Mode>, creator: int)
      ensures this.modes == modes && this.creator == creator
      ensures fresh(pending) && pending.count == 0
      ensures daemon == null && streamingShot == [] && Valid()
    {
      this.modes := modes;
      this.creator := creator;
      pending := new TegraDaemon.PendingShots();
      daemon := null;
      streamingShot := [];
      dropPolicy := TegraDaemon.DropNewest;
      frameLimit := 128;
    }

    /** `getBestModeIndex(s)`: the loop walks down from the second-largest mode while modes fit. */
    method GetBestModeIndex(s: Size) returns (best: int)
      ensures best == BestModeIndex(modes, s)
    {
      best := |modes| - 1;
      var modeIdx := best - 1;
      while modeIdx > 0
        invariant modeIdx == best - 1 && modeIdx < |modes|
        invariant ScanDown(modes, s, modeIdx) == BestModeIndex(modes, s)
        decreases modeIdx
      {
        if modes[modeIdx].width < s.width || modes[modeIdx].height < s.height {
          break;
        }
        best := modeIdx;
        modeIdx := modeIdx - 1;
      }
    }

    /** `maxExposure(s)`: the chosen mode's longest exposure, at least 1000 µs. */
    method MaxExposure(s: Size) returns (e: int)
      requires |modes| >= 1
      ensures e >= MIN_REPORTED_EXPOSURE
      ensures 0 <= BestModeIndex(modes, s) < |modes| && e == ReportedExposure(modes[BestModeIndex(modes, s)].maxExposure)
    {
      var idx := GetBestModeIndex(s);
      BestModeProperties(modes, s);
      e := ReportedExposure(modes[idx].maxExposure);
    }

    /** `minExposure(s)`: the chosen mode's shortest exposure, at least 1000 µs. */
    method MinExposure(s: Size) returns (e: int)
      requires |modes| >= 1
      ensures e >= MIN_REPORTED_EXPOSURE
      ensures 0 <= BestModeIndex(modes, s) < |modes| && e == ReportedExposure(modes[BestModeIndex(modes, s)].minExposure)
    {
      var idx := GetBestModeIndex(s);
      BestModeProperties(modes, s);
      e := ReportedExposure(modes[idx].minExposure);
    }

    /** `maxFrameTime(s)`: the chosen mode's value. */
    method MaxFrameTime(s: Size) returns (t: int)
      requires |modes| >= 1
      ensures 0 <= BestModeIndex(modes, s) < |modes| && t == modes[BestModeIndex(modes, s)].maxFrameTime
    {
      var idx := GetBestModeIndex(s);
      BestModeProperties(modes, s);
      t := modes[idx].maxFrameTime;
    }

    /** `minFrameTime(s)`: the chosen mode's value. */
    method MinFrameTime(s: Size) returns (t: int)
      requires |modes| >= 1
      ensures 0 <= BestModeIndex(modes, s) < |modes| && t == modes[BestModeIndex(modes, s)].minFrameTime
    {
      var idx := GetBestModeIndex(s);
      BestModeProperties(modes, s);
      t := modes[idx].minFrameTime;
    }

    /** `minImageSize()`: the first mode's size. */
    function MinImageSize(): (sz: Size)
      requires |modes| >= 1
      ensures SortedByResolution(modes) ==>
                forall k :: 0 <= k < |modes| ==> sz.width <= modes[k].width && sz.height <= modes[k].height
      ensures sz == Size(modes[0].width, modes[0].height)
    {
      Size(modes[0].width, modes[0].height)
    }

    /** `maxImageSize()`: the last mode's size. */
    function MaxImageSize(): (sz: Size)
      requires |modes| >= 1
      ensures SortedByResolution(modes) ==>
                forall k :: 0 <= k < |modes| ==> modes[k].width <= sz.width && modes[k].height <= sz.height
      ensures sz == Size(modes[|modes| - 1].width, modes[|modes| - 1].height)
    {
      Size(modes[|modes| - 1].width, modes[|modes| - 1].height)
    }

    /** `shotsPending()`. */
    function ShotsPending(): int
      reads this, pending
    {
      pending.count
    }

    /** `framesPending()`: 0 without a daemon, else the length of its frame queue. */
    function FramesPending(): (n: int)
      reads this, daemon
      ensures daemon == null ==> n == 0
      ensures daemon != null ==> n == |daemon.frameQueue|
    {
      if daemon == null then 0 else |daemon.frameQueue|
    }

    /** `start()`: a daemon is created on first use, with a fresh current request. */
    method Start(ids: Shots.ShotIds)
      modifies this`daemon, ids
      ensures daemon != null
      ensures old(daemon) != null ==> daemon == old(daemon) && ids.last == old(ids.last)
      ensures old(daemon) == null ==>
                fresh(daemon) && daemon.requestQueue == [] && daemon.frameQueue == [] &&
                daemon.pending == pending && daemon.creator == creator
    {
      if daemon != null {
        return;
      }
      var current := new Shots.Shot(ids);
      daemon := new TegraDaemon.Daemon(pending, creator, current);
    }

    /**
     * A deep copy of `shot` as a new request (`f->_shot = shot` and the id
     * cloned): the same parameters, actions and id.
     */
    static method NewRequest(shot: Shots.Shot, ids: Shots.ShotIds) returns (f: Shots.Shot)
      modifies ids
      ensures fresh(f)
      ensures f.id == shot.id && f.SameParameters(shot) && f.actions == shot.actions
      ensures ids.last == old(ids.last) + 2
    {
      f := new Shots.Shot(ids);
      f.Assign(shot, ids);
      f.id := shot.id;
    }

    /**
     * `capture(shot)`: one request joins the back of the daemon's queue and
     * the pending count goes up by one.
     */
    method Capture(shot: Shots.Shot, ids: Shots.ShotIds) returns (f: Shots.Shot)
      modifies this`daemon, ids, pending, daemon
      ensures daemon != null && fresh(f)
      ensures f.id == shot.id && f.SameParameters(shot) && f.actions == shot.actions
      ensures pending.count == old(pending.count) + 1
      ensures old(daemon) != null ==> daemon == old(daemon) && daemon.requestQueue == old(daemon.requestQueue) + [f]
      ensures old(daemon) == null ==> fresh(daemon) && daemon.requestQueue == [f]
      ensures daemon.frameQueue == (if old(daemon) == null then [] else old(daemon.frameQueue))
    {
      Start(ids);
      f := NewRequest(shot, ids);
      pending.Inc();
      daemon.requestQueue := daemon.requestQueue + [f];
    }

    /**
     * Deep copies of every shot of a burst, in order: the same
     * parameters, actions and ids.
     */
    static method NewRequests(burst: seq<Shots.Shot>, ids: Shots.ShotIds) returns (frames: seq<Shots.Shot>)
      modifies ids
      ensures |frames| == |burst|
      ensures forall i :: 0 <= i < |burst| ==> fresh(frames[i])
      ensures forall i :: 0 <= i < |burst| ==>
                frames[i].id == burst[i].id && frames[i].SameParameters(burst[i]) && frames[i].actions == burst[i].actions
    {
      frames := [];
      var i := 0;
      while i < |burst|
        invariant 0 <= i <= |burst| && |frames| == i
        invariant forall k :: 0 <= k < i ==> fresh(frames[k])
        invariant forall k :: 0 <= k < i ==>
                    frames[k].id == burst[k].id && frames[k].SameParameters(burst[k]) && frames[k].actions == burst[k].actions
      {
        var f := NewRequest(burst[i], ids);
        frames := frames + [f];
        i := i + 1;
      }
    }

    /**
     * `capture(burst)`: every shot becomes a request, in order, at the back
     * of the daemon's queue, and the pending count goes up by the burst
     * length.
     */
    method CaptureBurst(burst: seq<Shots.Shot>, ids: Shots.ShotIds) returns (frames: seq<Shots.Shot>)
      modifies this`daemon, ids, pending, daemon
      ensures daemon != null && |frames| == |burst|
      ensures forall i :: 0 <= i < |burst| ==>
                fresh(frames[i]) && frames[i].id == burst[i].id && frames[i].SameParameters(burst[i])
      ensures pending.count == old(pending.count) + |burst|
      ensures old(daemon) != null ==> daemon == old(daemon) && daemon.requestQueue == old(daemon.requestQueue) + frames
      ensures old(daemon) == null ==> fresh(daemon) && daemon.requestQueue == frames
    {
      Start(ids);
      frames := NewRequests(burst, ids);
      PushRequests(daemon, pending, frames);
    }

    /** The locked loop of `capture(burst)`: each request joins the queue and counts as pending. */
    static method PushRequests(d: TegraDaemon.Daemon, pending: TegraDaemon.PendingShots, frames: seq<Shots.Shot>)
      modifies pending, d`requestQueue
      ensures d.requestQueue == old(d.requestQueue) + frames
      ensures pending.count == old(pending.count) + |frames|
    {
      var i := 0;
      while i < |frames|
        invariant 0 <= i <= |frames|
        invariant d.requestQueue == old(d.requestQueue) + frames[..i]
        invariant pending.count == old(pending.count) + i
      {
        pending.Inc();
        d.requestQueue := d.requestQueue + [frames[i]];
        i := i + 1;
      }
      assert frames[..|frames|] == frames;
    }

    /**
     * `stream(burst)` (and `stream(shot)`, a burst of one): deep copies of
     * the shots, ids kept, become the streaming burst; the daemon is
     * started, and when no request is waiting the burst is captured once
     * right away.
     */
    method Stream(burst: seq<Shots.Shot>, ids: Shots.ShotIds) returns (queued: seq<Shots.Shot>)
      modifies this`streamingShot, this`daemon, ids, pending, daemon
      ensures |streamingShot| == |burst|
      ensures forall i :: 0 <= i < |burst| ==>
                fresh(streamingShot[i]) && streamingShot[i].id == burst[i].id &&
                streamingShot[i].SameParameters(burst[i]) && streamingShot[i].actions == burst[i].actions
      ensures daemon != null
      ensures old(daemon) != null && old(daemon.requestQueue) != [] ==>
                daemon == old(daemon) && daemon.requestQueue == old(daemon.requestQueue) &&
                queued == [] && pending.count == old(pending.count)
      ensures old(daemon) == null || old(daemon.requestQueue) == [] ==>
                daemon.requestQueue == queued && |queued| == |burst| &&
                pending.count == old(pending.count) + |burst| &&
                forall i :: 0 <= i < |burst| ==>
                  fresh(queued[i]) && queued[i].id == burst[i].id && queued[i].SameParameters(streamingShot[i])
    {
      streamingShot := NewRequests(burst, ids);
      Start(ids);
      queued := [];
      if |daemon.requestQueue| == 0 {
        queued := CaptureBurst(streamingShot, ids);
      }
    }

    /** `stopStreaming()`: nothing is streamed any more. */
    method StopStreaming()
      modifies this`streamingShot
      ensures streamingShot == []
    {
      streamingShot := [];
    }

    /**
     * `generateRequest()`: while streaming, one request per streaming shot
     * joins the queue, each adding one to the pending count; otherwise
     * nothing happens.
     */
    method GenerateRequest(ids: Shots.ShotIds) returns (frames: seq<Shots.Shot>)
      requires daemon != null
      modifies ids, pending, daemon`requestQueue
      ensures |frames| == |streamingShot|
      ensures forall i :: 0 <= i < |frames| ==> frames[i].id == streamingShot[i].id && frames[i].SameParameters(streamingShot[i])
      ensures daemon.requestQueue == old(daemon.requestQueue) + frames
      ensures pending.count == old(pending.count) + |streamingShot|
    {
      frames := [];
      var i := 0;
      while i < |streamingShot|
        invariant 0 <= i <= |streamingShot| && |frames| == i
        invariant forall k :: 0 <= k < i ==> fresh(frames[k])
        invariant forall k :: 0 <= k < i ==> frames[k].id == streamingShot[k].id && frames[k].SameParameters(streamingShot[k])
        invariant daemon.requestQueue == old(daemon.requestQueue) + frames
        invariant pending.count == old(pending.count) + i
      {
        var f := NewRequest(streamingShot[i], ids);
        pending.Inc();
        daemon.requestQueue := daemon.requestQueue + [f];
        frames := frames + [f];
        i := i + 1;
      }
    }

    /**
     * `getFrame()`: without a daemon, a SensorStoppedError and an invalid
     * frame; otherwise the oldest finished frame, one fewer pending shot.
     * Pulling from an empty queue waits for the next frame, which the
     * precondition leaves out.
     */
    method GetFrame(events: Events.EventQueue, now: FCamTime.Time) returns (frame: Option<Shots.Shot>)
      requires daemon != null ==> daemon.frameQueue != []
      modifies pending, daemon, events
      ensures old(daemon) == null ==>
                frame.None? && pending.count == old(pending.count) &&
                |events.events| == |old(events.events)| + 1 &&
                events.events[|old(events.events)|].kind == Events.ERROR &&
                events.events[|old(events.events)|].data == SENSOR_STOPPED_ERROR
      ensures daemon != null ==>
                frame == Some(old(daemon.frameQueue)[0]) && daemon.frameQueue == old(daemon.frameQueue)[1..] &&
                pending.count == old(pending.count) - 1 && events.events == old(events.events)
    {
      if daemon == null {
        events.Error(SENSOR_STOPPED_ERROR, 0, "Can't request a frame before calling capture or stream", now);
        return None;
      }
      frame := Some(daemon.frameQueue[0]);
      daemon.frameQueue := daemon.frameQueue[1..];
      pending.Dec();
    }

    /** `enforceDropPolicy()`: hands the policy and limit to the daemon, if there is one. */
    method EnforceDropPolicy(events: Events.EventQueue, now: FCamTime.Time)
      requires Valid()
      requires daemon != null ==> TegraDaemon.AsSize(frameLimit) >= 1 || daemon.frameQueue == [] || dropPolicy.OtherPolicy?
      modifies daemon, pending, events
      ensures daemon == null ==> pending.count == old(pending.count) && events.events == old(events.events)
      ensures daemon != null ==> daemon.dropPolicy == dropPolicy && daemon.frameLimit == TegraDaemon.AsSize(frameLimit)
      ensures daemon != null ==> pending.count == old(pending.count) - (|old(daemon.frameQueue)| - |daemon.frameQueue|)
    {
      if daemon == null {
        return;
      }
      daemon.SetDropPolicy(dropPolicy, frameLimit, events, now);
    }
  }
}

=== FILE: seq_util.dfy ===
/** Sequence helpers shared by the listener registries and the queues. */
module SeqUtil {

  /** No element occurs twice. */
  predicate NoDuplicates<T(==)>(s: seq<T>)
  {
    forall i, j :: 0 <= i < j < |s| ==> s[i] != s[j]
  }

  /** `s` without its first occurrence of `x` (`Vector.remove(Object)`). */
  function RemoveFirst<T(==)>(s: seq<T>, x: T): (r: seq<T>)
    ensures x in s ==> |r| == |s| - 1
    ensures x !in s ==> r == s
    ensures multiset(r) == multiset(s) - multiset{x}
  {
    if s == [] then []
    else
      assert s == [s[0]] + s[1..];
      if s[0] == x then s[1..] else [s[0]] + RemoveFirst(s[1..], x)
  }

  lemma {:induction false} RemoveFirstKeepsOthers<T>(s: seq<T>, x: T)
    requires NoDuplicates(s)
    ensures NoDuplicates(RemoveFirst(s, x))
    ensures x !in RemoveFirst(s, x)
    ensures forall y :: y in s && y != x ==> y in RemoveFirst(s, x)
  {
    if s != [] && s[0] != x {
      assert NoDuplicates(s[1..]) by {
        forall i, j | 0 <= i < j < |s[1..]| ensures s[1..][i] != s[1..][j] {
          assert s[1..][i] == s[i + 1] && s[1..][j] == s[j + 1];
        }
      }
      RemoveFirstKeepsOthers(s[1..], x);
      var r := RemoveFirst(s, x);
      assert r == [s[0]] + RemoveFirst(s[1..], x);
      assert s[0] !in s[1..] by {
        forall k | 0 <= k < |s[1..]| ensures s[1..][k] != s[0] {
          assert s[1..][k] == s[k + 1];
        }
      }
      assert multiset(s[1..])[s[0]] == 0;
      assert multiset(RemoveFirst(s[1..], x))[s[0]] == 0;
    } else if s != [] {
      assert s[0] !in s[1..] by {
        forall k | 0 <= k < |s[1..]| ensures s[1..][k] != s[0] {
          assert s[1..][k] == s[k + 1];
        }
      }
    }
  }
}

=== FILE: sharpness_map.dfy ===
/**
 * FCam::SharpnessMapConfig and FCam::SharpnessMap
 * (include/FCam/SharpnessMap.h): the request for a sharpness map and the
 * row-major grid of per-channel `unsigned` sharpness values.
 */
module SharpnessMaps {
  import opened Base
  import opened CArith
  import Histograms

  datatype SharpnessMapConfig = SharpnessMapConfig(size: Size, enabled: bool)

  /** The default configuration: disabled, size 0 × 0. */
  function DefaultSharpnessMapConfig(): (c: SharpnessMapConfig)
    ensures !c.enabled && c.size == Size(0, 0)
  {
    SharpnessMapConfig(Size(0, 0), false)
  }

  /** `operator==`: the sizes only matter when the generator is enabled. */
  function ConfigEqual(a: SharpnessMapConfig, b: SharpnessMapConfig): (r: bool)
    ensures r <==> a.enabled == b.enabled && (a.enabled ==> a.size == b.size)
  {
    if a.enabled != b.enabled then false
    else if a.enabled && a.size != b.size then false
    else true
  }

  /** Two disabled configurations are equal whatever their sizes; the relation is an equivalence. */
  lemma ConfigEqualIsEquivalence(a: SharpnessMapConfig, b: SharpnessMapConfig, c: SharpnessMapConfig)
    ensures !a.enabled && !b.enabled ==> ConfigEqual(a, b)
    ensures ConfigEqual(a, a)
    ensures ConfigEqual(a, b) ==> ConfigEqual(b, a)
    ensures ConfigEqual(a, b) && ConfigEqual(b, c) ==> ConfigEqual(a, c)
  {
  }

  /** The element of cell (x, y) in channel c lies inside a w × h × n grid. */
  lemma CellInGrid(x: nat, y: nat, c: nat, w: nat, h: nat, n: nat)
    requires x < w && y < h && c < n
    ensures y * w + x < w * h
    ensures (y * w + x) * n + c < w * h * n
  {
    Histograms.CellInTable(y, x, h, w);
    assert h * w == w * h;
    Histograms.CellInTable(y * w + x, c, w * h, n);
  }

  /** Two different cells of a grid w wide with n channels have different offsets. */
  lemma CellsApart(x: nat, y: nat, c: nat, x2: nat, y2: nat, c2: nat, w: nat, n: nat)
    requires x < w && x2 < w && c < n && c2 < n && (x2, y2, c2) != (x, y, c)
    ensures (y2 * w + x2) * n + c2 != (y * w + x) * n + c
  {
    if (y2 * w + x2) * n + c2 == (y * w + x) * n + c {
      Histograms.CellsDistinct(y2 * w + x2, c2, y * w + x, c, n);
      Histograms.CellsDistinct(y2, x2, y, x, w);
    }
  }

  class SharpnessMap {
    var size: Size
    var channels: nat
    /** `_data`: rows, then columns, then channels. */
    var data: seq<int>

    ghost predicate Valid()
      reads this
    {
      size.width >= 0 && size.height >= 0 &&
      |data| == size.width * size.height * channels &&
      forall k :: 0 <= k < |data| ==> 0 <= data[k] < UINT32_MOD
    }

    /** The default map: size 0 × 0, no channels, no data. */
    constructor Default()
      ensures Valid() && !IsValid()
      ensures size == Size(0, 0) && channels == 0
    {
      size := Size(0, 0);
      channels := 0;
      data := [];
    }

    /** An all-zero map of `s.width × s.height × channels` values. */
    constructor (s: Size, channels: nat)
      requires s.width >= 0 && s.height >= 0
      ensures Valid() && size == s && this.channels == channels
      ensures |data| == s.width * s.height * channels && forall k :: 0 <= k < |data| ==> data[k] == 0
    {
      size := s;
      this.channels := channels;
      data := seq(s.width * s.height * channels, _ => 0);
    }

    /** `valid()`: there is data to read. */
    function IsValid(): (r: bool)
      reads this
      requires Valid()
      ensures r <==> size.width > 0 && size.height > 0 && channels > 0
    {
      assert size.width > 0 && size.height > 0 && channels > 0 ==> |data| > 0 by {
        if size.width > 0 && size.height > 0 && channels > 0 {
          CellInGrid(0, 0, 0, size.width, size.height, channels);
        }
      }
      |data| != 0
    }

    /** Where `(x, y, c)` lives in `_data`. */
    function Index(x: nat, y: nat, c: nat): (i: nat)
      reads this
      requires Valid() && x < size.width && y < size.height && c < channels
      ensures i < |data|
    {
      CellInGrid(x, y, c, size.width, size.height, channels);
      (y * size.width + x) * channels + c
    }

    /** `operator()(x, y, c)`: the sharpness of one cell in one channel. */
    function Value(x: nat, y: nat, c: nat): (v: int)
      reads this
      requires Valid() && x < size.width && y < size.height && c < channels
      ensures 0 <= v < UINT32_MOD
    {
      data[Index(x, y, c)]
    }

    /** Writing through the reference `operator()(x, y, c)` returns. */
    method SetValue(x: nat, y: nat, c: nat, v: int)
      requires Valid() && x < size.width && y < size.height && c < channels && 0 <= v < UINT32_MOD
      modifies this
      ensures Valid() && size == old(size) && channels == old(channels)
      ensures Value(x, y, c) == v
      ensures forall x2, y2, c2 ::
                (0 <= x2 < size.width && 0 <= y2 < size.height && 0 <= c2 < channels && (x2, y2, c2) != (x, y, c)) ==>
                  Value(x2, y2, c2) == old(Value(x2, y2, c2))
    {
      var i := Index(x, y, c);
      data := data[i := v];
      forall x2, y2, c2 | 0 <= x2 < size.width && 0 <= y2 < size.height && 0 <= c2 < channels &&
          (x2, y2, c2) != (x, y, c)
        ensures Index(x2, y2, c2) != i
      {
        CellsApart(x, y, c, x2, y2, c2, size.width, channels);
      }
    }

    /** Where cell (x, y) starts in `_data`: its channels follow one another from there. */
    function CellStart(x: nat, y: nat): (lo: nat)
      reads this
      requires Valid() && x < size.width && y < size.height
      ensures lo + channels <= |data|
      ensures forall c :: 0 <= c < channels ==> Index(x, y, c) == lo + c
    {
      CellBounds(x, y);
      (y * size.width + x) * channels
    }

    /** The exact total of cell (x, y) over its channels. */
    ghost function CellSum(x: nat, y: nat): int
      reads this
      requires Valid() && x < size.width && y < size.height
    {
      SumRange(data, CellStart(x, y), channels)
    }

    lemma CellBounds(x: nat, y: nat)
      requires Valid() && x < size.width && y < size.height
      ensures (y * size.width + x) * channels + channels <= |data|
    {
      CellInGrid(x, y, 0, size.width, size.height, 1);
      Histograms.MulMono(y * size.width + x + 1, size.width * size.height, channels);
    }

    /** `operator()(x, y)`: the cell summed over all channels, wrapping like an `unsigned`. */
    method Total(x: nat, y: nat) returns (total: int)
      requires Valid() && x < size.width && y < size.height
      ensures total == CellSum(x, y) % UINT32_MOD
      ensures 0 <= total < UINT32_MOD
    {
      var lo := CellStart(x, y);
      total := 0;
      for c := 0 to channels
        invariant total == SumRange(data, lo, c) % UINT32_MOD
      {
        ModAddStep(SumRange(data, lo, c), data[lo + c], UINT32_MOD);
        total := (total + data[lo + c]) % UINT32_MOD;
      }
    }
  }

  /** Without wrap-around, a cell's total bounds each of its channel values. */
  lemma CellTotalBoundsChannels(m: SharpnessMap, x: nat, y: nat, c: nat)
    requires m.Valid() && x < m.size.width && y < m.size.height && c < m.channels
    requires m.CellSum(x, y) < UINT32_MOD
    ensures m.Value(x, y, c) <= m.CellSum(x, y) % UINT32_MOD
  {
    var lo := m.CellStart(x, y);
    SumRangeBoundsTerms(m.data, lo, m.channels);
    assert m.data[lo + c] == m.Value(x, y, c);
  }
}

=== FILE: shot.dfy ===
/**
 * FCam::Shot (external/FCam/Shot.cpp): the parameters of one requested
 * frame, the device actions to run while it is exposed, and the id every
 * constructed, copied or assigned shot draws from one global counter.
 */
module Shots {
  import opened Wrappers
  import FCamImages
  import Histograms
  import SharpnessMaps

  /**
   * What an action does when it runs: some device action whose effect is
   * not modelled, or one of the lens's two focus actions with the
   * parameters they carry (`Lens::FocusAction`,
   * `Lens::FocusSteppingAction`).
   */
  datatype ActionEffect =
    | DeviceEffect
    | FocusEffect(focus: real, speed: real)
    | FocusSteppingEffect(step: real, speed: real, repeat: int)

  /**
   * One scheduled device action (`FCam::Action`): its type code, when to
   * run it, its latency, its owner (0 for none) and its effect. A copy
   * made by `Action::copy()` is modelled as the same value.
   */
  datatype Action = Action(kind: int, time: int, latency: int, owner: int, effect: ActionEffect)

  /** The static `Shot::_id`: the last id handed out. */
  class ShotIds {
    var last: int

    constructor ()
      ensures last == 0
    {
      last := 0;
    }

    /** `id = ++_id` under `_idLock`. */
    method Next() returns (id: int)
      modifies this
      ensures id == old(last) + 1 && last == id
    {
      last := last + 1;
      id := last;
    }
  }

  /** The actions of `s` whose owner is not `owner`, in their order. */
  function WithoutOwner(s: seq<Action>, owner: int): (r: seq<Action>)
    ensures forall k :: 0 <= k < |r| ==> r[k].owner != owner
    ensures forall a: Action :: a.owner != owner ==> multiset(r)[a] == multiset(s)[a]
    ensures forall a: Action :: a.owner == owner ==> multiset(r)[a] == 0
    ensures |r| <= |s|
  {
    if s == [] then []
    else
      var init := s[..|s| - 1];
      var last := s[|s| - 1];
      assert s == init + [last];
      var r0 := WithoutOwner(init, owner);
      if last.owner != owner then r0 + [last] else r0
  }

  /** Removing by owner twice is removing once. */
  lemma WithoutOwnerIdempotent(s: seq<Action>, owner: int)
    ensures WithoutOwner(WithoutOwner(s, owner), owner) == WithoutOwner(s, owner)
  {
    var r := WithoutOwner(s, owner);
    NoOwnerUnchanged(r, owner);
  }

  /** A sequence without any action of `owner` is left as it is. */
  lemma {:induction false} NoOwnerUnchanged(s: seq<Action>, owner: int)
    requires forall k :: 0 <= k < |s| ==> s[k].owner != owner
    ensures WithoutOwner(s, owner) == s
  {
    if s != [] {
      NoOwnerUnchanged(s[..|s| - 1], owner);
    }
  }

  class Shot {
    var id: int
    var image: FCamImages.ImageView
    var exposure: int
    var frameTime: int
    var gain: real
    var whiteBalance: int
    var histogram: Histograms.HistogramConfig
    var sharpness: SharpnessMaps.SharpnessMapConfig
    var wanted: bool
    /** `_colorMatrix`: empty, or twelve entries of a 3 × 4 matrix. */
    var colorMatrix: seq<real>
    var actions: seq<Action>

    /** Every field but the id and the actions. */
    predicate SameParameters(other: Shot)
      reads this, other
    {
      image == other.image && exposure == other.exposure && frameTime == other.frameTime &&
      gain == other.gain && whiteBalance == other.whiteBalance &&
      histogram == other.histogram && sharpness == other.sharpness &&
      wanted == other.wanted && colorMatrix == other.colorMatrix
    }

    /**
     * `Shot()`: exposure, frame time and gain 0, white balance 5000,
     * wanted, no colour matrix, no actions, and the next id.
     */
    constructor (ids: ShotIds)
      modifies ids
      ensures id == old(ids.last) + 1 && ids.last == id
      ensures exposure == 0 && frameTime == 0 && gain == 0.0 && whiteBalance == 5000 && wanted
      ensures image == FCamImages.DEFAULT_VIEW
      ensures histogram == Histograms.DefaultHistogramConfig()
      ensures sharpness == SharpnessMaps.DefaultSharpnessMapConfig()
      ensures colorMatrix == [] && actions == []
    {
      exposure, frameTime, gain, whiteBalance := 0, 0, 0.0, 5000;
      image := FCamImages.DEFAULT_VIEW;
      histogram := Histograms.DefaultHistogramConfig();
      sharpness := SharpnessMaps.DefaultSharpnessMapConfig();
      colorMatrix := [];
      actions := [];
      wanted := true;
      new;
      id := ids.Next();
    }

    /** The copy constructor: every parameter and a copy of every action, under a new id. */
    constructor Copy(other: Shot, ids: ShotIds)
      modifies ids
      ensures id == old(ids.last) + 1 && ids.last == id
      ensures SameParameters(other) && actions == other.actions
    {
      image, exposure, frameTime, gain := other.image, other.exposure, other.frameTime, other.gain;
      whiteBalance, histogram, sharpness := other.whiteBalance, other.histogram, other.sharpness;
      wanted, colorMatrix := other.wanted, other.colorMatrix;
      actions := other.actions;
      new;
      id := ids.Next();
    }

    /** `addAction`: a copy of the action joins the set. */
    method AddAction(a: Action)
      modifies this`actions
      ensures actions == old(actions) + [a]
    {
      actions := actions + [a];
    }

    /** `clearActions(owner)`: deletes exactly the actions of that owner. */
    method ClearActions(owner: int)
      modifies this`actions
      ensures actions == WithoutOwner(old(actions), owner)
    {
      var kept := [];
      for i := 0 to |actions|
        invariant kept == WithoutOwner(actions[..i], owner)
      {
        assert actions[..i + 1][..i] == actions[..i];
        if actions[i].owner != owner {
          kept := kept + [actions[i]];
        }
      }
      assert actions[..|actions|] == actions;
      actions := kept;
    }

    /** `clearAllActions`: deletes every action. */
    method ClearAllActions()
      modifies this`actions
      ensures actions == []
    {
      actions := [];
    }

    /**
     * `setColorMatrix(m)`: a null matrix clears it; otherwise the first
     * twelve entries of `m` become the matrix.
     */
    method SetColorMatrix(m: Option<seq<real>>)
      requires m.Some? ==> |m.value| >= 12
      modifies this`colorMatrix
      ensures m.None? ==> colorMatrix == []
      ensures m.Some? ==> colorMatrix == m.value[..12]
    {
      if m.None? {
        colorMatrix := [];
        return;
      }
      var cm := if |colorMatrix| >= 12 then colorMatrix[..12] else colorMatrix + seq(12 - |colorMatrix|, _ => 0.0);
      for i := 0 to 12
        invariant |cm| == 12 && cm[..i] == m.value[..i]
      {
        cm := cm[i := m.value[i]];
      }
      colorMatrix := cm;
    }

    /**
     * `operator=`, as written: the target's actions are deleted before the
     * source's are copied, so assigning a shot to itself loses its actions.
     * Every parameter is copied and a new id drawn.
     */
    method Assign(other: Shot, ids: ShotIds)
      modifies this, ids
      ensures id == old(ids.last) + 1 && ids.last == id
      ensures SameParameters(other)
      ensures this != other ==> actions == old(other.actions)
      ensures this == other ==> actions == []
    {
      ClearAllActions();
      var theirs := other.actions;
      actions := actions + theirs;
      id := ids.Next();
      image, exposure, frameTime, whiteBalance := other.image, other.exposure, other.frameTime, other.whiteBalance;
      gain, histogram, sharpness := other.gain, other.histogram, other.sharpness;
      wanted, colorMatrix := other.wanted, other.colorMatrix;
    }

    /** `operator=` taking the source's actions before deleting its own: self-assignment keeps them. */
    method AssignKeepingActions(other: Shot, ids: ShotIds)
      modifies this, ids
      ensures id == old(ids.last) + 1 && ids.last == id
      ensures SameParameters(other)
      ensures actions == old(other.actions)
    {
      var theirs := other.actions;
      ClearAllActions();
      actions := actions + theirs;
      id := ids.Next();
      image, exposure, frameTime, whiteBalance := other.image, other.exposure, other.frameTime, other.whiteBalance;
      gain, histogram, sharpness := other.gain, other.histogram, other.sharpness;
      wanted, colorMatrix := other.wanted, other.colorMatrix;
    }
  }
}

=== FILE: stack_names.dfy ===
/**
 * Names of image-stack index files (`img_NNNN.xml`), the order Java sorts
 * them in, and the next free stack id the activity derives from them.
 */
module StackNames {
  import opened Wrappers

  /** `Settings.IMAGE_STACK_PATTERN`, the regular expression `img_\d{4}.xml`. */
  const IMAGE_STACK_PATTERN: string := "img_\\d{4}.xml"

  predicate IsDigit(c: char) { '0' <= c <= '9' }

  /** A regex `.`: any character but a line terminator. */
  predicate AnyChar(c: char)
  {
    c !in {'\n', '\r', '\U{0085}', '\U{2028}', '\U{2029}'}
  }

  /**
   * A whole-name match of the pattern: `img_`, four digits, any character
   * (the unescaped `.`), then `xml`.
   */
  predicate MatchesStackPattern(name: string)
  {
    |name| == 12 && name[..4] == "img_" &&
    IsDigit(name[4]) && IsDigit(name[5]) && IsDigit(name[6]) && IsDigit(name[7]) &&
    AnyChar(name[8]) && name[9..] == "xml"
  }

  /** `String.indexOf(sub)`, or -1. */
  function IndexOf(s: string, sub: string): (r: int)
    ensures -1 <= r <= |s|
    ensures r >= 0 ==> r + |sub| <= |s| && s[r..r + |sub|] == sub
    decreases |s|
  {
    if |sub| > |s| then -1
    else if s[..|sub|] == sub then 0
    else
      var r := IndexOf(s[1..], sub);
      if r < 0 then -1
      else
        assert s[1..][r..r + |sub|] == s[r + 1..r + 1 + |sub|];
        r + 1
  }

  /** The activity finds the digits at index 4 of the pattern. */
  lemma DigitsStartAtFour()
    ensures IndexOf(IMAGE_STACK_PATTERN, "\\d") == 4
  {
    var p := IMAGE_STACK_PATTERN;
    assert p[..2][0] == 'i';
    assert p[1..][..2][0] == 'm';
    assert p[2..][..2][0] == 'g';
    assert p[3..][..2][0] == '_';
    assert p[4..][..2] == "\\d";
    assert p[1..][1..] == p[2..];
    assert p[2..][1..] == p[3..];
    assert p[3..][1..] == p[4..];
  }

  // -------------------------------------------------------------------
  // String.compareTo order
  // -------------------------------------------------------------------

  /** `a.compareTo(b) < 0`: the first differing character decides, else the shorter. */
  predicate LexLess(a: string, b: string)
  {
    if a == [] then b != []
    else if b == [] then false
    else if a[0] != b[0] then a[0] < b[0]
    else LexLess(a[1..], b[1..])
  }

  predicate LexLeq(a: string, b: string) { a == b || LexLess(a, b) }

  lemma {:induction false} LexLessIrreflexive(a: string)
    ensures !LexLess(a, a)
  {
    if a != [] {
      LexLessIrreflexive(a[1..]);
    }
  }

  lemma {:induction false} LexLessTransitive(a: string, b: string, c: string)
    requires LexLess(a, b) && LexLess(b, c)
    ensures LexLess(a, c)
  {
    if a != [] && b != [] && c != [] && a[0] == b[0] && b[0] == c[0] {
      LexLessTransitive(a[1..], b[1..], c[1..]);
    }
  }

  lemma {:induction false} LexLessTotal(a: string, b: string)
    ensures a == b || LexLess(a, b) || LexLess(b, a)
  {
    if a != [] && b != [] && a[0] == b[0] {
      LexLessTotal(a[1..], b[1..]);
      if a[1..] == b[1..] {
        assert a == [a[0]] + a[1..] && b == [b[0]] + b[1..];
      }
    }
  }

  lemma {:induction false} LexLessAsymmetric(a: string, b: string)
    requires LexLess(a, b)
    ensures !LexLess(b, a)
  {
    if a != [] && b != [] && a[0] == b[0] {
      LexLessAsymmetric(a[1..], b[1..]);
    }
  }

  // -------------------------------------------------------------------
  // Arrays.sort
  // -------------------------------------------------------------------

  predicate Sorted(s: seq<string>)
  {
    forall i, j :: 0 <= i < j < |s| ==> LexLeq(s[i], s[j])
  }

  function Insert(x: string, s: seq<string>): (r: seq<string>)
    requires Sorted(s)
    ensures Sorted(r) && multiset(r) == multiset(s) + multiset{x}
    ensures |r| == |s| + 1
  {
    if s == [] then [x]
    else if LexLeq(x, s[0]) then
      SortedCons(x, s);
      [x] + s
    else
      LexLessTotal(x, s[0]);
      var rest := Insert(x, s[1..]);
      SortedHeadCons(s, x, rest);
      [s[0]] + rest
  }

  /** A string at most the first of a sorted list can go in front of it. */
  lemma SortedCons(x: string, s: seq<string>)
    requires Sorted(s) && s != [] && LexLeq(x, s[0])
    ensures Sorted([x] + s)
  {
    forall j | 0 <= j < |s| ensures LexLeq(x, s[j]) {
      if x != s[0] && s[0] != s[j] { LexLessTransitive(x, s[0], s[j]); }
    }
  }

  /** The head of a sorted list stays in front of the rest with x inserted, when x comes after it. */
  lemma SortedHeadCons(s: seq<string>, x: string, rest: seq<string>)
    requires Sorted(s) && s != [] && LexLess(s[0], x)
    requires Sorted(rest) && multiset(rest) == multiset(s[1..]) + multiset{x}
    ensures Sorted([s[0]] + rest) && multiset([s[0]] + rest) == multiset(s) + multiset{x}
  {
    assert s == [s[0]] + s[1..];
    forall k | 0 <= k < |rest| ensures LexLeq(s[0], rest[k]) {
      assert rest[k] in multiset(rest);
      if rest[k] != x {
        assert rest[k] in multiset(s[1..]);
        var j :| 0 <= j < |s[1..]| && s[1..][j] == rest[k];
        assert s[j + 1] == rest[k];
      }
    }
  }

  /** Sorting by insertion; ordered and a permutation of the input. */
  function Sort(s: seq<string>): (r: seq<string>)
    ensures Sorted(r) && multiset(r) == multiset(s) && |r| == |s|
  {
    if s == [] then [] else
      assert s == [s[0]] + s[1..];
      Insert(s[0], Sort(s[1..]))
  }

  // -------------------------------------------------------------------
  // Stack ids
  // -------------------------------------------------------------------

  function DigitValue(c: char): int
    requires IsDigit(c)
  {
    (c as int) - ('0' as int)
  }

  function Pow10(k: nat): (r: nat)
    ensures r >= 1
  {
    if k == 0 then 1 else 10 * Pow10(k - 1)
  }

  /** `Integer.parseInt` of a string of decimal digits. */
  function DecimalValue(ds: string): (v: nat)
    requires forall i :: 0 <= i < |ds| ==> IsDigit(ds[i])
    ensures v < Pow10(|ds|)
  {
    if ds == [] then 0
    else
      var rest := DecimalValue(ds[1..]);
      LeadingDigitBound(DigitValue(ds[0]), Pow10(|ds| - 1), rest);
      DigitValue(ds[0]) * Pow10(|ds| - 1) + rest
  }

  lemma LeadingDigitBound(d: nat, p: nat, r: nat)
    requires d <= 9 && r < p
    ensures d * p + r < 10 * p
  {
    assert d * p <= 9 * p;
  }

  /** The four digits of a matching name as a number. */
  function StackId(name: string): (id: nat)
    requires MatchesStackPattern(name)
    ensures id < 10000
  {
    DecimalValue(name[4..8])
  }

  /**
   * `onCreate`'s id extraction: nothing for an empty listing, otherwise one
   * more than the id of the last name in sorted order.
   */
  function NextFileId(names: seq<string>): (r: Option<int>)
    requires forall i :: 0 <= i < |names| ==> MatchesStackPattern(names[i])
    ensures r.None? <==> names == []
  {
    if names == [] then None
    else
      var sorted := Sort(names);
      var last := sorted[|sorted| - 1];
      SameElements(sorted, names, last);
      IdDigits(last);
      DigitsStartAtFour();
      var startIndex := IndexOf(IMAGE_STACK_PATTERN, "\\d");
      assert startIndex == 4;
      Some(DecimalValue(last[startIndex..startIndex + 4]) + 1)
  }

  /** Characters 4 to 7 of a matching name are decimal digits. */
  lemma IdDigits(name: string)
    requires MatchesStackPattern(name)
    ensures |name| == 12 && forall i :: 0 <= i < 4 ==> IsDigit(name[4..8][i])
  {
  }

  lemma {:induction false} LexLessSameLengthDigits(a: string, b: string)
    requires |a| == |b|
    requires forall i :: 0 <= i < |a| ==> IsDigit(a[i]) && IsDigit(b[i])
    requires LexLess(a, b)
    ensures DecimalValue(a) < DecimalValue(b)
  {
    if a[0] == b[0] {
      LexLessSameLengthDigits(a[1..], b[1..]);
    } else {
      var k := |a| - 1;
      var P := Pow10(k);
      assert DecimalValue(a[1..]) < P;
      assert DecimalValue(a) < DigitValue(a[0]) * P + P;
      MulMono(DigitValue(a[0]) + 1, DigitValue(b[0]), P);
      assert DigitValue(a[0]) * P + P == (DigitValue(a[0]) + 1) * P;
    }
  }

  lemma MulMono(x: int, y: int, p: nat)
    requires x <= y
    ensures x * p <= y * p
  {
  }

  /** A `compareTo` order between strings survives truncation to a common length. */
  lemma {:induction false} LexLessPrefix(a: string, b: string, k: nat)
    requires LexLess(a, b) && k <= |a| && k <= |b|
    ensures a[..k] == b[..k] || LexLess(a[..k], b[..k])
  {
    if k > 0 && a[0] == b[0] {
      LexLessPrefix(a[1..], b[1..], k - 1);
      assert a[..k][1..] == a[1..][..k - 1];
      assert b[..k][1..] == b[1..][..k - 1];
      if a[1..][..k - 1] == b[1..][..k - 1] {
        assert a[..k] == [a[0]] + a[1..][..k - 1];
        assert b[..k] == [b[0]] + b[1..][..k - 1];
      }
    }
  }

  /** Names in `compareTo` order have ids in numeric order. */
  lemma OrderedNamesOrderedIds(a: string, b: string)
    requires MatchesStackPattern(a) && MatchesStackPattern(b) && LexLeq(a, b)
    ensures StackId(a) <= StackId(b)
  {
    if a != b {
      LexLessPrefix(a, b, 8);
      if a[..8] != b[..8] {
        var da, db := a[4..8], b[4..8];
        assert a[..8] == a[..4] + da && b[..8] == b[..4] + db;
        DropCommonPrefix(a[..4], da, db);
        LexLessSameLengthDigits(da, db);
      } else {
        assert a[4..8] == a[..8][4..];
        assert b[4..8] == b[..8][4..];
      }
    }
  }

  lemma {:induction false} DropCommonPrefix(p: string, x: string, y: string)
    requires LexLess(p + x, p + y)
    ensures LexLess(x, y)
  {
    if p != [] {
      assert (p + x)[0] == (p + y)[0];
      assert (p + x)[1..] == p[1..] + x;
      assert (p + y)[1..] == p[1..] + y;
      DropCommonPrefix(p[1..], x, y);
    } else {
      assert p + x == x && p + y == y;
    }
  }

  /** Every name is at most the last name of the sorted listing. */
  lemma SortedLastIsGreatest(names: seq<string>, x: string)
    requires x in names
    ensures |Sort(names)| == |names| && LexLeq(x, Sort(names)[|names| - 1])
  {
    var sorted := Sort(names);
    SortedBelowLast(names, sorted, x);
  }

  /** Sequences with the same multiset of elements have the same members. */
  lemma SameElements<T>(a: seq<T>, b: seq<T>, x: T)
    requires multiset(a) == multiset(b) && x in a
    ensures x in b
  {
    assert x in multiset(a);
  }

  /** In an ordered permutation of the names every name is at most the last element. */
  lemma SortedBelowLast(names: seq<string>, s: seq<string>, x: string)
    requires Sorted(s) && multiset(s) == multiset(names) && x in names
    ensures |s| > 0 && LexLeq(x, s[|s| - 1])
  {
    SameElements(names, s, x);
    var j :| 0 <= j < |s| && s[j] == x;
    if j < |s| - 1 {
      assert LexLeq(s[j], s[|s| - 1]);
    }
  }

  /** The next id is one more than the id of the last name in sorted order, which is one of the names. */
  lemma NextFileIdOfLast(names: seq<string>)
    requires forall i :: 0 <= i < |names| ==> MatchesStackPattern(names[i])
    requires names != []
    ensures |Sort(names)| == |names| && MatchesStackPattern(Sort(names)[|names| - 1])
    ensures NextFileId(names).value == StackId(Sort(names)[|names| - 1]) + 1
  {
    var sorted := Sort(names);
    var last := sorted[|sorted| - 1];
    SameElements(sorted, names, last);
    DigitsStartAtFour();
  }

  /** The id the activity hands out exceeds the id of every existing stack file. */
  lemma NextFileIdIsFresh(names: seq<string>)
    requires forall i :: 0 <= i < |names| ==> MatchesStackPattern(names[i])
    requires names != []
    ensures forall i :: 0 <= i < |names| ==> StackId(names[i]) < NextFileId(names).value
  {
    NextFileIdOfLast(names);
    var last := Sort(names)[|names| - 1];
    forall i | 0 <= i < |names|
      ensures StackId(names[i]) < StackId(last) + 1
    {
      SortedLastIsGreatest(names, names[i]);
      OrderedNamesOrderedIds(names[i], last);
    }
  }
}

=== FILE: statistics.dfy ===
/**
 * The Tegra statistics generator (external/FCam/Tegra/Statistics.cpp):
 * the variance of the luma plane used as a one-cell sharpness map, and the
 * Y/U/V histogram of a YUV420p frame. Both subsample the image so that the
 * number of samples stays near a fixed budget.
 */
module TegraStatistics {
  import opened Base
  import opened Bytes
  import opened CArith
  import SharpnessMaps
  import Histograms
  import YUV420

  /** `MAX_VARIANCE_SAMPLES` and `MAX_HISTOGRAM_SAMPLES`. */
  const MAX_VARIANCE_SAMPLES: nat := 32768
  const MAX_HISTOGRAM_SAMPLES: nat := 32768

  // -------------------------------------------------------------------
  // The subsample step
  // -------------------------------------------------------------------

  /** How many times the budget loop halves both sample counts. */
  function Halvings(sx: nat, sy: nat, limit: nat): nat
    decreases sx
  {
    if sx * sy > limit then
      assert sx > 0;
      1 + Halvings(sx / 2, sy / 2, limit)
    else 0
  }

  lemma DivTwice(a: nat, k: nat)
    ensures (a / Pow2(k)) / 2 == a / Pow2(k + 1)
  {
    HalveQuotient(a, Pow2(k));
  }

  /** Doubling `start · 2^k` gives `start · 2^(k+1)`. */
  lemma DoubleStep(start: nat, k: nat)
    ensures start * Pow2(k) * 2 == start * Pow2(k + 1)
  {
    var p := Pow2(k);
    assert Pow2(k + 1) == 2 * p;
    assert start * (2 * p) == (start * p) * 2;
  }

  /**
   * After `Halvings` steps the shifted counts fit the budget, and one step
   * fewer they did not: the loop stops at the first fitting step.
   */
  lemma {:induction false} HalvingsFit(sx: nat, sy: nat, limit: nat)
    ensures var k := Halvings(sx, sy, limit);
            (sx / Pow2(k)) * (sy / Pow2(k)) <= limit &&
            (k > 0 ==> (sx / Pow2(k - 1)) * (sy / Pow2(k - 1)) > limit)
    decreases sx
  {
    if sx * sy > limit {
      HalvingsFit(sx / 2, sy / 2, limit);
      var k := Halvings(sx / 2, sy / 2, limit);
      ShiftCompose(sx, k);
      ShiftCompose(sy, k);
      if k > 0 {
        ShiftCompose(sx, k - 1);
        ShiftCompose(sy, k - 1);
      }
    }
  }

  /** Shifting by one, then by k, is shifting by k + 1. */
  lemma ShiftCompose(a: nat, k: nat)
    ensures (a / 2) / Pow2(k) == a / Pow2(k + 1)
  {
    DivDivComm(a, k);
    DivTwice(a, k);
  }

  lemma {:induction false} DivDivComm(a: nat, k: nat)
    ensures (a / 2) / Pow2(k) == (a / Pow2(k)) / 2
  {
    if k > 0 {
      DivDivComm(a, k - 1);
      DivTwice(a / 2, k - 1);
      DivTwice(a, k - 1);
    }
  }

  /**
   * The budget loop: halve both sample counts and double the step until
   * their product is at most `limit`, starting from step `start`.
   */
  method Subsample(sx: nat, sy: nat, start: nat, limit: nat) returns (subsample: nat)
    ensures subsample == start * Pow2(Halvings(sx, sy, limit))
  {
    var samplesX: nat, samplesY: nat := sx, sy;
    subsample := start;
    ghost var k: nat := 0;
    while samplesX * samplesY > limit
      invariant subsample == start * Pow2(k)
      invariant k + Halvings(samplesX, samplesY, limit) == Halvings(sx, sy, limit)
      decreases samplesX
    {
      assert Halvings(samplesX, samplesY, limit) == 1 + Halvings(samplesX / 2, samplesY / 2, limit);
      DoubleStep(start, k);
      samplesX := samplesX / 2;
      samplesY := samplesY / 2;
      subsample := subsample * 2;
      k := k + 1;
    }
  }

  // -------------------------------------------------------------------
  // Variance
  // -------------------------------------------------------------------

  /** A luma plane of `w × h` bytes, row by row. */
  predicate Plane(rows: seq<seq<byte>>, w: nat, h: nat)
  {
    |rows| == h && forall j :: 0 <= j < h ==> |rows[j]| == w
  }

  /** The region's origin lies inside the image. */
  predicate OriginInside(region: Rect, w: int, h: int)
  {
    0 <= region.x < w && 0 <= region.y < h
  }

  /**
   * The clipped region: a width or height that reaches the right or bottom
   * edge becomes `width - x - 1` or `height - y - 1`, so that the last
   * column and row are left out.
   */
  function Clip(region: Rect, w: int, h: int): (b: Rect)
    ensures b.x == region.x && b.y == region.y
    ensures b.x + b.width < w || b.x + b.width == region.x + region.width
    ensures b.y + b.height < h || b.y + b.height == region.y + region.height
    ensures b.width <= region.width && b.height <= region.height
  {
    var bw := if region.x + region.width >= w then w - region.x - 1 else region.width;
    var bh := if region.y + region.height >= h then h - region.y - 1 else region.height;
    Rect(region.x, region.y, bw, bh)
  }

  /** The bytes of row `row` the inner loop reads, from column `i` on in steps of `sub`. */
  function RowValues(row: seq<byte>, i: nat, end: nat, sub: nat): (r: seq<byte>)
    requires sub >= 1 && end <= |row|
    decreases end - i
  {
    if i >= end then [] else [row[i]] + RowValues(row, i + sub, end, sub)
  }

  /** The bytes the nested loops read, rows from `j` on in steps of `sub`. */
  function GridValues(rows: seq<seq<byte>>, j: nat, endY: nat, bx: nat, endX: nat, sub: nat): (r: seq<byte>)
    requires sub >= 1 && endY <= |rows|
    requires forall k :: 0 <= k < |rows| ==> endX <= |rows[k]|
    decreases endY - j
  {
    if j >= endY then [] else RowValues(rows[j], bx, endX, sub) + GridValues(rows, j + sub, endY, bx, endX, sub)
  }

  /** The sample count and the sums of the samples and of their squares. */
  datatype Moments = Moments(count: nat, sum: nat, sumSq: nat)

  /** The moments of a sequence of samples, accumulated in order. */
  function MomentsOf(s: seq<byte>): (m: Moments)
    ensures m.count == |s|
  {
    if s == [] then Moments(0, 0, 0)
    else
      var m := MomentsOf(s[..|s| - 1]);
      var v: nat := s[|s| - 1];
      Moments(m.count + 1, m.sum + v, m.sumSq + v * v)
  }

  /** Each sample is at most 255, so the sums are at most 255 and 255² per sample. */
  lemma {:induction false} MomentsBounds(s: seq<byte>)
    ensures MomentsOf(s).sum <= 255 * |s| && MomentsOf(s).sumSq <= 65025 * |s|
  {
    if s != [] {
      MomentsBounds(s[..|s| - 1]);
      var v: nat := s[|s| - 1];
      assert v * v <= 65025 by {
        assert v * v <= v * 255 <= 255 * 255;
      }
    }
  }

  lemma MomentsSnoc(s: seq<byte>, v: byte)
    ensures MomentsOf(s + [v]) == Moments(MomentsOf(s).count + 1, MomentsOf(s).sum + v, MomentsOf(s).sumSq + v as int * v as int)
  {
    assert (s + [v])[..|s|] == s;
  }

  /** `expX2 - expX * expX` with integer division; the source divides by the sample count. */
  function Variance(m: Moments): int
    requires m.count > 0
  {
    m.sumSq / m.count - (m.sum / m.count) * (m.sum / m.count)
  }

  /** The clipped region has at least one column and one row to sample. */
  predicate Samplable(region: Rect, w: int, h: int)
  {
    var b := Clip(region, w, h);
    b.width > 0 && b.height > 0
  }

  /** The samples `evaluateVariance(im, region, subsample)` reads. */
  function RegionValues(rows: seq<seq<byte>>, w: nat, h: nat, region: Rect, sub: nat): (r: seq<byte>)
    requires Plane(rows, w, h) && sub >= 1 && OriginInside(region, w, h) && Samplable(region, w, h)
    ensures |r| > 0
  {
    var b := Clip(region, w, h);
    var r := GridValues(rows, b.y, b.y + b.height, b.x, b.x + b.width, sub);
    assert r == RowValues(rows[b.y], b.x, b.x + b.width, sub) + GridValues(rows, b.y + sub, b.y + b.height, b.x, b.x + b.width, sub);
    r
  }

  /**
   * The inner loop of `evaluateVariance`: adds the count, sum and sum of
   * squares of one row's samples to the running totals.
   */
  method AccumulateRow(row: seq<byte>, bx: nat, endX: nat, subsample: nat, ghost done: seq<byte>,
                       samples0: nat, sumX0: nat, sumX20: nat) returns (samples: nat, sumX: nat, sumX2: nat)
    requires subsample >= 1 && endX <= |row|
    requires Moments(samples0, sumX0, sumX20) == MomentsOf(done)
    ensures Moments(samples, sumX, sumX2) == MomentsOf(done + RowValues(row, bx, endX, subsample))
  {
    samples, sumX, sumX2 := samples0, sumX0, sumX20;
    ghost var seen := done;
    var i: nat := bx;
    while i < endX
      invariant seen + RowValues(row, i, endX, subsample) == done + RowValues(row, bx, endX, subsample)
      invariant Moments(samples, sumX, sumX2) == MomentsOf(seen)
      decreases endX - i
    {
      MomentsSnoc(seen, row[i]);
      var x: nat := row[i];
      sumX := sumX + x;
      sumX2 := sumX2 + x * x;
      samples := samples + 1;
      assert seen + RowValues(row, i, endX, subsample) == (seen + [row[i]]) + RowValues(row, i + subsample, endX, subsample);
      seen := seen + [row[i]];
      i := i + subsample;
    }
    assert RowValues(row, i, endX, subsample) == [];
    assert seen + [] == seen;
  }

  /** The outer loop of `evaluateVariance`: the moments of every sampled row, in order. */
  method AccumulateRegion(rows: seq<seq<byte>>, x0: nat, endX: nat, y0: nat, endY: nat, subsample: nat)
      returns (samples: nat, sumX: nat, sumX2: nat)
    requires subsample >= 1 && endY <= |rows|
    requires forall k :: 0 <= k < |rows| ==> endX <= |rows[k]|
    ensures Moments(samples, sumX, sumX2) == MomentsOf(GridValues(rows, y0, endY, x0, endX, subsample))
  {
    ghost var total := GridValues(rows, y0, endY, x0, endX, subsample);
    sumX2, sumX, samples := 0, 0, 0;
    ghost var done: seq<byte> := [];
    var j: nat := y0;
    assert done + GridValues(rows, j, endY, x0, endX, subsample) == total;
    while j < endY
      invariant done + GridValues(rows, j, endY, x0, endX, subsample) == total
      invariant Moments(samples, sumX, sumX2) == MomentsOf(done)
      decreases endY - j
    {
      ghost var rowValues := RowValues(rows[j], x0, endX, subsample);
      ghost var rest := GridValues(rows, j + subsample, endY, x0, endX, subsample);
      assert GridValues(rows, j, endY, x0, endX, subsample) == rowValues + rest;
      assert done + (rowValues + rest) == (done + rowValues) + rest;
      samples, sumX, sumX2 := AccumulateRow(rows[j], x0, endX, subsample, done, samples, sumX, sumX2);
      done := done + rowValues;
      j := j + subsample;
    }
    assert GridValues(rows, j, endY, x0, endX, subsample) == [];
    assert done + [] == done;
  }

  /** The closing computation of `evaluateVariance`: mean square minus squared mean. */
  method VarianceOf(ghost m: Moments, samples: nat, sumX: nat, sumX2: nat) returns (v: int)
    requires m == Moments(samples, sumX, sumX2) && samples > 0
    ensures v == Variance(m)
  {
    var expX2 := sumX2 / samples;
    var expX := sumX / samples;
    v := expX2 - expX * expX;
  }

  /**
   * `evaluateVariance(im, region, subsample)`: 0 when the region's origin
   * lies outside the image; otherwise the integer variance of the bytes
   * sampled every `subsample` columns and rows of the clipped region.
   */
  method EvaluateVariance(rows: seq<seq<byte>>, w: nat, h: nat, region: Rect, subsample: nat) returns (v: int)
    requires Plane(rows, w, h) && subsample >= 1
    requires OriginInside(region, w, h) ==> Samplable(region, w, h)
    ensures !OriginInside(region, w, h) ==> v == 0
    ensures OriginInside(region, w, h) ==> v == Variance(MomentsOf(RegionValues(rows, w, h, region, subsample)))
  {
    if region.x < 0 || region.x >= w || region.y < 0 || region.y >= h {
      return 0;
    }
    var b := Clip(region, w, h);
    ClippedInside(rows, w, h, region);
    var x0: nat, y0: nat := b.x, b.y;
    var endX: nat, endY: nat := b.x + b.width, b.y + b.height;
    var samples, sumX, sumX2 := AccumulateRegion(rows, x0, endX, y0, endY, subsample);
    SampledGrid(rows, w, h, region, subsample, x0, y0, endX, endY);
    v := VarianceOf(MomentsOf(RegionValues(rows, w, h, region, subsample)), samples, sumX, sumX2);
  }

  /** The clipped region of a samplable region lies inside every row and inside the plane. */
  lemma ClippedInside(rows: seq<seq<byte>>, w: nat, h: nat, region: Rect)
    requires Plane(rows, w, h) && OriginInside(region, w, h) && Samplable(region, w, h)
    ensures var b := Clip(region, w, h);
            0 <= b.x && 0 <= b.y && 0 < b.width && 0 < b.height &&
            b.x + b.width < w && b.y + b.height < h &&
            forall k :: 0 <= k < |rows| ==> b.x + b.width <= |rows[k]|
  {
  }

  /** The region's samples are the grid of its clipped bounds, and there is at least one. */
  lemma SampledGrid(rows: seq<seq<byte>>, w: nat, h: nat, region: Rect, sub: nat, x0: nat, y0: nat, endX: nat, endY: nat)
    requires Plane(rows, w, h) && OriginInside(region, w, h) && Samplable(region, w, h) && sub >= 1
    requires var b := Clip(region, w, h); x0 == b.x && y0 == b.y && endX == b.x + b.width && endY == b.y + b.height
    requires endY <= |rows| && forall k :: 0 <= k < |rows| ==> endX <= |rows[k]|
    ensures MomentsOf(RegionValues(rows, w, h, region, sub)) == MomentsOf(GridValues(rows, y0, endY, x0, endX, sub))
    ensures |GridValues(rows, y0, endY, x0, endX, sub)| > 0
  {
    assert RegionValues(rows, w, h, region, sub) == GridValues(rows, y0, endY, x0, endX, sub);
  }

  /** The sum of squared deviations from any integer `x` is never negative. */
  lemma {:induction false} DeviationNonNegative(s: seq<byte>, x: int)
    ensures Deviation(MomentsOf(s), x) >= 0
  {
    if s != [] {
      var init := s[..|s| - 1];
      DeviationNonNegative(init, x);
      var m := MomentsOf(init);
      var v: nat := s[|s| - 1];
      assert MomentsOf(s) == Moments(m.count + 1, m.sum + v, m.sumSq + v * v);
      DeviationStep(m, v, x);
      SquareNonNegative(v - x);
    }
  }

  /** Σ (v - x)² over the samples, from their moments. */
  function Deviation(m: Moments, x: int): int
  {
    m.sumSq - 2 * x * m.sum + m.count * x * x
  }

  lemma SquareNonNegative(d: int)
    ensures d * d >= 0
  {
  }

  lemma DeviationStep(m: Moments, v: nat, x: int)
    ensures Deviation(Moments(m.count + 1, m.sum + v, m.sumSq + v * v), x) == Deviation(m, x) + (v - x) * (v - x)
  {
    var n, t, t2 := m.count, m.sum, m.sumSq;
    calc {
      Deviation(Moments(n + 1, t + v, t2 + v * v), x);
      (t2 + v * v) - 2 * x * (t + v) + (n + 1) * x * x;
      { assert 2 * x * (t + v) == 2 * x * t + 2 * x * v;
        assert (n + 1) * x * x == n * x * x + x * x; }
      (t2 - 2 * x * t + n * x * x) + (v * v - 2 * x * v + x * x);
      { assert (v - x) * (v - x) == v * v - 2 * x * v + x * x; }
      Deviation(m, x) + (v - x) * (v - x);
    }
  }

  /** `a / n` is at least `c` when `a` is at least `n · c`. */
  lemma DivAtLeast(a: nat, n: nat, c: nat)
    requires n > 0 && a >= n * c
    ensures a / n >= c
  {
    var q := a / n;
    assert a == q * n + a % n;
    if q < c {
      Histograms.MulMono(q + 1, c, n);
    }
  }

  /** `a / n` is at most `c` when `a` is at most `n · c`. */
  lemma DivAtMost(a: nat, n: nat, c: nat)
    requires n > 0 && a <= n * c
    ensures a / n <= c
  {
    var q := a / n;
    assert a == q * n + a % n;
    if q > c {
      Histograms.MulMono(c + 1, q, n);
    }
  }

  /** With q the truncated mean, a non-negative deviation from q bounds the mean square below by q². */
  lemma MeanSquareAtLeast(m: Moments)
    requires m.count > 0 && Deviation(m, m.sum / m.count) >= 0
    ensures m.sumSq / m.count >= (m.sum / m.count) * (m.sum / m.count)
  {
    var n, q := m.count, m.sum / m.count;
    assert q * n <= m.sum;
    assert q * m.sum >= q * (q * n) by {
      Histograms.MulMono(q * n, m.sum, q);
    }
    assert m.sumSq >= n * (q * q);
    DivAtLeast(m.sumSq, n, q * q);
  }

  /**
   * The integer variance of byte samples lies in [0, 255²]: the truncated
   * mean square is never below the square of the truncated mean.
   */
  lemma VarianceBounds(s: seq<byte>)
    requires |s| > 0
    ensures 0 <= Variance(MomentsOf(s)) <= 65025
  {
    var m := MomentsOf(s);
    DeviationNonNegative(s, m.sum / m.count);
    MeanSquareAtLeast(m);
    MomentsBounds(s);
    DivAtMost(m.sumSq, m.count, 65025);
  }

  /** The number of iterations of `for (i = 0; i < n; i += sub)`. */
  function Steps(n: int, sub: nat): nat
    requires sub >= 1
    decreases n
  {
    if n <= 0 then 0 else 1 + Steps(n - sub, sub)
  }

  /** The loop runs ⌈n / sub⌉ times. */
  lemma {:induction false} StepsIsCeiling(n: int, sub: nat)
    requires sub >= 1 && n > 0
    ensures Steps(n, sub) == (n + sub - 1) / sub
    decreases n
  {
    var q := (n - 1) / sub;
    var r := (n - 1) % sub;
    assert n - 1 == q * sub + r;
    DivModUnique(n + sub - 1, q + 1, r, sub);
    if n - sub <= 0 {
      DivModUnique(n - 1, 0, n - 1, sub);
    } else {
      StepsIsCeiling(n - sub, sub);
    }
  }

  /** The inner loop reads one byte per step. */
  lemma {:induction false} RowValuesCount(row: seq<byte>, i: nat, end: nat, sub: nat)
    requires sub >= 1 && end <= |row|
    ensures |RowValues(row, i, end, sub)| == Steps(end - i, sub)
    decreases end - i
  {
    if i < end {
      RowValuesCount(row, i + sub, end, sub);
    }
  }




  /** c samples for each row `for (j = lo; j < hi; j += sub)` visits. */
  function RowsFrom(lo: int, hi: int, sub: nat, c: nat): nat
    requires sub >= 1
    decreases hi - lo
  {
    if lo >= hi then 0 else c + RowsFrom(lo + sub, hi, sub, c)
  }

  /** Rows of c samples each add up to the number of rows times c. */
  lemma {:induction false} RowsFromIsProduct(lo: int, hi: int, sub: nat, c: nat)
    requires sub >= 1
    ensures RowsFrom(lo, hi, sub, c) == Steps(hi - lo, sub) * c
    decreases hi - lo
  {
    if lo < hi {
      RowsFromIsProduct(lo + sub, hi, sub, c);
      var n := hi - lo;
      assert hi - (lo + sub) == n - sub;
      assert Steps(n, sub) == 1 + Steps(n - sub, sub);
      MulSucc(Steps(n, sub), Steps(n - sub, sub), c);
    }
  }

  /** The nested loops read a row of column steps for each row step. */
  lemma {:induction false} GridValuesRows(rows: seq<seq<byte>>, j: nat, endY: nat, x0: nat, endX: nat, sub: nat, c: nat)
    requires sub >= 1 && endY <= |rows| && c == Steps(endX - x0, sub)
    requires forall k :: 0 <= k < |rows| ==> endX <= |rows[k]|
    ensures |GridValues(rows, j, endY, x0, endX, sub)| == RowsFrom(j, endY, sub, c)
    decreases endY - j
  {
    if j < endY {
      var first := RowValues(rows[j], x0, endX, sub);
      var rest := GridValues(rows, j + sub, endY, x0, endX, sub);
      assert GridValues(rows, j, endY, x0, endX, sub) == first + rest;
      GridValuesRows(rows, j + sub, endY, x0, endX, sub, c);
      RowValuesCount(rows[j], x0, endX, sub);
      assert |first + rest| == |first| + |rest|;
    }
  }

  /** The nested loops read one byte per (row step, column step) pair. */
  lemma GridValuesCount(rows: seq<seq<byte>>, j: nat, endY: nat, x0: nat, endX: nat, sub: nat)
    requires sub >= 1 && endY <= |rows|
    requires forall k :: 0 <= k < |rows| ==> endX <= |rows[k]|
    ensures |GridValues(rows, j, endY, x0, endX, sub)| == Steps(endY - j, sub) * Steps(endX - x0, sub)
  {
    GridValuesRows(rows, j, endY, x0, endX, sub, Steps(endX - x0, sub));
    RowsFromIsProduct(j, endY, sub, Steps(endX - x0, sub));
  }

  /** Every byte the inner loop reads comes from the row. */
  lemma {:induction false} RowValuesFromRow(row: seq<byte>, i: nat, end: nat, sub: nat, c: byte)
    requires sub >= 1 && end <= |row|
    requires forall k :: 0 <= k < |row| ==> row[k] == c
    ensures forall k :: 0 <= k < |RowValues(row, i, end, sub)| ==> RowValues(row, i, end, sub)[k] == c
    decreases end - i
  {
    if i < end {
      RowValuesFromRow(row, i + sub, end, sub, c);
    }
  }

  /** A uniform plane gives uniform samples. */
  lemma {:induction false} GridValuesUniform(rows: seq<seq<byte>>, j: nat, endY: nat, x0: nat, endX: nat, sub: nat, c: byte)
    requires sub >= 1 && endY <= |rows|
    requires forall k :: 0 <= k < |rows| ==> endX <= |rows[k]|
    requires forall k, l :: 0 <= k < |rows| && 0 <= l < |rows[k]| ==> rows[k][l] == c
    ensures forall k :: 0 <= k < |GridValues(rows, j, endY, x0, endX, sub)| ==> GridValues(rows, j, endY, x0, endX, sub)[k] == c
    decreases endY - j
  {
    if j < endY {
      GridValuesUniform(rows, j + sub, endY, x0, endX, sub, c);
      RowValuesFromRow(rows[j], x0, endX, sub, c);
    }
  }

  /** The moments of `n` copies of `c`. */
  lemma {:induction false} UniformMoments(s: seq<byte>, c: byte)
    requires forall k :: 0 <= k < |s| ==> s[k] == c
    ensures MomentsOf(s) == Moments(|s|, c * |s|, c * c * |s|)
  {
    if s != [] {
      UniformMoments(s[..|s| - 1], c);
      var n := |s| - 1;
      assert c * (n + 1) == c * n + c;
      assert c * c * (n + 1) == c * c * n + c * c;
    }
  }

  /** A uniform region has variance 0. */
  lemma UniformVarianceZero(s: seq<byte>, c: byte)
    requires |s| > 0 && forall k :: 0 <= k < |s| ==> s[k] == c
    ensures Variance(MomentsOf(s)) == 0
  {
    UniformMoments(s, c);
    var n := |s|;
    DivModUnique(c * n, c, 0, n);
    DivModUnique(c * c * n, c * c, 0, n);
  }

  /**
   * At most `MAX_VARIANCE_SAMPLES` byte samples keep both sums within a
   * 32-bit `int`, which is what the budget is for.
   */
  lemma SumsFitInt32(s: seq<byte>)
    requires |s| <= MAX_VARIANCE_SAMPLES
    ensures MomentsOf(s).sum <= INT32_MAX && MomentsOf(s).sumSq <= INT32_MAX
  {
    MomentsBounds(s);
    Histograms.MulMono(|s|, MAX_VARIANCE_SAMPLES, 65025);
  }

  /** The step `evaluateVariance(mapCfg, im)` uses for a `w × h` image. */
  function MapSubsample(w: nat, h: nat): (sub: nat)
    ensures sub >= 1
  {
    Pow2(Halvings(w, h, MAX_VARIANCE_SAMPLES))
  }

  /** The variance `evaluateVariance(mapCfg, im)` stores: that of the whole image, clipped. */
  function ImageVariance(rows: seq<seq<byte>>, w: nat, h: nat): (v: int)
    requires Plane(rows, w, h) && w != 1 && h != 1
    ensures 0 <= v <= 65025
  {
    var region := Rect(0, 0, w, h);
    if OriginInside(region, w, h) then
      var s := RegionValues(rows, w, h, region, MapSubsample(w, h));
      VarianceBounds(s);
      Variance(MomentsOf(s))
    else 0
  }

  /**
   * `evaluateVariance(mapCfg, im)`: an invalid map when the config is
   * disabled; otherwise a 1 × 1 map of one channel holding the variance of
   * the whole image, sampled with the budget step. The source divides by
   * zero for an image one pixel wide or high.
   */
  method EvaluateSharpness(cfg: SharpnessMaps.SharpnessMapConfig, rows: seq<seq<byte>>, w: nat, h: nat)
      returns (m: SharpnessMaps.SharpnessMap)
    requires Plane(rows, w, h)
    requires cfg.enabled ==> w != 1 && h != 1
    ensures fresh(m) && m.Valid()
    ensures !cfg.enabled ==> !m.IsValid()
    ensures cfg.enabled ==> m.size == Size(1, 1) && m.channels == 1 && m.Value(0, 0, 0) == ImageVariance(rows, w, h)
  {
    if !cfg.enabled {
      m := new SharpnessMaps.SharpnessMap.Default();
      return;
    }
    var region := Rect(0, 0, w, h);
    var subsample := Subsample(w, h, 1, MAX_VARIANCE_SAMPLES);
    assert subsample == MapSubsample(w, h);
    assert OriginInside(region, w, h) ==> Samplable(region, w, h) by {
      if OriginInside(region, w, h) {
        assert Clip(region, w, h) == Rect(0, 0, w - 1, h - 1);
      }
    }
    m := new SharpnessMaps.SharpnessMap(Size(1, 1), 1);
    var v := EvaluateVariance(rows, w, h, region, subsample);
    assert v == ImageVariance(rows, w, h);
    m.SetValue(0, 0, 0, v);
  }

  // -------------------------------------------------------------------
  // The sample budget
  // -------------------------------------------------------------------

  /** The w × h image whose bytes are all c. */
  function UniformImage(w: nat, h: nat, c: byte): (rows: seq<seq<byte>>)
    ensures Plane(rows, w, h)
    ensures forall k, l :: 0 <= k < |rows| && 0 <= l < |rows[k]| ==> rows[k][l] == c
  {
    seq(h, _ => seq(w, _ => c))
  }

  /**
   * Over a uniform image the whole-image region yields one c per (row step,
   * column step) pair of the clipped `w - 1` by `h - 1` area, so its sums
   * are c and c² times that count.
   */
  lemma UniformWholeImage(w: nat, h: nat, sub: nat, c: byte)
    requires w >= 2 && h >= 2 && sub >= 1
    ensures var s := RegionValues(UniformImage(w, h, c), w, h, Rect(0, 0, w, h), sub);
            |s| == Steps(h - 1, sub) * Steps(w - 1, sub) && MomentsOf(s) == Moments(|s|, c * |s|, c * c * |s|)
  {
    var rows := UniformImage(w, h, c);
    var s := RegionValues(rows, w, h, Rect(0, 0, w, h), sub);
    assert Clip(Rect(0, 0, w, h), w, h) == Rect(0, 0, w - 1, h - 1);
    assert s == GridValues(rows, 0, h - 1, 0, w - 1, sub);
    GridValuesCount(rows, 0, h - 1, 0, w - 1, sub);
    GridValuesUniform(rows, 0, h - 1, 0, w - 1, sub, c);
    UniformMoments(s, c);
  }

  /** A 181 × 181 image is within the budget at step 1. */
  lemma HalvingsAt181()
    ensures Halvings(181, 181, MAX_VARIANCE_SAMPLES) == 0
  {
  }

  /** A 363 × 363 image halves once. */
  lemma HalvingsAt363()
    ensures Halvings(363, 363, MAX_VARIANCE_SAMPLES) == 1
  {
    HalvingsAt181();
  }

  /** A 727 × 727 image halves twice, so its step is 4. */
  lemma HalvingsAt727()
    ensures MapSubsample(727, 727) == 4
  {
    HalvingsAt363();
    assert Halvings(727, 727, MAX_VARIANCE_SAMPLES) == 2;
  }

  /**
   * As written, the budget is checked on `width >> k` and `height >> k`,
   * but the loops sample the clipped `width - 1` and `height - 1` with a
   * ceiling: for an all-white 727 × 727 image the step is 4, the loops
   * read 182 × 182 = 33124 bytes, and the sum of squares exceeds a 32-bit
   * `int`.
   */
  lemma BudgetExceeded()
    ensures MapSubsample(727, 727) == 4
    ensures var s := RegionValues(UniformImage(727, 727, 255), 727, 727, Rect(0, 0, 727, 727), 4);
            |s| == 33124 > MAX_VARIANCE_SAMPLES && MomentsOf(s).sumSq > INT32_MAX
  {
    HalvingsAt727();
    WhiteImageOverflows(727, 4);
  }

  /** The white n × n image, for n = 727, sampled with step 4. */
  lemma WhiteImageOverflows(n: nat, sub: nat)
    requires n == 727 && sub == 4
    ensures var s := RegionValues(UniformImage(n, n, 255), n, n, Rect(0, 0, n, n), sub);
            |s| == 33124 && MomentsOf(s).sumSq > INT32_MAX
  {
    UniformWholeImage(n, n, sub, 255);
    StepsIsCeiling(n - 1, sub);
    var s := RegionValues(UniformImage(n, n, 255), n, n, Rect(0, 0, n, n), sub);
    BudgetArithmetic(|s|, Steps(n - 1, sub), MomentsOf(s).sumSq);
  }

  /** 182 × 182 samples of 255 square to more than a 32-bit `int` holds. */
  lemma BudgetArithmetic(count: int, steps: int, sumSq: int)
    requires steps == 182 && count == steps * steps && sumSq == 255 * 255 * count
    ensures count == 33124 && sumSq > INT32_MAX
  {
    MulOfKnown(steps, steps, 182, 182);
  }

  /**
   * The budget loop as evidently intended: double the step until the
   * number of samples the loops actually read, over the clipped width and
   * height, is within the budget.
   */
  function FixedSubsample(bw: nat, bh: nat, sub: nat): (r: nat)
    requires sub >= 1
    ensures r >= sub
    ensures Steps(bw, r) * Steps(bh, r) <= MAX_VARIANCE_SAMPLES
    decreases bw + bh + 1 - sub
  {
    if Steps(bw, sub) * Steps(bh, sub) <= MAX_VARIANCE_SAMPLES then sub
    else
      assert sub < bw + bh + 1 by {
        if sub >= bw && sub >= bh {
          StepsAtMostOne(bw, sub);
          StepsAtMostOne(bh, sub);
          Histograms.MulMono(Steps(bw, sub), 1, Steps(bh, sub));
        }
      }
      FixedSubsample(bw, bh, 2 * sub)
  }

  lemma StepsAtMostOne(n: nat, sub: nat)
    requires 1 <= sub && n <= sub
    ensures Steps(n, sub) <= 1
  {
    if n > 0 {
      assert Steps(n - sub, sub) == 0;
    }
  }

  /**
   * With the fixed step the region's samples fit the budget, so both sums
   * stay within a 32-bit `int`.
   */
  lemma FixedBudgetFits(rows: seq<seq<byte>>, w: nat, h: nat, region: Rect)
    requires Plane(rows, w, h) && OriginInside(region, w, h) && Samplable(region, w, h)
    ensures var b := Clip(region, w, h);
            var s := RegionValues(rows, w, h, region, FixedSubsample(b.width, b.height, 1));
            |s| <= MAX_VARIANCE_SAMPLES && MomentsOf(s).sum <= INT32_MAX && MomentsOf(s).sumSq <= INT32_MAX
  {
    var b := Clip(region, w, h);
    assert b.x + b.width < w && b.y + b.height < h;
    var x0: nat, y0: nat, bw: nat, bh: nat := b.x, b.y, b.width, b.height;
    assert forall k :: 0 <= k < |rows| ==> x0 + bw <= |rows[k]|;
    var sub := FixedSubsample(bw, bh, 1);
    var s := RegionValues(rows, w, h, region, sub);
    assert s == GridValues(rows, y0, y0 + bh, x0, x0 + bw, sub);
    GridValuesCount(rows, y0, y0 + bh, x0, x0 + bw, sub);
    assert |s| == Steps(bh, sub) * Steps(bw, sub);
    SumsFitInt32(s);
  }

  // -------------------------------------------------------------------
  // Histogram
  // -------------------------------------------------------------------

  /** ⌊log₂ n⌋, and 0 for n ≤ 1. */
  function Log2(n: int): nat
  {
    if n <= 1 then 0 else 1 + Log2(n / 2)
  }

  /** `Log2(n)` is the exponent of the largest power of two not above n. */
  lemma {:induction false} Log2Bounds(n: nat)
    requires n >= 1
    ensures Pow2(Log2(n)) <= n < 2 * Pow2(Log2(n))
  {
    if n > 1 {
      Log2Bounds(n / 2);
    }
  }

  lemma {:induction false} Log2Pow2(k: nat)
    ensures Log2(Pow2(k)) == k
  {
    if k > 0 {
      Log2Pow2(k - 1);
      assert Pow2(k) / 2 == Pow2(k - 1);
    }
  }

  lemma {:induction false} Pow2Add(a: nat, b: nat)
    ensures Pow2(a + b) == Pow2(a) * Pow2(b)
  {
    if a > 0 {
      Pow2Add(a - 1, b);
    }
  }

  lemma {:induction false} Pow2Monotone(a: nat, b: nat)
    requires a <= b
    ensures Pow2(a) <= Pow2(b)
  {
    if a < b {
      Pow2Monotone(a, b - 1);
    }
  }

  /** `unsigned reqbuckets = histoCfg.buckets`. */
  function AsUnsigned(n: int): (r: nat)
    ensures r < UINT32_MOD
    ensures 0 <= n < UINT32_MOD ==> r == n
  {
    n % UINT32_MOD
  }

  /**
   * The bucket count: the largest power of two not above the requested
   * count read as unsigned, and 1 when that is 0 or 1.
   */
  method BucketCount(requested: int) returns (buckets: nat)
    ensures buckets == HistogramBuckets(requested)
  {
    buckets := 1;
    var reqbuckets: nat := AsUnsigned(requested);
    ghost var k: nat := 0;
    while reqbuckets > 1
      invariant buckets == Pow2(k) && k + Log2(reqbuckets) == Log2(AsUnsigned(requested))
    {
      buckets := buckets * 2;
      reqbuckets := reqbuckets / 2;
      k := k + 1;
    }
  }

  /** The shift that maps a byte to its bucket: log₂ of the bucket width `256 / buckets`. */
  method ShiftBits(buckets: nat) returns (shift: nat)
    requires buckets >= 1
    ensures shift == Log2(256 / buckets)
    ensures forall requested: int {:trigger HistogramShift(requested)} ::
              buckets == HistogramBuckets(requested) ==> shift == HistogramShift(requested)
  {
    shift := 0;
    var bucketsize := 256 / buckets;
    while bucketsize > 1
      invariant shift + Log2(bucketsize) == Log2(256 / buckets)
    {
      shift := shift + 1;
      bucketsize := bucketsize / 2;
    }
  }

  /** With `2^k` buckets, k ≤ 8, the bucket width is `2^(8-k)` and the shift `8 - k`. */
  lemma ShiftOfPow2(k: nat)
    requires k <= 8
    ensures 256 / Pow2(k) == Pow2(8 - k) && Log2(256 / Pow2(k)) == 8 - k
  {
    Pow2Add(k, 8 - k);
    assert Pow2(8) == 256;
    DivModUnique(256, Pow2(8 - k), 0, Pow2(k));
    Log2Pow2(8 - k);
  }

  /** With `2^k` buckets, k > 8, there are more buckets than byte values and the shift is 0. */
  lemma ShiftBeyondBytes(k: nat)
    requires k > 8
    ensures Pow2(k) > 256 && Log2(256 / Pow2(k)) == 0
  {
    Pow2Monotone(9, k);
    assert Pow2(9) == 512;
  }

  /**
   * The bucket count is a power of two with `buckets ≤ requested < 2 ·
   * buckets` (for a request of at least 1); up to 256 buckets, they
   * exactly tile the byte range, and beyond that the shift is 0.
   */
  lemma BucketsTileBytes(requested: int)
    ensures var r := AsUnsigned(requested);
            var buckets := Pow2(Log2(r));
            var shift := Log2(256 / buckets);
            (r >= 1 ==> buckets <= r < 2 * buckets) &&
            (r <= 1 ==> buckets == 1) &&
            (buckets <= 256 ==> buckets * Pow2(shift) == 256) &&
            (buckets > 256 ==> shift == 0)
  {
    var r := AsUnsigned(requested);
    var k := Log2(r);
    if r >= 1 {
      Log2Bounds(r);
    }
    if k <= 8 {
      ShiftOfPow2(k);
      Pow2Add(k, 8 - k);
      assert Pow2(8) == 256;
    } else {
      ShiftBeyondBytes(k);
    }
  }

  /** Every byte shifted right by the shift lands in one of the buckets. */
  lemma BucketIndexInRange(requested: int, v: byte)
    ensures Shr(v, HistogramShift(requested)) < HistogramBuckets(requested)
  {
    var k := Log2(AsUnsigned(requested));
    if k <= 8 {
      ShiftOfPow2(k);
      Pow2Add(k, 8 - k);
      assert Pow2(8) == 256;
      assert v < Pow2(k) * Pow2(8 - k);
      DivBelow(v, Pow2(8 - k), Pow2(k));
      ShrIsDiv(v, 8 - k);
    } else {
      ShiftBeyondBytes(k);
    }
  }

  /** The bucket count `evaluateHistogram` settles on for a requested count. */
  function HistogramBuckets(requested: int): (buckets: nat)
    ensures buckets >= 1
  {
    Pow2(Log2(AsUnsigned(requested)))
  }

  /** The shift that turns a byte into its bucket. */
  function HistogramShift(requested: int): nat
  {
    Log2(256 / HistogramBuckets(requested))
  }

  /** One Y, U and V sample. */
  datatype YUVSample = YUVSample(y: byte, u: byte, v: byte)

  /** Channel c of a sample: 0 is Y, 1 is U, 2 is V. */
  function Component(t: YUVSample, c: nat): byte
  {
    if c == 0 then t.y else if c == 1 then t.u else t.v
  }

  /** The histogram region lies inside the image. */
  predicate RegionInside(region: Rect, w: int, h: int)
  {
    0 <= region.x && 0 <= region.y && 0 <= region.width && 0 <= region.height &&
    region.x + region.width <= w && region.y + region.height <= h
  }

  /**
   * `uvcol` as written: `x/2 + y%4 < 2 ? 0 : width/2` groups as
   * `(x/2 + y%4 < 2) ? 0 : width/2`, so the chroma column starts at 0 or at
   * half a row, whatever the region's x.
   */
  function ChromaColumn(x0: nat, y0: nat, w: nat): (col: nat)
    ensures col == 0 || col == w / 2
  {
    if x0 / 2 + y0 % 4 < 2 then 0 else w / 2
  }

  /** A YUV420p frame stored as `width`-byte rows: the luma rows, then the chroma rows. */
  predicate Frame(rows: seq<seq<byte>>, w: nat, h: nat)
  {
    w % 2 == 0 && h % 2 == 0 && Plane(rows, w, YUV420.AllocateRows(h))
  }

  /** The rows and column the loop reads the U and V samples of (i, j) from lie inside the frame. */
  lemma ChromaInside(w: nat, h: nat, x0: nat, y0: nat, i: nat, j: nat)
    requires w % 2 == 0 && h % 2 == 0 && x0 <= i < w && j < h
    ensures h + j / 4 < YUV420.AllocateRows(h)
    ensures h + h / 4 + j / 4 < YUV420.AllocateRows(h)
    ensures ChromaColumn(x0, y0, w) + (i - x0) / 2 < w
  {
  }

  /** The samples the inner loop reads for pixel (i, j) of a region with origin (x0, y0). */
  function SampleAt(rows: seq<seq<byte>>, w: nat, h: nat, x0: nat, y0: nat, i: nat, j: nat): YUVSample
    requires Frame(rows, w, h) && x0 <= i < w && j < h
  {
    ChromaInside(w, h, x0, y0, i, j);
    var col := ChromaColumn(x0, y0, w) + (i - x0) / 2;
    YUVSample(rows[j][i], rows[h + j / 4][col], rows[h + h / 4 + j / 4][col])
  }

  /** The samples of row j, from column i on in steps of `sub`. */
  function HistRow(rows: seq<seq<byte>>, w: nat, h: nat, x0: nat, y0: nat, j: nat, i: nat, endX: nat, sub: nat)
      : seq<YUVSample>
    requires Frame(rows, w, h) && x0 <= i && endX <= w && j < h && sub >= 1
    decreases endX - i
  {
    if i >= endX then [] else [SampleAt(rows, w, h, x0, y0, i, j)] + HistRow(rows, w, h, x0, y0, j, i + sub, endX, sub)
  }

  /** The samples of the rows from j on, in steps of `sub`. */
  function HistGrid(rows: seq<seq<byte>>, w: nat, h: nat, x0: nat, y0: nat, j: nat, endY: nat, endX: nat, sub: nat)
      : seq<YUVSample>
    requires Frame(rows, w, h) && endX <= w && endY <= h && sub >= 1
    decreases endY - j
  {
    if j >= endY then []
    else HistRow(rows, w, h, x0, y0, j, x0, endX, sub) + HistGrid(rows, w, h, x0, y0, j + sub, endY, endX, sub)
  }

  /** The step of the histogram loops: 2, doubled while the halved region holds too many samples. */
  function HistogramSubsample(region: Rect): (sub: nat)
    requires 0 <= region.width && 0 <= region.height
    ensures sub >= 2 && sub % 2 == 0
  {
    var k := Halvings(region.width / 2, region.height / 2, MAX_HISTOGRAM_SAMPLES);
    assert Pow2(k) >= 1;
    2 * Pow2(k)
  }

  /** The histogram's budget loop: it starts from step 2, as U and V are already subsampled by 2. */
  method HistogramStep(region: Rect) returns (subsample: nat)
    requires 0 <= region.width && 0 <= region.height
    ensures subsample == HistogramSubsample(region)
  {
    var samplesX: nat, samplesY: nat := region.width / 2, region.height / 2;
    subsample := Subsample(samplesX, samplesY, 2, MAX_HISTOGRAM_SAMPLES);
  }

  /** Every sample `evaluateHistogram` reads, in the order it reads them. */
  function HistogramSamples(rows: seq<seq<byte>>, w: nat, h: nat, region: Rect): seq<YUVSample>
    requires Frame(rows, w, h) && RegionInside(region, w, h)
  {
    HistGrid(rows, w, h, region.x, region.y, region.y, region.y + region.height, region.x + region.width,
             HistogramSubsample(region))
  }

  /** How many samples of `s` fall into bucket b of channel c. */
  function Tally(s: seq<YUVSample>, shift: nat, b: nat, c: nat): nat
  {
    if s == [] then 0
    else Tally(s[..|s| - 1], shift, b, c) + (if Shr(Component(s[|s| - 1], c), shift) == b then 1 else 0)
  }

  /** The counts of channel c in `histo` are the tallies of `s`, modulo 2^32. */
  ghost predicate ChannelCounted(histo: Histograms.Histogram, s: seq<YUVSample>, shift: nat, c: nat)
    reads histo
  {
    histo.Valid() && c < histo.channels &&
    forall b :: 0 <= b < histo.buckets ==> histo.Count(b, c) == Tally(s, shift, b, c) % UINT32_MOD
  }

  /** All three channels of `histo` count the samples of `s`. */
  ghost predicate Counted(histo: Histograms.Histogram, s: seq<YUVSample>, shift: nat)
    reads histo
  {
    histo.Valid() && histo.channels == 3 &&
    ChannelCounted(histo, s, shift, 0) && ChannelCounted(histo, s, shift, 1) && ChannelCounted(histo, s, shift, 2)
  }

  /** `histo(sample >> shiftbits, c)++` for one channel. */
  method CountChannel(histo: Histograms.Histogram, t: YUVSample, c: nat, shift: nat, ghost done: seq<YUVSample>)
    requires ChannelCounted(histo, done, shift, c) && Shr(Component(t, c), shift) < histo.buckets
    modifies histo
    ensures ChannelCounted(histo, done + [t], shift, c)
    ensures histo.Valid() && histo.buckets == old(histo.buckets) && histo.channels == old(histo.channels)
    ensures histo.region == old(histo.region) && histo.colorspace == old(histo.colorspace)
    ensures forall b, c2 :: 0 <= b < histo.buckets && 0 <= c2 < histo.channels && c2 != c ==>
              histo.Count(b, c2) == old(histo.Count(b, c2))
  {
    var idx := Shr(Component(t, c), shift);
    ghost var s := done + [t];
    assert s[..|s| - 1] == done;
    ModAddStep(Tally(done, shift, idx, c), 1, UINT32_MOD);
    histo.SetCount(idx, c, (histo.Count(idx, c) + 1) % UINT32_MOD);
    forall b | 0 <= b < histo.buckets
      ensures histo.Count(b, c) == Tally(s, shift, b, c) % UINT32_MOD
    {
      if b != idx {
        assert histo.Count(b, c) == old(histo.Count(b, c));
      }
    }
  }

  /** The body of the inner loop: one sample counted in all three channels. */
  method CountSample(histo: Histograms.Histogram, t: YUVSample, shift: nat, ghost done: seq<YUVSample>)
    requires Counted(histo, done, shift)
    requires forall c :: 0 <= c < 3 ==> Shr(Component(t, c), shift) < histo.buckets
    modifies histo
    ensures Counted(histo, done + [t], shift)
    ensures histo.buckets == old(histo.buckets) && histo.region == old(histo.region)
    ensures histo.colorspace == old(histo.colorspace)
  {
    CountChannel(histo, t, 0, shift, done);
    CountChannel(histo, t, 1, shift, done);
    CountChannel(histo, t, 2, shift, done);
  }

  /** The inner loop of `evaluateHistogram`: one row's samples counted. */
  method CountRow(histo: Histograms.Histogram, rows: seq<seq<byte>>, w: nat, h: nat, x0: nat, y0: nat, j: nat,
                  endX: nat, sub: nat, shift: nat, ghost done: seq<YUVSample>)
    requires Frame(rows, w, h) && x0 <= endX <= w && j < h && sub >= 2 && sub % 2 == 0
    requires Counted(histo, done, shift)
    requires forall v: byte :: Shr(v, shift) < histo.buckets
    modifies histo
    ensures Counted(histo, done + HistRow(rows, w, h, x0, y0, j, x0, endX, sub), shift)
    ensures histo.buckets == old(histo.buckets) && histo.region == old(histo.region)
    ensures histo.colorspace == old(histo.colorspace)
  {
    ghost var seen := done;
    var i: nat := x0;
    while i < endX
      invariant x0 <= i
      invariant seen + HistRow(rows, w, h, x0, y0, j, i, endX, sub) == done + HistRow(rows, w, h, x0, y0, j, x0, endX, sub)
      invariant Counted(histo, seen, shift)
      invariant histo.buckets == old(histo.buckets) && histo.region == old(histo.region)
      invariant histo.colorspace == old(histo.colorspace)
      decreases endX - i
    {
      var t := SampleAt(rows, w, h, x0, y0, i, j);
      CountSample(histo, t, shift, seen);
      assert seen + HistRow(rows, w, h, x0, y0, j, i, endX, sub)
          == (seen + [t]) + HistRow(rows, w, h, x0, y0, j, i + sub, endX, sub);
      seen := seen + [t];
      i := i + sub;
    }
    assert seen + [] == seen;
  }

  /** Every byte, shifted right by the shift, names one of the buckets. */
  lemma AllBytesInRange(requested: int)
    ensures forall v: byte :: Shr(v, HistogramShift(requested)) < HistogramBuckets(requested)
  {
    forall v: byte ensures Shr(v, HistogramShift(requested)) < HistogramBuckets(requested) {
      BucketIndexInRange(requested, v);
    }
  }

  /** The outer loop of `evaluateHistogram`: every sampled row counted, in order. */
  method CountRegion(histo: Histograms.Histogram, rows: seq<seq<byte>>, w: nat, h: nat, x0: nat, y0: nat,
                     endX: nat, endY: nat, sub: nat, shift: nat)
    requires Frame(rows, w, h) && x0 <= endX <= w && endY <= h && sub >= 2 && sub % 2 == 0
    requires Counted(histo, [], shift)
    requires forall v: byte :: Shr(v, shift) < histo.buckets
    modifies histo
    ensures Counted(histo, HistGrid(rows, w, h, x0, y0, y0, endY, endX, sub), shift)
    ensures histo.buckets == old(histo.buckets) && histo.region == old(histo.region)
    ensures histo.colorspace == old(histo.colorspace)
  {
    ghost var total := HistGrid(rows, w, h, x0, y0, y0, endY, endX, sub);
    ghost var done: seq<YUVSample> := [];
    var j: nat := y0;
    assert done + total == total;
    while j < endY
      invariant done + HistGrid(rows, w, h, x0, y0, j, endY, endX, sub) == total
      invariant Counted(histo, done, shift)
      invariant histo.buckets == old(histo.buckets) && histo.region == old(histo.region)
      invariant histo.colorspace == old(histo.colorspace)
      decreases endY - j
    {
      ghost var rowSamples := HistRow(rows, w, h, x0, y0, j, x0, endX, sub);
      ghost var rest := HistGrid(rows, w, h, x0, y0, j + sub, endY, endX, sub);
      assert done + (rowSamples + rest) == (done + rowSamples) + rest;
      CountRow(histo, rows, w, h, x0, y0, j, endX, sub, shift, done);
      done := done + rowSamples;
      j := j + sub;
    }
    assert done + [] == done;
  }

  /**
   * `evaluateHistogram(cfg, im)`: a histogram of the power-of-two bucket
   * count, three channels, the requested region and YpUV, whose count of
   * bucket b in channel c is the number of samples, taken every
   * `subsample` columns and rows of the region, whose channel-c byte
   * shifted right by the shift is b, modulo 2^32.
   */
  method EvaluateHistogram(cfg: Histograms.HistogramConfig, rows: seq<seq<byte>>, w: nat, h: nat)
      returns (histo: Histograms.Histogram)
    requires Frame(rows, w, h) && RegionInside(cfg.region, w, h)
    ensures fresh(histo) && histo.Valid()
    ensures histo.buckets == HistogramBuckets(cfg.buckets) && histo.channels == 3
    ensures histo.region == cfg.region && histo.colorspace == YpUV
    ensures forall b, c :: 0 <= b < histo.buckets && 0 <= c < 3 ==>
              histo.Count(b, c) == Tally(HistogramSamples(rows, w, h, cfg.region), HistogramShift(cfg.buckets), b, c) % UINT32_MOD
  {
    var buckets := BucketCount(cfg.buckets);
    var shift := ShiftBits(buckets);
    var region := cfg.region;
    var subsample := HistogramStep(region);
    histo := new Histograms.Histogram(buckets, 3, region, YpUV);
    AllBytesInRange(cfg.buckets);
    assert buckets == HistogramBuckets(cfg.buckets) && shift == HistogramShift(cfg.buckets);
    var x0: nat, y0: nat := region.x, region.y;
    var endX: nat, endY: nat := region.x + region.width, region.y + region.height;
    assert Counted(histo, [], shift);
    CountRegion(histo, rows, w, h, x0, y0, endX, endY, subsample, shift);
    assert HistogramSamples(rows, w, h, cfg.region) == HistGrid(rows, w, h, x0, y0, y0, endY, endX, subsample);
  }

  /** The loops read one sample per (row step, column step) pair of the region. */
  lemma {:induction false} HistRowCount(rows: seq<seq<byte>>, w: nat, h: nat, x0: nat, y0: nat, j: nat, i: nat,
                                        endX: nat, sub: nat)
    requires Frame(rows, w, h) && x0 <= i && endX <= w && j < h && sub >= 1
    ensures |HistRow(rows, w, h, x0, y0, j, i, endX, sub)| == Steps(endX - i, sub)
    decreases endX - i
  {
    if i < endX {
      HistRowCount(rows, w, h, x0, y0, j, i + sub, endX, sub);
    }
  }

  lemma {:induction false} HistGridRows(rows: seq<seq<byte>>, w: nat, h: nat, x0: nat, y0: nat, j: nat,
                                        endY: nat, endX: nat, sub: nat, c: nat)
    requires Frame(rows, w, h) && endX <= w && endY <= h && sub >= 1 && c == Steps(endX - x0, sub)
    ensures |HistGrid(rows, w, h, x0, y0, j, endY, endX, sub)| == RowsFrom(j, endY, sub, c)
    decreases endY - j
  {
    if j < endY {
      var first := HistRow(rows, w, h, x0, y0, j, x0, endX, sub);
      var rest := HistGrid(rows, w, h, x0, y0, j + sub, endY, endX, sub);
      assert HistGrid(rows, w, h, x0, y0, j, endY, endX, sub) == first + rest;
      HistGridRows(rows, w, h, x0, y0, j + sub, endY, endX, sub, c);
      HistRowCount(rows, w, h, x0, y0, j, x0, endX, sub);
      assert |first + rest| == |first| + |rest|;
      assert RowsFrom(j, endY, sub, c) == c + RowsFrom(j + sub, endY, sub, c);
    } else {
      assert HistGrid(rows, w, h, x0, y0, j, endY, endX, sub) == [];
    }
  }

  lemma HistGridCount(rows: seq<seq<byte>>, w: nat, h: nat, x0: nat, y0: nat, j: nat, endY: nat, endX: nat, sub: nat)
    requires Frame(rows, w, h) && endX <= w && endY <= h && sub >= 1
    ensures |HistGrid(rows, w, h, x0, y0, j, endY, endX, sub)| == Steps(endY - j, sub) * Steps(endX - x0, sub)
  {
    HistGridRows(rows, w, h, x0, y0, j, endY, endX, sub, Steps(endX - x0, sub));
    RowsFromIsProduct(j, endY, sub, Steps(endX - x0, sub));
  }

  /** The histogram reads ⌈height/subsample⌉ · ⌈width/subsample⌉ samples of the region. */
  lemma HistogramSampleCount(rows: seq<seq<byte>>, w: nat, h: nat, region: Rect)
    requires Frame(rows, w, h) && RegionInside(region, w, h)
    ensures var sub := HistogramSubsample(region);
            |HistogramSamples(rows, w, h, region)| == Steps(region.height, sub) * Steps(region.width, sub)
  {
    var sub := HistogramSubsample(region);
    HistGridCount(rows, w, h, region.x, region.y, region.y, region.y + region.height, region.x + region.width, sub);
  }

  /** The counts of buckets 0 to n-1 of channel c. */
  function TallySum(s: seq<YUVSample>, shift: nat, n: nat, c: nat): nat
  {
    if n == 0 then 0 else TallySum(s, shift, n - 1, c) + Tally(s, shift, n - 1, c)
  }

  /** A new sample adds one to the buckets below n exactly when its own bucket is below n. */
  lemma {:induction false} TallySumSnoc(s: seq<YUVSample>, t: YUVSample, shift: nat, n: nat, c: nat)
    ensures TallySum(s + [t], shift, n, c) == TallySum(s, shift, n, c) + (if Shr(Component(t, c), shift) < n then 1 else 0)
  {
    assert (s + [t])[..|s|] == s;
    if n > 0 {
      TallySumSnoc(s, t, shift, n - 1, c);
    }
  }

  /**
   * When every byte has a bucket below n, each channel's counts over those
   * buckets add up to the number of samples: every sample is counted once
   * per channel.
   */
  lemma {:induction false} TallySumTotal(s: seq<YUVSample>, shift: nat, n: nat, c: nat)
    requires forall v: byte :: Shr(v, shift) < n
    ensures TallySum(s, shift, n, c) == |s|
  {
    if s != [] {
      var p := s[..|s| - 1];
      TallySumTotal(p, shift, n, c);
      TallySumSnoc(p, s[|s| - 1], shift, n, c);
      assert p + [s[|s| - 1]] == s;
    } else {
      TallySumEmpty(shift, n, c);
    }
  }

  lemma {:induction false} TallySumEmpty(shift: nat, n: nat, c: nat)
    ensures TallySum([], shift, n, c) == 0
  {
    if n > 0 {
      TallySumEmpty(shift, n - 1, c);
    }
  }

  /**
   * In each of the three channels, the exact counts of the histogram's
   * buckets add up to the number of samples the region yields.
   */
  lemma HistogramCountsEverySample(rows: seq<seq<byte>>, w: nat, h: nat, cfg: Histograms.HistogramConfig, c: nat)
    requires Frame(rows, w, h) && RegionInside(cfg.region, w, h)
    ensures var s := HistogramSamples(rows, w, h, cfg.region);
            TallySum(s, HistogramShift(cfg.buckets), HistogramBuckets(cfg.buckets), c) == |s|
  {
    AllBytesInRange(cfg.buckets);
    TallySumTotal(HistogramSamples(rows, w, h, cfg.region), HistogramShift(cfg.buckets), HistogramBuckets(cfg.buckets), c);
  }
}

=== FILE: tag_text.dfy ===
/**
 * The text form of FCam::TagValue (external/FCam/TagValue.cpp,
 * `operator<<` and the text branches of `operator>>`): `None`, decimal
 * ints, floats with a trailing `f`, quoted strings with `\x` escapes,
 * `(s, us)` times and bracketed, comma-separated vectors.
 *
 * Chars are the target's unsigned 8-bit chars, and `isprint` is that of
 * the C locale. The decimal text of floats and doubles, and reading it
 * back, belong to the C++ library; they are parameters here (FloatLib).
 * A stream whose extraction failed yields nothing more, which the model
 * writes as an empty remainder.
 */
module TagText {
  import opened Wrappers
  import opened TagValues
  import StackNames
  import DecimalText
  import FCamTime

  /**
   * The C++ library's float and double text: `<<` in scientific notation
   * (precision 8 and 16), `>>` of a numeric token gathered by the reader,
   * and `>>` straight from the stream, which gives the value and how many
   * chars it took, or None when the extraction fails.
   */
  datatype FloatLib = FloatLib(
    showFloat: Word32 -> Text,
    showDouble: Word64 -> Text,
    floatOf: Text -> Word32,
    doubleOf: Text -> Word64,
    scanFloat: Text -> Option<(Word32, nat)>,
    scanDouble: Text -> Option<(Word64, nat)>)

  const INT_MAX := 0x7FFF_FFFF
  const INT_MIN := -0x8000_0000

  // ----- Characters -----

  /** `isspace` in the C locale: what `std::ws` skips. */
  predicate IsSpace(c: char)
  {
    c == ' ' || c == '\t' || c == '\n' || c == '\U{0B}' || c == '\U{0C}' || c == '\r'
  }

  /** `isprint` in the C locale: the printable ASCII chars, space included. */
  predicate IsPrint(c: char)
  {
    ' ' <= c <= '~'
  }

  /** A lower-case hex digit, as `std::hex` prints it. */
  function HexDigit(d: nat): (c: Char8)
    requires d < 16
    ensures HexValue(c) == Some(d)
  {
    if d < 10 then ('0' as int + d) as char else ('a' as int + d - 10) as char
  }

  /** The value of a hex digit as the string reader accepts it: digits and lower-case a to f. */
  function HexValue(c: char): (r: Option<nat>)
    ensures r.Some? ==> r.value < 16
  {
    if '0' <= c <= '9' then Some(c as int - '0' as int)
    else if 'a' <= c <= 'f' then Some(c as int - 'a' as int + 10)
    else None
  }

  // ----- Printing -----

  /** `out << int`: the decimal digits of the magnitude, after a minus sign for negative values. */
  function IntText(i: int): (t: Text)
    ensures |t| >= 1 && (StackNames.IsDigit(t[0]) || t[0] == '-')
  {
    (if i < 0 then "-" else "") + IntDigits(i)
  }

  function Magnitude(i: int): nat { if i < 0 then -i else i }

  /** The digits of a printed int: those of its magnitude, without leading zeros. */
  function IntDigits(i: int): (d: Text)
    ensures |d| >= 1 && forall k :: 0 <= k < |d| ==> StackNames.IsDigit(d[k])
  {
    DecimalText.Decimal(Magnitude(i))
  }

  /** One char of a string in quotes: printable chars other than `"` and `\` as they are, all others as `\x` and two hex digits. */
  function Escape(c: Char8): (t: Text)
    ensures |t| >= 1 && t[0] != '"'
  {
    if IsPrint(c) && c != '"' && c != '\\' then [c]
    else if (c as int) < 16 then ['\\', 'x', '0', HexDigit(c as int)]
    else ['\\', 'x', HexDigit(c as int / 16), HexDigit(c as int % 16)]
  }

  function Escaped(s: Text): Text
  {
    if s == [] then [] else Escape(s[0]) + Escaped(s[1..])
  }

  /** A string as `<<` prints it: escaped, between double quotes. */
  function Quoted(s: Text): (t: Text)
    ensures |t| >= 2 && t[0] == '"'
  {
    ['"'] + Escaped(s) + ['"']
  }

  /** What separates two numbers of a time, or two items of a vector. */
  const SEPARATOR: Text := ", "

  /** A time as `(s, us)`. */
  function TimeText(tm: FCamTime.Time): (t: Text)
    ensures |t| >= 1 && t[0] == '('
  {
    ['('] + IntText(tm.s) + SEPARATOR + IntText(tm.us) + [')']
  }

  /** Items after the first, each after a comma and a space. */
  function Tail<T>(show: T -> Text, xs: seq<T>): (r: Text)
    ensures xs == [] ==> r == []
    ensures xs != [] ==> |r| >= 2 && r[0] == ',' && r[1] == ' '
  {
    if xs == [] then [] else SEPARATOR + show(xs[0]) + Tail(show, xs[1..])
  }

  /** A vector's items between brackets, separated by a comma and a space; `[]` when empty. */
  function Bracketed<T>(show: T -> Text, xs: seq<T>): Text
  {
    if xs == [] then "[]" else "[" + show(xs[0]) + Tail(show, xs[1..]) + "]"
  }

  /** A float as `<<` prints it outside a vector and before a vector's comma: with a trailing `f`. */
  function FloatText(lib: FloatLib, x: Word32): Text
  {
    lib.showFloat(x) + "f"
  }

  /** A float vector: every item but the last carries its `f`. */
  function FloatVectorText(lib: FloatLib, xs: seq<Word32>): Text
  {
    if xs == [] then "[]"
    else "[" + FloatItemsText(lib, xs[..|xs| - 1]) + lib.showFloat(xs[|xs| - 1]) + "]"
  }

  function FloatItemsText(lib: FloatLib, xs: seq<Word32>): Text
  {
    if xs == [] then [] else FloatText(lib, xs[0]) + SEPARATOR + FloatItemsText(lib, xs[1..])
  }

  /** `operator<<`: the text form of a tag value. */
  function Show(lib: FloatLib, v: Value): Text
  {
    match v
    case NullValue => "None"
    case IntValue(i) => IntText(i)
    case FloatValue(x) => FloatText(lib, x)
    case DoubleValue(x) => lib.showDouble(x)
    case StringValue(s) => Quoted(s)
    case TimeValue(tm) => TimeText(tm)
    case IntVectorValue(xs) => Bracketed(IntText, xs)
    case FloatVectorValue(xs) => FloatVectorText(lib, xs)
    case DoubleVectorValue(xs) => Bracketed(lib.showDouble, xs)
    case StringVectorValue(ss) => Bracketed(Quoted, ss)
    case TimeVectorValue(ts) => Bracketed(TimeText, ts)
  }

  // ----- Reading: numbers -----

  /** `in >> std::ws`. */
  function SkipWs(s: Text): (r: Text)
    ensures |r| <= |s|
    ensures r == [] || !IsSpace(r[0])
  {
    if s != [] && IsSpace(s[0]) then SkipWs(s[1..]) else s
  }

  /** How many decimal digits s starts with. */
  function DigitRun(s: Text): (n: nat)
    ensures n <= |s|
    ensures forall k :: 0 <= k < n ==> StackNames.IsDigit(s[k])
    ensures n < |s| ==> !StackNames.IsDigit(s[n])
  {
    if s != [] && StackNames.IsDigit(s[0]) then 1 + DigitRun(s[1..]) else 0
  }

  function DigitsValue(ds: Text): (v: nat)
    requires forall k :: 0 <= k < |ds| ==> StackNames.IsDigit(ds[k])
  {
    StackNames.DecimalValue(ds)
  }

  /** An `int` extraction's value: out of range, the nearest limit. */
  function Clamp32(v: int): (r: int)
    ensures IsInt32(r)
    ensures IsInt32(v) ==> r == v
  {
    if v > INT_MAX then INT_MAX else if v < INT_MIN then INT_MIN else v
  }

  /** What `in >> x` for an integer gives: the value, the rest and whether the stream is still good. */
  datatype Extracted = Extracted(value: int, rest: Text, ok: bool)

  /**
   * `in >> x` for a 32-bit integer: white space, an optional sign and
   * digits. Without digits, or out of range, the extraction fails (the
   * value is then 0 or the nearest limit) and the stream yields nothing
   * more.
   */
  function ExtractInt(s: Text): (r: Extracted)
    ensures IsInt32(r.value) && |r.rest| <= |s|
    ensures !r.ok ==> r.rest == []
  {
    var a := SkipWs(s);
    var neg := a != [] && a[0] == '-';
    var b := if a != [] && (a[0] == '-' || a[0] == '+') then a[1..] else a;
    var n := DigitRun(b);
    if n == 0 then Extracted(0, [], false)
    else
      var v := if neg then -(DigitsValue(b[..n]) as int) else DigitsValue(b[..n]);
      if IsInt32(v) then Extracted(v, b[n..], true) else Extracted(Clamp32(v), [], false)
  }

  /**
   * The number branch of `operator>>`, from a '-' or a digit: an optional
   * minus sign (not followed by a digit, it is put back and the read
   * fails), digits, a '.' with more digits (a '.' without them is put
   * back), and an exponent of 'e', a sign and digits (an 'e' without a
   * sign is put back, though it stays in the gathered text). Digits after
   * a '.' make a float when an 'f' follows and a double otherwise; without
   * them the text is read as an int.
   */
  function ReadNumber(lib: FloatLib, s: Text, t: Value): (o: Outcome)
    requires s != [] && (s[0] == '-' || StackNames.IsDigit(s[0]))
    ensures |o.rest| <= |s|
  {
    var neg := s[0] == '-';
    var a := if neg then s[1..] else s;
    if neg && (a == [] || !StackNames.IsDigit(a[0])) then Outcome(t, s, 1)
    else
      var n := DigitRun(a);
      var whole := a[..n];
      var sign: Text := if neg then "-" else "";
      var r := a[n..];
      if |r| >= 2 && r[0] == '.' && StackNames.IsDigit(r[1]) then
        var m := DigitRun(r[1..]);
        Exponent(lib, sign + whole + r[..1 + m], true, r[1 + m..], neg, whole, t)
      else if r != [] && r[0] == '.' then
        NumberDone(lib, sign + whole + ".", false, r, neg, whole, t)
      else
        Exponent(lib, sign + whole, false, r, neg, whole, t)
  }

  function Exponent(lib: FloatLib, token: Text, floating: bool, r: Text, neg: bool, whole: Text, t: Value): (o: Outcome)
    requires forall k :: 0 <= k < |whole| ==> StackNames.IsDigit(whole[k])
    ensures |o.rest| <= |r|
  {
    if r != [] && r[0] == 'e' then
      if |r| >= 2 && (r[1] == '+' || r[1] == '-') then
        var k := DigitRun(r[2..]);
        NumberDone(lib, token + r[..2 + k], floating, r[2 + k..], neg, whole, t)
      else NumberDone(lib, token + "e", floating, r, neg, whole, t)
    else NumberDone(lib, token, floating, r, neg, whole, t)
  }

  function NumberDone(lib: FloatLib, token: Text, floating: bool, r: Text, neg: bool, whole: Text, t: Value): (o: Outcome)
    requires forall k :: 0 <= k < |whole| ==> StackNames.IsDigit(whole[k])
    ensures |o.rest| <= |r| && o.errors == 0
  {
    if floating && r != [] && r[0] == 'f' then Outcome(FloatValue(lib.floatOf(token)), r[1..], 0)
    else if floating then Outcome(DoubleValue(lib.doubleOf(token)), r, 0)
    else Outcome(IntValue(Clamp32(if neg then -(DigitsValue(whole) as int) else DigitsValue(whole))), r, 0)
  }

  // ----- Reading: times and strings -----

  /**
   * The time branch, after the '(': the seconds, white space, a comma,
   * white space, the microseconds and a ')'. A missing piece is a
   * ParseError with the tag unchanged.
   */
  function ReadTime(s: Text, t: Value): (o: Outcome)
    ensures |o.rest| <= |s|
  {
    var a := ExtractInt(s);
    var r := SkipWs(a.rest);
    if r == [] || r[0] != ',' then Outcome(t, r, 1)
    else
      var b := ExtractInt(SkipWs(r[1..]));
      if b.rest == [] || b.rest[0] != ')' then Outcome(t, b.rest, 1)
      else Outcome(TimeValue(FCamTime.Time(a.value, b.value)), b.rest[1..], 0)
  }

  /** The char an escape other than `\x` stands for, if it is one the reader knows. */
  function Unescape(c: char): (r: Option<Char8>)
  {
    match c
    case '0' => Some('\0')
    case 'n' => Some('\n')
    case 'r' => Some('\r')
    case '"' => Some('"')
    case '\\' => Some('\\')
    case 'a' => Some('\U{07}')
    case 'b' => Some('\U{08}')
    case 'v' => Some('\U{0B}')
    case '\'' => Some('\'')
    case 'f' => Some('\U{0C}')
    case 't' => Some('\t')
    case _ => None
  }

  /**
   * The string branch, after the opening quote, with the chars gathered so
   * far: up to the closing quote, resolving escapes. The end of the input,
   * an unknown escape or a `\x` without two hex digits is a ParseError that
   * leaves the tag holding the chars gathered so far; the two chars after a
   * bad `\x` are put back.
   */
  function StringBody(s: Text, acc: Text): (o: Outcome)
    ensures |o.rest| <= |s| && o.value.StringValue?
    decreases |s|
  {
    if s == [] then Outcome(StringValue(acc), [], 1)
    else if s[0] == '"' then Outcome(StringValue(acc), s[1..], 0)
    else if s[0] != '\\' then StringBody(s[1..], acc + [s[0]])
    else if |s| < 2 then Outcome(StringValue(acc), [], 1)
    else if s[1] == 'x' then
      if |s| < 4 then Outcome(StringValue(acc), [], 1)
      else
        var h1 := HexValue(s[2]);
        var h2 := HexValue(s[3]);
        if h1.None? || h2.None? then Outcome(StringValue(acc), s[2..], 1)
        else StringBody(s[4..], acc + [(16 * h1.value + h2.value) as char])
    else
      var u := Unescape(s[1]);
      if u.None? then Outcome(StringValue(acc), s[2..], 1)
      else StringBody(s[2..], acc + [u.value])
  }

  // ----- Reading: the whole value -----

  /**
   * `operator>>` on the input `s` into a tag holding `t`: the first char
   * picks the form — 'b' a blob, '-' or a digit a number, 'N' `None`, '('
   * a time, '"' a string, '[' a vector; at the end of the input the tag
   * becomes Null; anything else is a ParseError with the tag and the input
   * unchanged.
   */
  function Parse(lib: FloatLib, s: Text, t: Value): (o: Outcome)
    ensures |o.rest| <= |s|
    decreases |s|, 0
  {
    if s == [] then Outcome(NullValue, [], 0)
    else if s[0] == 'b' then ReadBlob(s[1..], t)
    else if s[0] == '-' || StackNames.IsDigit(s[0]) then ReadNumber(lib, s, t)
    else if s[0] == 'N' then
      if |s| >= 4 && s[..4] == "None" then Outcome(NullValue, s[4..], 0) else Outcome(t, s, 1)
    else if s[0] == '(' then ReadTime(s[1..], t)
    else if s[0] == '"' then StringBody(s[1..], [])
    else if s[0] == '[' then ReadVector(lib, SkipWs(s[1..]), t)
    else Outcome(t, s, 1)
  }

  /**
   * The vector branch, after the '[' and white space: a second '[' is a
   * ParseError; otherwise the first item is read as a value of its own, and
   * its kind picks the vector — int, float, double, time or string; any
   * other first item (Null after an empty `[]`, say) is a ParseError with
   * the tag unchanged.
   */
  function ReadVector(lib: FloatLib, s: Text, t: Value): (o: Outcome)
    ensures |o.rest| <= |s|
    decreases |s|, 2
  {
    if s != [] && s[0] == '[' then Outcome(t, s, 1)
    else VectorFrom(lib, Parse(lib, s, NullValue), t)
  }

  /** The rest of a vector, once its first item `f` has been read: its kind picks the item loop. */
  function VectorFrom(lib: FloatLib, f: Outcome, t: Value): (o: Outcome)
    ensures |o.rest| <= |f.rest|
    decreases |f.rest|, 1
  {
    var r := SkipWs(f.rest);
    match f.value
    case IntValue(i) => IntItems(r, [i], f.errors)
    case FloatValue(x) => FloatItems(lib, r, [x], f.errors)
    case DoubleValue(x) => DoubleItems(lib, r, [x], f.errors)
    case TimeValue(tm) => TimeItems(lib, r, [tm], f.errors)
    case StringValue(str) => StringItems(lib, r, [str], f.errors)
    case _ => Outcome(t, f.rest, f.errors + 1)
  }

  // Each item loop runs until a ']', which it consumes; before every further
  // item it wants a comma. The tag already holds the vector read so far, so
  // a ParseError leaves that partial vector in it.

  function IntItems(s: Text, acc: seq<int>, e: nat): (o: Outcome)
    ensures |o.rest| <= |s| && o.value.IntVectorValue?
    decreases |s|, 0
  {
    if s != [] && s[0] == ']' then Outcome(IntVectorValue(acc), s[1..], e)
    else if s == [] || s[0] != ',' then Outcome(IntVectorValue(acc), s, e + 1)
    else
      var x := ExtractInt(s[1..]);
      if !x.ok then Outcome(IntVectorValue(acc + [x.value]), [], e + 1)
      else IntItems(SkipWs(x.rest), acc + [x.value], e)
  }

  /** A float item may carry its trailing 'f'. */
  function FloatItems(lib: FloatLib, s: Text, acc: seq<Word32>, e: nat): (o: Outcome)
    ensures |o.rest| <= |s| && o.value.FloatVectorValue?
    decreases |s|, 0
  {
    if s != [] && s[0] == ']' then Outcome(FloatVectorValue(acc), s[1..], e)
    else if s == [] || s[0] != ',' then Outcome(FloatVectorValue(acc), s, e + 1)
    else
      var a := SkipWs(s[1..]);
      var x := lib.scanFloat(a);
      if x.None? || x.value.1 > |a| then Outcome(FloatVectorValue(acc + [0]), [], e + 1)
      else
        var r := a[x.value.1..];
        var r' := if r != [] && r[0] == 'f' then r[1..] else r;
        FloatItems(lib, SkipWs(r'), acc + [x.value.0], e)
  }

  function DoubleItems(lib: FloatLib, s: Text, acc: seq<Word64>, e: nat): (o: Outcome)
    ensures |o.rest| <= |s| && o.value.DoubleVectorValue?
    decreases |s|, 0
  {
    if s != [] && s[0] == ']' then Outcome(DoubleVectorValue(acc), s[1..], e)
    else if s == [] || s[0] != ',' then Outcome(DoubleVectorValue(acc), s, e + 1)
    else
      var a := SkipWs(s[1..]);
      var x := lib.scanDouble(a);
      if x.None? || x.value.1 > |a| then Outcome(DoubleVectorValue(acc + [0]), [], e + 1)
      else DoubleItems(lib, SkipWs(a[x.value.1..]), acc + [x.value.0], e)
  }

  /** Each further item is read as a value of its own and must be a time. */
  function TimeItems(lib: FloatLib, s: Text, acc: seq<FCamTime.Time>, e: nat): (o: Outcome)
    ensures |o.rest| <= |s| && o.value.TimeVectorValue?
    decreases |s|, 0
  {
    if s != [] && s[0] == ']' then Outcome(TimeVectorValue(acc), s[1..], e)
    else if s == [] || s[0] != ',' then Outcome(TimeVectorValue(acc), s, e + 1)
    else
      var x := Parse(lib, SkipWs(s[1..]), NullValue);
      var r := SkipWs(x.rest);
      if !x.value.TimeValue? then Outcome(TimeVectorValue(acc), r, e + x.errors + 1)
      else TimeItems(lib, r, acc + [x.value.t], e + x.errors)
  }

  /** Each further item is read as a value of its own and must be a string. */
  function StringItems(lib: FloatLib, s: Text, acc: seq<Text>, e: nat): (o: Outcome)
    ensures |o.rest| <= |s| && o.value.StringVectorValue?
    decreases |s|, 0
  {
    if s != [] && s[0] == ']' then Outcome(StringVectorValue(acc), s[1..], e)
    else if s == [] || s[0] != ',' then Outcome(StringVectorValue(acc), s, e + 1)
    else
      var x := Parse(lib, SkipWs(s[1..]), NullValue);
      var r := SkipWs(x.rest);
      if !x.value.StringValue? then Outcome(StringVectorValue(acc), r, e + x.errors + 1)
      else StringItems(lib, r, acc + [x.value.s], e + x.errors)
  }

  // ----- What is printed reads back -----

  // Which branch of the reader the first char picks.

  lemma ParsesBlob(lib: FloatLib, s: Text, t: Value)
    requires s != [] && s[0] == 'b'
    ensures Parse(lib, s, t) == ReadBlob(s[1..], t)
  {
  }

  lemma ParsesNumber(lib: FloatLib, s: Text, t: Value)
    requires s != [] && (s[0] == '-' || StackNames.IsDigit(s[0]))
    ensures Parse(lib, s, t) == ReadNumber(lib, s, t)
  {
  }

  lemma ParsesTime(lib: FloatLib, s: Text, t: Value)
    requires s != [] && s[0] == '('
    ensures Parse(lib, s, t) == ReadTime(s[1..], t)
  {
  }

  lemma ParsesString(lib: FloatLib, s: Text, t: Value)
    requires s != [] && s[0] == '"'
    ensures Parse(lib, s, t) == StringBody(s[1..], [])
  {
  }

  lemma ParsesVector(lib: FloatLib, s: Text, t: Value)
    requires s != [] && s[0] == '['
    ensures Parse(lib, s, t) == ReadVector(lib, SkipWs(s[1..]), t)
  {
  }


  /** What may follow a printed int without becoming part of the number: no digit, '.' or 'e'. */
  predicate EndsNumber(rest: Text)
  {
    rest == [] || !(StackNames.IsDigit(rest[0]) || rest[0] == '.' || rest[0] == 'e')
  }

  /** `None` reads back as Null, whatever the tag held. */
  lemma NullBack(lib: FloatLib, rest: Text, t: Value)
    ensures Show(lib, NullValue) == "None"
    ensures Parse(lib, Show(lib, NullValue) + rest, t) == Outcome(NullValue, rest, 0)
  {
    var s := Show(lib, NullValue) + rest;
    assert s[..4] == "None" && s[4..] == rest;
  }

  /** A run of digits ends where the digits do. */
  lemma {:induction false} DigitRunOf(ds: Text, rest: Text)
    requires forall k :: 0 <= k < |ds| ==> StackNames.IsDigit(ds[k])
    requires rest == [] || !StackNames.IsDigit(rest[0])
    ensures DigitRun(ds + rest) == |ds|
    decreases |ds|
  {
    if ds != [] {
      assert (ds + rest)[1..] == ds[1..] + rest;
      DigitRunOf(ds[1..], rest);
    } else {
      assert ds + rest == rest;
    }
  }

  /** The digits of a printed int read back as its magnitude. */
  lemma IntDigitsValue(i: int)
    ensures DigitsValue(IntDigits(i)) == Magnitude(i)
  {
    DecimalText.DecimalRoundTrip(Magnitude(i));
  }

  /** Ints print as `printf`'s `%i` prints them. */
  lemma IntTextIsPrintInt(i: int)
    ensures IntText(i) == DecimalText.PrintInt(i, 0)
  {
  }

  /** The digits of a printed int, then what follows, read as a number. */
  lemma NumberOfDigits(lib: FloatLib, neg: bool, d: Text, rest: Text, t: Value)
    requires |d| >= 1 && forall k :: 0 <= k < |d| ==> StackNames.IsDigit(d[k])
    requires EndsNumber(rest)
    requires IsInt32(if neg then -(DigitsValue(d) as int) else DigitsValue(d))
    ensures ReadNumber(lib, (if neg then "-" else "") + d + rest, t) ==
      Outcome(IntValue(if neg then -(DigitsValue(d) as int) else DigitsValue(d)), rest, 0)
  {
    var s := (if neg then "-" else "") + d + rest;
    var a := if neg then s[1..] else s;
    assert a == d + rest;
    assert a[..|d|] == d && a[|d|..] == rest;
    assert DigitRun(a) == |d| by { DigitRunOf(d, rest); }
    assert a[0] == d[0];
    assert ReadNumber(lib, s, t) == Exponent(lib, (if neg then "-" else "") + d, false, rest, neg, d, t);
    IntDone(lib, (if neg then "-" else "") + d, rest, neg, d, t);
  }

  /** An int's text followed by no fraction and no exponent reads as that int, clamped. */
  lemma IntDone(lib: FloatLib, token: Text, r: Text, neg: bool, whole: Text, t: Value)
    requires forall k :: 0 <= k < |whole| ==> StackNames.IsDigit(whole[k])
    requires EndsNumber(r)
    ensures Exponent(lib, token, false, r, neg, whole, t) ==
      Outcome(IntValue(Clamp32(if neg then -(DigitsValue(whole) as int) else DigitsValue(whole))), r, 0)
  {
  }

  /** An int prints as text that reads back as the same int, ending where the number does. */
  lemma IntBack(lib: FloatLib, i: int, rest: Text, t: Value)
    requires IsInt32(i) && EndsNumber(rest)
    ensures Parse(lib, Show(lib, IntValue(i)) + rest, t) == Outcome(IntValue(i), rest, 0)
  {
    assert Show(lib, IntValue(i)) == IntText(i);
    IntTextParses(lib, i, rest, t);
  }

  /** The text of an int, then what does not continue a number, reads back as the same int. */
  lemma IntTextParses(lib: FloatLib, i: int, rest: Text, t: Value)
    requires IsInt32(i) && EndsNumber(rest)
    ensures Parse(lib, IntText(i) + rest, t) == Outcome(IntValue(i), rest, 0)
  {
    var d := IntDigits(i);
    var s := IntText(i) + rest;
    assert s == (if i < 0 then "-" else "") + d + rest;
    assert ReadNumber(lib, s, t) == Outcome(IntValue(i), rest, 0) by {
      IntDigitsValue(i);
      NumberOfDigits(lib, i < 0, d, rest, t);
    }
    ParsesNumber(lib, s, t);
  }

  /** The sign and digits of a printed int, then what follows, as `in >> x` reads them. */
  lemma ExtractDigits(neg: bool, d: Text, rest: Text)
    requires |d| >= 1 && forall k :: 0 <= k < |d| ==> StackNames.IsDigit(d[k])
    requires rest == [] || !StackNames.IsDigit(rest[0])
    requires IsInt32(if neg then -(DigitsValue(d) as int) else DigitsValue(d))
    ensures ExtractInt((if neg then "-" else "") + d + rest) ==
      Extracted(if neg then -(DigitsValue(d) as int) else DigitsValue(d), rest, true)
  {
    var s := (if neg then "-" else "") + d + rest;
    assert SkipWs(s) == s;
    var b := if neg then s[1..] else s;
    assert b == d + rest;
    DigitRunOf(d, rest);
    assert b[..|d|] == d && b[|d|..] == rest;
  }

  /** `in >> x` reads a printed int back, leaving what follows its digits. */
  lemma ExtractIntBack(i: int, rest: Text)
    requires IsInt32(i) && (rest == [] || !StackNames.IsDigit(rest[0]))
    ensures ExtractInt(IntText(i) + rest) == Extracted(i, rest, true)
  {
    IntDigitsValue(i);
    ExtractDigits(i < 0, IntDigits(i), rest);
  }

  /** The time branch, when the seconds read as `vs` and are followed by a comma, then microseconds that read as `vus` and a ')'. */
  lemma ReadTimeOf(s: Text, x: Text, z: Text, vs: int, vus: int, t: Value)
    requires ExtractInt(s) == Extracted(vs, x, true)
    requires x != [] && x[0] == ','
    requires ExtractInt(SkipWs(x[1..])) == Extracted(vus, z, true)
    requires z != [] && z[0] == ')'
    ensures ReadTime(s, t) == Outcome(TimeValue(FCamTime.Time(vs, vus)), z[1..], 0)
  {
  }

  /** The time branch reads the seconds and microseconds a time prints as. */
  lemma ReadTimeBack(tm: FCamTime.Time, rest: Text, t: Value)
    requires IsTime32(tm)
    ensures ReadTime(IntText(tm.s) + SEPARATOR + IntText(tm.us) + [')'] + rest, t) == Outcome(TimeValue(tm), rest, 0)
  {
    var a, b := IntText(tm.s), IntText(tm.us);
    var z: Text := [')'] + rest;
    var x := SEPARATOR + (b + z);
    assert a + SEPARATOR + b + [')'] + rest == a + x;
    assert z[1..] == rest;
    assert ExtractInt(a + x) == Extracted(tm.s, x, true) by { ExtractIntBack(tm.s, x); }
    assert ExtractInt(SkipWs(x[1..])) == Extracted(tm.us, z, true) by {
      SeparatedItem(b, z);
      ExtractIntBack(tm.us, z);
    }
    ReadTimeOf(a + x, x, z, tm.s, tm.us, t);
  }

  /** A printed time, then what follows, starts the time branch, which reads the same time back. */
  lemma TimeTextReads(tm: FCamTime.Time, rest: Text, t: Value)
    requires IsTime32(tm)
    ensures (TimeText(tm) + rest)[0] == '('
    ensures ReadTime((TimeText(tm) + rest)[1..], t) == Outcome(TimeValue(tm), rest, 0)
  {
    var u := IntText(tm.s) + SEPARATOR + IntText(tm.us) + [')'] + rest;
    assert (TimeText(tm) + rest)[1..] == u;
    ReadTimeBack(tm, rest, t);
  }

  /** The text of a time, then what follows, reads back as the same time. */
  lemma TimeTextParses(lib: FloatLib, tm: FCamTime.Time, rest: Text, t: Value)
    requires IsTime32(tm)
    ensures Parse(lib, TimeText(tm) + rest, t) == Outcome(TimeValue(tm), rest, 0)
  {
    var s := TimeText(tm) + rest;
    assert s != [] && s[0] == '(' && ReadTime(s[1..], t) == Outcome(TimeValue(tm), rest, 0) by {
      TimeTextReads(tm, rest, t);
    }
    ParsesTime(lib, s, t);
  }

  /** A time prints as `(s, us)`, which reads back as the same time. */
  lemma TimeBack(lib: FloatLib, tm: FCamTime.Time, rest: Text, t: Value)
    requires IsTime32(tm)
    ensures Parse(lib, Show(lib, TimeValue(tm)) + rest, t) == Outcome(TimeValue(tm), rest, 0)
  {
    assert Show(lib, TimeValue(tm)) == TimeText(tm);
    TimeTextParses(lib, tm, rest, t);
  }

  /** Reading one printed char of a string gives that char back. */
  lemma EscapeBack(c: Char8, more: Text, acc: Text)
    ensures StringBody(Escape(c) + more, acc) == StringBody(more, acc + [c])
  {
    var s := Escape(c) + more;
    if IsPrint(c) && c != '"' && c != '\\' {
      assert s[1..] == more;
    } else if (c as int) < 16 {
      assert s[4..] == more;
      assert HexValue(s[2]) == Some(0);
      assert (16 * 0 + c as int) as char == c;
    } else {
      assert s[4..] == more;
      assert (16 * (c as int / 16) + c as int % 16) as char == c;
    }
  }

  /** Reading a printed string's chars up to the closing quote gives the string back. */
  lemma {:induction false} EscapedBack(s: Text, acc: Text, rest: Text)
    ensures StringBody(Escaped(s) + ['"'] + rest, acc) == Outcome(StringValue(acc + s), rest, 0)
    decreases |s|
  {
    if s == [] {
      assert Escaped(s) + ['"'] + rest == ['"'] + rest;
      assert acc + s == acc;
    } else {
      var more := Escaped(s[1..]) + ['"'] + rest;
      assert Escaped(s) + ['"'] + rest == Escape(s[0]) + more;
      EscapeBack(s[0], more, acc);
      EscapedBack(s[1..], acc + [s[0]], rest);
      assert acc + [s[0]] + s[1..] == acc + s;
    }
  }

  /** A string prints in quotes, which read back as the same string: every char of a string round-trips. */
  lemma StringBack(lib: FloatLib, str: Text, rest: Text, t: Value)
    ensures Parse(lib, Show(lib, StringValue(str)) + rest, t) == Outcome(StringValue(str), rest, 0)
  {
    assert Show(lib, StringValue(str)) == Quoted(str);
    QuotedParses(lib, str, rest, t);
  }

  /** A string in quotes, then anything, reads back as the same string. */
  lemma QuotedParses(lib: FloatLib, str: Text, rest: Text, t: Value)
    ensures Parse(lib, Quoted(str) + rest, t) == Outcome(StringValue(str), rest, 0)
  {
    var s := Quoted(str) + rest;
    assert s != [] && s[0] == '"' && StringBody(s[1..], []) == Outcome(StringValue(str), rest, 0) by {
      assert s[1..] == Escaped(str) + ['"'] + rest;
      EscapedBack(str, [], rest);
      assert [] + str == str;
    }
    ParsesString(lib, s, t);
  }

  /** The escaped chars of a string are printable and never a double quote, so the closing quote is the first one. */
  lemma {:induction false} EscapedPrintable(s: Text)
    ensures forall k :: 0 <= k < |Escaped(s)| ==> IsPrint(Escaped(s)[k]) && Escaped(s)[k] != '"'
    decreases |s|
  {
    if s != [] {
      EscapedPrintable(s[1..]);
      var e := Escape(s[0]);
      assert forall k :: 0 <= k < |e| ==> IsPrint(e[k]) && e[k] != '"';
      assert Escaped(s) == e + Escaped(s[1..]);
      forall k | 0 <= k < |Escaped(s)| ensures IsPrint(Escaped(s)[k]) && Escaped(s)[k] != '"' {
        if k >= |e| { assert Escaped(s)[k] == Escaped(s[1..])[k - |e|]; }
      }
    }
  }
  // ----- Vectors -----

  /** The reader on a blob's text: the blob branch, which reads the value back. */
  lemma BlobParses(lib: FloatLib, v: Value, rest: Text, t: Value)
    requires WellFormed(v)
    ensures Parse(lib, Blob(v) + rest, t) == Outcome(v, Trailer(v) + rest, 0)
  {
    var s := Blob(v) + rest;
    assert s[0] == 'b' by { assert Blob(v)[..4][0] == 'b'; }
    assert s[1..] == Blob(v)[1..] + rest;
    assert ReadBlob(s[1..], t) == Outcome(v, Trailer(v) + rest, 0) by { BlobRoundTrip(v, t, rest); }
    ParsesBlob(lib, s, t);
  }

  /** Skipping white space twice skips no more than once. */
  lemma {:induction false} SkipWsTwice(u: Text)
    ensures SkipWs(SkipWs(u)) == SkipWs(u)
    decreases |u|
  {
    if u != [] && IsSpace(u[0]) {
      SkipWsTwice(u[1..]);
    }
  }

  /** `in >> x` skips the white space before a number itself. */
  lemma ExtractSkipsWs(u: Text)
    ensures ExtractInt(SkipWs(u)) == ExtractInt(u)
  {
    SkipWsTwice(u);
  }

  /** What follows the items of a vector: the closing bracket and the rest of the input. */
  predicate Closing(after: Text)
  {
    after != [] && after[0] == ']'
  }

  /** After an item comes the separator before the next one, or the closing bracket. */
  lemma ItemEnd<T>(show: T -> Text, ys: seq<T>, after: Text)
    requires Closing(after)
    ensures (Tail(show, ys) + after)[0] in {',', ']'}
    ensures SkipWs(Tail(show, ys) + after) == Tail(show, ys) + after
  {
  }

  /** A non-empty Tail, then what follows: the separator, the first item, and the Tail of the others. */
  lemma TailCons<T>(show: T -> Text, ys: seq<T>, rest: Text)
    requires ys != []
    ensures Tail(show, ys) + rest == SEPARATOR + (show(ys[0]) + (Tail(show, ys[1..]) + rest))
  {
    var a, b := show(ys[0]), Tail(show, ys[1..]);
    assert SEPARATOR + a + b + rest == SEPARATOR + (a + (b + rest));
  }

  /** After a separator, white space skipping stops at an item that does not start with white space. */
  lemma SeparatedItem(x: Text, more: Text)
    requires x != [] && !IsSpace(x[0])
    ensures (SEPARATOR + (x + more))[0] == ','
    ensures SkipWs((SEPARATOR + (x + more))[1..]) == x + more
  {
    var s := SEPARATOR + (x + more);
    assert s[1..] == [' '] + (x + more);
    assert (s[1..])[1..] == x + more;
  }

  /** The printed items after the first: a comma, white space, then the next item and what follows it. */
  lemma ItemShape<T>(show: T -> Text, ys: seq<T>, after: Text)
    requires ys != [] && Closing(after) && show(ys[0]) != [] && !IsSpace(show(ys[0])[0])
    ensures (Tail(show, ys) + after)[0] == ','
    ensures SkipWs((Tail(show, ys) + after)[1..]) == show(ys[0]) + (Tail(show, ys[1..]) + after)
    ensures (Tail(show, ys[1..]) + after)[0] in {',', ']'}
    ensures SkipWs(Tail(show, ys[1..]) + after) == Tail(show, ys[1..]) + after
  {
    TailCons(show, ys, after);
    SeparatedItem(show(ys[0]), Tail(show, ys[1..]) + after);
    ItemEnd(show, ys[1..], after);
  }

  /** A non-empty vector's text: a '[', the first item, and the other items up to the ']'. */
  lemma BracketedShape<T>(show: T -> Text, xs: seq<T>, rest: Text)
    requires xs != [] && show(xs[0]) != [] && !IsSpace(show(xs[0])[0])
    ensures (Bracketed(show, xs) + rest)[0] == '['
    ensures SkipWs((Bracketed(show, xs) + rest)[1..]) == show(xs[0]) + (Tail(show, xs[1..]) + ("]" + rest))
    ensures Closing("]" + rest)
  {
    var u := show(xs[0]) + (Tail(show, xs[1..]) + ("]" + rest));
    assert Bracketed(show, xs) + rest == ['['] + u;
    assert (['['] + u)[1..] == u;
  }

  /** A vector whose first item does not start with a second '[' goes on from what that item reads as. */
  lemma ReadVectorFirst(lib: FloatLib, s: Text, t: Value)
    requires s != [] && s[0] != '['
    ensures ReadVector(lib, s, t) == VectorFrom(lib, Parse(lib, s, NullValue), t)
  {
  }

  /** One round of the int item loop: a comma, then an int. */
  lemma IntItemStep(s: Text, acc: seq<int>, e: nat, i: int, m: Text)
    requires s != [] && s[0] == ','
    requires ExtractInt(s[1..]) == Extracted(i, m, true)
    ensures IntItems(s, acc, e) == IntItems(SkipWs(m), acc + [i], e)
  {
  }

  /** The printed items of an int vector after the first start with a comma and an int that reads back. */
  lemma IntItemText(ys: seq<int>, after: Text)
    requires ys != [] && IsInt32(ys[0]) && Closing(after)
    ensures (Tail(IntText, ys) + after)[0] == ','
    ensures ExtractInt((Tail(IntText, ys) + after)[1..]) == Extracted(ys[0], Tail(IntText, ys[1..]) + after, true)
    ensures SkipWs(Tail(IntText, ys[1..]) + after) == Tail(IntText, ys[1..]) + after
  {
    var s := Tail(IntText, ys) + after;
    var more := Tail(IntText, ys[1..]) + after;
    ItemShape(IntText, ys, after);
    ExtractSkipsWs(s[1..]);
    ExtractIntBack(ys[0], more);
  }

  /** The int item loop reads the printed items after the first back, up to and including the ']'. */
  lemma {:induction false} IntItemsBack(ys: seq<int>, acc: seq<int>, e: nat, after: Text)
    requires Closing(after) && forall k :: 0 <= k < |ys| ==> IsInt32(ys[k])
    ensures IntItems(Tail(IntText, ys) + after, acc, e) == Outcome(IntVectorValue(acc + ys), after[1..], e)
    decreases |ys|
  {
    if ys == [] {
      assert Tail(IntText, ys) + after == after;
      assert acc + ys == acc;
    } else {
      var more := Tail(IntText, ys[1..]) + after;
      assert acc + [ys[0]] + ys[1..] == acc + ys;
      IntItemText(ys, after);
      IntItemStep(Tail(IntText, ys) + after, acc, e, ys[0], more);
      IntItemsBack(ys[1..], acc + [ys[0]], e, after);
    }
  }

  /** A non-empty int vector prints as `[a, b, ...]`, which reads back as the same vector. */
  lemma IntVectorBack(lib: FloatLib, xs: seq<int>, rest: Text, t: Value)
    requires xs != [] && forall k :: 0 <= k < |xs| ==> IsInt32(xs[k])
    ensures Parse(lib, Show(lib, IntVectorValue(xs)) + rest, t) == Outcome(IntVectorValue(xs), rest, 0)
  {
    assert Show(lib, IntVectorValue(xs)) == Bracketed(IntText, xs);
    IntVectorTextParses(lib, xs, rest, t);
  }

  /** The text of a non-empty int vector, then anything, reads back as the same vector. */
  lemma IntVectorTextParses(lib: FloatLib, xs: seq<int>, rest: Text, t: Value)
    requires xs != [] && forall k :: 0 <= k < |xs| ==> IsInt32(xs[k])
    ensures Parse(lib, Bracketed(IntText, xs) + rest, t) == Outcome(IntVectorValue(xs), rest, 0)
  {
    var s := Bracketed(IntText, xs) + rest;
    var u := IntText(xs[0]) + (Tail(IntText, xs[1..]) + ("]" + rest));
    assert s[0] == '[' && SkipWs(s[1..]) == u by { BracketedShape(IntText, xs, rest); }
    assert ReadVector(lib, u, t) == Outcome(IntVectorValue(xs), rest, 0) by { IntsAfterFirst(lib, xs, rest, t); }
    ParsesVector(lib, s, t);
  }

  /** The vector branch on a printed int vector, from its first item. */
  lemma IntsAfterFirst(lib: FloatLib, xs: seq<int>, rest: Text, t: Value)
    requires xs != [] && forall k :: 0 <= k < |xs| ==> IsInt32(xs[k])
    ensures ReadVector(lib, IntText(xs[0]) + (Tail(IntText, xs[1..]) + ("]" + rest)), t) == Outcome(IntVectorValue(xs), rest, 0)
  {
    var after := "]" + rest;
    var more := Tail(IntText, xs[1..]) + after;
    var u := IntText(xs[0]) + more;
    assert [xs[0]] + xs[1..] == xs;
    assert after[1..] == rest;
    ItemEnd(IntText, xs[1..], after);
    var f := Outcome(IntValue(xs[0]), more, 0);
    assert ReadVector(lib, u, t) == VectorFrom(lib, f, t) by {
      ReadVectorFirst(lib, u, t);
      IntTextParses(lib, xs[0], more, NullValue);
    }
    assert VectorFrom(lib, f, t) == IntItems(more, [xs[0]], 0);
    assert IntItems(more, [xs[0]], 0) == Outcome(IntVectorValue(xs), rest, 0) by {
      IntItemsBack(xs[1..], [xs[0]], 0, after);
    }
  }

  /** One round of the time item loop: a comma, then an item that reads as a time. */
  lemma TimeItemStep(lib: FloatLib, s: Text, acc: seq<FCamTime.Time>, e: nat, tm: FCamTime.Time, m: Text)
    requires s != [] && s[0] == ','
    requires Parse(lib, SkipWs(s[1..]), NullValue) == Outcome(TimeValue(tm), m, 0)
    ensures TimeItems(lib, s, acc, e) == TimeItems(lib, SkipWs(m), acc + [tm], e)
  {
  }

  /** The printed items of a time vector after the first start with a comma and a time that reads back. */
  lemma TimeItemText(lib: FloatLib, ys: seq<FCamTime.Time>, after: Text)
    requires ys != [] && IsTime32(ys[0]) && Closing(after)
    ensures (Tail(TimeText, ys) + after)[0] == ','
    ensures Parse(lib, SkipWs((Tail(TimeText, ys) + after)[1..]), NullValue) ==
      Outcome(TimeValue(ys[0]), Tail(TimeText, ys[1..]) + after, 0)
    ensures SkipWs(Tail(TimeText, ys[1..]) + after) == Tail(TimeText, ys[1..]) + after
  {
    var more := Tail(TimeText, ys[1..]) + after;
    ItemShape(TimeText, ys, after);
    TimeTextParses(lib, ys[0], more, NullValue);
  }

  /** The time item loop reads the printed items after the first back, up to and including the ']'. */
  lemma {:induction false} TimeItemsBack(lib: FloatLib, ys: seq<FCamTime.Time>, acc: seq<FCamTime.Time>, e: nat, after: Text)
    requires Closing(after) && forall k :: 0 <= k < |ys| ==> IsTime32(ys[k])
    ensures TimeItems(lib, Tail(TimeText, ys) + after, acc, e) == Outcome(TimeVectorValue(acc + ys), after[1..], e)
    decreases |ys|
  {
    if ys == [] {
      assert Tail(TimeText, ys) + after == after;
      assert acc + ys == acc;
    } else {
      var more := Tail(TimeText, ys[1..]) + after;
      assert acc + [ys[0]] + ys[1..] == acc + ys;
      TimeItemText(lib, ys, after);
      TimeItemStep(lib, Tail(TimeText, ys) + after, acc, e, ys[0], more);
      TimeItemsBack(lib, ys[1..], acc + [ys[0]], e, after);
    }
  }

  /** A non-empty time vector prints as `[(s, us), ...]`, which reads back as the same vector. */
  lemma TimeVectorBack(lib: FloatLib, ts: seq<FCamTime.Time>, rest: Text, t: Value)
    requires ts != [] && forall k :: 0 <= k < |ts| ==> IsTime32(ts[k])
    ensures Parse(lib, Show(lib, TimeVectorValue(ts)) + rest, t) == Outcome(TimeVectorValue(ts), rest, 0)
  {
    assert Show(lib, TimeVectorValue(ts)) == Bracketed(TimeText, ts);
    TimeVectorTextParses(lib, ts, rest, t);
  }

  /** The text of a non-empty time vector, then anything, reads back as the same vector. */
  lemma TimeVectorTextParses(lib: FloatLib, ts: seq<FCamTime.Time>, rest: Text, t: Value)
    requires ts != [] && forall k :: 0 <= k < |ts| ==> IsTime32(ts[k])
    ensures Parse(lib, Bracketed(TimeText, ts) + rest, t) == Outcome(TimeVectorValue(ts), rest, 0)
  {
    var s := Bracketed(TimeText, ts) + rest;
    var u := TimeText(ts[0]) + (Tail(TimeText, ts[1..]) + ("]" + rest));
    assert s[0] == '[' && SkipWs(s[1..]) == u by { BracketedShape(TimeText, ts, rest); }
    assert ReadVector(lib, u, t) == Outcome(TimeVectorValue(ts), rest, 0) by { TimesAfterFirst(lib, ts, rest, t); }
    ParsesVector(lib, s, t);
  }

  /** The vector branch on a printed time vector, from its first item. */
  lemma TimesAfterFirst(lib: FloatLib, ts: seq<FCamTime.Time>, rest: Text, t: Value)
    requires ts != [] && forall k :: 0 <= k < |ts| ==> IsTime32(ts[k])
    ensures ReadVector(lib, TimeText(ts[0]) + (Tail(TimeText, ts[1..]) + ("]" + rest)), t) == Outcome(TimeVectorValue(ts), rest, 0)
  {
    var after := "]" + rest;
    var more := Tail(TimeText, ts[1..]) + after;
    var u := TimeText(ts[0]) + more;
    assert [ts[0]] + ts[1..] == ts;
    assert after[1..] == rest;
    ItemEnd(TimeText, ts[1..], after);
    var f := Outcome(TimeValue(ts[0]), more, 0);
    assert ReadVector(lib, u, t) == VectorFrom(lib, f, t) by {
      ReadVectorFirst(lib, u, t);
      TimeTextParses(lib, ts[0], more, NullValue);
    }
    assert VectorFrom(lib, f, t) == TimeItems(lib, more, [ts[0]], 0);
    assert TimeItems(lib, more, [ts[0]], 0) == Outcome(TimeVectorValue(ts), rest, 0) by {
      TimeItemsBack(lib, ts[1..], [ts[0]], 0, after);
    }
  }

  /** One round of the string item loop: a comma, then an item that reads as a string. */
  lemma StringItemStep(lib: FloatLib, s: Text, acc: seq<Text>, e: nat, str: Text, m: Text)
    requires s != [] && s[0] == ','
    requires Parse(lib, SkipWs(s[1..]), NullValue) == Outcome(StringValue(str), m, 0)
    ensures StringItems(lib, s, acc, e) == StringItems(lib, SkipWs(m), acc + [str], e)
  {
  }

  /** The printed items of a string vector after the first start with a comma and a string that reads back. */
  lemma StringItemText(lib: FloatLib, ys: seq<Text>, after: Text)
    requires ys != [] && Closing(after)
    ensures (Tail(Quoted, ys) + after)[0] == ','
    ensures Parse(lib, SkipWs((Tail(Quoted, ys) + after)[1..]), NullValue) ==
      Outcome(StringValue(ys[0]), Tail(Quoted, ys[1..]) + after, 0)
    ensures SkipWs(Tail(Quoted, ys[1..]) + after) == Tail(Quoted, ys[1..]) + after
  {
    var more := Tail(Quoted, ys[1..]) + after;
    ItemShape(Quoted, ys, after);
    QuotedParses(lib, ys[0], more, NullValue);
  }

  /** The string item loop reads the printed items after the first back, up to and including the ']'. */
  lemma {:induction false} StringItemsBack(lib: FloatLib, ys: seq<Text>, acc: seq<Text>, e: nat, after: Text)
    requires Closing(after)
    ensures StringItems(lib, Tail(Quoted, ys) + after, acc, e) == Outcome(StringVectorValue(acc + ys), after[1..], e)
    decreases |ys|
  {
    if ys == [] {
      assert Tail(Quoted, ys) + after == after;
      assert acc + ys == acc;
    } else {
      var more := Tail(Quoted, ys[1..]) + after;
      assert acc + [ys[0]] + ys[1..] == acc + ys;
      StringItemText(lib, ys, after);
      StringItemStep(lib, Tail(Quoted, ys) + after, acc, e, ys[0], more);
      StringItemsBack(lib, ys[1..], acc + [ys[0]], e, after);
    }
  }

  /** A non-empty string vector prints as `["a", "b", ...]`, which reads back as the same vector. */
  lemma StringVectorBack(lib: FloatLib, ss: seq<Text>, rest: Text, t: Value)
    requires ss != []
    ensures Parse(lib, Show(lib, StringVectorValue(ss)) + rest, t) == Outcome(StringVectorValue(ss), rest, 0)
  {
    assert Show(lib, StringVectorValue(ss)) == Bracketed(Quoted, ss);
    StringVectorTextParses(lib, ss, rest, t);
  }

  /** The text of a non-empty string vector, then anything, reads back as the same vector. */
  lemma StringVectorTextParses(lib: FloatLib, ss: seq<Text>, rest: Text, t: Value)
    requires ss != []
    ensures Parse(lib, Bracketed(Quoted, ss) + rest, t) == Outcome(StringVectorValue(ss), rest, 0)
  {
    var s := Bracketed(Quoted, ss) + rest;
    var u := Quoted(ss[0]) + (Tail(Quoted, ss[1..]) + ("]" + rest));
    assert s[0] == '[' && SkipWs(s[1..]) == u by { BracketedShape(Quoted, ss, rest); }
    assert ReadVector(lib, u, t) == Outcome(StringVectorValue(ss), rest, 0) by { StringsAfterFirst(lib, ss, rest, t); }
    ParsesVector(lib, s, t);
  }

  /** The vector branch on a printed string vector, from its first item. */
  lemma StringsAfterFirst(lib: FloatLib, ss: seq<Text>, rest: Text, t: Value)
    requires ss != []
    ensures ReadVector(lib, Quoted(ss[0]) + (Tail(Quoted, ss[1..]) + ("]" + rest)), t) == Outcome(StringVectorValue(ss), rest, 0)
  {
    var after := "]" + rest;
    var more := Tail(Quoted, ss[1..]) + after;
    var u := Quoted(ss[0]) + more;
    assert [ss[0]] + ss[1..] == ss;
    assert after[1..] == rest;
    ItemEnd(Quoted, ss[1..], after);
    var f := Outcome(StringValue(ss[0]), more, 0);
    assert ReadVector(lib, u, t) == VectorFrom(lib, f, t) by {
      ReadVectorFirst(lib, u, t);
      QuotedParses(lib, ss[0], more, NullValue);
    }
    assert VectorFrom(lib, f, t) == StringItems(lib, more, [ss[0]], 0);
    assert StringItems(lib, more, [ss[0]], 0) == Outcome(StringVectorValue(ss), rest, 0) by {
      StringItemsBack(lib, ss[1..], [ss[0]], 0, after);
    }
  }

  /**
   * Every empty vector prints as `[]`, and `[]` does not read back: the
   * first item is the ']', which is itself a ParseError and leaves a Null
   * first item, a second one. The tag keeps what it held and the ']' stays
   * in the input.
   */
  lemma EmptyVectorUnreadable(lib: FloatLib, v: Value, rest: Text, t: Value)
    requires v in {IntVectorValue([]), FloatVectorValue([]), DoubleVectorValue([]), StringVectorValue([]), TimeVectorValue([])}
    ensures Show(lib, v) == "[]"
    ensures Parse(lib, Show(lib, v) + rest, t) == Outcome(t, "]" + rest, 2)
  {
    var s := "[]" + rest;
    assert s[1..] == "]" + rest;
    assert Parse(lib, "]" + rest, NullValue) == Outcome(NullValue, "]" + rest, 1);
    assert ReadVector(lib, "]" + rest, t) == Outcome(t, "]" + rest, 2);
    ParsesVector(lib, s, t);
  }

  // ----- The stream loops -----

  /** Escaping a string piece by piece escapes the whole. */
  lemma {:induction false} EscapedAppend(a: Text, b: Text)
    ensures Escaped(a + b) == Escaped(a) + Escaped(b)
    decreases |a|
  {
    if a == [] {
      assert a + b == b;
    } else {
      assert (a + b)[1..] == a[1..] + b;
      EscapedAppend(a[1..], b);
    }
  }

  /** `<<` of a string: the opening quote, each char escaped in turn, the closing quote. */
  method WriteQuoted(s: Text) returns (out: Text)
    ensures out == Quoted(s)
  {
    out := ['"'];
    var j := 0;
    while j < |s|
      invariant 0 <= j <= |s|
      invariant out == ['"'] + Escaped(s[..j])
    {
      assert Escaped(s[..j + 1]) == Escaped(s[..j]) + Escape(s[j]) by {
        assert s[..j + 1] == s[..j] + [s[j]];
        EscapedAppend(s[..j], [s[j]]);
        assert Escaped([s[j]]) == Escape(s[j]) + Escaped([]);
      }
      out := out + Escape(s[j]);
      j := j + 1;
    }
    assert s[..j] == s;
    out := out + ['"'];
  }

  /** Adding an item at the end of a Tail adds a separator and the item. */
  lemma {:induction false} TailSnoc<T>(show: T -> Text, xs: seq<T>, z: T)
    ensures Tail(show, xs + [z]) == Tail(show, xs) + SEPARATOR + show(z)
    decreases |xs|
  {
    if xs == [] {
      assert xs + [z] == [z];
    } else {
      assert (xs + [z])[0] == xs[0];
      assert (xs + [z])[1..] == xs[1..] + [z];
      TailSnoc(show, xs[1..], z);
    }
  }

  /** The text a vector writer has produced once the first `i` items are out: '[' and those items, separated. */
  function Opened<T>(show: T -> Text, xs: seq<T>, i: nat): Text
    requires i <= |xs|
  {
    if i == 0 then "[" else "[" + show(xs[0]) + Tail(show, xs[1..i])
  }

  /** One more item out: after a separator unless it is the first. */
  lemma OpenedNext<T>(show: T -> Text, xs: seq<T>, i: nat)
    requires i < |xs|
    ensures Opened(show, xs, i + 1) == Opened(show, xs, i) + (if i == 0 then [] else SEPARATOR) + show(xs[i])
  {
    if i > 0 {
      assert xs[1..i + 1] == xs[1..i] + [xs[i]];
      TailSnoc(show, xs[1..i], xs[i]);
    } else {
      assert xs[1..1] == [];
    }
  }

  /** All items out, then the ']': the vector's text. */
  lemma OpenedAll<T>(show: T -> Text, xs: seq<T>)
    ensures Opened(show, xs, |xs|) + "]" == Bracketed(show, xs)
  {
    if xs != [] {
      assert xs[1..|xs|] == xs[1..];
    }
  }

  /**
   * `<<` of an int or double vector: '[', every item but the last followed
   * by a comma and a space, the last item, ']'.
   */
  method WriteItemsThenLast<T>(show: T -> Text, xs: seq<T>) returns (out: Text)
    ensures out == Bracketed(show, xs)
  {
    out := "[";
    if |xs| > 0 {
      var i := 0;
      while i < |xs| - 1
        invariant 0 <= i <= |xs| - 1
        invariant out == if i == 0 then Opened(show, xs, 0) else Opened(show, xs, i) + SEPARATOR
      {
        OpenedNext(show, xs, i);
        out := out + show(xs[i]) + SEPARATOR;
        i := i + 1;
      }
      OpenedNext(show, xs, i);
      out := out + show(xs[i]);
    }
    OpenedAll(show, xs);
    out := out + "]";
  }

  /**
   * `<<` of a string or time vector: '[', then each item, after a comma
   * and a space from the second one on, then ']'.
   */
  method WriteEachItem<T>(show: T -> Text, xs: seq<T>) returns (out: Text)
    ensures out == Bracketed(show, xs)
  {
    out := "[";
    var i := 0;
    while i < |xs|
      invariant 0 <= i <= |xs|
      invariant out == Opened(show, xs, i)
    {
      OpenedNext(show, xs, i);
      if i > 0 {
        out := out + SEPARATOR;
      }
      out := out + show(xs[i]);
      i := i + 1;
    }
    OpenedAll(show, xs);
    out := out + "]";
  }

  /** Adding a float at the end of the items that carry their `f` adds it, its `f` and a separator. */
  lemma {:induction false} FloatItemsSnoc(lib: FloatLib, xs: seq<Word32>, z: Word32)
    ensures FloatItemsText(lib, xs + [z]) == FloatItemsText(lib, xs) + FloatText(lib, z) + SEPARATOR
    decreases |xs|
  {
    if xs == [] {
      assert xs + [z] == [z];
    } else {
      assert (xs + [z])[0] == xs[0];
      assert (xs + [z])[1..] == xs[1..] + [z];
      FloatItemsSnoc(lib, xs[1..], z);
    }
  }

  /** `<<` of a float vector: every item but the last followed by `f, `, then the last without its `f`. */
  method WriteFloatVector(lib: FloatLib, xs: seq<Word32>) returns (out: Text)
    ensures out == FloatVectorText(lib, xs)
  {
    out := "[";
    if |xs| > 0 {
      var i := 0;
      while i < |xs| - 1
        invariant 0 <= i <= |xs| - 1
        invariant out == "[" + FloatItemsText(lib, xs[..i])
      {
        assert xs[..i + 1] == xs[..i] + [xs[i]];
        FloatItemsSnoc(lib, xs[..i], xs[i]);
        out := out + FloatText(lib, xs[i]) + SEPARATOR;
        i := i + 1;
      }
      out := out + lib.showFloat(xs[i]);
    }
    out := out + "]";
  }

  /** `operator<<`: the text of each kind of value, the loops writing strings and vectors. */
  method Write(lib: FloatLib, v: Value) returns (out: Text)
    ensures out == Show(lib, v)
  {
    match v
    case NullValue => out := "None";
    case IntValue(i) => out := IntText(i);
    case FloatValue(x) => out := FloatText(lib, x);
    case DoubleValue(x) => out := lib.showDouble(x);
    case StringValue(s) => out := WriteQuoted(s);
    case TimeValue(tm) => out := TimeText(tm);
    case IntVectorValue(xs) => out := WriteItemsThenLast(IntText, xs);
    case FloatVectorValue(xs) => out := WriteFloatVector(lib, xs);
    case DoubleVectorValue(xs) => out := WriteItemsThenLast(lib.showDouble, xs);
    case StringVectorValue(ss) => out := WriteEachItem(Quoted, ss);
    case TimeVectorValue(ts) => out := WriteEachItem(TimeText, ts);
  }

  /**
   * The string branch as a loop over the input, after the opening quote:
   * chars are gathered until the closing quote; escapes are resolved; a
   * bad escape or the end of the input stops with a ParseError.
   */
  method ReadStringBody(s: Text) returns (o: Outcome)
    ensures o == StringBody(s, [])
  {
    var i := 0;
    var acc: Text := [];
    while true
      invariant 0 <= i <= |s|
      invariant StringBody(s[i..], acc) == StringBody(s, [])
      decreases |s| - i
    {
      var r := s[i..];
      if r == [] {
        return Outcome(StringValue(acc), [], 1);
      } else if r[0] == '"' {
        return Outcome(StringValue(acc), r[1..], 0);
      } else if r[0] != '\\' {
        assert r[1..] == s[i + 1..];
        acc := acc + [r[0]];
        i := i + 1;
      } else if |r| < 2 {
        return Outcome(StringValue(acc), [], 1);
      } else if r[1] == 'x' {
        if |r| < 4 {
          return Outcome(StringValue(acc), [], 1);
        }
        var h1 := HexValue(r[2]);
        var h2 := HexValue(r[3]);
        if h1.None? || h2.None? {
          return Outcome(StringValue(acc), r[2..], 1);
        }
        assert r[4..] == s[i + 4..];
        acc := acc + [(16 * h1.value + h2.value) as char];
        i := i + 4;
      } else {
        var u := Unescape(r[1]);
        if u.None? {
          return Outcome(StringValue(acc), r[2..], 1);
        }
        assert r[2..] == s[i + 2..];
        acc := acc + [u.value];
        i := i + 2;
      }
    }
  }

  /**
   * The int vector's item loop over the input, after the first item: until
   * a ']', a comma and an int each round; a missing comma or a failed
   * extraction stops with a ParseError, keeping the items read so far.
   */
  method ReadIntItems(s: Text, first: int, e: nat) returns (o: Outcome)
    ensures o == IntItems(s, [first], e)
  {
    var r := s;
    var acc := [first];
    while true
      invariant IntItems(r, acc, e) == IntItems(s, [first], e)
      decreases |r|
    {
      if r != [] && r[0] == ']' {
        return Outcome(IntVectorValue(acc), r[1..], e);
      } else if r == [] || r[0] != ',' {
        return Outcome(IntVectorValue(acc), r, e + 1);
      }
      var x := ExtractInt(r[1..]);
      if !x.ok {
        return Outcome(IntVectorValue(acc + [x.value]), [], e + 1);
      }
      acc := acc + [x.value];
      r := SkipWs(x.rest);
    }
  }
}

=== FILE: tag_value.dfy ===
/**
 * FCam::TagValue (external/FCam/TagValue.cpp): the value a device tags a
 * frame with — nothing, an int, a float, a double, a string, a time, or a
 * vector of one of these — held through a pointer to storage of its type,
 * with checked casts, a compact binary "blob" form and a readable text form,
 * and one reader for both.
 *
 * Chars are the target's unsigned 8-bit chars. Floats and doubles are held
 * as their IEEE bit patterns, which is what the blob stores; their decimal
 * text is produced and read by the C library, which is a parameter here
 * (datatype TagText.FloatLib).
 */
module TagValues {
  import opened Bytes
  import opened DecimalText
  import StackNames
  import FCamTime

  /** A char of a C++ string or stream on the target: unsigned, 8 bits. */
  type Char8 = c: char | c as int < 256

  type Text = seq<Char8>

  /** The bit pattern of a float, as an unsigned number. */
  type Word32 = x: int | 0 <= x < 0x1_0000_0000

  /** The bit pattern of a double, as an unsigned number. */
  type Word64 = x: int | 0 <= x < 0x1_0000_0000_0000_0000

  /** `TagValue::Type`, in declaration order. */
  datatype Kind = Null | Int | Float | Double | String | Time
                | IntVector | FloatVector | DoubleVector | StringVector | TimeVector

  /** The enumerator's value, which the blob stores as its second byte. */
  function Code(k: Kind): (n: nat)
    ensures n <= 10
  {
    match k
    case Null => 0
    case Int => 1
    case Float => 2
    case Double => 3
    case String => 4
    case Time => 5
    case IntVector => 6
    case FloatVector => 7
    case DoubleVector => 8
    case StringVector => 9
    case TimeVector => 10
  }

  /** `readType(x)`: the kind with code x; any other code is Null, with a ParseError posted (the flag). */
  function ReadType(x: int): (r: (Kind, bool))
    ensures r.1 <==> !(0 <= x <= 10)
    ensures r.1 ==> r.0 == Null
  {
    match x
    case 0 => (Null, false)
    case 1 => (Int, false)
    case 2 => (Float, false)
    case 3 => (Double, false)
    case 4 => (String, false)
    case 5 => (Time, false)
    case 6 => (IntVector, false)
    case 7 => (FloatVector, false)
    case 8 => (DoubleVector, false)
    case 9 => (StringVector, false)
    case 10 => (TimeVector, false)
    case _ => (Null, true)
  }

  /** `readType` inverts the codes: every kind's code reads back as that kind, without an error. */
  lemma ReadTypeInvertsCode(k: Kind)
    ensures ReadType(Code(k)) == (k, false)
  {
  }

  /** Two kinds never share a code. */
  lemma CodeInjective(a: Kind, b: Kind)
    requires Code(a) == Code(b)
    ensures a == b
  {
    ReadTypeInvertsCode(a);
    ReadTypeInvertsCode(b);
  }

  /** The contents of a tag, by kind. */
  datatype Value =
    | NullValue
    | IntValue(i: int)
    | FloatValue(f: Word32)
    | DoubleValue(d: Word64)
    | StringValue(s: Text)
    | TimeValue(t: FCamTime.Time)
    | IntVectorValue(ints: seq<int>)
    | FloatVectorValue(floats: seq<Word32>)
    | DoubleVectorValue(doubles: seq<Word64>)
    | StringVectorValue(strings: seq<Text>)
    | TimeVectorValue(times: seq<FCamTime.Time>)
  {
    function Kind(): Kind
    {
      match this
      case NullValue => Null
      case IntValue(_) => Int
      case FloatValue(_) => Float
      case DoubleValue(_) => Double
      case StringValue(_) => String
      case TimeValue(_) => Time
      case IntVectorValue(_) => IntVector
      case FloatVectorValue(_) => FloatVector
      case DoubleVectorValue(_) => DoubleVector
      case StringVectorValue(_) => StringVector
      case TimeVectorValue(_) => TimeVector
    }
  }

  predicate IsInt32(v: int)
  {
    -0x8000_0000 <= v < 0x8000_0000
  }

  /** A count that the blob's `int` length field holds. */
  predicate IsCount(n: int)
  {
    0 <= n < 0x8000_0000
  }

  predicate IsTime32(t: FCamTime.Time)
  {
    IsInt32(t.s) && IsInt32(t.us)
  }

  /** What the C++ types allow: 32-bit ints and times, and sizes an `int` can hold. */
  predicate WellFormed(v: Value)
  {
    match v
    case IntValue(i) => IsInt32(i)
    case StringValue(s) => IsCount(|s|)
    case TimeValue(t) => IsTime32(t)
    case IntVectorValue(xs) => IsCount(|xs|) && forall k :: 0 <= k < |xs| ==> IsInt32(xs[k])
    case FloatVectorValue(xs) => IsCount(|xs|)
    case DoubleVectorValue(xs) => IsCount(|xs|)
    case StringVectorValue(ss) => IsCount(|ss|) && forall k :: 0 <= k < |ss| ==> IsCount(|ss[k]|)
    case TimeVectorValue(ts) => IsCount(|ts|) && forall k :: 0 <= k < |ts| ==> IsTime32(ts[k])
    case _ => true
  }

  /**
   * The value a cast to the wrong kind hands out (the static dummy, reset):
   * zero, the empty string, time (0, 0) or an empty vector.
   */
  function Dummy(k: Kind): (v: Value)
    requires k != Null
    ensures v.Kind() == k && WellFormed(v)
  {
    match k
    case Int => IntValue(0)
    case Float => FloatValue(0)
    case Double => DoubleValue(0)
    case String => StringValue([])
    case Time => TimeValue(FCamTime.Time(0, 0))
    case IntVector => IntVectorValue([])
    case FloatVector => FloatVectorValue([])
    case DoubleVector => DoubleVectorValue([])
    case StringVector => StringVectorValue([])
    case TimeVector => TimeVectorValue([])
  }

  /**
   * A cast operator applied to a value: the value itself when the kind
   * matches, else the reset dummy of the requested kind with a BadCast
   * error posted (the flag).
   */
  function CastValue(v: Value, k: Kind): (r: (Value, bool))
    requires k != Null
    ensures r.0.Kind() == k
    ensures r.1 <==> v.Kind() != k
    ensures !r.1 ==> r.0 == v
    ensures r.1 ==> r.0 == Dummy(k)
  {
    if v.Kind() == k then (v, false) else (Dummy(k), true)
  }

  /** `(int) v`: the int held, or 0 after a BadCast. */
  function IntOf(v: Value): (i: int)
    ensures v.IntValue? ==> i == v.i
    ensures !v.IntValue? ==> i == 0
  {
    CastValue(v, Int).0.i
  }

  /** `std::vector<int> &`: the ints of an int vector, and otherwise the empty dummy. */
  function IntsOf(v: Value): (xs: seq<int>)
    ensures v.IntVectorValue? ==> xs == v.ints
    ensures !v.IntVectorValue? ==> xs == []
  {
    CastValue(v, IntVector).0.ints
  }

  /** `std::string &`: the chars of a string, and otherwise the empty dummy. */
  function TextOf(v: Value): (t: Text)
    ensures v.StringValue? ==> t == v.s
    ensures !v.StringValue? ==> t == []
  {
    CastValue(v, String).0.s
  }

  /** `std::vector<double> &`: the doubles of a double vector, and otherwise the empty dummy. */
  function DoublesOf(v: Value): (xs: seq<Word64>)
    ensures v.DoubleVectorValue? ==> xs == v.doubles
    ensures !v.DoubleVectorValue? ==> xs == []
  {
    CastValue(v, DoubleVector).0.doubles
  }

  /** The storage `data` points to. */
  class Cell {
    var contents: Value

    constructor (v: Value)
      ensures contents == v
    {
      contents := v;
    }
  }

  /**
   * A TagValue object: its `type` and the pointer `data` to storage of that
   * type, null for Null.
   */
  class TagValue {
    var kind: Kind
    var data: Cell?

    ghost predicate Valid()
      reads this, data
    {
      (kind == Null <==> data == null) &&
      (data != null ==> data.contents.Kind() == kind && WellFormed(data.contents))
    }

    /** The value the tag holds. */
    function Contents(): (v: Value)
      reads this, data
      requires Valid()
      ensures v.Kind() == kind && WellFormed(v)
    {
      if data == null then NullValue else data.contents
    }

    /** The default constructor: a Null tag. */
    constructor ()
      ensures Valid() && Contents() == NullValue
    {
      kind := Null;
      data := null;
    }

    /** The constructors from a value of each type: fresh storage holding a copy. */
    constructor Of(x: Value)
      requires x.Kind() != Null && WellFormed(x)
      ensures Valid() && Contents() == x && fresh(data)
    {
      kind := x.Kind();
      data := new Cell(x);
    }

    /** `nullify()`: the storage is released and the tag is Null. */
    method Nullify()
      modifies this
      ensures Valid() && Contents() == NullValue
    {
      kind := Null;
      data := null;
    }

    /**
     * The typed `operator=`s: a value of the kind already held overwrites
     * the storage in place; a value of another kind nullifies the tag and
     * puts the value in fresh storage. Either way the tag then holds the
     * value, and a cast to its kind returns it.
     */
    method Assign(x: Value)
      requires Valid() && x.Kind() != Null && WellFormed(x)
      modifies this, data
      ensures Valid() && Contents() == x && kind == x.Kind()
      ensures Cast(x.Kind()) == (x, false)
      ensures old(kind) == x.Kind() ==> data == old(data)
      ensures old(kind) != x.Kind() ==> fresh(data)
    {
      if kind == x.Kind() {
        data.contents := x;
      } else {
        Nullify();
        kind := x.Kind();
        data := new Cell(x);
      }
    }

    /**
     * `operator=(const TagValue &)`: a Null source nullifies the tag;
     * otherwise the source's value is copied in by the typed assignment.
     * The copy is deep: the tag ends with the source's value.
     */
    method AssignFrom(other: TagValue)
      requires Valid() && other.Valid()
      modifies this, data
      ensures Valid() && Contents() == old(other.Contents())
      ensures old(other.kind) != Null && old(kind) == old(other.kind) ==> data == old(data)
    {
      var x := other.Contents();
      if x.Kind() == Null {
        Nullify();
      } else {
        Assign(x);
      }
    }

    /** The copy constructor: a Null tag assigned from the source. */
    constructor Copy(other: TagValue)
      requires other.Valid()
      ensures Valid() && Contents() == other.Contents()
      ensures other.kind != Null ==> fresh(data)
    {
      kind := other.kind;
      if other.kind == Null {
        data := null;
      } else {
        data := new Cell(other.Contents());
      }
    }

    /**
     * The cast operators: the held value when the kind matches; otherwise
     * the reset dummy of the requested kind, with a BadCast error posted
     * (the flag). The tag itself is not changed.
     */
    function Cast(k: Kind): (r: (Value, bool))
      reads this, data
      requires Valid() && k != Null
      ensures r.0.Kind() == k && WellFormed(r.0)
      ensures r.1 <==> kind != k
      ensures !r.1 ==> r.0 == Contents()
      ensures r.1 ==> r.0 == Dummy(k)
    {
      CastValue(Contents(), k)
    }

    /** `valid()`: whether the tag holds anything. */
    function IsValid(): (b: bool)
      reads this, data
      requires Valid()
      ensures b <==> Contents() != NullValue
    {
      kind != Null
    }

    /**
     * `toBlob()`: the header, then the value, its loops appending one item
     * at a time; a Null tag gives only 'b' and the code.
     */
    method ToBlob() returns (str: Text)
      requires Valid()
      ensures str == BlobAsWritten(Contents())
    {
      var v := Contents();
      var head := Header(kind);
      match v
      case NullValue =>
        str := ['b', Code(Null) as char];
      case IntValue(i) =>
        str := head + I32(i);
      case FloatValue(f) =>
        str := head + Bits32(f);
      case DoubleValue(d) =>
        str := head + Bits64(d);
      case StringValue(x) =>
        var body := CopyChars(x);
        str := head + (I32(|x|) + body);
      case TimeValue(tm) =>
        str := head + (I32(tm.s) + I32(tm.us));
      case IntVectorValue(xs) =>
        var body := EncodeInts(xs);
        str := head + (I32(|xs|) + body);
      case FloatVectorValue(xs) =>
        var body := EncodeFloats(xs);
        str := head + (I32(|xs|) + body);
      case DoubleVectorValue(xs) =>
        var body := EncodeDoubles(xs);
        str := head + (I32(|xs|) + body + Nuls(4));
      case StringVectorValue(ss) =>
        var lens := EncodeLengths(ss);
        var contents := EncodeContents(ss);
        str := head + (I32(|ss|) + lens + contents);
      case TimeVectorValue(ts) =>
        var body := EncodeTimes(ts);
        str := head + (I32(|ts|) + body);
    }
  }

  // -------------------------------------------------------------------
  // The binary blob
  // -------------------------------------------------------------------

  function Chars(bs: seq<byte>): (t: Text)
    ensures |t| == |bs| && forall k :: 0 <= k < |bs| ==> t[k] as int == bs[k]
  {
    seq(|bs|, k requires 0 <= k < |bs| => bs[k] as char)
  }

  function Codes(t: Text): (bs: seq<byte>)
    ensures |bs| == |t| && forall k :: 0 <= k < |t| ==> bs[k] == t[k] as int
  {
    seq(|t|, k requires 0 <= k < |t| => t[k] as int)
  }

  lemma CodesOfChars(bs: seq<byte>)
    ensures Codes(Chars(bs)) == bs
  {
  }

  /** n NUL chars: what `resize` fills a string with. */
  function Nuls(n: nat): (t: Text)
    ensures |t| == n && forall k :: 0 <= k < n ==> t[k] == '\0'
  {
    seq(n, k => '\0')
  }

  /** An `int` as it lies in memory. */
  function I32(v: int): (t: Text)
    requires IsInt32(v)
    ensures |t| == 4
  {
    Chars(I32ToLe(v))
  }

  /** A float's bits as they lie in memory. */
  function Bits32(x: Word32): (t: Text)
    ensures |t| == 4
  {
    Chars(U32ToLe(x))
  }

  /** A double's bits as they lie in memory. */
  function Bits64(x: Word64): (t: Text)
    ensures |t| == 8
  {
    Chars(U32ToLe(Low32(x)) + U32ToLe(High32(x)))
  }

  function Low32(x: Word64): (v: int)
    ensures 0 <= v < TWO_32
  {
    x % TWO_32
  }

  function High32(x: Word64): (v: int)
    ensures 0 <= v < TWO_32
  {
    x / TWO_32
  }

  function I32s(xs: seq<int>): (t: Text)
    requires forall k :: 0 <= k < |xs| ==> IsInt32(xs[k])
    ensures |t| == 4 * |xs|
  {
    if xs == [] then [] else I32(xs[0]) + I32s(xs[1..])
  }

  function Bits32s(xs: seq<Word32>): (t: Text)
    ensures |t| == 4 * |xs|
  {
    if xs == [] then [] else Bits32(xs[0]) + Bits32s(xs[1..])
  }

  function Bits64s(xs: seq<Word64>): (t: Text)
    ensures |t| == 8 * |xs|
  {
    if xs == [] then [] else Bits64(xs[0]) + Bits64s(xs[1..])
  }

  function TimesText(ts: seq<FCamTime.Time>): (t: Text)
    requires forall k :: 0 <= k < |ts| ==> IsTime32(ts[k])
    ensures |t| == 8 * |ts|
  {
    if ts == [] then [] else assert IsTime32(ts[0]); I32(ts[0].s) + I32(ts[0].us) + TimesText(ts[1..])
  }

  /** The length fields of a string vector's blob. */
  function Lengths(ss: seq<Text>): (t: Text)
    requires forall k :: 0 <= k < |ss| ==> IsCount(|ss[k]|)
    ensures |t| == 4 * |ss|
  {
    if ss == [] then [] else assert IsCount(|ss[0]|); I32(|ss[0]|) + Lengths(ss[1..])
  }

  function Concat(ss: seq<Text>): Text
  {
    if ss == [] then [] else ss[0] + Concat(ss[1..])
  }

  /** 'b', the kind's code and two zero bytes. */
  function Header(k: Kind): (t: Text)
    ensures |t| == 4 && t[0] == 'b' && t[1] as int == Code(k) && t[2] == '\0' && t[3] == '\0'
  {
    ['b', Code(k) as char, '\0', '\0']
  }

  /**
   * `toBlob()` as it should be: the header, then the value as it lies in
   * memory, a length field in front of strings and vectors (and of each
   * string of a string vector, whose contents follow all the lengths). A
   * double vector's blob ends with four NUL bytes, because its size is
   * computed as if the length field were a double.
   */
  function Blob(v: Value): (t: Text)
    requires WellFormed(v)
    ensures |t| >= 4 && t[..4] == Header(v.Kind()) && t[4..] == Payload(v)
  {
    Header(v.Kind()) + Payload(v)
  }

  /** What follows the header: the value as it lies in memory, lengths first. */
  function Payload(v: Value): Text
    requires WellFormed(v)
  {
    match v
    case NullValue => []
    case IntValue(i) => I32(i)
    case FloatValue(f) => Bits32(f)
    case DoubleValue(d) => Bits64(d)
    case StringValue(s) => I32(|s|) + s
    case TimeValue(t) => I32(t.s) + I32(t.us)
    case IntVectorValue(xs) => I32(|xs|) + I32s(xs)
    case FloatVectorValue(xs) => I32(|xs|) + Bits32s(xs)
    case DoubleVectorValue(xs) => I32(|xs|) + Bits64s(xs) + Nuls(4)
    case StringVectorValue(ss) => I32(|ss|) + Lengths(ss) + Concat(ss)
    case TimeVectorValue(ts) => I32(|ts|) + TimesText(ts)
  }

  /**
   * `toBlob()` as written: the same, except that a Null tag's blob is cut
   * to its first two bytes and lacks the two padding bytes.
   */
  function BlobAsWritten(v: Value): (t: Text)
    requires WellFormed(v)
    ensures v != NullValue ==> t == Blob(v)
    ensures v == NullValue ==> t == Blob(v)[..2]
  {
    if v == NullValue then ['b', '\0'] else Blob(v)
  }

  // The loops of `toBlob`, each appending one item per step, and the
  // facts that let them: encoding a sequence with one more item appends
  // that item's encoding.

  lemma {:induction false} I32sSnoc(xs: seq<int>, x: int)
    requires forall k :: 0 <= k < |xs| ==> IsInt32(xs[k])
    requires IsInt32(x)
    ensures I32s(xs + [x]) == I32s(xs) + I32(x)
  {
    if xs == [] {
      assert xs + [x] == [x];
      assert I32s([x]) == I32(x) + I32s([]);
    } else {
      assert (xs + [x])[1..] == xs[1..] + [x];
      I32sSnoc(xs[1..], x);
    }
  }

  lemma {:induction false} Bits32sSnoc(xs: seq<Word32>, x: Word32)
    ensures Bits32s(xs + [x]) == Bits32s(xs) + Bits32(x)
  {
    if xs == [] {
      assert xs + [x] == [x];
      assert Bits32s([x]) == Bits32(x) + Bits32s([]);
    } else {
      assert (xs + [x])[1..] == xs[1..] + [x];
      Bits32sSnoc(xs[1..], x);
    }
  }

  lemma {:induction false} Bits64sSnoc(xs: seq<Word64>, x: Word64)
    ensures Bits64s(xs + [x]) == Bits64s(xs) + Bits64(x)
  {
    if xs == [] {
      assert xs + [x] == [x];
      assert Bits64s([x]) == Bits64(x) + Bits64s([]);
    } else {
      assert (xs + [x])[1..] == xs[1..] + [x];
      Bits64sSnoc(xs[1..], x);
    }
  }

  lemma {:induction false} TimesSnoc(ts: seq<FCamTime.Time>, x: FCamTime.Time)
    requires forall k :: 0 <= k < |ts| ==> IsTime32(ts[k])
    requires IsTime32(x)
    ensures TimesText(ts + [x]) == TimesText(ts) + (I32(x.s) + I32(x.us))
  {
    if ts == [] {
      assert ts + [x] == [x];
      assert TimesText([x]) == I32(x.s) + I32(x.us) + TimesText([]);
    } else {
      assert (ts + [x])[1..] == ts[1..] + [x];
      TimesSnoc(ts[1..], x);
    }
  }

  lemma {:induction false} LengthsSnoc(ss: seq<Text>, x: Text)
    requires forall k :: 0 <= k < |ss| ==> IsCount(|ss[k]|)
    requires IsCount(|x|)
    ensures Lengths(ss + [x]) == Lengths(ss) + I32(|x|)
  {
    if ss == [] {
      assert ss + [x] == [x];
      assert Lengths([x]) == I32(|x|) + Lengths([]);
    } else {
      assert (ss + [x])[1..] == ss[1..] + [x];
      LengthsSnoc(ss[1..], x);
    }
  }

  lemma {:induction false} ConcatSnoc(ss: seq<Text>, x: Text)
    ensures Concat(ss + [x]) == Concat(ss) + x
  {
    if ss == [] {
      assert ss + [x] == [x];
      assert Concat([x]) == x + Concat([]);
    } else {
      assert (ss + [x])[1..] == ss[1..] + [x];
      ConcatSnoc(ss[1..], x);
    }
  }

  /** The char-by-char copy of a string's contents. */
  method CopyChars(x: Text) returns (t: Text)
    ensures t == x
  {
    t := [];
    var j := 0;
    while j < |x|
      invariant 0 <= j <= |x| && t == x[..j]
    {
      assert x[..j + 1] == x[..j] + [x[j]];
      t := t + [x[j]];
      j := j + 1;
    }
  }

  method EncodeInts(xs: seq<int>) returns (t: Text)
    requires forall k :: 0 <= k < |xs| ==> IsInt32(xs[k])
    ensures t == I32s(xs)
  {
    t := [];
    var i := 0;
    while i < |xs|
      invariant 0 <= i <= |xs| && t == I32s(xs[..i])
    {
      assert xs[..i + 1] == xs[..i] + [xs[i]];
      I32sSnoc(xs[..i], xs[i]);
      t := t + I32(xs[i]);
      i := i + 1;
    }
    assert xs[..i] == xs;
  }

  method EncodeFloats(xs: seq<Word32>) returns (t: Text)
    ensures t == Bits32s(xs)
  {
    t := [];
    var i := 0;
    while i < |xs|
      invariant 0 <= i <= |xs| && t == Bits32s(xs[..i])
    {
      assert xs[..i + 1] == xs[..i] + [xs[i]];
      Bits32sSnoc(xs[..i], xs[i]);
      t := t + Bits32(xs[i]);
      i := i + 1;
    }
    assert xs[..i] == xs;
  }

  method EncodeDoubles(xs: seq<Word64>) returns (t: Text)
    ensures t == Bits64s(xs)
  {
    t := [];
    var i := 0;
    while i < |xs|
      invariant 0 <= i <= |xs| && t == Bits64s(xs[..i])
    {
      assert xs[..i + 1] == xs[..i] + [xs[i]];
      Bits64sSnoc(xs[..i], xs[i]);
      t := t + Bits64(xs[i]);
      i := i + 1;
    }
    assert xs[..i] == xs;
  }

  method EncodeTimes(ts: seq<FCamTime.Time>) returns (t: Text)
    requires forall k :: 0 <= k < |ts| ==> IsTime32(ts[k])
    ensures t == TimesText(ts)
  {
    t := [];
    var i := 0;
    while i < |ts|
      invariant 0 <= i <= |ts| && t == TimesText(ts[..i])
    {
      assert ts[..i + 1] == ts[..i] + [ts[i]];
      assert IsTime32(ts[i]);
      TimesSnoc(ts[..i], ts[i]);
      t := t + (I32(ts[i].s) + I32(ts[i].us));
      i := i + 1;
    }
    assert ts[..i] == ts;
  }

  method EncodeLengths(ss: seq<Text>) returns (t: Text)
    requires forall k :: 0 <= k < |ss| ==> IsCount(|ss[k]|)
    ensures t == Lengths(ss)
  {
    t := [];
    var i := 0;
    while i < |ss|
      invariant 0 <= i <= |ss| && t == Lengths(ss[..i])
    {
      assert ss[..i + 1] == ss[..i] + [ss[i]];
      assert IsCount(|ss[i]|);
      LengthsSnoc(ss[..i], ss[i]);
      t := t + I32(|ss[i]|);
      i := i + 1;
    }
    assert ss[..i] == ss;
  }

  method EncodeContents(ss: seq<Text>) returns (t: Text)
    ensures t == Concat(ss)
  {
    t := [];
    var i := 0;
    while i < |ss|
      invariant 0 <= i <= |ss| && t == Concat(ss[..i])
    {
      assert ss[..i + 1] == ss[..i] + [ss[i]];
      ConcatSnoc(ss[..i], ss[i]);
      var piece := CopyChars(ss[i]);
      t := t + piece;
      i := i + 1;
    }
    assert ss[..i] == ss;
  }

  /** What a read leaves: the tag's value, the unread input and the number of ParseErrors posted. */
  datatype Outcome = Outcome(value: Value, rest: Text, errors: nat)

  /** `in.read(p, n)`: the next n chars; past the end of the input the buffer keeps the zeros it was cleared to. */
  function ReadN(s: Text, n: nat): (r: (Text, Text))
    ensures |r.0| == n && |r.1| <= |s|
  {
    if |s| >= n then (s[..n], s[n..]) else (s + Nuls(n - |s|), [])
  }

  function ReadI32(s: Text): (r: (int, Text))
    ensures IsInt32(r.0) && |r.1| <= |s|
  {
    var b := ReadN(s, 4);
    (LeToI32(Codes(b.0)), b.1)
  }

  function ReadBits32(s: Text): (r: (Word32, Text))
    ensures |r.1| <= |s|
  {
    var b := ReadN(s, 4);
    (LeToU32(Codes(b.0)), b.1)
  }

  /** The unsigned 64-bit value of two 32-bit halves. */
  function Join64(lo: int, hi: int): (v: Word64)
    requires 0 <= lo < TWO_32 && 0 <= hi < TWO_32
  {
    lo + TWO_32 * hi
  }

  function ReadBits64(s: Text): (r: (Word64, Text))
    ensures |r.1| <= |s|
  {
    var b := ReadN(s, 8);
    (Join64(LeToU32(Codes(b.0[..4])), LeToU32(Codes(b.0[4..]))), b.1)
  }

  function ReadI32s(s: Text, n: nat): (r: (seq<int>, Text))
    ensures |r.0| == n && |r.1| <= |s|
    ensures forall k :: 0 <= k < n ==> IsInt32(r.0[k])
    decreases n
  {
    if n == 0 then ([], s)
    else
      var x := ReadI32(s);
      var xs := ReadI32s(x.1, n - 1);
      ([x.0] + xs.0, xs.1)
  }

  function ReadBits32s(s: Text, n: nat): (r: (seq<Word32>, Text))
    ensures |r.0| == n && |r.1| <= |s|
    decreases n
  {
    if n == 0 then ([], s)
    else
      var x := ReadBits32(s);
      var xs := ReadBits32s(x.1, n - 1);
      ([x.0] + xs.0, xs.1)
  }

  function ReadBits64s(s: Text, n: nat): (r: (seq<Word64>, Text))
    ensures |r.0| == n && |r.1| <= |s|
    decreases n
  {
    if n == 0 then ([], s)
    else
      var x := ReadBits64(s);
      var xs := ReadBits64s(x.1, n - 1);
      ([x.0] + xs.0, xs.1)
  }

  function ReadTimes(s: Text, n: nat): (r: (seq<FCamTime.Time>, Text))
    ensures |r.0| == n && |r.1| <= |s|
    decreases n
  {
    if n == 0 then ([], s)
    else
      var a := ReadI32(s);
      var b := ReadI32(a.1);
      var ts := ReadTimes(b.1, n - 1);
      ([FCamTime.Time(a.0, b.0)] + ts.0, ts.1)
  }

  /** The contents of a string vector, once the lengths are known. */
  function ReadStrings(s: Text, lens: seq<nat>): (r: (seq<Text>, Text))
    ensures |r.0| == |lens| && |r.1| <= |s|
    decreases lens
  {
    if lens == [] then ([], s)
    else
      var x := ReadN(s, lens[0]);
      var xs := ReadStrings(x.1, lens[1..]);
      ([x.0] + xs.0, xs.1)
  }

  predicate NoneNegative(xs: seq<int>)
  {
    forall k :: 0 <= k < |xs| ==> xs[k] >= 0
  }

  function AsNats(xs: seq<int>): (ns: seq<nat>)
    requires NoneNegative(xs)
    ensures |ns| == |xs| && forall k :: 0 <= k < |xs| ==> ns[k] == xs[k]
  {
    seq(|xs|, k requires 0 <= k < |xs| => xs[k] as nat)
  }

  /**
   * The blob branch of `operator>>`, from the char after the 'b': the kind
   * from `readType` (an unknown code posts an error and reads as Null),
   * then two chars that must both be zero — the second is not read when
   * the first is not — or the read fails with the tag unchanged. Whether
   * the stream is still good afterwards is `BlobFits`: a read that runs
   * past the end fails the stream. A negative count, on which the source's
   * `resize` throws, is an error here that reads nothing more.
   */
  function ReadBlob(s: Text, t: Value): (o: Outcome)
    ensures |o.rest| <= |s|
  {
    if s == [] then Outcome(t, [], 2)
    else
      var k := ReadType(s[0] as int);
      var e := if k.1 then 1 else 0;
      if |s| < 2 then Outcome(t, [], e + 1)
      else if s[1] != '\0' then Outcome(t, s[2..], e + 1)
      else if |s| < 3 then Outcome(t, [], e + 1)
      else if s[2] != '\0' then Outcome(t, s[3..], e + 1)
      else ReadPayload(k.0, s[3..], t, e)
  }

  function ReadPayload(k: Kind, body: Text, t: Value, e: nat): (o: Outcome)
    ensures |o.rest| <= |body|
  {
    match k
    case Null => Outcome(NullValue, body, e)
    case Int => var x := ReadI32(body); Outcome(IntValue(x.0), x.1, e)
    case Float => var x := ReadBits32(body); Outcome(FloatValue(x.0), x.1, e)
    case Double => var x := ReadBits64(body); Outcome(DoubleValue(x.0), x.1, e)
    case Time =>
      var a := ReadI32(body);
      var b := ReadI32(a.1);
      Outcome(TimeValue(FCamTime.Time(a.0, b.0)), b.1, e)
    case String =>
      var n := ReadI32(body);
      if n.0 < 0 then Outcome(t, n.1, e + 1)
      else var x := ReadN(n.1, n.0); Outcome(StringValue(x.0), x.1, e)
    case IntVector => ReadIntVector(body, e)
    case FloatVector => ReadFloatVector(body, e)
    case DoubleVector => ReadDoubleVector(body, e)
    case StringVector => ReadStringVector(body, e)
    case TimeVector => ReadTimeVector(body, e)
  }

  // Each vector payload is a signed 32-bit count followed by its items; a
  // negative count leaves an empty vector and counts an error.

  function ReadIntVector(body: Text, e: nat): (o: Outcome)
    ensures |o.rest| <= |body| && o.value.IntVectorValue?
  {
    var n := ReadI32(body);
    if n.0 < 0 then Outcome(IntVectorValue([]), n.1, e + 1)
    else var xs := ReadI32s(n.1, n.0); Outcome(IntVectorValue(xs.0), xs.1, e)
  }

  function ReadFloatVector(body: Text, e: nat): (o: Outcome)
    ensures |o.rest| <= |body| && o.value.FloatVectorValue?
  {
    var n := ReadI32(body);
    if n.0 < 0 then Outcome(FloatVectorValue([]), n.1, e + 1)
    else var xs := ReadBits32s(n.1, n.0); Outcome(FloatVectorValue(xs.0), xs.1, e)
  }

  function ReadDoubleVector(body: Text, e: nat): (o: Outcome)
    ensures |o.rest| <= |body| && o.value.DoubleVectorValue?
  {
    var n := ReadI32(body);
    if n.0 < 0 then Outcome(DoubleVectorValue([]), n.1, e + 1)
    else var xs := ReadBits64s(n.1, n.0); Outcome(DoubleVectorValue(xs.0), xs.1, e)
  }

  function ReadStringVector(body: Text, e: nat): (o: Outcome)
    ensures |o.rest| <= |body| && o.value.StringVectorValue?
  {
    var n := ReadI32(body);
    if n.0 < 0 then Outcome(StringVectorValue([]), n.1, e + 1)
    else
      var lens := ReadI32s(n.1, n.0);
      if !NoneNegative(lens.0) then Outcome(StringVectorValue([]), lens.1, e + 1)
      else var ss := ReadStrings(lens.1, AsNats(lens.0)); Outcome(StringVectorValue(ss.0), ss.1, e)
  }

  function ReadTimeVector(body: Text, e: nat): (o: Outcome)
    ensures |o.rest| <= |body| && o.value.TimeVectorValue?
  {
    var n := ReadI32(body);
    if n.0 < 0 then Outcome(TimeVectorValue([]), n.1, e + 1)
    else var ts := ReadTimes(n.1, n.0); Outcome(TimeVectorValue(ts.0), ts.1, e)
  }

  // Whether the reads of the blob branch stay inside the input. `in.get`
  // and `in.read` past the end set the stream's fail bit; a negative
  // count, on which `resize` throws, also ends the reading there.

  function SumOf(ns: seq<int>): int
  {
    if ns == [] then 0 else ns[0] + SumOf(ns[1..])
  }

  /** A count field, not negative, followed by at least that many items of `w` chars. */
  predicate CountFits(body: Text, w: nat)
  {
    |body| >= 4 && 0 <= ReadI32(body).0 && |body| - 4 >= w * ReadI32(body).0
  }

  /** The reads of a payload of kind `k` stay inside `body`. */
  predicate PayloadFits(k: Kind, body: Text)
  {
    match k
    case Null => true
    case Int => |body| >= 4
    case Float => |body| >= 4
    case Double => |body| >= 8
    case Time => |body| >= 8
    case String => CountFits(body, 1)
    case IntVector => CountFits(body, 4)
    case FloatVector => CountFits(body, 4)
    case DoubleVector => CountFits(body, 8)
    case TimeVector => CountFits(body, 8)
    case StringVector =>
      CountFits(body, 4) &&
      (var lens := ReadI32s(body[4..], ReadI32(body).0).0;
       NoneNegative(lens) && |body| - 4 - 4 * |lens| >= SumOf(lens))
  }

  /**
   * The reads of the blob branch, from the char after the 'b', stay inside
   * `s`: the kind and the first padding char are there, and either that
   * char is not zero (the branch stops after it), or the second padding
   * char is there and either is not zero or the payload fits.
   */
  predicate BlobFits(s: Text)
  {
    |s| >= 2 && (s[1] != '\0' || (|s| >= 3 && (s[2] != '\0' || PayloadFits(ReadType(s[0] as int).0, s[3..]))))
  }

  // Reading back what was written, piece by piece.

  lemma ReadNPrefix(a: Text, rest: Text)
    ensures ReadN(a + rest, |a|) == (a, rest)
  {
    assert (a + rest)[..|a|] == a;
    assert (a + rest)[|a|..] == rest;
  }

  lemma I32Back(v: int, rest: Text)
    requires IsInt32(v)
    ensures ReadI32(I32(v) + rest) == (v, rest)
  {
    ReadNPrefix(I32(v), rest);
    CodesOfChars(I32ToLe(v));
    I32RoundTrip(v);
  }

  lemma Bits32Back(x: Word32, rest: Text)
    ensures ReadBits32(Bits32(x) + rest) == (x, rest)
  {
    ReadNPrefix(Bits32(x), rest);
    CodesOfChars(U32ToLe(x));
    U32RoundTrip(x);
  }

  lemma Split64(x: Word64)
    ensures Join64(Low32(x), High32(x)) == x
  {
    assert x == x % TWO_32 + TWO_32 * (x / TWO_32);
  }

  lemma Bits64Back(x: Word64, rest: Text)
    ensures ReadBits64(Bits64(x) + rest) == (x, rest)
  {
    var lo, hi := Low32(x), High32(x);
    Split64(x);
    var b := Bits64(x);
    ReadNPrefix(b, rest);
    assert b[..4] == Chars(U32ToLe(lo));
    assert b[4..] == Chars(U32ToLe(hi));
    CodesOfChars(U32ToLe(lo));
    CodesOfChars(U32ToLe(hi));
    U32RoundTrip(lo);
    U32RoundTrip(hi);
  }

  lemma {:induction false} I32sBack(xs: seq<int>, rest: Text)
    requires forall k :: 0 <= k < |xs| ==> IsInt32(xs[k])
    ensures ReadI32s(I32s(xs) + rest, |xs|) == (xs, rest)
  {
    if xs != [] {
      assert I32s(xs) + rest == I32(xs[0]) + (I32s(xs[1..]) + rest);
      I32Back(xs[0], I32s(xs[1..]) + rest);
      I32sBack(xs[1..], rest);
      assert [xs[0]] + xs[1..] == xs;
    } else {
      assert I32s(xs) + rest == rest;
    }
  }

  lemma {:induction false} Bits32sBack(xs: seq<Word32>, rest: Text)
    ensures ReadBits32s(Bits32s(xs) + rest, |xs|) == (xs, rest)
  {
    if xs != [] {
      assert Bits32s(xs) + rest == Bits32(xs[0]) + (Bits32s(xs[1..]) + rest);
      Bits32Back(xs[0], Bits32s(xs[1..]) + rest);
      Bits32sBack(xs[1..], rest);
      assert [xs[0]] + xs[1..] == xs;
    } else {
      assert Bits32s(xs) + rest == rest;
    }
  }

  lemma {:induction false} Bits64sBack(xs: seq<Word64>, rest: Text)
    ensures ReadBits64s(Bits64s(xs) + rest, |xs|) == (xs, rest)
  {
    if xs != [] {
      var tail := Bits64s(xs[1..]) + rest;
      assert Bits64s(xs) + rest == Bits64(xs[0]) + tail;
      assert ReadBits64(Bits64(xs[0]) + tail) == (xs[0], tail) by { Bits64Back(xs[0], tail); }
      assert ReadBits64s(tail, |xs| - 1) == (xs[1..], rest) by { Bits64sBack(xs[1..], rest); }
      assert [xs[0]] + xs[1..] == xs;
    } else {
      assert Bits64s(xs) + rest == rest;
    }
  }

  lemma {:induction false} TimesBack(ts: seq<FCamTime.Time>, rest: Text)
    requires forall k :: 0 <= k < |ts| ==> IsTime32(ts[k])
    ensures ReadTimes(TimesText(ts) + rest, |ts|) == (ts, rest)
  {
    if ts != [] {
      var tail := TimesText(ts[1..]) + rest;
      var mid := I32(ts[0].us) + tail;
      assert TimesText(ts) + rest == I32(ts[0].s) + mid;
      assert [ts[0]] + ts[1..] == ts;
      assert ReadI32(I32(ts[0].s) + mid) == (ts[0].s, mid) by { I32Back(ts[0].s, mid); }
      assert ReadI32(mid) == (ts[0].us, tail) by { I32Back(ts[0].us, tail); }
      assert ReadTimes(tail, |ts| - 1) == (ts[1..], rest) by { TimesBack(ts[1..], rest); }
    } else {
      assert TimesText(ts) + rest == rest;
    }
  }

  /** The lengths of the strings, as the length fields hold them. */
  function LengthsOf(ss: seq<Text>): (ns: seq<int>)
    ensures |ns| == |ss| && forall k :: 0 <= k < |ss| ==> ns[k] == |ss[k]|
  {
    seq(|ss|, k requires 0 <= k < |ss| => |ss[k]|)
  }

  lemma {:induction false} LengthsBack(ss: seq<Text>, rest: Text)
    requires forall k :: 0 <= k < |ss| ==> IsCount(|ss[k]|)
    ensures ReadI32s(Lengths(ss) + rest, |ss|) == (LengthsOf(ss), rest)
  {
    if ss != [] {
      assert Lengths(ss) + rest == I32(|ss[0]|) + (Lengths(ss[1..]) + rest);
      I32Back(|ss[0]|, Lengths(ss[1..]) + rest);
      LengthsBack(ss[1..], rest);
      assert LengthsOf(ss) == [|ss[0]|] + LengthsOf(ss[1..]);
    } else {
      assert Lengths(ss) + rest == rest;
    }
  }

  lemma {:induction false} StringsBack(ss: seq<Text>, rest: Text)
    ensures ReadStrings(Concat(ss) + rest, AsNats(LengthsOf(ss))) == (ss, rest)
  {
    if ss != [] {
      var lens := AsNats(LengthsOf(ss));
      assert lens[0] == |ss[0]| && lens[1..] == AsNats(LengthsOf(ss[1..]));
      assert Concat(ss) + rest == ss[0] + (Concat(ss[1..]) + rest);
      ReadNPrefix(ss[0], Concat(ss[1..]) + rest);
      StringsBack(ss[1..], rest);
      assert [ss[0]] + ss[1..] == ss;
    } else {
      assert Concat(ss) + rest == rest;
    }
  }

  /** What a blob leaves unread after its value: the four stray NULs of a double vector, nothing otherwise. */
  function Trailer(v: Value): Text
  {
    if v.DoubleVectorValue? then Nuls(4) else []
  }

  /**
   * Every well-formed value survives the blob round trip: reading its blob
   * gives the value back with no error, whatever the tag held before, and
   * stops right after it (after the double vector's stray NULs, which stay
   * in the input).
   */
  lemma BlobRoundTrip(v: Value, t: Value, rest: Text)
    requires WellFormed(v)
    ensures ReadBlob(Blob(v)[1..] + rest, t) == Outcome(v, Trailer(v) + rest, 0)
  {
    var k := v.Kind();
    var body := Payload(v) + rest;
    SkipMarker(Header(k), Payload(v), rest);
    HeaderSkipped(k, body, t);
    PayloadBack(v, t, rest);
  }

  lemma {:induction false} SumOfLengths(ss: seq<Text>)
    ensures SumOf(LengthsOf(ss)) == |Concat(ss)|
  {
    if ss != [] {
      assert LengthsOf(ss) == [|ss[0]|] + LengthsOf(ss[1..]);
      SumOfLengths(ss[1..]);
    }
  }

  lemma CountFitsOf(n: int, items: Text, rest: Text, w: nat)
    requires IsCount(n) && |items| == w * n
    ensures CountFits(I32(n) + (items + rest), w)
  {
    I32Back(n, items + rest);
  }

  lemma StringVectorFits(ss: seq<Text>, rest: Text)
    requires WellFormed(StringVectorValue(ss))
    ensures PayloadFits(StringVector, Payload(StringVectorValue(ss)) + rest)
  {
    var tail := Lengths(ss) + (Concat(ss) + rest);
    Regroup(I32(|ss|), Lengths(ss), Concat(ss), rest);
    I32Back(|ss|, tail);
    var body := Payload(StringVectorValue(ss)) + rest;
    assert body[4..] == tail;
    LengthsBack(ss, Concat(ss) + rest);
    SumOfLengths(ss);
  }

  lemma StringFits(x: Text, rest: Text)
    requires IsCount(|x|)
    ensures PayloadFits(String, Payload(StringValue(x)) + rest)
  {
    assert Payload(StringValue(x)) + rest == I32(|x|) + (x + rest);
    CountFitsOf(|x|, x, rest, 1);
  }

  lemma IntVectorFits(xs: seq<int>, rest: Text)
    requires WellFormed(IntVectorValue(xs))
    ensures PayloadFits(IntVector, Payload(IntVectorValue(xs)) + rest)
  {
    assert Payload(IntVectorValue(xs)) + rest == I32(|xs|) + (I32s(xs) + rest);
    CountFitsOf(|xs|, I32s(xs), rest, 4);
  }

  lemma FloatVectorFits(xs: seq<Word32>, rest: Text)
    requires IsCount(|xs|)
    ensures PayloadFits(FloatVector, Payload(FloatVectorValue(xs)) + rest)
  {
    assert Payload(FloatVectorValue(xs)) + rest == I32(|xs|) + (Bits32s(xs) + rest);
    CountFitsOf(|xs|, Bits32s(xs), rest, 4);
  }

  lemma DoubleVectorFits(xs: seq<Word64>, rest: Text)
    requires IsCount(|xs|)
    ensures PayloadFits(DoubleVector, Payload(DoubleVectorValue(xs)) + rest)
  {
    Regroup(I32(|xs|), Bits64s(xs), Nuls(4), rest);
    DoublesFit(xs, Nuls(4) + rest);
  }

  lemma DoublesFit(xs: seq<Word64>, rest: Text)
    requires IsCount(|xs|)
    ensures PayloadFits(DoubleVector, I32(|xs|) + (Bits64s(xs) + rest))
  {
    CountFitsOf(|xs|, Bits64s(xs), rest, 8);
  }

  lemma TimeVectorFits(ts: seq<FCamTime.Time>, rest: Text)
    requires WellFormed(TimeVectorValue(ts))
    ensures PayloadFits(TimeVector, Payload(TimeVectorValue(ts)) + rest)
  {
    assert Payload(TimeVectorValue(ts)) + rest == I32(|ts|) + (TimesText(ts) + rest);
    CountFitsOf(|ts|, TimesText(ts), rest, 8);
  }

  /** The reads of a well-formed value's payload stay inside it, whatever follows. */
  lemma PayloadFitsBack(v: Value, rest: Text)
    requires WellFormed(v)
    ensures PayloadFits(v.Kind(), Payload(v) + rest)
  {
    match v
    case StringValue(x) => StringFits(x, rest);
    case IntVectorValue(xs) => IntVectorFits(xs, rest);
    case FloatVectorValue(xs) => FloatVectorFits(xs, rest);
    case DoubleVectorValue(xs) => DoubleVectorFits(xs, rest);
    case StringVectorValue(ss) => StringVectorFits(ss, rest);
    case TimeVectorValue(ts) => TimeVectorFits(ts, rest);
    case _ =>
  }

  /** The reads of a well-formed value's blob stay inside it, whatever follows. */
  lemma BlobFitsBack(v: Value, rest: Text)
    requires WellFormed(v)
    ensures BlobFits(Blob(v)[1..] + rest)
  {
    var k := v.Kind();
    SkipMarker(Header(k), Payload(v), rest);
    var s := Blob(v)[1..] + rest;
    assert s[3..] == Payload(v) + rest;
    ReadTypeInvertsCode(k);
    PayloadFitsBack(v, rest);
  }

  /**
   * The blob sized as the reader consumes it: a Null value gets the whole
   * four-byte header, and a double vector's blob holds its count and items
   * only, `4 + sizeof(int) + n * sizeof(double)` chars, as the float
   * vector's does, without the four NULs `toBlob` leaves after them.
   */
  function BlobFixed(v: Value): (t: Text)
    requires WellFormed(v)
    ensures t + Trailer(v) == Blob(v)
    ensures |t| >= 4 && t[..4] == Header(v.Kind())
  {
    match v
    case DoubleVectorValue(xs) =>
      var t := Header(DoubleVector) + (I32(|xs|) + Bits64s(xs));
      assert t + Nuls(4) == Header(DoubleVector) + (I32(|xs|) + Bits64s(xs) + Nuls(4));
      t
    case _ => Blob(v)
  }

  /**
   * Every well-formed value, double vectors and Null included, reads back
   * from its exactly sized blob with no error, and the reading stops right
   * at its end with the reads inside the input.
   */
  lemma BlobFixedRoundTrip(v: Value, t: Value, rest: Text)
    requires WellFormed(v)
    ensures ReadBlob(BlobFixed(v)[1..] + rest, t) == Outcome(v, rest, 0)
    ensures BlobFits(BlobFixed(v)[1..] + rest)
  {
    if v.DoubleVectorValue? {
      DoubleVectorFixedBack(v.doubles, t, rest);
    } else {
      assert BlobFixed(v) == Blob(v);
      BlobRoundTrip(v, t, rest);
      BlobFitsBack(v, rest);
    }
  }

  lemma DoubleVectorFixedBack(xs: seq<Word64>, t: Value, rest: Text)
    requires IsCount(|xs|)
    ensures ReadBlob(BlobFixed(DoubleVectorValue(xs))[1..] + rest, t) == Outcome(DoubleVectorValue(xs), rest, 0)
    ensures BlobFits(BlobFixed(DoubleVectorValue(xs))[1..] + rest)
  {
    DoubleVectorFixedReads(xs, t, rest);
    DoubleVectorFixedFits(xs, rest);
  }

  /** Reading the exactly sized blob of a double vector gives the vector back and stops right after its items. */
  lemma DoubleVectorFixedReads(xs: seq<Word64>, t: Value, rest: Text)
    requires IsCount(|xs|)
    ensures ReadBlob(BlobFixed(DoubleVectorValue(xs))[1..] + rest, t) == Outcome(DoubleVectorValue(xs), rest, 0)
  {
    var body := I32(|xs|) + (Bits64s(xs) + rest);
    DoubleVectorFixedLayout(xs, rest);
    HeaderSkipped(DoubleVector, body, t);
    assert ReadPayload(DoubleVector, body, t, 0) == ReadDoubleVector(body, 0);
    ReadDoubleVectorBack(xs, rest);
  }

  /** The exactly sized blob of a double vector, past its marker: the type field, then the count and the items. */
  lemma DoubleVectorFixedLayout(xs: seq<Word64>, rest: Text)
    requires IsCount(|xs|)
    ensures BlobFixed(DoubleVectorValue(xs))[1..] + rest == [Code(DoubleVector) as char, '\0', '\0'] + (I32(|xs|) + (Bits64s(xs) + rest))
  {
    var h := Header(DoubleVector);
    assert BlobFixed(DoubleVectorValue(xs)) == h + (I32(|xs|) + Bits64s(xs));
    PastMarker(h, I32(|xs|), Bits64s(xs), rest);
  }

  /** A four-char header followed by two parts, past its first char. */
  lemma PastMarker(h: Text, a: Text, b: Text, rest: Text)
    requires |h| == 4
    ensures (h + (a + b))[1..] + rest == [h[1], h[2], h[3]] + (a + (b + rest))
  {
    assert (h + (a + b))[1..] == [h[1], h[2], h[3]] + (a + b);
  }

  /** The exactly sized blob of a double vector fits: the stream stays good after it. */
  lemma DoubleVectorFixedFits(xs: seq<Word64>, rest: Text)
    requires IsCount(|xs|)
    ensures BlobFits(BlobFixed(DoubleVectorValue(xs))[1..] + rest)
  {
    DoubleVectorFixedLayout(xs, rest);
    var s := BlobFixed(DoubleVectorValue(xs))[1..] + rest;
    assert s[3..] == I32(|xs|) + (Bits64s(xs) + rest);
    ReadTypeInvertsCode(DoubleVector);
    DoublesFit(xs, rest);
  }

  lemma SkipMarker(h: Text, p: Text, rest: Text)
    requires |h| == 4
    ensures (h + p)[1..] + rest == [h[1], h[2], h[3]] + (p + rest)
  {
  }

  /** After a well-formed type field, reading a blob is reading its payload. */
  lemma HeaderSkipped(k: Kind, body: Text, t: Value)
    ensures ReadBlob([Code(k) as char, '\0', '\0'] + body, t) == ReadPayload(k, body, t, 0)
  {
    var s := [Code(k) as char, '\0', '\0'] + body;
    assert s[3..] == body;
    ReadTypeInvertsCode(k);
  }

  /** Reading a payload of the right kind gives back the value it was written from. */
  lemma PayloadBack(v: Value, t: Value, rest: Text)
    requires WellFormed(v)
    ensures ReadPayload(v.Kind(), Payload(v) + rest, t, 0) == Outcome(v, Trailer(v) + rest, 0)
  {
    match v
    case NullValue => assert Payload(v) + rest == rest;
    case IntValue(i) => I32Back(i, rest);
    case FloatValue(f) => Bits32Back(f, rest);
    case DoubleValue(d) => Bits64Back(d, rest);
    case TimeValue(tm) => TimePayloadBack(tm, t, rest);
    case StringValue(s) => StringPayloadBack(s, t, rest);
    case IntVectorValue(xs) => IntVectorBack(xs, t, rest);
    case FloatVectorValue(xs) => FloatVectorBack(xs, t, rest);
    case DoubleVectorValue(xs) => DoubleVectorBack(xs, t, rest);
    case StringVectorValue(ss) => StringVectorBack(ss, t, rest);
    case TimeVectorValue(ts) => TimeVectorBack(ts, t, rest);
  }

  lemma TimePayloadBack(tm: FCamTime.Time, t: Value, rest: Text)
    requires IsTime32(tm)
    ensures ReadPayload(Time, Payload(TimeValue(tm)) + rest, t, 0) == Outcome(TimeValue(tm), rest, 0)
  {
    var body := Payload(TimeValue(tm)) + rest;
    assert body == I32(tm.s) + (I32(tm.us) + rest);
    I32Back(tm.s, I32(tm.us) + rest);
    I32Back(tm.us, rest);
  }

  lemma StringPayloadBack(s: Text, t: Value, rest: Text)
    requires IsCount(|s|)
    ensures ReadPayload(String, Payload(StringValue(s)) + rest, t, 0) == Outcome(StringValue(s), rest, 0)
  {
    var body := Payload(StringValue(s)) + rest;
    assert body == I32(|s|) + (s + rest);
    I32Back(|s|, s + rest);
    ReadNPrefix(s, rest);
  }

  lemma Regroup(a: Text, b: Text, c: Text, d: Text)
    ensures a + b + c + d == a + (b + (c + d))
  {
  }

  lemma IntVectorBack(xs: seq<int>, t: Value, rest: Text)
    requires WellFormed(IntVectorValue(xs))
    ensures ReadPayload(IntVector, Payload(IntVectorValue(xs)) + rest, t, 0) == Outcome(IntVectorValue(xs), rest, 0)
  {
    assert Payload(IntVectorValue(xs)) + rest == I32(|xs|) + (I32s(xs) + rest);
    ReadIntVectorBack(xs, rest);
  }

  lemma ReadIntVectorBack(xs: seq<int>, rest: Text)
    requires IsCount(|xs|) && forall k :: 0 <= k < |xs| ==> IsInt32(xs[k])
    ensures ReadIntVector(I32(|xs|) + (I32s(xs) + rest), 0) == Outcome(IntVectorValue(xs), rest, 0)
  {
    var tail := I32s(xs) + rest;
    I32Back(|xs|, tail);
    I32sBack(xs, rest);
  }

  lemma FloatVectorBack(xs: seq<Word32>, t: Value, rest: Text)
    requires WellFormed(FloatVectorValue(xs))
    ensures ReadPayload(FloatVector, Payload(FloatVectorValue(xs)) + rest, t, 0) == Outcome(FloatVectorValue(xs), rest, 0)
  {
    assert Payload(FloatVectorValue(xs)) + rest == I32(|xs|) + (Bits32s(xs) + rest);
    ReadFloatVectorBack(xs, rest);
  }

  lemma ReadFloatVectorBack(xs: seq<Word32>, rest: Text)
    requires IsCount(|xs|)
    ensures ReadFloatVector(I32(|xs|) + (Bits32s(xs) + rest), 0) == Outcome(FloatVectorValue(xs), rest, 0)
  {
    var tail := Bits32s(xs) + rest;
    I32Back(|xs|, tail);
    Bits32sBack(xs, rest);
  }

  lemma DoubleVectorBack(xs: seq<Word64>, t: Value, rest: Text)
    requires WellFormed(DoubleVectorValue(xs))
    ensures ReadPayload(DoubleVector, Payload(DoubleVectorValue(xs)) + rest, t, 0) ==
            Outcome(DoubleVectorValue(xs), Nuls(4) + rest, 0)
  {
    Regroup(I32(|xs|), Bits64s(xs), Nuls(4), rest);
    assert Payload(DoubleVectorValue(xs)) + rest == I32(|xs|) + (Bits64s(xs) + (Nuls(4) + rest));
    ReadDoubleVectorBack(xs, Nuls(4) + rest);
  }

  lemma ReadDoubleVectorBack(xs: seq<Word64>, rest: Text)
    requires IsCount(|xs|)
    ensures ReadDoubleVector(I32(|xs|) + (Bits64s(xs) + rest), 0) == Outcome(DoubleVectorValue(xs), rest, 0)
  {
    var tail := Bits64s(xs) + rest;
    I32Back(|xs|, tail);
    Bits64sBack(xs, rest);
  }

  lemma StringVectorBack(ss: seq<Text>, t: Value, rest: Text)
    requires WellFormed(StringVectorValue(ss))
    ensures ReadPayload(StringVector, Payload(StringVectorValue(ss)) + rest, t, 0) == Outcome(StringVectorValue(ss), rest, 0)
  {
    Regroup(I32(|ss|), Lengths(ss), Concat(ss), rest);
    assert Payload(StringVectorValue(ss)) + rest == I32(|ss|) + (Lengths(ss) + (Concat(ss) + rest));
    ReadStringVectorBack(ss, rest);
  }

  lemma ReadStringVectorBack(ss: seq<Text>, rest: Text)
    requires IsCount(|ss|) && forall k :: 0 <= k < |ss| ==> IsCount(|ss[k]|)
    ensures ReadStringVector(I32(|ss|) + (Lengths(ss) + (Concat(ss) + rest)), 0) == Outcome(StringVectorValue(ss), rest, 0)
  {
    var strings := Concat(ss) + rest;
    var tail := Lengths(ss) + strings;
    I32Back(|ss|, tail);
    LengthsBack(ss, strings);
    assert NoneNegative(LengthsOf(ss));
    StringsBack(ss, rest);
  }

  lemma TimeVectorBack(ts: seq<FCamTime.Time>, t: Value, rest: Text)
    requires WellFormed(TimeVectorValue(ts))
    ensures ReadPayload(TimeVector, Payload(TimeVectorValue(ts)) + rest, t, 0) == Outcome(TimeVectorValue(ts), rest, 0)
  {
    assert Payload(TimeVectorValue(ts)) + rest == I32(|ts|) + (TimesText(ts) + rest);
    ReadTimeVectorBack(ts, rest);
  }

  lemma ReadTimeVectorBack(ts: seq<FCamTime.Time>, rest: Text)
    requires IsCount(|ts|) && forall k :: 0 <= k < |ts| ==> IsTime32(ts[k])
    ensures ReadTimeVector(I32(|ts|) + (TimesText(ts) + rest), 0) == Outcome(TimeVectorValue(ts), rest, 0)
  {
    var tail := TimesText(ts) + rest;
    I32Back(|ts|, tail);
    TimesBack(ts, rest);
  }

  /**
   * The blob `toBlob` writes for a Null tag cannot be read back: the
   * reader finds the input ending where it wants the padding, posts a
   * ParseError and leaves the tag as it was.
   */
  lemma NullBlobUnreadable(t: Value)
    ensures ReadBlob(BlobAsWritten(NullValue)[1..], t) == Outcome(t, [], 1)
  {
    assert BlobAsWritten(NullValue)[1..] == ['\0'];
  }
}

=== FILE: tegra_autofocus.dfy ===
/**
 * Tegra::AutoFocus (external/FCam/Tegra/AutoFocus.cpp): the Tegra
 * variant of the autofocus helper. It measures the plain sum of the
 * sharpness cells, steps the lens through the range in fifteen actions
 * attached to the streaming shot when the lens cannot sweep slowly enough,
 * and is FOCUSED only once a frame arrives at the chosen position.
 */
module TegraAutoFocus {
  import opened Base
  import Shots
  import SharpnessMaps
  import opened FCamAutoFocus

  /** `Action::LensFocus` and `Action::LensStepFocus`. */
  const LENS_FOCUS: int := 0x21
  const LENS_STEP_FOCUS: int := 0x22

  /** The number of steps the stepping action takes. */
  const FOCUS_STEPS: int := 15

  /**
   * The `FocusSteppingAction` set up when the lens is too slow to sweep:
   * at the start of each exposure, at full speed, fifteen steps that
   * together cover the range from far to near focus.
   */
  function SteppingAction(lens: Lens, owner: int): (a: Shots.Action)
    ensures a.kind == LENS_STEP_FOCUS && a.owner == owner && a.time == 0 && a.latency == lens.focusLatency
    ensures a.effect.FocusSteppingEffect? && a.effect.repeat == FOCUS_STEPS && a.effect.speed == lens.maxFocusSpeed
    ensures lens.farFocus + a.effect.repeat as real * a.effect.step == lens.nearFocus
  {
    Shots.Action(LENS_STEP_FOCUS, 0, lens.focusLatency, owner,
                 Shots.FocusSteppingEffect((lens.nearFocus - lens.farFocus) / FOCUS_STEPS as real, lens.maxFocusSpeed, FOCUS_STEPS))
  }

  /** The `FocusAction` to `target` at full speed, at the start of the exposure. */
  function FocusActionTo(lens: Lens, owner: int, target: real): Shots.Action
  {
    Shots.Action(LENS_FOCUS, 0, lens.focusLatency, owner, Shots.FocusEffect(target, lens.maxFocusSpeed))
  }

  class AutoFocus {
    const lens: Lens?
    /** The helper's address, which tags the actions it attaches to shots. */
    const owner: int
    var state: FocusState
    var rect: Rect
    var stats: seq<Stats>
    /** The sample chosen when the sweep or the stepping ended. */
    var best: Stats

    /** Without a lens the helper never leaves IDLE. */
    ghost predicate Valid()
      reads this
    {
      lens == null ==> state == Idle
    }

    constructor (l: Lens?, owner: int, r: Rect)
      ensures Valid() && lens == l && this.owner == owner && rect == r && state == Idle && stats == []
    {
      lens := l;
      this.owner := owner;
      rect := r;
      state := Idle;
      stats := [];
    }

    predicate IsIdle()
      reads this
    {
      state == Focused || state == Idle
    }

    /** `startSweep()`: as the generic helper's. */
    method StartSweep()
      requires Valid()
      modifies this`state, this`stats, lens
      ensures Valid()
      ensures lens == null ==> state == old(state) && stats == old(stats)
      ensures lens != null ==>
                state == Homing && stats == [] &&
                lens.commands == old(lens.commands) + [FocusCommand(lens.farFocus, DEFAULT_SPEED)] &&
                lens.changing == old(lens.changing) && lens.focus == old(lens.focus)
    {
      if lens == null {
        return;
      }
      state := Homing;
      lens.SetFocus(lens.farFocus, DEFAULT_SPEED);
      stats := [];
    }

    /** The sample a frame contributes: the plain sum of the window's cells. */
    ghost function Sample(position: real, m: SharpnessMaps.SharpnessMap, imageWidth: int, imageHeight: int): Stats
      reads this, m
      requires m.Valid() && m.IsValid()
      requires rect.width > 0 && rect.height > 0 ==> imageWidth > 0 && imageHeight > 0
    {
      Stats(position, WindowSharpness(m, SampleWindow(rect, m.size.width, m.size.height, imageWidth, imageHeight), 0))
    }

    /**
     * `update(f, shot)`:
     * - when idle, nothing changes;
     * - when SETTING and the lens has stopped, the helper is FOCUSED, and
     *   its actions are removed from the shot, only if the frame was taken
     *   within 0.01 of the best position; otherwise nothing changes;
     * - in every other state a frame without a sharpness map is ignored,
     *   and otherwise its sample joins the list (while SETTING with the
     *   lens still moving, too);
     * - HOMING, once the lens has stopped within 0.01 of far focus, becomes
     *   SWEEPING (lens sent to near focus) when the range exceeds the
     *   lens's minimum speed, and otherwise STEPPING, with the stepping
     *   action added to the shot;
     * - SWEEPING or STEPPING with more than four samples ends, once the
     *   lens has stopped, if it was sweeping, if it stepped to near focus,
     *   or if the sharpness has been getting worse: the first sharpest
     *   sample becomes `best`, the lens is sent there (by `setFocus` when
     *   sweeping, by replacing the helper's actions on the shot with one
     *   focus action when stepping), the samples are forgotten and the
     *   helper is SETTING.
     */
    method Update(position: real, m: SharpnessMaps.SharpnessMap, imageWidth: int, imageHeight: int, shot: Shots.Shot)
      requires Valid() && m.Valid()
      requires rect.width > 0 && rect.height > 0 ==> imageWidth > 0 && imageHeight > 0
      modifies this`state, this`stats, this`best, lens, shot`actions
      ensures Valid()
      ensures lens != null ==> lens.changing == old(lens.changing) && lens.focus == old(lens.focus)
      ensures old(IsIdle()) ==>
                state == old(state) && stats == old(stats) && shot.actions == old(shot.actions) &&
                (lens != null ==> lens.commands == old(lens.commands))
      ensures old(state) == Setting && !lens.changing ==>
                stats == old(stats) && lens.commands == old(lens.commands) &&
                if Near(position, old(best).position) then
                  state == Focused && shot.actions == Shots.WithoutOwner(old(shot.actions), owner)
                else
                  state == Setting && shot.actions == old(shot.actions)
      ensures !old(IsIdle()) && !(old(state) == Setting && !lens.changing) && !m.IsValid() ==>
                state == old(state) && stats == old(stats) && best == old(best) &&
                lens.commands == old(lens.commands) && shot.actions == old(shot.actions)
      ensures old(state) == Setting && lens.changing && m.IsValid() ==>
                state == Setting && stats == old(stats) + [Sample(position, m, imageWidth, imageHeight)] &&
                lens.commands == old(lens.commands) && shot.actions == old(shot.actions)
      ensures old(state) == Homing && m.IsValid() ==>
                stats == old(stats) + [Sample(position, m, imageWidth, imageHeight)] &&
                if !lens.changing && Near(position, lens.farFocus) then
                  if lens.nearFocus - lens.farFocus > lens.minFocusSpeed then
                    state == Sweeping && shot.actions == old(shot.actions) &&
                    lens.commands == old(lens.commands) + [FocusCommand(lens.nearFocus, lens.nearFocus - lens.farFocus)]
                  else
                    state == Stepping && lens.commands == old(lens.commands) &&
                    shot.actions == old(shot.actions) + [SteppingAction(lens, owner)]
                else
                  state == Homing && lens.commands == old(lens.commands) && shot.actions == old(shot.actions)
      ensures (old(state) == Sweeping || old(state) == Stepping) && m.IsValid() ==>
                var all := old(stats) + [Sample(position, m, imageWidth, imageHeight)];
                if |all| > 4 && !lens.changing &&
                   (old(state) == Sweeping || Near(lens.focus, lens.nearFocus) || GettingWorse(all)) then
                  state == Setting && stats == [] && best == all[BestIndex(all)] &&
                  if old(state) == Sweeping then
                    lens.commands == old(lens.commands) + [FocusCommand(best.position, DEFAULT_SPEED)] &&
                    shot.actions == old(shot.actions)
                  else
                    lens.commands == old(lens.commands) &&
                    shot.actions == Shots.WithoutOwner(old(shot.actions), owner) + [FocusActionTo(lens, owner, best.position)]
                else
                  state == old(state) && stats == all && best == old(best) &&
                  lens.commands == old(lens.commands) && shot.actions == old(shot.actions)
    {
      if state == Focused || state == Idle {
        return;
      }
      if state == Setting && !lens.changing {
        if Near(position, best.position) {
          shot.ClearActions(owner);
          state := Focused;
        }
        return;
      }
      if !m.IsValid() {
        return;
      }
      var s := Measure(position, m, imageWidth, imageHeight);
      stats := stats + [s];
      if state == Homing {
        LeaveHoming(s, shot);
      } else if state == Sweeping || state == Stepping {
        EndSearch(shot);
      }
    }

    /** The sample of one frame: the loops over the window of its sharpness map. */
    method Measure(position: real, m: SharpnessMaps.SharpnessMap, imageWidth: int, imageHeight: int) returns (s: Stats)
      requires m.Valid() && m.IsValid()
      requires rect.width > 0 && rect.height > 0 ==> imageWidth > 0 && imageHeight > 0
      ensures s == Sample(position, m, imageWidth, imageHeight)
    {
      var window := SampleWindow(rect, m.size.width, m.size.height, imageWidth, imageHeight);
      var sharpness := MeasureWindow(m, window, 0);
      s := Stats(position, sharpness);
    }

    /** The HOMING branch, once the frame's sample s has been recorded. */
    method LeaveHoming(s: Stats, shot: Shots.Shot)
      requires state == Homing && lens != null
      modifies this`state, lens, shot`actions
      ensures lens.changing == old(lens.changing) && lens.focus == old(lens.focus)
      ensures if !lens.changing && Near(s.position, lens.farFocus) then
                if lens.nearFocus - lens.farFocus > lens.minFocusSpeed then
                  state == Sweeping && shot.actions == old(shot.actions) &&
                  lens.commands == old(lens.commands) + [FocusCommand(lens.nearFocus, lens.nearFocus - lens.farFocus)]
                else
                  state == Stepping && lens.commands == old(lens.commands) &&
                  shot.actions == old(shot.actions) + [SteppingAction(lens, owner)]
              else
                state == Homing && lens.commands == old(lens.commands) && shot.actions == old(shot.actions)
    {
      if !lens.changing && Near(s.position, lens.farFocus) {
        if lens.nearFocus - lens.farFocus > lens.minFocusSpeed {
          lens.SetFocus(lens.nearFocus, lens.nearFocus - lens.farFocus);
          state := Sweeping;
        } else {
          state := Stepping;
          shot.AddAction(SteppingAction(lens, owner));
        }
      }
    }

    /** The end-of-search test of SWEEPING and STEPPING, once the frame's sample has been recorded. */
    method EndSearch(shot: Shots.Shot)
      requires (state == Sweeping || state == Stepping) && lens != null
      modifies this`state, this`stats, this`best, lens, shot`actions
      ensures lens.changing == old(lens.changing) && lens.focus == old(lens.focus)
      ensures if |old(stats)| > 4 && !lens.changing &&
                 (old(state) == Sweeping || Near(lens.focus, lens.nearFocus) || GettingWorse(old(stats))) then
                state == Setting && stats == [] && best == old(stats)[BestIndex(old(stats))] &&
                if old(state) == Sweeping then
                  lens.commands == old(lens.commands) + [FocusCommand(best.position, DEFAULT_SPEED)] &&
                  shot.actions == old(shot.actions)
                else
                  lens.commands == old(lens.commands) &&
                  shot.actions == Shots.WithoutOwner(old(shot.actions), owner) + [FocusActionTo(lens, owner, best.position)]
              else
                state == old(state) && stats == old(stats) && best == old(best) &&
                lens.commands == old(lens.commands) && shot.actions == old(shot.actions)
    {
      if |stats| > 4 {
        var worse := CheckGettingWorse(stats);
        if !lens.changing && (state == Sweeping || (state == Stepping && Near(lens.focus, lens.nearFocus)) || worse) {
          best := PickBest(stats);
          if state == Sweeping {
            lens.SetFocus(best.position, DEFAULT_SPEED);
          } else {
            var setFocus := FocusActionTo(lens, owner, best.position);
            shot.ClearActions(owner);
            shot.AddAction(setFocus);
          }
          state := Setting;
          stats := [];
        }
      }
    }
  }
}

=== FILE: thumbnail.dfy ===
/**
 * The thumbnail downsampler of the image writer
 * (android/packages/fcamerapro/jni/AsyncImageWriter.cpp): every channel of
 * a packed image is shrunk by placing a 5 × 5 box at evenly spaced origins
 * of the source, adding the box up and scaling the sum by 2621 / 65536,
 * one 25th in 16-bit fixed point.
 *
 * A channel is a run of bytes `offset, offset + step, offset + 2 step, …`
 * in a buffer, `width × height` of them in row-major order: step 1 for the
 * planes of YUV420p, step 3 for each colour of RGB24.
 *
 * Positions are written with `Times(k, step)`, the product built up one
 * addition at a time, as the downsampler's pointers and fixed-point
 * coordinates are; `TimesIsProduct` equates it with `k * step`.
 */
module Thumbnails {
  import opened Base
  import opened Bytes
  import CArith

  const THUMBNAIL_WIDTH: int := 384
  const THUMBNAIL_HEIGHT: int := 288
  const THUMBNAIL_QUALITY: int := 95

  /** `THUMBNAIL_BLUR_RADIUS`: the box is 5 pixels on a side. */
  const BLUR_RADIUS: nat := 5
  /** `THUMBNAIL_BLUR_RADIUS & ~1`: how far before the edge of the source the box origins stop. */
  const BLUR_MARGIN: nat := 4
  /** One in 16-bit fixed point (`1 << 16`). */
  const FIXED_ONE: nat := 0x10000
  /** `THUMBNAIL_BLUR_NORM`, `0x10000 / 25`. */
  const BLUR_NORM: nat := FIXED_ONE / (BLUR_RADIUS * BLUR_RADIUS)

  /** k steps of `step`, one after the other. */
  function Times(k: nat, step: nat): nat
  {
    if k == 0 then 0 else Times(k - 1, step) + step
  }

  lemma {:induction false} TimesIsProduct(k: nat, step: nat)
    ensures Times(k, step) == k * step
  {
    if k > 0 {
      TimesIsProduct(k - 1, step);
    }
  }

  /** Taking more steps goes at least one step further. */
  lemma {:induction false} TimesGrows(k1: nat, k2: nat, step: nat)
    requires k1 < k2
    ensures Times(k1, step) + step <= Times(k2, step)
  {
    if k1 + 1 < k2 {
      TimesGrows(k1, k2 - 1, step);
    }
  }

  /** Where element k of a channel lives in its buffer. */
  function Slot(offset: nat, k: nat, step: nat): nat
  {
    offset + Times(k, step)
  }

  /** The first n elements of a channel lie inside a buffer of length `len`. */
  predicate Fits(len: int, offset: nat, step: nat, n: nat)
  {
    n == 0 || Slot(offset, n - 1, step) < len
  }

  /** Some element `lo <= k < hi` of the channel lives at q. */
  predicate IsSlotIn(q: int, offset: nat, step: nat, lo: nat, hi: nat)
  {
    exists k: nat :: lo <= k < hi && q == Slot(offset, k, step)
  }

  lemma SlotInside(len: int, offset: nat, step: nat, n: nat, k: nat)
    requires Fits(len, offset, step, n) && k < n
    ensures Slot(offset, k, step) < len
  {
    if k < n - 1 {
      TimesGrows(k, n - 1, step);
    }
  }

  lemma SlotLess(offset: nat, k1: nat, k2: nat, step: nat)
    requires k1 < k2 && step >= 1
    ensures Slot(offset, k1, step) < Slot(offset, k2, step)
  {
    TimesGrows(k1, k2, step);
  }

  /** The layout of a source channel. */
  datatype Plane = Plane(offset: nat, step: nat, width: int, height: int)

  /** A source channel the downsampler can read: more than four pixels each way, all inside the buffer. */
  predicate SourceOk(src: seq<byte>, s: Plane)
  {
    s.step >= 1 && s.width > 4 && s.height > 4 &&
    forall q: nat :: q < Times(s.height, s.width) ==> Slot(s.offset, q, s.step) < |src|
  }

  /** A channel whose last pixel lies inside the buffer can be read throughout. */
  lemma FitsSource(src: seq<byte>, s: Plane)
    requires s.step >= 1 && s.width > 4 && s.height > 4 && Fits(|src|, s.offset, s.step, s.width * s.height)
    ensures SourceOk(src, s)
  {
    TimesIsProduct(s.height, s.width);
    assert s.height * s.width == s.width * s.height;
    forall q: nat | q < Times(s.height, s.width)
      ensures Slot(s.offset, q, s.step) < |src|
    {
      SlotInside(|src|, s.offset, s.step, s.width * s.height, q);
    }
  }

  /** Pixel q of the channel (`src[q * step]` from the channel's start). */
  function Pixel(src: seq<byte>, s: Plane, q: nat): byte
    requires SourceOk(src, s) && q < Times(s.height, s.width)
  {
    src[Slot(s.offset, q, s.step)]
  }

  /** Pixel (x, y) of the channel, row-major. */
  function PixelAt(src: seq<byte>, s: Plane, x: nat, y: nat): byte
    requires SourceOk(src, s) && x < s.width && y < s.height
  {
    CellInside(x, y, s.width, s.height);
    Pixel(src, s, Times(y, s.width) + x)
  }

  /** Pixel (x, y) of a `w × h` channel is one of its `w × h` elements. */
  lemma CellInside(x: nat, y: nat, w: nat, h: nat)
    requires x < w && y < h
    ensures Times(y, w) + x < Times(h, w)
  {
    TimesGrows(y, h, w);
  }

  /** Pixels `c .. e - 1` of row r, added up. */
  function RowRun(src: seq<byte>, s: Plane, r: nat, c: nat, e: nat): (sum: nat)
    requires SourceOk(src, s) && r < s.height && c <= e <= s.width
    ensures sum <= 255 * (e - c)
    decreases e - c
  {
    if c == e then 0 else PixelAt(src, s, c, r) + RowRun(src, s, r, c + 1, e)
  }

  /** Rows `r .. e - 1` of the box whose left column is c. */
  function BoxRows(src: seq<byte>, s: Plane, r: nat, e: nat, c: nat): (sum: nat)
    requires SourceOk(src, s) && r <= e <= s.height && c + BLUR_RADIUS <= s.width
    ensures sum <= 255 * BLUR_RADIUS * (e - r)
    decreases e - r
  {
    if r == e then 0
    else RowRun(src, s, r, c, c + BLUR_RADIUS) + BoxRows(src, s, r + 1, e, c)
  }

  /** The 5 × 5 box whose top-left pixel is (c, r), added up. */
  function Box(src: seq<byte>, s: Plane, r: nat, c: nat): (sum: nat)
    requires SourceOk(src, s) && r + BLUR_RADIUS <= s.height && c + BLUR_RADIUS <= s.width
    ensures sum <= 25 * 255
  {
    BoxRows(src, s, r, r + BLUR_RADIUS, c)
  }

  /**
   * `((extent - 4) << 16) / count`: the distance between box origins in
   * 16.16 fixed point; `count` of them fit in the extent less the margin.
   */
  function Spacing(extent: int, count: int): (a: nat)
    requires extent > BLUR_MARGIN && count > 0
    ensures a * count <= (extent - BLUR_MARGIN) * FIXED_ONE
  {
    ((extent - BLUR_MARGIN) * FIXED_ONE) / count
  }

  /** The source row (or column) of output row (or column) k: `(k * spacing) >> 16`. */
  function Origin(k: nat, extent: int, count: int): nat
    requires extent > BLUR_MARGIN && count > 0
  {
    Times(k, Spacing(extent, count)) / FIXED_ONE
  }

  /** Every box origin leaves room for the whole box inside the source. */
  lemma OriginInside(k: nat, extent: int, count: int)
    requires extent > BLUR_MARGIN && count > 0 && k < count
    ensures Origin(k, extent, count) + BLUR_RADIUS <= extent
  {
    var a := Spacing(extent, count);
    TimesIsProduct(k, a);
    if a > 0 {
      SpacedBelow(k, a, count, extent - BLUR_MARGIN);
      CArith.DivBelow(k * a, FIXED_ONE, extent - BLUR_MARGIN);
    }
  }

  /** k < n steps of a, with n of them fitting in `m * 2^16`, stay strictly below it. */
  lemma SpacedBelow(k: nat, a: nat, n: nat, m: nat)
    requires k < n && a > 0 && a * n <= m * FIXED_ONE
    ensures k * a < m * FIXED_ONE
  {
    MulLe(k + 1, n, a);
    assert (k + 1) * a == k * a + a;
    assert n * a == a * n;
  }

  lemma MulLe(a: int, b: int, w: nat)
    requires a <= b
    ensures a * w <= b * w
  {
    var d := b - a;
    assert b * w == a * w + d * w;
  }

  /** Output pixel (j, i): the box at its origin, times 2621, shifted right by 16; it fits a byte. */
  function Out(src: seq<byte>, s: Plane, dw: int, dh: int, i: nat, j: nat): (v: byte)
    requires SourceOk(src, s) && dw > 0 && dh > 0 && i < dh && j < dw
    ensures v <= 254
  {
    OriginInside(i, s.height, dh);
    OriginInside(j, s.width, dw);
    var sum := Box(src, s, Origin(i, s.height, dh), Origin(j, s.width, dw));
    ScaledBoxFitsByte(sum);
    Scale(sum)
  }

  /** `sum * THUMBNAIL_BLUR_NORM >> 16`. */
  function Scale(sum: nat): nat
  {
    (sum * BLUR_NORM) / FIXED_ONE
  }

  /** A box of 25 byte-sized pixels scales to at most 254. */
  lemma ScaledBoxFitsByte(sum: nat)
    requires sum <= 25 * 255
    ensures Scale(sum) <= 254
  {
    assert BLUR_NORM == 2621;
    assert sum * 2621 <= 16708875;
  }

  /**
   * 2621 is one 25th of 65536 rounded down, so a box of 25 pixels of value
   * v scales to v − 1 for every v ≥ 1 (and to 0 for 0): a flat channel
   * comes out one level darker.
   */
  lemma FlatBoxDarkensByOne(v: byte)
    ensures Scale(25 * v) == if v == 0 then 0 else v - 1
  {
    assert BLUR_NORM == 2621;
    var p := 25 * v * 2621;
    assert p == v * 65525;
    if v > 0 {
      assert (v - 1) * FIXED_ONE <= p < v * FIXED_ONE;
      CArith.DivModUnique(p, v - 1, p - (v - 1) * FIXED_ONE, FIXED_ONE);
    }
  }

  /** The first n pixels of output row i. */
  function ThumbRow(src: seq<byte>, s: Plane, dw: int, dh: int, i: nat, n: nat): (row: seq<byte>)
    requires SourceOk(src, s) && dw > 0 && dh > 0 && i < dh && n <= dw
    ensures |row| == n
  {
    if n == 0 then [] else ThumbRow(src, s, dw, dh, i, n - 1) + [Out(src, s, dw, dh, i, n - 1)]
  }

  /** The first m output rows, one after the other. */
  function ThumbRows(src: seq<byte>, s: Plane, dw: int, dh: int, m: nat): (rows: seq<byte>)
    requires SourceOk(src, s) && dw > 0 && dh > 0 && m <= dh
    ensures |rows| == Times(m, dw)
  {
    if m == 0 then []
    else ThumbRows(src, s, dw, dh, m - 1) + ThumbRow(src, s, dw, dh, m - 1, dw)
  }

  /** The whole downsampled channel, `dw × dh` pixels in row-major order. */
  function Thumbnail(src: seq<byte>, s: Plane, dw: int, dh: int): (t: seq<byte>)
    requires SourceOk(src, s) && dw > 0 && dh > 0
    ensures |t| == dw * dh
  {
    TimesIsProduct(dh, dw);
    ThumbRows(src, s, dw, dh, dh)
  }

  /** Output pixel (j, i) sits at `i * dw + j` of the downsampled channel. */
  lemma {:induction false} ThumbnailPixel(src: seq<byte>, s: Plane, dw: int, dh: int, m: nat, i: nat, j: nat)
    requires SourceOk(src, s) && dw > 0 && dh > 0 && i < m <= dh && 0 <= j < dw
    ensures Times(i, dw) + j < |ThumbRows(src, s, dw, dh, m)|
    ensures ThumbRows(src, s, dw, dh, m)[Times(i, dw) + j] == Out(src, s, dw, dh, i, j)
    decreases m
  {
    var prev, row := ThumbRows(src, s, dw, dh, m - 1), ThumbRow(src, s, dw, dh, m - 1, dw);
    var q := Times(i, dw) + j;
    assert ThumbRows(src, s, dw, dh, m) == prev + row;
    assert |prev| == Times(m - 1, dw) && |row| == dw;
    if i < m - 1 {
      ThumbnailPixel(src, s, dw, dh, m - 1, i, j);
      assert q < |prev|;
      assert (prev + row)[q] == prev[q];
    } else {
      RowPixel(src, s, dw, dh, i, dw, j);
      assert q == |prev| + j;
      assert (prev + row)[q] == row[j];
    }
  }

  lemma {:induction false} RowPixel(src: seq<byte>, s: Plane, dw: int, dh: int, i: nat, n: nat, j: nat)
    requires SourceOk(src, s) && dw > 0 && dh > 0 && i < dh && j < n <= dw
    ensures ThumbRow(src, s, dw, dh, i, n)[j] == Out(src, s, dw, dh, i, j)
    decreases n
  {
    if j < n - 1 {
      RowPixel(src, s, dw, dh, i, n - 1, j);
    }
  }

  /** A flat source channel of value v gives a flat thumbnail of value v − 1 (0 stays 0). */
  lemma FlatChannel(src: seq<byte>, s: Plane, dw: int, dh: int, v: byte, i: nat, j: nat)
    requires SourceOk(src, s) && dw > 0 && dh > 0 && i < dh && j < dw
    requires forall q: nat :: q < Times(s.height, s.width) ==> Pixel(src, s, q) == v
    ensures Out(src, s, dw, dh, i, j) == if v == 0 then 0 else v - 1
  {
    OriginInside(i, s.height, dh);
    OriginInside(j, s.width, dw);
    var r, c := Origin(i, s.height, dh), Origin(j, s.width, dw);
    FlatRows(src, s, r, r + BLUR_RADIUS, c, v);
    TimesIsProduct(BLUR_RADIUS, v);
    TimesIsProduct(BLUR_RADIUS, BLUR_RADIUS * v);
    FlatBoxDarkensByOne(v);
  }

  lemma {:induction false} FlatRows(src: seq<byte>, s: Plane, r: nat, e: nat, c: nat, v: byte)
    requires SourceOk(src, s) && r <= e <= s.height && c + BLUR_RADIUS <= s.width
    requires forall q: nat :: q < Times(s.height, s.width) ==> Pixel(src, s, q) == v
    ensures BoxRows(src, s, r, e, c) == Times(e - r, Times(BLUR_RADIUS, v))
    decreases e - r
  {
    if r < e {
      FlatRun(src, s, r, c, c + BLUR_RADIUS, v);
      FlatRows(src, s, r + 1, e, c, v);
    }
  }

  lemma {:induction false} FlatRun(src: seq<byte>, s: Plane, r: nat, c: nat, e: nat, v: byte)
    requires SourceOk(src, s) && r < s.height && c <= e <= s.width
    requires forall q: nat :: q < Times(s.height, s.width) ==> Pixel(src, s, q) == v
    ensures RowRun(src, s, r, c, e) == Times(e - c, v)
    decreases e - c
  {
    if c < e {
      CellInside(c, r, s.width, s.height);
      FlatRun(src, s, r, c + 1, e, v);
    }
  }

  /** The channel of `dest` at `offset`/`step` holds t. */
  ghost predicate ChannelHolds(dest: array<byte>, offset: nat, step: nat, t: seq<byte>)
    reads dest
  {
    forall k: nat :: k < |t| ==> Slot(offset, k, step) < dest.Length && dest[Slot(offset, k, step)] == t[k]
  }

  /** The box filter's inner loop: five pixels of row r from column c, which is element `index`. */
  method RowFilter(src: seq<byte>, s: Plane, index: nat, ghost r: nat, ghost c: nat) returns (sum: int)
    requires SourceOk(src, s) && r < s.height && c + BLUR_RADIUS <= s.width
    requires index == Times(r, s.width) + c
    ensures sum == RowRun(src, s, r, c, c + BLUR_RADIUS)
  {
    sum := 0;
    for x := 0 to BLUR_RADIUS
      invariant sum + RowRun(src, s, r, c + x, c + BLUR_RADIUS) == RowRun(src, s, r, c, c + BLUR_RADIUS)
    {
      CellInside(c + x, r, s.width, s.height);
      sum := sum + Pixel(src, s, index + x);
    }
  }

  /** The box filter: five rows of five pixels from `srcindex`, one row further on each time. */
  method BoxFilter(src: seq<byte>, s: Plane, srcindex: nat, ghost r: nat, ghost c: nat) returns (sum: int)
    requires SourceOk(src, s) && r + BLUR_RADIUS <= s.height && c + BLUR_RADIUS <= s.width
    requires srcindex == Times(r, s.width) + c
    ensures sum == Box(src, s, r, c)
  {
    sum := 0;
    var index := srcindex;
    for y := 0 to BLUR_RADIUS
      invariant index == Times(r + y, s.width) + c
      invariant sum + BoxRows(src, s, r + y, r + BLUR_RADIUS, c) == Box(src, s, r, c)
    {
      var row := RowFilter(src, s, index, r + y, c);
      sum := sum + row;
      index := index + s.width;
    }
  }

  /** One output pixel: the box at (`tx >> 16`, row `rowindex / width`), scaled. */
  method OutPixel(src: seq<byte>, s: Plane, dw: int, dh: int, i: nat, j: nat, rowindex: nat, tx: nat) returns (v: byte)
    requires SourceOk(src, s) && dw > 0 && dh > 0 && i < dh && j < dw
    requires rowindex == Times(Origin(i, s.height, dh), s.width)
    requires tx == Times(j, Spacing(s.width, dw))
    ensures v == Out(src, s, dw, dh, i, j)
  {
    OriginInside(i, s.height, dh);
    OriginInside(j, s.width, dw);
    var c := tx / FIXED_ONE;
    var sum := BoxFilter(src, s, rowindex + c, Origin(i, s.height, dh), c);
    ScaledBoxFitsByte(sum);
    v := (sum * BLUR_NORM) / FIXED_ONE;
  }

  /** Element k of the channel becomes v; nothing else of `dest` changes. */
  method Put(dest: array<byte>, offset: nat, step: nat, index: nat, ghost k: nat, v: byte, ghost t: seq<byte>)
    requires step >= 1 && |t| == k && index == Slot(offset, k, step) && index < dest.Length
    requires ChannelHolds(dest, offset, step, t)
    modifies dest
    ensures ChannelHolds(dest, offset, step, t + [v])
    ensures forall q :: 0 <= q < dest.Length && q != index ==> dest[q] == old(dest[q])
  {
    forall k' | 0 <= k' < k
      ensures Slot(offset, k', step) < Slot(offset, k, step)
    {
      SlotLess(offset, k', k, step);
    }
    dest[index] := v;
  }

  /** One output row: the inner loop of `DownsampleChannel`, from element k0 on. */
  method DownsampleRow(dest: array<byte>, dstOff: nat, dstindex: nat, ghost k0: nat, dw: int, dh: int,
                       src: seq<byte>, s: Plane, i: nat, rowindex: nat, ax: nat)
      returns (next: nat)
    requires SourceOk(src, s) && dw > 0 && dh > 0 && i < dh
    requires Fits(dest.Length, dstOff, s.step, k0 + dw)
    requires k0 == Times(i, dw) && dstindex == Times(k0, s.step)
    requires rowindex == Times(Origin(i, s.height, dh), s.width)
    requires ax == Spacing(s.width, dw)
    requires ChannelHolds(dest, dstOff, s.step, ThumbRows(src, s, dw, dh, i))
    modifies dest
    ensures next == Times(k0 + dw, s.step)
    ensures ChannelHolds(dest, dstOff, s.step, ThumbRows(src, s, dw, dh, i + 1))
    ensures forall q :: 0 <= q < dest.Length && !IsSlotIn(q, dstOff, s.step, k0, k0 + dw) ==> dest[q] == old(dest[q])
  {
    ghost var before := ThumbRows(src, s, dw, dh, i);
    next := dstindex;
    var tx := 0;
    for j := 0 to dw
      invariant tx == Times(j, ax)
      invariant next == Times(k0 + j, s.step)
      invariant ChannelHolds(dest, dstOff, s.step, before + ThumbRow(src, s, dw, dh, i, j))
      invariant forall q :: 0 <= q < dest.Length && !IsSlotIn(q, dstOff, s.step, k0, k0 + dw) ==> dest[q] == old(dest[q])
    {
      var v := OutPixel(src, s, dw, dh, i, j, rowindex, tx);
      ghost var k := k0 + j;
      SlotInside(dest.Length, dstOff, s.step, k0 + dw, k);
      assert IsSlotIn(Slot(dstOff, k, s.step), dstOff, s.step, k0, k0 + dw);
      assert |before + ThumbRow(src, s, dw, dh, i, j)| == k;
      Put(dest, dstOff, s.step, dstOff + next, k, v, before + ThumbRow(src, s, dw, dh, i, j));
      assert before + ThumbRow(src, s, dw, dh, i, j + 1) == (before + ThumbRow(src, s, dw, dh, i, j)) + [v];
      next := next + s.step;
      tx := tx + ax;
    }
  }

  /**
   * `DownsampleChannel(dest, dstWidth, dstHeight, src, srcWidth, srcHeight,
   * step)`, with the two pointers given as offsets into their buffers:
   * output pixel (j, i) of the channel becomes the scaled box sum at
   * source origin (`Origin(j)`, `Origin(i)`), and no other byte of `dest`
   * changes. The source demands more than four pixels each way (so every
   * read stays inside the channel) and a non-empty output.
   */
  method DownsampleChannel(dest: array<byte>, dstOff: nat, dstWidth: int, dstHeight: int,
                           src: seq<byte>, srcOff: nat, srcWidth: int, srcHeight: int, step: nat)
    requires SourceOk(src, Plane(srcOff, step, srcWidth, srcHeight)) && dstWidth > 0 && dstHeight > 0
    requires Fits(dest.Length, dstOff, step, dstWidth * dstHeight)
    modifies dest
    ensures ChannelHolds(dest, dstOff, step, Thumbnail(src, Plane(srcOff, step, srcWidth, srcHeight), dstWidth, dstHeight))
    ensures forall q :: 0 <= q < dest.Length && !IsSlotIn(q, dstOff, step, 0, dstWidth * dstHeight) ==> dest[q] == old(dest[q])
  {
    var s := Plane(srcOff, step, srcWidth, srcHeight);
    ghost var n := Times(dstHeight, dstWidth);
    TimesIsProduct(dstHeight, dstWidth);
    assert n == dstWidth * dstHeight;
    var dstindex := 0;
    var ty := 0;
    var ax := Spacing(srcWidth, dstWidth);
    var ay := Spacing(srcHeight, dstHeight);
    for i := 0 to dstHeight
      invariant ty == Times(i, ay)
      invariant dstindex == Times(Times(i, dstWidth), step)
      invariant ChannelHolds(dest, dstOff, step, ThumbRows(src, s, dstWidth, dstHeight, i))
      invariant forall q :: 0 <= q < dest.Length && !IsSlotIn(q, dstOff, step, 0, n) ==> dest[q] == old(dest[q])
    {
      var rowindex := (ty / FIXED_ONE) * srcWidth;
      TimesIsProduct(ty / FIXED_ONE, srcWidth);
      ghost var k0 := Times(i, dstWidth);
      TimesGrows(i, dstHeight, dstWidth);
      FitsPrefix(dest.Length, dstOff, step, n, k0 + dstWidth);
      dstindex := DownsampleRow(dest, dstOff, dstindex, k0, dstWidth, dstHeight, src, s, i, rowindex, ax);
      SlotsWithin(dstOff, step, k0, k0 + dstWidth, n);
      ty := ty + ay;
    }
  }

  /** A slot outside the first n elements is outside every range of them. */
  lemma SlotsWithin(offset: nat, step: nat, lo: nat, hi: nat, n: nat)
    requires hi <= n
    ensures forall q :: !IsSlotIn(q, offset, step, 0, n) ==> !IsSlotIn(q, offset, step, lo, hi)
  {
  }

  lemma FitsPrefix(len: int, offset: nat, step: nat, n: nat, m: nat)
    requires Fits(len, offset, step, n) && m <= n
    ensures Fits(len, offset, step, m)
  {
    if m > 0 {
      SlotInside(len, offset, step, n, m - 1);
    }
  }

  /** A quarter-size chroma plane fits in a quarter of the luma plane. */
  lemma QuarterPlane(w: nat, h: nat)
    ensures (w / 2) * (h / 2) <= (w * h) / 4
  {
    var a, b := w / 2, h / 2;
    assert w >= 2 * a && h >= 2 * b;
    MulLe(2 * a, w, h);
    MulLe(2 * b, h, 2 * a);
    assert 4 * (a * b) == (2 * b) * (2 * a);
    assert w * h == h * w;
  }

  /** With step 1 the channel at `offset` occupies exactly `offset .. offset + n - 1`. */
  lemma DenseSlots(q: int, offset: nat, n: nat)
    ensures IsSlotIn(q, offset, 1, 0, n) <==> offset <= q < offset + n
  {
    forall k: nat
      ensures Times(k, 1) == k
    {
      TimesIsProduct(k, 1);
    }
    if offset <= q < offset + n {
      assert q == Slot(offset, q - offset, 1);
    }
  }

  /** With step 3 the channels at offsets 0, 1 and 2 never share a byte. */
  lemma InterleavedSlots(q: int, offset: nat, n: nat)
    requires offset < 3
    ensures IsSlotIn(q, offset, 3, 0, n) ==> q % 3 == offset
  {
    if IsSlotIn(q, offset, 3, 0, n) {
      var k: nat :| k < n && q == Slot(offset, k, 3);
      TimesIsProduct(k, 3);
      assert q == offset + 3 * k;
    }
  }

  /** The bytes of buffer contents `buf` at the channel's slots are t. */
  ghost predicate SeqHolds(buf: seq<byte>, offset: nat, step: nat, t: seq<byte>)
  {
    forall k: nat :: k < |t| ==> Slot(offset, k, step) < |buf| && buf[Slot(offset, k, step)] == t[k]
  }

  lemma Snapshot(dest: array<byte>, offset: nat, step: nat, t: seq<byte>)
    requires ChannelHolds(dest, offset, step, t)
    ensures SeqHolds(dest[..], offset, step, t)
  {
  }

  /** A channel written earlier keeps its bytes when a later write only changes bytes outside it. */
  lemma Kept(dest: array<byte>, before: seq<byte>, offset: nat, step: nat, t: seq<byte>, offset2: nat, step2: nat, n2: nat)
    requires |before| == dest.Length && SeqHolds(before, offset, step, t)
    requires forall q :: 0 <= q < dest.Length && !IsSlotIn(q, offset2, step2, 0, n2) ==> dest[q] == before[q]
    requires forall k: nat :: k < |t| ==> !IsSlotIn(Slot(offset, k, step), offset2, step2, 0, n2)
    ensures ChannelHolds(dest, offset, step, t)
  {
  }

  /** A dense channel that ends before `start` survives a write confined to the dense channel from `start`. */
  lemma KeptBefore(dest: array<byte>, before: seq<byte>, offset: nat, t: seq<byte>, start: nat, n: nat)
    requires |before| == dest.Length && SeqHolds(before, offset, 1, t) && offset + |t| <= start
    requires forall q :: 0 <= q < dest.Length && !IsSlotIn(q, start, 1, 0, n) ==> dest[q] == before[q]
    ensures ChannelHolds(dest, offset, 1, t)
  {
    DenseApart(t, offset, start, n);
    Kept(dest, before, offset, 1, t, start, 1, n);
  }

  /** The YUV420p planes of a `w × h` image: Y, then U and V at a quarter of the size each. */
  predicate PlanarFits(len: int, w: int, h: int)
  {
    w > 0 && h > 0 && w * h + 2 * ((w * h) / 4) <= len
  }

  /** Plane p (0 = Y, 1 = U, 2 = V) of a `w × h` YUV420p image. */
  function PlanarChannel(w: nat, h: nat, p: nat): Plane
  {
    if p == 0 then Plane(0, 1, w, h)
    else if p == 1 then Plane(w * h, 1, w / 2, h / 2)
    else Plane(w * h + (w * h) / 4, 1, w / 2, h / 2)
  }

  /** Plane p of a `w × h` YUV420p image lies inside a buffer the image fits in. */
  lemma PlaneFits(len: int, w: nat, h: nat, p: nat)
    requires w >= 2 && h >= 2 && PlanarFits(len, w, h) && p < 3
    ensures Fits(len, PlanarChannel(w, h, p).offset, 1, if p == 0 then w * h else (w / 2) * (h / 2))
  {
    QuarterPlane(w, h);
    var n := if p == 0 then w * h else (w / 2) * (h / 2);
    assert n > 0 by {
      MulLe(1, w / 2, h / 2);
      MulLe(1, w, h);
    }
    TimesIsProduct(n - 1, 1);
  }

  /** Plane p of the thumbnail of a YUV420p image, the chroma planes from half-size planes. */
  function PlanarThumbnail(src: seq<byte>, sw: nat, sh: nat, dw: nat, dh: nat, p: nat): (t: seq<byte>)
    requires sw >= 10 && sh >= 10 && dw >= 2 && dh >= 2 && PlanarFits(|src|, sw, sh) && p < 3
    ensures |t| == if p == 0 then dw * dh else (dw / 2) * (dh / 2)
  {
    PlaneFits(|src|, sw, sh, p);
    var s := PlanarChannel(sw, sh, p);
    FitsSource(src, s);
    if p == 0 then Thumbnail(src, s, dw, dh) else Thumbnail(src, s, dw / 2, dh / 2)
  }

  /** A chroma plane's thumbnail is the half-size thumbnail of that plane of the source. */
  lemma PlanarThumbnailIs(src: seq<byte>, sw: nat, sh: nat, dw: nat, dh: nat, p: nat)
    requires sw >= 10 && sh >= 10 && dw >= 2 && dh >= 2 && PlanarFits(|src|, sw, sh) && 1 <= p < 3
    ensures SourceOk(src, PlanarChannel(sw, sh, p))
    ensures PlanarThumbnail(src, sw, sh, dw, dh, p) == Thumbnail(src, PlanarChannel(sw, sh, p), dw / 2, dh / 2)
  {
    PlaneFits(|src|, sw, sh, p);
    FitsSource(src, PlanarChannel(sw, sh, p));
  }

  /** Colour c (0 = R, 1 = G, 2 = B) of an RGB24 image of `w × h` pixels lies inside its buffer. */
  lemma ColourFits(len: int, w: nat, h: nat, c: nat)
    requires w > 0 && h > 0 && 3 * (w * h) <= len && c < 3
    ensures Fits(len, c, 3, w * h)
  {
    MulLe(1, w, h);
    TimesIsProduct(w * h - 1, 3);
  }

  /** Colour c of the thumbnail of an RGB24 image. */
  function InterleavedThumbnail(src: seq<byte>, sw: nat, sh: nat, dw: nat, dh: nat, c: nat): (t: seq<byte>)
    requires sw > 4 && sh > 4 && dw > 0 && dh > 0 && 3 * (sw * sh) <= |src| && c < 3
    ensures |t| == dw * dh
  {
    ColourFits(|src|, sw, sh, c);
    var s := Plane(c, 3, sw, sh);
    FitsSource(src, s);
    Thumbnail(src, s, dw, dh)
  }

  /**
   * `CreateThumbnail(dest, source)`: when both images have the same type,
   * each channel of `dest` becomes the downsampled channel of the source:
   * the Y, U and V planes of YUV420p (the chroma planes at half the width
   * and height), or the three interleaved colours of RGB24. For any other
   * type, or when the types differ, `dest` is left as it was.
   */
  method CreateThumbnail(dest: array<byte>, destType: ImageFormat, dw: int, dh: int,
                         src: seq<byte>, srcType: ImageFormat, sw: int, sh: int)
    requires destType == srcType && srcType == YUV420p ==>
               sw >= 10 && sh >= 10 && dw >= 2 && dh >= 2 &&
               PlanarFits(|src|, sw, sh) && PlanarFits(dest.Length, dw, dh)
    requires destType == srcType && srcType == RGB24 ==>
               sw > 4 && sh > 4 && dw > 0 && dh > 0 &&
               3 * (sw * sh) <= |src| && 3 * (dw * dh) <= dest.Length
    modifies dest
    ensures destType != srcType || (srcType != YUV420p && srcType != RGB24) ==> dest[..] == old(dest[..])
    ensures destType == srcType && srcType == YUV420p ==>
              forall p :: 0 <= p < 3 ==>
                ChannelHolds(dest, PlanarChannel(dw, dh, p).offset, 1, PlanarThumbnail(src, sw, sh, dw, dh, p))
    ensures destType == srcType && srcType == RGB24 ==>
              forall c :: 0 <= c < 3 ==> ChannelHolds(dest, c, 3, InterleavedThumbnail(src, sw, sh, dw, dh, c))
  {
    if srcType != destType {
      return;
    }
    match srcType {
      case YUV420p =>
        CreatePlanar(dest, dw, dh, src, sw, sh);
      case RGB24 =>
        CreateInterleaved(dest, dw, dh, src, sw, sh);
      case _ =>
    }
  }

  /** The YUV420p case: Y at full size, then U and V at half the width and height. */
  method CreatePlanar(dest: array<byte>, dw: int, dh: int, src: seq<byte>, sw: int, sh: int)
    requires sw >= 10 && sh >= 10 && dw >= 2 && dh >= 2
    requires PlanarFits(|src|, sw, sh) && PlanarFits(dest.Length, dw, dh)
    modifies dest
    ensures forall p :: 0 <= p < 3 ==>
              ChannelHolds(dest, PlanarChannel(dw, dh, p).offset, 1, PlanarThumbnail(src, sw, sh, dw, dh, p))
  {
    DownsampleY(dest, dw, dh, src, sw, sh);
    DownsampleU(dest, dw, dh, src, sw, sh);
    DownsampleV(dest, dw, dh, src, sw, sh);
    EveryPlane(dest, src, sw, sh, dw, dh);
  }

  /** The Y plane: the full-size channel at the start of both buffers. */
  method DownsampleY(dest: array<byte>, dw: int, dh: int, src: seq<byte>, sw: int, sh: int)
    requires sw >= 10 && sh >= 10 && dw >= 2 && dh >= 2
    requires PlanarFits(|src|, sw, sh) && PlanarFits(dest.Length, dw, dh)
    modifies dest
    ensures ChannelHolds(dest, 0, 1, PlanarThumbnail(src, sw, sh, dw, dh, 0))
  {
    PlaneFits(|src|, sw, sh, 0);
    FitsSource(src, Plane(0, 1, sw, sh));
    PlaneFits(dest.Length, dw, dh, 0);
    DownsampleChannel(dest, 0, dw, dh, src, 0, sw, sh, 1);
    assert PlanarThumbnail(src, sw, sh, dw, dh, 0) == Thumbnail(src, Plane(0, 1, sw, sh), dw, dh);
  }

  /** The U plane: both pointers advanced past the Y plane, all sizes halved; Y is kept. */
  method DownsampleU(dest: array<byte>, dw: int, dh: int, src: seq<byte>, sw: int, sh: int)
    requires sw >= 10 && sh >= 10 && dw >= 2 && dh >= 2
    requires PlanarFits(|src|, sw, sh) && PlanarFits(dest.Length, dw, dh)
    requires ChannelHolds(dest, 0, 1, PlanarThumbnail(src, sw, sh, dw, dh, 0))
    modifies dest
    ensures ChannelHolds(dest, 0, 1, PlanarThumbnail(src, sw, sh, dw, dh, 0))
    ensures ChannelHolds(dest, dw * dh, 1, PlanarThumbnail(src, sw, sh, dw, dh, 1))
  {
    ghost var y := PlanarThumbnail(src, sw, sh, dw, dh, 0);
    var dstdata, srcdata := dw * dh, sw * sh;
    var hw, hh, hsw, hsh := dw / 2, dh / 2, sw / 2, sh / 2;
    PlaneFits(|src|, sw, sh, 1);
    FitsSource(src, Plane(srcdata, 1, hsw, hsh));
    PlaneFits(dest.Length, dw, dh, 1);
    Snapshot(dest, 0, 1, y);
    ghost var before := dest[..];
    DownsampleChannel(dest, dstdata, hw, hh, src, srcdata, hsw, hsh, 1);
    PlanarThumbnailIs(src, sw, sh, dw, dh, 1);
    assert PlanarChannel(sw, sh, 1) == Plane(srcdata, 1, hsw, hsh);
    KeptBefore(dest, before, 0, y, dstdata, hw * hh);
  }

  /** The V plane: both pointers advanced a quarter of the Y plane past U; Y and U are kept. */
  method DownsampleV(dest: array<byte>, dw: int, dh: int, src: seq<byte>, sw: int, sh: int)
    requires sw >= 10 && sh >= 10 && dw >= 2 && dh >= 2
    requires PlanarFits(|src|, sw, sh) && PlanarFits(dest.Length, dw, dh)
    requires ChannelHolds(dest, 0, 1, PlanarThumbnail(src, sw, sh, dw, dh, 0))
    requires ChannelHolds(dest, dw * dh, 1, PlanarThumbnail(src, sw, sh, dw, dh, 1))
    modifies dest
    ensures ChannelHolds(dest, 0, 1, PlanarThumbnail(src, sw, sh, dw, dh, 0))
    ensures ChannelHolds(dest, dw * dh, 1, PlanarThumbnail(src, sw, sh, dw, dh, 1))
    ensures ChannelHolds(dest, dw * dh + (dw * dh) / 4, 1, PlanarThumbnail(src, sw, sh, dw, dh, 2))
  {
    ghost var y := PlanarThumbnail(src, sw, sh, dw, dh, 0);
    ghost var u := PlanarThumbnail(src, sw, sh, dw, dh, 1);
    var dstdata, srcdata := dw * dh + (dw * dh) / 4, sw * sh + (sw * sh) / 4;
    var hw, hh, hsw, hsh := dw / 2, dh / 2, sw / 2, sh / 2;
    QuarterPlane(dw, dh);
    PlaneFits(|src|, sw, sh, 2);
    FitsSource(src, Plane(srcdata, 1, hsw, hsh));
    PlaneFits(dest.Length, dw, dh, 2);
    Snapshot(dest, 0, 1, y);
    Snapshot(dest, dw * dh, 1, u);
    ghost var before := dest[..];
    DownsampleChannel(dest, dstdata, hw, hh, src, srcdata, hsw, hsh, 1);
    PlanarThumbnailIs(src, sw, sh, dw, dh, 2);
    assert PlanarChannel(sw, sh, 2) == Plane(srcdata, 1, hsw, hsh);
    KeptBefore(dest, before, 0, y, dstdata, hw * hh);
    KeptBefore(dest, before, dw * dh, u, dstdata, hw * hh);
  }

  lemma EveryPlane(dest: array<byte>, src: seq<byte>, sw: nat, sh: nat, dw: nat, dh: nat)
    requires sw >= 10 && sh >= 10 && dw >= 2 && dh >= 2 && PlanarFits(|src|, sw, sh)
    requires ChannelHolds(dest, PlanarChannel(dw, dh, 0).offset, 1, PlanarThumbnail(src, sw, sh, dw, dh, 0))
    requires ChannelHolds(dest, PlanarChannel(dw, dh, 1).offset, 1, PlanarThumbnail(src, sw, sh, dw, dh, 1))
    requires ChannelHolds(dest, PlanarChannel(dw, dh, 2).offset, 1, PlanarThumbnail(src, sw, sh, dw, dh, 2))
    ensures forall p :: 0 <= p < 3 ==>
              ChannelHolds(dest, PlanarChannel(dw, dh, p).offset, 1, PlanarThumbnail(src, sw, sh, dw, dh, p))
  {
  }

  /** A dense channel t at `offset` ends before a later dense channel starts at `start`. */
  lemma DenseApart(t: seq<byte>, offset: nat, start: nat, n: nat)
    requires offset + |t| <= start
    ensures forall k: nat :: k < |t| ==> !IsSlotIn(Slot(offset, k, 1), start, 1, 0, n)
  {
    forall k: nat | k < |t|
      ensures !IsSlotIn(Slot(offset, k, 1), start, 1, 0, n)
    {
      TimesIsProduct(k, 1);
      DenseSlots(Slot(offset, k, 1), start, n);
    }
  }

  /** The RGB24 case: the three colours interleaved with step 3, each pointer one byte further. */
  method CreateInterleaved(dest: array<byte>, dw: int, dh: int, src: seq<byte>, sw: int, sh: int)
    requires sw > 4 && sh > 4 && dw > 0 && dh > 0
    requires 3 * (sw * sh) <= |src| && 3 * (dw * dh) <= dest.Length
    modifies dest
    ensures forall c :: 0 <= c < 3 ==> ChannelHolds(dest, c, 3, InterleavedThumbnail(src, sw, sh, dw, dh, c))
  {
    ColourFits(|src|, sw, sh, 0);
    FitsSource(src, Plane(0, 3, sw, sh));
    ColourFits(dest.Length, dw, dh, 0);
    DownsampleChannel(dest, 0, dw, dh, src, 0, sw, sh, 3);
    assert InterleavedThumbnail(src, sw, sh, dw, dh, 0) == Thumbnail(src, Plane(0, 3, sw, sh), dw, dh);
    DownsampleColour(dest, dw, dh, src, sw, sh, 1);
    DownsampleColour(dest, dw, dh, src, sw, sh, 2);
  }

  /** Colour c of the thumbnail, keeping the colours before it. */
  method DownsampleColour(dest: array<byte>, dw: int, dh: int, src: seq<byte>, sw: int, sh: int, c: nat)
    requires sw > 4 && sh > 4 && dw > 0 && dh > 0 && 0 < c < 3
    requires 3 * (sw * sh) <= |src| && 3 * (dw * dh) <= dest.Length
    requires forall e :: 0 <= e < c ==> ChannelHolds(dest, e, 3, InterleavedThumbnail(src, sw, sh, dw, dh, e))
    modifies dest
    ensures forall e :: 0 <= e <= c ==> ChannelHolds(dest, e, 3, InterleavedThumbnail(src, sw, sh, dw, dh, e))
  {
    ColourFits(|src|, sw, sh, c);
    FitsSource(src, Plane(c, 3, sw, sh));
    ColourFits(dest.Length, dw, dh, c);
    forall e | 0 <= e < c
      ensures SeqHolds(dest[..], e, 3, InterleavedThumbnail(src, sw, sh, dw, dh, e))
    {
      Snapshot(dest, e, 3, InterleavedThumbnail(src, sw, sh, dw, dh, e));
    }
    ghost var before := dest[..];
    DownsampleChannel(dest, c, dw, dh, src, c, sw, sh, 3);
    assert InterleavedThumbnail(src, sw, sh, dw, dh, c) == Thumbnail(src, Plane(c, 3, sw, sh), dw, dh);
    forall e | 0 <= e < c
      ensures ChannelHolds(dest, e, 3, InterleavedThumbnail(src, sw, sh, dw, dh, e))
    {
      ghost var t := InterleavedThumbnail(src, sw, sh, dw, dh, e);
      InterleavedApart(t, e, c, dw * dh);
      Kept(dest, before, e, 3, t, c, 3, dw * dh);
    }
  }

  /** Two colours of an interleaved image never share a byte. */
  lemma InterleavedApart(t: seq<byte>, c1: nat, c2: nat, n: nat)
    requires c1 < 3 && c2 < 3 && c1 != c2
    ensures forall k: nat :: k < |t| ==> !IsSlotIn(Slot(c1, k, 3), c2, 3, 0, n)
  {
    forall k: nat | k < |t|
      ensures !IsSlotIn(Slot(c1, k, 3), c2, 3, 0, n)
    {
      InterleavedSlots(Slot(c1, k, 3), c2, n);
      TimesIsProduct(k, 3);
      assert Slot(c1, k, 3) % 3 == c1;
    }
  }
}

=== FILE: tiff.dfy ===
/**
 * The TIFF container the DNG writer and reader are built on
 * (external/FCam/processing/TIFF.cpp): IFD entries that hold a TagValue
 * and know their TIFF field type, the directories (IFDs) that map tag
 * numbers to entries, the strip layout of an image, and the 8-byte file
 * header.
 *
 * Files are byte sequences; the host is little-endian (ARM), as are the
 * files the library writes. The table of known tags and their field types
 * (TIFFTags.cpp) is not part of this model: it is a parameter, a map from
 * tag number to type code. Conversions between doubles and rationals are
 * floating point and are parameters too.
 */
module TiffFiles {
  import opened Wrappers
  import opened Bytes
  import TV = TagValues

  // -------------------------------------------------------------------
  // Field types (`enum TiffType`)
  // -------------------------------------------------------------------

  const BYTE := 1
  const ASCII := 2
  const SHORT := 3
  const LONG := 4
  const RATIONAL := 5
  const SBYTE := 6
  const UNDEFINED := 7
  const SSHORT := 8
  const SLONG := 9
  const SRATIONAL := 10
  const FLOAT := 11
  const DOUBLE := 12
  const IFD := 13

  predicate IsType(t: int)
  {
    BYTE <= t <= IFD
  }

  /** The integer field types, whose elements are 1, 2 or 4 bytes wide. */
  predicate IsIntType(t: int)
  {
    t == BYTE || t == SBYTE || t == SHORT || t == SSHORT || t == LONG || t == SLONG || t == IFD
  }

  /** The size of one element of a field of type t; 0 for a code outside the enumeration. */
  function BytesPerElement(t: int): (n: nat)
    ensures n == 0 <==> !IsType(t)
    ensures n == 1 || n == 2 || n == 4 || n == 8 || n == 0
    ensures t == BYTE || t == SBYTE ==> n == 1
    ensures t == SHORT || t == SSHORT ==> n == 2
    ensures t == LONG || t == SLONG || t == IFD ==> n == 4
  {
    if t == BYTE || t == ASCII || t == SBYTE || t == UNDEFINED then 1
    else if t == SHORT || t == SSHORT then 2
    else if t == LONG || t == SLONG || t == FLOAT || t == IFD then 4
    else if t == RATIONAL || t == SRATIONAL || t == DOUBLE then 8
    else 0
  }

  /** The known tags and the field type each is declared with (`tiffEntryLookup`). */
  type TagTable = map<int, int>

  predicate TableOk(table: TagTable)
  {
    forall t :: t in table ==> IsType(table[t])
  }

  function Lookup(table: TagTable, tag: int): (info: Option<int>)
    ensures info.Some? <==> tag in table
  {
    if tag in table then Some(table[tag]) else None
  }

  // -------------------------------------------------------------------
  // Which values an entry accepts (`setValue`)
  // -------------------------------------------------------------------

  /**
   * For a known tag: whether a value of kind k may be stored in an entry
   * of type t. Ints go into any integer type, floats into FLOAT or DOUBLE,
   * doubles into DOUBLE, FLOAT or either rational, strings into ASCII or
   * the byte types; nulls and times go nowhere.
   */
  predicate Compatible(t: int, k: TV.Kind)
  {
    match k
    case Int | IntVector => IsIntType(t)
    case Float | FloatVector => t == FLOAT || t == DOUBLE
    case Double | DoubleVector => t == DOUBLE || t == FLOAT || t == RATIONAL || t == SRATIONAL
    case String | StringVector => t == ASCII || t == BYTE || t == SBYTE
    case _ => false
  }

  /**
   * For a tag the table does not know: the type setValue gives the entry,
   * chosen from the value's kind; None for the kinds it rejects.
   */
  function TypeForKind(k: TV.Kind): (t: Option<int>)
    ensures t.None? <==> k == TV.Null || k == TV.Time || k == TV.TimeVector
    ensures t.Some? ==> Compatible(t.value, k)
    ensures k == TV.Int || k == TV.IntVector ==> t == Some(SLONG)
    ensures k == TV.Float || k == TV.FloatVector ==> t == Some(FLOAT)
    ensures k == TV.Double || k == TV.DoubleVector ==> t == Some(DOUBLE)
    ensures k == TV.String || k == TV.StringVector ==> t == Some(ASCII)
  {
    match k
    case Int | IntVector => Some(SLONG)
    case Float | FloatVector => Some(FLOAT)
    case Double | DoubleVector => Some(DOUBLE)
    case String | StringVector => Some(ASCII)
    case _ => None
  }

  /** Whether setValue accepts a value of kind k into an entry with table type info and current type t. */
  predicate Accepts(info: Option<int>, t: int, k: TV.Kind)
  {
    if info.None? then TypeForKind(k).Some? else Compatible(t, k)
  }

  /** Nulls and times are refused whatever the tag; a tag the table does not know takes every other kind. */
  lemma AcceptedKinds(info: Option<int>, t: int, k: TV.Kind)
    ensures k == TV.Null || k == TV.Time || k == TV.TimeVector ==> !Accepts(info, t, k)
    ensures info.None? ==> (Accepts(info, t, k) <==> !(k == TV.Null || k == TV.Time || k == TV.TimeVector))
    ensures Accepts(info, t, k) ==> Compatible(if info.None? then TypeForKind(k).value else t, k)
  {
  }

  // -------------------------------------------------------------------
  // Element counts and the bytes of a field
  // -------------------------------------------------------------------

  /** Whether a string holds no NUL, so that a NUL can end it. */
  predicate NoNul(s: TV.Text)
  {
    forall k :: 0 <= k < |s| ==> s[k] != '\0'
  }

  /** The total length of a string vector with a NUL after each string. */
  function TerminatedLength(ss: seq<TV.Text>): (n: nat)
    ensures ss != [] ==> n >= |ss[0]| + 1
  {
    if ss == [] then 0 else |ss[0]| + 1 + TerminatedLength(ss[1..])
  }

  /**
   * The element count writeDataBlock gives the entry: 1 for a scalar, the
   * length of a vector, the length plus the NUL of an ASCII string, and
   * the terminated total of a string vector; None for the kinds it refuses.
   */
  function ElementCount(t: int, v: TV.Value): (n: Option<nat>)
    ensures n.None? <==> v.Kind() == TV.Null || v.Kind() == TV.Time || v.Kind() == TV.TimeVector
    ensures v.IntValue? || v.FloatValue? || v.DoubleValue? ==> n == Some(1)
    ensures v.IntVectorValue? ==> n == Some(|v.ints|)
    ensures v.FloatVectorValue? ==> n == Some(|v.floats|)
    ensures v.DoubleVectorValue? ==> n == Some(|v.doubles|)
    ensures v.StringValue? ==> n == Some(if t == ASCII then |v.s| + 1 else |v.s|)
    ensures v.StringVectorValue? ==> n == Some(TerminatedLength(v.strings))
  {
    match v
    case IntValue(_) => Some(1)
    case FloatValue(_) => Some(1)
    case DoubleValue(_) => Some(1)
    case IntVectorValue(xs) => Some(|xs|)
    case FloatVectorValue(xs) => Some(|xs|)
    case DoubleVectorValue(xs) => Some(|xs|)
    case StringValue(s) => Some(if t == ASCII then |s| + 1 else |s|)
    case StringVectorValue(ss) => Some(TerminatedLength(ss))
    case _ => None
  }

  /** An int converted to an unsigned integer of w bytes (the C conversion keeps it modulo 2^(8w)), stored. */
  function Unit(x: int, w: nat): (bs: seq<byte>)
    requires w == 1 || w == 2 || w == 4
    ensures |bs| == w
  {
    if w == 1 then [x % 256] else if w == 2 then U16ToLe(x % TWO_16) else U32ToLe(x % TWO_32)
  }

  function Units(xs: seq<int>, w: nat): (bs: seq<byte>)
    requires w == 1 || w == 2 || w == 4
    ensures |bs| == w * |xs|
  {
    if xs == [] then [] else Unit(xs[0], w) + Units(xs[1..], w)
  }

  /** The strings with a NUL after each, as an ASCII field holds them. */
  function Terminated(ss: seq<TV.Text>): (bs: seq<byte>)
    ensures |bs| == TerminatedLength(ss)
  {
    if ss == [] then [] else TV.Codes(ss[0]) + [0] + Terminated(ss[1..])
  }

  function Words32(xs: seq<TV.Word32>): (bs: seq<byte>)
    ensures |bs| == 4 * |xs|
  {
    if xs == [] then [] else U32ToLe(xs[0]) + Words32(xs[1..])
  }

  /** A double's bits as they lie in memory. */
  function Word64Le(x: TV.Word64): (bs: seq<byte>)
    ensures |bs| == 8
  {
    U32ToLe(x % TWO_32) + U32ToLe(x / TWO_32)
  }

  function Words64(xs: seq<TV.Word64>): (bs: seq<byte>)
    ensures |bs| == 8 * |xs|
  {
    if xs == [] then [] else Word64Le(xs[0]) + Words64(xs[1..])
  }

  function Zeros(n: nat): (bs: seq<byte>)
    ensures |bs| == n && forall k :: 0 <= k < n ==> bs[k] == 0
  {
    seq(n, k => 0)
  }

  type I32 = x: int | -0x8000_0000 <= x < 0x8000_0000

  /**
   * The numerator `vd * (1 << 20)` the writer stores for a double (given by
   * its bits), after clamping negative values to 0 when the flag (an
   * unsigned RATIONAL) is set. Floating point, so a parameter.
   */
  type Numerator = (TV.Word64, bool) -> I32

  /** A rational as written: the numerator over the fixed denominator 2^20. */
  function Rational(x: TV.Word64, unsigned: bool, num: Numerator): (bs: seq<byte>)
    ensures |bs| == 8
  {
    I32ToLe(num(x, unsigned)) + I32ToLe(0x10_0000)
  }

  function Rationals(xs: seq<TV.Word64>, unsigned: bool, num: Numerator): (bs: seq<byte>)
    ensures |bs| == 8 * |xs|
  {
    if xs == [] then [] else Rational(xs[0], unsigned, num) + Rationals(xs[1..], unsigned, num)
  }

  /**
   * The bytes writeDataBlock stores for value v in an entry of type t,
   * whether they go into the offset field or into the file; None where the
   * C++ reads an element that is not there (the first element of an empty
   * vector, or of the empty dummy a failed vector cast hands out).
   * A DOUBLE entry holding one element reads it with a scalar `double`
   * cast, so a Float, or a one-element vector, is written as 0.0.
   */
  function Data(t: int, v: TV.Value, num: Numerator): (d: Option<seq<byte>>)
    ensures d.Some? ==> ElementCount(t, v).Some?
    ensures d.Some? ==> |d.value| == BytesPerElement(t) * ElementCount(t, v).value
  {
    match v
    case IntValue(x) =>
      if IsIntType(t) then Some(Unit(x, BytesPerElement(t))) else None
    case IntVectorValue(xs) =>
      if !IsIntType(t) || (BytesPerElement(t) == 4 && xs == []) then None
      else Some(Units(xs, BytesPerElement(t)))
    case StringValue(s) =>
      if t == ASCII then Some(TV.Codes(s) + [0])
      else if t == BYTE || t == SBYTE || t == UNDEFINED then Some(TV.Codes(s))
      else None
    case StringVectorValue(ss) =>
      if t == ASCII then Some(Terminated(ss))
      else if (t == BYTE || t == SBYTE) && ss == [] then Some([])
      else None
    case FloatValue(f) =>
      if t == FLOAT then Some(U32ToLe(f))
      else if t == DOUBLE then Some(Zeros(8))
      else None
    case FloatVectorValue(xs) =>
      if t == FLOAT && xs != [] then Some(Words32(xs))
      else if t == DOUBLE && |xs| <= 1 then Some(Zeros(8 * |xs|))
      else None
    case DoubleValue(x) =>
      if t == DOUBLE then Some(Word64Le(x))
      else if t == RATIONAL || t == SRATIONAL then Some(Rational(x, t == RATIONAL, num))
      else None
    case DoubleVectorValue(xs) =>
      if t == DOUBLE then (if |xs| == 1 then Some(Zeros(8)) else Some(Words64(xs)))
      else if t == RATIONAL || t == SRATIONAL then Some(Rationals(xs, t == RATIONAL, num))
      else None
    case _ => None
  }

  /** A one-element double vector in a DOUBLE entry is stored as 0.0, whatever it holds. */
  lemma OneDoubleWrittenAsZero(x: TV.Word64, num: Numerator)
    ensures Data(DOUBLE, TV.DoubleVectorValue([x]), num) == Some(Zeros(8))
    ensures x != 0 ==> Data(DOUBLE, TV.DoubleVectorValue([x]), num) != Some(Word64Le(x))
  {
    if x != 0 {
      var bs := Word64Le(x);
      assert bs[..4] == U32ToLe(x % TWO_32) && bs[4..] == U32ToLe(x / TWO_32);
      U32RoundTrip(x % TWO_32);
      U32RoundTrip(x / TWO_32);
      assert x % TWO_32 != 0 || x / TWO_32 != 0;
      assert bs[..4] != Zeros(4) || bs[4..] != Zeros(4);
    }
  }

  /**
   * The data writeDataBlock evidently means to store: a one-element double
   * vector in a DOUBLE entry is written as its element, like a double.
   */
  function DataFixed(t: int, v: TV.Value, num: Numerator): (d: Option<seq<byte>>)
    ensures d.Some? ==> ElementCount(t, v).Some?
    ensures d.Some? ==> |d.value| == BytesPerElement(t) * ElementCount(t, v).value
  {
    if t == DOUBLE && v.DoubleVectorValue? && |v.doubles| == 1 then Some(Words64(v.doubles))
    else Data(t, v, num)
  }

  // -------------------------------------------------------------------
  // Reading a field back (`parse`)
  // -------------------------------------------------------------------

  /** What `parse` yields: a value, a failure (the caller gets a Null value), or undefined behaviour. */
  datatype Parsed = Parsed(v: TV.Value) | Failed | Undefined

  /** The C conversions of `double(num) / double(den)`, as the bits of the double; floating point. */
  type Ratio = (int, int) -> TV.Word64

  /** The integer types whose elements read back as ints (the byte types read back as strings). */
  predicate IsWideIntType(t: int)
  {
    t == SHORT || t == SSHORT || t == LONG || t == SLONG || t == IFD
  }

  function Signed16(u: int): (v: int)
    requires 0 <= u < TWO_16
    ensures -0x8000 <= v < 0x8000
  {
    if u >= 0x8000 then u - TWO_16 else u
  }

  /**
   * One stored integer read back: SHORT unsigned, SSHORT through an
   * `int16_t`, and the 4-byte types through a signed `int`, so a LONG
   * above 2^31 comes back negative.
   */
  function Element(bs: seq<byte>, t: int): (x: int)
    requires IsWideIntType(t) && |bs| == BytesPerElement(t)
    ensures TV.IsInt32(x)
  {
    if t == SHORT then LeToU16(bs)
    else if t == SSHORT then Signed16(LeToU16(bs))
    else ToSigned32(LeToU32(bs))
  }

  function Elements(data: seq<byte>, t: int, n: nat): (xs: seq<int>)
    requires IsWideIntType(t) && |data| == BytesPerElement(t) * n
    ensures |xs| == n && forall k :: 0 <= k < n ==> TV.IsInt32(xs[k])
  {
    var w := BytesPerElement(t);
    if n == 0 then [] else [Element(data[..w], t)] + Elements(data[w..], t, n - 1)
  }

  function DoubleAt(bs: seq<byte>): (x: TV.Word64)
    requires |bs| == 8
  {
    LeToU32(bs[..4]) + TWO_32 * LeToU32(bs[4..])
  }

  function Doubles(data: seq<byte>, n: nat): (xs: seq<TV.Word64>)
    requires |data| == 8 * n
    ensures |xs| == n
  {
    if n == 0 then [] else [DoubleAt(data[..8])] + Doubles(data[8..], n - 1)
  }

  /** A rational read back: numerator and denominator unsigned, or signed for SRATIONAL, divided as doubles. */
  function RationalAt(bs: seq<byte>, signed: bool, ratio: Ratio): TV.Word64
    requires |bs| == 8
  {
    var num := LeToU32(bs[..4]);
    var den := LeToU32(bs[4..]);
    if signed then ratio(ToSigned32(num), ToSigned32(den)) else ratio(num, den)
  }

  function RationalsAt(data: seq<byte>, signed: bool, n: nat, ratio: Ratio): (xs: seq<TV.Word64>)
    requires |data| == 8 * n
    ensures |xs| == n
  {
    if n == 0 then [] else [RationalAt(data[..8], signed, ratio)] + RationalsAt(data[8..], signed, n - 1, ratio)
  }

  /**
   * The strings of an ASCII field: each piece that a NUL ends, `cur` being
   * the piece read so far; bytes after the last NUL are dropped.
   */
  function Split(data: seq<byte>, cur: TV.Text): (ss: seq<TV.Text>)
  {
    if data == [] then []
    else if data[0] == 0 then [cur] + Split(data[1..], [])
    else Split(data[1..], cur + [data[0] as char])
  }

  /**
   * The value `parse` makes of the n elements in data: the byte types give
   * a string, ASCII one string or, when it holds several, a string vector;
   * the other types give a scalar for one element and a vector for more.
   * An ASCII field without a NUL, a scalar read from an empty field, and
   * every FLOAT field (`convFloat` dereferences the 32-bit value as an
   * address) are undefined.
   */
  function Decode(t: int, n: nat, data: seq<byte>, ratio: Ratio): (p: Parsed)
    requires IsType(t) && |data| == BytesPerElement(t) * n
    ensures p.Parsed? ==> p.v.Kind() != TV.Null
    ensures t == FLOAT ==> p == Undefined
  {
    if t == BYTE || t == SBYTE || t == UNDEFINED then Parsed(TV.StringValue(TV.Chars(data)))
    else if t == ASCII then
      var ss := Split(data, []);
      if |ss| > 1 then Parsed(TV.StringVectorValue(ss))
      else if |ss| == 1 then Parsed(TV.StringValue(ss[0]))
      else Undefined
    else if t == FLOAT || n == 0 then Undefined
    else if t == RATIONAL || t == SRATIONAL then
      var xs := RationalsAt(data, t == SRATIONAL, n, ratio);
      if n > 1 then Parsed(TV.DoubleVectorValue(xs)) else Parsed(TV.DoubleValue(xs[0]))
    else if t == DOUBLE then
      var xs := Doubles(data, n);
      if n > 1 then Parsed(TV.DoubleVectorValue(xs)) else Parsed(TV.DoubleValue(xs[0]))
    else
      var xs := Elements(data, t, n);
      if n > 1 then Parsed(TV.IntVectorValue(xs)) else Parsed(TV.IntValue(xs[0]))
  }

  /**
   * The type check `parse` makes for a known tag declared with type
   * `declared`: the unsigned integer types stand in for each other, as do
   * the signed ones; an IFD tag also takes LONG; the others must match.
   */
  predicate ReadCompatible(declared: int, t: int)
  {
    if declared == BYTE || declared == SHORT || declared == LONG then t == BYTE || t == SHORT || t == LONG
    else if declared == SBYTE || declared == SSHORT || declared == SLONG then t == SBYTE || t == SSHORT || t == SLONG
    else if declared == IFD then t == LONG || t == IFD
    else t == declared
  }

  /** Data fits the 4-byte offset field exactly when the count is at most `4 / bytesPerElement`. */
  lemma FitsInField(count: nat, bpe: nat)
    requires bpe == 1 || bpe == 2 || bpe == 4 || bpe == 8
    ensures count * bpe <= 4 <==> count <= 4 / bpe
  {
  }

  /**
   * Where `parse` finds the data of `count` elements of type t: in the
   * offset field when it fits there, otherwise in the file at the offset
   * the field holds; None when that runs past the end of the file.
   */
  function Located(t: int, count: nat, field: seq<byte>, file: seq<byte>): (d: Option<seq<byte>>)
    requires IsType(t) && |field| == 4
    ensures d.Some? ==> |d.value| == count * BytesPerElement(t)
    ensures count * BytesPerElement(t) <= 4 ==> d == Some(field[..count * BytesPerElement(t)])
    ensures count * BytesPerElement(t) > 4 ==>
      (d.Some? <==> LeToU32(field) + count * BytesPerElement(t) <= |file|)
  {
    var bpe := BytesPerElement(t);
    var total := count * bpe;
    FitsInField(count, bpe);
    if count > 4 / bpe then
      var off := LeToU32(field);
      if off + total > |file| then None else Some(file[off..off + total])
    else
      Some(field[..total])
  }

  /**
   * `parse` on an entry of type t with `count` elements and offset field
   * `field`: the type check for a known tag, then the data where Located
   * finds it, decoded; data past the end of the file is a failure.
   */
  function Parse(info: Option<int>, t: int, count: nat, field: seq<byte>, file: seq<byte>, ratio: Ratio): (p: Parsed)
    requires |field| == 4
    ensures info.Some? && !ReadCompatible(info.value, t) ==> p == Failed
    ensures IsType(t) && (info.None? || ReadCompatible(info.value, t)) && count * BytesPerElement(t) < TWO_32 ==>
      p == match Located(t, count, field, file)
        case None => Failed
        case Some(d) => Decode(t, count, d, ratio)
  {
    if info.Some? && !ReadCompatible(info.value, t) then Failed
    else if !IsType(t) || count * BytesPerElement(t) >= TWO_32 then Undefined
    else
      match Located(t, count, field, file)
      case None => Failed
      case Some(d) => Decode(t, count, d, ratio)
  }

  // -------------------------------------------------------------------
  // What is written reads back
  // -------------------------------------------------------------------

  /** Whether an int survives storage as an element of type t. */
  predicate Fits(t: int, x: int)
  {
    if t == SHORT then 0 <= x < TWO_16
    else if t == SSHORT then -0x8000 <= x < 0x8000
    else TV.IsInt32(x)
  }

  /**
   * The values that an entry of type t stores and reads back: ints that fit
   * a 2- or 4-byte integer type, at least one of them; strings in the byte
   * types; NUL-free strings, at least one, in ASCII; doubles in DOUBLE,
   * a vector needing two or more.
   */
  predicate ReadsBack(t: int, v: TV.Value)
  {
    match v
    case IntValue(x) => IsWideIntType(t) && Fits(t, x)
    case IntVectorValue(xs) => IsWideIntType(t) && xs != [] && forall k :: 0 <= k < |xs| ==> Fits(t, xs[k])
    case StringValue(s) => (t == ASCII && NoNul(s)) || t == BYTE || t == SBYTE || t == UNDEFINED
    case StringVectorValue(ss) => t == ASCII && ss != [] && forall k :: 0 <= k < |ss| ==> NoNul(ss[k])
    case DoubleValue(_) => t == DOUBLE
    case DoubleVectorValue(xs) => t == DOUBLE && |xs| >= 2
    case _ => false
  }

  /** The value read back: a vector of one element comes back as that element. */
  function Scalarized(v: TV.Value): (r: TV.Value)
    ensures r.Kind() != TV.Null ==> v.Kind() != TV.Null
  {
    match v
    case IntVectorValue(xs) => if |xs| == 1 then TV.IntValue(xs[0]) else v
    case StringVectorValue(ss) => if |ss| == 1 then TV.StringValue(ss[0]) else v
    case DoubleVectorValue(xs) => if |xs| == 1 then TV.DoubleValue(xs[0]) else v
    case FloatVectorValue(xs) => if |xs| == 1 then TV.FloatValue(xs[0]) else v
    case _ => v
  }

  lemma ElementBack(x: int, t: int)
    requires IsWideIntType(t) && Fits(t, x)
    ensures Element(Unit(x, BytesPerElement(t)), t) == x
  {
    if t == SHORT || t == SSHORT {
      Unit16Back(x);
    } else {
      Unit32Back(x);
    }
  }

  lemma Unit16Back(x: int)
    requires -0x8000 <= x < TWO_16
    ensures LeToU16(Unit(x, 2)) == x % TWO_16
    ensures x < 0x8000 ==> Signed16(LeToU16(Unit(x, 2))) == x
  {
    var u := if x < 0 then x + TWO_16 else x;
    assert x % TWO_16 == u;
    U16RoundTrip(u);
  }

  lemma Unit32Back(x: int)
    requires TV.IsInt32(x)
    ensures ToSigned32(LeToU32(Unit(x, 4))) == x
  {
    var u := if x < 0 then x + TWO_32 else x;
    assert x % TWO_32 == u;
    U32RoundTrip(u);
  }

  lemma {:induction false} ElementsBack(xs: seq<int>, t: int)
    requires IsWideIntType(t) && forall k :: 0 <= k < |xs| ==> Fits(t, xs[k])
    ensures Elements(Units(xs, BytesPerElement(t)), t, |xs|) == xs
  {
    if xs != [] {
      var w := BytesPerElement(t);
      var data := Units(xs, w);
      assert data == Unit(xs[0], w) + Units(xs[1..], w);
      assert data[..w] == Unit(xs[0], w) && data[w..] == Units(xs[1..], w);
      ElementBack(xs[0], t);
      ElementsBack(xs[1..], t);
      assert [xs[0]] + xs[1..] == xs;
    }
  }

  lemma DoubleBack(x: TV.Word64)
    ensures DoubleAt(Word64Le(x)) == x
  {
    var bs := Word64Le(x);
    assert bs[..4] == U32ToLe(x % TWO_32) && bs[4..] == U32ToLe(x / TWO_32);
    U32RoundTrip(x % TWO_32);
    U32RoundTrip(x / TWO_32);
  }

  lemma {:induction false} DoublesBack(xs: seq<TV.Word64>)
    ensures Doubles(Words64(xs), |xs|) == xs
  {
    if xs != [] {
      var data := Words64(xs);
      assert data[..8] == Word64Le(xs[0]) && data[8..] == Words64(xs[1..]);
      DoubleBack(xs[0]);
      DoublesBack(xs[1..]);
      assert [xs[0]] + xs[1..] == xs;
    }
  }

  lemma {:induction false} SplitString(s: TV.Text, cur: TV.Text, rest: seq<byte>)
    requires NoNul(s)
    ensures Split(TV.Codes(s) + [0] + rest, cur) == [cur + s] + Split(rest, [])
  {
    if s == [] {
      var data := TV.Codes(s) + [0] + rest;
      assert data == [0] + rest && data[1..] == rest;
      assert cur + s == cur;
    } else {
      var data := TV.Codes(s) + [0] + rest;
      assert data[0] == s[0] as int && data[0] != 0;
      assert data[1..] == TV.Codes(s[1..]) + [0] + rest;
      assert (data[0] as char) == s[0];
      assert NoNul(s[1..]);
      SplitString(s[1..], cur + [s[0]], rest);
      assert cur + [s[0]] + s[1..] == cur + s;
    }
  }

  lemma {:induction false} SplitTerminated(ss: seq<TV.Text>)
    requires forall k :: 0 <= k < |ss| ==> NoNul(ss[k])
    ensures Split(Terminated(ss), []) == ss
  {
    if ss != [] {
      SplitString(ss[0], [], Terminated(ss[1..]));
      SplitTerminated(ss[1..]);
      assert [] + ss[0] == ss[0];
      assert [ss[0]] + ss[1..] == ss;
    }
  }

  /**
   * The bytes written for a value that reads back decode to that value,
   * with a one-element vector becoming its element.
   */
  lemma DataReadsBack(t: int, v: TV.Value, num: Numerator, ratio: Ratio)
    requires ReadsBack(t, v)
    ensures Data(t, v, num).Some? && ElementCount(t, v).Some?
    ensures Decode(t, ElementCount(t, v).value, Data(t, v, num).value, ratio) == Parsed(Scalarized(v))
  {
    match v
    case IntValue(x) =>
      ElementBack(x, t);
      assert Units([x], BytesPerElement(t)) == Unit(x, BytesPerElement(t));
      ElementsBack([x], t);
    case IntVectorValue(xs) =>
      ElementsBack(xs, t);
    case StringValue(s) =>
      if t == ASCII {
        SplitString(s, [], []);
        assert TV.Codes(s) + [0] == TV.Codes(s) + [0] + [];
      } else {
        assert TV.Chars(TV.Codes(s)) == s;
      }
    case StringVectorValue(ss) =>
      SplitTerminated(ss);
    case DoubleValue(x) =>
      DoubleBack(x);
      assert Word64Le(x)[..8] == Word64Le(x);
    case DoubleVectorValue(xs) =>
      DoublesBack(xs);
  }

  /**
   * With the corrected writer, a double vector of any non-empty length in a
   * DOUBLE entry reads back too, one element as that element.
   */
  lemma DataFixedReadsBack(t: int, v: TV.Value, num: Numerator, ratio: Ratio)
    requires ReadsBack(t, v) || (t == DOUBLE && v.DoubleVectorValue? && |v.doubles| == 1)
    ensures DataFixed(t, v, num).Some? && ElementCount(t, v).Some?
    ensures Decode(t, ElementCount(t, v).value, DataFixed(t, v, num).value, ratio) == Parsed(Scalarized(v))
  {
    if t == DOUBLE && v.DoubleVectorValue? && |v.doubles| == 1 {
      DoublesBack(v.doubles);
    } else {
      DataReadsBack(t, v, num, ratio);
    }
  }

  /** Bytes written for v in an entry of type t, when the field stores the data at an offset, sit there; otherwise they start the field. */
  predicate Stored(d: seq<byte>, field: seq<byte>, file: seq<byte>)
    requires |field| == 4
  {
    if |d| <= 4 then field[..|d|] == d
    else LeToU32(field) + |d| <= |file| && file[LeToU32(field)..LeToU32(field) + |d|] == d
  }

  /** Data of at most 4 bytes written over the start of the field is stored there. */
  lemma StoredInline(d: seq<byte>, field: seq<byte>, file: seq<byte>)
    requires |d| <= 4 && |field| == 4
    ensures Stored(d, d + field[|d|..], file)
  {
    assert (d + field[|d|..])[..|d|] == d;
  }

  /** Longer data appended at an even offset, the field holding the offset, is stored there. */
  lemma StoredOutOfLine(d: seq<byte>, before: seq<byte>)
    requires |d| > 4 && |before| + 1 + |d| < TWO_32
    ensures Stored(d, U32ToLe(|before| + |Pad(|before|)|), before + Pad(|before|) + d)
    ensures LeToU32(U32ToLe(|before| + |Pad(|before|)|)) == |before| + |Pad(|before|)|
  {
    var off := |before| + |Pad(|before|)|;
    U32RoundTrip(off);
    assert (before + Pad(|before|) + d)[off..off + |d|] == d;
  }

  /** Later writes to the file leave data already stored in place. */
  lemma StoredGrows(d: seq<byte>, field: seq<byte>, file: seq<byte>, more: seq<byte>)
    requires |field| == 4 && Stored(d, field, file)
    ensures Stored(d, field, file + more)
  {
    if |d| > 4 {
      var off := LeToU32(field);
      assert (file + more)[off..off + |d|] == file[off..off + |d|];
    }
  }

  /**
   * An entry whose data was stored by writeDataBlock reads back, through
   * `parse`, as the value it held (a one-element vector as its element),
   * whenever that value is one the type reads back and a known tag's
   * declared type admits the entry's type.
   */
  lemma StoredReadsBack(info: Option<int>, t: int, v: TV.Value, num: Numerator, ratio: Ratio, field: seq<byte>, file: seq<byte>)
    requires ReadsBack(t, v) && (info.Some? ==> ReadCompatible(info.value, t))
    requires |field| == 4
    requires Data(t, v, num).Some? && |Data(t, v, num).value| < TWO_32
    requires Stored(Data(t, v, num).value, field, file)
    ensures Parse(info, t, ElementCount(t, v).value, field, file, ratio) == Parsed(Scalarized(v))
  {
    var d := Data(t, v, num).value;
    var n := ElementCount(t, v).value;
    assert Decode(t, n, d, ratio) == Parsed(Scalarized(v)) by {
      DataReadsBack(t, v, num, ratio);
    }
    assert Parse(info, t, n, field, file, ratio) == Decode(t, n, d, ratio) by {
      StoredDecodes(info, t, n, d, field, file, ratio);
    }
  }

  /** Stored data is what `parse` decodes. */
  lemma StoredDecodes(info: Option<int>, t: int, n: nat, d: seq<byte>, field: seq<byte>, file: seq<byte>, ratio: Ratio)
    requires IsType(t) && (info.Some? ==> ReadCompatible(info.value, t))
    requires |field| == 4 && |d| == BytesPerElement(t) * n < TWO_32
    requires Stored(d, field, file)
    ensures Parse(info, t, n, field, file, ratio) == Decode(t, n, d, ratio)
  {
    assert n * BytesPerElement(t) == |d|;
    assert Located(t, n, field, file) == Some(d);
  }

  // -------------------------------------------------------------------
  // IFD entries (`TiffIfdEntry`)
  // -------------------------------------------------------------------

  /** An entry as read from a directory, before its value is interpreted (`RawTiffIfdEntry`). */
  datatype RawEntry = RawEntry(tag: int, typ: int, count: int, field: seq<byte>)
  {
    predicate Valid()
    {
      0 <= tag < TWO_16 && 0 <= typ < TWO_16 && 0 <= count < TWO_32 && |field| == 4
    }
  }

  /**
   * An entry's life cycle: INVALID (refused or unreadable), UNREAD (read
   * from a file, value not yet parsed), READ (parsed) and WRITTEN (set).
   */
  datatype EntryState = Invalid | Unread | Read | Written

  /** The 12 bytes of a directory entry: tag, type, count and the offset field, little-endian. */
  function Record(raw: RawEntry): (bs: seq<byte>)
    requires raw.Valid()
    ensures |bs| == 12
  {
    U16ToLe(raw.tag) + U16ToLe(raw.typ) + U32ToLe(raw.count) + raw.field
  }

  /** A directory entry read back from its 12 bytes in a little-endian file, as `readIfd` does. */
  function ReadRecord(bs: seq<byte>): (raw: RawEntry)
    requires |bs| == 12
    ensures raw.Valid()
  {
    RawEntry(LeToU16(bs[..2]), LeToU16(bs[2..4]), LeToU32(bs[4..8]), bs[8..])
  }

  lemma RecordBack(raw: RawEntry)
    requires raw.Valid()
    ensures ReadRecord(Record(raw)) == raw
  {
    var bs := Record(raw);
    assert bs[..2] == U16ToLe(raw.tag) && bs[2..4] == U16ToLe(raw.typ);
    assert bs[4..8] == U32ToLe(raw.count) && bs[8..] == raw.field;
    U16RoundTrip(raw.tag);
    U16RoundTrip(raw.typ);
    U32RoundTrip(raw.count);
  }

  /** The type `write` puts in the record: IFD is written as LONG, for readers derived from dcraw. */
  function CompatType(t: int): (c: int)
    ensures c != IFD && (t != IFD ==> c == t)
  {
    if t == IFD then LONG else t
  }

  /** An IFD-typed entry written as LONG still passes the reader's check for its tag, and its ints read back alike. */
  lemma IfdWrittenAsLong(v: TV.Value)
    ensures ReadCompatible(IFD, CompatType(IFD))
    ensures ReadsBack(IFD, v) <==> ReadsBack(CompatType(IFD), v)
  {
  }

  /** The fields of an entry at one moment. */
  datatype EntryView = EntryView(typ: int, count: int, field: seq<byte>, state: EntryState, val: TV.Value)

  /**
   * `setValue(v)` on an entry of tag table type info: the new state, type
   * and value. An accepted value is held and the entry becomes WRITTEN (a
   * tag the table does not know takes its type from the value's kind); a
   * refused one makes the entry INVALID, keeping the old value except that
   * a time for an unknown tag clears it.
   */
  function SetResult(info: Option<int>, e: EntryView, v: TV.Value): (r: EntryView)
    ensures Accepts(info, e.typ, v.Kind()) ==> r.state == Written && r.val == v && Compatible(r.typ, v.Kind())
    ensures !Accepts(info, e.typ, v.Kind()) ==> r.state == Invalid
    ensures !Accepts(info, e.typ, v.Kind()) ==> r.val == (if info.None? && v.Kind() in {TV.Time, TV.TimeVector} then TV.NullValue else e.val)
    ensures info.Some? ==> r.typ == e.typ
    ensures r.count == e.count && r.field == e.field
  {
    var k := v.Kind();
    if info.None? then
      if k == TV.Null then e.(state := Invalid)
      else if k == TV.Time || k == TV.TimeVector then e.(state := Invalid, val := TV.NullValue)
      else e.(typ := TypeForKind(k).value, state := Written, val := v)
    else if k == TV.Null || !Compatible(e.typ, k) then e.(state := Invalid)
    else e.(state := Written, val := v)
  }

  /** The FILE a directory is written to: the bytes so far, appended to at its end. */
  class Sink {
    var bytes: seq<byte>

    constructor ()
      ensures bytes == []
    {
      bytes := [];
    }

    method Append(bs: seq<byte>)
      modifies this
      ensures bytes == old(bytes) + bs
    {
      bytes := bytes + bs;
    }
  }

  /** The pad byte that puts out-of-line data at an even offset. */
  function Pad(n: nat): (bs: seq<byte>)
    ensures (n + |bs|) % 2 == 0 && |bs| <= 1
  {
    if n % 2 == 1 then [0] else []
  }

  class Entry {
    const tag: int
    /** The type the tag table declares for this tag, if it knows the tag. */
    const info: Option<int>
    var typ: int
    var count: int
    var field: seq<byte>
    var state: EntryState
    var val: TV.Value

    ghost predicate Valid()
      reads this
    {
      0 <= tag < TWO_16 && 0 <= typ < TWO_16 && 0 <= count < TWO_32 && |field| == 4
      && (info.Some? ==> IsType(info.value))
      && (state == Written ==> TV.WellFormed(val) && Compatible(typ, val.Kind()))
      && (state == Read ==> val.Kind() != TV.Null)
    }

    function View(): EntryView
      reads this
    {
      EntryView(typ, count, field, state, val)
    }

    /** An entry read from a directory: unread, its type, count and field as found. */
    constructor FromRaw(raw: RawEntry, table: TagTable)
      requires raw.Valid() && TableOk(table)
      ensures Valid()
      ensures tag == raw.tag && info == Lookup(table, raw.tag)
      ensures View() == EntryView(raw.typ, raw.count, raw.field, Unread, TV.NullValue)
    {
      tag := raw.tag;
      info := Lookup(table, raw.tag);
      typ := raw.typ;
      count := raw.count;
      field := raw.field;
      state := Unread;
      val := TV.NullValue;
    }

    /**
     * An entry made to hold v: count and field zero, the table's type for a
     * known tag (0 otherwise), then `setValue(v)`.
     */
    constructor (tag: int, v: TV.Value, table: TagTable)
      requires 0 <= tag < TWO_16 && TableOk(table) && TV.WellFormed(v)
      ensures Valid()
      ensures this.tag == tag && info == Lookup(table, tag)
      ensures View() == SetResult(info, EntryView(if info.Some? then info.value else 0, 0, Zeros(4), Invalid, v), v)
    {
      this.tag := tag;
      info := Lookup(table, tag);
      typ := if tag in table then table[tag] else 0;
      count := 0;
      field := Zeros(4);
      state := Invalid;
      val := v;
      new;
      var _ := SetValue(v);
    }

    /** `setValue`: true exactly when the value is accepted; the entry changes as SetResult says. */
    method SetValue(v: TV.Value) returns (ok: bool)
      requires Valid() && TV.WellFormed(v)
      modifies this
      ensures Valid()
      ensures ok <==> Accepts(info, old(typ), v.Kind())
      ensures View() == SetResult(info, old(View()), v)
    {
      var k := v.Kind();
      if info.None? {
        if k == TV.Null {
          state := Invalid;
          return false;
        } else if k == TV.Time || k == TV.TimeVector {
          state := Invalid;
          val := TV.NullValue;
          return false;
        }
        typ := TypeForKind(k).value;
      } else if k == TV.Null || !Compatible(typ, k) {
        state := Invalid;
        return false;
      }
      val := v;
      state := Written;
      return true;
    }

    /**
     * `value()`: an unread entry parses its data from the file, becoming
     * READ with the value found, or INVALID with a Null value when the
     * type does not suit the tag or the data lies past the end of the
     * file; any other entry returns the value it holds.
     */
    method Value(file: seq<byte>, ratio: Ratio) returns (v: TV.Value)
      requires Valid()
      requires state == Unread ==> Parse(info, typ, count, field, file, ratio) != Undefined
      modifies this
      ensures Valid() && typ == old(typ) && count == old(count) && field == old(field)
      ensures old(state) != Unread ==> v == old(val) && state == old(state) && val == old(val)
      ensures old(state) == Unread ==> state != Unread && val == v
      ensures old(state) == Unread ==> match Parse(info, typ, count, field, file, ratio)
        case Parsed(x) => state == Read && v == x
        case _ => state == Invalid && v == TV.NullValue
    {
      if state == Unread {
        var p := Parse(info, typ, count, field, file, ratio);
        if p.Parsed? {
          val := p.v;
          state := Read;
        } else {
          val := TV.NullValue;
          state := Invalid;
        }
      }
      v := val;
    }

    /**
     * `writeDataBlock`: an invalid entry is refused; otherwise the element
     * count is set and the data goes into the offset field when it takes at
     * most 4 bytes (the field's other bytes untouched), or else is appended
     * to the file at an even offset (after a pad byte when the file's
     * length is odd), the field then holding that offset.
     */
    method WriteDataBlock(file: Sink, num: Numerator) returns (ok: bool)
      requires Valid() && state != Unread
      requires state != Invalid ==> Data(typ, val, num).Some?
      requires state != Invalid ==> |file.bytes| + 1 + |Data(typ, val, num).value| < TWO_32
      modifies this, file
      ensures Valid() && typ == old(typ) && state == old(state) && val == old(val)
      ensures ok <==> old(state) != Invalid
      ensures !ok ==> field == old(field) && count == old(count) && file.bytes == old(file.bytes)
      ensures ok ==> count == ElementCount(typ, val).value
      ensures ok ==> Stored(Data(typ, val, num).value, field, file.bytes)
      ensures ok && |Data(typ, val, num).value| <= 4 ==>
        field == Data(typ, val, num).value + old(field)[|Data(typ, val, num).value|..] && file.bytes == old(file.bytes)
      ensures ok && |Data(typ, val, num).value| > 4 ==>
        file.bytes == old(file.bytes) + Pad(|old(file.bytes)|) + Data(typ, val, num).value
        && LeToU32(field) == |old(file.bytes) + Pad(|old(file.bytes)|)| && LeToU32(field) % 2 == 0
    {
      if state == Invalid {
        return false;
      }
      var d := Data(typ, val, num).value;
      var n := ElementCount(typ, val).value;
      assert n <= |d| by {
        var bpe := BytesPerElement(typ);
        assert bpe == 1 || bpe == 2 || bpe == 4 || bpe == 8;
      }
      count := n;
      Store(file, d);
      return true;
    }

    /** The data put in the field when it fits there, and otherwise appended at an even offset held by the field. */
    method Store(file: Sink, d: seq<byte>)
      requires |field| == 4 && |file.bytes| + 1 + |d| < TWO_32
      modifies this, file
      ensures typ == old(typ) && count == old(count) && state == old(state) && val == old(val) && |field| == 4
      ensures Stored(d, field, file.bytes)
      ensures |d| <= 4 ==> field == d + old(field)[|d|..] && file.bytes == old(file.bytes)
      ensures |d| > 4 ==>
        file.bytes == old(file.bytes) + Pad(|old(file.bytes)|) + d
        && LeToU32(field) == |old(file.bytes) + Pad(|old(file.bytes)|)| && LeToU32(field) % 2 == 0
    {
      if |d| <= 4 {
        StoreInline(d);
        StoredInline(d, old(field), file.bytes);
      } else {
        ghost var before := file.bytes;
        StoreOutOfLine(file, d);
        StoredOutOfLine(d, before);
      }
    }

    /** The data copied byte by byte into the start of the offset field. */
    method StoreInline(d: seq<byte>)
      requires |d| <= 4 && |field| == 4
      modifies this
      ensures field == d + old(field)[|d|..]
      ensures typ == old(typ) && count == old(count) && state == old(state) && val == old(val)
    {
      var i := 0;
      while i < |d|
        invariant 0 <= i <= |d| && |field| == 4
        invariant forall k :: 0 <= k < i ==> field[k] == d[k]
        invariant forall k :: i <= k < 4 ==> field[k] == old(field)[k]
        invariant typ == old(typ) && count == old(count) && state == old(state) && val == old(val)
      {
        field := field[i := d[i]];
        i := i + 1;
      }
      assert field == d + old(field)[|d|..];
    }

    /** The data appended to the file at an even offset, which the field then holds. */
    method StoreOutOfLine(file: Sink, d: seq<byte>)
      requires |file.bytes| + 1 + |d| < TWO_32
      modifies this, file
      ensures file.bytes == old(file.bytes) + Pad(|old(file.bytes)|) + d
      ensures field == U32ToLe(|old(file.bytes)| + |Pad(|old(file.bytes)|)|)
      ensures typ == old(typ) && count == old(count) && state == old(state) && val == old(val)
    {
      file.Append(Pad(|file.bytes|));
      field := U32ToLe(|file.bytes|);
      file.Append(d);
    }

    /** `write`: appends the entry's 12-byte record, an IFD type written as LONG. */
    method Write(file: Sink)
      requires Valid()
      modifies file
      ensures file.bytes == old(file.bytes) + Record(RawEntry(tag, CompatType(typ), count, field))
    {
      var raw := RawEntry(tag, CompatType(typ), count, field);
      file.Append(Record(raw));
    }
  }

  // -------------------------------------------------------------------
  // Directories (`TiffIfd`)
  // -------------------------------------------------------------------

  /** The type a new entry starts with: the table's for a known tag, 0 otherwise. */
  function DeclaredType(table: TagTable, tag: int): int
  {
    if tag in table then table[tag] else 0
  }

  /** A directory: its entries by tag number. */
  class Ifd {
    const table: TagTable
    var entries: map<int, Entry>

    ghost predicate Valid()
      reads this, entries.Values
    {
      TableOk(table)
      && forall tag :: tag in entries ==>
           entries[tag].tag == tag && entries[tag].info == Lookup(table, tag) && entries[tag].Valid()
    }

    /** The entries' fields, by tag. */
    ghost function Views(): map<int, EntryView>
      reads this, entries.Values
    {
      map tag | tag in entries :: entries[tag].View()
    }

    constructor (table: TagTable)
      requires TableOk(table)
      ensures Valid() && this.table == table && entries == map[]
    {
      this.table := table;
      entries := map[];
    }

    /** `find`: the entry for a tag, if there is one. */
    method Find(tag: int) returns (e: Option<Entry>)
      ensures e.Some? <==> tag in entries
      ensures e.Some? ==> e.value == entries[tag] && e.value.tag == tag
      requires Valid()
    {
      if tag in entries {
        return Some(entries[tag]);
      }
      return None;
    }

    /**
     * `add(raw)`: an entry read from a file joins the directory unread;
     * an entry already there under the same tag is kept (map insertion
     * never replaces).
     */
    method AddRaw(raw: RawEntry)
      requires Valid() && raw.Valid()
      modifies this
      ensures Valid()
      ensures raw.tag in old(entries) ==> entries == old(entries)
      ensures raw.tag !in old(entries) ==>
        entries.Keys == old(entries).Keys + {raw.tag} && fresh(entries[raw.tag])
        && (forall tag :: tag in old(entries) ==> entries[tag] == old(entries)[tag])
        && entries[raw.tag].View() == EntryView(raw.typ, raw.count, raw.field, Unread, TV.NullValue)
    {
      var e := new Entry.FromRaw(raw, table);
      if raw.tag !in entries {
        entries := entries[raw.tag := e];
      }
    }

    /**
     * `add(tag, v)`: false, with nothing changed, when a fresh entry for
     * the tag refuses v; otherwise true. A new tag gets that fresh entry;
     * an existing entry is given v by `setValue`, whose refusal (the entry
     * read with another type, say) leaves it invalid although add reports
     * success.
     */
    method Add(tag: int, v: TV.Value) returns (ok: bool)
      requires Valid() && 0 <= tag < TWO_16 && TV.WellFormed(v)
      modifies this, entries.Values
      ensures Valid()
      ensures ok <==> Accepts(Lookup(table, tag), DeclaredType(table, tag), v.Kind())
      ensures !ok ==> entries == old(entries) && Views() == old(Views())
      ensures ok && tag !in old(entries) ==>
        tag in entries && fresh(entries[tag]) && entries == old(entries)[tag := entries[tag]]
        && Views() == old(Views())[tag := SetResult(Lookup(table, tag), EntryView(DeclaredType(table, tag), 0, Zeros(4), Invalid, v), v)]
      ensures ok && tag in old(entries) ==>
        entries == old(entries) && Views() == old(Views())[tag := SetResult(Lookup(table, tag), old(Views())[tag], v)]
      ensures ok ==> tag in entries && ((entries[tag].state == Written && entries[tag].val == v)
                                        || (tag in old(entries) && entries[tag].state == Invalid))
    {
      var made := new Entry(tag, v, table);
      if made.state == Invalid {
        return false;
      }
      if tag in entries {
        var e := entries[tag];
        var _ := e.SetValue(v);
        assert forall t :: t in entries && t != tag ==> entries[t] != e;
      } else {
        entries := entries[tag := made];
      }
      return true;
    }
  }
}

=== FILE: tiff_header.dfy ===
/**
 * The 8-byte TIFF file header (external/FCam/processing/TIFF.cpp,
 * `TiffFile::readHeader`, `writeTo`): a byte-order mark, the magic number
 * 42 and the offset of the first directory, the last two in the file's
 * byte order. The header is read into native integers on a little-endian
 * host, then converted by `convShort`/`convLong` when the file is
 * big-endian.
 */
module TiffHeaders {
  import opened Wrappers
  import opened Bytes
  import CArith

  const LITTLE_ENDIAN_MARKER := 0x4949
  const BIG_ENDIAN_MARKER := 0x4D4D
  const TIFF_MAGIC := 42

  /** What a header that passes the checks says: the byte order and where directory 0 starts. */
  datatype Header = Header(littleEndian: bool, ifd0: int)

  /** Why readHeader gives up: fewer than 8 bytes, an unknown byte-order mark, a wrong magic number, or a first directory inside the header. */
  datatype HeaderError = Truncated | Malformed | BadMagic(got: int) | BadIfdOffset(got: int)

  /** The conversions of 16- and 32-bit fields into native order. */
  datatype Conversion = AsWritten | ByteSwap

  /** The bytes of a 16-bit value swapped. */
  function Swap16(s: int): (r: int)
    requires 0 <= s < TWO_16
    ensures 0 <= r < TWO_16
  {
    var b := U16ToLe(s);
    LeToU16([b[1], b[0]])
  }

  /** Swapping the bytes twice gives the value back. */
  lemma Swap16Twice(s: int)
    requires 0 <= s < TWO_16
    ensures Swap16(Swap16(s)) == s
  {
    var b := U16ToLe(s);
    var t := Swap16(s);
    assert t == b[1] as int + 256 * b[0] as int;
    CArith.DivModUnique(t, b[0], b[1], 256);
    U16RoundTrip(s);
  }

  /** The bytes of a 32-bit value in reverse order. */
  function Swap32(l: int): (r: int)
    requires 0 <= l < TWO_32
    ensures 0 <= r < TWO_32
  {
    var b := U32ToLe(l);
    LeToU32([b[3], b[2], b[1], b[0]])
  }

  /** Four bytes read as a value and written back are the same bytes. */
  lemma LeBytesRoundTrip(bs: seq<byte>)
    requires |bs| == 4
    ensures U32ToLe(LeToU32(bs)) == bs
  {
    var b0, b1, b2, b3 := bs[0] as int, bs[1] as int, bs[2] as int, bs[3] as int;
    var v := LeToU32(bs);
    var hi := b1 + 256 * b2 + 0x1_0000 * b3;
    CArith.DivModUnique(v, hi, b0, 256);
    CArith.DivModUnique(hi, b2 + 256 * b3, b1, 256);
    CArith.DivModUnique(v, b2 + 256 * b3, b0 + 256 * b1, 0x1_0000);
    CArith.DivModUnique(b2 + 256 * b3, b3, b2, 256);
    CArith.DivModUnique(v, b3, b0 + 256 * b1 + 0x1_0000 * b2, 0x100_0000);
  }

  /** Reversing the bytes twice gives the value back. */
  lemma Swap32Twice(l: int)
    requires 0 <= l < TWO_32
    ensures Swap32(Swap32(l)) == l
  {
    var b := U32ToLe(l);
    LeBytesRoundTrip([b[3], b[2], b[1], b[0]]);
    U32RoundTrip(l);
  }

  /**
   * `convShort`: the value itself for a little-endian file. For a
   * big-endian one, as written, `(s << 8) || (s >> 8)`: a logical or, so 1
   * for any nonzero value and 0 for zero; corrected, the swapped bytes.
   */
  function ConvShort(conv: Conversion, littleEndian: bool, s: int): (r: int)
    requires 0 <= s < TWO_16
    ensures 0 <= r < TWO_16
    ensures littleEndian ==> r == s
    ensures !littleEndian && conv == AsWritten ==> r == (if s == 0 then 0 else 1)
    ensures !littleEndian && conv == ByteSwap ==> Swap16(r) == s
  {
    if littleEndian then s
    else if conv == ByteSwap then
      Swap16Twice(s);
      Swap16(s)
    else if s * 256 != 0 || s / 256 != 0 then 1 else 0
  }

  /**
   * `convLong`: the value itself for a little-endian file. For a
   * big-endian one, as written, the four masked and shifted bytes joined by
   * `||`: 1 for any nonzero value and 0 for zero; corrected, the bytes
   * reversed.
   */
  function ConvLong(conv: Conversion, littleEndian: bool, l: int): (r: int)
    requires 0 <= l < TWO_32
    ensures 0 <= r < TWO_32
    ensures littleEndian ==> r == l
    ensures !littleEndian && conv == AsWritten ==> r == (if l == 0 then 0 else 1)
    ensures !littleEndian && conv == ByteSwap ==> Swap32(r) == l
  {
    if littleEndian then l
    else if conv == ByteSwap then
      Swap32Twice(l);
      Swap32(l)
    else
      var b: seq<int> := U32ToLe(l);
      U32RoundTrip(l);
      if b[0] * 0x100_0000 != 0 || b[1] * 0x1_0000 != 0 || b[2] * 256 != 0 || b[3] != 0 then 1 else 0
  }

  /**
   * `readHeader` on the first bytes of a file: the byte-order mark picks
   * the byte order, then the magic number and the offset of directory 0,
   * converted to native order, are checked.
   */
  function ReadHeader(conv: Conversion, file: seq<byte>): (r: Result<Header, HeaderError>)
    ensures |file| < 8 ==> r == Err(Truncated)
    ensures r.Ok? <==>
      && |file| >= 8
      && LeToU16(file[0..2]) in {LITTLE_ENDIAN_MARKER, BIG_ENDIAN_MARKER}
      && ConvShort(conv, LeToU16(file[0..2]) == LITTLE_ENDIAN_MARKER, LeToU16(file[2..4])) == TIFF_MAGIC
      && ConvLong(conv, LeToU16(file[0..2]) == LITTLE_ENDIAN_MARKER, LeToU32(file[4..8])) >= 8
    ensures r.Ok? ==>
      (r.value.littleEndian == (LeToU16(file[0..2]) == LITTLE_ENDIAN_MARKER)
       && r.value.ifd0 == ConvLong(conv, r.value.littleEndian, LeToU32(file[4..8])))
  {
    if |file| < 8 then Err(Truncated)
    else
      var byteOrder := LeToU16(file[0..2]);
      if byteOrder != LITTLE_ENDIAN_MARKER && byteOrder != BIG_ENDIAN_MARKER then Err(Malformed)
      else
        var littleEndian := byteOrder == LITTLE_ENDIAN_MARKER;
        var magic := ConvShort(conv, littleEndian, LeToU16(file[2..4]));
        if magic != TIFF_MAGIC then Err(BadMagic(magic))
        else
          var offset := ConvLong(conv, littleEndian, LeToU32(file[4..8]));
          if offset < 8 then Err(BadIfdOffset(offset))
          else Ok(Header(littleEndian, offset))
  }

  /** The header writeTo writes, once the offset of directory 0 is known: little-endian always. */
  function WrittenHeader(ifd0: int): (bs: seq<byte>)
    requires 0 <= ifd0 < TWO_32
    ensures |bs| == 8
  {
    U16ToLe(LITTLE_ENDIAN_MARKER) + U16ToLe(TIFF_MAGIC) + U32ToLe(ifd0)
  }

  /** A big-endian header, as another writer would produce it: the magic and the offset most significant byte first. */
  function BigEndianHeader(ifd0: int): (bs: seq<byte>)
    requires 0 <= ifd0 < TWO_32
    ensures |bs| == 8
  {
    var o := U32ToLe(ifd0);
    U16ToLe(BIG_ENDIAN_MARKER) + [0, TIFF_MAGIC] + [o[3], o[2], o[1], o[0]]
  }

  /** The header writeTo writes reads back, as written or corrected, as little-endian with the same directory offset. */
  lemma WrittenHeaderReads(conv: Conversion, ifd0: int)
    requires 8 <= ifd0 < TWO_32
    ensures ReadHeader(conv, WrittenHeader(ifd0)) == Ok(Header(true, ifd0))
  {
    var bs := WrittenHeader(ifd0);
    assert bs[0..2] == U16ToLe(LITTLE_ENDIAN_MARKER) && bs[2..4] == U16ToLe(TIFF_MAGIC) && bs[4..8] == U32ToLe(ifd0);
    U32RoundTrip(ifd0);
  }

  /** A header whose first directory starts inside the header itself is refused. */
  lemma LowOffsetRefused(conv: Conversion, ifd0: int)
    requires 0 <= ifd0 < 8
    ensures ReadHeader(conv, WrittenHeader(ifd0)) == Err(BadIfdOffset(ifd0))
  {
    var bs := WrittenHeader(ifd0);
    assert bs[0..2] == U16ToLe(LITTLE_ENDIAN_MARKER) && bs[2..4] == U16ToLe(TIFF_MAGIC) && bs[4..8] == U32ToLe(ifd0);
    U32RoundTrip(ifd0);
  }

  /**
   * As written, every big-endian file is refused: its magic number 42,
   * stored as the bytes 0 and 42, reads natively as 0x2A00, which the
   * logical or turns into 1.
   */
  lemma BigEndianRefused(ifd0: int)
    requires 0 <= ifd0 < TWO_32
    ensures ReadHeader(AsWritten, BigEndianHeader(ifd0)) == Err(BadMagic(1))
  {
    var bs := BigEndianHeader(ifd0);
    assert bs[0..2] == U16ToLe(BIG_ENDIAN_MARKER);
    assert LeToU16(bs[2..4]) == 42 * 256;
  }

  /** With the bytes swapped, a big-endian header reads as big-endian with its directory offset. */
  lemma BigEndianReads(ifd0: int)
    requires 8 <= ifd0 < TWO_32
    ensures ReadHeader(ByteSwap, BigEndianHeader(ifd0)) == Ok(Header(false, ifd0))
  {
    var bs := BigEndianHeader(ifd0);
    var o := U32ToLe(ifd0);
    assert bs[0..2] == U16ToLe(BIG_ENDIAN_MARKER);
    assert LeToU16(bs[2..4]) == 42 * 256;
    assert bs[4..8] == [o[3], o[2], o[1], o[0]];
    LeBytesRoundTrip(bs[4..8]);
    U32RoundTrip(ifd0);
  }
}

=== FILE: tiff_image.dfy ===
/**
 * The image of a TIFF directory (external/FCam/processing/TIFF.cpp):
 * `writeImage`, which cuts the rows into strips of about 64 KiB and records
 * them in the directory's tags, and `getImage`, which checks those tags
 * and reads the strips back.
 *
 * An image is its rows of bytes. The tag values `getImage` reads are those
 * the directory's entries return from `value()`, given as a map from tag
 * number to value.
 */
module TiffImages {
  import opened Wrappers
  import opened Bytes
  import opened Base
  import CArith
  import TV = TagValues
  import T = TiffFiles

  const TAG_IMAGE_WIDTH := 256
  const TAG_IMAGE_LENGTH := 257
  const TAG_BITS_PER_SAMPLE := 258
  const TAG_COMPRESSION := 259
  const TAG_PHOTOMETRIC := 262
  const TAG_STRIP_OFFSETS := 273
  const TAG_SAMPLES_PER_PIXEL := 277
  const TAG_ROWS_PER_STRIP := 278
  const TAG_STRIP_BYTE_COUNTS := 279

  const PI_RGB := 2
  const PI_CFA := 32803
  const PI_LINEAR_RAW := 34892
  const COMPRESSION_NONE := 1

  /** The rows one after the other. */
  function Flatten(rows: seq<seq<byte>>): (bs: seq<byte>)
  {
    if rows == [] then [] else rows[0] + Flatten(rows[1..])
  }

  lemma {:induction false} FlattenSnoc(rows: seq<seq<byte>>, row: seq<byte>)
    ensures Flatten(rows + [row]) == Flatten(rows) + row
  {
    if rows != [] {
      assert (rows + [row])[1..] == rows[1..] + [row];
      FlattenSnoc(rows[1..], row);
    } else {
      assert [row][1..] == [];
    }
  }

  lemma {:induction false} FlattenLength(rows: seq<seq<byte>>, w: nat)
    requires forall y :: 0 <= y < |rows| ==> |rows[y]| == w
    ensures |Flatten(rows)| == |rows| * w
  {
    if rows != [] {
      FlattenLength(rows[1..], w);
    }
  }

  // -------------------------------------------------------------------
  // Strips (`writeImage`)
  // -------------------------------------------------------------------

  /**
   * The rows per strip writeImage chooses: as many as fit in 64 KiB, but
   * at least 10.
   */
  function RowsPerStrip(bytesPerRow: nat): (r: nat)
    requires 0 < bytesPerRow
    ensures r >= 10
    ensures r > 10 ==> r * bytesPerRow <= 65536 < (r + 1) * bytesPerRow
    ensures 10 * bytesPerRow > 65536 ==> r == 10
  {
    if 10 * bytesPerRow > 65536 then 10 else 65536 / bytesPerRow
  }

  /**
   * The rows in each strip from row `ys` on: `rps` rows each, the last
   * strip what remains.
   */
  function StripRows(ys: int, height: int, rps: nat): (rs: seq<int>)
    requires rps >= 1
    decreases height - ys
  {
    if ys >= height then [] else [CArith.Min(height, ys + rps) - ys] + StripRows(ys + rps, height, rps)
  }

  /** The byte counts writeImage records: each strip's rows times the bytes of a row. */
  function StripCounts(ys: int, height: int, rps: nat, bytesPerRow: nat): (cs: seq<int>)
    requires rps >= 1
    decreases height - ys
  {
    if ys >= height then []
    else [(CArith.Min(height, ys + rps) - ys) * bytesPerRow] + StripCounts(ys + rps, height, rps, bytesPerRow)
  }

  lemma {:induction false} StripCountsAreRows(ys: int, height: int, rps: nat, bytesPerRow: nat)
    requires rps >= 1
    ensures |StripCounts(ys, height, rps, bytesPerRow)| == |StripRows(ys, height, rps)|
    ensures forall i :: 0 <= i < |StripRows(ys, height, rps)| ==>
      StripCounts(ys, height, rps, bytesPerRow)[i] == StripRows(ys, height, rps)[i] * bytesPerRow
    decreases height - ys
  {
    if ys < height {
      StripCountsAreRows(ys + rps, height, rps, bytesPerRow);
    }
  }

  /** Where strips of the given sizes start when written one after another from `start`. */
  function Starts(start: int, counts: seq<int>): (ss: seq<int>)
    ensures |ss| == |counts|
    decreases |counts|
  {
    if counts == [] then [] else [start] + Starts(start + counts[0], counts[1..])
  }

  /** Strips are written back to back: each starts where the one before it ends. */
  lemma {:induction false} StartsContiguous(start: int, counts: seq<int>)
    ensures counts != [] ==> Starts(start, counts)[0] == start
    ensures forall i :: 0 <= i < |counts| - 1 ==>
      Starts(start, counts)[i + 1] == Starts(start, counts)[i] + counts[i]
    decreases |counts|
  {
    if counts != [] {
      StartsContiguous(start + counts[0], counts[1..]);
    }
  }

  lemma DivStep(a: nat, r: nat)
    requires r >= 1
    ensures (a + r) / r == a / r + 1 && (a + r) % r == a % r
  {
    CArith.DivModUnique(a + r, a / r + 1, a % r, r);
  }

  function Sum(xs: seq<int>): int
  {
    if xs == [] then 0 else xs[0] + Sum(xs[1..])
  }

  /**
   * The number of strips for the rows from `ys` to `height`:
   * `(height - ys) / rps`, plus one for a partial strip, as getImage
   * counts them.
   */
  lemma {:induction false} StripNumber(ys: nat, height: nat, rps: nat)
    requires rps >= 1 && ys <= height
    ensures |StripRows(ys, height, rps)| == (height - ys) / rps + (if (height - ys) % rps != 0 then 1 else 0)
    decreases height - ys
  {
    if ys < height {
      var n := height - ys;
      assert |StripRows(ys, height, rps)| == 1 + |StripRows(ys + rps, height, rps)|;
      if ys + rps < height {
        StripNumber(ys + rps, height, rps);
        DivStep(n - rps, rps);
      } else if n < rps {
        CArith.DivModUnique(n, 0, n, rps);
      } else {
        CArith.DivModUnique(n, 1, 0, rps);
      }
    }
  }

  /** Every strip but the last holds exactly `rps` rows, and the last one between 1 and `rps`. */
  lemma {:induction false} OnlyLastStripShorter(ys: nat, height: nat, rps: nat)
    requires rps >= 1
    ensures forall i :: 0 <= i < |StripRows(ys, height, rps)| - 1 ==> StripRows(ys, height, rps)[i] == rps
    ensures ys < height ==> 1 <= StripRows(ys, height, rps)[|StripRows(ys, height, rps)| - 1] <= rps
    decreases height - ys
  {
    if ys < height {
      var rs := StripRows(ys, height, rps);
      var rest := StripRows(ys + rps, height, rps);
      assert rs == [CArith.Min(height, ys + rps) - ys] + rest;
      OnlyLastStripShorter(ys + rps, height, rps);
      if ys + rps < height {
        assert rs[|rs| - 1] == rest[|rest| - 1];
        assert forall i :: 1 <= i < |rs| ==> rs[i] == rest[i - 1];
      }
    }
  }

  /** Together the strips hold every row. */
  lemma {:induction false} StripsCoverRows(ys: nat, height: nat, rps: nat)
    requires rps >= 1 && ys <= height
    ensures Sum(StripRows(ys, height, rps)) == height - ys
    decreases height - ys
  {
    if ys < height && ys + rps <= height {
      StripsCoverRows(ys + rps, height, rps);
    }
  }

  /** The rows lo to hi written one by one. */
  method WriteRows(file: T.Sink, rows: seq<seq<byte>>, lo: nat, hi: nat)
    requires lo <= hi <= |rows|
    modifies file
    ensures file.bytes == old(file.bytes) + Flatten(rows[lo..hi])
  {
    var y := lo;
    while y < hi
      invariant lo <= y <= hi
      invariant file.bytes == old(file.bytes) + Flatten(rows[lo..y])
    {
      FlattenSnoc(rows[lo..y], rows[y]);
      assert rows[lo..y + 1] == rows[lo..y] + [rows[y]];
      file.Append(rows[y]);
      y := y + 1;
    }
  }

  lemma StartsCons(start: int, count: int, rest: seq<int>)
    ensures Starts(start, [count] + rest) == [start] + Starts(start + count, rest)
  {
    assert ([count] + rest)[1..] == rest;
  }

  /**
   * Where the row loop of `writeImage` stands before the strip starting at
   * row `ys`: the file holds `prefix` and the rows before `ys`, and the
   * counts and offsets pushed so far, followed by those still to come,
   * are all of them.
   */
  ghost predicate StripsSoFar(prefix: seq<byte>, bytes: seq<byte>, rows: seq<seq<byte>>, ys: nat,
                              rps: nat, bytesPerRow: nat, offsets: seq<int>, counts: seq<int>)
    requires rps >= 1
  {
    var height := |rows|;
    var todo := StripCounts(ys, height, rps, bytesPerRow);
    var all := StripCounts(0, height, rps, bytesPerRow);
    && bytes == prefix + Flatten(rows[..CArith.Min(ys, height)])
    && counts + todo == all
    && offsets + Starts(|bytes|, todo) == Starts(|prefix|, all)
  }

  /** The bytes of the rows up to `ys`, then the strip at `ys`, are the rows up to the strip's end. */
  lemma FlattenStep(rows: seq<seq<byte>>, ys: nat, lastRow: nat)
    requires ys <= lastRow <= |rows|
    ensures Flatten(rows[..ys]) + Flatten(rows[ys..lastRow]) == Flatten(rows[..lastRow])
  {
    assert rows[..lastRow] == rows[..ys] + rows[ys..lastRow];
    FlattenAppend(rows[..ys], rows[ys..lastRow]);
  }

  /** The counts still to come start with the strip at `ys`. */
  lemma CountsStep(ys: nat, height: nat, rps: nat, bytesPerRow: nat, counts: seq<int>, all: seq<int>)
    requires rps >= 1 && ys < height
    requires counts + StripCounts(ys, height, rps, bytesPerRow) == all
    ensures (counts + [(CArith.Min(height, ys + rps) - ys) * bytesPerRow]) + StripCounts(ys + rps, height, rps, bytesPerRow) == all
  {
    var count := (CArith.Min(height, ys + rps) - ys) * bytesPerRow;
    var rest := StripCounts(ys + rps, height, rps, bytesPerRow);
    assert StripCounts(ys, height, rps, bytesPerRow) == [count] + rest;
    assert (counts + [count]) + rest == counts + ([count] + rest);
  }

  /** Pushing the file position as the next offset keeps the running starts. */
  lemma StartsStep(offsets: seq<int>, start: int, count: int, rest: seq<int>, all: seq<int>)
    requires offsets + Starts(start, [count] + rest) == all
    ensures (offsets + [start]) + Starts(start + count, rest) == all
  {
    StartsCons(start, count, rest);
    assert (offsets + [start]) + Starts(start + count, rest) == offsets + ([start] + Starts(start + count, rest));
  }

  /** Writing the strip at `ys` and pushing its offset and count keeps StripsSoFar. */
  lemma StripStep(prefix: seq<byte>, bytes: seq<byte>, rows: seq<seq<byte>>, ys: nat,
                  rps: nat, bytesPerRow: nat, offsets: seq<int>, counts: seq<int>)
    requires rps >= 1 && ys < |rows|
    requires forall y :: 0 <= y < |rows| ==> |rows[y]| == bytesPerRow
    requires StripsSoFar(prefix, bytes, rows, ys, rps, bytesPerRow, offsets, counts)
    ensures var lastRow := CArith.Min(|rows|, ys + rps);
            var count := (lastRow - ys) * bytesPerRow;
            StripsSoFar(prefix, bytes + Flatten(rows[ys..lastRow]), rows, ys + rps, rps, bytesPerRow,
                        offsets + [|bytes|], counts + [count])
  {
    var height := |rows|;
    var lastRow := CArith.Min(height, ys + rps);
    var count := (lastRow - ys) * bytesPerRow;
    var rest := StripCounts(ys + rps, height, rps, bytesPerRow);
    var all := StripCounts(0, height, rps, bytesPerRow);
    var strip := Flatten(rows[ys..lastRow]);
    assert StripCounts(ys, height, rps, bytesPerRow) == [count] + rest;
    CountsStep(ys, height, rps, bytesPerRow, counts, all);
    StartsStep(offsets, |bytes|, count, rest, Starts(|prefix|, all));
    assert |strip| == count by {
      FlattenLength(rows[ys..lastRow], bytesPerRow);
    }
    assert bytes + strip == prefix + Flatten(rows[..lastRow]) by {
      FlattenStep(rows, ys, lastRow);
    }
    assert CArith.Min(ys + rps, height) == lastRow;
  }

  /** Before the first strip, nothing has been pushed or written. */
  lemma StripsBegin(prefix: seq<byte>, rows: seq<seq<byte>>, rps: nat, bytesPerRow: nat)
    requires rps >= 1
    ensures StripsSoFar(prefix, prefix, rows, 0, rps, bytesPerRow, [], [])
  {
    assert rows[..CArith.Min(0, |rows|)] == [];
    assert prefix + [] == prefix;
  }

  /** Past the last row, StripsSoFar says the file, counts and offsets are complete. */
  lemma StripsDone(prefix: seq<byte>, bytes: seq<byte>, rows: seq<seq<byte>>, ys: nat,
                   rps: nat, bytesPerRow: nat, offsets: seq<int>, counts: seq<int>)
    requires rps >= 1 && ys >= |rows|
    requires StripsSoFar(prefix, bytes, rows, ys, rps, bytesPerRow, offsets, counts)
    ensures bytes == prefix + Flatten(rows)
    ensures counts == StripCounts(0, |rows|, rps, bytesPerRow)
    ensures offsets == Starts(|prefix|, counts)
  {
    assert rows[..CArith.Min(ys, |rows|)] == rows;
    assert StripCounts(ys, |rows|, rps, bytesPerRow) == [];
    assert counts + [] == counts;
    assert offsets + [] == offsets;
  }

  /**
   * The row loop of `writeImage`: strip by strip, the file position is
   * pushed as the strip's offset and its byte count as its count, then its
   * rows are written. The file ends up holding the rows in order, the
   * counts are StripCounts and the offsets the running starts.
   */
  method WriteStrips(file: T.Sink, rows: seq<seq<byte>>, bytesPerRow: nat, rps: nat)
      returns (offsets: seq<int>, counts: seq<int>)
    requires rps >= 1
    requires forall y :: 0 <= y < |rows| ==> |rows[y]| == bytesPerRow
    modifies file
    ensures file.bytes == old(file.bytes) + Flatten(rows)
    ensures counts == StripCounts(0, |rows|, rps, bytesPerRow)
    ensures offsets == Starts(|old(file.bytes)|, counts)
  {
    var height := |rows|;
    offsets, counts := [], [];
    ghost var prefix := file.bytes;
    StripsBegin(prefix, rows, rps, bytesPerRow);
    var ys := 0;
    while ys < height
      invariant StripsSoFar(prefix, file.bytes, rows, ys, rps, bytesPerRow, offsets, counts)
      decreases height - ys
    {
      var lastRow := CArith.Min(height, ys + rps);
      var count := (lastRow - ys) * bytesPerRow;
      StripStep(prefix, file.bytes, rows, ys, rps, bytesPerRow, offsets, counts);
      offsets := offsets + [|file.bytes|];
      counts := counts + [count];
      WriteRows(file, rows, ys, lastRow);
      ys := ys + rps;
    }
    StripsDone(prefix, file.bytes, rows, ys, rps, bytesPerRow, offsets, counts);
  }

  lemma {:induction false} FlattenAppend(a: seq<seq<byte>>, b: seq<seq<byte>>)
    ensures Flatten(a + b) == Flatten(a) + Flatten(b)
  {
    if a != [] {
      assert (a + b)[1..] == a[1..] + b;
      FlattenAppend(a[1..], b);
    } else {
      assert a + b == b;
    }
  }

  // -------------------------------------------------------------------
  // Checking the image tags (`getImage`)
  // -------------------------------------------------------------------

  /** What getImage makes of the tags before reading any image data. */
  datatype Layout = Layout(fmt: ImageFormat, width: int, height: int, rowsPerStrip: int,
                           offsets: seq<int>, bytesPerStrip: nat, bytesTotal: nat)

  /**
   * The outcome of the checks: no image (no PhotometricInterpretation
   * tag), a fatal load error, undefined behaviour (a division by zero or an
   * index past the end of a vector), or the layout of the strips to read.
   */
  datatype Plan = NoImage | LoadFailed | LoadUndefined | Planned(layout: Layout)

  /** The formats getImage reads: RGB for RGB24, CFA for RAW; every other interpretation is an error. */
  function FormatOf(photometric: int): (f: Option<ImageFormat>)
    ensures f.Some? <==> photometric == PI_RGB || photometric == PI_CFA
    ensures f == Some(RGB24) <==> photometric == PI_RGB
    ensures f == Some(RAW) <==> photometric == PI_CFA
  {
    if photometric == PI_RGB then Some(RGB24)
    else if photometric == PI_CFA then Some(RAW)
    else None
  }

  /** An int tag read with `(int)`, or its default when the tag is absent. */
  function IntOr(values: map<int, TV.Value>, tag: int, default: int): (i: int)
    ensures tag !in values ==> i == default
    ensures tag in values && values[tag].IntValue? ==> i == values[tag].i
  {
    if tag in values then TV.IntOf(values[tag]) else default
  }

  /**
   * The strip offsets as getImage takes them, only from an int vector. A
   * single offset is stored inline and reads back as a plain int, which
   * this turns into no offsets at all.
   */
  function OffsetsAsWritten(v: TV.Value): (xs: seq<int>)
    ensures v.IntValue? ==> xs == []
  {
    TV.IntsOf(v)
  }

  /** The strip offsets taken as readSubIfds takes sub-IFD offsets: a plain int is one offset. */
  function OffsetsFixed(v: TV.Value): (xs: seq<int>)
    ensures v.IntValue? ==> xs == [v.i]
    ensures !v.IntValue? ==> xs == OffsetsAsWritten(v)
  {
    if v.IntValue? then [v.i] else TV.IntsOf(v)
  }

  /**
   * The number of strips getImage expects: `length / rowsPerStrip`, plus
   * one for a partial strip, in C's truncating division and as a 32-bit
   * unsigned count.
   */
  function StripsPerImage(length: int, rowsPerStrip: int): (n: nat)
    requires rowsPerStrip != 0
    ensures n < TWO_32
  {
    var full := CArith.CDiv(length, rowsPerStrip) % TWO_32;
    if CArith.CRem(length, rowsPerStrip) != 0 then (full + 1) % TWO_32 else full
  }

  /**
   * The checks of getImage, in its order, with the strip offsets read as
   * written or fixed.
   */
  function PlanWith(values: map<int, TV.Value>, fixedOffsets: bool): (p: Plan)
    ensures TAG_PHOTOMETRIC !in values <==> p == NoImage
    ensures p.Planned? ==> FormatOf(TV.IntOf(values[TAG_PHOTOMETRIC])) == Some(p.layout.fmt)
    ensures p.Planned? ==> IntOr(values, TAG_COMPRESSION, COMPRESSION_NONE) == COMPRESSION_NONE
    ensures p.Planned? ==> IntOr(values, TAG_SAMPLES_PER_PIXEL, 1) == (if p.layout.fmt == RAW then 1 else 3)
    ensures p.Planned? ==> TAG_IMAGE_WIDTH in values && p.layout.width == TV.IntOf(values[TAG_IMAGE_WIDTH])
    ensures p.Planned? ==> TAG_IMAGE_LENGTH in values && p.layout.height == TV.IntOf(values[TAG_IMAGE_LENGTH])
    ensures p.Planned? ==> TAG_STRIP_OFFSETS in values
    ensures p.Planned? && TAG_ROWS_PER_STRIP !in values ==> |p.layout.offsets| == 1 && p.layout.rowsPerStrip == -1
    ensures p.Planned? && TAG_ROWS_PER_STRIP in values ==>
      p.layout.rowsPerStrip != 0 && |p.layout.offsets| == StripsPerImage(p.layout.height, p.layout.rowsPerStrip)
  {
    if TAG_PHOTOMETRIC !in values then NoImage
    else
      var fmt := FormatOf(TV.IntOf(values[TAG_PHOTOMETRIC]));
      if fmt.None? then LoadFailed
      else if IntOr(values, TAG_COMPRESSION, COMPRESSION_NONE) != COMPRESSION_NONE then LoadFailed
      else if IntOr(values, TAG_SAMPLES_PER_PIXEL, 1) != (if fmt.value == RAW then 1 else 3) then LoadFailed
      else if TAG_BITS_PER_SAMPLE !in values then LoadFailed
      else if fmt.value == RAW && TV.IntOf(values[TAG_BITS_PER_SAMPLE]) != 16 then LoadFailed
      else if fmt.value == RGB24 && |TV.IntsOf(values[TAG_BITS_PER_SAMPLE])| < 3 then LoadUndefined
      else if fmt.value == RGB24 && TV.IntsOf(values[TAG_BITS_PER_SAMPLE])[..3] != [8, 8, 8] then LoadFailed
      else if TAG_IMAGE_WIDTH !in values || TAG_IMAGE_LENGTH !in values then LoadFailed
      else
        var width := TV.IntOf(values[TAG_IMAGE_WIDTH]);
        var length := TV.IntOf(values[TAG_IMAGE_LENGTH]);
        var given := TAG_ROWS_PER_STRIP in values;
        var rps := if given then TV.IntOf(values[TAG_ROWS_PER_STRIP]) else -1;
        if given && (rps == 0 || (length == CArith.INT32_MIN && rps == -1)) then LoadUndefined
        else
          var strips := if given then StripsPerImage(length, rps) else 1;
          if TAG_STRIP_OFFSETS !in values then LoadFailed
          else
            var so := values[TAG_STRIP_OFFSETS];
            var offsets := if fixedOffsets then OffsetsFixed(so) else OffsetsAsWritten(so);
            if |offsets| != strips then LoadFailed
            else
              var bpp := BytesPerPixel(fmt.value);
              Planned(Layout(fmt.value, width, length, rps, offsets,
                             (rps * width * bpp) % TWO_32, (length * width * bpp) % TWO_32))
  }

  /** getImage's checks as written. */
  function PlanAsWritten(values: map<int, TV.Value>): Plan
  {
    PlanWith(values, false)
  }

  /** getImage's checks with a single strip offset accepted in its scalar form. */
  function PlanFixed(values: map<int, TV.Value>): Plan
  {
    PlanWith(values, true)
  }

  // -------------------------------------------------------------------
  // The tags writeImage adds, read back
  // -------------------------------------------------------------------

  /** The formats writeImage saves. */
  predicate Saveable(fmt: ImageFormat)
  {
    fmt == RGB24 || fmt == RGB16 || fmt == RAW
  }

  /** The samples per pixel and bits per sample writeImage records for a format. */
  function Photometric(fmt: ImageFormat): (pi: int)
    requires Saveable(fmt)
    ensures FormatOf(pi) == Some(if fmt == RAW then RAW else RGB24)
  {
    if fmt == RAW then PI_CFA else PI_RGB
  }

  function SamplesPerPixel(fmt: ImageFormat): (n: int)
    requires Saveable(fmt)
    ensures n * 2 == BytesPerPixel(fmt) * (if fmt == RAW then 1 else if fmt == RGB24 then 2 else 3)
  {
    if fmt == RAW then 1 else 3
  }

  function BitsPerSample(fmt: ImageFormat): (bs: seq<int>)
    requires Saveable(fmt)
    ensures |bs| == SamplesPerPixel(fmt)
  {
    if fmt == RGB24 then [8, 8, 8] else if fmt == RGB16 then [5, 6, 5] else [16]
  }

  /** The tags writeImage adds, with the values it gives them. */
  function ImageTags(fmt: ImageFormat, width: int, height: int, rowsPerStrip: int,
                     offsets: seq<int>, counts: seq<int>): (tags: map<int, TV.Value>)
    requires Saveable(fmt)
    ensures tags.Keys == {TAG_PHOTOMETRIC, TAG_SAMPLES_PER_PIXEL, TAG_BITS_PER_SAMPLE, TAG_IMAGE_WIDTH,
                          TAG_IMAGE_LENGTH, TAG_ROWS_PER_STRIP, TAG_STRIP_OFFSETS, TAG_STRIP_BYTE_COUNTS,
                          TAG_COMPRESSION}
  {
    map[TAG_PHOTOMETRIC := TV.IntValue(Photometric(fmt)),
        TAG_SAMPLES_PER_PIXEL := TV.IntValue(SamplesPerPixel(fmt)),
        TAG_BITS_PER_SAMPLE := TV.IntVectorValue(BitsPerSample(fmt)),
        TAG_IMAGE_WIDTH := TV.IntValue(width),
        TAG_IMAGE_LENGTH := TV.IntValue(height),
        TAG_ROWS_PER_STRIP := TV.IntValue(rowsPerStrip),
        TAG_STRIP_OFFSETS := TV.IntVectorValue(offsets),
        TAG_STRIP_BYTE_COUNTS := TV.IntVectorValue(counts),
        TAG_COMPRESSION := TV.IntValue(COMPRESSION_NONE)]
  }

  /**
   * What the entries' `value()` returns for stored tags: a one-element
   * vector comes back as its element (TiffFiles.StoredReadsBack).
   */
  function ReadValues(tags: map<int, TV.Value>): (values: map<int, TV.Value>)
    ensures values.Keys == tags.Keys
    ensures forall t :: t in tags ==> values[t] == T.Scalarized(tags[t])
  {
    map t | t in tags :: T.Scalarized(tags[t])
  }

  /** For a height and rows per strip both positive, getImage's count is the usual rounded-up quotient. */
  lemma StripsPerImagePositive(length: nat, rps: nat)
    requires 1 <= rps && length < TWO_32 - 1
    ensures StripsPerImage(length, rps) == length / rps + (if length % rps != 0 then 1 else 0)
  {
    var q := length / rps;
    var r := length % rps;
    assert q <= length by {
      CArith.DivModUnique(length, q, r, rps);
      CArith.NonzeroMultiple(q, rps);
    }
    assert CArith.CDiv(length, rps) % TWO_32 == q by {
      CArith.DivModUnique(q, 0, q, TWO_32);
    }
    assert CArith.CRem(length, rps) == r;
    assert (q + 1) % TWO_32 == q + 1 by {
      CArith.DivModUnique(q + 1, 0, q + 1, TWO_32);
    }
  }

  /** The strip count getImage expects is the number of strips writeImage writes. */
  lemma StripsPerImageMatches(height: nat, rps: nat)
    requires 1 <= rps && height < TWO_32 - 1
    ensures StripsPerImage(height, rps) == |StripRows(0, height, rps)|
  {
    StripNumber(0, height, rps);
    StripsPerImagePositive(height, rps);
  }

  /** The tags getImage consults hold what writeImage gives them, once stored and read back. */
  predicate HoldsImageTags(values: map<int, TV.Value>, fmt: ImageFormat, width: int, height: int,
                           rps: int, offsets: seq<int>)
    requires Saveable(fmt)
  {
    && TAG_PHOTOMETRIC in values && values[TAG_PHOTOMETRIC] == TV.IntValue(Photometric(fmt))
    && TAG_COMPRESSION in values && values[TAG_COMPRESSION] == TV.IntValue(COMPRESSION_NONE)
    && TAG_SAMPLES_PER_PIXEL in values && values[TAG_SAMPLES_PER_PIXEL] == TV.IntValue(SamplesPerPixel(fmt))
    && TAG_BITS_PER_SAMPLE in values && values[TAG_BITS_PER_SAMPLE] == T.Scalarized(TV.IntVectorValue(BitsPerSample(fmt)))
    && TAG_IMAGE_WIDTH in values && values[TAG_IMAGE_WIDTH] == TV.IntValue(width)
    && TAG_IMAGE_LENGTH in values && values[TAG_IMAGE_LENGTH] == TV.IntValue(height)
    && TAG_ROWS_PER_STRIP in values && values[TAG_ROWS_PER_STRIP] == TV.IntValue(rps)
    && TAG_STRIP_OFFSETS in values && values[TAG_STRIP_OFFSETS] == T.Scalarized(TV.IntVectorValue(offsets))
  }

  /** The values the entries of an image's tags return. */
  lemma ReadImageTags(fmt: ImageFormat, width: int, height: int, rps: int, offsets: seq<int>, counts: seq<int>)
    requires Saveable(fmt)
    ensures HoldsImageTags(ReadValues(ImageTags(fmt, width, height, rps, offsets, counts)), fmt, width, height, rps, offsets)
  {
    var tags := ImageTags(fmt, width, height, rps, offsets, counts);
    assert tags[TAG_PHOTOMETRIC] == TV.IntValue(Photometric(fmt));
    assert tags[TAG_COMPRESSION] == TV.IntValue(COMPRESSION_NONE);
    assert tags[TAG_SAMPLES_PER_PIXEL] == TV.IntValue(SamplesPerPixel(fmt));
    assert tags[TAG_BITS_PER_SAMPLE] == TV.IntVectorValue(BitsPerSample(fmt));
    assert tags[TAG_IMAGE_WIDTH] == TV.IntValue(width);
    assert tags[TAG_IMAGE_LENGTH] == TV.IntValue(height);
    assert tags[TAG_ROWS_PER_STRIP] == TV.IntValue(rps);
    assert tags[TAG_STRIP_OFFSETS] == TV.IntVectorValue(offsets);
  }

  /**
   * As written, the tags of an RGB24 or RAW image of two strips or more
   * read back into its layout: the same format, size, rows per strip and
   * strip offsets.
   */
  lemma TagsPlanned(values: map<int, TV.Value>, fmt: ImageFormat, width: int, height: nat, rps: nat, offsets: seq<int>)
    requires fmt == RGB24 || fmt == RAW
    requires 1 <= rps && 1 <= height < TWO_32 - 1
    requires |offsets| == |StripRows(0, height, rps)|
    requires HoldsImageTags(values, fmt, width, height, rps, offsets)
    ensures 2 <= |offsets| ==>
      PlanAsWritten(values) ==
      Planned(Layout(fmt, width, height, rps, offsets,
                     (rps * width * BytesPerPixel(fmt)) % TWO_32, (height * width * BytesPerPixel(fmt)) % TWO_32))
  {
    StripsPerImageMatches(height, rps);
    if 2 <= |offsets| {
      assert OffsetsAsWritten(values[TAG_STRIP_OFFSETS]) == offsets;
      if fmt == RGB24 {
        assert TV.IntsOf(values[TAG_BITS_PER_SAMPLE])[..3] == [8, 8, 8];
      } else {
        assert TV.IntOf(values[TAG_BITS_PER_SAMPLE]) == 16;
      }
    }
  }

  /**
   * With single offsets accepted in their scalar form, the tags of every
   * RGB24 or RAW image read back into its layout, one strip included.
   */
  lemma TagsPlannedFixed(values: map<int, TV.Value>, fmt: ImageFormat, width: int, height: nat, rps: nat, offsets: seq<int>)
    requires fmt == RGB24 || fmt == RAW
    requires 1 <= rps && 1 <= height < TWO_32 - 1
    requires |offsets| == |StripRows(0, height, rps)|
    requires HoldsImageTags(values, fmt, width, height, rps, offsets)
    ensures PlanFixed(values) ==
      Planned(Layout(fmt, width, height, rps, offsets,
                     (rps * width * BytesPerPixel(fmt)) % TWO_32, (height * width * BytesPerPixel(fmt)) % TWO_32))
  {
    StripsPerImageMatches(height, rps);
    assert OffsetsFixed(values[TAG_STRIP_OFFSETS]) == offsets;
    if fmt == RGB24 {
      assert TV.IntsOf(values[TAG_BITS_PER_SAMPLE])[..3] == [8, 8, 8];
    } else {
      assert TV.IntOf(values[TAG_BITS_PER_SAMPLE]) == 16;
    }
  }

  /**
   * As written, an image that fits in one strip cannot be read back: its
   * one offset is stored inline, reads back as a plain int, and the vector
   * cast leaves no offsets where one strip is expected.
   */
  lemma SingleStripRejected(values: map<int, TV.Value>, fmt: ImageFormat, width: int, height: nat, rps: nat, offsets: seq<int>)
    requires fmt == RGB24 || fmt == RAW
    requires 1 <= rps && 1 <= height < TWO_32 - 1
    requires |offsets| == |StripRows(0, height, rps)| == 1
    requires HoldsImageTags(values, fmt, width, height, rps, offsets)
    ensures PlanAsWritten(values) == LoadFailed
  {
    StripsPerImageMatches(height, rps);
    assert OffsetsAsWritten(values[TAG_STRIP_OFFSETS]) == [];
    if fmt == RGB24 {
      assert TV.IntsOf(values[TAG_BITS_PER_SAMPLE])[..3] == [8, 8, 8];
    } else {
      assert TV.IntOf(values[TAG_BITS_PER_SAMPLE]) == 16;
    }
  }

  /** An RGB16 image is saved with bits per sample 5, 6, 5, which getImage refuses. */
  lemma Rgb16Refused(values: map<int, TV.Value>, width: int, height: int, rps: int, offsets: seq<int>)
    requires HoldsImageTags(values, RGB16, width, height, rps, offsets)
    ensures PlanAsWritten(values) == LoadFailed && PlanFixed(values) == LoadFailed
  {
    var bits := TV.IntsOf(values[TAG_BITS_PER_SAMPLE]);
    assert bits == [5, 6, 5];
    assert bits[..3][0] == 5;
    assert FormatOf(TV.IntOf(values[TAG_PHOTOMETRIC])) == Some(RGB24);
  }

  // -------------------------------------------------------------------
  // Reading the strips (`getImage`)
  // -------------------------------------------------------------------

  /**
   * `readByteArray(offset, count, dest)`: seek to `offset` and read `count`
   * bytes; a short read fails (reading nothing never does).
   */
  function ReadByteArray(file: seq<byte>, offset: nat, count: nat): (r: Option<seq<byte>>)
    ensures r.Some? <==> count == 0 || offset + count <= |file|
    ensures r.Some? ==> |r.value| == count
    ensures offset + count <= |file| ==> r == Some(file[offset..offset + count])
  {
    if offset + count <= |file| then Some(file[offset..offset + count])
    else if count == 0 then Some([])
    else None
  }

  /** Bytes read, followed by what a further read returns, if it succeeds. */
  function Then(done: seq<byte>, more: Option<seq<byte>>): Option<seq<byte>>
  {
    if more.None? then None else Some(done + more.value)
  }

  /**
   * The strip loop of getImage: at each offset, taken as an unsigned
   * 32-bit position, the lesser of the bytes left and the bytes per strip;
   * the first failed read fails the whole image.
   */
  function StripReads(file: seq<byte>, offsets: seq<int>, left: nat, per: nat): (r: Option<seq<byte>>)
    ensures r.Some? ==> |r.value| <= left
    ensures offsets == [] ==> r == Some([])
    decreases |offsets|
  {
    if offsets == [] then Some([])
    else
      var n := CArith.Min(left, per);
      var head := ReadByteArray(file, offsets[0] % TWO_32, n);
      if head.None? then None else Then(head.value, StripReads(file, offsets[1..], left - n, per))
  }

  /** The strip loop itself, reading into the image buffer strip after strip. */
  method ReadStrips(file: seq<byte>, offsets: seq<int>, total: nat, per: nat) returns (data: Option<seq<byte>>)
    ensures data == StripReads(file, offsets, total, per)
  {
    var acc: seq<byte> := [];
    var left: nat := total;
    var strip := 0;
    assert offsets[0..] == offsets;
    ThenNothing(StripReads(file, offsets, total, per));
    while strip < |offsets|
      invariant 0 <= strip <= |offsets|
      invariant StripReads(file, offsets, total, per) == Then(acc, StripReads(file, offsets[strip..], left, per))
    {
      var n: nat := CArith.Min(left, per);
      assert n <= left;
      var bytes := ReadByteArray(file, offsets[strip] % TWO_32, n);
      assert offsets[strip..][1..] == offsets[strip + 1..];
      if bytes.None? {
        return None;
      }
      ThenThen(acc, bytes.value, StripReads(file, offsets[strip + 1..], left - n, per));
      acc := acc + bytes.value;
      left := left - n;
      strip := strip + 1;
    }
    assert acc + [] == acc;
    return Some(acc);
  }

  lemma ThenNothing(more: Option<seq<byte>>)
    ensures Then([], more) == more
  {
    if more.Some? {
      assert [] + more.value == more.value;
    }
  }

  lemma ThenThen(a: seq<byte>, b: seq<byte>, more: Option<seq<byte>>)
    ensures Then(a, Then(b, more)) == Then(a + b, more)
  {
    if more.Some? {
      assert a + (b + more.value) == (a + b) + more.value;
    }
  }

  /** One step of the strip loop: a successful read of the first strip, then the others. */
  lemma StripReadsCons(file: seq<byte>, offset: int, offsets: seq<int>, left: nat, per: nat, head: seq<byte>)
    requires ReadByteArray(file, offset % TWO_32, CArith.Min(left, per)) == Some(head)
    ensures StripReads(file, [offset] + offsets, left, per)
      == Then(head, StripReads(file, offsets, left - CArith.Min(left, per), per))
  {
    assert ([offset] + offsets)[1..] == offsets;
  }

  /** Byte counts of full strips of `per` bytes, the last one possibly shorter. */
  predicate FullStrips(counts: seq<int>, per: nat)
    decreases |counts|
  {
    counts == [] ||
    (0 <= counts[0] <= per && (|counts| > 1 ==> counts[0] == per) && FullStrips(counts[1..], per))
  }

  /**
   * Strips of `per` bytes, the last one possibly shorter, written back to
   * back from `base`: the strip loop, given their total as the bytes left,
   * reads back exactly the bytes from `base` on.
   */
  lemma {:induction false} ContiguousReadsBack(file: seq<byte>, base: nat, counts: seq<int>, left: nat, per: nat)
    requires FullStrips(counts, per)
    requires left == Sum(counts) && base + left <= |file| && base + left < TWO_32
    ensures StripReads(file, Starts(base, counts), left, per) == Some(file[base..base + left])
    decreases |counts|
  {
    if counts == [] {
      assert file[base..base + left] == [];
    } else {
      var c := counts[0];
      ContiguousStep(file, base, counts, left, per);
      ContiguousReadsBack(file, base + c, counts[1..], left - c, per);
      AdjacentSlices(file, base, base + c, base + left);
    }
  }

  /** The first strip of a back-to-back run reads as its own bytes, then the loop goes on with the others. */
  lemma ContiguousStep(file: seq<byte>, base: nat, counts: seq<int>, left: nat, per: nat)
    requires FullStrips(counts, per) && counts != []
    requires left == Sum(counts) && base + left <= |file| && base + left < TWO_32
    ensures 0 <= counts[0] <= left && FullStrips(counts[1..], per) && left - counts[0] == Sum(counts[1..])
    ensures StripReads(file, Starts(base, counts), left, per)
      == Then(file[base..base + counts[0]], StripReads(file, Starts(base + counts[0], counts[1..]), left - counts[0], per))
  {
    var c := counts[0];
    var rest := counts[1..];
    assert counts == [c] + rest;
    SumNonnegative(rest, per);
    assert CArith.Min(left, per) == c by {
      if |counts| == 1 {
        assert rest == [];
      }
    }
    StartsCons(base, c, rest);
    assert base % TWO_32 == base;
    assert ReadByteArray(file, base % TWO_32, c) == Some(file[base..base + c]);
    StripReadsCons(file, base, Starts(base + c, rest), left, per, file[base..base + c]);
  }

  /** Two slices that meet make up the slice spanning both. */
  lemma AdjacentSlices(file: seq<byte>, lo: nat, mid: nat, hi: nat)
    requires lo <= mid <= hi <= |file|
    ensures file[lo..mid] + file[mid..hi] == file[lo..hi]
  {
    assert forall k :: 0 <= k < hi - lo ==> (file[lo..mid] + file[mid..hi])[k] == file[lo..hi][k];
  }

  lemma {:induction false} SumNonnegative(xs: seq<int>, per: nat)
    requires FullStrips(xs, per)
    ensures Sum(xs) >= 0
  {
    if xs != [] {
      SumNonnegative(xs[1..], per);
    }
  }

  /** The byte counts writeImage records add up to the image's bytes. */
  lemma {:induction false} StripCountsSum(ys: nat, height: nat, rps: nat, bytesPerRow: nat)
    requires rps >= 1 && ys <= height
    ensures Sum(StripCounts(ys, height, rps, bytesPerRow)) == (height - ys) * bytesPerRow
    decreases height - ys
  {
    if ys < height {
      var rest := StripCounts(ys + rps, height, rps, bytesPerRow);
      assert StripCounts(ys, height, rps, bytesPerRow)[1..] == rest;
      if ys + rps < height {
        StripCountsSum(ys + rps, height, rps, bytesPerRow);
        assert rps * bytesPerRow + (height - (ys + rps)) * bytesPerRow == (height - ys) * bytesPerRow;
      }
    }
  }

  /** Every byte count but the last is a full strip, and none is more. */
  lemma {:induction false} StripCountsFull(ys: nat, height: nat, rps: nat, bytesPerRow: nat)
    requires rps >= 1
    ensures FullStrips(StripCounts(ys, height, rps, bytesPerRow), rps * bytesPerRow)
    decreases height - ys
  {
    var cs := StripCounts(ys, height, rps, bytesPerRow);
    if ys < height {
      var rest := StripCounts(ys + rps, height, rps, bytesPerRow);
      StripCountsFull(ys + rps, height, rps, bytesPerRow);
      assert cs[1..] == rest;
      assert 0 <= cs[0] <= rps * bytesPerRow by {
        MulMonotone(CArith.Min(height, ys + rps) - ys, rps, bytesPerRow);
      }
      if ys + rps >= height {
        assert rest == [];
      }
    }
  }

  lemma MulMonotone(a: nat, b: nat, c: nat)
    requires a <= b
    ensures 0 <= a * c <= b * c
  {
  }

  /**
   * getImage reads back what writeImage wrote: with the offsets and byte
   * counts writeImage records for `rows`, written after `prefix`, the
   * strip loop returns the rows' bytes.
   */
  lemma StripReadsBack(prefix: seq<byte>, rows: seq<seq<byte>>, rps: nat, bytesPerRow: nat, left: nat, per: nat)
    requires rps >= 1
    requires forall y :: 0 <= y < |rows| ==> |rows[y]| == bytesPerRow
    requires left == |rows| * bytesPerRow && per == rps * bytesPerRow
    requires |prefix| + left < TWO_32
    ensures StripReads(prefix + Flatten(rows), Starts(|prefix|, StripCounts(0, |rows|, rps, bytesPerRow)), left, per)
      == Some(Flatten(rows))
  {
    var file := prefix + Flatten(rows);
    var counts := StripCounts(0, |rows|, rps, bytesPerRow);
    FlattenLength(rows, bytesPerRow);
    StripCountsSum(0, |rows|, rps, bytesPerRow);
    StripCountsFull(0, |rows|, rps, bytesPerRow);
    ContiguousReadsBack(file, |prefix|, counts, left, per);
    assert file[|prefix|..|prefix| + left] == Flatten(rows);
  }

  // -------------------------------------------------------------------
  // The directory's image (`getImage`, `setImage`, `writeImage`)
  // -------------------------------------------------------------------

  /** An image: none (the default, invalid Image), or a format, a size and its bytes row after row. */
  datatype Picture = NoPicture | Picture(fmt: ImageFormat, width: int, height: int, data: seq<byte>)

  /** A picture whose buffer holds exactly its rows. */
  predicate Shaped(p: Picture)
  {
    p.Picture? && 0 <= p.width && 0 <= p.height && |p.data| == p.height * (BytesPerPixel(p.fmt) * p.width)
  }

  /**
   * The picture a plan reads from a file holding `file`: its strips read
   * in turn, or nothing when the plan failed or a read fails.
   */
  function LoadedBy(plan: Plan, file: seq<byte>): (r: Option<Picture>)
    ensures r.Some? ==> plan.Planned? && r.value.Picture?
    ensures r.Some? ==> r.value.fmt == plan.layout.fmt && r.value.width == plan.layout.width && r.value.height == plan.layout.height
    ensures r.Some? ==> StripReads(file, plan.layout.offsets, plan.layout.bytesTotal, plan.layout.bytesPerStrip) == Some(r.value.data)
  {
    match plan
    case Planned(l) =>
      (match StripReads(file, l.offsets, l.bytesTotal, l.bytesPerStrip)
       case None => None
       case Some(data) => Some(Picture(l.fmt, l.width, l.height, data)))
    case _ => None
  }

  /**
   * What getImage, as written, loads from a directory whose tags hold
   * `values`, in a file holding `file`.
   */
  function Loaded(values: map<int, TV.Value>, file: seq<byte>): Option<Picture>
  {
    LoadedBy(PlanAsWritten(values), file)
  }

  /** What getImage loads with a single strip offset accepted in its scalar form. */
  function LoadedFixed(values: map<int, TV.Value>, file: seq<byte>): Option<Picture>
  {
    LoadedBy(PlanFixed(values), file)
  }

  /** The rows of a picture's buffer, `bytesPerRow` bytes each. */
  function Rows(data: seq<byte>, bytesPerRow: nat, height: nat): (rows: seq<seq<byte>>)
    requires |data| == height * bytesPerRow
    ensures |rows| == height
    ensures forall y :: 0 <= y < |rows| ==> |rows[y]| == bytesPerRow
    ensures Flatten(rows) == data
  {
    if height == 0 then []
    else
      assert |data[bytesPerRow..]| == (height - 1) * bytesPerRow;
      var rows := [data[..bytesPerRow]] + Rows(data[bytesPerRow..], bytesPerRow, height - 1);
      assert rows[1..] == Rows(data[bytesPerRow..], bytesPerRow, height - 1);
      rows
  }

  /** The entries' views after `add(tag, v)`: nothing when a fresh entry refuses v. */
  function AddView(table: T.TagTable, views: map<int, T.EntryView>, tag: int, v: TV.Value): Option<map<int, T.EntryView>>
  {
    var info := T.Lookup(table, tag);
    if !T.Accepts(info, T.DeclaredType(table, tag), v.Kind()) then None
    else if tag in views then Some(views[tag := T.SetResult(info, views[tag], v)])
    else Some(views[tag := T.SetResult(info, T.EntryView(T.DeclaredType(table, tag), 0, T.Zeros(4), T.Invalid, v), v)])
  }

  /**
   * The `if (success) success = add(...)` chain: the pairs added in order
   * until one is refused; whether all were added, and the views then.
   */
  function AddsView(table: T.TagTable, views: map<int, T.EntryView>, pairs: seq<(int, TV.Value)>): (bool, map<int, T.EntryView>)
    decreases |pairs|
  {
    if pairs == [] then (true, views)
    else match AddView(table, views, pairs[0].0, pairs[0].1)
      case None => (false, views)
      case Some(next) => AddsView(table, next, pairs[1..])
  }

  /** Whether a fresh entry for the tag takes the value: the table's type, not the directory, decides. */
  predicate Taken(table: T.TagTable, pair: (int, TV.Value))
  {
    T.Accepts(T.Lookup(table, pair.0), T.DeclaredType(table, pair.0), pair.1.Kind())
  }

  /** The chain succeeds exactly when every value is of a kind its tag takes. */
  lemma {:induction false} AddsViewOk(table: T.TagTable, views: map<int, T.EntryView>, pairs: seq<(int, TV.Value)>)
    ensures AddsView(table, views, pairs).0 <==> forall i :: 0 <= i < |pairs| ==> Taken(table, pairs[i])
    decreases |pairs|
  {
    if pairs != [] {
      var next := AddView(table, views, pairs[0].0, pairs[0].1);
      if next.Some? {
        AddsViewOk(table, next.value, pairs[1..]);
        assert forall i :: 1 <= i < |pairs| ==> pairs[i] == pairs[1..][i - 1];
      }
    }
  }

  /**
   * Added to a directory that has none of their tags, with distinct tags
   * all taken, the pairs end up as written entries holding their values,
   * and the other entries are untouched.
   */
  lemma {:induction false} AddsViewFresh(table: T.TagTable, views: map<int, T.EntryView>, pairs: seq<(int, TV.Value)>)
    requires forall i, j :: 0 <= i < j < |pairs| ==> pairs[i].0 != pairs[j].0
    requires forall i :: 0 <= i < |pairs| ==> pairs[i].0 !in views && Taken(table, pairs[i])
    ensures forall i :: 0 <= i < |pairs| ==>
      (pairs[i].0 in AddsView(table, views, pairs).1
       && AddsView(table, views, pairs).1[pairs[i].0].state == T.Written
       && AddsView(table, views, pairs).1[pairs[i].0].val == pairs[i].1)
    ensures forall t :: t in views ==> t in AddsView(table, views, pairs).1 && AddsView(table, views, pairs).1[t] == views[t]
    decreases |pairs|
  {
    if pairs != [] {
      var tag := pairs[0].0;
      var next := AddView(table, views, tag, pairs[0].1).value;
      assert next[tag].state == T.Written && next[tag].val == pairs[0].1;
      var rest := pairs[1..];
      assert forall i :: 0 <= i < |rest| ==> rest[i] == pairs[i + 1];
      AddsViewFresh(table, next, rest);
      assert AddsView(table, views, pairs) == AddsView(table, next, rest);
    }
  }

  /**
   * The tags writeImage adds, in its order: photometric interpretation,
   * samples per pixel, bits per sample, width, length, rows per strip,
   * strip offsets, strip byte counts, compression.
   */
  function ImagePairs(fmt: ImageFormat, width: int, height: int, rps: int,
                      offsets: seq<int>, counts: seq<int>): (pairs: seq<(int, TV.Value)>)
    requires Saveable(fmt)
    ensures |pairs| == 9
  {
    [(TAG_PHOTOMETRIC, TV.IntValue(Photometric(fmt))),
     (TAG_SAMPLES_PER_PIXEL, TV.IntValue(SamplesPerPixel(fmt))),
     (TAG_BITS_PER_SAMPLE, TV.IntVectorValue(BitsPerSample(fmt))),
     (TAG_IMAGE_WIDTH, TV.IntValue(width)),
     (TAG_IMAGE_LENGTH, TV.IntValue(height)),
     (TAG_ROWS_PER_STRIP, TV.IntValue(rps)),
     (TAG_STRIP_OFFSETS, TV.IntVectorValue(offsets)),
     (TAG_STRIP_BYTE_COUNTS, TV.IntVectorValue(counts)),
     (TAG_COMPRESSION, TV.IntValue(COMPRESSION_NONE))]
  }

  /**
   * A picture writeImage can save at file position `start`: RGB24 or RAW,
   * its buffer its rows, a row neither empty (65536 is divided by its
   * length) nor so long that ten rows overflow 32 bits, and the file small
   * enough for every strip offset to fit in an int.
   */
  predicate Writable(p: Picture, start: nat)
  {
    && p.Picture? && (p.fmt == RGB24 || p.fmt == RAW) && Shaped(p)
    && 1 <= p.width && 10 * (BytesPerPixel(p.fmt) * p.width) < TWO_32
    && start + |p.data| < 0x8000_0000
  }

  /** The bytes of a row of a picture. */
  function RowBytes(p: Picture): (n: nat)
    requires Writable(p, 0)
    ensures n >= 1
  {
    BytesPerPixel(p.fmt) * p.width
  }

  /** The picture's rows. */
  function PictureRows(p: Picture): (rows: seq<seq<byte>>)
    requires Writable(p, 0)
    ensures Flatten(rows) == p.data
  {
    Rows(p.data, RowBytes(p), p.height)
  }

  /** The byte counts writeImage records for a picture. */
  function SavedCounts(p: Picture): seq<int>
    requires Writable(p, 0)
  {
    StripCounts(0, p.height, RowsPerStrip(RowBytes(p)), RowBytes(p))
  }

  /** The tags writeImage adds for a picture written at file position `start`. */
  function SavedPairs(p: Picture, start: nat): (pairs: seq<(int, TV.Value)>)
    requires Writable(p, 0)
  {
    ImagePairs(p.fmt, p.width, p.height, RowsPerStrip(RowBytes(p)), Starts(start, SavedCounts(p)), SavedCounts(p))
  }

  /** Strips of `per` bytes written back to back start within their total and hold at most it. */
  lemma {:induction false} StartsWithin(base: int, counts: seq<int>, per: nat)
    requires FullStrips(counts, per)
    ensures forall i :: 0 <= i < |counts| ==>
      base <= Starts(base, counts)[i] <= base + Sum(counts) && 0 <= counts[i] <= Sum(counts)
    decreases |counts|
  {
    if counts != [] {
      var rest := counts[1..];
      StartsWithin(base + counts[0], rest, per);
      SumNonnegative(rest, per);
      StartsCons(base, counts[0], rest);
      assert forall i :: 1 <= i < |counts| ==> counts[i] == rest[i - 1];
    }
  }

  /** Every strip holds a row at least. */
  lemma {:induction false} FewerStripsThanRows(ys: nat, height: nat, rps: nat)
    requires rps >= 1 && ys <= height
    ensures |StripRows(ys, height, rps)| <= height - ys
    decreases height - ys
  {
    if ys < height && ys + rps <= height {
      FewerStripsThanRows(ys + rps, height, rps);
    }
  }

  /** Strip offsets and byte counts for `height` rows are few and lie within the rows' bytes. */
  lemma CountsBounded(start: int, height: nat, rps: nat, bytesPerRow: nat, size: nat)
    requires rps >= 1 && bytesPerRow >= 1 && size == height * bytesPerRow
    ensures |StripCounts(0, height, rps, bytesPerRow)| <= size
    ensures forall i :: 0 <= i < |StripCounts(0, height, rps, bytesPerRow)| ==>
      start <= Starts(start, StripCounts(0, height, rps, bytesPerRow))[i] <= start + size
      && 0 <= StripCounts(0, height, rps, bytesPerRow)[i] <= size
  {
    var counts := StripCounts(0, height, rps, bytesPerRow);
    assert Sum(counts) == size by {
      StripCountsSum(0, height, rps, bytesPerRow);
    }
    assert FullStrips(counts, rps * bytesPerRow) by {
      StripCountsFull(0, height, rps, bytesPerRow);
    }
    StartsWithin(start, counts, rps * bytesPerRow);
    assert |counts| <= height by {
      StripCountsAreRows(0, height, rps, bytesPerRow);
      FewerStripsThanRows(0, height, rps);
    }
    assert height <= size by {
      MulMonotone(1, bytesPerRow, height);
    }
  }

  /** The pairs writeImage adds are the tags ImageTags holds, each tag once. */
  lemma ImagePairsAreTags(fmt: ImageFormat, width: int, height: int, rps: int, offsets: seq<int>, counts: seq<int>)
    requires Saveable(fmt)
    ensures forall i, j :: 0 <= i < j < 9 ==>
      ImagePairs(fmt, width, height, rps, offsets, counts)[i].0 != ImagePairs(fmt, width, height, rps, offsets, counts)[j].0
    ensures forall i :: 0 <= i < 9 ==>
      (ImagePairs(fmt, width, height, rps, offsets, counts)[i].0 in ImageTags(fmt, width, height, rps, offsets, counts)
       && ImageTags(fmt, width, height, rps, offsets, counts)[ImagePairs(fmt, width, height, rps, offsets, counts)[i].0]
          == ImagePairs(fmt, width, height, rps, offsets, counts)[i].1)
  {
  }

  /** Pairs `add` may be given: 16-bit tags and well-formed values. */
  predicate Addable(pairs: seq<(int, TV.Value)>)
  {
    forall i :: 0 <= i < |pairs| ==> 0 <= pairs[i].0 < TWO_16 && TV.WellFormed(pairs[i].1)
  }

  /** The pairs writeImage adds are well formed when their ints fit in 32 bits and their vectors are short. */
  lemma ImagePairsWellFormed(fmt: ImageFormat, width: int, height: int, rps: int, offsets: seq<int>, counts: seq<int>)
    requires Saveable(fmt)
    requires TV.IsInt32(width) && TV.IsInt32(height) && TV.IsInt32(rps)
    requires TV.WellFormed(TV.IntVectorValue(offsets)) && TV.WellFormed(TV.IntVectorValue(counts))
    ensures Addable(ImagePairs(fmt, width, height, rps, offsets, counts))
  {
    assert TV.WellFormed(TV.IntVectorValue(BitsPerSample(fmt)));
  }

  /** Every value writeImage adds is well formed: its ints fit in 32 bits and its vectors are short. */
  lemma SavedPairsWellFormed(p: Picture, start: nat)
    requires Writable(p, start)
    ensures Addable(SavedPairs(p, start))
  {
    var bpr := RowBytes(p);
    var rps := RowsPerStrip(bpr);
    var counts := SavedCounts(p);
    var offsets := Starts(start, counts);
    assert TV.WellFormed(TV.IntVectorValue(counts)) && TV.WellFormed(TV.IntVectorValue(offsets)) by {
      CountsBounded(start, p.height, rps, bpr, |p.data|);
    }
    assert TV.IsInt32(p.width) && TV.IsInt32(p.height) && TV.IsInt32(rps) by {
      SizesFit(p.width, p.height, BytesPerPixel(p.fmt), |p.data|);
    }
    ImagePairsWellFormed(p.fmt, p.width, p.height, rps, offsets, counts);
  }

  /** The width, height and rows per strip of a picture that fits in a file fit in an int. */
  lemma SizesFit(width: nat, height: nat, bytesPerPixel: nat, size: nat)
    requires 1 <= width && 1 <= bytesPerPixel && 10 * (bytesPerPixel * width) < TWO_32
    requires size == height * (bytesPerPixel * width) && size < 0x8000_0000
    ensures TV.IsInt32(width) && TV.IsInt32(height) && TV.IsInt32(RowsPerStrip(bytesPerPixel * width))
  {
    var bpr := bytesPerPixel * width;
    MulMonotone(1, bpr, height);
    MulMonotone(1, bytesPerPixel, width);
    var rps := RowsPerStrip(bpr);
    if rps > 10 {
      MulMonotone(1, bpr, rps);
    }
  }

  /** The strip loop reads the same bytes from a file that has grown since. */
  lemma {:induction false} StripReadsGrow(file: seq<byte>, more: seq<byte>, offsets: seq<int>, left: nat, per: nat)
    requires StripReads(file, offsets, left, per).Some?
    ensures StripReads(file + more, offsets, left, per) == StripReads(file, offsets, left, per)
    decreases |offsets|
  {
    if offsets != [] {
      var n := CArith.Min(left, per);
      var at := offsets[0] % TWO_32;
      assert ReadByteArray(file + more, at, n) == ReadByteArray(file, at, n) by {
        if n != 0 {
          assert (file + more)[at..at + n] == file[at..at + n];
        }
      }
      StripReadsGrow(file, more, offsets[1..], left - n, per);
    }
  }

  /** getImage's byte counts, for the tags writeImage adds, are the picture's row and strip sizes. */
  lemma SavedSizes(p: Picture, start: nat)
    requires Writable(p, start)
    ensures (p.height * p.width * BytesPerPixel(p.fmt)) % TWO_32 == p.height * RowBytes(p)
    ensures (RowsPerStrip(RowBytes(p)) * p.width * BytesPerPixel(p.fmt)) % TWO_32 == RowsPerStrip(RowBytes(p)) * RowBytes(p)
  {
    var bpr := RowBytes(p);
    var rps := RowsPerStrip(bpr);
    assert p.height * p.width * BytesPerPixel(p.fmt) == p.height * bpr;
    assert rps * p.width * BytesPerPixel(p.fmt) == rps * bpr;
    CArith.DivModUnique(p.height * bpr, 0, p.height * bpr, TWO_32);
    assert rps * bpr <= 10 * bpr || rps * bpr <= 65536;
    CArith.DivModUnique(rps * bpr, 0, rps * bpr, TWO_32);
  }

  /**
   * The save/load round trip as written: a picture whose strips writeImage
   * wrote after `prefix`, in a directory whose tags, stored and read back,
   * hold what writeImage added, is what getImage loads when it has two
   * strips or more, whatever the file holds after the strips; a picture
   * of one strip does not load at all.
   */
  lemma SavedImageLoads(p: Picture, prefix: seq<byte>, suffix: seq<byte>, values: map<int, TV.Value>)
    requires Writable(p, |prefix|) && 1 <= p.height
    requires HoldsImageTags(values, p.fmt, p.width, p.height, RowsPerStrip(RowBytes(p)),
                            Starts(|prefix|, SavedCounts(p)))
    ensures 2 <= |SavedCounts(p)| ==> Loaded(values, prefix + p.data + suffix) == Some(p)
    ensures |SavedCounts(p)| == 1 ==> Loaded(values, prefix + p.data + suffix) == None
  {
    var rps := RowsPerStrip(RowBytes(p));
    var offsets := Starts(|prefix|, SavedCounts(p));
    StripCountsAreRows(0, p.height, rps, RowBytes(p));
    assert p.height <= |p.data| by {
      MulMonotone(1, RowBytes(p), p.height);
    }
    if |SavedCounts(p)| == 1 {
      SingleStripRejected(values, p.fmt, p.width, p.height, rps, offsets);
    } else {
      TagsPlanned(values, p.fmt, p.width, p.height, rps, offsets);
      StripsReadBack(p, prefix, suffix, PlanAsWritten(values));
    }
  }

  /**
   * The save/load round trip with single strip offsets accepted in their
   * scalar form: every picture writeImage saved loads back as itself.
   */
  lemma SavedImageLoadsFixed(p: Picture, prefix: seq<byte>, suffix: seq<byte>, values: map<int, TV.Value>)
    requires Writable(p, |prefix|) && 1 <= p.height
    requires HoldsImageTags(values, p.fmt, p.width, p.height, RowsPerStrip(RowBytes(p)),
                            Starts(|prefix|, SavedCounts(p)))
    ensures LoadedFixed(values, prefix + p.data + suffix) == Some(p)
  {
    var rps := RowsPerStrip(RowBytes(p));
    StripCountsAreRows(0, p.height, rps, RowBytes(p));
    assert p.height <= |p.data| by {
      MulMonotone(1, RowBytes(p), p.height);
    }
    TagsPlannedFixed(values, p.fmt, p.width, p.height, rps, Starts(|prefix|, SavedCounts(p)));
    StripsReadBack(p, prefix, suffix, PlanFixed(values));
  }

  /** A plan holding the layout writeImage saved reads the saved picture back. */
  lemma StripsReadBack(p: Picture, prefix: seq<byte>, suffix: seq<byte>, plan: Plan)
    requires Writable(p, |prefix|) && 1 <= p.height
    requires var rps := RowsPerStrip(RowBytes(p));
      plan == Planned(Layout(p.fmt, p.width, p.height, rps, Starts(|prefix|, SavedCounts(p)),
                             (rps * p.width * BytesPerPixel(p.fmt)) % TWO_32, (p.height * p.width * BytesPerPixel(p.fmt)) % TWO_32))
    ensures LoadedBy(plan, prefix + p.data + suffix) == Some(p)
  {
    var bpr := RowBytes(p);
    var rps := RowsPerStrip(bpr);
    var rows := PictureRows(p);
    var offsets := Starts(|prefix|, SavedCounts(p));
    assert p.height <= |p.data| by {
      MulMonotone(1, bpr, p.height);
    }
    StripCountsAreRows(0, p.height, rps, bpr);
    SavedSizes(p, |prefix|);
    var left := p.height * bpr;
    StripReadsBack(prefix, rows, rps, bpr, left, rps * bpr);
    StripReadsGrow(prefix + p.data, suffix, offsets, left, rps * bpr);
  }

  /**
   * The tag loop of writeImage: each pair added in turn while the adds
   * succeed.
   */
  method AddAll(ifd: T.Ifd, pairs: seq<(int, TV.Value)>) returns (ok: bool)
    requires ifd.Valid()
    requires Addable(pairs)
    modifies ifd, ifd.entries.Values
    ensures ifd.Valid()
    ensures (ok, ifd.Views()) == AddsView(ifd.table, old(ifd.Views()), pairs)
  {
    ok := true;
    var i := 0;
    assert pairs[0..] == pairs;
    while i < |pairs| && ok
      invariant 0 <= i <= |pairs|
      invariant ifd.Valid()
      invariant forall e :: e in ifd.entries.Values ==> e in old(ifd.entries.Values) || fresh(e)
      invariant ok ==> AddsView(ifd.table, old(ifd.Views()), pairs) == AddsView(ifd.table, ifd.Views(), pairs[i..])
      invariant !ok ==> AddsView(ifd.table, old(ifd.Views()), pairs) == (false, ifd.Views())
      decreases |pairs| - i
    {
      ghost var before := ifd.Views();
      assert pairs[i..][0] == pairs[i] && pairs[i..][1..] == pairs[i + 1..];
      ok := ifd.Add(pairs[i].0, pairs[i].1);
      i := i + 1;
    }
  }

  /**
   * The part of writeImage past the format checks: the picture's rows
   * appended strip by strip, then its tags added.
   */
  method WriteCached(img: Picture, ifd: T.Ifd, out: T.Sink) returns (ok: bool)
    requires Writable(img, |out.bytes|) && ifd.Valid()
    modifies ifd, ifd.entries.Values, out
    ensures ifd.Valid()
    ensures out.bytes == old(out.bytes) + img.data
    ensures (ok, ifd.Views()) == AddsView(ifd.table, old(ifd.Views()), SavedPairs(img, |old(out.bytes)|))
  {
    var start := |out.bytes|;
    var bpr := RowBytes(img);
    var rps := RowsPerStrip(bpr);
    var offsets, counts := WriteStrips(out, PictureRows(img), bpr, rps);
    SavedPairsWellFormed(img, start);
    ok := AddAll(ifd, SavedPairs(img, start));
  }

  /** `imgState`. */
  datatype ImageState = ImageUnread | ImageNone | ImageCached

  /** The image part of a TIFF directory: its state and its cached image. */
  class IfdImage {
    var state: ImageState
    var cache: Picture

    /** A cached image is an RGB24 or RAW picture. */
    ghost predicate Valid()
      reads this
    {
      state == ImageCached ==> cache.Picture? && (cache.fmt == RGB24 || cache.fmt == RAW)
    }

    constructor ()
      ensures Valid() && state == ImageUnread && cache == NoPicture
    {
      state := ImageUnread;
      cache := NoPicture;
    }

    /**
     * `getImage`: the cached image once the directory has been looked at;
     * the first time, the image the tags describe, read from the file, or
     * no image (state NONE) when a check or a read fails.
     */
    method GetImage(values: map<int, TV.Value>, file: seq<byte>) returns (img: Picture)
      requires Valid()
      requires state == ImageUnread ==> PlanAsWritten(values) != LoadUndefined
      modifies this
      ensures Valid() && img == cache
      ensures old(state) != ImageUnread ==> state == old(state) && cache == old(cache)
      ensures old(state) == ImageUnread && Loaded(values, file).Some? ==>
        state == ImageCached && cache == Loaded(values, file).value
      ensures old(state) == ImageUnread && Loaded(values, file).None? ==>
        state == ImageNone && cache == old(cache)
    {
      if state != ImageUnread {
        return cache;
      }
      var plan := PlanAsWritten(values);
      if !plan.Planned? {
        state := ImageNone;
        return cache;
      }
      var l := plan.layout;
      var data := ReadStrips(file, l.offsets, l.bytesTotal, l.bytesPerStrip);
      if data.None? {
        state := ImageNone;
        return cache;
      }
      cache := Picture(l.fmt, l.width, l.height, data.value);
      state := ImageCached;
      return cache;
    }

    /** `setImage`: only RGB24 and RAW images are kept, and then cached. */
    method SetImage(img: Picture) returns (ok: bool)
      requires Valid()
      modifies this
      ensures Valid()
      ensures ok <==> img.Picture? && (img.fmt == RGB24 || img.fmt == RAW)
      ensures ok ==> state == ImageCached && cache == img
      ensures !ok ==> state == old(state) && cache == old(cache)
    {
      if !(img.Picture? && (img.fmt == RGB24 || img.fmt == RAW)) {
        return false;
      }
      cache := img;
      state := ImageCached;
      return true;
    }

    /**
     * `writeImage`: nothing for a directory without an image; otherwise
     * the picture's strips appended to the file, then its tags added to
     * the directory, the result whether all were added.
     */
    method WriteImage(values: map<int, TV.Value>, file: seq<byte>, ifd: T.Ifd, out: T.Sink) returns (ok: bool)
      requires Valid() && ifd.Valid()
      requires state == ImageUnread ==> PlanAsWritten(values) != LoadUndefined
      requires state == ImageCached ==> Writable(cache, |out.bytes|)
      requires state == ImageUnread && Loaded(values, file).Some? ==> Writable(Loaded(values, file).value, |out.bytes|)
      modifies this, ifd, ifd.entries.Values, out
      ensures Valid() && ifd.Valid()
      ensures old(state) != ImageUnread ==> state == old(state) && cache == old(cache)
      ensures old(state) == ImageUnread && Loaded(values, file).Some? ==>
        state == ImageCached && cache == Loaded(values, file).value
      ensures old(state) == ImageUnread && Loaded(values, file).None? ==>
        state == ImageNone && cache == old(cache)
      ensures state == ImageNone ==> ok && out.bytes == old(out.bytes) && ifd.Views() == old(ifd.Views())
      ensures state == ImageCached ==>
        (Writable(cache, 0) && out.bytes == old(out.bytes) + cache.data
         && (ok, ifd.Views()) == AddsView(ifd.table, old(ifd.Views()), SavedPairs(cache, |old(out.bytes)|)))
    {
      var img := GetImage(values, file);
      if state == ImageNone {
        return true;
      }
      ok := WriteCached(img, ifd, out);
    }
  }
}

=== FILE: time.dfy ===
/**
 * FCam::Time (external/FCam/Time.cpp): a (seconds, microseconds) pair, the
 * in-place `+=` that carries microseconds into seconds, and the comparisons.
 */
module FCamTime {

  const USEC_PER_SEC: int := 1_000_000

  datatype Time = Time(s: int, us: int)

  /** The instant a time denotes, in microseconds. */
  function Total(t: Time): int { t.s * USEC_PER_SEC + t.us }

  const TWO_31: int := 0x8000_0000
  const TWO_32: int := 0x1_0000_0000

  /** A value brought into the range of a 32-bit `int` by two's-complement wrap-around. */
  function Wrap32(x: int): (w: int)
    ensures -TWO_31 <= w < TWO_31
    ensures (w - x) % TWO_32 == 0
    ensures -TWO_31 <= x < TWO_31 ==> w == x
  {
    (x + TWO_31) % TWO_32 - TWO_31
  }

  /**
   * `operator-(Time)`: the microseconds from `other` to `t`, computed in a
   * 32-bit `int`. Every step wraps around, and the steps together wrap the
   * exact difference once, so only gaps under about 2147 seconds come out
   * right.
   */
  function Diff(t: Time, other: Time): (d: int)
    ensures -TWO_31 <= d < TWO_31
    ensures (d - (Total(t) - Total(other))) % TWO_32 == 0
    ensures -TWO_31 <= Total(t) - Total(other) < TWO_31 ==> d == Total(t) - Total(other)
  {
    Wrap32((t.s - other.s) * USEC_PER_SEC + (t.us - other.us))
  }

  /** A gap of 2148 seconds no longer fits: it comes out negative. */
  lemma DiffWrapsPast2147Seconds()
    ensures Diff(Time(2148, 0), Time(0, 0)) < 0
  {
    assert (2148 * USEC_PER_SEC + TWO_31) % TWO_32 == 2148 * USEC_PER_SEC - TWO_31;
  }

  /**
   * `operator+=(usecs)`: the receiver, passed by value, comes back updated.
   * The microseconds end in [0, 10^6]; 10^6 itself is kept, because the
   * second loop only runs while the count is strictly above 10^6.
   */
  method AddAssign(t: Time, usecs: int) returns (updated: Time)
    ensures Total(updated) == Total(t) + usecs
    ensures 0 <= updated.us <= USEC_PER_SEC
    ensures 0 <= t.us + usecs <= USEC_PER_SEC ==> updated == Time(t.s, t.us + usecs)
  {
    var newUsecs := t.us + usecs;
    var dSec := 0;
    while newUsecs < 0
      invariant dSec * USEC_PER_SEC + newUsecs == t.us + usecs
      invariant t.us + usecs >= 0 ==> dSec == 0
      decreases -newUsecs
    {
      dSec := dSec - 1;
      newUsecs := newUsecs + USEC_PER_SEC;
    }
    while newUsecs > USEC_PER_SEC
      invariant newUsecs >= 0
      invariant dSec * USEC_PER_SEC + newUsecs == t.us + usecs
      invariant 0 <= t.us + usecs <= USEC_PER_SEC ==> dSec == 0
    {
      dSec := dSec + 1;
      newUsecs := newUsecs - USEC_PER_SEC;
    }
    updated := Time(t.s + dSec, newUsecs);
  }

  /** `operator+(usecs)`: a copy advanced by `usecs`; `t - usecs` is `t + (-usecs)`. */
  method Plus(t: Time, usecs: int) returns (r: Time)
    ensures Total(r) == Total(t) + usecs
    ensures -TWO_31 <= usecs < TWO_31 ==> Diff(r, t) == usecs
    ensures 0 <= r.us <= USEC_PER_SEC
  {
    var t2 := t;
    t2 := AddAssign(t2, usecs);
    r := t2;
  }

  predicate Less(a: Time, b: Time) { a.s < b.s || (a.s == b.s && a.us < b.us) }
  predicate Greater(a: Time, b: Time) { a.s > b.s || (a.s == b.s && a.us > b.us) }
  predicate GreaterEq(a: Time, b: Time) { a.s > b.s || (a.s == b.s && a.us >= b.us) }
  predicate LessEq(a: Time, b: Time) { a.s < b.s || (a.s == b.s && a.us <= b.us) }
  predicate Equal(a: Time, b: Time) { a.s == b.s && a.us == b.us }
  predicate NotEqual(a: Time, b: Time) { a.us != b.us || a.s != b.s }

  /** The six comparisons are one strict lexicographic order on (s, us) and its relatives. */
  lemma ComparisonsConsistent(a: Time, b: Time, c: Time)
    ensures !Less(a, a)
    ensures Less(a, b) && Less(b, c) ==> Less(a, c)
    ensures Less(a, b) || Equal(a, b) || Less(b, a)
    ensures Greater(a, b) <==> Less(b, a)
    ensures LessEq(a, b) <==> Less(a, b) || Equal(a, b)
    ensures GreaterEq(a, b) <==> Greater(a, b) || Equal(a, b)
    ensures NotEqual(a, b) <==> !Equal(a, b)
    ensures Equal(a, b) <==> a == b
  {
  }

  /**
   * On times whose microseconds are below 10^6 the lexicographic order is the
   * order of the instants. A time with us == 10^6 (which `+=` can produce)
   * breaks this: it compares below the equal instant one second later.
   */
  lemma LessMatchesInstants(a: Time, b: Time)
    requires 0 <= a.us < USEC_PER_SEC && 0 <= b.us < USEC_PER_SEC
    ensures Less(a, b) <==> Total(a) < Total(b)
  {
    if a.s < b.s {
      assert Total(a) < (a.s + 1) * USEC_PER_SEC <= b.s * USEC_PER_SEC <= Total(b);
    } else if a.s > b.s {
      assert Total(b) < (b.s + 1) * USEC_PER_SEC <= a.s * USEC_PER_SEC <= Total(a);
    }
  }

  lemma FullSecondBreaksOrder(s: int)
    ensures Total(Time(s, USEC_PER_SEC)) == Total(Time(s + 1, 0))
    ensures Less(Time(s, USEC_PER_SEC), Time(s + 1, 0))
  {
  }
}

=== FILE: triple_buffer.dfy ===
/**
 * TripleBuffer (android/packages/fcamerapro/jni/TripleBuffer.h): a producer
 * fills the back buffer and publishes it by swapping with the spare; the
 * consumer picks the published buffer up by swapping front and spare. The
 * mutex around each call is left out; every call is one atomic step here.
 */
module TripleBuffers {

  /** The three buffer pointers and the "new front available" flag. */
  datatype Slots<T> = Slots(front: T, back: T, spare: T, updateFront: bool)

  function Buffers<T>(s: Slots<T>): multiset<T> { multiset{s.front, s.back, s.spare} }

  /** State after `swapBackBuffer`: back and spare exchanged, flag set. */
  function AfterSwapBack<T>(s: Slots<T>): (r: Slots<T>)
    ensures Buffers(r) == Buffers(s)
    ensures r.back == s.spare && r.spare == s.back && r.front == s.front && r.updateFront
  {
    Slots(s.front, s.spare, s.back, true)
  }

  /** State after `swapFrontBuffer`: front and spare exchanged only when the flag is set. */
  function AfterSwapFront<T>(s: Slots<T>): (r: Slots<T>)
    ensures Buffers(r) == Buffers(s)
    ensures !r.updateFront && r.back == s.back
    ensures s.updateFront ==> r.front == s.spare && r.spare == s.front
    ensures !s.updateFront ==> r == s
  {
    if s.updateFront then Slots(s.spare, s.back, s.front, false) else s
  }

  /** A buffer the producer published is the next one the consumer sees. */
  lemma {:induction false} PublishedBufferReachesFront<T>(s: Slots<T>)
    ensures AfterSwapFront(AfterSwapBack(s)).front == s.back
    ensures AfterSwapFront(AfterSwapBack(s)).spare == s.front
  {
  }

  /** Any sequence of swaps keeps the three constructor buffers, none lost or duplicated. */
  lemma {:induction false} SwapsPermuteBuffers<T>(s: Slots<T>, swaps: seq<bool>)
    ensures Buffers(Run(s, swaps)) == Buffers(s)
    decreases |swaps|
  {
    if swaps != [] {
      SwapsPermuteBuffers(Step(s, swaps[0]), swaps[1..]);
    }
  }

  /** One call: true for `swapBackBuffer`, false for `swapFrontBuffer`. */
  function Step<T>(s: Slots<T>, back: bool): Slots<T>
  {
    if back then AfterSwapBack(s) else AfterSwapFront(s)
  }

  function Run<T>(s: Slots<T>, swaps: seq<bool>): Slots<T>
    decreases |swaps|
  {
    if swaps == [] then s else Run(Step(s, swaps[0]), swaps[1..])
  }

  class TripleBuffer<T(==)> {
    var frontBuffer: T
    var backBuffer: T
    var spareBuffer: T
    var updateFrontBuffer: bool
    ghost const initial: multiset<T>

    function State(): Slots<T>
      reads this
    {
      Slots(frontBuffer, backBuffer, spareBuffer, updateFrontBuffer)
    }

    ghost predicate Valid()
      reads this
    {
      Buffers(State()) == initial
    }

    constructor (b0: T, b1: T, b2: T)
      ensures Valid() && initial == multiset{b0, b1, b2}
      ensures State() == Slots(b0, b1, b2, false)
    {
      frontBuffer, backBuffer, spareBuffer := b0, b1, b2;
      updateFrontBuffer := false;
      initial := multiset{b0, b1, b2};
    }

    method GetFrontBuffer() returns (r: T)
      ensures r == frontBuffer
    {
      r := frontBuffer;
    }

    method GetBackBuffer() returns (r: T)
      ensures r == backBuffer
    {
      r := backBuffer;
    }

    method SwapFrontBuffer() returns (r: T)
      requires Valid()
      modifies this
      ensures Valid() && State() == AfterSwapFront(old(State()))
      ensures r == frontBuffer
    {
      if updateFrontBuffer {
        r := spareBuffer;
        spareBuffer := frontBuffer;
        frontBuffer := r;
        updateFrontBuffer := false;
      } else {
        r := frontBuffer;
      }
    }

    method SwapBackBuffer() returns (r: T)
      requires Valid()
      modifies this
      ensures Valid() && State() == AfterSwapBack(old(State()))
      ensures r == backBuffer
    {
      r := spareBuffer;
      spareBuffer := backBuffer;
      backBuffer := r;
      updateFrontBuffer := true;
    }
  }
}

=== FILE: utils.dfy ===
/** `Utils.GetFileName` of the gallery UI. */
module Utils {

  /** `File.separatorChar` on Android. */
  const SEPARATOR: char := '/'

  /** `String.lastIndexOf(c)`: the last position of `c`, or -1. */
  function LastIndexOf(s: string, c: char): (r: int)
    ensures -1 <= r < |s|
    ensures r == -1 <==> c !in s
    ensures r >= 0 ==> s[r] == c && c !in s[r + 1..]
  {
    if s == [] then -1
    else if s[|s| - 1] == c then |s| - 1
    else
      var r := LastIndexOf(s[..|s| - 1], c);
      assert s[..|s| - 1] + [s[|s| - 1]] == s;
      if r >= 0 then
        assert s[r + 1..] == s[..|s| - 1][r + 1..] + [s[|s| - 1]];
        r
      else r
  }

  /** The part of a path after its last separator. */
  function GetFileName(name: string): (r: string)
  {
    name[LastIndexOf(name, SEPARATOR) + 1..]
  }

  /**
   * The file name is a suffix of the path with no separator in it, and what
   * precedes it is empty or ends with a separator.
   */
  lemma GetFileNameIsLastComponent(name: string)
    ensures var r := GetFileName(name);
            SEPARATOR !in r &&
            |r| <= |name| &&
            name == name[..|name| - |r|] + r &&
            (|r| < |name| ==> name[|name| - |r| - 1] == SEPARATOR)
  {
    var k := LastIndexOf(name, SEPARATOR);
    var r := name[k + 1..];
    assert r == GetFileName(name);
    assert SEPARATOR !in r;
    assert |name| - |r| == k + 1;
    assert name == name[..k + 1] + r;
    assert |r| < |name| ==> name[k] == SEPARATOR;
  }

  /** A name without separators is returned unchanged. */
  lemma GetFileNameOfPlainName(name: string)
    requires SEPARATOR !in name
    ensures GetFileName(name) == name
  {
  }

  lemma GetFileNameIdempotent(name: string)
    ensures GetFileName(GetFileName(name)) == GetFileName(name)
  {
    GetFileNameIsLastComponent(name);
    GetFileNameOfPlainName(GetFileName(name));
  }

  /** Whatever directory a plain name is put in, the file name is that name again. */
  lemma GetFileNameOfJoinedPath(dir: string, file: string)
    requires SEPARATOR !in file
    ensures GetFileName(dir + [SEPARATOR] + file) == file
  {
    var p := dir + [SEPARATOR] + file;
    var k := LastIndexOf(p, SEPARATOR);
    assert p[|dir|] == SEPARATOR;
    forall j | |dir| < j < |p|
      ensures p[j] != SEPARATOR
    {
      assert p[j] == file[j - |dir| - 1];
    }
    assert k == |dir|;
    assert p[|dir| + 1..] == file;
  }
}

=== FILE: wrappers.dfy ===
/** Failure-carrying result types shared by the whole model. */
module Wrappers {

  /** A value that may be absent; stands for a null pointer or a missing entry. */
  datatype Option<+T> = None | Some(value: T)

  /** Outcome of an operation that can fail with an error of type E. */
  datatype Result<+T, +E> = Ok(value: T) | Err(error: E)
}

=== FILE: yuv420.dfy ===
/**
 * The fixed-point YUV420p to RGB24 conversion of the Tegra platform
 * (external/FCam/Tegra/YUV420.cpp). The source image is one byte per
 * sample: `height` luma rows of `width` bytes, then the U and V planes,
 * addressed as further rows of `width` bytes. The destination is a packed
 * RGB24 buffer of `3 × width × height` bytes.
 */
module YUV420 {
  import opened Base
  import opened Bytes
  import opened CArith
  import Histograms

  /** `clamp(n, min, max)`. */
  function ClampTo(n: int, lo: int, hi: int): (r: int)
    ensures lo <= hi ==> lo <= r <= hi
    ensures lo <= n <= hi ==> r == n
  {
    if n < lo then lo else if n > hi then hi else n
  }

  /** `clamp(n)` with its default bounds: every result lies in [1, 255]. */
  function Clamp(n: int): (r: int)
    ensures 1 <= r <= 255
    ensures 1 <= n <= 255 ==> r == n
    ensures n < 1 ==> r == 1
    ensures n > 255 ==> r == 255
  {
    ClampTo(n, 1, 255)
  }

  /** The scaled luma term `(-1 + 149 y) / 2`, truncating. */
  function LumaTerm(y: int): int
  {
    CDiv(-1 + 149 * y, 2)
  }

  /**
   * Channel `c` (0 = R, 1 = G, 2 = B) of a pixel with luma `y` and chroma
   * `u`, `v`, from the fixed chroma terms `14216 - 102 v`,
   * `8696 - 25 u - 52 v` and `17672 - 129 u`.
   */
  function Channel(c: nat, y: int, u: int, v: int): (r: int)
    requires c < 3
    ensures 1 <= r <= 255
  {
    var yy := LumaTerm(y);
    if c == 0 then Clamp(CDiv(yy - (14216 - 102 * v), 64))
    else if c == 1 then Clamp(CDiv(yy + ((8696 - 25 * u) - 52 * v), 64))
    else Clamp(CDiv(yy - (17672 - 129 * u), 64))
  }

  /** Black and white map to the clamped extremes. */
  lemma ExtremesClamp()
    ensures Channel(0, 0, 128, 128) == 1 && Channel(1, 0, 128, 128) == 1 && Channel(2, 0, 128, 128) == 1
    ensures Channel(0, 255, 128, 128) == 255 && Channel(1, 255, 128, 128) == 255 && Channel(2, 255, 128, 128) == 255
  {
  }

  /** The luma sample of pixel (x, y). */
  function YIndex(w: nat, x: nat, y: nat): nat
  {
    y * w + x
  }

  /**
   * The U sample the loop reads for pixel (x, y), as written: row
   * `height + y/4` of the buffer, column `x/2`. The column offset `uvcol`
   * is computed from the region origin (0), not from the row.
   */
  function UIndex(w: nat, h: nat, x: nat, y: nat): nat
  {
    (h + y / 4) * w + x / 2
  }

  /** The V sample, as written: row `height + height/4 + y/4`, column `x/2`. */
  function VIndex(w: nat, h: nat, x: nat, y: nat): nat
  {
    (h + h / 4 + y / 4) * w + x / 2
  }

  /** A buffer of `width × allocateHeight` bytes, with even dimensions. */
  predicate SourceShape(src: seq<byte>, w: nat, h: nat)
  {
    w % 2 == 0 && h % 2 == 0 && |src| == w * AllocateRows(h)
  }

  /** `allocateHeight()` of a YUV420p image. */
  function AllocateRows(h: nat): nat { h + h / 2 }


  /** Every sample the loop reads for a pixel of the image lies inside the source buffer. */
  lemma SamplesInside(w: nat, h: nat, x: nat, y: nat)
    requires w % 2 == 0 && h % 2 == 0 && x < w && y < h
    ensures YIndex(w, x, y) < w * h
    ensures w * h <= UIndex(w, h, x, y) < w * AllocateRows(h)
    ensures w * h <= VIndex(w, h, x, y) < w * AllocateRows(h)
  {
    Histograms.CellInTable(y, x, h, w);
    assert h * w == w * h;
    var q := y / 4;
    assert q < h / 2 - h / 4 by {
      assert y <= h - 1;
    }
    Histograms.CellInTable(h + q, x / 2, AllocateRows(h), w);
    Histograms.CellInTable(h + h / 4 + q, x / 2, AllocateRows(h), w);
    Histograms.MulMono(h, h + q, w);
    Histograms.MulMono(h, h + h / 4 + q, w);
    assert AllocateRows(h) * w == w * AllocateRows(h);
  }

  /** The value the conversion stores in channel `c` of pixel (x, y). */
  function Expected(src: seq<byte>, w: nat, h: nat, x: nat, y: nat, c: nat): (r: int)
    requires SourceShape(src, w, h) && x < w && y < h && c < 3
    ensures 1 <= r <= 255
  {
    Channel(c, LumaSample(src, w, h, x, y), USample(src, w, h, x, y), VSample(src, w, h, x, y))
  }

  /** The luma byte of pixel (x, y). */
  function LumaSample(src: seq<byte>, w: nat, h: nat, x: nat, y: nat): byte
    requires SourceShape(src, w, h) && x < w && y < h
  {
    SamplesInside(w, h, x, y);
    src[YIndex(w, x, y)]
  }

  /** The U byte the conversion reads for pixel (x, y). */
  function USample(src: seq<byte>, w: nat, h: nat, x: nat, y: nat): byte
    requires SourceShape(src, w, h) && x < w && y < h
  {
    SamplesInside(w, h, x, y);
    src[UIndex(w, h, x, y)]
  }

  /** The V byte the conversion reads for pixel (x, y). */
  function VSample(src: seq<byte>, w: nat, h: nat, x: nat, y: nat): byte
    requires SourceShape(src, w, h) && x < w && y < h
  {
    SamplesInside(w, h, x, y);
    src[VIndex(w, h, x, y)]
  }

  /** The four pixels of each 2 × 2 luma block read the same U and V samples. */
  lemma BlockSharesChroma(w: nat, h: nat, x: nat, y: nat)
    requires x % 2 == 0 && y % 2 == 0
    ensures UIndex(w, h, x + 1, y) == UIndex(w, h, x, y) == UIndex(w, h, x, y + 1) == UIndex(w, h, x + 1, y + 1)
    ensures VIndex(w, h, x + 1, y) == VIndex(w, h, x, y) == VIndex(w, h, x, y + 1) == VIndex(w, h, x + 1, y + 1)
  {
  }

  /** Where channel `c` of pixel (x, y) lives in the packed RGB24 buffer. */
  function Pos(w: nat, x: nat, y: nat, c: nat): nat
  {
    (y * w + x) * 3 + c
  }

  /** The column of the pixel that byte `k` of the RGB24 buffer belongs to. */
  function PixelX(w: nat, k: nat): nat
  {
    if w == 0 then 0 else (k / 3) % w
  }

  /** The row of the pixel that byte `k` belongs to. */
  function PixelY(w: nat, k: nat): nat
  {
    if w == 0 then 0 else (k / 3) / w
  }

  /** The channel byte `k` holds. */
  function ChannelOf(k: nat): nat
  {
    k % 3
  }

  lemma PosInside(w: nat, h: nat, x: nat, y: nat, c: nat)
    requires x < w && y < h && c < 3
    ensures Pos(w, x, y, c) < 3 * w * h
  {
    Histograms.CellInTable(y, x, h, w);
    Histograms.CellInTable(y * w + x, c, h * w, 3);
    assert h * w * 3 == 3 * w * h;
  }

  /** Byte `k` is channel `ChannelOf(k)` of pixel (`PixelX`, `PixelY`), which lies in the image. */
  lemma Decompose(w: nat, h: nat, k: nat)
    requires k < 3 * w * h
    ensures PixelX(w, k) < w && PixelY(w, k) < h && ChannelOf(k) < 3
    ensures k == Pos(w, PixelX(w, k), PixelY(w, k), ChannelOf(k))
  {
    var p := k / 3;
    assert k == p * 3 + k % 3;
    assert 3 * w * h == 3 * (h * w);
    assert p < h * w;
    assert w >= 1;
    DivBelow(p, w, h);
    assert p == (p / w) * w + p % w;
  }

  /** Decomposing the position of a channel gives that channel back. */
  lemma PosDecomposes(w: nat, x: nat, y: nat, c: nat)
    requires x < w && c < 3
    ensures PixelX(w, Pos(w, x, y, c)) == x && PixelY(w, Pos(w, x, y, c)) == y
    ensures ChannelOf(Pos(w, x, y, c)) == c
  {
    var p := y * w + x;
    DivModUnique(Pos(w, x, y, c), p, c, 3);
    DivModUnique(p, y, x, w);
  }

  /** The three bytes of pixel (x, y) are exactly the bytes from `Pos(w, x, y, 0)` on. */
  lemma PixelBytes(w: nat, h: nat, x: nat, y: nat, k: nat)
    requires x < w && y < h && k < 3 * w * h
    ensures (PixelX(w, k) == x && PixelY(w, k) == y) <==> Pos(w, x, y, 0) <= k < Pos(w, x, y, 0) + 3
    ensures PixelX(w, k) == x && PixelY(w, k) == y ==> k == Pos(w, x, y, 0) + ChannelOf(k)
  {
    Decompose(w, h, k);
    var p := Pos(w, x, y, 0);
    if p <= k < p + 3 {
      PosDecomposes(w, x, y, k - p);
    }
  }

  /** The value the conversion stores in byte `k` of the RGB24 buffer. */
  function ExpectedAt(src: seq<byte>, w: nat, h: nat, k: nat): (r: int)
    requires SourceShape(src, w, h) && k < 3 * w * h
    ensures 1 <= r <= 255
    ensures PixelX(w, k) < w && PixelY(w, k) < h
  {
    Decompose(w, h, k);
    Expected(src, w, h, PixelX(w, k), PixelY(w, k), ChannelOf(k))
  }

  /** Every byte of pixel (x, y) is computed from that pixel's luma and chroma samples. */
  lemma ExpectedAtPixel(src: seq<byte>, w: nat, h: nat, k: nat, x: nat, y: nat)
    requires SourceShape(src, w, h) && k < 3 * w * h && PixelX(w, k) == x && PixelY(w, k) == y
    ensures x < w && y < h
    ensures ExpectedAt(src, w, h, k) ==
              Channel(ChannelOf(k), LumaSample(src, w, h, x, y), USample(src, w, h, x, y), VSample(src, w, h, x, y))
  {
    Decompose(w, h, k);
  }

  /** Writes the three channels of one pixel. */
  method WritePixel(dst: array<byte>, w: nat, h: nat, x: nat, y: nat, rgb: seq<byte>)
    requires dst.Length == 3 * w * h && x < w && y < h && |rgb| == 3
    modifies dst
    ensures forall k :: 0 <= k < dst.Length ==>
              dst[k] == if PixelX(w, k) == x && PixelY(w, k) == y then rgb[ChannelOf(k)] else old(dst[k])
  {
    PosInside(w, h, x, y, 2);
    var p := Pos(w, x, y, 0);
    dst[p] := rgb[0];
    dst[p + 1] := rgb[1];
    dst[p + 2] := rgb[2];
    forall k | 0 <= k < dst.Length
      ensures (PixelX(w, k) == x && PixelY(w, k) == y) <==> p <= k < p + 3
      ensures PixelX(w, k) == x && PixelY(w, k) == y ==> k == p + ChannelOf(k)
    {
      PixelBytes(w, h, x, y, k);
    }
  }

  /** Converts one pixel with the chroma samples `u`, `v` of its block. */
  method ConvertPixel(dst: array<byte>, src: seq<byte>, w: nat, h: nat, x: nat, y: nat, u: byte, v: byte)
    requires SourceShape(src, w, h) && dst.Length == 3 * w * h && x < w && y < h
    requires u == USample(src, w, h, x, y) && v == VSample(src, w, h, x, y)
    modifies dst
    ensures forall k :: 0 <= k < dst.Length ==>
              dst[k] == if PixelX(w, k) == x && PixelY(w, k) == y then ExpectedAt(src, w, h, k) else old(dst[k])
  {
    var luma := LumaSample(src, w, h, x, y);
    var rgb := seq(3, c requires 0 <= c < 3 => Channel(c, luma, u, v) as byte);
    WritePixel(dst, w, h, x, y, rgb);
    forall k | 0 <= k < dst.Length && PixelX(w, k) == x && PixelY(w, k) == y
      ensures dst[k] == ExpectedAt(src, w, h, k)
    {
      ExpectedAtPixel(src, w, h, k, x, y);
    }
  }

  /** Whether pixel (x, y) is one of the 2 × 2 block at (i, j). */
  predicate InBlock(x: nat, y: nat, i: nat, j: nat)
  {
    i <= x < i + 2 && j <= y < j + 2
  }

  /** Converts the 2 × 2 block whose top left pixel is (i, j), which shares one U and one V sample. */
  method ConvertBlock(dst: array<byte>, src: seq<byte>, w: nat, h: nat, i: nat, j: nat)
    requires SourceShape(src, w, h) && dst.Length == 3 * w * h
    requires i % 2 == 0 && j % 2 == 0 && i < w && j < h
    modifies dst
    ensures forall k :: 0 <= k < dst.Length ==>
              dst[k] == if InBlock(PixelX(w, k), PixelY(w, k), i, j) then ExpectedAt(src, w, h, k) else old(dst[k])
  {
    BlockSharesChroma(w, h, i, j);
    var u := USample(src, w, h, i, j);
    var v := VSample(src, w, h, i, j);
    ConvertPair(dst, src, w, h, i, j, u, v);
    ConvertPair(dst, src, w, h, i, j + 1, u, v);
  }

  /** Converts pixels (i, y) and (i + 1, y), which share the chroma samples `u`, `v`. */
  method ConvertPair(dst: array<byte>, src: seq<byte>, w: nat, h: nat, i: nat, y: nat, u: byte, v: byte)
    requires SourceShape(src, w, h) && dst.Length == 3 * w * h
    requires i % 2 == 0 && i < w && y < h
    requires u == USample(src, w, h, i, y) == USample(src, w, h, i + 1, y)
    requires v == VSample(src, w, h, i, y) == VSample(src, w, h, i + 1, y)
    modifies dst
    ensures forall k :: 0 <= k < dst.Length ==>
              dst[k] == if PixelY(w, k) == y && i <= PixelX(w, k) < i + 2 then ExpectedAt(src, w, h, k) else old(dst[k])
  {
    ConvertPixel(dst, src, w, h, i, y, u, v);
    ConvertPixel(dst, src, w, h, i + 1, y, u, v);
  }

  /** The pixels a conversion has finished once the block at column `i` of row pair `j` is next. */
  predicate Done(x: nat, y: nat, i: nat, j: nat)
  {
    y < j || (y < j + 2 && x < i)
  }

  /** `rgb` is the packed RGB24 conversion of the YUV420p image `src`, pixel by pixel. */
  predicate Converted(rgb: seq<byte>, src: seq<byte>, w: nat, h: nat)
    requires SourceShape(src, w, h)
  {
    |rgb| == 3 * w * h &&
    forall x, y, c :: 0 <= x < w && 0 <= y < h && 0 <= c < 3 ==>
      Pos(w, x, y, c) < |rgb| && rgb[Pos(w, x, y, c)] == Expected(src, w, h, x, y, c)
  }

  /** The compatibility check: equal sizes, a YUV420p source and an RGB24 destination. */
  predicate Compatible(dstSize: Size, dstFormat: ImageFormat, srcSize: Size, srcFormat: ImageFormat)
  {
    srcSize == dstSize && srcFormat == YUV420p && dstFormat == RGB24
  }

  /**
   * `convertYUV420ToRGB24(dst, im)`: false and nothing written for an
   * incompatible pair; otherwise every channel of every pixel receives its
   * converted value, and true.
   */
  method ConvertYUV420ToRGB24(dst: array<byte>, dstSize: Size, dstFormat: ImageFormat,
                              src: seq<byte>, srcSize: Size, srcFormat: ImageFormat) returns (ok: bool)
    requires Compatible(dstSize, dstFormat, srcSize, srcFormat) ==>
               srcSize.width >= 0 && srcSize.height >= 0 &&
               SourceShape(src, srcSize.width, srcSize.height) &&
               dst.Length == 3 * srcSize.width * srcSize.height
    modifies dst
    ensures ok <==> Compatible(dstSize, dstFormat, srcSize, srcFormat)
    ensures !ok ==> dst[..] == old(dst[..])
    ensures ok ==> Converted(dst[..], src, srcSize.width, srcSize.height)
  {
    if srcSize.width != dstSize.width || srcSize.height != dstSize.height ||
       srcFormat != YUV420p || dstFormat != RGB24 {
      return false;
    }
    var w: nat, h: nat := srcSize.width, srcSize.height;
    var j := 0;
    while j < h
      invariant 0 <= j <= h && j % 2 == 0
      invariant forall k :: 0 <= k < dst.Length ==>
                  dst[k] == if PixelY(w, k) < j then ExpectedAt(src, w, h, k) else old(dst[k])
    {
      var i := 0;
      while i < w
        invariant 0 <= i <= w && i % 2 == 0
        invariant forall k :: 0 <= k < dst.Length ==>
                    dst[k] == if Done(PixelX(w, k), PixelY(w, k), i, j) then ExpectedAt(src, w, h, k) else old(dst[k])
      {
        ConvertBlock(dst, src, w, h, i, j);
        i := i + 2;
      }
      j := j + 2;
    }
    forall x, y, c | 0 <= x < w && 0 <= y < h && 0 <= c < 3
      ensures Pos(w, x, y, c) < dst.Length && dst[Pos(w, x, y, c)] == Expected(src, w, h, x, y, c)
    {
      PosInside(w, h, x, y, c);
      PosDecomposes(w, x, y, c);
    }
    ok := true;
  }

  // -------------------------------------------------------------------
  // Chroma addressing
  // -------------------------------------------------------------------

  /**
   * As written, the luma rows 2 and 3 of every group of four read the same
   * chroma row as rows 0 and 1: the odd rows of the half-height U plane
   * are never used.
   */
  lemma ChromaRowReused(w: nat, h: nat, x: nat, y: nat)
    requires y % 4 == 2
    ensures UIndex(w, h, x, y) == UIndex(w, h, x, y - 2)
    ensures VIndex(w, h, x, y) == VIndex(w, h, x, y - 2)
  {
  }

  /**
   * The U sample of pixel (x, y) in a planar YUV420p buffer: the U plane
   * starts after the luma plane and holds `height/2` rows of `width/2`
   * samples, two of them per buffer row.
   */
  function UIndexFixed(w: nat, h: nat, x: nat, y: nat): (k: nat)
  {
    (h + y / 4) * w + (if y % 4 < 2 then 0 else w / 2) + x / 2
  }

  /** The fixed U address is the planar layout: chroma row `y/2`, column `x/2`. */
  lemma UIndexFixedIsPlanar(w: nat, h: nat, x: nat, y: nat)
    requires w % 2 == 0
    ensures UIndexFixed(w, h, x, y) == h * w + (y / 2) * (w / 2) + x / 2
  {
    var hw := w / 2;
    assert w == 2 * hw;
    var q := y / 4;
    assert y / 2 == 2 * q + (if y % 4 < 2 then 0 else 1);
    assert (y / 2) * hw == 2 * q * hw + (if y % 4 < 2 then 0 else hw);
    assert (h + q) * w == h * w + 2 * q * hw;
  }

  /** With the fixed address, block rows that differ read different chroma samples. */
  lemma UIndexFixedSeparatesRows(w: nat, h: nat, x: nat, y1: nat, y2: nat)
    requires w % 2 == 0 && x < w && y1 / 2 < y2 / 2
    ensures UIndexFixed(w, h, x, y1) < UIndexFixed(w, h, x, y2)
  {
    UIndexFixedIsPlanar(w, h, x, y1);
    UIndexFixedIsPlanar(w, h, x, y2);
    LaterRowFurther(h * w, y1 / 2, y2 / 2, w / 2, x / 2);
  }

  /** In a plane of rows `n` wide, any column of a later row lies further on. */
  lemma LaterRowFurther(base: nat, a: nat, b: nat, n: nat, c: nat)
    requires a < b && c < n
    ensures base + a * n + c < base + b * n + c
  {
    Histograms.MulMono(a + 1, b, n);
  }

  /** Where the V plane of a planar YUV420p buffer starts: after the luma plane and the quarter-size U plane. */
  function VPlaneStart(w: nat, h: nat): nat
  {
    h * w + (h / 2) * (w / 2)
  }

  /**
   * As written, the V plane is taken to start `height/4` full rows after
   * the luma plane. When `height % 4 == 2` that is half a row early, so
   * the first V samples read come from the end of the U plane; for a
   * 2 × 2 image the V sample read is the U sample itself.
   */
  lemma VPlaneStartsInsideU(w: nat, h: nat, x: nat)
    requires w % 2 == 0 && h % 4 == 2 && x < w
    ensures h * w <= VIndex(w, h, x, 0) < VPlaneStart(w, h)
    ensures VIndex(2, 2, 0, 0) == UIndex(2, 2, 0, 0)
  {
    var m := h / 4;
    var hw := w / 2;
    assert h / 2 == 2 * m + 1;
    assert (h + m) * w == h * w + 2 * m * hw;
    assert (h / 2) * hw == 2 * m * hw + hw;
  }

  /** The V sample of pixel (x, y) in a planar YUV420p buffer: chroma row `y/2`, column `x/2` of the V plane. */
  function VIndexFixed(w: nat, h: nat, x: nat, y: nat): (k: nat)
  {
    VPlaneStart(w, h) + (y / 2) * (w / 2) + x / 2
  }

  /**
   * With the fixed addresses every pixel of an even-sized image reads its U
   * sample inside the U plane and its V sample inside the V plane, both in
   * the `width × allocateHeight` buffer.
   */
  lemma FixedSamplesInPlanes(w: nat, h: nat, x: nat, y: nat)
    requires w % 2 == 0 && h % 2 == 0 && x < w && y < h
    ensures h * w <= UIndexFixed(w, h, x, y) < VPlaneStart(w, h)
    ensures VPlaneStart(w, h) <= VIndexFixed(w, h, x, y) < w * AllocateRows(h)
  {
    UIndexFixedIsPlanar(w, h, x, y);
    var hw := w / 2;
    Histograms.CellInTable(y / 2, x / 2, h / 2, hw);
    assert w * AllocateRows(h) == h * w + 2 * ((h / 2) * hw);
  }
}
